=== FILE: README.md ===
# layered-queue-driver in Dafny

A model of the two layers of the layered-queue-driver embedded signal
engine, with proofs of what each layer promises.

The runtime layer is C. It covers:

- **The engine.** This is `Engine`, with voting and range validation in
  `Util`. It ingests events, marks stale inputs, votes merged signals and
  schedules cyclic outputs by deadline.
- **The signal transforms.** These are `Scale`, `Remap`, `Pid`,
  `Verified` and `LimpHome`.
- **The I/O helpers.** These are the GPIO pattern generator
  (`GpioPattern`), SPI big-endian decoding (`SpiSource`) and BLDC
  commutation (`Bldc`).
- **The protocol codecs and state machines**:
  - the UDS server (ISO 14229-1) in `Uds`;
  - ISO-TP segmentation and reassembly (ISO 15765-2) in `IsoTp`;
  - the UDS-over-CAN glue in `UdsCan`;
  - the J1939 helpers and DM1 codec in `J1939`;
  - CANopen NMT, SYNC, LSS and PDOs in `CanOpen`;
  - the DTC manager in `Dtc`;
  - the dual-MCU event crosscheck in `Crosscheck`.
- **The containers.** These are the item queue (`Queue`), the hardware
  input ring (`HwInput`) and the configuration registry with its byte
  serializers (`Config`).

The build-time layer is Python. It covers:

- the CANopen EDS importer (`Eds`);
- the device-tree property parser and engine initializer generator
  (`DtsGen`);
- the per-platform backend emitters (`Adaptors`);
- the two HIL test generators (`HilTests` and `HilGen`);
- the requirement conflict checks (`Conflicts` and `Cycles`);
- the requirements-to-device-tree generator (`ReqGen`).

Every operation is a pure function over immutable data, or a short method
where the code loops:

- A C function's pointer arguments become a value in and a value out.
- Its integer widths are written out. `CInt` gives C's truncating
  division, the unsigned wrap of each width and int32 saturation.
- Python's dynamic values become small datatypes.
- Python's `str` built-ins, `sorted` and dictionary assignment are defined
  once, in `Text`, `Order` and `Dicts`.
- Clocks, GPIO writes, CAN and UART sends, and UDS callbacks are
  parameters of the operations or traces they return.

The model follows the code where its own comments disagree with it. Two
places:

- The scale serializer is 15 bytes long, not the 19 its comment says
  (src/drivers/lq_config.c:51).
- The verified output reports `LQ_EVENT_ERROR` on a mismatch, not the
  FAULT status its header comment promises
  (include/lq_verified_output.h:6, 58).

Two further facts about the code:

- The DM1 and DTC byte layouts are the ones src/lq_dtc.c and
  src/drivers/lq_j1939.c write, and the model states them as written.
- scripts/dts_gen.py reads each input's explicit `signal_id` property
  (line 233) and resolves no labels.

Where the code has a defect, both versions are modelled. The as-written
version exhibits the defect on a concrete input. The corrected version
carries the intended property (see "## Findings"). Where a loop or a
pipeline runs the defective step, it takes a selector too, so that both
versions of the loop exist: GpioPattern.ProcessWith, Pid.ProcessPidsWith,
LimpHome.ProcessLimpHomesWith, UdsCan.RecvFrameWith and
ReqGen.DetectConflictsWith. Lemmas such as Pid.LoopWindsUpAsWritten and
LimpHome.LoopRestore carry the defect and its correction through the
loop. The rest of the model builds on the corrected
versions.

## Model

| member | source | states |
|---|---|---|
| Util.ValidateRange | src/drivers/lq_util.c:12-29 | the status of the first range whose inclusive bounds hold the value; the default when no range holds it, including when there are no ranges |
| Util.ValidateValue | src/drivers/lq_util.c:31-48 | the status of the first exact match; the default when nothing matches or the list is empty |
| Util.SeqMin | src/drivers/lq_util.c:90-97 | the MIN loop's result is one of the inputs and no input is smaller |
| Util.SeqMax | src/drivers/lq_util.c:99-106 | the MAX loop's result is one of the inputs and no input is larger |
| Util.SumBounds | src/drivers/lq_util.c:81-88 | the 64-bit sum of n inputs lies between n times the least and n times the greatest, so the average fits in int32 |
| Util.Insert | src/drivers/lq_util.c:73-77 | inserting into a sorted copy keeps it sorted and adds exactly the one value (multiset) |
| Util.Sort | src/drivers/lq_util.c:73-77 | the qsort copy is sorted and a permutation of the inputs |
| Util.VoteValue | src/drivers/lq_util.c:71-111 | every voting method returns a value between the least and the greatest input |
| Util.MaxDeviation | src/drivers/lq_util.c:115-121 | the tolerance loop's maximum is non-negative, bounds every deviation and is attained by one input (or is the initial 0) |
| Util.Vote | src/drivers/lq_util.c:58-129 | -EINVAL exactly for no inputs; otherwise an int32 between the extremes with status OK or INCONSISTENT |
| Util.MedianIsInput | src/drivers/lq_util.c:72-79 | the median is the element at index n/2 of the sorted copy, hence one of the inputs |
| Util.MinMaxOther | src/drivers/lq_util.c:90-110 | MIN gives a lower bound and MAX an upper bound that are inputs; an unknown method gives the first input |
| Util.VoteStatusIff | src/drivers/lq_util.c:113-126 | when the inputs span at most INT32_MAX, the status is INCONSISTENT exactly when the tolerance is positive and some input lies farther than it from the result |
| Util.ExceedsIff | src/drivers/lq_util.c:115-123 | for a result between the extremes, the maximum deviation exceeds the tolerance exactly when some input does |
| Scale.Unclamped | src/drivers/lq_scale.c:45-58 | the value times the factor over 1000 plus the offset, computed in 64 bits with truncating division, saturated into int32 |
| Scale.ScaledValue | src/drivers/lq_scale.c:60-66 | an enabled maximum always bounds the result; an enabled minimum does unless it exceeds the maximum, when the maximum wins; a value already inside the clamps is left unchanged |
| Scale.ScaleMonotone | src/drivers/lq_scale.c:45-66 | with a non-negative factor a larger input never scales to a smaller output |
| Scale.ScaleOne | src/drivers/lq_scale.c:21-72 | a disabled or out-of-range entry changes nothing; an input in error passes its status to the output; an OK input writes the scaled value with status OK, the current time and the updated flag; no other slot changes |
| Scale.ScaleOutputs | src/drivers/lq_scale.c:24-35 | exactly the output slots of the enabled entries |
| Scale.ProcessScales | src/drivers/lq_scale.c:11-74 | a NULL array writes nothing; otherwise only the enabled entries' output slots change |
| Scale.ScaleAll | src/drivers/lq_scale.c:21-73 | running the entries in array order keeps the table well formed and writes only output slots |
| Remap.RemapValue | src/lq_remap.c:45-57 | 0 inside the closed deadzone of a positive width, otherwise the input, negated when inverting; negating INT32_MIN gives INT32_MIN as in two's complement |
| Remap.InvertNegates | src/lq_remap.c:47-57 | the inverted remap is the negation of the plain one, and a result inside the deadzone is 0 |
| Remap.RemapOne | src/lq_remap.c:21-64 | a disabled or out-of-range entry changes nothing; an input in error passes its status on; an OK input writes the remapped value, status OK, the time and the updated flag; no other slot changes |
| Remap.RemapOutputs | src/lq_remap.c:24-35 | exactly the output slots of the enabled entries |
| Remap.ProcessRemaps | src/lq_remap.c:11-65 | a NULL array writes nothing; otherwise only the enabled entries' output slots change |
| Remap.RemapAll | src/lq_remap.c:21-64 | running the entries in order keeps the table well formed and writes only output slots |
| Signals.Store | src/lq_remap.c:34-35 | writing one slot keeps the table valid and leaves every other slot as it was |
| Signals.Written | src/lq_remap.c:60-63 | a computed output carries the value, status OK, the current time and the updated flag, and keeps its staleness setting |
| Signals.Propagated | src/lq_remap.c:38-42 | an input's error status is copied with the current time and the updated flag; value and staleness setting stay |
| Engine.ClearUpdated | src/lq_engine.c:29-31 | from the given slot on, every slot keeps its fields but loses its updated flag; earlier slots are untouched |
| Engine.Init | src/lq_engine.c:19-34 | -EINVAL exactly for a NULL engine; otherwise 0, the output buffer empty, every updated flag cleared and the configuration kept |
| Engine.LastFor | src/lq_engine.c:45-60 | the index of the last event addressed to a slot, or -1 when none is |
| Engine.Ingest | src/lq_engine.c:40-61 | each slot holds the value, status and timestamp of the last event addressed to it and is updated exactly when that event changed the value; events past the table are skipped; other slots are untouched |
| Engine.IngestStep | src/lq_engine.c:45-60 | one more event keeps the last-event-wins description of the table |
| Engine.IngestValid | src/lq_engine.c:40-61 | ingesting well-formed events keeps the signal table well formed |
| Engine.StaleFrom | src/lq_engine.c:71-85 | the loop from one slot marks exactly the stale slots in its range TIMEOUT and updated, and nothing else |
| Engine.ApplyStaleness | src/lq_engine.c:67-86 | a slot below num_signals becomes TIMEOUT and updated exactly when its uint64 age exceeds a nonzero staleness bound; nothing else changes |
| Engine.StalenessIff | src/lq_engine.c:74-84 | a slot not already TIMEOUT turns TIMEOUT exactly when it is checked, has a bound and has aged past it; a slot with no bound is left alone |
| Engine.CollectInputs | src/lq_engine.c:103-119 | at most as many values as inputs, each an int32 |
| Engine.CollectedValues | src/lq_engine.c:107-119 | the collected values are exactly those of the inputs that are slots below num_signals with status OK |
| Engine.Spread | src/lq_engine.c:147-155 | the spread of the inputs and the result is reduced to uint32 |
| Engine.MergeOne | src/lq_engine.c:96-167 | a disabled merge changes nothing; with no valid input only the output status becomes ERROR; otherwise the output gets the voted value, OK or INCONSISTENT, the time, and updated exactly when the value changed; no other slot changes |
| Engine.MergeVoted | src/lq_engine.c:128-166 | the output value lies between the least and greatest valid input, its status is OK or INCONSISTENT, it is stamped with the time and updated exactly when it changed |
| Engine.MergeInconsistentIff | src/lq_engine.c:131-159 | with several valid inputs the status is INCONSISTENT exactly when the vote found an input beyond the tolerance or the uint32 spread exceeds a positive tolerance |
| Engine.VotedStatus | src/lq_engine.c:134-159 | the same if-and-only-if for the voted branch |
| Engine.MergeOutputs | src/lq_engine.c:96-101 | the output slots of the enabled merges |
| Engine.ProcessMerges | src/lq_engine.c:92-168 | merges run in array order, keep the table well formed and write only enabled merges' outputs |
| Engine.ProcessOutputs | src/lq_engine.c:174-179 | the on-change phase leaves the engine unchanged |
| Engine.CyclicProcess | include/lq_engine.h:458-480 | when enabled, due and the buffer has room, exactly one event built from the context and its source signal's value and stamped now is appended and the deadline moves on by one period in uint64; otherwise nothing changes |
| Engine.CyclicOncePerDeadline | include/lq_engine.h:463-479 | after an emission with a nonzero period and no overflow, a second call at the same time emits nothing |
| Engine.ProcessCyclics | src/lq_engine.c:185-193 | every context in order; the buffer only grows at its end, by at most one event per context, within capacity; periods and sources are kept |
| Engine.Step | src/lq_engine.c:199-218 | a NULL engine is left alone; otherwise the buffer is emptied, the five phases run in order, the configuration is kept and at most one event per cyclic context is emitted |
| Engine.StepEventsStamped | src/lq_engine.c:209-217 | every event a step emits carries the step's time |
| Engine.CyclicEventsAt | src/lq_engine.c:185-193 | every event the cyclic phase appends carries the call time |
| Engine.SetSignal | include/lq_engine.h:416-425 | an id past the table is ignored; otherwise the slot gets the value, status OK, updated and the time, and nothing else changes |
| Engine.GetSignal | include/lq_engine.h:436-442 | the slot's value, or 0 for an id past the table |
| Engine.SetGet | include/lq_engine.h:416-442 | a written slot reads back the written value and any other slot reads as before |
| Protocol.FirstMap | src/drivers/lq_j1939.c:53-60 | the index of the first decode map with the protocol id, no earlier map having it; nothing exactly when no map has it |
| Protocol.FindSignal | src/drivers/lq_j1939.c:199-206 | the index of the first cached signal with the id; nothing exactly when none has it |
| Protocol.Upsert | src/drivers/lq_j1939.c:189-216 | a cached id is overwritten in place; a new id is appended while there is room and otherwise dropped; ids stay unique, the capacity holds, and every other id reads as before |
| Protocol.FindAfterWrite | src/drivers/lq_j1939.c:201-204 | overwriting an entry in place moves no lookup |
| Protocol.FindAfterAppend | src/drivers/lq_j1939.c:209-214 | an appended new id is found at the end and no other lookup moves |
| Ring.Next | src/drivers/lq_queue_core.c:120 | advancing an index stays below the capacity |
| Ring.NextIsMod | src/drivers/lq_queue_core.c:120 | the wrap-around step is the code's (i + 1) % capacity |
| Ring.Pos | src/drivers/lq_queue_core.c:98 | the slot k places after the read index stays in the ring |
| Ring.PosIsMod | src/drivers/lq_queue_core.c:98 | that slot is (read + k) % capacity |
| Queue.Contents | src/drivers/lq_queue_core.c:159-161 | the queued items oldest first: count items from the read index on, around the ring |
| Queue.Init | src/drivers/lq_queue_core.c:12-60 | capacity 0 is refused; otherwise an empty queue with the capacity and policy, zeroed statistics and sequence 0, valid and holding nothing |
| Queue.Insert | src/drivers/lq_queue_core.c:116-131 | the insert keeps the queue's shape |
| Queue.DropFront | src/drivers/lq_queue_core.c:96-101 | dropping the oldest keeps the queue's shape |
| Queue.PushWith | src/drivers/lq_queue_core.c:73-135 | the return is 0, -ENOMEM or -EAGAIN; -ENOMEM exactly for a full DROP_NEWEST queue; -EAGAIN exactly when a blocking writer must take from an empty sem_write, and then nothing changes |
| Queue.PushAsWritten | src/drivers/lq_queue_core.c:89-114 | as written, a blocking writer is refused only when the queue is full and sem_write is empty |
| Queue.Push | src/drivers/lq_queue_core.c:73-135 | with sem_write counting free slots, a valid blocking queue refuses exactly when full and DROP_NEWEST returns -ENOMEM exactly when full |
| Queue.Pop | src/drivers/lq_queue_core.c:137-172 | -EAGAIN exactly when sem_read is zero, changing nothing; otherwise the item at the read index with the read statistic bumped |
| Queue.Peek | src/drivers/lq_queue_core.c:174-201 | -ENODATA exactly on an empty queue; otherwise 0 and an item |
| Queue.GetStats | src/drivers/lq_queue_core.c:203-222 | the stored statistics with the current count filled in, which is at most the peak, itself at most the capacity |
| Queue.Count | src/drivers/lq_queue_core.c:224-231 | the number of queued items as uint32 |
| Queue.InsertAppends | src/drivers/lq_queue_core.c:116-131 | an insert into a queue with room appends the stamped, numbered item to the contents |
| Queue.DropFrontTail | src/drivers/lq_queue_core.c:96-101 | dropping from a full queue removes the oldest item from the contents |
| Queue.PushContents | src/drivers/lq_queue_core.c:89-135 | a queue with room gets the stamped item at the back; a full DROP_OLDEST queue loses its oldest first; a full DROP_NEWEST or blocking queue keeps its items and refuses |
| Queue.PopContents | src/drivers/lq_queue_core.c:148-171 | an empty queue answers -EAGAIN unchanged; otherwise the oldest item comes out and the rest stay in order |
| Queue.PeekNewest | src/drivers/lq_queue_core.c:194-197 | peek returns the newest item, the slot before the write index, and leaves the queue alone |
| Queue.PushThenPeek | src/drivers/lq_queue_core.c:116-197 | after a successful push, peek shows the pushed item with its timestamp and sequence number |
| Queue.InitNumbered | src/drivers/lq_queue_core.c:29-35 | a fresh queue is validly and consecutively numbered |
| Queue.PushNumbered | src/drivers/lq_queue_core.c:119 | every insert takes the next uint32 sequence number, so the queued items stay consecutively numbered |
| Queue.NumberedAfter | src/drivers/lq_queue_core.c:117-121 | the numbering step from what a push does to the items and the counter |
| Queue.ConsecutiveTail | src/drivers/lq_queue_core.c:96-100 | dropping the oldest keeps the numbering consecutive |
| Queue.ConsecutiveSnoc | src/drivers/lq_queue_core.c:119 | an item numbered one past the last extends the numbering |
| Queue.PopNumbered | src/drivers/lq_queue_core.c:159-163 | a pop keeps the remaining items consecutively numbered |
| Queue.BlockOverfills | src/drivers/lq_queue_core.c:103-113 | as written, a blocking push onto a full one-slot queue still finds sem_write non-zero, overwrites the unread item and leaves count above capacity |
| Queue.BlockRefusesWhenFull | src/drivers/lq_queue_core.c:102-108 | with a slot taken per insert, a blocking push onto a full queue returns -EAGAIN and changes nothing |
| HwInput.Contents | src/drivers/lq_hw_input.c:62-65 | the waiting samples oldest first, from the read index around the 128-slot ring |
| HwInput.Init | src/drivers/lq_hw_input.c:28-37 | whatever size is asked for, indices and count return to zero and the ring holds nothing |
| HwInput.TimestampWith | src/drivers/lq_hw_input.c:47 | the capture time fits 64 bits; computed wide it is the uptime times 1000; as written it is a 32-bit value equal to the product while the product fits |
| HwInput.PushWith | src/drivers/lq_hw_input.c:39-54 | a full ring drops the push unchanged; otherwise one more sample waits and the read index stays |
| HwInput.PushAsWritten | src/drivers/lq_hw_input.c:43-47 | as written, the sample stored carries the 32-bit wrapped product as its time |
| HwInput.Push | src/drivers/lq_hw_input.c:43-50 | the sample stored carries source, value and the uptime in microseconds |
| HwInput.Pop | src/drivers/lq_hw_input.c:56-72 | -1 exactly when no sample waits, and then nothing changes; otherwise 0, the sample at the read index, and one fewer waiting |
| HwInput.Pending | src/drivers/lq_hw_input.c:74-83 | the number of waiting samples, at most 128 |
| HwInput.PushContents | src/drivers/lq_hw_input.c:39-54 | a push appends the sample while fewer than 128 wait and changes nothing once 128 wait |
| HwInput.PopContents | src/drivers/lq_hw_input.c:56-72 | a pop takes the oldest sample and keeps the rest in order; -1 exactly when none waits |
| HwInput.Samples | src/drivers/lq_hw_input.c:44-47 | one sample per reading |
| HwInput.PushAll | src/drivers/lq_hw_input.c:39-54 | a burst of pushes keeps the ring's shape |
| HwInput.PushAllKeepsFirst | src/drivers/lq_hw_input.c:43-51 | a burst keeps what waited plus the burst's first readings, up to 128 in all, in order; the rest are lost |
| HwInput.KeepFirstStep | src/drivers/lq_hw_input.c:43-51 | one push inside a burst leaves the kept prefix the same |
| HwInput.TimestampMonotone | src/drivers/lq_hw_input.c:47 | with the 64-bit product, a later sample never carries an earlier time |
| HwInput.TimestampWrapsBack | src/drivers/lq_hw_input.c:47 | as written, the push at 4294968 ms carries 704 µs, earlier than the push a millisecond before |
| GpioPattern.Init | src/drivers/lq_gpio_pattern.c:12-35 | a new pattern runs at 50% duty (half the period, rounded down), has no control signal, is enabled, not inverted, and has not run yet |
| GpioPattern.SetDutyAsWritten | src/drivers/lq_gpio_pattern.c:37-46 | as written only the on time changes, a duty above 100 is ignored, and the on time is the percentage only while the 32-bit product fits |
| GpioPattern.SetDuty | src/drivers/lq_gpio_pattern.c:37-46 | only the on time changes; a duty above 100 is ignored; otherwise the on time is that percentage of the period rounded down, the whole period at 100 |
| GpioPattern.SetDutyOverflows | src/drivers/lq_gpio_pattern.c:45 | as written, a 60 s period at 100% gives an on time of 17,050,327 µs instead of 60,000,000 µs |
| GpioPattern.SetCustom | src/drivers/lq_gpio_pattern.c:48-61 | a length of 1 to 32 installs the pattern and restarts at bit 0; any other length leaves the pattern alone |
| GpioPattern.EnableWith | src/drivers/lq_gpio_pattern.c:63-78 | enabling only sets the flag; disabling drives the pin to its inactive level, high when inverted, and nothing else changes |
| GpioPattern.EnableAsWritten | src/drivers/lq_gpio_pattern.c:74-77 | as written, a disable writes the inactive level but records the pin as low |
| GpioPattern.Enable | src/drivers/lq_gpio_pattern.c:63-78 | the recorded level is always the pin's level, and after a disable the pin holds its inactive level |
| GpioPattern.AdvanceIndex | src/drivers/lq_gpio_pattern.c:182-187 | the custom index stays inside the pattern after any number of period wraps |
| GpioPattern.AdvanceMod | src/drivers/lq_gpio_pattern.c:181-187 | starting inside the pattern, n wraps move the index n places round it |
| GpioPattern.AdvanceCompose | src/drivers/lq_gpio_pattern.c:178-188 | m wraps then n wraps move the index as m + n wraps |
| GpioPattern.Wrapped | src/drivers/lq_gpio_pattern.c:177-189 | after the wrap-around the phase is inside the period and no later than before, and a custom index stays inside the pattern |
| GpioPattern.WrapPhase | src/drivers/lq_gpio_pattern.c:176-189 | the wrap-around loop ends with the phase and index of the closed form |
| GpioPattern.Advanced | src/drivers/lq_gpio_pattern.c:171-174 | the new phase is a 32-bit value, and equals the old phase plus the elapsed time while that fits |
| GpioPattern.StepWith | src/drivers/lq_gpio_pattern.c:120-203 | a turn writes the pin at most once and touches only timing, index and level; a disabled pattern or an out-of-range control signal is untouched; a pattern held by a zero signal keeps its timing and ends at its inactive level |
| GpioPattern.StepAsWritten | src/drivers/lq_gpio_pattern.c:141-146 | as written, a pattern held by a zero signal writes its pin exactly when it recorded it as high, and then records it low |
| GpioPattern.Step | src/drivers/lq_gpio_pattern.c:120-203 | the recorded level is always the pin's; a held pattern leaves its pin inactive; a running pattern leaves its pin at the inverted-as-needed computed state for the new phase |
| GpioPattern.Tagged | src/drivers/lq_gpio_pattern.c:166 | each write of a context goes to that context's pin, in order |
| GpioPattern.ProcessWith | src/drivers/lq_gpio_pattern.c:110-205 | each context takes its own turn in order, and every write goes to the pin of one of them |
| GpioPattern.ProcessAsWritten | src/drivers/lq_gpio_pattern.c:110-205 | the contexts after the run are the as-written turns of each |
| GpioPattern.Process | src/drivers/lq_gpio_pattern.c:110-205 | the contexts after the run are the corrected turns of each |
| GpioPattern.InvertedStaticStuck | src/drivers/lq_gpio_pattern.c:74-77 | as written, an inverted STATIC pattern that is disabled and enabled again never drives its pin active again |
| GpioPattern.ResumeDrivesOutput | src/drivers/lq_gpio_pattern.c:63-78 | with the recorded level kept equal to the pin's, the same sequence drives the pin active on the first turn after re-enabling |
| GpioPattern.HighTimeIsOnTime | src/drivers/lq_gpio_pattern.c:92-96 | a BLINK or PWM pattern is high for its on time out of each period, or the whole window if shorter |
| GpioPattern.DutyCycle | src/drivers/lq_gpio_pattern.c:37-46 | after set_duty a PWM period is high for duty percent of it, rounded down |
| GpioPattern.BitsWord | src/drivers/lq_gpio_pattern.c:102 | the pattern bits, taken one by one and read back as binary digits, give the pattern modulo 2^n |
| GpioPattern.ReplayBits | src/drivers/lq_gpio_pattern.c:98-103 | played back from bit 0, a custom pattern shows its bits in order, least significant first |
| GpioPattern.CustomReplay | src/drivers/lq_gpio_pattern.c:48-61 | over one round of periods, a custom pattern plays back exactly the bits set_custom gave it |
| GpioPattern.WrappedTwice | src/drivers/lq_gpio_pattern.c:177-189 | wrapping after a and then after b more gives the phase and index of wrapping after a + b |
| GpioPattern.SamplingInvariant | src/drivers/lq_gpio_pattern.c:171-192 | two turns at mid and now reach the same pattern state as one turn at now: the waveform does not depend on how often the driver runs |
| GpioPattern.RunningTurn | src/drivers/lq_gpio_pattern.c:171-203 | a running pattern's turn takes the closed-form phase and index and writes the level they select |
| SpiSource.BeUnsigned | src/lq_spi_source.c:22-25 | the big-endian value of n bytes lies below 2^(8n) |
| SpiSource.Signed | src/lq_spi_source.c:27-35 | the two's-complement reading of n bytes is an 8n-bit signed value congruent to their unsigned value |
| SpiSource.SignedBytes | src/lq_spi_source.c:22-35 | the sender's side: n bytes for a value |
| SpiSource.SignedBytesValue | src/lq_spi_source.c:22-35 | the bytes of a value read back as its residue modulo 2^(8n) |
| SpiSource.BeUnsignedInjective | src/lq_spi_source.c:22-25 | equal-length byte strings with the same big-endian value are equal |
| SpiSource.ValueRoundTrip | src/lq_spi_source.c:22-35 | a reading in the n-byte signed range, sent as n bytes, is read back unchanged |
| SpiSource.BytesRoundTrip | src/lq_spi_source.c:22-35 | the bytes of a decoded reading are the bytes received |
| SpiSource.Process | src/lq_spi_source.c:11-46 | -EINVAL exactly for missing data or configuration or an empty transfer, with no reading; otherwise 0, the sign-extended big-endian value of the first four bytes at most, and its status from the expected values |
| SpiSource.ReadBigEndian | src/lq_spi_source.c:22-25 | under four bytes the loop gives their big-endian value; at four or more it gives the 32-bit wrap of the first four |
| SpiSource.ExtendSign | src/lq_spi_source.c:27-35 | the sign-extension step gives the two's-complement reading of a narrower transfer |
| SpiSource.AppendByte | src/lq_spi_source.c:24 | each byte shifts the value up eight bits, staying in int32 for the first three |
| SpiSource.SignExtended | src/lq_spi_source.c:28-34 | below four bytes the reading is the value with its top bit extended, within int32 |
| SpiSource.FullWidth | src/lq_spi_source.c:23-25 | four bytes shifted into an int32 are the four-byte signed value |
| SpiSource.SignBit | src/lq_spi_source.c:30 | the sign-bit test is set exactly from 2^(8n-1) up |
| Verified.IsVerified | src/lq_verified_output.c:9-16 | when the difference fits int32, verified exactly when the absolute difference is within the tolerance, bounds included |
| Verified.Decide | src/lq_verified_output.c:41-72 | the last command is recorded; a changed command restarts the timestamp and waits only when a timeout is set; continuous mode verifies whenever not waiting or once the wait ends; one-shot mode only when the wait ends |
| Verified.VerifyOutput | src/lq_verified_output.c:75-82 | a verify step shows the feedback value, marked updated, with status OK exactly when verified and ERROR otherwise |
| Verified.VerifiedOne | src/lq_verified_output.c:21-90 | only the output signal is written; a disabled context or an index beyond the engine's signals changes nothing; otherwise the output shows the feedback when verifying and the command, OK and not updated, while pending |
| Verified.OneShotOnce | src/lq_verified_output.c:63-72 | one-shot mode verifies at most once per command |
| Verified.ContinuousKeepsVerifying | src/lq_verified_output.c:51-62 | continuous mode, once past the wait, verifies on every call with the same command |
| Verified.ProcessVerified | src/lq_verified_output.c:92-101 | the contexts run in array order, and a signal that is no context's output is untouched |
| LimpHome.Degraded | src/lq_limp_home.c:48-59 | each override that is not INT32_MIN replaces its field and sets the clamp's flag; every other field of the scale is kept |
| LimpHome.LimpOneAsWritten | src/lq_limp_home.c:16-85 | as written: a disabled controller or out-of-range scale or signal changes nothing; entering limp mode saves the scale once, with one flag for both clamps, and applies the overrides; the restore writes the saved values back only after the delay; no other scale changes |
| LimpHome.LimpOne | src/lq_limp_home.c:16-85 | the same transition with both clamp flags saved and restored separately; the engine's scales stay valid |
| LimpHome.RestoreRoundTrip | src/lq_limp_home.c:40-79 | a fault followed by a clear past the restore delay gives back exactly the original scale table |
| LimpHome.SingleClampRestoredAsBoth | src/lq_limp_home.c:75-76 | as written, a scale with only a minimum clamp comes back from limp mode with its maximum clamp enabled too |
| LimpHome.Targets | src/lq_limp_home.c:25-29 | exactly the scale entries targeted by some enabled controller |
| LimpHome.LimpOneWith | src/lq_limp_home.c:16-85 | one controller's turn, as written or corrected: it keeps its configuration, the engine's scales stay valid, a disabled controller changes no scale, and no scale other than its target changes |
| LimpHome.ProcessLimpHomesWith | src/lq_limp_home.c:87-94 | the controllers run in order on one clock reading, with either restore; each keeps its configuration, and only scale entries some enabled controller targets can change |
| LimpHome.ProcessLimpHomesAsWritten | src/lq_limp_home.c:87-94 | the loop as written, with one saved flag restoring both clamps, keeps the scales valid and writes only targeted entries |
| LimpHome.ProcessLimpHomes | src/lq_limp_home.c:87-94 | the loop with each clamp flag restored separately: each controller keeps its configuration, and only targeted entries change |
| LimpHome.LoopRestore | src/lq_limp_home.c:40-94 | through the loop, a fault then a clear past the delay gives back a min-only scale with its maximum clamp enabled as written, and the original scale table when corrected |
| Pid.Clamp | src/lq_pid.c:10-15 | the result lies within [min, max] when that range is non-empty, equals an in-range value, and is min below the range and max above it |
| Pid.AntiWindup | src/lq_pid.c:87-91 | the integral lies within its limits when they are ordered, is kept when inside them, and is pinned at max above and min below |
| Pid.IntegralStepAsWritten | src/lq_pid.c:84 | as compiled, the update stays in int64 and agrees with the signed update for a non-negative error when nothing overflows |
| Pid.IntegralStep | src/lq_pid.c:84 | the intended signed update stays in int64 |
| Pid.IntegralFollowsError | src/lq_pid.c:84 | without overflow, the intended update never moves the integral against the error and moves it by at most the error's magnitude times dt/10^6 |
| Pid.NegativeErrorWindsUp | src/lq_pid.c:84-91 | as written, an error of -1000 over one second from 0 adds 18446744072709, which anti-windup pins at the maximum; the intended update gives -1000, pinned at the minimum |
| Pid.DerivativeAsWritten | src/lq_pid.c:103 | as compiled, the term stays in int64 and is 0 when the uint64 divisor wraps to 0 |
| Pid.Derivative | src/lq_pid.c:103 | the intended signed term stays in int64 and is 0 when the divisor wraps to 0 |
| Pid.DerivativeSign | src/lq_pid.c:97-104 | for a positive gain and no overflow, the intended derivative term has the sign of the error change |
| Pid.FallingErrorKicksAsWritten | src/lq_pid.c:103 | as written, a unit fall in error over one millisecond with gain 1000 gives a positive derivative term; the intended one gives -1000 |
| Pid.AfterSetpointCheck | src/lq_pid.c:50-54 | with reset-on-change and a new setpoint, the integral restarts at 0 and the setpoint is remembered; otherwise nothing changes |
| Pid.NextIntegralWith | src/lq_pid.c:74-95 | with ki 0 or the error inside the deadband the integral is kept; otherwise it ends within its limits |
| Pid.Dt | src/lq_pid.c:59-68 | the time step is a uint64, the fixed sample time when one is set |
| Pid.Compute | src/lq_pid.c:70-120 | only the output signal is written, clamped to the output limits when they are ordered; the integral is the updated one and the error and time are remembered |
| Pid.PidOneWith | src/lq_pid.c:20-121 | only the output slot changes; an unwired controller changes nothing; the first run only records state; a zero variable time step changes nothing |
| Pid.PidIntegralFollowsError | src/lq_pid.c:74-95 | a computing step of the intended controller never moves an in-range integral against the error, while error·dt and the sum stay in int64 |
| Pid.PidOneComputes | src/lq_pid.c:50-121 | a wired, started controller with a non-zero time step runs the computing part on the checked context |
| Pid.NextIntegralFollowsError | src/lq_pid.c:84-91 | the intended update with anti-windup keeps an in-range integral moving with the error |
| Pid.OutputWindsUpAsWritten | src/lq_pid.c:84-94 | as written, a controller with setpoint 0 and measurement 1000 over a one-second sample winds its integral up to +500 |
| Pid.PidOutputs | src/lq_pid.c:30-38 | exactly the output slots of the enabled controllers |
| Pid.ProcessPidsWith | src/lq_pid.c:123-132 | the controllers run in array order with the updates as written or intended; each keeps its configuration, and only enabled controllers' output slots change |
| Pid.ProcessPidsAsWritten | src/lq_pid.c:123-132 | the loop as written, with the uint64 integral and derivative steps, writes only enabled controllers' output slots |
| Pid.ProcessPids | src/lq_pid.c:123-132 | the loop with the signed steps: each controller keeps its configuration, and only enabled controllers' output slots change |
| Pid.LoopWindsUpAsWritten | src/lq_pid.c:84-132 | through the loop, a setpoint of 0 against a measurement of 1000 over one second drives the output to +500 as written and to -500 as intended |
| Crosscheck.CrcCheckValue | src/lq_event_crosscheck.c:11-28 | the CRC-16/CCITT-FALSE register (polynomial 0x1021, start 0xFFFF) over "123456789" gives the catalogued check value 0x29B1 |
| Crosscheck.CrcAppend | src/lq_event_crosscheck.c:11-28 | the register runs over a concatenation in two legs |
| Crosscheck.Encode | src/lq_event_crosscheck.c:153-198 | a packet is 16 bytes with the start magic, sequence and end magic at offsets 0, 1 and 14 |
| Crosscheck.Decode | src/lq_event_crosscheck.c:226-227 | any 16 bytes cast to the packet give a well-formed packet |
| Crosscheck.DecodeEncode | src/lq_event_crosscheck.c:226-227 | reading a packet's bytes gives the packet back |
| Crosscheck.EncodeDecode | src/lq_event_crosscheck.c:226-227 | writing out a received packet gives its bytes back |
| Crosscheck.Int32Field | src/lq_event_crosscheck.c:226-227 | an int32 field stored as four little-endian bytes reads back as itself |
| Crosscheck.PacketCrc | src/lq_event_crosscheck.c:31-36 | the CRC over the twelve bytes before the CRC field is a 16-bit value |
| Crosscheck.CrcIgnoresField | src/lq_event_crosscheck.c:31-36 | the CRC span does not include the CRC field |
| Crosscheck.Waiting | src/lq_event_crosscheck.c:50-79 | the pending FIFO oldest first, from the head around 16 slots |
| Crosscheck.TriggerFailSafe | src/lq_event_crosscheck.c:39-47 | the state becomes FAIL_SAFE, and the fail pin is raised only if it was not already there |
| Crosscheck.Init | src/lq_event_crosscheck.c:128-151 | a fresh context: configuration stored, enabled, state OK, sequences and counters 0, nothing pending, fail pin driven low |
| Crosscheck.Enqueue | src/lq_event_crosscheck.c:50-69 | -1 exactly when the FIFO is full, otherwise 0 |
| Crosscheck.EnqueueAppends | src/lq_event_crosscheck.c:50-69 | an entry with room is appended to the pending ones, stamped and waiting |
| Crosscheck.DequeueDrops | src/lq_event_crosscheck.c:72-79 | dequeuing removes the oldest pending entry |
| Crosscheck.BuildPacket | src/lq_event_crosscheck.c:163-178 | the packet carries both magics, the transmit sequence, and the event's type, flags, target and value cut to their field widths |
| Crosscheck.BuiltPacketCrcOk | src/lq_event_crosscheck.c:163-178 | a built packet passes the receiver's CRC check |
| Crosscheck.SendEvent | src/lq_event_crosscheck.c:153-198 | refused with -1 when disabled or in FAIL_SAFE; otherwise the encoded packet goes to the UART and a UART error is returned unchanged; a success bumps the sequence and the sent counter |
| Crosscheck.SendQueues | src/lq_event_crosscheck.c:180-197 | a send that goes through queues the packet behind those waiting, stamped; a full FIFO instead drives FAIL_SAFE and raises the fail pin |
| Crosscheck.Verify | src/lq_event_crosscheck.c:82-112 | an echo with nothing pending or differing from the oldest pending packet is fail-safe with the pin raised; a matching echo sets OK and counts one verified |
| Crosscheck.VerifyRetires | src/lq_event_crosscheck.c:82-112 | a matching echo retires exactly the oldest pending entry; anything else leaves the FIFO alone |
| Crosscheck.HandlePacket | src/lq_event_crosscheck.c:223-266 | a wrong end magic is dropped silently; a CRC mismatch counts a CRC error and is fail-safe; a wrong sequence is fail-safe without advancing; otherwise the echo is checked and the expected sequence advances |
| Crosscheck.ProcessByteWith | src/lq_event_crosscheck.c:200-271 | a disabled context refuses every byte with -1 and nothing changes |
| Crosscheck.ProcessByteAsWritten | src/lq_event_crosscheck.c:223-267 | as written, the byte after a complete buffer is consumed by handling it, and the parser waits for a start byte again |
| Crosscheck.ProcessByte | src/lq_event_crosscheck.c:215-221 | with the packet handled on its last byte, the parser never rests in the complete state |
| Crosscheck.FeedAppend | src/lq_event_crosscheck.c:200-271 | feeding two runs of bytes is feeding the first and then the second from where it left off |
| Crosscheck.FrameHandled | src/lq_event_crosscheck.c:207-266 | handled on its last byte, a frame fed to an idle receiver is handled exactly once and leaves it idle |
| Crosscheck.BackToBackHandled | src/lq_event_crosscheck.c:207-266 | handled on its last byte, two frames back to back are both handled, in order |
| Crosscheck.NoStartIgnored | src/lq_event_crosscheck.c:207-213 | bytes without the start magic pass an idle receiver by |
| Crosscheck.BackToBackLost | src/lq_event_crosscheck.c:215-223 | as written, a frame directly after a complete one loses its start byte to the handling of the first and is never handled |
| Crosscheck.FrameCompletes | src/lq_event_crosscheck.c:215-221 | as written, a frame fed to an idle receiver leaves it complete, waiting for one more byte |
| Crosscheck.CheckTimeouts | src/lq_event_crosscheck.c:273-303 | 0 and nothing when disabled; -1 in FAIL_SAFE; otherwise a timeout counts, drives FAIL_SAFE and raises the pin, and 0 leaves everything alone |
| Crosscheck.TimeoutOnOldest | src/lq_event_crosscheck.c:285-300 | the timeout fires exactly when the oldest pending entry's uint32 age exceeds the timeout |
| Crosscheck.Reset | src/lq_event_crosscheck.c:315-329 | state OK, an empty FIFO and the fail pin low; counters and sequences are kept |
| Crosscheck.GetState | src/lq_event_crosscheck.c:305-308 | a missing context reads as FAIL_SAFE; otherwise its state |
| Crosscheck.IsFailed | src/lq_event_crosscheck.c:310-313 | failed exactly for a present context in FAIL_SAFE |
| Crosscheck.FailSafeNotAbsorbing | src/lq_event_crosscheck.c:106-109 | in FAIL_SAFE, a correct echo of the oldest pending packet sets the state back to OK while the fail pin stays high |
| Dtc.MaxLamp | src/lq_dtc.c:60-62 | the lamp only escalates: the result is one of the two and at least as severe as both |
| Dtc.Select | src/lq_dtc.c:164-170 | the entries in one state, in table order |
| Dtc.CountUpdate | src/lq_dtc.c:40-103 | replacing one entry moves each state's count only by the two states involved |
| Dtc.Find | src/lq_dtc.c:12-21 | the first present entry for (SPN, FMI), or none exactly when no entry matches |
| Dtc.FreeSlot | src/lq_dtc.c:24-32 | the first INACTIVE entry, or none exactly when every entry is in use |
| Dtc.FullTable | src/lq_dtc.c:24-32 | a table without a free slot has no INACTIVE entry |
| Dtc.Slot | src/lq_dtc.c:40-53 | the slot set_active writes exists unless the pair is unknown and the table is full |
| Dtc.FindAt | src/lq_dtc.c:12-21 | a matching entry written where no earlier entry matches is the one find_dtc finds |
| Dtc.SatInc | src/lq_dtc.c:55-58 | the occurrence count goes up by one and holds at 255 |
| Dtc.Init | src/lq_dtc.c:34-38 | an empty, consistent table with no DTC found, and a DM1 period of 1000 ms when 0 is asked for |
| Dtc.SetActive | src/lq_dtc.c:40-82 | -ENOMEM exactly when the pair is unknown and the table is full, changing nothing; otherwise the pair is confirmed, its count bumped and its lamp escalated, or it takes the first free slot with count 1 |
| Dtc.SetActiveConsistent | src/lq_dtc.c:40-82 | set_active keeps the active and stored counters equal to the numbers of CONFIRMED and STORED entries |
| Dtc.ClearWith | src/lq_dtc.c:84-103 | -ENOENT exactly for an unknown pair, changing nothing; otherwise 0 |
| Dtc.ClearAsWritten | src/lq_dtc.c:84-103 | as written, every successful clear adds one to the stored count |
| Dtc.Clear | src/lq_dtc.c:84-103 | a known entry becomes STORED with its lamp off, and the counters stay in agreement with the table |
| Dtc.ClearIdempotent | src/lq_dtc.c:84-103 | with the corrected count, clearing a DTC twice is clearing it once |
| Dtc.ClearTwiceOvercounts | src/lq_dtc.c:98 | as written, clearing an already stored DTC makes the stored count one more than the stored entries |
| Dtc.ClearAll | src/lq_dtc.c:105-110 | every entry and both counters are zeroed, no DTC is found any more, and the DM1 timing is kept |
| Dtc.ActiveCount | src/lq_dtc.c:112-115 | on a consistent manager, the number of CONFIRMED entries |
| Dtc.StoredCount | src/lq_dtc.c:117-120 | on a consistent manager, the number of STORED entries |
| Dtc.HighestLamp | src/lq_dtc.c:124-133 | the scan ends at least as severe as every confirmed entry's lamp, and at one of those lamps or the start |
| Dtc.MilStatus | src/lq_dtc.c:122-134 | the most severe lamp among CONFIRMED entries, OFF when there is none |
| Dtc.LampHeader | src/lq_dtc.c:151-158 | the four lamp bytes let a receiver read the MIL status back |
| Dtc.DtcRoundTrip | src/lq_dtc.c:172-176 | a receiver reads back the 19-bit SPN, the 5-bit FMI and the occurrence count of each DTC |
| Dtc.ListingAt | src/lq_dtc.c:172-176 | entry k of a listing occupies bytes 4k to 4k+3 |
| Dtc.Scan | src/lq_dtc.c:164-179 | the DTC loop writes whole four-byte DTCs within the buffer, nothing exactly when no entry is in the state or none fits |
| Dtc.ScanIsListing | src/lq_dtc.c:164-179 | the loop writes the first entries in the state, in table order, as many as fit |
| Dtc.Message | src/lq_dtc.c:181-192 | a message is the four lamp bytes, then the DTCs, or the filler when none is listed |
| Dtc.Listed | src/lq_dtc.c:164-179 | the DTCs listed are in the state and number the smaller of the count and what fits after the header |
| Dtc.BuildDm1 | src/lq_dtc.c:136-193 | 0 and nothing exactly within the period of a previous DM1; -EINVAL exactly for a buffer under 8 bytes; otherwise the lamps, the confirmed DTCs that fit, and the send time recorded |
| Dtc.BuildDm2 | src/lq_dtc.c:195-235 | -EINVAL exactly for a buffer under 8 bytes; otherwise zero lamp bytes and the stored DTCs that fit; the manager is unchanged |
| Dtc.Dm1Decodes | src/lq_dtc.c:151-192 | a receiver of a DM1 recovers the MIL status and, in table order, the SPN, FMI and count of each confirmed DTC that fitted |
| Dtc.Dm1Period | src/lq_dtc.c:139-145 | after a DM1 at a nonzero time, a call within the period sends nothing and one a full period later sends again |
| Dtc.Dm1AtTimeZero | src/lq_dtc.c:143 | a DM1 sent at time 0 records 0, which reads as never sent, so the next call is not held back |
| Dtc.FaultLifecycle | src/lq_dtc.c:40-103 | on a fresh manager a raised fault is confirmed with its lamp as the MIL; cleared, it is stored with the MIL off and listed in DM2; raised again, it is confirmed with count 2 |
| J1939.BuildId | include/lq_j1939.h:86-94 | with every field within its width, each field reads back from its own bit range and the identifier fits in 29 bits |
| J1939.BuildIdFromPgn | include/lq_j1939.h:97-108 | the source address sits in the low byte and, for a priority below 8, the priority in bits 26-28 of a 29-bit identifier |
| J1939.ExtractPgn | include/lq_j1939.h:111-114 | the PGN is an 18-bit value |
| J1939.PgnRoundTrip | include/lq_j1939.h:97-114 | a PGN packed into an identifier and extracted again comes back whatever the priority and source address; a wider value comes back as its low 18 bits |
| J1939.CreateDtc | include/lq_j1939.h:124-129 | a DTC leaves its top bit clear |
| J1939.DtcFields | include/lq_j1939.h:124-134 | the getters read back each field create_dtc packed, masked to its width, so in-range fields come back unchanged |
| J1939.DtcRebuild | include/lq_j1939.h:124-134 | a DTC is rebuilt from its fields exactly when its unused top bit is clear |
| J1939.LampCode | src/drivers/lq_j1939.c:350-353 | a lamp's code fits two bits and reads back as the lamp |
| J1939.LampByte | src/drivers/lq_j1939.c:257-260 | byte 0 carries the protect, amber, red stop and MIL lamps, each readable from its two bits |
| J1939.FlashByte | src/drivers/lq_j1939.c:262-265 | byte 1 carries the low two bits of each flash pattern at its place |
| J1939.DtcBytes | src/drivers/lq_j1939.c:269-282 | the DTC bytes carry the occurrence count cut to six bits, shifted up two, then two zero bytes |
| J1939.Dm1Bytes | src/drivers/lq_j1939.c:254-283 | the frame is the lamp byte, the flash byte, then the first DTC or all filler |
| J1939.FormatDm1 | src/drivers/lq_j1939.c:248-286 | -1 exactly for a buffer shorter than a frame; otherwise the frame's eight bytes followed by 0xFF |
| J1939.Dm1Padding | src/drivers/lq_j1939.c:254-283 | without a DTC every byte after the lamps is filler; with one, bytes 6 and 7 are zero |
| J1939.FrameDtcs | src/drivers/lq_j1939.c:361-371 | bytes 2-5 give at most one DTC, and none exactly for the "not available" SPN |
| J1939.Dm1Of | src/drivers/lq_j1939.c:347-371 | a DM1 read from eight bytes holds at most one DTC and two-bit flash patterns |
| J1939.DecodeDm1 | src/drivers/lq_j1939.c:341-374 | -1 exactly for fewer than eight bytes; otherwise the lamps and at most one DTC, none exactly for the "not available" SPN |
| J1939.DtcReadBack | src/drivers/lq_j1939.c:275-278 | the DTC bytes of a frame read back as the DTC less the top bit of its count, or as none for the "not available" SPN |
| J1939.Dm1BytesReadBack | src/drivers/lq_j1939.c:254-283 | the eight bytes of a DM1 frame read back as what the frame carries of it |
| J1939.Dm1ReadBack | src/drivers/lq_j1939.c:248-374 | formatting then decoding a DM1 gives back what the frame can carry of it |
| J1939.CarriedDtcSame | src/drivers/lq_j1939.c:278 | a well-formed DTC crosses a frame unchanged exactly when its occurrence count is below 64 |
| J1939.Dm1RoundTrip | src/drivers/lq_j1939.c:248-374 | a DM1 with two-bit flash patterns and at most one real DTC is decoded back exactly when that DTC's count is below 64 |
| J1939.FormatDm0 | src/drivers/lq_j1939.c:288-304 | -1 exactly for a short buffer; otherwise 0xFF everywhere except the lamp byte |
| J1939.Dm0ReadsAsDm1 | src/drivers/lq_j1939.c:288-304 | a DM0 read as a DM1 shows the stop lamp as red stop and the warning lamp as amber, other lamps off, all flash bits set and no DTC |
| J1939.Eec1Rpm | src/drivers/lq_j1939.c:313-314 | the speed from bytes 3-4 at 0.125 rpm per bit is below 8192 |
| J1939.DecodeEec1 | src/drivers/lq_j1939.c:306-320 | the speed from bytes 3-4 and the raw torque byte 2 |
| J1939.EncodeEec1 | src/drivers/lq_j1939.c:322-339 | an eight-byte payload: 0xFF except the torque at byte 2 and the speed at bytes 3-4 |
| J1939.Eec1RoundTrip | src/drivers/lq_j1939.c:306-339 | speed and torque survive encoding then decoding exactly when the speed is below 8192 rpm |
| J1939.Init | src/drivers/lq_j1939.c:12-33 | -1 exactly without a configuration; otherwise a cleared context with the node address, tracking the first 16 encode maps at most as never-sent periodic messages |
| J1939.PgnOf | src/drivers/lq_j1939.c:46 | the PGN the decoder extracts is 18 bits |
| J1939.Decode | src/drivers/lq_j1939.c:35-106 | no events when none may be written, the frame is short or no map names its PGN; EEC1 yields the speed then the torque less 125, ET1 the coolant temperature less 40, each to the map's signals and stamped OK |
| J1939.UpdateSignal | src/drivers/lq_j1939.c:189-216 | a cached id is overwritten in place, a new one appended while fewer than 32 are cached, and otherwise the update dropped; no other cached value changes |
| J1939.Refresh | src/drivers/lq_j1939.c:120-128 | an event refreshes the cached signal with its id, if there is one, and nothing else |
| J1939.RefreshAllKeepsLatest | src/drivers/lq_j1939.c:120-128 | after a run of events each cached signal holds the last value addressed to it; uncached ids stay uncached |
| J1939.Encode | src/drivers/lq_j1939.c:108-132 | always -1; each cached signal ends at the last event value addressed to it and the cache keeps its ids |
| J1939.Eec1Payload | src/drivers/lq_j1939.c:163-170 | torque plus 125 cut to a byte at byte 2 |
| J1939.CyclicMsg | src/drivers/lq_j1939.c:154-157 | an eight-byte frame stamped now, from the node address, whose identifier carries the PGN |
| J1939.Scan | src/drivers/lq_j1939.c:147-184 | the first due entries up to the budget are sent in table order and marked sent now; the rest are unchanged |
| J1939.GetCyclic | src/drivers/lq_j1939.c:134-187 | each due periodic message, in table order and up to max_msgs, goes out as its frame and is marked sent now; nothing else in the context changes |
| J1939.SentNotDueAgain | src/drivers/lq_j1939.c:148-150 | a message with a non-zero period just sent is not due again at the same instant |
| J1939.CyclicEec1Decodes | src/drivers/lq_j1939.c:160-170 | the EEC1 frame the driver sends decodes back into the two cached values, for 0-8191 rpm and -125 to 130 % torque |
| IsoTp.Pad8 | src/drivers/lq_isotp.c:33-41 | the frame's eight data bytes: the payload, then zeros |
| IsoTp.PciType | src/drivers/lq_isotp.c:25-28 | the frame type is the upper nibble of byte 0 |
| IsoTp.FfLength | src/drivers/lq_isotp.c:60-61 | a first frame announces a 12-bit length |
| IsoTp.SingleFrame | src/drivers/lq_isotp.c:30-47 | a single frame's DLC is its payload length plus the PCI byte |
| IsoTp.FirstFrame | src/drivers/lq_isotp.c:49-71 | a first frame is always eight bytes |
| IsoTp.ConsecutiveFrame | src/drivers/lq_isotp.c:73-107 | a consecutive frame's DLC is its chunk length plus the PCI byte |
| IsoTp.FlowControl | src/drivers/lq_isotp.c:109-124 | a flow-control frame is three bytes |
| IsoTp.FrameLayouts | src/drivers/lq_isotp.c:30-124 | each frame layout reads back as its own type and the fields it was built from |
| IsoTp.StMinUs | src/drivers/lq_isotp.c:240-248 | STmin 0-127 is that many milliseconds, 0xF1-0xF9 is 100-900 µs in steps of 100, and anything else means no separation |
| IsoTp.Init | src/drivers/lq_isotp.c:270-305 | -EINVAL exactly without a configuration or buffer; otherwise a channel with zero timing and buffer fields defaulted and both directions idle |
| IsoTp.Send | src/drivers/lq_isotp.c:307-337 | -EINVAL for an empty message, -EBUSY while sending, -EMSGSIZE beyond the TX buffer, and 0 exactly when accepted; up to 7 bytes go as one frame, longer ones as a first frame awaiting flow control |
| IsoTp.Abandon | src/drivers/lq_isotp.c:195-197 | an abandoned reception returns to idle; as written only the state changes, corrected the partial data is cleared too |
| IsoTp.RecvAsWritten | src/drivers/lq_isotp.c:339-371 | as written, frames for other ids are ignored with 0 |
| IsoTp.Recv | src/drivers/lq_isotp.c:339-371 | frames for other ids are ignored; a bad single-frame length, a stray consecutive frame or one out of sequence gives -EINVAL, the last dropping the partial reception |
| IsoTp.SendConsecutive | src/drivers/lq_isotp.c:73-107 | the next chunk of at most 7 bytes goes out with the current sequence number; the sender is idle exactly when the message is out, and waits for flow control exactly when a block is full |
| IsoTp.Periodic | src/drivers/lq_isotp.c:373-423 | a flow-control wait past its deadline aborts the send with -ETIMEDOUT; otherwise exactly one consecutive frame goes out when STmin has elapsed while sending |
| IsoTp.RxAvailable | src/drivers/lq_isotp.c:430-444 | data is available exactly when reception is idle with bytes received, and it is the first rx_len bytes of the buffer |
| IsoTp.RxAck | src/drivers/lq_isotp.c:446-452 | after an acknowledgement nothing is available |
| IsoTp.Abort | src/drivers/lq_isotp.c:454-463 | both directions idle and nothing available |
| IsoTp.ConsecutiveFrameCount | src/drivers/lq_isotp.c:73-107 | the rest of a message takes ceil(remaining / 7) consecutive frames |
| IsoTp.SegmentCount | src/drivers/lq_isotp.c:307-337 | a message of n bytes takes 1 frame when n <= 7, else 1 + ceil((n - 6) / 7) |
| IsoTp.PumpSendsRest | src/drivers/lq_isotp.c:373-423 | a sender with no block limit emits exactly the consecutive frames of the rest of its message, then is idle |
| IsoTp.OneConsecutive | src/drivers/lq_isotp.c:184-219 | one in-sequence consecutive frame extends the received prefix by its chunk |
| IsoTp.ReceiveRest | src/drivers/lq_isotp.c:184-219 | a receiver mid-message fed the rest of the consecutive frames ends idle holding the message |
| IsoTp.Handshake | src/drivers/lq_isotp.c:152-182 | a first frame out and flow control back leave the receiver mid-message and the sender streaming |
| IsoTp.TransferSends | src/drivers/lq_isotp.c:307-423 | the sender ends idle and the wire carries exactly the message's segments |
| IsoTp.FirstFrameStarts | src/drivers/lq_isotp.c:152-182 | a first frame that fits starts a reception holding its six bytes and expecting sequence number 1 |
| IsoTp.ReceiveSegments | src/drivers/lq_isotp.c:126-219 | reassembly inverts segmentation: a receiver fed a message's segments holds exactly the message |
| IsoTp.TransferRoundTrip | src/drivers/lq_isotp.c:307-423 | a message of 8 to 4095 bytes sent to a mirrored peer that asks for no block limit arrives whole |
| IsoTp.SingleFrameRoundTrip | src/drivers/lq_isotp.c:126-150 | a single-frame message arrives whole at a receiver listening on its id with room for it |
| IsoTp.WrongSequenceLeavesPartial | src/drivers/lq_isotp.c:195-197 | as written, after a consecutive frame out of sequence rx_available reports the full announced length although fewer bytes arrived |
| IsoTp.RecvKeepsSettled | src/drivers/lq_isotp.c:339-463 | with abandoned receptions cleared, every receive, timer, acknowledge, abort and send keeps the receiver reporting only complete receptions |
| IsoTp.SettledReportsComplete | src/drivers/lq_isotp.c:430-444 | a settled receiver reports exactly the bytes it received |
| Uds.PositiveResponse | src/drivers/lq_uds.c:560-575 | the SID plus 0x40, cut to a byte, followed by the data |
| Uds.NegativeResponse | src/drivers/lq_uds.c:577-588 | always the three bytes 0x7F, SID, NRC |
| Uds.ResponsesDistinct | src/drivers/lq_uds.c:560-588 | for SIDs below 0x3F, a positive reply is told from a negative one by byte 0, which gives the SID back |
| Uds.Send | src/drivers/lq_uds.c:28-35 | the reply goes to the transport, whose result is returned; -ENOTSUP without one |
| Uds.Negative | src/drivers/lq_uds.c:40-46 | a negative reply is sent and the state is kept |
| Uds.SessionGateTable | src/drivers/lq_uds.c:60-95 | the default session admits only 0x10, 0x3E and 0x22; programming admits everything; extended everything but 0x34-0x37; safety its own list |
| Uds.SessionControl | src/drivers/lq_uds.c:104-148 | a short request gets NRC 0x13 and an unknown session 0x12, changing nothing; a valid one switches the session, restarts the clocks, relocks security outside the default session and replies with P2 and P2* |
| Uds.LevelOf | src/drivers/lq_uds.c:162-164 | an odd sub-function 2k-1 and the even one 2k both address level k |
| Uds.SecurityAccess | src/drivers/lq_uds.c:153-260 | session and activity are kept; a short request gets 0x13; a lockout gets 0x37 and nothing changes; a seed request changes neither the level nor the attempts |
| Uds.TesterPresent | src/drivers/lq_uds.c:265-295 | a short request gets 0x13 and an unknown sub-function 0x12; sub-function 0 replies [0x7E, 0] and 0x80 replies nothing, both refreshing the activity clock |
| Uds.CallbackNrc | src/drivers/lq_uds.c:327-330 | a negative callback result becomes its negation as an NRC byte |
| Uds.ReadDataById | src/drivers/lq_uds.c:300-334 | the state is kept; a short request gets 0x13, a missing callback 0x11; otherwise the reply echoes the DID and carries the callback's bytes, or the callback's NRC |
| Uds.WriteDataById | src/drivers/lq_uds.c:339-377 | the state is kept; a short request gets 0x13, a missing callback 0x11, a locked server 0x33 before the callback runs; otherwise the callback's result decides |
| Uds.RoutineControl | src/drivers/lq_uds.c:382-433 | the state is kept; a short request gets 0x13, a missing callback 0x11, a locked server 0x33, a control type outside 1-3 0x12; otherwise the routine's reply |
| Uds.Init | src/drivers/lq_uds.c:439-471 | -EINVAL exactly without a configuration; otherwise zero timing fields take their defaults and the server starts in the default session, locked |
| Uds.Process | src/drivers/lq_uds.c:473-515 | an empty request gives -EINVAL and no change; otherwise the activity clock is set, the session gate answers 0x7F, and the SID is dispatched |
| Uds.Dispatch | src/drivers/lq_uds.c:492-514 | an unknown SID gets NRC 0x11 |
| Uds.Periodic | src/drivers/lq_uds.c:517-535 | a non-default session idle longer than S3 falls back to the default session, locked; otherwise nothing changes |
| Uds.ReplyShape | src/drivers/lq_uds.c:473-515 | every reply is a negative [0x7F, sid, nrc] or starts with the request's SID plus 0x40 |
| Uds.SecurityRisesOnlyByKey | src/drivers/lq_uds.c:153-260 | only a six-byte key the verify callback accepts, sent outside a lockout in a non-default session, raises the security level |
| Uds.LockoutRefuses | src/drivers/lq_uds.c:166-170 | while locked out, security access answers 0x37 and changes nothing but the activity clock |
| Uds.LockedRefusesWrites | src/drivers/lq_uds.c:51-55 | a locked server never reaches the write or routine callbacks and only sends negative replies to them |
| Uds.S3Relocks | src/drivers/lq_uds.c:517-535 | after an S3 expiry the server is locked and admits only 0x10, 0x3E and 0x22 |
| UdsCan.Adapter | src/drivers/lq_uds_can.c:17-30 | a reply that fits the pending buffer is accepted with 0, a longer one refused with -EMSGSIZE |
| UdsCan.Wired | src/drivers/lq_uds_can.c:73-75 | the server's configuration is the caller's with the transport routed to the node's adapter |
| UdsCan.Pending | src/drivers/lq_uds_can.c:26-27 | the adapter holds the bytes sent exactly when a non-empty reply fit |
| UdsCan.Init | src/drivers/lq_uds_can.c:47-86 | -EINVAL exactly for a missing configuration or CAN callback; otherwise the ISO-TP channel gets the node's own buffer and the server starts in its default session |
| UdsCan.RecvFrameAsWritten | src/drivers/lq_uds_can.c:88-135 | as written, a frame for another id still hands the server whatever the ISO-TP receiver reports as available |
| UdsCan.RecvFrame | src/drivers/lq_uds_can.c:88-135 | the server sees a request only when ISO-TP holds a complete message; afterwards nothing is left to read, and a reply that fits is sent back over ISO-TP |
| UdsCan.Periodic | src/drivers/lq_uds_can.c:137-154 | the ISO-TP timers run first, a timeout is not an error, and the UDS S3 check always runs |
| UdsCan.TesterPresentRoundTrip | src/drivers/lq_uds_can.c:88-135 | a Tester Present request in one single frame to an idle node is answered with one single frame [0x7E, 0x00] and refreshes the activity clock |
| UdsCan.TesterPresentAnswer | src/drivers/lq_uds_can.c:112-113 | the wired server answers tester present with [0x7E, 0x00] |
| UdsCan.ForeignFrameDeliversPartial | src/drivers/lq_uds_can.c:107-113 | as written, after a consecutive frame out of sequence, the next frame on the bus, even for another id, hands the server the partial request at its announced length |
| UdsCan.ForeignFrameDeliversNothing | src/drivers/lq_uds_can.c:107-113 | with the corrected receiver, the same two frames hand the server nothing |
| Config.Init | src/drivers/lq_config.c:118-141 | -EINVAL exactly without an engine; otherwise empty tables, unlocked, at version 0 |
| Config.ReadSignal | src/drivers/lq_config.c:143-160 | -ENOENT exactly for ids at or above the signal count; otherwise the signal's value and status |
| Config.ReadRemap | src/drivers/lq_config.c:162-176 | -ENOENT exactly for an index at or above the remap count; otherwise that entry |
| Config.ReadScale | src/drivers/lq_config.c:206-220 | -ENOENT exactly for an index at or above the scale count; otherwise that entry |
| Config.WriteRemap | src/drivers/lq_config.c:178-204 | success exactly when unlocked, in range and with valid ids; a locked registry answers security denied, a bad index -ENOENT, bad ids out of range |
| Config.WriteScale | src/drivers/lq_config.c:222-255 | as write_remap, with clamps out of order also refused as out of range |
| Config.AddRemap | src/drivers/lq_config.c:304-332 | success exactly when unlocked, with room and valid ids; a full table gives -ENOMEM |
| Config.AddScale | src/drivers/lq_config.c:334-369 | as add_remap, plus the clamp-order check |
| Config.RemoveRemap | src/drivers/lq_config.c:371-397 | success exactly when unlocked and in range; a refusal changes nothing |
| Config.RemoveScale | src/drivers/lq_config.c:399-425 | success exactly when unlocked and in range; a refusal changes nothing |
| Config.ResetToDefaults | src/drivers/lq_config.c:279-302 | a locked registry refuses and is unchanged; otherwise both tables are emptied and the version advances by one |
| Config.EnterCalibration | src/drivers/lq_config.c:257-265 | calibration lifts the lock and nothing else changes |
| Config.ExitCalibration | src/drivers/lq_config.c:267-277 | leaving calibration always locks the registry, and nothing else changes |
| Config.WriteThenRead | src/drivers/lq_config.c:162-204 | a successful write is what the next read returns, and other entries read as before |
| Config.AddThenRemove | src/drivers/lq_config.c:304-397 | removing the entry just added restores the table, with the version moved by two |
| Config.Apply | src/drivers/lq_config.c:178-425 | the version advances by one exactly on a successful mutation |
| Config.VersionCountsMutations | src/drivers/lq_config.c:178-425 | the version counts the successful mutations of any run of operations, modulo 2^32 |
| Config.LockedIsFrozen | src/drivers/lq_config.c:178-425 | a locked registry outside calibration is unchanged by any run of operations that does not enter calibration |
| Config.SerializeRemap | src/drivers/lq_config.c:23-30 | a remap serialises to 5 bytes |
| Config.DeserializeRemap | src/drivers/lq_config.c:35-42 | the deadzone reads back as an unsigned 16-bit value |
| Config.RemapRoundTrip | src/drivers/lq_config.c:23-42 | a remap round-trips exactly when its deadzone fits in 16 unsigned bits; otherwise the deadzone comes back as its low 16 bits |
| Config.RemapBytesRoundTrip | src/drivers/lq_config.c:23-42 | bytes whose flag byte uses only the two defined bits survive decoding and re-encoding |
| Config.SerializeScale | src/drivers/lq_config.c:53-80 | a scale serialises to 15 bytes |
| Config.DeserializeScale | src/drivers/lq_config.c:85-112 | factor and offset read back as int16 values |
| Config.ScaleRoundTrip | src/drivers/lq_config.c:53-112 | a scale round-trips exactly when factor and offset fit in int16; otherwise they come back sign-extended from their low 16 bits; the clamps always survive |
| Config.ScaleBytesRoundTrip | src/drivers/lq_config.c:53-112 | bytes whose flag byte uses only the three defined bits survive decoding and re-encoding |
| Config.ReadDid | src/drivers/lq_config.c:431-556 | a failure carries no data; a success fits the buffer; a signal value reads as its four bytes and a status as its code |
| Config.WriteDidAsWritten | src/drivers/lq_config.c:558-607 | as written, the result is never a negative code other than -ENOENT; an unknown DID or a short payload returns the positive refusal code and changes nothing |
| Config.LockedWriteReportsSuccess | src/drivers/lq_config.c:579 | as written, a write the locked registry refuses reports 0 although nothing was stored |
| Config.AsNrc | src/drivers/lq_config.c:579 | a registry code becomes a failure as a negative value; success stays 0 |
| Config.WriteDid | src/drivers/lq_config.c:558-607 | every refusal is negative; 0 exactly when the registry changed, and then the version advanced by one |
| Config.LockedWriteRefused | src/drivers/lq_config.c:558-607 | with the correction, a write the locked registry refuses reports security denied |
| Config.RoutineControl | src/drivers/lq_config.c:609-646 | only start is accepted; the three routine ids enter calibration, exit it, or reset the tables |
| CanOpen.BuildCobId | include/lq_canopen.h:286-289 | the COB-ID is the function code plus the node id in 16 bits; for a function code in bits 7-10 and a node id below 128 the two parts are read back by masking with 0x780 and 0x7F |
| CanOpen.CobIdRoundTrip | include/lq_canopen.h:286-294 | get_node_id recovers every 8-bit node id from the COB-ID built with it |
| CanOpen.TpdoFunctionCode | include/lq_canopen.h:27-33 | TPDO k of 1..4 uses function code 0x180 + 0x100·(k-1) |
| CanOpen.RpdoFunctionCode | include/lq_canopen.h:28-34 | RPDO k of 1..4 uses function code 0x200 + 0x100·(k-1) |
| CanOpen.NmtCode | include/lq_canopen.h:75-78 | the heartbeat byte is 5 exactly for OPERATIONAL and 0 exactly for boot-up |
| CanOpen.Init | src/drivers/lq_canopen.c:15-33 | -1 exactly without a configuration; otherwise a zeroed context holding the configured node address, pre-operational, LSS waiting, with a 1000 ms heartbeat |
| CanOpen.FieldValue | src/drivers/lq_canopen.c:142-162 | a mapped field inside the frame reads little-endian as an int32: an 8-bit field is its byte, a 16-bit field is unsigned, any other length than 8, 16 or 32 gives 0 |
| CanOpen.Fields | src/drivers/lq_canopen.c:134-173 | at most one event per mapping, each OK, stamped with the receive time and holding an int32; a mapping that does not fit the frame emits nothing |
| CanOpen.DecodePdo | src/drivers/lq_canopen.c:134-140 | the RPDO loop's events are the first `max_events` of the fields that fit |
| CanOpen.FirstRpdo | src/drivers/lq_canopen.c:129-130 | the first RPDO slot whose COB-ID matches the frame identifier, and none exactly when no slot matches |
| CanOpen.NmtTarget | src/drivers/lq_canopen.c:65-75 | an NMT command changes the state exactly for Start, Stop and Pre-operational, and Start is the one command that leads to OPERATIONAL |
| CanOpen.LssReceive | src/drivers/lq_canopen.c:88-117 | only the LSS state and node id can change; the node id changes only in configuration state, by a configure-node-id request, to an id 1..127 or 255; the LSS state only by switch-state-global |
| CanOpen.Decode | src/drivers/lq_canopen.c:35-180 | with no room nothing changes; NMT, SYNC and LSS frames produce no events; only the NMT state, SYNC counter, LSS state and node id can change; an NMT frame for this node or all nodes applies its command |
| CanOpen.Encode | src/drivers/lq_canopen.c:182-194 | encode always refuses with a negative result |
| CanOpen.PackField | src/drivers/lq_canopen.c:284-307 | packing one value writes only the field's own bytes of the 8-byte frame |
| CanOpen.PackPdo | src/drivers/lq_canopen.c:271-310 | the packing loop keeps the frame at 8 bytes and never writes below its starting offset |
| CanOpen.TpdoFrame | src/drivers/lq_canopen.c:264-312 | a TPDO frame goes to the PDO's COB-ID with 8 data bytes stamped with the current time |
| CanOpen.Transmitting | src/drivers/lq_canopen.c:240-262 | exactly the configured TPDOs that are due at this SYNC count (types 1..240 on multiples of the type), in slot order |
| CanOpen.TpdoScan | src/drivers/lq_canopen.c:240-314 | one frame per due TPDO, in slot order, up to the room left |
| CanOpen.HeartbeatDueIff | src/drivers/lq_canopen.c:214-215 | without clock wrap-around the heartbeat is due exactly when the period in ms has elapsed since the last one |
| CanOpen.HeartbeatMsg | src/drivers/lq_canopen.c:216-219 | the heartbeat goes to 0x700 plus the node id with one byte holding the NMT state |
| CanOpen.EmcyMsg | src/drivers/lq_canopen.c:227-233 | the emergency frame goes to 0x80 plus the node id and carries the error code little-endian followed by six zero bytes |
| CanOpen.Lead | src/drivers/lq_canopen.c:213-237 | at most two frames precede the TPDOs, never more than the room |
| CanOpen.GetCyclic | src/drivers/lq_canopen.c:196-317 | nothing is sent and nothing changes unless the node is OPERATIONAL with room; the heartbeat comes first when due and restarts its clock, then a pending emergency, then the due TPDOs; only the heartbeat time and emergency flag change |
| CanOpen.UpdateSignal | src/drivers/lq_canopen.c:319-346 | a known signal is overwritten and a new one added while fewer than 64 are cached, exactly then is the value found afterwards; a full cache ignores a new id; no other signal's value changes |
| CanOpen.SetNmtState | src/drivers/lq_canopen.c:371-380 | sets the NMT state and nothing else |
| CanOpen.SendEmergency | src/drivers/lq_canopen.c:382-397 | records the error code and marks an emergency pending, nothing else |
| CanOpen.ConfigureTpdo | src/drivers/lq_canopen.c:399-411 | success exactly for TPDO 1..4 with a configuration; it replaces that slot only; a refusal returns -1 and changes nothing |
| CanOpen.ConfigureRpdo | src/drivers/lq_canopen.c:413-425 | success exactly for RPDO 1..4 with a configuration; it replaces that slot only; a refusal returns -1 and changes nothing |
| CanOpen.SetLssIdentity | src/drivers/lq_canopen.c:431-448 | stores the vendor, product, revision and serial numbers and returns 0 |
| CanOpen.LssFrame | src/drivers/lq_canopen.c:457-467 | an LSS request goes to 0x7E5 with 8 bytes: the command specifier, one argument, six zeros |
| CanOpen.LssInquireNodeId | src/drivers/lq_canopen.c:450-470 | builds the inquire-node-id request with argument 0 |
| CanOpen.LssConfigureNodeId | src/drivers/lq_canopen.c:472-498 | succeeds exactly for ids 1..127 and 255 and then builds the configure request; otherwise -1 and the message is untouched |
| CanOpen.LssSwitchStateGlobal | src/drivers/lq_canopen.c:500-521 | builds the switch-state-global request carrying the mode |
| CanOpen.LssConfigureAgreement | src/drivers/lq_canopen.c:99-107 | a slave in configuration state takes a requested id exactly when the master's builder accepts it; a waiting slave ignores it |
| CanOpen.LssSwitchAgreement | src/drivers/lq_canopen.c:92-97 | a switch-state-global request moves the slave to configuration for mode 1 and to waiting otherwise |
| CanOpen.LssInquireIgnored | src/drivers/lq_canopen.c:109-115 | an inquire request changes nothing on the slave and yields no event |
| CanOpen.Carried | src/drivers/lq_canopen.c:286-304 | a field carries a value unchanged when it fits the field: 8 bits, 16 bits or int32 |
| CanOpen.Expected | src/drivers/lq_canopen.c:275-282 | one expected event per mapping, carrying the signal's cached value |
| CanOpen.FieldRoundTrip | src/drivers/lq_canopen.c:287-307 | a field packed by get_cyclic and read at the same byte by decode gives back the value it carries |
| CanOpen.FieldLocal | src/drivers/lq_canopen.c:147-162 | a field depends only on its own bytes |
| CanOpen.PackThenDecode | src/drivers/lq_canopen.c:271-310 | packing then decoding byte-aligned 8/16/32-bit mappings that fit the frame gives every mapping back, in order, with its cached value |
| CanOpen.PdoTransfer | src/drivers/lq_canopen.c:128-177 | a TPDO this node sends is decoded by a receiver with the same mappings on that COB-ID into one event per mapping carrying the sender's value, with the receiver's state unchanged |
| CanOpen.TpdoFields | src/drivers/lq_canopen.c:264-312 | the fields of a TPDO frame read back as the sender's cached values |
| CanOpen.DecodeMatchedRpdo | src/drivers/lq_canopen.c:128-179 | a non-control frame on a matching RPDO with room for all fields yields all of them and changes nothing |
| CanOpen.BootThenHeartbeat | src/drivers/lq_canopen.c:27-31 | a node is silent after init until an NMT Start for it; then, once a period has passed, it sends a heartbeat with state 5 |
| CanOpen.NoneConfigured | src/drivers/lq_canopen.c:243-245 | with every TPDO slot unused nothing is due |
| CanOpen.EmergencyOnce | src/drivers/lq_canopen.c:226-237 | after send_emergency the next cycle of an operational node with room sends one EMCY frame with the code, and later cycles send none |
| CanOpen.SyncWrapCadence | src/drivers/lq_canopen.c:82-85 | the 8-bit SYNC counter wraps from 255 to 0, so a type-3 TPDO is due on two consecutive SYNCs there |
| CanOpen.UpdateThenCached | src/drivers/lq_canopen.c:319-346 | a value stored by update_signal is what the next TPDO carries for that signal |
| Bldc.InitWith | src/drivers/lq_bldc.c:150-190 | a missing configuration or more than six phases gives -EINVAL and no change; a deadtime request on a platform without deadtime gives -ENOTSUP; otherwise the motor takes the configuration and id, disabled, at power 0, forward, with every duty 0, and returns the platform's code |
| Bldc.Init | src/drivers/lq_bldc.c:150-160 | as written only a missing configuration or more than six phases is refused; an accepted configuration has at most six phases |
| Bldc.InitChecked | src/drivers/lq_bldc.c:150-160 | with the zero-phase check added, an accepted configuration has one to six phases |
| Bldc.Enable | src/drivers/lq_bldc.c:192-209 | the enable flag follows the request and power and direction stay; disabling clears every duty and drives each configured phase to 0; enabling writes nothing; the platform's code is returned |
| Bldc.SetPower | src/drivers/lq_bldc.c:211-223 | the setpoint is clamped to 100 and nothing else changes |
| Bldc.SetDirection | src/drivers/lq_bldc.c:225-233 | sets the direction and nothing else |
| Bldc.EmergencyStop | src/drivers/lq_bldc.c:284-294 | disables the motor at power 0, changes nothing else, and returns the brake's code |
| Bldc.PowerScaled | src/drivers/lq_bldc.c:53 | the duty at the current power is the floor of power percent of the maximum duty, never above the maximum |
| Bldc.AngleIncrement | src/drivers/lq_bldc.c:247-248 | the open-loop angle increment fits 32 bits |
| Bldc.CommutationStep | src/drivers/lq_bldc.c:256 | the commutation step lies in 0..5 |
| Bldc.Pattern | src/drivers/lq_bldc.c:62-87 | every step's high and low phase is one of the three phases |
| Bldc.SixStep | src/drivers/lq_bldc.c:50-89 | six-step commutation yields a six-entry duty array of 16-bit duties |
| Bldc.PhaseDuty | src/drivers/lq_bldc.c:103-122 | a phase's sine duty lies between 0 and the power-scaled duty |
| Bldc.SinePwm | src/drivers/lq_bldc.c:94-124 | the first n phases get sine duties of at most the power-scaled duty; the rest of the array keeps its prior values |
| Bldc.UpdateWith | src/drivers/lq_bldc.c:235-282 | a disabled or unpowered motor is left alone with 0; the update is undefined exactly for a sine mode with no phases; -ENOTSUP exactly for an unknown mode; on success the configured phases' duties are what the platform receives |
| Bldc.Update | src/drivers/lq_bldc.c:235-282 | as written, a six-step update of a running motor is defined and leaves a commutation step below 6 |
| Bldc.UpdateFixed | src/drivers/lq_bldc.c:235-282 | with the corrected table and exact product, a six-step update of a running motor is defined and leaves a commutation step below 6 |
| Bldc.StepIsSixth | src/drivers/lq_bldc.c:256 | the commutation step is the sixth of the electrical turn the angle lies in |
| Bldc.PatternClash | src/drivers/lq_bldc.c:72-73 | the high and low phase coincide exactly in the reverse row of step 2 as written |
| Bldc.SixStepExclusive | src/drivers/lq_bldc.c:55-88 | six-step never drives two phases: each duty is 0 or the scaled duty, at most one is nonzero, and only a three-phase motor drives any |
| Bldc.SixStepDrivesOne | src/drivers/lq_bldc.c:59-87 | with the corrected table a three-phase motor at nonzero duty drives exactly the step's high phase |
| Bldc.ReverseStepTwoIdle | src/drivers/lq_bldc.c:71-74 | as written, step 2 in reverse drives no phase at all |
| Bldc.UpdateWithinMax | src/drivers/lq_bldc.c:235-282 | every duty an update writes stays within the configured maximum once the power is at most 100 |
| Bldc.UpdateDefined | src/drivers/lq_bldc.c:100 | with at least one phase every update is defined |
| Bldc.ZeroPhasesAccepted | src/drivers/lq_bldc.c:158-160 | as written init accepts zero phases, after which a powered sine-mode update divides by zero |
| Bldc.ZeroPhasesRefused | src/drivers/lq_bldc.c:158-160 | the checked init refuses zero phases |
| Bldc.IncrementExact | src/drivers/lq_bldc.c:248 | with a 64-bit product and an interval up to a minute the increment is the exact quotient, at most one turn per RPM |
| Bldc.IncrementMonotone | src/drivers/lq_bldc.c:248 | with a 64-bit product a longer interval never advances the angle less |
| Bldc.IncrementWraps | src/drivers/lq_bldc.c:248 | with a 32-bit unsigned long the product wraps: at full power 1 ms advances the angle by 55 instead of 3276, less than 21 µs does |
| Eds.FindSection | scripts/canopen_eds_parser.py:128-129 | the section found carries the requested header, and none is found exactly when no section has it |
| Eds.ParseIdentity | scripts/canopen_eds_parser.py:127-135 | without a DeviceInfo section the identity is empty names and ids 0; otherwise names default to empty and the vendor and product numbers are read with int(x, 0), a malformed one raising |
| Eds.ObjectIndex | scripts/canopen_eds_parser.py:138-159 | the first pass skips every header containing "sub" and reads an index only from a "0x" header or one of at most four plain hex digits |
| Eds.NewObject | scripts/canopen_eds_parser.py:161-172 | an object section is read exactly when its ObjectType and DataType parse, with no sub-objects yet and its DefaultValue kept |
| Eds.SubSectionWith | scripts/canopen_eds_parser.py:176-202 | a header without "sub" is not a sub-object; as written a malformed number raises, and with the guard nothing raises |
| Eds.DataTypeLength | scripts/canopen_eds_parser.py:283-300 | the bit length is 1 exactly for BOOLEAN, 64 exactly for INTEGER64 and UNSIGNED64, 8, 16 or 32 for the other integer types and REAL32, and 0 for strings and unknown codes |
| Eds.NewSub | scripts/canopen_eds_parser.py:204-214 | a sub-object section is read exactly when its DataType parses, keeping its DefaultValue |
| Eds.SubStep | scripts/canopen_eds_parser.py:204-216 | one sub-object section adds or replaces that subindex of a known object without adding objects; a raising header or an unparsable DataType fails |
| Eds.SecondPass | scripts/canopen_eds_parser.py:176-216 | the second pass keeps the set of objects the first pass found |
| Eds.SubStepsRaise | scripts/canopen_eds_parser.py:186-189 | one raising header anywhere makes the second pass fail |
| Eds.SubStepsFail | scripts/canopen_eds_parser.py:176-216 | a failing second pass points at a raising header or a known object's sub-object with an unparsable DataType |
| Eds.Unpack | scripts/canopen_eds_parser.py:238-241 | a mapping entry unpacks to a 16-bit index, an 8-bit subindex and an 8-bit length |
| Eds.UnpackPack | scripts/canopen_eds_parser.py:238-241 | unpacking a packed 0xIIIISSLL record gives its three fields back |
| Eds.PackUnpack | scripts/canopen_eds_parser.py:238-241 | every 32-bit entry is the packing of the three fields it unpacks to |
| Eds.Collect | scripts/canopen_eds_parser.py:232-249 | the subindex loop collects at most one entry per subindex |
| Eds.CollectRaises | scripts/canopen_eds_parser.py:232-236 | the loop raises exactly when one of its subindices holds a value int() rejects |
| Eds.CollectExact | scripts/canopen_eds_parser.py:232-249 | the collected entries are exactly the contributing subindices of the range, each once, in increasing order |
| Eds.Decoded | scripts/canopen_eds_parser.py:239-247 | each collected value becomes the mapping record it unpacks to, named after its sub-object, else its object |
| Eds.SlotMappings | scripts/canopen_eds_parser.py:219-249 | a PDO slot holds at most eight mappings: subindices 1 to min(count, 8) |
| Eds.PackedValues | scripts/canopen_eds_parser.py:238-241 | the packed entry of each record, in order |
| Eds.EntryText | scripts/canopen_eds_parser.py:236 | the written form of a packed entry reads back with int(x, 0) |
| Eds.MappingCount | scripts/canopen_eds_parser.py:226-229 | the count at subindex 0 reads back as the number of records |
| Eds.MappingCollect | scripts/canopen_eds_parser.py:232-236 | the subindex loop collects every packed entry of a written mapping object, in order |
| Eds.MappingDecode | scripts/canopen_eds_parser.py:239-247 | unpacking the packed entries gives back the records |
| Eds.MappingRoundTrip | scripts/canopen_eds_parser.py:218-249 | decoding inverts encoding: a mapping object written for up to eight valid records reads back as exactly those records |
| Eds.Slots | scripts/canopen_eds_parser.py:219-279 | every direction has four slots of at most eight mappings |
| Eds.ParseEdsWith | scripts/canopen_eds_parser.py:121-281 | a parsed device has its mapping objects at 0x1A00 and 0x1600 and at most eight mappings a slot |
| Eds.ParseEdsAsWritten | scripts/canopen_eds_parser.py:121-281 | as written, a parsed device is valid in the same sense |
| Eds.ParseEds | scripts/canopen_eds_parser.py:121-281 | with malformed headers skipped, a parsed device is valid in the same sense |
| Eds.EmptyIndexHeader | scripts/canopen_eds_parser.py:185-189 | a header "sub1" has an empty index that passes the hex-digit test, so int("", 16) raises unless guarded |
| Eds.SecondPassRaises | scripts/canopen_eds_parser.py:186-200 | as written one malformed sub-object header makes the second pass fail |
| Eds.AsWrittenRejectsEmptyIndex | scripts/canopen_eds_parser.py:187-189 | as written an EDS file with a section named "sub1" is rejected whatever else it holds |
| Eds.GuardedSecondPassFails | scripts/canopen_eds_parser.py:187-200 | guarded, the second pass fails only on a known object's sub-object whose DataType does not parse |
| Eds.TpdoCobId | scripts/canopen_eds_parser.py:336 | TPDO slot k's COB-ID holds function code 3 + 2k above a 7-bit node id |
| Eds.RpdoCobId | scripts/canopen_eds_parser.py:364 | RPDO slot k's COB-ID holds function code 4 + 2k above a 7-bit node id |
| Eds.CobIdsDistinct | scripts/canopen_eds_parser.py:336-364 | for one node id the eight PDO COB-IDs are pairwise distinct |
| Eds.CobIdsAgree | scripts/canopen_eds_parser.py:336-364 | the importer's COB-IDs are the runtime driver's TPDO and RPDO function codes plus the node id |
| Eds.Sanitize | scripts/canopen_eds_parser.py:459-466 | a sanitized name is no longer than the original and made only of upper-case letters, digits and underscores |
| Eds.SanitizeClean | scripts/canopen_eds_parser.py:459-466 | a name already clean comes through unchanged |
| Eds.SanitizeIdempotent | scripts/canopen_eds_parser.py:459-466 | sanitizing twice is sanitizing once |
| Eds.Numbered | scripts/canopen_eds_parser.py:331-344 | one id per mapping, slot by slot |
| Eds.NumberedAt | scripts/canopen_eds_parser.py:342-344 | mapping m of slot k gets the first id plus the count of all mappings before it |
| Eds.NumberedRange | scripts/canopen_eds_parser.py:342-344 | every device-tree id lies between the first id and the first id plus the total minus one |
| Eds.NumberedDistinct | scripts/canopen_eds_parser.py:342-370 | no two mappings of a direction get the same device-tree id |
| Eds.DeviceTreeIdsDisjoint | scripts/canopen_eds_parser.py:331-370 | the device tree's TPDO ids lie in 100..131 and its RPDO ids in 0..31, so they never meet |
| Eds.SchemesAgreeIff | scripts/canopen_eds_parser.py:343-505 | the device-tree ids and the 32-per-slot ids of a TPDO mapping agree exactly when it sits in the first slot |
| Eds.Occupied | scripts/canopen_eds_parser.py:332-333 | exactly the slots holding at least one mapping, in slot order |
| Eds.PdoNodes | scripts/canopen_eds_parser.py:330-382 | one PDO node per occupied slot |
| Eds.DeviceTreeTpdo | scripts/canopen_eds_parser.py:330-356 | every TPDO node is an occupied slot with its CiA 301 COB-ID, carrying the slot's mappings in order with their ids and clean SIG_ names |
| Eds.Known | scripts/canopen_eds_parser.py:432-433 | exactly the positions of mappings whose index is a known object, in order |
| Eds.SlotHeader | scripts/canopen_eds_parser.py:429-437 | one header line per mapping of a known object |
| Eds.SlotHeaderExact | scripts/canopen_eds_parser.py:429-451 | a slot's header has a line for a mapping exactly when its index is a known object, carrying id base + 32·k + p and the sanitized object name |
| Eds.SignalHeaderLines | scripts/canopen_eds_parser.py:416-457 | every mapping of a known object has its SIG_ line: id 32·k + p for RPDO slot k and the TPDO base plus 32·k + p for TPDO slot k |
| Eds.SignalHeaderClash | scripts/canopen_eds_parser.py:435-449 | as written the header defines two macros with id 100 when RPDO4's fifth and TPDO1's first mapping are known objects |
| Eds.DirectionSummary | scripts/canopen_eds_parser.py:490-528 | one summary PDO per occupied slot |
| Eds.ParseEdsFileAsWritten | scripts/canopen_eds_parser.py:468-530 | the summary is for node 5 |
| Eds.ParseEdsFile | scripts/canopen_eds_parser.py:468-530 | the corrected summary is for node 5 |
| Eds.DirectionSummaryAt | scripts/canopen_eds_parser.py:491-508 | summary PDO i is the i-th occupied slot with that slot's COB-ID for node 5, each mapping carrying id base + 32·k + m and its object's name or the fallback |
| Eds.DirectionCarries | scripts/canopen_eds_parser.py:497-506 | every mapping of a non-empty slot shows up in the summary with id base + 32·k + m |
| Eds.DirectionIdBounds | scripts/canopen_eds_parser.py:505-525 | a summary id of slot k lies in base + 32·k .. base + 32·k + 7 |
| Eds.SummaryIdsClash | scripts/canopen_eds_parser.py:505-525 | as written, RPDO4's fifth mapping and TPDO1's first mapping both get id 100 |
| Eds.SummaryIdsSeparated | scripts/canopen_eds_parser.py:505-525 | with the TPDO ids counted from 128, every RPDO id is below every TPDO id |
| Eds.SummaryIdsDistinct | scripts/canopen_eds_parser.py:497-527 | within one direction two different mappings never share an id |
| Eds.SlotIdsApart | scripts/canopen_eds_parser.py:505 | positions below 32 in different slots, or different positions in one slot, get different ids |
| DtsGen.RStripChar | scripts/dts_gen.py:27 | rstrip of one character removes exactly the trailing run of that character |
| DtsGen.AllInts | scripts/dts_gen.py:45-48 | the integer list is produced exactly when every cell parses with int(n, 0), each cell read in order |
| DtsGen.ParsePropertyValue | scripts/dts_gen.py:25-58 | an empty value is the flag True and only it; integer results come only from text in angle brackets |
| DtsGen.PhandleValue | scripts/dts_gen.py:30-31 | a reference <&x> reads back as x |
| DtsGen.ReferenceListUnparsed | scripts/dts_gen.py:30-31 | a reference list <&a &b> comes back as the single string "a &b" |
| DtsGen.QuotedValue | scripts/dts_gen.py:51-52 | a quoted string reads back as its content |
| DtsGen.SplitWordsAreWords | scripts/dts_gen.py:39 | every piece str.split() returns is a non-empty run without white space |
| DtsGen.SplitJoinWords | scripts/dts_gen.py:39 | splitting words joined by single spaces gives the words back |
| DtsGen.CellValue | scripts/dts_gen.py:34-44 | <n> with n written in decimal reads back as the integer n |
| DtsGen.CellsValue | scripts/dts_gen.py:34-48 | <a b c>, with any number of decimal cells but one, reads back as the list of integers |
| DtsGen.LineComments | scripts/dts_gen.py:65 | removing line comments never lengthens the text |
| DtsGen.LineCommentsKeepLines | scripts/dts_gen.py:65 | removing line comments keeps every line break |
| DtsGen.LineCommentRemoved | scripts/dts_gen.py:65 | a // comment up to its line break becomes that line break and what precedes it is kept |
| DtsGen.BlockComments | scripts/dts_gen.py:66 | removing block comments never lengthens the text |
| DtsGen.BlockCommentRemoved | scripts/dts_gen.py:66 | a /* */ comment is removed with its delimiters, across lines, and what precedes it is kept |
| DtsGen.StripComments | scripts/dts_gen.py:64-66 | comment removal never lengthens the text |
| DtsGen.Underscored | scripts/dts_gen.py:88 | a property name keeps its length with every '-' turned into '_' |
| DtsGen.Properties | scripts/dts_gen.py:86-90 | a property is present exactly when some pair of that name was assigned |
| DtsGen.LastPairWins | scripts/dts_gen.py:86-90 | a property's value is parsed from the last pair of that name |
| DtsGen.ParseNode | scripts/dts_gen.py:72-96 | a node is kept exactly when it has a compatible; it keeps its label and address; its properties are its pairs' names, plus "signed" whenever the block text contains "signed" |
| DtsGen.UnsignedSetsSigned | scripts/dts_gen.py:93-94 | a node whose text says "unsigned" is flagged signed |
| DtsGen.SimpleDtsParser | scripts/dts_gen.py:60-98 | exactly the nodes with a compatible are returned, each parsed from its match |
| DtsGen.KindOf | scripts/dts_gen.py:140-148 | a node is the engine for "lq,engine", a hardware input for other "lq,hw-" compatibles, a merge for "lq,mid-merge", a cyclic output for "lq,cyclic-output" |
| DtsGen.LastEngine | scripts/dts_gen.py:140-142 | the engine kept is an engine node, and none exactly when no node is one |
| DtsGen.OfKind | scripts/dts_gen.py:140-148 | exactly the nodes of one category, as many as there are |
| DtsGen.Categorize | scripts/dts_gen.py:134-148 | the lists hold exactly the hardware inputs, merges and cyclic outputs, with the last engine kept |
| DtsGen.KindsPartition | scripts/dts_gen.py:140-148 | every node has exactly one category |
| DtsGen.SignalCount | scripts/dts_gen.py:218-221 | the signal count is the engine's max_signals, or 32 without an engine or without that property |
| DtsGen.Counts | scripts/dts_gen.py:216-223 | the engine instance counts the merges and cyclic outputs of the device tree and takes the signal count |
| DtsGen.SignalIdOf | scripts/dts_gen.py:233 | the ISR's signal id is the node's signal_id, or 0 when absent |
| DtsGen.IsrFor | scripts/dts_gen.py:232-245 | exactly ADC and SPI inputs get an ISR, named after the node and pushing its signal id |
| DtsGen.Isrs | scripts/dts_gen.py:231-245 | one ISR per ADC or SPI input and nothing else |
| Adaptors.GetPlatformAdaptor | scripts/platform_adaptors.py:828-842 | the adaptor found is the one registered under the lower-cased name, and the lookup fails exactly when no platform has that name |
| Adaptors.PlatformNameRoundTrip | scripts/platform_adaptors.py:828-842 | every platform is found under its own name |
| Adaptors.LookupIgnoresCase | scripts/platform_adaptors.py:836-842 | an upper-cased name selects the same adaptor, or fails alike |
| Adaptors.UpperNameAccepted | scripts/platform_adaptors.py:836-842 | upper-case spellings such as STM32 and ESP32 are accepted |
| Adaptors.Pgn | scripts/platform_adaptors.py:116 | a CAN input's PGN is its pgn property, or 0 when absent |
| Adaptors.IsrWrapper | scripts/platform_adaptors.py:72-141 | an adaptor writes no handler exactly for an input it does not support; every handler pushes the given signal id; exactly CAN handlers carry the node's PGN |
| Adaptors.FixedNamesCollide | scripts/platform_adaptors.py:72-141 | two inputs of one family on a platform with fixed handler names get a first function of the same name whatever their labels |
| Adaptors.LabelledNamesDistinct | scripts/platform_adaptors.py:253-290 | on SAMD and ESP32 every handler name carries the node's label, so distinct labels never clash |
| Adaptors.NodesOf | scripts/platform_adaptors.py:147 | exactly the input nodes of one family, in order |
| Adaptors.RunPlan | scripts/platform_adaptors.py:143-231 | exactly the blocks of the plan steps that fire, in plan order |
| Adaptors.PeripheralInit | scripts/platform_adaptors.py:759-825 | AVR wraps its blocks in the clock set-up and the interrupt enable; every other adaptor writes only configuration blocks |
| Adaptors.RunPlanInOrder | scripts/platform_adaptors.py:143-231 | a plan in STM32 order writes its blocks in that order |
| Adaptors.FiredConfigures | scripts/platform_adaptors.py:143-231 | a step that fires leaves its family configured |
| Adaptors.ConfiguredFired | scripts/platform_adaptors.py:143-231 | a configured family has a step that fired |
| Adaptors.Stm32Plan | scripts/platform_adaptors.py:143-231 | STM32 configures every family once, in rank order, one block per node |
| Adaptors.Stm32InitFamilies | scripts/platform_adaptors.py:143-231 | STM32 writes a family's block exactly when a node of that family is present |
| Adaptors.Stm32InitOrder | scripts/platform_adaptors.py:143-231 | STM32 writes its blocks in the order GPIO, ADC, I2C, SPI, UART, CAN |
| Adaptors.Stm32InitCoversNodes | scripts/platform_adaptors.py:143-231 | each STM32 block covers every node of its family |
| Adaptors.AvrAlwaysConfigures | scripts/platform_adaptors.py:759-825 | AVR always configures the ADC and the SPI and ends with the interrupt enable, whatever the inputs |
| Adaptors.AlwaysSteps | scripts/platform_adaptors.py:759-825 | the only blocks written regardless of the inputs are AVR's ADC and SPI blocks |
| Adaptors.InitBlocks | scripts/platform_adaptors.py:292-338 | a block written for a family is a block of the adaptor's plan |
| Adaptors.InitNeedsNodes | scripts/platform_adaptors.py:610-703 | apart from AVR's ADC and SPI, no adaptor writes a block for a family with no node |
| Adaptors.GpioAlwaysInput | scripts/platform_adaptors.py:147-169 | only GPIO input nodes reach the GPIO block, so the output direction is never written |
| HilTests.ParseProperties | scripts/generate_comprehensive_hil_tests.py:84-97 | the first reference in the block becomes source_ref |
| HilTests.StringOverridesNumber | scripts/generate_comprehensive_hil_tests.py:86-92 | a quoted value overrides a number of the same name |
| HilTests.NumberKept | scripts/generate_comprehensive_hil_tests.py:86-92 | a number is kept when no quoted value has its name |
| HilTests.NumProp | scripts/generate_comprehensive_hil_tests.py:151 | a property used in arithmetic is its default when absent and is usable exactly when it is a number |
| HilTests.RawProp | scripts/generate_comprehensive_hil_tests.py:166 | a property only written out is its value, or the default when absent |
| HilTests.CategoryOf | scripts/generate_comprehensive_hil_tests.py:68-81 | a node is a hardware input exactly when its compatible contains hw-adc-input or hw-spi-input; the first matching substring decides |
| HilTests.CanInputNotCounted | scripts/generate_comprehensive_hil_tests.py:69 | a CAN hardware input is not treated as a hardware input |
| HilTests.OfCategory | scripts/generate_comprehensive_hil_tests.py:68-81 | exactly the nodes of one category, in order |
| HilTests.Dashed | scripts/generate_comprehensive_hil_tests.py:303 | a name keeps its length with no underscore left and every other character unchanged |
| HilTests.NominalInjects | scripts/generate_comprehensive_hil_tests.py:149-161 | three injections per input numbered 3·idx + rep, produced exactly when every stale-us is a number |
| HilTests.NominalExpects | scripts/generate_comprehensive_hil_tests.py:163-175 | one CAN expectation per cyclic output numbered on from the injections, produced exactly when every period is a number |
| HilTests.NominalTest | scripts/generate_comprehensive_hil_tests.py:140-180 | the nominal test has three steps per input and one per cyclic output |
| HilTests.NominalNumbered | scripts/generate_comprehensive_hil_tests.py:155-175 | the nominal test numbers its steps from 0 without gaps or repeats |
| HilTests.NominalInjectAt | scripts/generate_comprehensive_hil_tests.py:150-161 | input j gets three injections of 2500 on its own channel, each followed by a third of its staleness window in ms |
| HilTests.SingleInputTest | scripts/generate_comprehensive_hil_tests.py:182-209 | an isolation test injects three values on the input's own channel, numbered in order |
| HilTests.InputTests | scripts/generate_comprehensive_hil_tests.py:107-108 | one isolation test per hardware input, in order |
| HilTests.MergeTests | scripts/generate_comprehensive_hil_tests.py:211-298 | four merge tests, agree, within tolerance, fault and stale, produced exactly when tolerance and stale-us are numbers |
| HilTests.MergeValuesStraddle | scripts/generate_comprehensive_hil_tests.py:245-263 | the within-tolerance pair differs by at most the tolerance and the fault pair by more, for any positive tolerance |
| HilTests.StaleTestOutwaitsWindow | scripts/generate_comprehensive_hil_tests.py:272-298 | the stale test waits past the staleness window and its timeout leaves room for that wait |
| HilTests.AllMergeTests | scripts/generate_comprehensive_hil_tests.py:111-112 | four tests per merge node, produced exactly when every merge node's tests are |
| HilTests.FaultTests | scripts/generate_comprehensive_hil_tests.py:300-343 | a high and a low fault test, produced exactly when both thresholds are numbers |
| HilTests.FaultValuesOutside | scripts/generate_comprehensive_hil_tests.py:319-336 | the injected values lie strictly outside the thresholds, and below a low threshold of 100 the low one is negative |
| HilTests.AllFaultTests | scripts/generate_comprehensive_hil_tests.py:115-116 | two tests per fault monitor, produced exactly when every monitor's tests are |
| HilTests.OutputTest | scripts/generate_comprehensive_hil_tests.py:345-375 | an output timing test with numbered steps, produced exactly when the period is a number |
| HilTests.OutputTimeoutCoversWaits | scripts/generate_comprehensive_hil_tests.py:345-375 | the output test's timeout covers both of its waits whatever the period |
| HilTests.AllOutputTests | scripts/generate_comprehensive_hil_tests.py:119-120 | one output test per cyclic output |
| HilTests.AllChannels | scripts/generate_comprehensive_hil_tests.py:434-478 | one injection of the value on every input channel, numbered by channel |
| HilTests.BoundaryTests | scripts/generate_comprehensive_hil_tests.py:434-478 | two boundary tests, all inputs at 0 then all at 4095 |
| HilTests.BoundariesCoverInputs | scripts/generate_comprehensive_hil_tests.py:434-478 | the boundary tests inject 0 and 4095 on every input index |
| HilTests.PidTests | scripts/generate_comprehensive_hil_tests.py:377-432 | a proportional step test and an integral build-up test |
| HilTests.AllPidTests | scripts/generate_comprehensive_hil_tests.py:129-130 | two PID tests per controller |
| HilTests.Categorize | scripts/generate_comprehensive_hil_tests.py:46-82 | the hardware input list holds exactly the nodes categorised as hardware inputs |
| HilTests.GenerateTests | scripts/generate_comprehensive_hil_tests.py:99-138 | the tests are generated exactly when the nominal, merge, fault and output tests can be |
| HilTests.TestCount | scripts/generate_comprehensive_hil_tests.py:99-131 | there are 4 + H + 4M + 2F + C + 2P tests |
| HilTests.TestOrder | scripts/generate_comprehensive_hil_tests.py:103-130 | the tests come in the order nominal, inputs, merges, faults, outputs, boundaries, latency, PIDs, starting with the nominal test |
| HilGen.CloseFrom | scripts/hil_test_gen.py:54-61 | the brace scan stops at the first closing brace that brings the depth to zero, with the block open up to there; without one the block stays open to the limit |
| HilGen.Close | scripts/hil_test_gen.py:54-61 | the first closing brace of the block opened just before the start, and none exactly when the block stays open to the limit |
| HilGen.BalancedBodyCloses | scripts/hil_test_gen.py:54-61 | a balanced body followed by "}" closes exactly at the end of the body, whatever comes before or after |
| HilGen.TestBlock | scripts/hil_test_gen.py:50-63 | a test block is the text up to the brace that closes its header, or empty when it never closes |
| HilGen.TestBlockIsBody | scripts/hil_test_gen.py:50-63 | a test block is the balanced body after its header |
| HilGen.InnerBlock | scripts/hil_test_gen.py:81-90 | a sequence or step block is the text up to its closing brace, or, when that is missing before the limit, the text up to the limit less its last character |
| HilGen.InnerBlockIsBody | scripts/hil_test_gen.py:81-90 | a sequence or step block that closes before its limit is its balanced body |
| HilGen.UnclosedDropsLast | scripts/hil_test_gen.py:112-121 | a step with no closing brace before the next step loses its last character |
| HilGen.SequenceBlock | scripts/hil_test_gen.py:75-94 | the sequence block lies inside the test block and is empty without a "sequence" keyword |
| HilGen.StepProperties | scripts/hil_test_gen.py:130-139 | a step property is present exactly when some match has that name |
| HilGen.StepAt | scripts/hil_test_gen.py:101-123 | step i carries the number of its step@N header |
| HilGen.Steps | scripts/hil_test_gen.py:96-141 | one step per step@N header of a non-empty sequence block, and none for an empty one |
| HilGen.ParseTest | scripts/hil_test_gen.py:45-73 | a test keeps its header's name, with a 5000 ms timeout unless its block gives one |
| HilGen.ParseTestDts | scripts/hil_test_gen.py:37-145 | one test per header, in order, each with its header's name |
| HilGen.AdcCode | scripts/hil_test_gen.py:223-235 | an ADC step injects, then sleeps exactly when its delay reads as positive; it fails exactly when the delay does not read as an integer |
| HilGen.CanCode | scripts/hil_test_gen.py:237-260 | a CAN step builds the identifier, from the PGN exactly for inject-can-pgn, then injects |
| HilGen.ExpectCanCode | scripts/hil_test_gen.py:274-294 | an expect-can step waits with its timeout (1000 by default) and checks the PGN exactly when a non-empty pgn is given |
| HilGen.StepCode | scripts/hil_test_gen.py:220-314 | a step fails exactly for an ADC injection whose delay does not read as an integer; only expect-can checks a PGN |
| HilGen.UnknownEmitsNothing | scripts/hil_test_gen.py:220-314 | an action the generator does not know produces no code |
| HilGen.GpioLevels | scripts/hil_test_gen.py:262-272 | wait-gpio-high waits for 1 and wait-gpio-low for 0 |
| HilGen.ComprehensiveStepsMisread | scripts/hil_test_gen.py:312-314 | expect-can-pgn steps produce no code, and delay steps carrying delay-ms sleep the default 100 ms |
| HilGen.InjectSleeps | scripts/hil_test_gen.py:234-235 | an ADC injection sleeps afterwards exactly when its delay is positive |
| HilGen.ReceivedPgn | scripts/hil_test_gen.py:289 | the PGN read from an identifier is below 2^18 |
| HilGen.PgnCheckMatchesJ1939 | scripts/hil_test_gen.py:289 | the runner's PGN check reads the PGN the J1939 layer extracts, and a frame built for a PGN passes exactly when the PGN fits 18 bits |
| HilGen.TestCode | scripts/hil_test_gen.py:220-319 | a test's code exists exactly when every step's code does |
| HilGen.StepPgnDeclarations | scripts/hil_test_gen.py:286-294 | one step declares received_pgn once when it checks a PGN, otherwise not at all |
| HilGen.PgnDeclarationsPerStep | scripts/hil_test_gen.py:286-294 | a test function declares received_pgn once per PGN-checking step in one scope, so two such steps redeclare it |
| HilGen.RunTest | scripts/hil_test_gen.py:211-319 | a generated test passes exactly when every check that can fail succeeds; it runs to the end when it passes and otherwise stops at the first failing check |
| HilGen.FunctionName | scripts/hil_test_gen.py:209 | the function name keeps the test name's length with no '-' left |
| HilGen.FunctionNamesCollide | scripts/hil_test_gen.py:209 | two test names that differ only in '-' against '_' give one C function name twice |
| HilGen.Functions | scripts/hil_test_gen.py:207-319 | one function per test, produced exactly when every test's code is |
| HilGen.GenerateRunner | scripts/hil_test_gen.py:147-376 | the runner is produced exactly when every test's code is |
| HilGen.RunnerCallsInOrder | scripts/hil_test_gen.py:346-355 | the plan announces as many tests as are reported, and report i calls test i's function under its name |
| HilGen.TapResult | scripts/hil_test_gen.py:170-185 | each report increments the run count and numbers its line with it, and increments exactly one of passed and failed, according to the result |
| HilGen.Report | scripts/hil_test_gen.py:352-355 | one TAP line per result |
| HilGen.ReportCounts | scripts/hil_test_gen.py:352-363 | after N reports the run count is N, passed and failed count the results, and the lines are numbered 1 to N |
| HilGen.ExitCode | scripts/hil_test_gen.py:365 | the runner exits with 0 or 1 |
| HilGen.ExitIffFailure | scripts/hil_test_gen.py:365 | the runner exits 1 exactly when some test failed |
| Conflicts.HasSeverity | scripts/conflict_handler.py:59-65 | true exactly when some conflict has the severity |
| Conflicts.ShouldFail | scripts/conflict_handler.py:67-73 | generation is blocked exactly when there is an error, or, in strict mode, a warning |
| Conflicts.StrictBlocksMore | scripts/conflict_handler.py:67-73 | strict mode blocks whatever normal mode blocks, and information never blocks |
| Conflicts.ShouldFailAppend | scripts/conflict_handler.py:67-73 | the verdict on two lists together is the verdict on either |
| Conflicts.ExtractResources | scripts/conflict_handler.py:343-363 | an ADC claim exactly with io-channels, a GPIO claim exactly with gpios, and a CAN identifier claim exactly for a cyclic output with a target-id |
| Conflicts.CheckResourceConflict | scripts/conflict_handler.py:75-107 | one error for every claim whose resource key an earlier requirement already claimed |
| Conflicts.FirstClaimConflicts | scripts/conflict_handler.py:80-105 | the loop over the claims in visiting order yields exactly the repeated-claim errors |
| Conflicts.ConflictsCountRepeats | scripts/conflict_handler.py:80-105 | every claim beyond the first of its key is one conflict: conflicts plus distinct keys make all claims |
| Conflicts.ResourceConflictsAreErrors | scripts/conflict_handler.py:86-103 | each resource conflict is a non-resolvable error naming the first claimant and the new one |
| Conflicts.StripChars | scripts/conflict_handler.py:412 | strip(chars) leaves no stripped character at either end |
| Conflicts.StripReference | scripts/conflict_handler.py:412 | stripping '<', '&' and '>' from <&name> gives name |
| Conflicts.NamedPairs | scripts/conflict_handler.py:155-159 | every node-name pair comes from a requirement with that node name and id |
| Conflicts.DependencyOf | scripts/conflict_handler.py:406-417 | a key contributes a dependency exactly when its value is text containing "<&"; it is the mapped id of the referenced node, or the node name when unmapped |
| Conflicts.ExtractDependencies | scripts/conflict_handler.py:400-419 | at most one dependency per dependency key |
| Conflicts.DependencyListed | scripts/conflict_handler.py:406-417 | each dependency key's reference is among the dependencies |
| Conflicts.ListedDependency | scripts/conflict_handler.py:406-417 | every dependency comes from some dependency key |
| Conflicts.UnmappedNameFallsBack | scripts/conflict_handler.py:413-417 | a reference to a node no requirement names stays the node name, so it is reported missing |
| Conflicts.MissingOf | scripts/conflict_handler.py:207-220 | one non-resolvable error per dependency outside the ids, and none exactly when every dependency is an id |
| Conflicts.MissingDependenciesSound | scripts/conflict_handler.py:204-220 | every missing-dependency error names a requirement with a dependency outside the ids |
| Conflicts.MissingDependenciesComplete | scripts/conflict_handler.py:204-220 | every requirement with a dependency outside the ids gets a missing-dependency error |
| Conflicts.CountOf | scripts/conflict_handler.py:235-242 | no budget counts more requirements than there are |
| Conflicts.BudgetWarning | scripts/conflict_handler.py:248-265 | an exceeded budget is a resolvable warning |
| Conflicts.CheckBudgetConflict | scripts/conflict_handler.py:224-267 | at most three budget warnings, each resolvable |
| Conflicts.BudgetsFrom | scripts/conflict_handler.py:244-265 | a warning exactly for each budget whose count exceeds its limit, affecting every requirement and suggesting the count plus 8 |
| Conflicts.UnlimitedNeverWarns | scripts/conflict_handler.py:246-247 | a budget without a limit is never exceeded |
| Conflicts.AutoResolve | scripts/conflict_handler.py:323-340 | the remaining conflicts are exactly the non-resolvable ones, and the removed count makes up the rest |
| Conflicts.FirstUnprintable | scripts/conflict_handler.py:331-336 | the first resolvable conflict without budget metadata, none exactly when there is none |
| Conflicts.AutoResolveChecked | scripts/conflict_handler.py:323-340 | resolution goes through exactly when every resolvable conflict carries budget metadata; then the kept ones are the non-resolvable ones; otherwise it raises KeyError with a resolvable conflict lacking that metadata still in the list |
| Conflicts.BudgetMetaResolves | scripts/conflict_handler.py:258-338 | the budget warnings check_budget_conflict produces never make auto-resolution raise |
| Conflicts.AutoResolveIdempotent | scripts/conflict_handler.py:323-340 | a second resolution removes nothing more |
| Conflicts.NothingResolvable | scripts/conflict_handler.py:323-340 | conflicts none of which is resolvable are left as they are |
| Conflicts.BudgetsResolve | scripts/conflict_handler.py:258-338 | every budget warning is removed by auto-resolution, whatever the limits |
| Conflicts.AllResolvable | scripts/conflict_handler.py:323-340 | conflicts that are all resolvable resolve to nothing |
| Conflicts.AutoResolveKeepsVerdict | scripts/conflict_handler.py:323-340 | removing resolvable warnings leaves the non-strict verdict unchanged |
| Cycles.Nodes | scripts/conflict_handler.py:162-164 | every key of the graph is a node the search can reach |
| Cycles.IndexOf | scripts/conflict_handler.py:181 | path.index(x) is the first position holding x |
| Cycles.Dfs | scripts/conflict_handler.py:170-184 | the search marks the node and visits only graph nodes; every cycle it reports closes in the graph; with the stack kept it never raises and leaves the stack as it found it |
| Cycles.Neighbors | scripts/conflict_handler.py:174-181 | the loop over the dependencies only grows the visited set, reports only cycles of the graph, and with the stack kept never raises |
| Cycles.CycleAt | scripts/conflict_handler.py:181 | the path from the revisited node on, closed by that node, is a cycle of the graph |
| Cycles.Roots | scripts/conflict_handler.py:186-202 | every cycle found closes in the graph, and with the stack kept the search never raises |
| Cycles.DependencyGraph | scripts/conflict_handler.py:162-164 | every requirement's id is a key of the graph |
| Cycles.FirstAppearance | scripts/conflict_handler.py:186 | the graph's iteration order lists each id once, exactly the ids not seen before |
| Cycles.CycleErrors | scripts/conflict_handler.py:189-202 | one cycle error per cycle found, in order |
| Cycles.DependencyCycles | scripts/conflict_handler.py:166-202 | every cycle reported closes in the dependency graph, and with the stack kept the search never raises |
| Cycles.CheckDependencyConflict | scripts/conflict_handler.py:150-222 | every dependency conflict is an error, every cycle reported closes in the dependency graph, and with the stack kept the check never raises |
| Cycles.StaleStackRaises | scripts/conflict_handler.py:179-183 | as written, after A → B → A is found A and B stay on the stack, so the search from C, which depends on A, raises in path.index |
| Cycles.StaleStackFixed | scripts/conflict_handler.py:170-202 | with the stack kept, the same graph reports its one cycle and nothing raises |
| ReqGen.FormatDtsValue | scripts/reqgen.py:280-290 | a reference is written as it is, another string quoted, and an integer, bool or list in angle brackets |
| ReqGen.ReferenceRoundTrip | scripts/reqgen.py:282-284 | a reference written by the requirements generator reads back through the device-tree parser as the referenced name |
| ReqGen.StringRoundTrip | scripts/reqgen.py:285 | any other string is quoted and reads back as itself |
| ReqGen.IntRoundTrip | scripts/reqgen.py:286-287 | an integer is written as one cell and reads back as itself |
| ReqGen.IntList | scripts/reqgen.py:288-289 | a YAML list of integers is a list with those items |
| ReqGen.IntListRoundTrip | scripts/reqgen.py:288-289 | a list of integers of any length but one reads back as the same list |
| ReqGen.TrueNotAFlag | scripts/reqgen.py:286-287 | a bool counts as an int, so True is written <True> and reads back as the text "True", not a flag |
| ReqGen.ToRemove | scripts/reqgen.py:156-167 | only replaced ids that are ids of some requirement are removed |
| ReqGen.Keep | scripts/reqgen.py:171 | exactly the requirements whose id is not removed, in order |
| ReqGen.KeepAppend | scripts/reqgen.py:171 | keeping works piece by piece, so the kept requirements keep their order |
| ReqGen.ApplyReplacedIds | scripts/reqgen.py:149-173 | a requirement stays exactly when no requirement lists its id as replaced |
| ReqGen.ApplyReplacedIdempotent | scripts/reqgen.py:149-173 | archiving twice archives nothing more |
| ReqGen.MergeLlrNodes | scripts/reqgen.py:349-402 | every merged node carries its own name and at least one comment |
| ReqGen.Contributors | scripts/reqgen.py:363-369 | exactly the requirements configuring the node, in order |
| ReqGen.MergeNodes | scripts/reqgen.py:349-402 | one node per node name in use, with the first contributor's type, the properties assigned in order so that a later value wins, and every contributor's id and comment |
| ReqGen.LaterValueWins | scripts/reqgen.py:385-396 | of two requirements setting one key on one node, the node keeps the first one's type and the second one's value and lists both |
| ReqGen.MergeOrder | scripts/reqgen.py:369-377 | nodes are created in the order their names first appear |
| ReqGen.TransformToV2 | scripts/reqgen.py:404-466 | hardware inputs become lq,input with their device property moved to input and their hardware-only properties dropped; every property the rewrite does not touch is kept as it was |
| ReqGen.TransformSettles | scripts/reqgen.py:404-466 | rewriting the rewrite's own output changes nothing |
| ReqGen.Indent | scripts/reqgen.py:479 | the indent is four spaces per level |
| ReqGen.Dashes | scripts/reqgen.py:490 | a node name keeps its length with every '_' turned into '-' |
| ReqGen.PropertyKeys | scripts/reqgen.py:496-498 | every key but compatible is written, in ascending order when given so |
| ReqGen.PropLines | scripts/reqgen.py:496-500 | one property line per written key |
| ReqGen.HeaderLines | scripts/reqgen.py:482-488 | a node with several contributors gets a summary line and one line per comment; a single contributor gets one comment line |
| ReqGen.NodeLayout | scripts/reqgen.py:468-503 | after the header a node is its label line, one compatible line with the rewritten type, one line per other property in ascending key order, and the closing brace |
| ReqGen.DtsOrder | scripts/reqgen.py:243-251 | every node is written once, engine first, the others in ascending name order |
| ReqGen.NodeBlocks | scripts/reqgen.py:243-251 | one text block per node in the order |
| ReqGen.Objects | scripts/reqgen.py:516-524 | each requirement is handed to the checks with its id and node name |
| ReqGen.DetectConflictsWith | scripts/reqgen.py:201-231 | with either dependency search: it fails exactly when that search raises; otherwise every timing conflict is kept, every other conflict is a resource or dependency conflict of severity error, or a budget warning that check_budget_conflict raises against limits of 32 signals, 16 cyclic outputs and 8 merges, and none of them makes auto-resolution raise |
| ReqGen.DetectConflictsAsWritten | scripts/reqgen.py:201-231 | as written, detection raises exactly when the stale-stack dependency search does, on graphs such as Cycles.Stale; otherwise the timing conflicts are kept |
| ReqGen.DetectConflicts | scripts/reqgen.py:201-231 | with the stack kept, detection never raises; every timing conflict passed in is kept, and every other conflict is a resource or dependency conflict of severity error, or a budget warning that check_budget_conflict raises against the 32/16/8 limits |
| ReqGen.DetectedResolve | scripts/reqgen.py:62-65 | the conflicts detection adds never make auto-resolution raise, so `validate` resolves them as Conflicts.AutoResolve does |
| ReqGen.Validate | scripts/reqgen.py:45-71 | the conflicts checked are those left after auto-resolution when asked, and validation passes exactly when they do not block |
| ReqGen.GenerateDts | scripts/reqgen.py:73-96 | nothing is written exactly when the conflicts block generation and it is not forced; otherwise the merged device tree is written |
| ReqGen.ValidatedGenerates | scripts/reqgen.py:45-96 | once validation has passed on the same conflicts, generation goes ahead |
| ReqGen.FirstTruthy | scripts/reqgen.py:556-566 | the first truthy value found, and none exactly when no value is truthy |
| ReqGen.BoardDiscovery | scripts/reqgen.py:535-568 | a top-level board overrides what was found before it, so the last one wins; without one the board is the first found in the properties or hardware sections; the overlay is always the first found |

## Left out

Undefined behaviour in C. Signed overflow, a shift into the sign bit and
an out-of-range conversion from floating point to an integer are all
undefined in C. The lines below assume that the compilers of the target
platforms implement each one as a two's-complement wrap, and the model
follows that assumption. No precondition excludes these inputs.

- Engine.Valid: excludes four kinds of configuration the C code indexes its fixed arrays with, unchecked, which is undefined behaviour. They are a merge output of 32 or more (`e->signals[merge->output_signal]`, src/lq_engine.c:123 and 158), a merge with more than 8 inputs (the `values[8]` array filled at src/lq_engine.c:104-118; only the input indices are checked, at line 107), a cyclic source of 32 or more (`e->signals[c->source_signal]`, include/lq_engine.h:469), and a `num_signals` above 32 (the staleness loop, src/lq_engine.c:70-71). The operations that use these indices require ValidMerge, ValidCyclic, ValidTable or Valid, so the model says nothing about these configurations.
- SpiSource.ReadBigEndian: the fourth byte is shifted into bit 31 of a signed `int32_t` (src/lq_spi_source.c:24). This is modelled as a wrap of the unsigned big-endian value into int32 (`Wrap32`).
- SpiSource.AppendByte: states the same wrap step for one byte at a time. It has no precondition against the top byte being 0x80 or more.
- J1939.EncodeEec1: the speed is converted from `double` to `uint16_t` (src/drivers/lq_j1939.c:164). Above 8191 rpm that value does not fit, and C11 section 6.3.1.4 leaves the conversion undefined. The model reduces it modulo 2^16.
- J1939.Eec1Payload: the same conversion, on the cyclic EEC1 path (src/drivers/lq_j1939.c:334), reduced modulo 2^16 in the same way.
- Config.DeserializeScale: clamp_min and clamp_max shift `(int32_t)data[7]` and `(int32_t)data[11]` left by 24 into the sign bit (src/drivers/lq_config.c:102-111). For a first byte of 0x80 or more, which is every negative clamp, this is modelled as a two's-complement reinterpretation (`DecodeI32`). Config.ScaleRoundTrip's "the clamps always survive" rests on this. The 16-bit factor and offset convert an `int` above 32767 to `int16_t` (lines 94 and 98). That conversion is implementation-defined, not undefined, and is taken to wrap too.
- CanOpen.FieldValue: a 32-bit RPDO field shifts its top byte left by 24 into a signed `int` (src/drivers/lq_canopen.c:160). This is modelled as a two's-complement reinterpretation (`Wrap32`).
- Pid.IntegralStep: the corrected integral step wraps its int64 sum (`Wrap64`). Signed int64 overflow is undefined in C, so it has no precondition.
- Pid.Derivative: the int64 product `kd * delta * 1000000` is taken to wrap (`Wrap64`).
- Pid.RawOutputWith: the int64 products and the sum P + I + D are taken to wrap. The int32 error difference is taken to wrap too.
- Pid.ErrorOf: the int32 difference of setpoint and measurement is taken to wrap (`Wrap32`).
- Remap.RemapValue: the inversion of INT32_MIN is taken to wrap back to INT32_MIN.
- Util.Deviation: the int32 difference between a value and the vote is taken to wrap. So is `abs(INT32_MIN)` (`AbsC32`).
- Verified.IsVerified: the int32 difference of command and feedback, and its negation, are taken to wrap.

Sequential semantics only.

- Queue: the two semaphores are counters. A blocking take that would wait fails at once, as the non-blocking take does. Timeouts, waking and thread interleaving are not modelled.
- HwInput: the model is the ring as one thread sees it. Pushes from interrupt context racing a reader are not modelled.
- Crosscheck: `lq_crosscheck_process_byte`, `lq_crosscheck_send_event` and `lq_crosscheck_check_timeouts` run one after the other. Concurrent calls are not modelled.

Strings and numbers in the Python generators.

- Text: handles ASCII only. A character outside ASCII is never a letter, digit or white space, so Unicode white space, digits and case mapping are not modelled.
- `int()` with underscores between the digits (`1_000`) is not accepted. The generators never write such literals.
- Floating-point YAML and device-tree values are not modelled. Neither is the floating-point timing analysis of the conflict handler (`check_timing_conflict`, scripts/conflict_handler.py:109-148, and its extractor at 365-398). `ReqGen.DetectConflicts` takes the timing conflicts as a parameter.
- `repr` escapes inside generated strings are not modelled. Names are taken to need none.
- The regular-expression scans of the HIL generators and of scripts/dts_gen.py (lines 65-90) are replaced by their matches, which the model takes as inputs. The HilGen action scanner and `parse_byte_array` are among them.
- Eds.Get: the EDS parser reads the file with `configparser` (scripts/canopen_eds_parser.py:124-125), and the model takes its sections as input. The model returns an option's raw text, but `section.get` applies BasicInterpolation: `%%` reads back as `%`, and a bare `%` (as in `ParameterName=Load %`) raises InterpolationSyntaxError. The strict parser's DuplicateSectionError and DuplicateOptionError are not modelled either; Eds.FindSection takes the first section of a name. Eds.GetOr inherits both gaps.
- Conflicts.AutoResolve: takes every resolvable conflict to carry budget metadata. Its message reads `metadata['resource']` and `metadata['suggested_limit']` (scripts/conflict_handler.py:335-336). Conflicts.AutoResolveChecked models the KeyError raised when those keys are missing, with the earlier removals kept. Conflicts.BudgetMetaResolves and ReqGen.DetectedResolve show that the conflicts the generator itself produces never raise it.
- The J1939 speed is converted with the floating-point factor 0.125. The model uses integer division by 8, which is exact for every value the frame can hold.

Parameters instead of effects.

- Clocks, `lq_gpio_set`, CAN and UART sends, transport callbacks and UDS seed, key, DID and routine callbacks are parameters or returned traces.
- Bldc: the platform calls (`lq_bldc_platform_init`, `set_duty`, `enable`, `brake`) are parameters giving their return codes.
- The hardware instance and channel parameters of the backends are not modelled.
- Pointer checks are not modelled: where the C code returns -EINVAL or -22 for a NULL argument, the model has no null value.

Operations not modelled.

- `lq_crosscheck_get_stats` only copies counters out. The counters themselves are modelled.
- The `*_protocol_create` functions only allocate a context and wire a vtable.
- `lq_uds_get_session` and `lq_uds_get_security_level` only read one field. `Uds.SessionAllows` models the session check they serve.
- The UDS-over-CAN getters only read fields. `lq_uds_can_transport_get_max_payload` returns the constant 4095.
- UdsCan.Init: requires a configured receive buffer of at most 4095 bytes. That is the size of the node's own `rx_buf` (include/lq_uds_can.h:36), which the C code hands to ISO-TP, so a larger size would overrun that array.
- The Zephyr copy of the hardware input ring (src/drivers/lq_hw_input.c:87-161) is not modelled separately. It is the same ring under a kernel mutex. Its clock `k_uptime_get` is 64-bit, so it stores the times that `HwInput.Push`, the corrected push, stores. The model follows the native copy at lines 11-85.
- src/lq_canopen.c is an older, heap-allocating duplicate of the CANopen driver and is not part of this model. The model follows src/drivers/lq_canopen.c.
- The identity object's revision and order code are not modelled, because they are copied through unchanged.
- `report()` in scripts/conflict_handler.py:269-321 only formats text.
- The requirements generator's test, documentation and coverage outputs and its HLR parsing are not modelled, since they are text generation. This covers scripts/reqgen.py:98-127 and `_check_coverage`.
- The deprecated `_llr_to_dts_node` and `_topological_sort` paths of scripts/reqgen.py are not modelled.
- Several outputs are text layout only, so the exact text is not modelled. The model keeps their structure: the order, the names and the counts. These outputs are:
  - `generate_header` of scripts/dts_gen.py;
  - the merge and cyclic context text of `generate_source`;
  - the EDS `generate_device_tree` text and its output file;
  - `generate_platform_header`;
  - the comprehensive generator's latency test text.
- Command-line entry points, file reading and writing, `main` functions and exit codes are not modelled. Neither is scripts/bootstrap_zephyr_project.py.

## Findings

| source | as written | input that shows it | evidently intended | confidence | as-written member | corrected member |
|---|---|---|---|---|---|---|
| src/drivers/lq_config.c:579 | The DID write handler passes a registry error on only when `ret < 0`. The registry returns positive `LQ_NRC_*` codes, so a refused write reports success. The read-DID, routine, length and default paths return positive codes too, and the UDS server treats those as success as well. | A write of the remap DID 0xF1A2 to a locked registry answers 0, with the registry unchanged. | A refused write answers with the registry's negative response code. | not executed | Config.LockedWriteReportsSuccess | Config.LockedWriteRefused |
| src/drivers/lq_isotp.c:195-197 | A consecutive frame with the wrong sequence number drops the channel to idle but keeps the received length. The partial message is then reported as available. | A first frame of a long message, then a consecutive frame whose sequence number is not the expected one. | The partial message is discarded and nothing is delivered. | not executed | IsoTp.WrongSequenceLeavesPartial | IsoTp.RecvKeepsSettled |
| src/lq_limp_home.c:75-76 | One saved flag, min OR max, is restored into both `has_clamp` flags. | Limp home on a scale with only a lower clamp, then the fault clears for the restore delay. The scale comes back with an upper clamp enabled too. | Each clamp flag is restored to its own saved value. | not executed | LimpHome.SingleClampRestoredAsBoth | LimpHome.RestoreRoundTrip |
| src/lq_dtc.c:98 | Every clear increments `num_stored`, even the clear of a DTC that is already stored. | Clearing a DTC that is already stored counts it as stored a second time. | `num_stored` counts the stored DTCs, so clearing twice is clearing once. | not executed | Dtc.ClearTwiceOvercounts | Dtc.ClearIdempotent |
| src/drivers/lq_gpio_pattern.c:45 | The on time is computed as the `uint32_t` product `period_us * duty_percent`, which wraps. | A 60 s period at 100% duty gives an on time of 17,050,327 µs instead of 60,000,000 µs. | The product is computed wide, so the on time is the duty's share of the period. | not executed | GpioPattern.SetDutyOverflows | GpioPattern.DutyCycle |
| src/drivers/lq_gpio_pattern.c:74-77 | Disabling records `current_state = false` while the pin is driven to its idle level. For an inverted pattern that level is high. | An inverted static pattern is disabled, then enabled again. The pin stays high and is never driven low. | The recorded state is the level the pin was driven to. | not executed | GpioPattern.InvertedStaticStuck | GpioPattern.ResumeDrivesOutput |
| src/lq_event_crosscheck.c:215-223 | A complete packet is only handled when the next byte arrives, and that byte is consumed. | Two packets back to back: the second packet's start byte is lost with the first packet. | A packet is handled on its last byte, and the next byte starts a new packet. | not executed | Crosscheck.BackToBackLost | Crosscheck.BackToBackHandled |
| src/drivers/lq_bldc.c:72-73 | Reverse step 2 writes `duty_cycle[1]` twice, the second time with 0. | Step 2 in reverse, at any duty: no phase is driven. | Exactly one phase is driven at every step, in either direction. | not executed | Bldc.ReverseStepTwoIdle | Bldc.SixStepDrivesOne |
| src/drivers/lq_bldc.c:158-160 | Init accepts `num_phases == 0`. The sine update then divides by the phase count (line 100). | A sine-mode motor configured with 0 phases, enabled at 50% power. | Init refuses a configuration with no phases. | not executed | Bldc.ZeroPhasesAccepted | Bldc.ZeroPhasesRefused |
| src/drivers/lq_bldc.c:248 | The angle increment `rpm * 65536UL * dt` wraps where `unsigned long` is 32 bits. | 3000 rpm with a time step of 1000 µs gives an increment of 55 instead of 3276. | The product is computed wide, so the increment grows with speed and time step. | not executed | Bldc.IncrementWraps | Bldc.IncrementMonotone |
| src/drivers/lq_queue_core.c:103-113 | The blocking policy takes `sem_write` only when the queue is full. That semaphore starts at the capacity, so the take succeeds and the item overwrites the oldest one. | A queue of capacity 1 with the blocking policy, pushed twice: the count becomes 2. | A push onto a full blocking queue waits for a slot. With no reader in the sequential model it fails with -EAGAIN and leaves the queue unchanged. | not executed | Queue.BlockOverfills | Queue.BlockRefusesWhenFull |
| src/drivers/lq_hw_input.c:47 | The sample time is the `uint32_t` uptime times 1000, which wraps. | A push at 4,294,968 ms carries 704 µs, earlier than the push one millisecond before. | The time is computed in 64 bits, so it never goes back. | not executed | HwInput.TimestampWrapsBack | HwInput.TimestampMonotone |
| src/lq_pid.c:84 | `(int64_t)error * dt_us` is converted to `uint64_t`, because `dt_us` is `uint64_t`. A negative error then adds a huge integral step. | Setpoint 0, measurement 1000, ki 1000, dt 1 s: the integral saturates at +500 instead of -500, and so does the output. | The step is signed, so the integral follows the sign of the error. | not executed | Pid.OutputWindsUpAsWritten | Pid.PidIntegralFollowsError |
| src/lq_pid.c:103 | The derivative divides a signed numerator by the `uint64_t` value `dt_us * 1000`. A falling error becomes a huge positive term. | kd 1000, error change -1, dt 1000 µs: the term is positive instead of -1000. | Signed division, so the derivative has the sign of the error change. | not executed | Pid.FallingErrorKicksAsWritten | Pid.DerivativeSign |
| scripts/canopen_eds_parser.py:188-189 | An index part that is empty passes the all-hex-digits test, and `int('', 16)` raises outside any handler. | An EDS file with a section named `sub1`. | An index part that is not a non-empty hex number is skipped, as other non-index sections are, so the pass fails only on a malformed sub-object. | not executed | Eds.AsWrittenRejectsEmptyIndex | Eds.GuardedSecondPassFails |
| scripts/canopen_eds_parser.py:505-525 | TPDO signals are numbered 100 + 32·pdo + position and RPDO signals 32·pdo + position. The two ranges meet. | A device whose fourth RPDO has five or more mappings and whose first TPDO has one: both carry signal id 100. | Receive and transmit ids never overlap. The corrected summary counts transmit ids from 128, past every receive id. | not executed | Eds.SummaryIdsClash | Eds.SummaryIdsSeparated |
| scripts/conflict_handler.py:179-183 | When the depth-first search finds a cycle it returns without popping its recursion stack. A later search then meets a stale node that is not on its path, and `path.index` raises ValueError. | A → B → A and C → A, searched in the order A, B, C. | Every search leaves the stack as it found it, so each cycle is reported and nothing raises. | not executed | Cycles.StaleStackRaises | Cycles.StaleStackFixed |

## Observations

Each of these is a behaviour of the code that the model states as an exact
property. It is not clear that it was unintended, so none has a corrected
version.

- Crosscheck.FailSafeNotAbsorbing: in FAIL_SAFE, a correct echo of the oldest pending packet sets the state back to OK while the fail pin stays high.
- Dtc.Dm1AtTimeZero: a DM1 sent at time 0 records 0, which reads as "never sent", so the next call is not held back.
- J1939.Dm1RoundTrip: a DM1 with one DTC decodes back to it exactly when the occurrence count is below 64. The code's layout has only six bits for the count.
- CanOpen.SyncWrapCadence: the 8-bit SYNC counter wraps from 255 to 0. A TPDO of transmission type 3 is then due on two consecutive SYNCs.
- DtsGen.UnsignedSetsSigned: the substring test for `signed` also fires on `unsigned`.
- DtsGen.ReferenceListUnparsed: a reference list `<&a &b>` comes back as the single string `a &b`.
- Adaptors.FixedNamesCollide: two inputs of one family with a fixed handler name produce two functions of the same name.
- HilGen.FunctionNamesCollide: two test names that differ only in `-` against `_` give one C function name twice.
- HilGen.PgnDeclarationsPerStep: `received_pgn` is declared once per PGN-checking step in one scope.
- HilGen.ComprehensiveStepsMisread: the comprehensive generator's `expect-can-pgn` steps produce no code. Its `delay` steps sleep the default 100 ms.
- HilGen.UnclosedDropsLast: a step with no closing brace before the next step loses its last character.
- HilTests.CanInputNotCounted: a CAN hardware input gets no input test; only ADC and SPI inputs do.
- HilTests.FaultValuesOutside: the injected fault values lie strictly outside the thresholds, so below a low threshold of 100 the low one is negative.
- ReqGen.TrueNotAFlag: a boolean property `True` is written `<True>`, which reads back as the text `True` rather than as a flag.

=== FILE: adaptors.dfy ===
/**
  The platform adaptors (`scripts/platform_adaptors.py`): the choice of an
  adaptor by platform name, the interrupt handlers each adaptor writes for
  one hardware input, and the peripheral set-up sections of
  `lq_platform_peripherals_init`.

  The C text itself is not modelled. A handler is its function name, the
  signal id it pushes with `lq_hw_push` and, for a CAN input, the PGN it
  filters on. A set-up section is the peripheral family it configures and
  the nodes whose settings it writes.
 */
module Adaptors {
  import opened Wrappers
  import opened Text
  import opened DtsGen

  datatype Platform = Stm32 | Samd | Esp32 | Nrf52 | Avr

  /** The key of each adaptor in the factory's table. */
  function PlatformName(p: Platform): (s: string)
  {
    match p
    case Stm32 => "stm32"
    case Samd => "samd"
    case Esp32 => "esp32"
    case Nrf52 => "nrf52"
    case Avr => "avr"
  }

  /** `get_platform_adaptor`: a lookup of the lower-cased name; None is the `ValueError` any other name raises. */
  function GetPlatformAdaptor(name: string): (r: Option<Platform>)
    ensures r.Some? ==> PlatformName(r.value) == Lower(name)
    ensures r.None? ==> forall p: Platform :: PlatformName(p) != Lower(name)
  {
    var key := Lower(name);
    if key == "stm32" then Some(Stm32)
    else if key == "samd" then Some(Samd)
    else if key == "esp32" then Some(Esp32)
    else if key == "nrf52" then Some(Nrf52)
    else if key == "avr" then Some(Avr)
    else None
  }

  /** Lower-casing an upper-cased text gives the lower-cased text. */
  lemma LowerOfUpper(s: string)
    ensures Lower(Upper(s)) == Lower(s)
  {
    forall i | 0 <= i < |s| ensures Lower(Upper(s))[i] == Lower(s)[i] {
      var c := s[i];
      if IsLowerLetter(c) {
        assert UpperChar(c) as int == c as int - 32;
      }
    }
  }

  /** The factory's keys are already in lower case. */
  lemma NameIsLower(p: Platform)
    ensures Lower(PlatformName(p)) == PlatformName(p)
  {
    var s := PlatformName(p);
    forall i | 0 <= i < |s| ensures Lower(s)[i] == s[i] {
      assert !IsUpperLetter(s[i]);
    }
  }

  /** Every platform is found under its own name. */
  lemma PlatformNameRoundTrip(p: Platform)
    ensures GetPlatformAdaptor(PlatformName(p)) == Some(p)
  {
    NameIsLower(p);
  }

  /** The lookup ignores case: an upper-cased name selects the same adaptor, or fails alike. */
  lemma LookupIgnoresCase(name: string)
    ensures GetPlatformAdaptor(Upper(name)) == GetPlatformAdaptor(name)
  {
    LowerOfUpper(name);
  }

  /** So `STM32`, `ESP32` and the other upper-case spellings are accepted. */
  lemma UpperNameAccepted(p: Platform)
    ensures GetPlatformAdaptor(Upper(PlatformName(p))) == Some(p)
  {
    LookupIgnoresCase(PlatformName(p));
    PlatformNameRoundTrip(p);
  }

  // ---------------------------------------------------------------------
  // Interrupt handlers
  // ---------------------------------------------------------------------

  const AdcInput := "lq,hw-adc-input"
  const SpiInput := "lq,hw-spi-input"
  const CanInput := "lq,hw-can-input"
  const GpioInput := "lq,hw-gpio-input"
  const I2cInput := "lq,hw-i2c-input"
  const UartInput := "lq,hw-uart-input"

  /** One generated C function: its name, the signal it pushes, and the PGN a CAN handler compares against. */
  datatype Handler = Handler(name: string, signalId: int, pgn: Option<Value>)

  /** `node.properties.get('pgn', 0)`. */
  function Pgn(node: Node): (v: Value)
    ensures "pgn" in node.properties ==> v == node.properties["pgn"]
    ensures "pgn" !in node.properties ==> v == Int(0)
  {
    if "pgn" in node.properties then node.properties["pgn"] else Int(0)
  }

  /** The inputs an adaptor writes a handler for: ADC and SPI everywhere, CAN on STM32, ESP32 and NRF52. */
  predicate HasWrapper(p: Platform, compatible: string)
  {
    compatible == AdcInput || compatible == SpiInput
    || (compatible == CanInput && (p == Stm32 || p == Esp32 || p == Nrf52))
  }

  /** A handler that filters on the node's PGN. */
  function CanHandler(name: string, node: Node, signalId: int): Handler
  {
    Handler(name, signalId, Some(Pgn(node)))
  }

  /** A handler for an ADC or SPI input. */
  function Plain(name: string, signalId: int): Handler
  {
    Handler(name, signalId, None)
  }

  /**
    `generate_isr_wrapper` of each adaptor: the functions written for one
    input, none for an input the adaptor does not support.
   */
  function IsrWrapper(p: Platform, node: Node, signalId: int): (r: seq<Handler>)
    ensures r == [] <==> !HasWrapper(p, node.compatible)
    ensures forall h :: h in r ==> h.signalId == signalId
    ensures forall h :: h in r ==> (h.pgn.Some? <==> node.compatible == CanInput)
    ensures forall h :: h in r && h.pgn.Some? ==> h.pgn.value == Pgn(node)
  {
    var c, l := node.compatible, node.nodeLabel;
    match p
    case Stm32 =>
      if c == AdcInput then [Plain("HAL_ADC_ConvCpltCallback", signalId), Plain("lq_adc_read_" + l, signalId)]
      else if c == SpiInput then [Plain("HAL_SPI_RxCpltCallback", signalId)]
      else if c == CanInput then [CanHandler("HAL_CAN_RxFifo0MsgPendingCallback", node, signalId)]
      else []
    case Samd =>
      if c == AdcInput then [Plain("lq_adc_read_" + l, signalId)]
      else if c == SpiInput then [Plain("lq_spi_read_" + l, signalId)]
      else []
    case Esp32 =>
      if c == AdcInput then [Plain("lq_adc_read_" + l, signalId)]
      else if c == SpiInput then [Plain("lq_spi_read_" + l, signalId)]
      else if c == CanInput then [CanHandler("lq_can_receive_" + l, node, signalId)]
      else []
    case Nrf52 =>
      if c == AdcInput then [Plain("saadc_callback", signalId)]
      else if c == SpiInput then [Plain("spi_event_handler", signalId)]
      else if c == CanInput then [CanHandler("lq_can_receive_" + l, node, signalId)]
      else []
    case Avr =>
      if c == AdcInput then [Plain("ADC_IRQHandler", signalId)]
      else if c == SpiInput then [Plain("SPI_IRQHandler", signalId)]
      else []
  }

  /** The handlers whose first function has a fixed name, the same for every node: all of STM32's, and the ADC and SPI ones of NRF52 and AVR. */
  predicate FixedNames(p: Platform, compatible: string)
  {
    HasWrapper(p, compatible) && (p == Stm32 || ((p == Nrf52 || p == Avr) && compatible != CanInput))
  }

  /**
    Two inputs of one family with a fixed handler name get a first
    function of the same name, whatever their labels: the generated file
    then defines that function twice.
   */
  lemma FixedNamesCollide(p: Platform, a: Node, b: Node, i: int, j: int)
    requires a.compatible == b.compatible && FixedNames(p, a.compatible)
    ensures IsrWrapper(p, a, i)[0].name == IsrWrapper(p, b, j)[0].name
  {
  }

  /** Distinct labels give distinct names once a common prefix is put in front. */
  lemma PrefixedDistinct(prefix: string, x: string, y: string)
    requires x != y
    ensures prefix + x != prefix + y
  {
    assert (prefix + x)[|prefix|..] == x;
    assert (prefix + y)[|prefix|..] == y;
  }

  /** On SAMD and ESP32 every handler name carries the node's label, so distinct labels never clash. */
  lemma LabelledNamesDistinct(p: Platform, a: Node, b: Node, i: int, j: int)
    requires (p == Samd || p == Esp32) && a.compatible == b.compatible && HasWrapper(p, a.compatible)
    requires a.nodeLabel != b.nodeLabel
    ensures IsrWrapper(p, a, i)[0].name != IsrWrapper(p, b, j)[0].name
  {
    PrefixedDistinct("lq_adc_read_", a.nodeLabel, b.nodeLabel);
    PrefixedDistinct("lq_spi_read_", a.nodeLabel, b.nodeLabel);
    PrefixedDistinct("lq_can_receive_", a.nodeLabel, b.nodeLabel);
  }

  // ---------------------------------------------------------------------
  // Peripheral set-up
  // ---------------------------------------------------------------------

  datatype Family = Gpio | Adc | I2c | Spi | Uart | Can

  function FamilyCompatible(f: Family): string
  {
    match f
    case Gpio => GpioInput
    case Adc => AdcInput
    case I2c => I2cInput
    case Spi => SpiInput
    case Uart => UartInput
    case Can => CanInput
  }

  /** The position of a family in the STM32 set-up order. */
  function FamilyRank(f: Family): nat
  {
    match f
    case Gpio => 0
    case Adc => 1
    case I2c => 2
    case Spi => 3
    case Uart => 4
    case Can => 5
  }

  /** `[n for n in hw_inputs if n.compatible == …]`. */
  function NodesOf(hw: seq<Node>, f: Family): (r: seq<Node>)
    ensures |r| <= |hw|
    ensures forall n :: n in r <==> n in hw && n.compatible == FamilyCompatible(f)
    decreases |hw|
  {
    if hw == [] then []
    else
      var rest := NodesOf(hw[1..], f);
      assert forall n :: n in hw <==> n == hw[0] || n in hw[1..];
      if hw[0].compatible == FamilyCompatible(f) then [hw[0]] + rest else rest
  }

  /**
    How an adaptor writes one family: a block per node, a block with the
    first node's settings, a fixed block when any node is present, or a
    fixed block whatever the inputs.
   */
  datatype Style = PerNode | FirstOnly | WhenAny | Always

  /** One set-up section: the fixed clock set-up, one family's block with the nodes it is written for, or the interrupt enables. */
  datatype Section = Clocks | Configure(family: Family, nodes: seq<Node>) | Nvic

  /** A step of an adaptor's set-up: which family, written how. */
  type Step = (Family, Style)

  /** Whether a step writes anything. */
  predicate Fires(hw: seq<Node>, step: Step)
  {
    step.1 == Always || NodesOf(hw, step.0) != []
  }

  /** The nodes whose settings a step writes. */
  function Chosen(hw: seq<Node>, step: Step): (r: seq<Node>)
    ensures forall n :: n in r ==> n in NodesOf(hw, step.0)
  {
    var ns := NodesOf(hw, step.0);
    match step.1
    case PerNode => ns
    case FirstOnly => if ns == [] then [] else [ns[0]]
    case _ => []
  }

  /** The section a step writes. */
  function SectionOf(hw: seq<Node>, step: Step): Section
  {
    Configure(step.0, Chosen(hw, step))
  }

  /** The steps of each adaptor's `generate_peripheral_init`, in the order of its code. */
  function Plan(p: Platform): seq<Step>
  {
    match p
    case Stm32 => [(Gpio, PerNode), (Adc, PerNode), (I2c, PerNode), (Spi, PerNode), (Uart, PerNode), (Can, PerNode)]
    case Samd => [(Gpio, PerNode), (Adc, PerNode), (I2c, PerNode), (Uart, WhenAny)]
    case Esp32 => [(Gpio, PerNode), (Adc, PerNode), (I2c, FirstOnly), (Uart, FirstOnly), (Spi, WhenAny), (Can, WhenAny)]
    case Nrf52 => [(Gpio, PerNode), (Adc, PerNode), (I2c, FirstOnly), (Uart, FirstOnly), (Spi, WhenAny)]
    case Avr => [(Gpio, PerNode), (Adc, Always), (I2c, WhenAny), (Spi, Always), (Uart, WhenAny)]
  }

  /** The sections of a plan: each step that fires, in order. */
  function RunPlan(hw: seq<Node>, plan: seq<Step>): (r: seq<Section>)
    ensures |r| <= |plan|
    ensures forall s :: s in r ==> exists i :: 0 <= i < |plan| && Fires(hw, plan[i]) && s == SectionOf(hw, plan[i])
    ensures forall i :: 0 <= i < |plan| && Fires(hw, plan[i]) ==> SectionOf(hw, plan[i]) in r
    decreases |plan|
  {
    if plan == [] then []
    else
      var rest := RunPlan(hw, plan[1..]);
      assert forall i :: 1 <= i < |plan| ==> plan[i] == plan[1..][i - 1];
      if Fires(hw, plan[0]) then [SectionOf(hw, plan[0])] + rest else rest
  }

  /** `generate_peripheral_init`: AVR wraps its plan in the clock set-up and the interrupt enables. */
  function PeripheralInit(p: Platform, hw: seq<Node>): (r: seq<Section>)
    ensures p == Avr ==> |r| >= 2 && r[0] == Clocks && r[|r| - 1] == Nvic
    ensures p != Avr ==> forall s :: s in r ==> s.Configure?
  {
    var body := RunPlan(hw, Plan(p));
    if p == Avr then [Clocks] + body + [Nvic] else body
  }

  /** A family has a block among the sections. */
  predicate Configures(r: seq<Section>, f: Family)
  {
    exists s :: s in r && s.Configure? && s.family == f
  }

  /** The sections' families strictly follow the STM32 order. */
  predicate InRankOrder(r: seq<Section>)
  {
    forall i, j :: 0 <= i < j < |r| && r[i].Configure? && r[j].Configure? ==> FamilyRank(r[i].family) < FamilyRank(r[j].family)
  }

  /** A plan whose steps follow the STM32 order. */
  predicate PlanInRankOrder(plan: seq<Step>)
  {
    forall i, j :: 0 <= i < j < |plan| ==> FamilyRank(plan[i].0) < FamilyRank(plan[j].0)
  }

  /** The rest of a plan in the STM32 order is in that order. */
  lemma PlanTailInOrder(plan: seq<Step>)
    requires plan != [] && PlanInRankOrder(plan)
    ensures PlanInRankOrder(plan[1..])
  {
    forall i, j | 0 <= i < j < |plan[1..]| ensures FamilyRank(plan[1..][i].0) < FamilyRank(plan[1..][j].0) {
      assert plan[1..][i] == plan[i + 1] && plan[1..][j] == plan[j + 1];
    }
  }

  /** The sections of the rest of a plan in the STM32 order all come after its first step. */
  lemma LaterSections(hw: seq<Node>, plan: seq<Step>)
    requires plan != [] && PlanInRankOrder(plan)
    ensures forall s :: s in RunPlan(hw, plan[1..]) ==> s.Configure? && FamilyRank(plan[0].0) < FamilyRank(s.family)
  {
    var rest := plan[1..];
    forall s | s in RunPlan(hw, rest) ensures s.Configure? && FamilyRank(plan[0].0) < FamilyRank(s.family) {
      var i :| 0 <= i < |rest| && Fires(hw, rest[i]) && s == SectionOf(hw, rest[i]);
      assert rest[i] == plan[i + 1];
    }
  }

  /** A block in front of later blocks in order keeps the order. */
  lemma ConsInOrder(s0: Section, rest: seq<Section>)
    requires s0.Configure? && InRankOrder(rest)
    requires forall s :: s in rest ==> s.Configure? && FamilyRank(s0.family) < FamilyRank(s.family)
    ensures InRankOrder([s0] + rest)
  {
    var r := [s0] + rest;
    forall i, j | 0 <= i < j < |r| && r[i].Configure? && r[j].Configure? ensures FamilyRank(r[i].family) < FamilyRank(r[j].family) {
      assert r[j] == rest[j - 1];
      if i > 0 { assert r[i] == rest[i - 1]; }
    }
  }

  /** A plan in the STM32 order writes its sections in that order. */
  lemma {:induction false} RunPlanInOrder(hw: seq<Node>, plan: seq<Step>)
    requires PlanInRankOrder(plan)
    ensures InRankOrder(RunPlan(hw, plan))
    decreases |plan|
  {
    if plan != [] {
      PlanTailInOrder(plan);
      RunPlanInOrder(hw, plan[1..]);
      LaterSections(hw, plan);
      if Fires(hw, plan[0]) {
        ConsInOrder(SectionOf(hw, plan[0]), RunPlan(hw, plan[1..]));
      }
    }
  }

  /** A step that fires leaves its family configured. */
  lemma FiredConfigures(hw: seq<Node>, plan: seq<Step>, i: nat)
    requires i < |plan| && Fires(hw, plan[i])
    ensures Configures(RunPlan(hw, plan), plan[i].0)
  {
    assert SectionOf(hw, plan[i]) in RunPlan(hw, plan);
  }

  /** A configured family has a step that fired. */
  lemma ConfiguredFired(hw: seq<Node>, plan: seq<Step>, f: Family)
    requires Configures(RunPlan(hw, plan), f)
    ensures exists i :: 0 <= i < |plan| && plan[i].0 == f && Fires(hw, plan[i])
  {
    var s :| s in RunPlan(hw, plan) && s.Configure? && s.family == f;
    var i :| 0 <= i < |plan| && Fires(hw, plan[i]) && s == SectionOf(hw, plan[i]);
    assert plan[i].0 == f;
  }

  /** The STM32 plan: every family once, at its rank, one block per node. */
  lemma Stm32Plan()
    ensures |Plan(Stm32)| == 6 && PlanInRankOrder(Plan(Stm32))
    ensures forall f :: Plan(Stm32)[FamilyRank(f)] == (f, PerNode)
    ensures forall i :: 0 <= i < 6 ==> Plan(Stm32)[i].1 == PerNode
  {
  }

  /** STM32 writes a family's block exactly when a node of that family is present. */
  lemma Stm32InitFamilies(hw: seq<Node>, f: Family)
    ensures Configures(PeripheralInit(Stm32, hw), f) <==> NodesOf(hw, f) != []
  {
    Stm32Plan();
    var plan := Plan(Stm32);
    if NodesOf(hw, f) != [] {
      FiredConfigures(hw, plan, FamilyRank(f));
    }
    if Configures(RunPlan(hw, plan), f) {
      ConfiguredFired(hw, plan, f);
      var i :| 0 <= i < |plan| && plan[i].0 == f && Fires(hw, plan[i]);
      assert plan[i].1 == PerNode;
    }
  }

  /** STM32 writes its blocks in the order GPIO, ADC, I2C, SPI, UART, CAN. */
  lemma Stm32InitOrder(hw: seq<Node>)
    ensures InRankOrder(PeripheralInit(Stm32, hw))
  {
    Stm32Plan();
    RunPlanInOrder(hw, Plan(Stm32));
  }

  /** Each STM32 block covers every node of its family. */
  lemma Stm32InitCoversNodes(hw: seq<Node>)
    ensures forall s :: s in PeripheralInit(Stm32, hw) ==> s.Configure? && s.nodes == NodesOf(hw, s.family)
  {
    Stm32Plan();
    var plan := Plan(Stm32);
    forall s | s in PeripheralInit(Stm32, hw) ensures s.Configure? && s.nodes == NodesOf(hw, s.family) {
      var i :| 0 <= i < |plan| && Fires(hw, plan[i]) && s == SectionOf(hw, plan[i]);
    }
  }

  /** AVR always configures the ADC and the SPI, and enables their interrupts, whatever the inputs. */
  lemma AvrAlwaysConfigures(hw: seq<Node>)
    ensures Configures(PeripheralInit(Avr, hw), Adc) && Configures(PeripheralInit(Avr, hw), Spi)
    ensures PeripheralInit(Avr, hw)[|PeripheralInit(Avr, hw)| - 1] == Nvic
  {
    var plan := Plan(Avr);
    var body := RunPlan(hw, plan);
    assert plan[1] == (Adc, Always) && plan[3] == (Spi, Always);
    assert SectionOf(hw, plan[1]) in body && SectionOf(hw, plan[3]) in body;
    assert forall s :: s in body ==> s in PeripheralInit(Avr, hw);
  }

  /** The only steps written whatever the inputs are AVR's ADC and SPI blocks. */
  lemma AlwaysSteps(p: Platform)
    ensures forall i :: 0 <= i < |Plan(p)| && Plan(p)[i].1 == Always ==> p == Avr && (Plan(p)[i].0 == Adc || Plan(p)[i].0 == Spi)
  {
  }

  /** A block of a family is a block of the adaptor's plan. */
  lemma InitBlocks(p: Platform, hw: seq<Node>, f: Family)
    requires Configures(PeripheralInit(p, hw), f)
    ensures Configures(RunPlan(hw, Plan(p)), f)
  {
    var s :| s in PeripheralInit(p, hw) && s.Configure? && s.family == f;
    assert s in RunPlan(hw, Plan(p));
  }

  /** Apart from AVR's ADC and SPI blocks, no adaptor writes a block for a family with no node. */
  lemma InitNeedsNodes(p: Platform, hw: seq<Node>, f: Family)
    requires !(p == Avr && (f == Adc || f == Spi))
    requires Configures(PeripheralInit(p, hw), f)
    ensures NodesOf(hw, f) != []
  {
    InitBlocks(p, hw, f);
    ConfiguredFired(hw, Plan(p), f);
    AlwaysSteps(p);
  }

  datatype GpioMode = Input | Output

  /** The direction the GPIO loop picks: input for a GPIO input node, output otherwise. */
  function ModeOf(n: Node): GpioMode
  {
    if n.compatible == GpioInput then Input else Output
  }

  /**
    Only GPIO input nodes reach the GPIO block, so the output direction is
    never written.
   */
  lemma GpioAlwaysInput(p: Platform, hw: seq<Node>)
    ensures forall s, n :: s in PeripheralInit(p, hw) && s.Configure? && s.family == Gpio && n in s.nodes ==> ModeOf(n) == Input
  {
    var plan := Plan(p);
    var body := RunPlan(hw, plan);
    forall s, n | s in PeripheralInit(p, hw) && s.Configure? && s.family == Gpio && n in s.nodes ensures ModeOf(n) == Input {
      assert s in body;
      var i :| 0 <= i < |plan| && Fires(hw, plan[i]) && s == SectionOf(hw, plan[i]);
      assert n in NodesOf(hw, Gpio);
    }
  }
}

=== FILE: bldc.dfy ===
/**
  The N-phase BLDC motor driver (`src/drivers/lq_bldc.c`): configuration
  checks at start-up, the power and direction setpoints, and the periodic
  update that advances the open-loop electrical angle and computes one
  duty cycle per phase, by six-step commutation or from a sine table.

  The platform PWM layer (`lq_bldc_platform_*`) is outside the model: the
  return codes of its init, enable and brake calls are parameters, and the
  duty cycles handed to `lq_bldc_platform_set_duty` are returned, one per
  phase in phase order. Where the width of C's `unsigned long` matters it
  is a parameter too: 64 bits on the native build, 32 bits on the
  microcontroller targets.
 */
module Bldc {
  import opened CInt
  import opened Wrappers

  /** `LQ_BLDC_MAX_PHASES`: the size of the per-phase duty array. */
  const MAX_PHASES: int := 6

  /** `enum lq_bldc_mode`; a stored mode may hold any other value. */
  const MODE_6STEP: int := 0
  const MODE_SINE: int := 1
  const MODE_FOC: int := 2
  const MODE_OPEN_LOOP: int := 3

  /** The largest power setpoint; `lq_bldc_set_power` clamps to it. */
  const MAX_POWER: int := 100
  /** The open-loop speed at full power, in RPM. */
  const MAX_RPM: int := 3000
  /** Microseconds per minute: `60UL * 1000000UL`. */
  const US_PER_MINUTE: int := 60_000_000
  /** A full electrical turn in angle units. */
  const TURN: int := 0x1_0000
  /** The span of the normalised sine, `(15254 - 5000) * 2`. */
  const SINE_SPAN: int := 20508

  /** `enum lq_bldc_direction`. */
  datatype Direction = Forward | Reverse

  /** `struct lq_bldc_config` without the pin tables, which only the platform layer reads. */
  datatype Config = Config(numPhases: int, polePairs: int, pwmFrequencyHz: int, mode: int,
                           maxDutyCycle: int, enableDeadtime: bool, deadtimeNs: int)

  /** What the declarations guarantee of a configuration. */
  predicate ConfigShape(cfg: Config)
  {
    && IsU8(cfg.numPhases) && IsU8(cfg.polePairs) && IsU32(cfg.pwmFrequencyHz)
    && IsU16(cfg.maxDutyCycle) && IsU16(cfg.deadtimeNs)
  }

  /** A per-phase `uint16_t duty_cycle[LQ_BLDC_MAX_PHASES]`. */
  predicate Duties(d: seq<int>)
  {
    |d| == MAX_PHASES && forall p :: 0 <= p < MAX_PHASES ==> IsU16(d[p])
  }

  /** `struct lq_bldc_state`. */
  datatype State = State(enabled: bool, power: int, direction: Direction, electricalAngle: int,
                         mechanicalRpm: int, commutationStep: int, dutyCycle: seq<int>)

  predicate StateShape(s: State)
  {
    && IsU8(s.power) && IsU16(s.electricalAngle) && IsU16(s.mechanicalRpm)
    && IsU32(s.commutationStep) && Duties(s.dutyCycle)
  }

  /** `struct lq_bldc_motor`. */
  datatype Motor = Motor(config: Config, state: State, motorId: int)

  /** A motor as the declarations and `lq_bldc_init` leave it: at most six phases. */
  predicate Valid(m: Motor)
  {
    ConfigShape(m.config) && m.config.numPhases <= MAX_PHASES && StateShape(m.state) && IsU8(m.motorId)
  }

  /** All six duty cycles off. */
  const NO_DUTY: seq<int> := [0, 0, 0, 0, 0, 0]

  /** The state `lq_bldc_init` leaves: zeroed, disabled, power 0, forward. */
  const RESET: State := State(false, 0, Forward, 0, 0, 0, NO_DUTY)

  /** The sine lookup table: 256 samples of one turn, between 5000 and 15254. */
  type SineSample = x: int | 5000 <= x <= 15254 witness 5000

  const SINE_TABLE: seq<SineSample> :=
    [ 5000, 5123, 5245, 5368, 5490, 5612, 5734, 5856, 5978, 6099, 6220, 6341, 6461, 6581, 6701, 6820,
      6939, 7057, 7175, 7293, 7410, 7526, 7642, 7757, 7872, 7986, 8100, 8213, 8325, 8437, 8548, 8659,
      8769, 8878, 8987, 9095, 9202, 9309, 9415, 9520, 9624, 9728, 9831, 9933, 10034, 10135, 10235, 10334,
      10432, 10529, 10626, 10721, 10816, 10910, 11003, 11095, 11187, 11277, 11367, 11455, 11543, 11630, 11716, 11801,
      11885, 11968, 12050, 12132, 12212, 12291, 12370, 12447, 12524, 12599, 12674, 12747, 12820, 12891, 12962, 13031,
      13100, 13167, 13234, 13299, 13364, 13427, 13490, 13551, 13611, 13671, 13729, 13786, 13842, 13897, 13951, 14004,
      14056, 14107, 14156, 14205, 14252, 14299, 14344, 14388, 14431, 14473, 14514, 14554, 14593, 14631, 14668, 14703,
      14738, 14771, 14803, 14834, 14864, 14893, 14921, 14947, 14973, 14997, 15021, 15043, 15064, 15084, 15103, 15121,
      15137, 15153, 15167, 15181, 15193, 15204, 15214, 15223, 15231, 15237, 15243, 15247, 15251, 15253, 15254, 15254,
      15254, 15252, 15249, 15245, 15240, 15234, 15227, 15218, 15209, 15198, 15187, 15174, 15160, 15145, 15129, 15112,
      15094, 15075, 15055, 15033, 15011, 14987, 14963, 14937, 14911, 14883, 14854, 14824, 14794, 14762, 14729, 14695,
      14660, 14624, 14587, 14549, 14510, 14470, 14429, 14387, 14344, 14300, 14255, 14209, 14162, 14114, 14065, 14015,
      13965, 13913, 13861, 13807, 13753, 13698, 13642, 13585, 13527, 13468, 13409, 13348, 13287, 13224, 13161, 13097,
      13032, 12967, 12900, 12833, 12765, 12696, 12626, 12556, 12485, 12413, 12340, 12267, 12193, 12118, 12042, 11966,
      11889, 11811, 11733, 11654, 11574, 11494, 11413, 11331, 11249, 11166, 11082, 10998, 10913, 10827, 10741, 10655,
      10567, 10480, 10391, 10302, 10213, 10123, 10032, 9941, 9850, 9758, 9665, 9572, 9479, 9385, 9291, 9196 ]

  // ---------------------------------------------------------------------
  // Setup and setpoints

  /** The configurations lq_bldc_init lets through, or with `rejectEmpty` also refuses zero phases. */
  predicate Accepted(cfg: Option<Config>, rejectEmpty: bool)
  {
    cfg.Some? && cfg.value.numPhases <= MAX_PHASES && !(rejectEmpty && cfg.value.numPhases == 0)
  }

  /**
    lq_bldc_init, with the missing check for zero phases as a switch
    (`rejectEmpty`). A missing configuration or more than six phases is
    -EINVAL, and a deadtime request on a platform without deadtime support
    (`noDeadtime`) -ENOTSUP, the motor untouched either way; otherwise the
    configuration is copied, the state reset and the platform init's code
    returned.
   */
  function InitWith(m: Motor, cfg: Option<Config>, motorId: int, noDeadtime: bool, platformRc: int,
                    rejectEmpty: bool): (r: (int, Motor))
    requires cfg.Some? ==> ConfigShape(cfg.value)
    requires IsU8(motorId)
    ensures !Accepted(cfg, rejectEmpty) ==> r == (-EINVAL, m)
    ensures Accepted(cfg, rejectEmpty) && noDeadtime && cfg.value.enableDeadtime ==> r == (-ENOTSUP, m)
    ensures Accepted(cfg, rejectEmpty) && !(noDeadtime && cfg.value.enableDeadtime) ==>
      && r.0 == platformRc && Valid(r.1) && r.1.config == cfg.value && r.1.motorId == motorId
      && !r.1.state.enabled && r.1.state.power == 0 && r.1.state.direction == Forward
      && r.1.state.dutyCycle == NO_DUTY
  {
    if !Accepted(cfg, rejectEmpty) then (-EINVAL, m)
    else if noDeadtime && cfg.value.enableDeadtime then (-ENOTSUP, m)
    else (platformRc, Motor(cfg.value, RESET, motorId))
  }

  /** lq_bldc_init as written: zero phases are accepted. */
  function Init(m: Motor, cfg: Option<Config>, motorId: int, noDeadtime: bool, platformRc: int): (r: (int, Motor))
    requires cfg.Some? ==> ConfigShape(cfg.value)
    requires IsU8(motorId)
    ensures r.0 == -EINVAL && r.1 == m <== cfg.None? || cfg.value.numPhases > MAX_PHASES
    ensures r.1 != m ==> r.1.config == cfg.value && r.1.config.numPhases <= MAX_PHASES
  {
    InitWith(m, cfg, motorId, noDeadtime, platformRc, false)
  }

  /** lq_bldc_init refusing a configuration with no phases as well. */
  function InitChecked(m: Motor, cfg: Option<Config>, motorId: int, noDeadtime: bool, platformRc: int): (r: (int, Motor))
    requires cfg.Some? ==> ConfigShape(cfg.value)
    requires IsU8(motorId)
    ensures r.0 == -EINVAL && r.1 == m <== cfg.None? || cfg.value.numPhases == 0 || cfg.value.numPhases > MAX_PHASES
    ensures r.1 != m ==> r.1.config == cfg.value && 1 <= r.1.config.numPhases <= MAX_PHASES
  {
    InitWith(m, cfg, motorId, noDeadtime, platformRc, true)
  }

  /**
    lq_bldc_enable: the enable flag follows the request; disabling also
    clears every duty cycle and drives each phase to 0. The platform's
    code is returned.
   */
  function Enable(m: Motor, enable: bool, platformRc: int): (r: (int, Motor, seq<int>))
    requires Valid(m)
    ensures r.0 == platformRc && Valid(r.1) && r.1.config == m.config && r.1.state.enabled == enable
    ensures r.1.state.power == m.state.power && r.1.state.direction == m.state.direction
    ensures enable ==> r.1.state.dutyCycle == m.state.dutyCycle && r.2 == []
    ensures !enable ==> r.1.state.dutyCycle == NO_DUTY
    ensures !enable ==> |r.2| == m.config.numPhases && forall p :: 0 <= p < |r.2| ==> r.2[p] == 0
  {
    if enable then (platformRc, m.(state := m.state.(enabled := true)), [])
    else (platformRc, m.(state := m.state.(enabled := false, dutyCycle := NO_DUTY)), seq(m.config.numPhases, _ => 0))
  }

  /** lq_bldc_set_power: the setpoint, clamped to 100; nothing else changes. */
  function SetPower(m: Motor, power: int): (r: Motor)
    requires Valid(m) && IsU8(power)
    ensures Valid(r) && r.state.power <= MAX_POWER
    ensures r.state.power == if power > MAX_POWER then MAX_POWER else power
    ensures r == m.(state := m.state.(power := r.state.power))
  {
    m.(state := m.state.(power := Min(power, MAX_POWER)))
  }

  /** lq_bldc_set_direction. */
  function SetDirection(m: Motor, direction: Direction): (r: Motor)
    requires Valid(m)
    ensures Valid(r) && r.state.direction == direction && r == m.(state := m.state.(direction := direction))
  {
    m.(state := m.state.(direction := direction))
  }

  /** lq_bldc_emergency_stop: disabled at power 0, then the platform brake's code. */
  function EmergencyStop(m: Motor, brakeRc: int): (r: (int, Motor))
    requires Valid(m)
    ensures r.0 == brakeRc && Valid(r.1) && !r.1.state.enabled && r.1.state.power == 0
    ensures r.1 == m.(state := m.state.(enabled := false, power := 0))
  {
    (brakeRc, m.(state := m.state.(enabled := false, power := 0)))
  }

  // ---------------------------------------------------------------------
  // The update

  /** `(uint16_t)((power * max_duty_cycle) / 100)`: the duty at the current power. */
  function PowerScaled(power: int, maxDuty: int): (d: int)
    requires IsU8(power) && IsU16(maxDuty)
    ensures IsU16(d)
    ensures power <= MAX_POWER ==> d <= maxDuty && d * 100 <= power * maxDuty < (d + 1) * 100
  {
    PercentBelow(power, maxDuty);
    WrapU16(power * maxDuty / 100)
  }

  /** A percentage of at most 100 of a value is at most that value. */
  lemma PercentBelow(power: int, maxDuty: int)
    requires IsU8(power) && IsU16(maxDuty)
    ensures power <= MAX_POWER ==> power * maxDuty / 100 <= maxDuty
  {
    if power <= MAX_POWER && maxDuty > 0 {
      MulMono(power, MAX_POWER, maxDuty);
      DivModUnique(MAX_POWER * maxDuty, 100, maxDuty, 0);
      DivMono(power * maxDuty, MAX_POWER * maxDuty, 100);
    }
  }

  /**
    `(uint32_t)((rpm_target * 65536UL * delta_time_us) / 60000000UL)`. With
    a 64-bit `unsigned long` (`wide`) the product is exact; with a 32-bit
    one it is reduced modulo 2^32 before the division.
   */
  function AngleIncrement(rpm: int, dt: int, wide: bool): (inc: int)
    requires 0 <= rpm <= 7650 && IsU32(dt)
    ensures IsU32(inc)
  {
    var product := rpm * TURN * dt;
    WrapU32((if wide then product else WrapU32(product)) / US_PER_MINUTE)
  }

  /** `electrical_angle * 6 / 65536`: the sixth of the turn the angle lies in. */
  function CommutationStep(angle: int): (step: int)
    requires IsU16(angle)
    ensures 0 <= step < 6
  {
    DivBounds(angle * 6, TURN);
    angle * 6 / TURN
  }

  /**
    The phases the six-step table drives high and low for a step, as
    `calculate_6step` indexes them. As written (`fixed` false) the reverse
    row of step 2 names phase 1 for both; fixed, its low side is phase 2.
   */
  function Pattern(step: int, reverse: bool, fixed: bool): (r: (int, int))
    requires 0 <= step < 6
    ensures 0 <= r.0 < 3 && 0 <= r.1 < 3
  {
    match step
    case 0 => (if reverse then 2 else 0, if reverse then 0 else 1)
    case 1 => (if reverse then 1 else 0, if reverse then 0 else 2)
    case 2 => (1, if reverse && !fixed then 1 else 2)
    case 3 => (if reverse then 0 else 1, if reverse then 1 else 0)
    case 4 => (if reverse then 0 else 2, if reverse then 2 else 0)
    case 5 => (if reverse then 1 else 2, if reverse then 2 else 1)
  }

  /**
    `calculate_6step`: every duty cleared, then, for a three-phase motor
    only, the high phase set to the duty and the low phase to 0, in that
    order.
   */
  function SixStep(n: int, duty: int, step: int, direction: Direction, fixed: bool): (d: seq<int>)
    requires IsU16(duty) && 0 <= step < 6
    ensures Duties(d)
  {
    if n != 3 then NO_DUTY
    else
      var (high, low) := Pattern(step, direction == Reverse, fixed);
      NO_DUTY[high := duty][low := 0]
  }

  /** One phase's duty in `calculate_sine_pwm`. */
  function PhaseDuty(angle: int, phase: int, n: int, scaled: int, direction: Direction): (d: int)
    requires IsU16(angle) && 0 <= phase < n <= MAX_PHASES && IsU16(scaled)
    ensures 0 <= d <= scaled
  {
    var spacing := WrapU16(TURN / n);
    var a := WrapU16(angle + phase * spacing);
    var a' := if direction == Reverse then WrapU16(TURN - a) else a;
    var sine: int := SINE_TABLE[a' / 256];
    var normalized := if sine >= 5000 then (sine - 5000) * 2 else 0;
    ScaleBelow(normalized, scaled);
    WrapU16(normalized * scaled / SINE_SPAN)
  }

  /** A share of at most the whole sine span scales a duty down, never up. */
  lemma ScaleBelow(x: int, scaled: int)
    requires 0 <= x <= SINE_SPAN && IsU16(scaled)
    ensures 0 <= x * scaled / SINE_SPAN <= scaled
  {
    if scaled > 0 {
      MulMono(x, SINE_SPAN, scaled);
      DivModUnique(SINE_SPAN * scaled, SINE_SPAN, scaled, 0);
      DivMono(x * scaled, SINE_SPAN * scaled, SINE_SPAN);
    }
  }

  /**
    `calculate_sine_pwm`: the first `n` duties from the sine table, the
    phases spread evenly over a turn; the rest of the array is left as it
    was. Defined for at least one phase: the phase spacing divides by `n`.
   */
  function SinePwm(angle: int, n: int, scaled: int, direction: Direction, prior: seq<int>): (d: seq<int>)
    requires IsU16(angle) && 1 <= n <= MAX_PHASES && IsU16(scaled) && Duties(prior)
    ensures Duties(d)
    ensures forall p :: 0 <= p < MAX_PHASES ==> if p < n then d[p] <= scaled else d[p] == prior[p]
  {
    seq(MAX_PHASES, p requires 0 <= p < MAX_PHASES => if p < n then PhaseDuty(angle, p, n, scaled, direction) else prior[p])
  }

  /** An update's return code, the motor after it and the duty written to each phase, in order. */
  datatype Updated = Updated(rc: int, motor: Motor, writes: seq<int>)

  /** Whether a mode is one of the sine-based ones. */
  predicate SineMode(mode: int)
  {
    mode == MODE_SINE || mode == MODE_FOC || mode == MODE_OPEN_LOOP
  }

  /**
    lq_bldc_update, with the width of `unsigned long` (`wide`) and the
    six-step table (`fixed`) as parameters. A disabled or unpowered motor is
    left alone (0). Otherwise the angle advances by the open-loop speed and
    the duties follow the mode; an unknown mode returns -ENOTSUP after the
    angle and speed have moved. None stands for the division by zero a
    sine-based mode performs on a motor with no phases.
   */
  function UpdateWith(m: Motor, dt: int, wide: bool, fixed: bool): (r: Option<Updated>)
    requires Valid(m) && IsU32(dt)
    ensures r.Some? ==> Valid(r.value.motor) && r.value.motor.config == m.config
    ensures !m.state.enabled || m.state.power == 0 ==> r == Some(Updated(0, m, []))
    ensures r.None? <==> m.state.enabled && m.state.power != 0 && SineMode(m.config.mode) && m.config.numPhases == 0
    ensures r.Some? && m.state.enabled && m.state.power != 0 ==>
      (r.value.rc == -ENOTSUP <==> !(m.config.mode == MODE_6STEP || SineMode(m.config.mode)))
    ensures r.Some? && r.value.rc == 0 && m.state.enabled && m.state.power != 0 ==>
      r.value.writes == r.value.motor.state.dutyCycle[..m.config.numPhases]
  {
    if !m.state.enabled || m.state.power == 0 then Some(Updated(0, m, []))
    else
      var rpm := m.state.power * MAX_RPM / 100;
      var angle := WrapU16(m.state.electricalAngle + WrapU16(AngleIncrement(rpm, dt, wide)));
      var s := m.state.(electricalAngle := angle, mechanicalRpm := WrapU16(rpm));
      var n := m.config.numPhases;
      var scaled := PowerScaled(s.power, m.config.maxDutyCycle);
      if m.config.mode == MODE_6STEP then
        var step := CommutationStep(angle);
        var d := SixStep(n, scaled, step % 6, s.direction, fixed);
        Some(Updated(0, m.(state := s.(commutationStep := step, dutyCycle := d)), d[..n]))
      else if SineMode(m.config.mode) then
        if n == 0 then None
        else
          var d := SinePwm(angle, n, scaled, s.direction, s.dutyCycle);
          Some(Updated(0, m.(state := s.(dutyCycle := d)), d[..n]))
      else Some(Updated(-ENOTSUP, m.(state := s), []))
  }

  /** lq_bldc_update as written, for either width of `unsigned long`. */
  function Update(m: Motor, dt: int, wide: bool): (r: Option<Updated>)
    requires Valid(m) && IsU32(dt)
    ensures r.Some? ==> Valid(r.value.motor)
    ensures m.state.enabled && m.state.power != 0 && m.config.mode == MODE_6STEP ==>
      r.Some? && r.value.motor.state.commutationStep < 6
  {
    UpdateWith(m, dt, wide, false)
  }

  /** lq_bldc_update with the exact angle product and the fixed six-step table. */
  function UpdateFixed(m: Motor, dt: int): (r: Option<Updated>)
    requires Valid(m) && IsU32(dt)
    ensures r.Some? ==> Valid(r.value.motor)
    ensures m.state.enabled && m.state.power != 0 && m.config.mode == MODE_6STEP ==>
      r.Some? && r.value.motor.state.commutationStep < 6
  {
    UpdateWith(m, dt, true, true)
  }

  // ---------------------------------------------------------------------
  // Properties

  /** The commutation step is the sixth of the turn the angle lies in. */
  lemma StepIsSixth(angle: int)
    requires IsU16(angle)
    ensures var step := CommutationStep(angle);
      step * TURN <= angle * 6 < (step + 1) * TURN
  {
    DivBounds(angle * 6, TURN);
  }

  /** The high and low phase coincide exactly in the reverse row of step 2 as written. */
  lemma PatternClash(step: int, reverse: bool, fixed: bool)
    requires 0 <= step < 6
    ensures Pattern(step, reverse, fixed).0 == Pattern(step, reverse, fixed).1 <==> step == 2 && reverse && !fixed
  {
  }

  /**
    Six-step never drives two phases: every duty is 0 or the power-scaled
    duty, at most one phase carries it, and only a three-phase motor
    drives any.
   */
  lemma SixStepExclusive(n: int, duty: int, step: int, direction: Direction, fixed: bool)
    requires IsU16(duty) && 0 <= step < 6
    ensures var d := SixStep(n, duty, step, direction, fixed);
      && (forall p :: 0 <= p < MAX_PHASES ==> d[p] == 0 || d[p] == duty)
      && (forall p, q :: 0 <= p < q < MAX_PHASES ==> d[p] == 0 || d[q] == 0)
      && (n != 3 || duty == 0 ==> d == NO_DUTY)
  {
  }

  /** With the fixed table, a three-phase motor at nonzero duty has exactly the step's high phase driven. */
  lemma SixStepDrivesOne(duty: int, step: int, direction: Direction)
    requires IsU16(duty) && duty > 0 && 0 <= step < 6
    ensures var d := SixStep(3, duty, step, direction, true);
      var high := Pattern(step, direction == Reverse, true).0;
      d[high] == duty && forall p :: 0 <= p < MAX_PHASES && p != high ==> d[p] == 0
  {
    PatternClash(step, direction == Reverse, true);
  }

  /** As written, step 2 in reverse drives no phase at all, whatever the power. */
  lemma ReverseStepTwoIdle(duty: int)
    requires IsU16(duty)
    ensures SixStep(3, duty, 2, Reverse, false) == NO_DUTY
  {
  }

  /**
    Every duty an update writes stays within the configured maximum once the
    power setpoint is at most 100, as set_power keeps it.
   */
  lemma UpdateWithinMax(m: Motor, dt: int, wide: bool, fixed: bool)
    requires Valid(m) && IsU32(dt) && m.state.power <= MAX_POWER
    ensures var r := UpdateWith(m, dt, wide, fixed);
      r.Some? ==> forall p :: 0 <= p < |r.value.writes| ==> r.value.writes[p] <= m.config.maxDutyCycle
  {
    var r := UpdateWith(m, dt, wide, fixed);
    if r.Some? && m.state.enabled && m.state.power != 0 {
      var scaled := PowerScaled(m.state.power, m.config.maxDutyCycle);
      if m.config.mode == MODE_6STEP {
        var angle := r.value.motor.state.electricalAngle;
        SixStepExclusive(m.config.numPhases, scaled, CommutationStep(angle) % 6, m.state.direction, fixed);
      }
    }
  }

  /** A configuration InitChecked accepts keeps every later update defined. */
  lemma UpdateDefined(m: Motor, dt: int, wide: bool, fixed: bool)
    requires Valid(m) && IsU32(dt) && m.config.numPhases >= 1
    ensures UpdateWith(m, dt, wide, fixed).Some?
  {
  }

  /**
    As written, init accepts a motor with no phases, and once it is enabled
    and powered a sine-mode update divides by zero.
   */
  lemma ZeroPhasesAccepted(m: Motor, cfg: Config, dt: int)
    requires ConfigShape(cfg) && cfg.numPhases == 0 && cfg.mode == MODE_SINE && !cfg.enableDeadtime
    requires IsU32(dt)
    ensures var (rc, m1) := Init(m, Some(cfg), 0, false, 0);
      rc == 0 && Valid(m1) && m1.config == cfg
      && UpdateWith(SetPower(Enable(m1, true, 0).1, 50), dt, true, true).None?
  {
  }

  /** InitChecked refuses the configuration with no phases. */
  lemma ZeroPhasesRefused(m: Motor, cfg: Config)
    requires ConfigShape(cfg) && cfg.numPhases == 0
    ensures InitChecked(m, Some(cfg), 0, false, 0) == (-EINVAL, m)
  {
  }

  /** With a 64-bit product and up to a minute, the increment is the exact quotient, at most one turn per RPM. */
  lemma IncrementExact(rpm: int, dt: int)
    requires 0 <= rpm <= 7650 && 0 <= dt <= US_PER_MINUTE
    ensures AngleIncrement(rpm, dt, true) == rpm * TURN * dt / US_PER_MINUTE <= rpm * TURN
  {
    var k := rpm * TURN;
    QuotientBelow(k, dt);
    assert k < U32;
    assert rpm * TURN * dt == k * dt;
  }

  /** Dividing `k * dt` by a minute of microseconds, for `dt` up to a minute, gives at most k. */
  lemma QuotientBelow(k: int, dt: int)
    requires 0 <= k && 0 <= dt <= US_PER_MINUTE
    ensures 0 <= k * dt / US_PER_MINUTE <= k
  {
    if k > 0 {
      MulMono(dt, US_PER_MINUTE, k);
      DivMono(k * dt, k * US_PER_MINUTE, US_PER_MINUTE);
      DivModUnique(k * US_PER_MINUTE, US_PER_MINUTE, k, 0);
    }
  }

  /** With a 64-bit product, a longer interval never advances the angle less (up to a minute). */
  lemma IncrementMonotone(rpm: int, dt1: int, dt2: int)
    requires 0 <= rpm <= 7650 && 0 <= dt1 <= dt2 <= US_PER_MINUTE
    ensures AngleIncrement(rpm, dt1, true) <= AngleIncrement(rpm, dt2, true)
  {
    IncrementExact(rpm, dt1);
    IncrementExact(rpm, dt2);
    var k := rpm * TURN;
    if k > 0 {
      MulMono(dt1, dt2, k);
      DivMono(k * dt1, k * dt2, US_PER_MINUTE);
    }
  }

  /**
    With a 32-bit `unsigned long` the product wraps: at full power a 1 ms
    interval advances the angle by 55 units, less than the 68 a 21 µs one
    does, where the speed calls for 3276.
   */
  lemma IncrementWraps()
    ensures AngleIncrement(3000, 21, false) == 68
    ensures AngleIncrement(3000, 1000, false) == 55
    ensures AngleIncrement(3000, 1000, true) == 3276
  {
    DivModUnique(3000 * TURN * 1000, U32, 45, 3334471680);
    DivModUnique(3334471680, US_PER_MINUTE, 55, 34471680);
    DivModUnique(3000 * TURN * 21, US_PER_MINUTE, 68, 48768000);
    DivModUnique(3000 * TURN * 1000, US_PER_MINUTE, 3276, 48000000);
  }
}

=== FILE: bytes.dfy ===
/**
  Bytes and the big- and little-endian field layouts used by the wire
  formats (configuration DIDs, ISO-TP, J1939, CANopen, the crosscheck
  packet). The C code extracts byte k of a value as `(uint32_t)x >> 8k &
  0xFF` and joins bytes with shifts and ORs of non-overlapping fields, which
  here are Euclidean division, remainder and addition.
 */
module Bytes {
  import opened CInt

  type Byte = b: int | 0 <= b < 0x100

  /** Taking the next byte above the low `k` units: ((u/k) mod m)·k + u mod k = u mod k·m. */
  lemma SplitMod(u: int, k: int, m: int)
    requires k > 0 && m > 0
    ensures ((u / k) % m) * k + u % k == u % (k * m)
    ensures 0 <= ((u / k) % m) * k + u % k < k * m
  {
    var q, r := u / k, u % k;
    var qq, qr := q / m, q % m;
    assert u == q * k + r;
    assert q == qq * m + qr;
    assert u == qq * (k * m) + (qr * k + r) by {
      calc {
        u;
        q * k + r;
        (qq * m + qr) * k + r;
        qq * (k * m) + (qr * k + r);
      }
    }
    MulMono(qr, m - 1, k);
    assert qr * k + r < k * m;
    DivModUnique(u, k * m, qq, qr * k + r);
  }

  /** Big-endian uint16 join of two bytes. */
  function Join16(b: seq<Byte>): (r: int)
    requires |b| == 2
    ensures IsU16(r)
  {
    (b[0] as int) * 0x100 + b[1]
  }

  /** Big-endian uint32 join of four bytes. */
  function Join32(b: seq<Byte>): (r: int)
    requires |b| == 4
    ensures IsU32(r)
  {
    (b[0] as int) * 0x100_0000 + (b[1] as int) * 0x1_0000 + (b[2] as int) * 0x100 + b[3]
  }

  /** The two low bytes of `(uint32_t)x`, most significant first; joining them gives x mod 2^16. */
  function Be16(x: int): (r: seq<Byte>)
    ensures |r| == 2
    ensures Join16(r) == WrapU16(x)
  {
    var u := WrapU32(x);
    SplitMod(u, 0x100, 0x100);
    ModMod(x, U16, 0x1_0000);
    [(u / 0x100) % 0x100, u % 0x100]
  }

  /** The four bytes of `(uint32_t)x`, most significant first; joining them gives x mod 2^32. */
  function Be32(x: int): (r: seq<Byte>)
    ensures |r| == 4
    ensures Join32(r) == WrapU32(x)
  {
    var u := WrapU32(x);
    var r := [(u / 0x100_0000) % 0x100, (u / 0x1_0000) % 0x100, (u / 0x100) % 0x100, u % 0x100];
    Join32Split(u);
    r
  }

  lemma Join32Split(u: int)
    requires IsU32(u)
    ensures ((u / 0x100_0000) % 0x100) * 0x100_0000 + ((u / 0x1_0000) % 0x100) * 0x1_0000
            + ((u / 0x100) % 0x100) * 0x100 + u % 0x100 == u
  {
    SplitMod(u, 0x100, 0x100);
    SplitMod(u, 0x1_0000, 0x100);
    SplitMod(u, 0x100_0000, 0x100);
    assert u % U32 == u;
  }

  /** Splitting a joined pair gives the bytes back. */
  lemma Be16Join(b: seq<Byte>)
    requires |b| == 2
    ensures Be16(Join16(b)) == b
  {
    var u := Join16(b);
    DivModUnique(u, 0x100, b[0], b[1]);
    DivModUnique(b[0], 0x100, 0, b[0]);
  }

  /** Splitting a joined quadruple gives the bytes back. */
  lemma Be32Join(b: seq<Byte>)
    requires |b| == 4
    ensures Be32(Join32(b)) == b
  {
    var u := Join32(b);
    var hi: int := (b[0] as int) * 0x100 + b[1];
    var mid: int := hi * 0x100 + b[2];
    DivModUnique(u, 0x100, mid, b[3]);
    DivModUnique(u, 0x1_0000, hi, (b[2] as int) * 0x100 + b[3]);
    DivModUnique(u, 0x100_0000, b[0], (b[1] as int) * 0x1_0000 + (b[2] as int) * 0x100 + b[3]);
    DivModUnique(mid, 0x100, hi, b[2]);
    DivModUnique(hi, 0x100, b[0], b[1]);
    DivModUnique(b[0], 0x100, 0, b[0]);
  }

  /** A big-endian int16 field: the join reinterpreted as two's complement. */
  function DecodeI16(b: seq<Byte>): (r: int)
    requires |b| == 2
    ensures IsInt16(r)
  {
    Wrap16(Join16(b))
  }

  /** A big-endian int32 field: the join reinterpreted as two's complement. */
  function DecodeI32(b: seq<Byte>): (r: int)
    requires |b| == 4
    ensures IsInt32(r)
  {
    Wrap32(Join32(b))
  }

  /** An int16 survives its big-endian encoding; any int comes back as its low 16 bits. */
  lemma I16RoundTrip(x: int)
    ensures DecodeI16(Be16(x)) == Wrap16(x)
    ensures IsInt16(x) ==> DecodeI16(Be16(x)) == x
  {
  }

  /** An int32 survives its big-endian encoding; any int comes back as its low 32 bits. */
  lemma I32RoundTrip(x: int)
    ensures DecodeI32(Be32(x)) == Wrap32(x)
    ensures IsInt32(x) ==> DecodeI32(Be32(x)) == x
  {
  }

  /** Re-encoding a decoded int16 field reproduces its bytes. */
  lemma I16Reencode(b: seq<Byte>)
    requires |b| == 2
    ensures Be16(DecodeI16(b)) == b
  {
    var j := Join16(b);
    assert WrapU16(Wrap16(j)) == j;
    Be16Join(b);
    Be16Join(Be16(Wrap16(j)));
  }

  /** Re-encoding a decoded int32 field reproduces its bytes. */
  lemma I32Reencode(b: seq<Byte>)
    requires |b| == 4
    ensures Be32(DecodeI32(b)) == b
  {
    var j := Join32(b);
    assert WrapU32(Wrap32(j)) == j;
    Be32Join(b);
    Be32Join(Be32(Wrap32(j)));
  }

  /** Little-endian uint16 join, `lo | hi << 8`. */
  function JoinLe16(b: seq<Byte>): (r: int)
    requires |b| == 2
    ensures IsU16(r)
    ensures r == Join16([b[1], b[0]])
  {
    (b[1] as int) * 0x100 + b[0]
  }

  /** The two bytes of `(uint16_t)x`, least significant first. */
  function Le16(x: int): (r: seq<Byte>)
    ensures |r| == 2
    ensures JoinLe16(r) == WrapU16(x)
  {
    var b := Be16(x);
    [b[1], b[0]]
  }

  /** Little-endian uint32 join, `b0 | b1 << 8 | b2 << 16 | b3 << 24`. */
  function JoinLe32(b: seq<Byte>): (r: int)
    requires |b| == 4
    ensures IsU32(r)
    ensures r == Join32([b[3], b[2], b[1], b[0]])
  {
    (b[3] as int) * 0x100_0000 + (b[2] as int) * 0x1_0000 + (b[1] as int) * 0x100 + b[0]
  }

  /** The four bytes of `(uint32_t)x`, least significant first. */
  function Le32(x: int): (r: seq<Byte>)
    ensures |r| == 4
    ensures JoinLe32(r) == WrapU32(x)
  {
    var b := Be32(x);
    [b[3], b[2], b[1], b[0]]
  }

  /** Splitting a little-endian pair gives the bytes back. */
  lemma Le16Join(b: seq<Byte>)
    requires |b| == 2
    ensures Le16(JoinLe16(b)) == b
  {
    Be16Join([b[1], b[0]]);
  }

  /** Splitting a little-endian quadruple gives the bytes back. */
  lemma Le32Join(b: seq<Byte>)
    requires |b| == 4
    ensures Le32(JoinLe32(b)) == b
  {
    Be32Join([b[3], b[2], b[1], b[0]]);
  }

  /** `memcpy(buf + at, b, |b|)`. */
  function Splice(buf: seq<Byte>, at: int, b: seq<Byte>): (r: seq<Byte>)
    requires 0 <= at && at + |b| <= |buf|
    ensures |r| == |buf|
    ensures r[..at] == buf[..at] && r[at..at + |b|] == b && r[at + |b|..] == buf[at + |b|..]
  {
    buf[..at] + b + buf[at + |b|..]
  }

  /** Whether the single-bit mask `m` (1, 2, 4, …, 128) is set in byte `d`, i.e. `(d & m) != 0`. */
  predicate HasBit(d: Byte, m: int)
    requires m in {1, 2, 4, 8, 16, 32, 64, 128}
  {
    (d / m) % 2 == 1
  }
}

=== FILE: canopen.dfy ===
/**
  The CANopen protocol driver (`src/drivers/lq_canopen.c` with the record
  types and COB-ID helpers of `include/lq_canopen.h`). It covers the parts
  of CiA 301 that the driver implements: network management (NMT), SYNC,
  heartbeat, emergency (EMCY) and process data objects (PDOs). It also
  covers the node-id services of CiA 305 layer setting services (LSS).

  A COB-ID is an 11-bit CAN identifier: a function code in bits 7 to 10
  plus the node id in bits 0 to 6. COB-IDs are `uint16_t` in C and `bv16`
  here. The message identifier of the protocol interface is `bv32`, as in
  the J1939 driver.

  Every driver entry point is a pure function of the driver context. A
  call that changes the context returns the new context, paired with
  the events, the frames or the return code the C function produces.
 */
module CanOpen {
  import opened CInt
  import opened Bytes
  import opened Wrappers
  import opened Events
  import opened Protocol

  // Function codes.
  const FC_NMT: bv16 := 0x000
  const FC_SYNC: bv16 := 0x080
  /** The emergency function code equals the SYNC one; the node id tells them apart. */
  const FC_EMCY: bv16 := 0x080
  const FC_TPDO1: bv16 := 0x180
  const FC_RPDO1: bv16 := 0x200
  const FC_TPDO2: bv16 := 0x280
  const FC_RPDO2: bv16 := 0x300
  const FC_TPDO3: bv16 := 0x380
  const FC_RPDO3: bv16 := 0x400
  const FC_TPDO4: bv16 := 0x480
  const FC_RPDO4: bv16 := 0x500
  const FC_HEARTBEAT: bv16 := 0x700

  // LSS identifiers and the command specifiers the driver handles.
  const LSS_MASTER_TX: bv16 := 0x7E5
  const LSS_SLAVE_TX: bv16 := 0x7E4
  const LSS_SWITCH_GLOBAL: Byte := 0x04
  const LSS_CONFIGURE_NODE_ID: Byte := 0x11
  const LSS_INQUIRE_NODE_ID: Byte := 0x5E

  // NMT command specifiers.
  const NMT_START: Byte := 1
  const NMT_STOP: Byte := 2
  const NMT_PRE_OPERATIONAL: Byte := 128

  // PDO transmission types.
  const PDO_SYNC_1: Byte := 1
  const PDO_SYNC_240: Byte := 240
  const PDO_EVENT_DRIVEN: Byte := 254

  const PDO_SLOTS: nat := 4
  const MAX_MAPPINGS: nat := 8
  const MAX_SIGNALS: nat := 64
  const DEFAULT_HEARTBEAT_MS: int := 1000

  // ---------------------------------------------------------------------
  // COB-IDs
  // ---------------------------------------------------------------------

  /**
    lq_canopen_build_cob_id: function code plus node id, in 16 bits. For a
    function code of bits 7 to 10 only and a node id below 128, the two
    parts occupy disjoint bits and can be read back by masking.
   */
  function BuildCobId(fc: bv16, node: Byte): (r: bv16)
    ensures fc & 0x7F == 0 && fc <= 0x780 && node < 0x80 ==> r & 0x780 == fc && r & 0x7F == node as bv16
  {
    fc + node as bv16
  }

  /** lq_canopen_get_node_id: `(uint8_t)(cob_id - function_code)`. */
  function GetNodeId(cob: bv16, fc: bv16): Byte
  {
    ((cob - fc) & 0xFF) as int
  }

  /** Any node id, including 128..255, is recovered from the COB-ID built with it. */
  lemma CobIdRoundTrip(fc: bv16, node: Byte)
    ensures GetNodeId(BuildCobId(fc, node), fc) == node
  {
    ByteAsBv16(node);
    SubtractBack(fc, node as bv16);
  }

  lemma ByteAsBv16(node: Byte)
    ensures (node as bv16) as int == node && node as bv16 < 0x100
  {
  }

  lemma SubtractBack(fc: bv16, b: bv16)
    requires b < 0x100
    ensures ((fc + b) - fc) & 0xFF == b
  {
  }

  /** The function code of TPDO k, for k = 1..4. */
  function TpdoFunctionCode(k: int): (fc: bv16)
    requires 1 <= k <= 4
    ensures fc as int == 0x180 + 0x100 * (k - 1)
  {
    if k == 1 then FC_TPDO1 else if k == 2 then FC_TPDO2 else if k == 3 then FC_TPDO3 else FC_TPDO4
  }

  /** The function code of RPDO k, for k = 1..4. */
  function RpdoFunctionCode(k: int): (fc: bv16)
    requires 1 <= k <= 4
    ensures fc as int == 0x200 + 0x100 * (k - 1)
  {
    if k == 1 then FC_RPDO1 else if k == 2 then FC_RPDO2 else if k == 3 then FC_RPDO3 else FC_RPDO4
  }

  // ---------------------------------------------------------------------
  // Records
  // ---------------------------------------------------------------------

  /** `lq_canopen_nmt_state_t`. */
  datatype NmtState = Bootup | Stopped | Operational | PreOperational

  /** The state's numeric value, as the heartbeat carries it. */
  function NmtCode(s: NmtState): (r: Byte)
    ensures s == Operational <==> r == 5
    ensures s == Bootup <==> r == 0
  {
    match s
    case Bootup => 0
    case Stopped => 4
    case Operational => 5
    case PreOperational => 127
  }

  /** `lq_canopen_lss_state_t`. */
  datatype LssState = LssWaiting | LssConfiguration

  /** `struct lq_canopen_pdo_map`: one object mapped into a PDO, `length` in bits. */
  datatype PdoMap = PdoMap(index: int, subindex: Byte, length: Byte, signalId: int)

  /** `struct lq_canopen_pdo_config`; `num_mappings` is the length of `mappings`. */
  datatype PdoConfig = PdoConfig(cobId: bv16, transmissionType: Byte, eventTimerMs: int, inhibitTime: int,
                                 mappings: seq<PdoMap>)

  /** A PDO configuration holds at most eight mappings, the size of its array. */
  predicate ValidPdo(p: PdoConfig)
  {
    && |p.mappings| <= MAX_MAPPINGS && IsU16(p.eventTimerMs) && IsU16(p.inhibitTime)
    && forall i :: 0 <= i < |p.mappings| ==> IsU16(p.mappings[i].index) && IsU32(p.mappings[i].signalId)
  }

  /** A zeroed PDO slot: COB-ID 0 marks it unused. */
  const UNUSED_PDO: PdoConfig := PdoConfig(0, 0, 0, 0, [])

  /** `struct lq_canopen_ctx`; the signal cache is a sequence of at most 64 entries. */
  datatype Ctx = Ctx(
    nodeId: Byte, nmt: NmtState, lss: LssState,
    vendorId: int, productCode: int, revision: int, serial: int,
    tpdo: seq<PdoConfig>, rpdo: seq<PdoConfig>,
    signals: seq<Signal>, syncCounter: Byte,
    heartbeatPeriodMs: int, lastHeartbeat: int,
    emcyErrorCode: int, emcyPending: bool)

  predicate ValidCtx(c: Ctx)
  {
    && IsU32(c.vendorId) && IsU32(c.productCode) && IsU32(c.revision) && IsU32(c.serial)
    && |c.tpdo| == PDO_SLOTS && |c.rpdo| == PDO_SLOTS
    && (forall i :: 0 <= i < PDO_SLOTS ==> ValidPdo(c.tpdo[i]))
    && (forall i :: 0 <= i < PDO_SLOTS ==> ValidPdo(c.rpdo[i]))
    && |c.signals| <= MAX_SIGNALS && UniqueIds(c.signals)
    && (forall i :: 0 <= i < |c.signals| ==>
          IsU32(c.signals[i].id) && IsInt32(c.signals[i].value) && IsU64(c.signals[i].timestamp))
    && IsU16(c.heartbeatPeriodMs) && IsU64(c.lastHeartbeat) && IsU16(c.emcyErrorCode)
  }

  /**
    canopen_init: NULL arguments give -1. Otherwise the context is zeroed
    and takes the configured node address as its node id. The node starts
    pre-operational, in the LSS waiting state, with a 1000 ms heartbeat
    and no PDO configured.
   */
  function Init(cfg: Option<ProtocolConfig>): (r: (int, Option<Ctx>))
    ensures r.0 == -1 <==> cfg.None?
    ensures r.0 == 0 <==> r.1.Some?
    ensures r.1.Some? ==>
      var c := r.1.value;
      && ValidCtx(c) && c.nodeId == cfg.value.nodeAddress
      && c.nmt == PreOperational && c.lss == LssWaiting && c.heartbeatPeriodMs == DEFAULT_HEARTBEAT_MS
      && c.signals == [] && c.syncCounter == 0 && c.lastHeartbeat == 0 && !c.emcyPending
      && (forall i :: 0 <= i < PDO_SLOTS ==> c.tpdo[i].cobId == 0 && c.rpdo[i].cobId == 0)
  {
    match cfg
    case None => (-1, None)
    case Some(k) =>
      (0, Some(Ctx(k.nodeAddress, PreOperational, LssWaiting, 0, 0, 0, 0,
                   seq(PDO_SLOTS, _ => UNUSED_PDO), seq(PDO_SLOTS, _ => UNUSED_PDO),
                   [], 0, DEFAULT_HEARTBEAT_MS, 0, 0, false)))
  }

  // ---------------------------------------------------------------------
  // Receive PDOs
  // ---------------------------------------------------------------------

  /** `(length + 7) / 8`: the bytes a mapping of `length` bits spans. */
  function FieldBytes(length: Byte): nat
  {
    (length + 7) / 8
  }

  /**
    The value of one mapped field lying inside the frame, read little-endian.
    An 8- or 16-bit field is unsigned. A 32-bit field is the int32 of its
    four bytes. A field of any other length yields 0.
   */
  function FieldValue(data: seq<Byte>, at: nat, length: Byte): (v: int)
    requires at + FieldBytes(length) <= |data|
    ensures IsInt32(v)
    ensures length == 8 ==> v == data[at]
    ensures length == 16 ==> IsU16(v)
    ensures length != 8 && length != 16 && length != 32 ==> v == 0
  {
    if length == 8 then data[at]
    else if length == 16 then JoinLe16([data[at], data[at + 1]])
    else if length == 32 then Wrap32(JoinLe32([data[at], data[at + 1], data[at + 2], data[at + 3]]))
    else 0
  }

  /**
    Every mapping whose bytes fit in the frame, in mapping order, each read
    at the running bit offset. A mapping that does not fit emits nothing but
    still advances the offset.
   */
  function Fields(maps: seq<PdoMap>, data: seq<Byte>, bitOffset: nat, now: int): (r: seq<Event>)
    ensures |r| <= |maps|
    ensures forall i :: 0 <= i < |r| ==> r[i].status == EvOk && r[i].timestamp == now && IsInt32(r[i].value)
    decreases |maps|
  {
    if maps == [] then []
    else
      var at := bitOffset / 8;
      var rest := Fields(maps[1..], data, bitOffset + maps[0].length, now);
      if at + FieldBytes(maps[0].length) <= |data| then
        [Event(maps[0].signalId, FieldValue(data, at, maps[0].length), EvOk, now)] + rest
      else rest
  }

  /**
    The RPDO loop of canopen_decode: it stops once `budget` events have
    been produced, so its events are the first `budget` of the mappings that fit.
   */
  function DecodePdo(maps: seq<PdoMap>, data: seq<Byte>, bitOffset: nat, budget: nat, now: int): (r: seq<Event>)
    ensures var all := Fields(maps, data, bitOffset, now);
      |r| == Min(budget, |all|) && r == all[..|r|]
    decreases |maps|
  {
    if maps == [] || budget == 0 then []
    else
      var at := bitOffset / 8;
      var next := bitOffset + maps[0].length;
      if at + FieldBytes(maps[0].length) <= |data| then
        [Event(maps[0].signalId, FieldValue(data, at, maps[0].length), EvOk, now)]
          + DecodePdo(maps[1..], data, next, budget - 1, now)
      else DecodePdo(maps[1..], data, next, budget, now)
  }

  /** The 16-bit COB-ID of a PDO equals the 32-bit frame identifier. */
  predicate OnCobId(p: PdoConfig, address: bv32)
  {
    p.cobId as bv32 == address
  }

  /** The first RPDO slot whose COB-ID is the frame's identifier. */
  function FirstRpdo(pdos: seq<PdoConfig>, address: bv32): (r: Option<nat>)
    ensures r.Some? ==> r.value < |pdos| && OnCobId(pdos[r.value], address)
    ensures r.Some? ==> forall j :: 0 <= j < r.value ==> !OnCobId(pdos[j], address)
    ensures r.None? <==> forall j :: 0 <= j < |pdos| ==> !OnCobId(pdos[j], address)
  {
    if |pdos| == 0 then None
    else if OnCobId(pdos[0], address) then Some(0)
    else
      match FirstRpdo(pdos[1..], address)
      case None => None
      case Some(k) => Some(k + 1)
  }

  // ---------------------------------------------------------------------
  // Decode: NMT, SYNC, LSS and RPDOs
  // ---------------------------------------------------------------------

  /** The NMT state a command specifier leads to; reset commands and unknown ones change nothing. */
  function NmtTarget(cmd: Byte): (r: Option<NmtState>)
    ensures r.Some? <==> cmd in {NMT_START, NMT_STOP, NMT_PRE_OPERATIONAL}
    ensures r == Some(Operational) <==> cmd == NMT_START
  {
    if cmd == NMT_START then Some(Operational)
    else if cmd == NMT_STOP then Some(Stopped)
    else if cmd == NMT_PRE_OPERATIONAL then Some(PreOperational)
    else None
  }

  /** An NMT frame of two bytes whose target is this node or 0 (all nodes). */
  predicate NmtForUs(c: Ctx, m: Msg)
  {
    |m.data| == 2 && (m.data[1] == c.nodeId || m.data[1] == 0)
  }

  /** Node ids an LSS configuration may assign: 1..127, or 255 for "unconfigured". */
  predicate ValidNodeId(id: Byte)
  {
    0 < id && (id <= 127 || id == 255)
  }

  /** Frames decode consumes without looking for an RPDO: NMT, SYNC and LSS. */
  predicate ControlFrame(m: Msg)
  {
    || m.address == FC_NMT as bv32
    || m.address == FC_SYNC as bv32
    || (m.address == LSS_MASTER_TX as bv32 && |m.data| >= 1)
    || (m.address == LSS_SLAVE_TX as bv32 && |m.data| >= 5)
  }

  /** The slave side of LSS: switch-state-global and configure-node-id change the context. */
  function LssReceive(c: Ctx, data: seq<Byte>): (r: Ctx)
    requires |data| >= 1
    ensures r == c.(lss := r.lss, nodeId := r.nodeId)
    ensures r.nodeId != c.nodeId ==> c.lss == LssConfiguration && ValidNodeId(r.nodeId) && data[0] == LSS_CONFIGURE_NODE_ID
    ensures r.lss != c.lss ==> data[0] == LSS_SWITCH_GLOBAL
  {
    if data[0] == LSS_SWITCH_GLOBAL then
      if |data| >= 2 then c.(lss := if data[1] == 1 then LssConfiguration else LssWaiting) else c
    else if data[0] == LSS_CONFIGURE_NODE_ID then
      if |data| >= 2 && c.lss == LssConfiguration && ValidNodeId(data[1]) then c.(nodeId := data[1]) else c
    else c
  }

  /**
    canopen_decode. With room for no event it does nothing at all. An NMT
    frame addressed to this node applies Start, Stop or Pre-operational.
    SYNC advances the 8-bit SYNC counter. LSS frames from the master
    update the LSS state or node id. Frames from an LSS slave are ignored.
    Any other frame is decoded by the first RPDO with its COB-ID.
    Control frames never emit events, and a PDO never changes the context.
   */
  function Decode(c: Ctx, now: int, m: Msg, maxEvents: nat): (r: (seq<Event>, Ctx))
    requires ValidCtx(c)
    ensures ValidCtx(r.1) && |r.0| <= maxEvents
    ensures maxEvents == 0 ==> r == ([], c)
    ensures r.1 == c.(nmt := r.1.nmt, syncCounter := r.1.syncCounter, lss := r.1.lss, nodeId := r.1.nodeId)
    ensures ControlFrame(m) ==> r.0 == []
    ensures maxEvents > 0 && m.address == FC_NMT as bv32 ==>
      r.1 == c.(nmt := if NmtForUs(c, m) then NmtTarget(m.data[0]).GetOr(c.nmt) else c.nmt)
    ensures maxEvents > 0 && m.address == FC_SYNC as bv32 ==> r.1 == c.(syncCounter := (c.syncCounter + 1) % 256)
    ensures r.1.nodeId != c.nodeId ==>
      m.address == LSS_MASTER_TX as bv32 && c.lss == LssConfiguration && ValidNodeId(r.1.nodeId)
    ensures r.1.lss != c.lss ==> m.address == LSS_MASTER_TX as bv32
    ensures !ControlFrame(m) ==> r.1 == c
    ensures !ControlFrame(m) && maxEvents > 0 ==>
      match FirstRpdo(c.rpdo, m.address)
      case None => r.0 == []
      case Some(k) =>
        var all := Fields(c.rpdo[k].mappings, m.data, 0, now);
        |r.0| == Min(maxEvents, |all|) && r.0 == all[..|r.0|]
  {
    if maxEvents == 0 then ([], c)
    else if m.address == FC_NMT as bv32 then
      if NmtForUs(c, m) then
        match NmtTarget(m.data[0])
        case Some(s) => ([], c.(nmt := s))
        case None => ([], c)
      else ([], c)
    else if m.address == FC_SYNC as bv32 then ([], c.(syncCounter := WrapU8(c.syncCounter + 1)))
    else if m.address == LSS_MASTER_TX as bv32 && |m.data| >= 1 then ([], LssReceive(c, m.data))
    else if m.address == LSS_SLAVE_TX as bv32 && |m.data| >= 5 then ([], c)
    else
      match FirstRpdo(c.rpdo, m.address)
      case None => ([], c)
      case Some(k) => (DecodePdo(c.rpdo[k].mappings, m.data, 0, maxEvents, now), c)
  }

  /** canopen_encode: transmission goes through get_cyclic, so encode always refuses. */
  function Encode(c: Ctx, events: seq<Event>): (rc: int)
    ensures rc < 0
  {
    -1
  }

  // ---------------------------------------------------------------------
  // Transmit PDOs
  // ---------------------------------------------------------------------

  /** The cached value of a signal, 0 when it has never been updated. */
  function Cached(signals: seq<Signal>, id: int): int
  {
    Lookup(signals, id).GetOr(0)
  }

  /**
    Packing one mapped value: `(uint32_t)value` written little-endian over
    1, 2 or 4 bytes at byte `at`, when those bytes lie in the frame. Any
    other length writes nothing. No byte outside the field changes.
   */
  function PackField(data: seq<Byte>, at: nat, length: Byte, value: int): (r: seq<Byte>)
    requires |data| == 8
    ensures |r| == 8
    ensures forall i :: 0 <= i < 8 && (i < at || at + FieldBytes(length) <= i) ==> r[i] == data[i]
  {
    var u := WrapU32(value);
    if length == 8 && at < 8 then data[at := WrapU8(u)]
    else if length == 16 && at + 1 < 8 then
      var b := Le16(u);
      data[at := b[0]][at + 1 := b[1]]
    else if length == 32 && at + 3 < 8 then
      var b := Le32(u);
      data[at := b[0]][at + 1 := b[1]][at + 2 := b[2]][at + 3 := b[3]]
    else data
  }

  /**
    The TPDO packing loop: each mapping's cached value is written at the
    running bit offset, in mapping order. Bytes below the starting offset
    are never written.
   */
  function PackPdo(maps: seq<PdoMap>, signals: seq<Signal>, data: seq<Byte>, bitOffset: nat): (r: seq<Byte>)
    requires |data| == 8
    ensures |r| == 8
    ensures forall i :: 0 <= i < 8 && i < bitOffset / 8 ==> r[i] == data[i]
    decreases |maps|
  {
    if maps == [] then data
    else
      var d := PackField(data, bitOffset / 8, maps[0].length, Cached(signals, maps[0].signalId));
      PackPdo(maps[1..], signals, d, bitOffset + maps[0].length)
  }

  const ZERO8: seq<Byte> := [0, 0, 0, 0, 0, 0, 0, 0]

  /** The 8-byte frame of one TPDO: its COB-ID, its mapped values packed over zeros. */
  function TpdoFrame(signals: seq<Signal>, p: PdoConfig, now: int): (m: Msg)
    ensures OnCobId(p, m.address) && |m.data| == 8 && m.timestamp == now
  {
    Msg(p.cobId as bv32, PackPdo(p.mappings, signals, ZERO8, 0), now)
  }

  /**
    Whether a TPDO goes out at this SYNC count: types 1..240 are sent when
    the count is a multiple of the type. Acyclic (0), event-driven (254) and
    manufacturer (255) TPDOs are never sent.
   */
  predicate ShouldTransmit(p: PdoConfig, sync: Byte)
  {
    PDO_SYNC_1 <= p.transmissionType <= PDO_SYNC_240 && sync % p.transmissionType == 0
  }

  /** The configured TPDOs that are due at this SYNC count, in slot order. */
  function Transmitting(pdos: seq<PdoConfig>, sync: Byte): (r: seq<PdoConfig>)
    ensures |r| <= |pdos|
    ensures forall i :: 0 <= i < |r| ==> r[i] in pdos && r[i].cobId != 0 && ShouldTransmit(r[i], sync)
    ensures forall p :: p in pdos && p.cobId != 0 && ShouldTransmit(p, sync) ==> p in r
  {
    if pdos == [] then []
    else if pdos[0].cobId != 0 && ShouldTransmit(pdos[0], sync) then [pdos[0]] + Transmitting(pdos[1..], sync)
    else Transmitting(pdos[1..], sync)
  }

  /** The TPDO loop of get_cyclic, with room for `budget` more frames. */
  function TpdoScan(signals: seq<Signal>, sync: Byte, pdos: seq<PdoConfig>, now: int, budget: nat): (r: seq<Msg>)
    ensures |r| == Min(budget, |Transmitting(pdos, sync)|)
    ensures forall i :: 0 <= i < |r| ==> r[i] == TpdoFrame(signals, Transmitting(pdos, sync)[i], now)
    decreases |pdos|
  {
    if pdos == [] || budget == 0 then []
    else if pdos[0].cobId == 0 then TpdoScan(signals, sync, pdos[1..], now, budget)
    else if ShouldTransmit(pdos[0], sync) then
      [TpdoFrame(signals, pdos[0], now)] + TpdoScan(signals, sync, pdos[1..], now, budget - 1)
    else TpdoScan(signals, sync, pdos[1..], now, budget)
  }

  // ---------------------------------------------------------------------
  // get_cyclic: heartbeat, emergency, TPDOs
  // ---------------------------------------------------------------------

  /** Whole milliseconds since the last heartbeat (timestamps in µs, uint64 arithmetic) reach the period. */
  predicate HeartbeatDue(c: Ctx, now: int)
  {
    WrapU64(now - c.lastHeartbeat) / 1000 >= c.heartbeatPeriodMs
  }

  /** Without clock wrap-around, the heartbeat is due once `period` ms have passed. */
  lemma HeartbeatDueIff(c: Ctx, now: int)
    requires IsU64(now) && IsU64(c.lastHeartbeat) && c.lastHeartbeat <= now && c.heartbeatPeriodMs >= 0
    ensures HeartbeatDue(c, now) <==> now - c.lastHeartbeat >= 1000 * c.heartbeatPeriodMs
  {
    var x, p := now - c.lastHeartbeat, c.heartbeatPeriodMs;
    assert WrapU64(x) == x;
    assert x == (x / 1000) * 1000 + x % 1000;
    if x / 1000 >= p {
      MulMono(p, x / 1000, 1000);
    } else {
      MulMono(x / 1000 + 1, p, 1000);
    }
  }

  /** The heartbeat frame: COB-ID 0x700 plus node id, one byte holding the NMT state. */
  function HeartbeatMsg(c: Ctx, now: int): (m: Msg)
    ensures |m.data| == 1 && m.data[0] == NmtCode(c.nmt) && m.timestamp == now
    ensures c.nodeId < 0x80 ==> m.address & 0x780 == FC_HEARTBEAT as bv32 && m.address & 0x7F == c.nodeId as bv32
  {
    Msg(BuildCobId(FC_HEARTBEAT, c.nodeId) as bv32, [NmtCode(c.nmt)], now)
  }

  /**
    The emergency frame: COB-ID 0x80 plus node id. Its 8 bytes hold the
    error code little-endian, then an error register of 0 and five zero
    manufacturer bytes.
   */
  function EmcyMsg(c: Ctx, now: int): (m: Msg)
    requires IsU16(c.emcyErrorCode)
    ensures |m.data| == 8 && JoinLe16(m.data[..2]) == c.emcyErrorCode && m.timestamp == now
    ensures forall i :: 2 <= i < 8 ==> m.data[i] == 0
    ensures c.nodeId < 0x80 ==> m.address & 0x780 == FC_EMCY as bv32 && m.address & 0x7F == c.nodeId as bv32
  {
    Msg(BuildCobId(FC_EMCY, c.nodeId) as bv32, Le16(c.emcyErrorCode) + [0, 0, 0, 0, 0, 0], now)
  }

  /** get_cyclic sends anything only with room for a frame and in the OPERATIONAL state. */
  predicate Active(c: Ctx, maxMsgs: nat)
  {
    maxMsgs > 0 && c.nmt == Operational
  }

  predicate SendsHeartbeat(c: Ctx, now: int, maxMsgs: nat)
  {
    Active(c, maxMsgs) && HeartbeatDue(c, now)
  }

  /** A pending emergency goes out when a frame slot is left after the heartbeat. */
  predicate SendsEmcy(c: Ctx, now: int, maxMsgs: nat)
  {
    Active(c, maxMsgs) && c.emcyPending && (if HeartbeatDue(c, now) then 1 else 0) < maxMsgs
  }

  /** Frames ahead of the TPDOs: the heartbeat and the emergency, each when sent. */
  function Lead(c: Ctx, now: int, maxMsgs: nat): (n: nat)
    ensures n <= 2 && (Active(c, maxMsgs) ==> n <= maxMsgs)
  {
    (if SendsHeartbeat(c, now, maxMsgs) then 1 else 0) + (if SendsEmcy(c, now, maxMsgs) then 1 else 0)
  }

  /**
    canopen_get_cyclic. It sends nothing unless the node is OPERATIONAL and
    there is room. Otherwise the heartbeat comes first when due and
    restarts the heartbeat clock. A pending emergency comes next when room
    is left, and it is then no longer pending. The TPDOs due at the current
    SYNC count follow in slot order, as many as still fit. Nothing else in
    the context changes.
   */
  function GetCyclic(c: Ctx, now: int, maxMsgs: nat): (r: (seq<Msg>, Ctx))
    requires ValidCtx(c) && IsU64(now)
    ensures ValidCtx(r.1) && |r.0| <= maxMsgs
    ensures r.1 == c.(lastHeartbeat := r.1.lastHeartbeat, emcyPending := r.1.emcyPending)
    ensures !Active(c, maxMsgs) ==> r == ([], c)
    ensures Active(c, maxMsgs) ==>
      |r.0| == Lead(c, now, maxMsgs) + Min(maxMsgs - Lead(c, now, maxMsgs), |Transmitting(c.tpdo, c.syncCounter)|)
    ensures SendsHeartbeat(c, now, maxMsgs) ==> r.0[0] == HeartbeatMsg(c, now) && r.1.lastHeartbeat == now
    ensures !SendsHeartbeat(c, now, maxMsgs) ==> r.1.lastHeartbeat == c.lastHeartbeat
    ensures r.1.emcyPending == (c.emcyPending && !SendsEmcy(c, now, maxMsgs))
    ensures SendsEmcy(c, now, maxMsgs) ==> r.0[Lead(c, now, maxMsgs) - 1] == EmcyMsg(c, now)
    ensures Active(c, maxMsgs) ==>
      r.0[Lead(c, now, maxMsgs)..] == TpdoScan(c.signals, c.syncCounter, c.tpdo, now, maxMsgs - Lead(c, now, maxMsgs))
  {
    if !Active(c, maxMsgs) then ([], c)
    else
      var scan := TpdoScan(c.signals, c.syncCounter, c.tpdo, now, maxMsgs - Lead(c, now, maxMsgs));
      if HeartbeatDue(c, now) then
        var c1 := c.(lastHeartbeat := now);
        if c.emcyPending && 1 < maxMsgs then ([HeartbeatMsg(c, now), EmcyMsg(c, now)] + scan, c1.(emcyPending := false))
        else ([HeartbeatMsg(c, now)] + scan, c1)
      else if c.emcyPending then ([EmcyMsg(c, now)] + scan, c.(emcyPending := false))
      else (scan, c)
  }

  // ---------------------------------------------------------------------
  // Signal cache and configuration entry points
  // ---------------------------------------------------------------------

  /**
    canopen_update_signal: the 64-entry cache keeps one value per signal
    id. A known id is overwritten; a new one is added while there is room.
   */
  function UpdateSignal(c: Ctx, id: int, value: int, timestamp: int): (r: Ctx)
    requires ValidCtx(c) && IsU32(id) && IsInt32(value) && IsU64(timestamp)
    ensures ValidCtx(r) && r == c.(signals := r.signals)
    ensures Lookup(c.signals, id).Some? || |c.signals| < MAX_SIGNALS <==> Lookup(r.signals, id) == Some(value)
    ensures Lookup(c.signals, id).None? && |c.signals| == MAX_SIGNALS ==> r == c
    ensures forall other :: other != id ==> Lookup(r.signals, other) == Lookup(c.signals, other)
  {
    c.(signals := Upsert(c.signals, id, value, timestamp, MAX_SIGNALS))
  }

  /** lq_canopen_set_nmt_state: the application sets the NMT state directly. */
  function SetNmtState(c: Ctx, s: NmtState): (r: Ctx)
    ensures r.nmt == s && r == c.(nmt := r.nmt)
  {
    c.(nmt := s)
  }

  /**
    lq_canopen_send_emergency: records the error code and marks an
    emergency pending. The error register and manufacturer bytes are
    accepted but not kept; the frame carries zeros there.
   */
  function SendEmergency(c: Ctx, code: int, errorReg: Byte, mfr: seq<Byte>): (r: Ctx)
    requires IsU16(code)
    ensures r.emcyPending && r.emcyErrorCode == code
    ensures r == c.(emcyPending := r.emcyPending, emcyErrorCode := r.emcyErrorCode)
  {
    c.(emcyErrorCode := code, emcyPending := true)
  }

  /** Storing a PDO configuration into slot `num` (1..4) of a table. */
  function ConfigurePdo(table: seq<PdoConfig>, num: Byte, cfg: Option<PdoConfig>): (r: (int, seq<PdoConfig>))
    requires |table| == PDO_SLOTS
    ensures |r.1| == PDO_SLOTS
    ensures r.0 == 0 <==> 1 <= num <= 4 && cfg.Some?
    ensures r.0 != 0 ==> r.0 == -1 && r.1 == table
    ensures r.0 == 0 ==> r.1[num - 1] == cfg.value
    ensures forall i :: 0 <= i < PDO_SLOTS && i != num - 1 ==> r.1[i] == table[i]
  {
    if num < 1 || num > 4 || cfg.None? then (-1, table) else (0, table[num - 1 := cfg.value])
  }

  /** lq_canopen_configure_tpdo: TPDO 1..4 only; anything else is refused with -1. */
  function ConfigureTpdo(c: Ctx, num: Byte, cfg: Option<PdoConfig>): (r: (int, Ctx))
    requires ValidCtx(c) && (cfg.Some? ==> ValidPdo(cfg.value))
    ensures ValidCtx(r.1) && r.1 == c.(tpdo := r.1.tpdo)
    ensures r.0 == 0 <==> 1 <= num <= 4 && cfg.Some?
    ensures r.0 != 0 ==> r.0 == -1 && r.1 == c
    ensures r.0 == 0 ==> r.1.tpdo[num - 1] == cfg.value && |r.1.tpdo[num - 1].mappings| <= MAX_MAPPINGS
    ensures forall i :: 0 <= i < PDO_SLOTS && i != num - 1 ==> r.1.tpdo[i] == c.tpdo[i]
  {
    var (rc, t) := ConfigurePdo(c.tpdo, num, cfg);
    (rc, c.(tpdo := t))
  }

  /** lq_canopen_configure_rpdo: RPDO 1..4 only; anything else is refused with -1. */
  function ConfigureRpdo(c: Ctx, num: Byte, cfg: Option<PdoConfig>): (r: (int, Ctx))
    requires ValidCtx(c) && (cfg.Some? ==> ValidPdo(cfg.value))
    ensures ValidCtx(r.1) && r.1 == c.(rpdo := r.1.rpdo)
    ensures r.0 == 0 <==> 1 <= num <= 4 && cfg.Some?
    ensures r.0 != 0 ==> r.0 == -1 && r.1 == c
    ensures r.0 == 0 ==> r.1.rpdo[num - 1] == cfg.value && |r.1.rpdo[num - 1].mappings| <= MAX_MAPPINGS
    ensures forall i :: 0 <= i < PDO_SLOTS && i != num - 1 ==> r.1.rpdo[i] == c.rpdo[i]
  {
    var (rc, t) := ConfigurePdo(c.rpdo, num, cfg);
    (rc, c.(rpdo := t))
  }

  /** lq_canopen_set_lss_identity: stores the four identity numbers. */
  function SetLssIdentity(c: Ctx, vendor: int, product: int, revision: int, serial: int): (r: (int, Ctx))
    requires ValidCtx(c) && IsU32(vendor) && IsU32(product) && IsU32(revision) && IsU32(serial)
    ensures r.0 == 0 && ValidCtx(r.1)
    ensures r.1 == c.(vendorId := vendor, productCode := product, revision := revision, serial := serial)
  {
    (0, c.(vendorId := vendor, productCode := product, revision := revision, serial := serial))
  }

  // ---------------------------------------------------------------------
  // LSS master requests
  // ---------------------------------------------------------------------

  /**
    An LSS master request: 8 bytes to COB-ID 0x7E5, command specifier,
    one argument byte, six zeros. The builders write every field of the
    caller's message except the timestamp, which keeps its prior value.
   */
  function LssFrame(prior: Msg, cs: Byte, arg: Byte): (m: Msg)
    ensures m.address == LSS_MASTER_TX as bv32 && m.timestamp == prior.timestamp
    ensures |m.data| == 8 && m.data[0] == cs && m.data[1] == arg
    ensures forall i :: 2 <= i < 8 ==> m.data[i] == 0
  {
    prior.(address := LSS_MASTER_TX as bv32, data := [cs, arg, 0, 0, 0, 0, 0, 0])
  }

  /** lq_canopen_lss_inquire_node_id. */
  function LssInquireNodeId(prior: Msg): (m: Msg)
    ensures m == LssFrame(prior, LSS_INQUIRE_NODE_ID, 0)
  {
    LssFrame(prior, LSS_INQUIRE_NODE_ID, 0)
  }

  /** lq_canopen_lss_configure_node_id: ids 0 and 128..254 are refused with -1 and nothing is built. */
  function LssConfigureNodeId(prior: Msg, id: Byte): (r: (int, Msg))
    ensures r.0 == 0 <==> ValidNodeId(id)
    ensures r.0 != 0 ==> r.0 == -1 && r.1 == prior
    ensures r.0 == 0 ==> r.1 == LssFrame(prior, LSS_CONFIGURE_NODE_ID, id)
  {
    if id == 0 || (id > 127 && id != 255) then (-1, prior)
    else (0, LssFrame(prior, LSS_CONFIGURE_NODE_ID, id))
  }

  /** lq_canopen_lss_switch_state_global: mode 1 asks for configuration, 0 for waiting. */
  function LssSwitchStateGlobal(prior: Msg, mode: Byte): (m: Msg)
    ensures m == LssFrame(prior, LSS_SWITCH_GLOBAL, mode)
  {
    LssFrame(prior, LSS_SWITCH_GLOBAL, mode)
  }

  // ---------------------------------------------------------------------
  // Properties
  // ---------------------------------------------------------------------

  /**
    Master and slave agree on node ids: a slave in LSS configuration state
    takes the id of a configure-node-id request exactly when the master's
    builder would have built it. A slave in the waiting state ignores it.
   */
  lemma LssConfigureAgreement(c: Ctx, prior: Msg, id: Byte, now: int, maxEvents: nat)
    requires ValidCtx(c) && maxEvents > 0
    ensures Decode(c, now, LssFrame(prior, LSS_CONFIGURE_NODE_ID, id), maxEvents)
         == ([], if c.lss == LssConfiguration && LssConfigureNodeId(prior, id).0 == 0 then c.(nodeId := id) else c)
  {
  }

  /** A switch-state-global request moves every slave to the state the master asked for. */
  lemma LssSwitchAgreement(c: Ctx, prior: Msg, mode: Byte, now: int, maxEvents: nat)
    requires ValidCtx(c) && maxEvents > 0
    ensures Decode(c, now, LssSwitchStateGlobal(prior, mode), maxEvents)
         == ([], c.(lss := if mode == 1 then LssConfiguration else LssWaiting))
  {
  }

  /** An inquire-node-id request changes nothing on the slave side; the driver has no reply. */
  lemma LssInquireIgnored(c: Ctx, prior: Msg, now: int, maxEvents: nat)
    requires ValidCtx(c)
    ensures Decode(c, now, LssInquireNodeId(prior), maxEvents) == ([], c)
  {
  }

  /** What a field of `length` bits carries of a value: its low 8 or 16 bits, or the int32 itself. */
  function Carried(length: Byte, v: int): (r: int)
    ensures length == 8 && IsU8(v) ==> r == v
    ensures length == 16 && IsU16(v) ==> r == v
    ensures length == 32 && IsInt32(v) ==> r == v
  {
    if length == 8 then WrapU8(v)
    else if length == 16 then WrapU16(v)
    else if length == 32 then Wrap32(v)
    else 0
  }

  /** Mappings of 8, 16 or 32 bits: the lengths both directions handle. */
  predicate Packable(maps: seq<PdoMap>)
  {
    forall i :: 0 <= i < |maps| ==> maps[i].length == 8 || maps[i].length == 16 || maps[i].length == 32
  }

  function TotalBits(maps: seq<PdoMap>): nat
  {
    if maps == [] then 0 else maps[0].length + TotalBits(maps[1..])
  }

  /** The events a receiver should see: each mapped signal's cached value, as its field carries it. */
  function Expected(maps: seq<PdoMap>, signals: seq<Signal>, now: int): (r: seq<Event>)
    ensures |r| == |maps|
    ensures forall i :: 0 <= i < |r| ==>
      r[i] == Event(maps[i].signalId, Carried(maps[i].length, Cached(signals, maps[i].signalId)), EvOk, now)
  {
    if maps == [] then []
    else [Event(maps[0].signalId, Carried(maps[0].length, Cached(signals, maps[0].signalId)), EvOk, now)]
         + Expected(maps[1..], signals, now)
  }

  /** Reduction to 32 bits first does not change the low 8 or 16 bits or the int32 reading. */
  lemma WrapU32Keeps(v: int)
    ensures WrapU8(WrapU32(v)) == WrapU8(v)
    ensures WrapU16(WrapU32(v)) == WrapU16(v)
    ensures Wrap32(WrapU32(v)) == Wrap32(v)
  {
    ModMod(v, U8, U32 / U8);
    ModMod(v, U16, U32 / U16);
    ModMod(v, U32, 1);
  }

  /** One field packed and read back at the same byte gives the value it carries. */
  lemma FieldRoundTrip(data: seq<Byte>, at: nat, length: Byte, v: int)
    requires |data| == 8 && (length == 8 || length == 16 || length == 32) && at + length / 8 <= 8
    ensures at + FieldBytes(length) <= 8
    ensures FieldValue(PackField(data, at, length, v), at, length) == Carried(length, v)
  {
    WrapU32Keeps(v);
    var u := WrapU32(v);
    var d := PackField(data, at, length, v);
    if length == 16 {
      assert [d[at], d[at + 1]] == Le16(u);
    } else if length == 32 {
      assert [d[at], d[at + 1], d[at + 2], d[at + 3]] == Le32(u);
    }
  }

  /** A field reads the same from two frames that agree on its bytes. */
  lemma FieldLocal(d1: seq<Byte>, d2: seq<Byte>, at: nat, length: Byte)
    requires at + FieldBytes(length) <= |d1| && |d1| == |d2|
    requires forall i :: at <= i < at + FieldBytes(length) ==> d1[i] == d2[i]
    ensures FieldValue(d1, at, length) == FieldValue(d2, at, length)
  {
  }

  /**
    Packing then decoding at the same offsets: for byte-aligned mappings of
    8, 16 or 32 bits that fit in the 8-byte frame, every mapping is read
    back, in order, carrying its signal's cached value.
   */
  lemma {:induction false} PackThenDecode(maps: seq<PdoMap>, signals: seq<Signal>, data: seq<Byte>, bitOffset: nat, now: int)
    requires Aligned(maps, data, bitOffset)
    ensures Fields(maps, PackPdo(maps, signals, data, bitOffset), bitOffset, now) == Expected(maps, signals, now)
    decreases |maps|
  {
    if maps != [] {
      var d1 := PackField(data, bitOffset / 8, maps[0].length, Cached(signals, maps[0].signalId));
      PackNext(maps, data, bitOffset, d1);
      PackThenDecode(maps[1..], signals, d1, bitOffset + maps[0].length, now);
      PackStep(maps, signals, data, bitOffset, now);
    }
  }

  /** After the first field, the rest of the mappings still fit, byte-aligned. */
  lemma PackNext(maps: seq<PdoMap>, data: seq<Byte>, bitOffset: nat, d1: seq<Byte>)
    requires Aligned(maps, data, bitOffset) && maps != []
    requires |d1| == 8
    ensures Aligned(maps[1..], d1, bitOffset + maps[0].length)
  {
    PackableTail(maps);
    AlignedStep(bitOffset, maps[0].length);
  }

  /** The inductive step of PackThenDecode: the first field, and the rest as packed after it. */
  lemma PackStep(maps: seq<PdoMap>, signals: seq<Signal>, data: seq<Byte>, bitOffset: nat, now: int)
    requires Aligned(maps, data, bitOffset) && maps != []
    requires var d1 := PackField(data, bitOffset / 8, maps[0].length, Cached(signals, maps[0].signalId));
      Fields(maps[1..], PackPdo(maps[1..], signals, d1, bitOffset + maps[0].length), bitOffset + maps[0].length, now)
      == Expected(maps[1..], signals, now)
    ensures Fields(maps, PackPdo(maps, signals, data, bitOffset), bitOffset, now) == Expected(maps, signals, now)
  {
    var p := PackPdo(maps, signals, data, bitOffset);
    HeadField(maps, signals, data, bitOffset);
    FieldsCons(maps, p, bitOffset, now);
  }

  /** The first field of a packed frame reads back as its signal's value; the rest is packed after it. */
  lemma HeadField(maps: seq<PdoMap>, signals: seq<Signal>, data: seq<Byte>, bitOffset: nat)
    requires Aligned(maps, data, bitOffset) && maps != []
    ensures var p := PackPdo(maps, signals, data, bitOffset);
      var at, len := bitOffset / 8, maps[0].length;
      var d1 := PackField(data, at, len, Cached(signals, maps[0].signalId));
      && at + FieldBytes(len) <= 8
      && p == PackPdo(maps[1..], signals, d1, bitOffset + len)
      && FieldValue(p, at, len) == Carried(len, Cached(signals, maps[0].signalId))
  {
    var m0 := maps[0];
    var at := bitOffset / 8;
    var v := Cached(signals, m0.signalId);
    var d1 := PackField(data, at, m0.length, v);
    PackableTail(maps);
    AlignedStep(bitOffset, m0.length);
    var p := PackPdo(maps[1..], signals, d1, bitOffset + m0.length);
    FieldRoundTrip(data, at, m0.length, v);
    FieldLocal(p, d1, at, m0.length);
  }

  /** Byte-aligned mappings of 8, 16 or 32 bits that fit in the 8-byte frame from `bitOffset` on. */
  predicate Aligned(maps: seq<PdoMap>, data: seq<Byte>, bitOffset: nat)
  {
    |data| == 8 && Packable(maps) && bitOffset % 8 == 0 && bitOffset + TotalBits(maps) <= 64
  }

  /** Advancing a byte-aligned offset by a packable length keeps it aligned and moves it by the field's bytes. */
  lemma AlignedStep(bitOffset: nat, length: Byte)
    requires bitOffset % 8 == 0 && (length == 8 || length == 16 || length == 32)
    ensures (bitOffset + length) % 8 == 0 && (bitOffset + length) / 8 == bitOffset / 8 + FieldBytes(length)
    ensures FieldBytes(length) == length / 8
    ensures bitOffset + length <= 64 ==> bitOffset / 8 + length / 8 <= 8
  {
  }

  /** One step of Fields when the first mapping fits. */
  lemma FieldsCons(maps: seq<PdoMap>, data: seq<Byte>, bitOffset: nat, now: int)
    requires maps != [] && bitOffset / 8 + FieldBytes(maps[0].length) <= |data|
    ensures Fields(maps, data, bitOffset, now)
         == [Event(maps[0].signalId, FieldValue(data, bitOffset / 8, maps[0].length), EvOk, now)]
            + Fields(maps[1..], data, bitOffset + maps[0].length, now)
  {
  }

  lemma PackableTail(maps: seq<PdoMap>)
    requires Packable(maps) && maps != []
    ensures Packable(maps[1..])
    ensures maps[0].length == 8 || maps[0].length == 16 || maps[0].length == 32
    ensures TotalBits(maps) == maps[0].length + TotalBits(maps[1..])
  {
    assert forall i :: 0 <= i < |maps[1..]| ==> maps[1..][i] == maps[i + 1];
  }

  /**
    End to end: a TPDO this node sends is decoded by a receiver whose
    first RPDO on that COB-ID has the same mappings. The receiver gets one
    event per mapping carrying the sender's cached value, and its context
    does not change. The COB-ID must not be one of the control identifiers.
   */
  lemma PdoTransfer(tx: Ctx, p: PdoConfig, rx: Ctx, now: int, at: int, maxEvents: nat)
    requires ValidCtx(rx)
    requires Packable(p.mappings) && TotalBits(p.mappings) <= 64
    requires !ReservedCobId(p.cobId)
    requires FirstRpdo(rx.rpdo, p.cobId as bv32).Some?
    requires rx.rpdo[FirstRpdo(rx.rpdo, p.cobId as bv32).value].mappings == p.mappings
    requires |p.mappings| <= maxEvents
    ensures Decode(rx, now, TpdoFrame(tx.signals, p, at), maxEvents) == (Expected(p.mappings, tx.signals, now), rx)
  {
    var m := TpdoFrame(tx.signals, p, at);
    assert m.address == p.cobId as bv32;
    ReservedWidening(p.cobId, m);
    TpdoFields(tx.signals, p, at, now);
    DecodeMatchedRpdo(rx, now, m, maxEvents);
  }

  /** The fields of a TPDO frame read back as the sender's cached values. */
  lemma TpdoFields(signals: seq<Signal>, p: PdoConfig, at: int, now: int)
    requires Packable(p.mappings) && TotalBits(p.mappings) <= 64
    ensures Fields(p.mappings, TpdoFrame(signals, p, at).data, 0, now) == Expected(p.mappings, signals, now)
  {
    PackThenDecode(p.mappings, signals, ZERO8, 0, now);
  }

  /** A frame on a COB-ID that is no control identifier, with room for all its fields, yields all of them. */
  lemma DecodeMatchedRpdo(rx: Ctx, now: int, m: Msg, maxEvents: nat)
    requires ValidCtx(rx) && !ControlFrame(m) && FirstRpdo(rx.rpdo, m.address).Some?
    requires |rx.rpdo[FirstRpdo(rx.rpdo, m.address).value].mappings| <= maxEvents
    ensures Decode(rx, now, m, maxEvents)
         == (Fields(rx.rpdo[FirstRpdo(rx.rpdo, m.address).value].mappings, m.data, 0, now), rx)
  {
    var r := Decode(rx, now, m, maxEvents);
    var all := Fields(rx.rpdo[FirstRpdo(rx.rpdo, m.address).value].mappings, m.data, 0, now);
    if maxEvents > 0 {
      assert |r.0| == |all|;
      assert r.0 == all[..|all|];
      assert all[..|all|] == all;
    }
  }

  /** The identifiers decode consumes before it looks for an RPDO. */
  predicate ReservedCobId(cob: bv16)
  {
    cob == FC_NMT || cob == FC_SYNC || cob == LSS_MASTER_TX || cob == LSS_SLAVE_TX
  }

  lemma ReservedWidening(cob: bv16, m: Msg)
    requires m.address == cob as bv32 && !ReservedCobId(cob)
    ensures !ControlFrame(m)
  {
  }

  /**
    A node comes up silent: after Init it sends nothing until it is started.
    An NMT Start addressed to it makes it operational, and from the first
    elapsed period on it sends its heartbeat with state 5.
   */
  lemma BootThenHeartbeat(cfg: ProtocolConfig, now: int, maxMsgs: nat)
    requires IsU64(now) && now >= 1000 * 1000
    ensures var c := Init(Some(cfg)).1.value;
      && GetCyclic(c, now, maxMsgs) == ([], c)
      && var c1 := Decode(c, now, Msg(FC_NMT as bv32, [NMT_START, cfg.nodeAddress], now), 1).1;
         && c1.nmt == Operational
         && (maxMsgs > 0 ==> GetCyclic(c1, now, maxMsgs).0 == [HeartbeatMsg(c1, now)])
  {
    var c := Init(Some(cfg)).1.value;
    var c1 := Decode(c, now, Msg(FC_NMT as bv32, [NMT_START, cfg.nodeAddress], now), 1).1;
    HeartbeatDueIff(c1, now);
    NoneConfigured(c1.tpdo, c1.syncCounter);
  }

  /** With every slot unused, no TPDO is due. */
  lemma {:induction false} NoneConfigured(pdos: seq<PdoConfig>, sync: Byte)
    requires forall i :: 0 <= i < |pdos| ==> pdos[i].cobId == 0
    ensures Transmitting(pdos, sync) == []
    decreases |pdos|
  {
    if pdos != [] {
      NoneConfigured(pdos[1..], sync);
    }
  }

  /**
    An emergency is sent exactly once: after lq_canopen_send_emergency, the
    next get_cyclic of an operational node with room for two frames sends
    one EMCY frame carrying the code. Later calls send none.
   */
  lemma EmergencyOnce(c: Ctx, code: int, reg: Byte, mfr: seq<Byte>, now: int, maxMsgs: nat, later: int, maxLater: nat)
    requires ValidCtx(c) && IsU16(code) && IsU64(now) && IsU64(later)
    requires c.nmt == Operational && maxMsgs >= 2
    ensures var c1 := SendEmergency(c, code, reg, mfr);
      var r := GetCyclic(c1, now, maxMsgs);
      && SendsEmcy(c1, now, maxMsgs) && EmcyMsg(c1, now) in r.0
      && JoinLe16(EmcyMsg(c1, now).data[..2]) == code
      && !r.1.emcyPending && !SendsEmcy(r.1, later, maxLater)
  {
    var c1 := SendEmergency(c, code, reg, mfr);
    var r := GetCyclic(c1, now, maxMsgs);
    assert r.0[Lead(c1, now, maxMsgs) - 1] == EmcyMsg(c1, now);
  }

  /**
    SYNC-driven TPDOs follow the 8-bit SYNC counter, which wraps from 255
    to 0. A TPDO of transmission type 3 is therefore due on two
    consecutive SYNCs when the counter passes 255, rather than every third.
   */
  lemma SyncWrapCadence(c: Ctx, p: PdoConfig, now: int)
    requires ValidCtx(c) && p.transmissionType == 3 && c.syncCounter == 255
    ensures ShouldTransmit(p, c.syncCounter)
    ensures ShouldTransmit(p, Decode(c, now, Msg(FC_SYNC as bv32, [], now), 1).1.syncCounter)
  {
  }

  /** A value stored by update_signal is what the next TPDO mapping it carries. */
  lemma UpdateThenCached(c: Ctx, id: int, value: int, timestamp: int)
    requires ValidCtx(c) && IsU32(id) && IsInt32(value) && IsU64(timestamp)
    requires Lookup(c.signals, id).Some? || |c.signals| < MAX_SIGNALS
    ensures Cached(UpdateSignal(c, id, value, timestamp).signals, id) == value
    ensures Carried(32, Cached(UpdateSignal(c, id, value, timestamp).signals, id)) == value
  {
  }
}

=== FILE: cint.dfy ===
/**
  Fixed-width C integer semantics on Dafny's unbounded integers.

  The C sources work on int32/int64 and uint8..uint64 values. Dafny's `int`
  is unbounded and its `/` and `%` are Euclidean, so every width, wrap,
  saturation and truncating division used by the firmware is spelled out
  here once and imported by the other modules.

  Signed overflow is undefined in C; wherever the firmware can overflow a
  signed type, this model uses two's-complement wrap-around (`Wrap32`,
  `Wrap64`), which is what the compiled code does on the supported targets.
 */
module CInt {

  const INT32_MIN: int := -0x8000_0000
  const INT32_MAX: int := 0x7FFF_FFFF
  const INT64_MIN: int := -0x8000_0000_0000_0000
  const INT64_MAX: int := 0x7FFF_FFFF_FFFF_FFFF
  const U8: int := 0x100
  const U16: int := 0x1_0000
  const U32: int := 0x1_0000_0000
  const U64: int := 0x1_0000_0000_0000_0000
  const UINT64_MAX: int := U64 - 1

  /** errno values of the native platform (Linux numbering). */
  const ENOENT: int := 2
  const EAGAIN: int := 11
  const ENOMEM: int := 12
  const EBUSY: int := 16
  const EINVAL: int := 22
  const ENODATA: int := 61
  const EMSGSIZE: int := 90
  const ENOTSUP: int := 95
  const ETIMEDOUT: int := 110

  const INT16_MIN: int := -0x8000
  const INT16_MAX: int := 0x7FFF

  predicate IsInt16(x: int) { INT16_MIN <= x <= INT16_MAX }
  predicate IsInt32(x: int) { INT32_MIN <= x <= INT32_MAX }
  predicate IsInt64(x: int) { INT64_MIN <= x <= INT64_MAX }
  predicate IsU8(x: int) { 0 <= x < U8 }
  predicate IsU16(x: int) { 0 <= x < U16 }
  predicate IsU32(x: int) { 0 <= x < U32 }
  predicate IsU64(x: int) { 0 <= x < U64 }

  /** Conversion to an unsigned type of `m` values: reduction modulo m. */
  function WrapU(x: int, m: int): (r: int)
    requires m > 0
    ensures 0 <= r < m
    ensures x == (x / m) * m + r
    ensures 0 <= x < m ==> r == x
  {
    x % m
  }

  function WrapU8(x: int): (r: int)
    ensures IsU8(r) && x == (x / U8) * U8 + r
    ensures IsU8(x) ==> r == x
  {
    WrapU(x, U8)
  }

  function WrapU16(x: int): (r: int)
    ensures IsU16(r) && x == (x / U16) * U16 + r
    ensures IsU16(x) ==> r == x
  {
    WrapU(x, U16)
  }

  function WrapU32(x: int): (r: int)
    ensures IsU32(r) && x == (x / U32) * U32 + r
    ensures IsU32(x) ==> r == x
  {
    WrapU(x, U32)
  }

  function WrapU64(x: int): (r: int)
    ensures IsU64(r) && x == (x / U64) * U64 + r
    ensures IsU64(x) ==> r == x
  {
    WrapU(x, U64)
  }

  /** `x++` on a uint32_t: the next value, back to 0 after 2^32 - 1. */
  function Bump(v: int): (r: int)
    requires IsU32(v)
    ensures IsU32(r) && r != v
  {
    if v == U32 - 1 then 0 else v + 1
  }

  /** The increment is addition of one modulo 2^32. */
  lemma BumpWraps(v: int)
    requires IsU32(v)
    ensures Bump(v) == WrapU32(v + 1)
  {
    if v == U32 - 1 {
      DivModUnique(v + 1, U32, 1, 0);
    }
  }

  /** Two's-complement reinterpretation into int16. */
  function Wrap16(x: int): (r: int)
    ensures IsInt16(r)
    ensures r == x % U16 || r == x % U16 - U16
    ensures IsInt16(x) ==> r == x
  {
    var u := x % U16;
    if u > INT16_MAX then u - U16 else u
  }

  /** Two's-complement reinterpretation into int32. */
  function Wrap32(x: int): (r: int)
    ensures IsInt32(r)
    ensures r == x % U32 || r == x % U32 - U32
    ensures IsInt32(x) ==> r == x
  {
    var u := x % U32;
    if u > INT32_MAX then u - U32 else u
  }

  /** Two's-complement reinterpretation into int64. */
  function Wrap64(x: int): (r: int)
    ensures IsInt64(r)
    ensures r == x % U64 || r == x % U64 - U64
    ensures IsInt64(x) ==> r == x
  {
    var u := x % U64;
    if u > INT64_MAX then u - U64 else u
  }

  /** Saturating conversion to int32. */
  function Sat32(x: int): (r: int)
    ensures IsInt32(r)
    ensures IsInt32(x) ==> r == x
    ensures x > INT32_MAX ==> r == INT32_MAX
    ensures x < INT32_MIN ==> r == INT32_MIN
  {
    if x > INT32_MAX then INT32_MAX else if x < INT32_MIN then INT32_MIN else x
  }

  function Abs(x: int): (r: nat)
    ensures r == x || r == -x
  {
    if x < 0 then -x else x
  }

  /** C's `abs` on an int32: `abs(INT32_MIN)` wraps to INT32_MIN. */
  function AbsC32(x: int): (r: int)
    requires IsInt32(x)
    ensures IsInt32(r)
    ensures x != INT32_MIN ==> r == Abs(x)
    ensures x == INT32_MIN ==> r == INT32_MIN
  {
    if x < 0 then Wrap32(-x) else x
  }

  /** C division: the quotient is truncated toward zero. */
  function TruncDiv(a: int, b: int): (q: int)
    requires b != 0
    ensures Abs(q) * Abs(b) <= Abs(a) < (Abs(q) + 1) * Abs(b)
    ensures q == 0 || ((q > 0) <==> ((a > 0) == (b > 0)))
  {
    var m := Abs(a) / Abs(b);
    var q := if (a >= 0) == (b > 0) then m else -m;
    TruncDivMagnitude(a, b, m, q);
    TruncDivSign(a, b, m, q);
    q
  }

  lemma TruncDivMagnitude(a: int, b: int, m: int, q: int)
    requires b != 0
    requires m == Abs(a) / Abs(b)
    requires q == if (a >= 0) == (b > 0) then m else -m
    ensures Abs(q) * Abs(b) <= Abs(a) < (Abs(q) + 1) * Abs(b)
  {
    var A, B := Abs(a), Abs(b);
    DivBounds(A, B);
    assert m * B <= A < (m + 1) * B;
    assert Abs(q) == m;
  }

  lemma TruncDivSign(a: int, b: int, m: int, q: int)
    requires b != 0
    requires m == Abs(a) / Abs(b)
    requires q == if (a >= 0) == (b > 0) then m else -m
    ensures q == 0 || ((q > 0) <==> ((a > 0) == (b > 0)))
  {
    var A, B := Abs(a), Abs(b);
    DivBounds(A, B);
    if a == 0 {
      assert A == 0;
      assert m == 0;
    }
  }

  lemma DivBounds(a: nat, b: nat)
    requires b > 0
    ensures (a / b) * b <= a < (a / b + 1) * b
    ensures a / b >= 0
  {
    var m := a / b;
    assert a == m * b + a % b;
    assert (m + 1) * b == m * b + b;
  }

  /** Euclidean division is unique: the quotient/remainder pair is determined. */
  lemma DivModUnique(u: int, d: int, q: int, r: int)
    requires d > 0 && 0 <= r < d && u == q * d + r
    ensures u / d == q && u % d == r
  {
    var q', r' := u / d, u % d;
    assert u == q' * d + r' && 0 <= r' < d;
    if q' > q {
      MulMono(q + 1, q', d);
    } else if q' < q {
      MulMono(q' + 1, q, d);
    }
  }

  /** Reducing modulo a multiple of `a` first does not change the residue modulo `a`. */
  lemma ModMod(x: int, a: int, b: int)
    requires a > 0 && b > 0
    ensures (x % (a * b)) % a == x % a
  {
    var q, r := x / (a * b), x % (a * b);
    var r1, r2 := r / a, r % a;
    assert x == q * (a * b) + r;
    assert r == r1 * a + r2;
    assert x == (q * b + r1) * a + r2;
    DivModUnique(x, a, q * b + r1, r2);
  }

  /** Reduction modulo m commutes with adding an integer. */
  lemma ModAdd(a: int, k: int, m: int)
    requires m > 0
    ensures (a % m + k) % m == (a + k) % m
  {
    var q := a / m;
    assert a == q * m + a % m;
    var s := a % m + k;
    DivModUnique(a + k, m, q + s / m, s % m);
  }

  lemma MulMono(a: int, b: int, n: int)
    requires a <= b && n > 0
    ensures a * n <= b * n
  {
  }

  /** The Euclidean quotient of s by n > 0 lies in [lo, hi] when n·lo <= s <= n·hi. */
  lemma DivBetween(s: int, n: int, lo: int, hi: int)
    requires n > 0
    requires n * lo <= s <= n * hi
    ensures lo <= s / n <= hi
  {
    var q := s / n;
    assert s == q * n + s % n && 0 <= s % n < n;
    assert (hi + 1) * n == n * hi + n;
    assert (q + 1) * n == q * n + n;
    if q > hi {
      MulMono(hi + 1, q, n);
    }
    if q < lo {
      MulMono(q + 1, lo, n);
    }
  }

  /** The truncated quotient of s by n > 0 lies in [lo, hi] when n·lo <= s <= n·hi. */
  lemma TruncDivBetween(s: int, n: int, lo: int, hi: int)
    requires n > 0
    requires n * lo <= s <= n * hi
    ensures lo <= TruncDiv(s, n) <= hi
  {
    if s >= 0 {
      assert TruncDiv(s, n) == s / n;
      DivBetween(s, n, lo, hi);
    } else {
      assert TruncDiv(s, n) == -((-s) / n);
      assert n * (-hi) <= -s <= n * (-lo);
      DivBetween(-s, n, -hi, -lo);
    }
  }


  /** Truncating division by a positive divisor is monotone. */
  lemma TruncDivMono(a: int, b: int, n: int)
    requires a <= b && n > 0
    ensures TruncDiv(a, n) <= TruncDiv(b, n)
  {
    if a >= 0 {
      DivMono(a, b, n);
    } else if b < 0 {
      DivMono(-b, -a, n);
    } else {
      assert TruncDiv(a, n) <= 0;
    }
  }

  lemma DivMono(a: nat, b: nat, n: int)
    requires a <= b && n > 0
    ensures a / n <= b / n
  {
    DivBounds(a, n);
    DivBounds(b, n);
    var qa, qb := a / n, b / n;
    if qa > qb {
      MulMono(qb + 1, qa, n);
    }
  }

  /** Truncating division of a non-negative dividend is Euclidean division. */
  lemma TruncDivNonNeg(a: int, b: int)
    requires a >= 0 && b > 0
    ensures TruncDiv(a, b) == a / b
  {
  }

  /** `(a >> k) & mask`, bit extraction on a non-negative value. */
  function Bits(x: nat, shift: nat, width: nat): (r: nat)
    ensures r < Pow2(width)
  {
    Pow2Positive(shift);
    Pow2Positive(width);
    (x / Pow2(shift)) % Pow2(width)
  }

  function Pow2(n: nat): (r: nat)
    ensures r >= 1
  {
    if n == 0 then 1 else 2 * Pow2(n - 1)
  }

  lemma Pow2Positive(n: nat)
    ensures Pow2(n) > 0
  {
  }

  /** Unsigned left shift by `k` into a `width`-bit register. */
  function Shl(x: nat, k: nat, width: nat): (r: nat)
    ensures r < Pow2(width)
  {
    (x * Pow2(k)) % Pow2(width)
  }

  /** The smaller of two values, as the C code's `a < b ? a : b`. */
  function Min(a: int, b: int): (r: int)
    ensures r <= a && r <= b && (r == a || r == b)
  {
    if a < b then a else b
  }
}

=== FILE: config.dfy ===
/**
  The configuration registry (`struct lq_config_registry`): the remap and
  scale tables a diagnostic tester may read and rewrite, a production lock
  that a calibration session lifts, a change counter, and the byte layouts
  the UDS data identifiers use.

  The mutators report refusals with the codes of the C source: `-ENOENT`
  and `-ENOMEM` (negative), and `-LQ_NRC_*`, which is a POSITIVE UDS
  negative-response code because `LQ_NRC_X` is already `-UDS_NRC_X`.
 */
module Config {
  import opened CInt
  import opened Bytes
  import opened Events
  import opened Signals
  import opened Remap
  import opened Scale
  import opened Wrappers

  /** `-LQ_NRC_*` as returned by the registry. */
  const NRC_INCORRECT_LENGTH: int := 0x13
  const NRC_OUT_OF_RANGE: int := 0x31
  const NRC_SECURITY_DENIED: int := 0x33
  const NRC_PROGRAMMING_FAILURE: int := 0x72

  const DID_SIGNAL_VALUE: int := 0xF1A0
  const DID_SIGNAL_STATUS: int := 0xF1A1
  const DID_REMAP_CONFIG: int := 0xF1A2
  const DID_SCALE_CONFIG: int := 0xF1A3
  const DID_CALIBRATION_MODE: int := 0xF1A6

  const RID_ENTER_CALIBRATION: int := 0xF1A0
  const RID_EXIT_CALIBRATION: int := 0xF1A1
  const RID_RESET_DEFAULTS: int := 0xF1A2
  const ROUTINE_START: int := 1

  /** Wire sizes of one serialized entry. */
  const REMAP_BYTES: int := 5
  const SCALE_BYTES: int := 15

  /**
    The registry. `remaps` and `scales` hold the first `num_remaps` and
    `num_scales` entries of the caller's arrays; `signals` is the engine's
    signal table the registry reads through.
   */
  datatype Registry = Registry(signals: seq<Signal>, remaps: seq<RemapCtx>, maxRemaps: int,
                               scales: seq<ScaleCtx>, maxScales: int,
                               locked: bool, calibration: bool, version: int)

  predicate Valid(g: Registry)
  {
    |g.signals| == MAX_SIGNALS && (forall i :: 0 <= i < |g.signals| ==> ValidSignal(g.signals[i]))
    && IsU8(g.maxRemaps) && |g.remaps| <= g.maxRemaps
    && (forall i :: 0 <= i < |g.remaps| ==> ValidRemap(g.remaps[i]))
    && IsU8(g.maxScales) && |g.scales| <= g.maxScales
    && (forall i :: 0 <= i < |g.scales| ==> ValidScale(g.scales[i]))
    && IsU32(g.version)
  }

  /** A return code together with the registry after the call. */
  datatype Outcome = Outcome(rc: int, reg: Registry)

  /** The lock gate every mutator applies first. */
  predicate Writable(g: Registry)
  {
    !g.locked || g.calibration
  }

  /** A committed mutation: only the tables change, and the version advances by one (uint32). */
  predicate Committed(g: Registry, r: Registry)
  {
    r.signals == g.signals && r.maxRemaps == g.maxRemaps && r.maxScales == g.maxScales
    && r.locked == g.locked && r.calibration == g.calibration
    && IsU32(g.version) && r.version == Bump(g.version)
  }

  /** A signal id the registry accepts for a transform's input or output. */
  predicate IdsOk(input: int, output: int)
  {
    input < MAX_SIGNALS && output < MAX_SIGNALS
  }

  /** The clamp check of write_scale and add_scale. */
  predicate ClampsOk(c: ScaleCtx)
  {
    !(c.hasMin && c.hasMax && c.clampMin > c.clampMax)
  }

  // ---------------------------------------------------------------------
  // Lifecycle and reads
  // ---------------------------------------------------------------------

  /** lq_config_init: a missing engine gives -EINVAL; otherwise empty, unlocked tables at version 0. */
  function Init(engine: Option<seq<Signal>>, maxRemaps: int, maxScales: int): (r: (int, Option<Registry>))
    requires engine.Some? ==> |engine.value| == MAX_SIGNALS && forall i :: 0 <= i < |engine.value| ==> ValidSignal(engine.value[i])
    requires IsU8(maxRemaps) && IsU8(maxScales)
    ensures engine.None? <==> r.0 == -EINVAL
    ensures engine.None? ==> r.1.None?
    ensures engine.Some? ==> r.0 == 0 && r.1.Some? && Valid(r.1.value)
    ensures engine.Some? ==> r.1.value.remaps == [] && r.1.value.scales == []
    ensures engine.Some? ==> !r.1.value.locked && !r.1.value.calibration && r.1.value.version == 0
    ensures engine.Some? ==> r.1.value.maxRemaps == maxRemaps && r.1.value.maxScales == maxScales
  {
    match engine
    case None => (-EINVAL, None)
    case Some(sigs) => (0, Some(Registry(sigs, [], maxRemaps, [], maxScales, false, false, 0)))
  }

  /** lq_config_read_signal: None is the -ENOENT return for ids at or above LQ_MAX_SIGNALS. */
  function ReadSignal(g: Registry, id: int): (r: Option<(int, EventStatus)>)
    requires Valid(g) && IsU8(id)
    ensures r.None? <==> id >= MAX_SIGNALS
    ensures r.Some? ==> r.value == (g.signals[id].value, g.signals[id].status)
  {
    if id >= MAX_SIGNALS then None else Some((g.signals[id].value, g.signals[id].status))
  }

  /** lq_config_read_remap: None is the -ENOENT return for an index at or above `num_remaps`. */
  function ReadRemap(g: Registry, index: int): (r: Option<RemapCtx>)
    requires Valid(g) && IsU8(index)
    ensures r.None? <==> index >= |g.remaps|
    ensures r.Some? ==> r.value == g.remaps[index]
  {
    if index >= |g.remaps| then None else Some(g.remaps[index])
  }

  /** lq_config_read_scale: None is the -ENOENT return for an index at or above `num_scales`. */
  function ReadScale(g: Registry, index: int): (r: Option<ScaleCtx>)
    requires Valid(g) && IsU8(index)
    ensures r.None? <==> index >= |g.scales|
    ensures r.Some? ==> r.value == g.scales[index]
  {
    if index >= |g.scales| then None else Some(g.scales[index])
  }

  // ---------------------------------------------------------------------
  // Mutators
  // ---------------------------------------------------------------------

  /** lq_config_write_remap: lock, then index, then signal ids; on success the entry is replaced. */
  function WriteRemap(g: Registry, index: int, c: RemapCtx): (r: Outcome)
    requires Valid(g) && IsU8(index) && ValidRemap(c)
    ensures Valid(r.reg)
    ensures r.rc == 0 <==> Writable(g) && index < |g.remaps| && IdsOk(c.input, c.output)
    ensures !Writable(g) ==> r.rc == NRC_SECURITY_DENIED
    ensures Writable(g) && index >= |g.remaps| ==> r.rc == -ENOENT
    ensures Writable(g) && index < |g.remaps| && !IdsOk(c.input, c.output) ==> r.rc == NRC_OUT_OF_RANGE
    ensures r.rc != 0 ==> r.reg == g
    ensures r.rc == 0 ==> Committed(g, r.reg) && r.reg.scales == g.scales
    ensures r.rc == 0 ==> |r.reg.remaps| == |g.remaps| && r.reg.remaps[index] == c
    ensures r.rc == 0 ==> forall j :: 0 <= j < |g.remaps| && j != index ==> r.reg.remaps[j] == g.remaps[j]
  {
    if !Writable(g) then Outcome(NRC_SECURITY_DENIED, g)
    else if index >= |g.remaps| then Outcome(-ENOENT, g)
    else if !IdsOk(c.input, c.output) then Outcome(NRC_OUT_OF_RANGE, g)
    else Outcome(0, g.(remaps := g.remaps[index := c], version := Bump(g.version)))
  }

  /** lq_config_write_scale: as write_remap, plus the clamp-order check. */
  function WriteScale(g: Registry, index: int, c: ScaleCtx): (r: Outcome)
    requires Valid(g) && IsU8(index) && ValidScale(c)
    ensures Valid(r.reg)
    ensures r.rc == 0 <==> Writable(g) && index < |g.scales| && IdsOk(c.input, c.output) && ClampsOk(c)
    ensures !Writable(g) ==> r.rc == NRC_SECURITY_DENIED
    ensures Writable(g) && index >= |g.scales| ==> r.rc == -ENOENT
    ensures Writable(g) && index < |g.scales| && !(IdsOk(c.input, c.output) && ClampsOk(c)) ==> r.rc == NRC_OUT_OF_RANGE
    ensures r.rc != 0 ==> r.reg == g
    ensures r.rc == 0 ==> Committed(g, r.reg) && r.reg.remaps == g.remaps
    ensures r.rc == 0 ==> |r.reg.scales| == |g.scales| && r.reg.scales[index] == c
    ensures r.rc == 0 ==> forall j :: 0 <= j < |g.scales| && j != index ==> r.reg.scales[j] == g.scales[j]
  {
    if !Writable(g) then Outcome(NRC_SECURITY_DENIED, g)
    else if index >= |g.scales| then Outcome(-ENOENT, g)
    else if !IdsOk(c.input, c.output) || !ClampsOk(c) then Outcome(NRC_OUT_OF_RANGE, g)
    else Outcome(0, g.(scales := g.scales[index := c], version := Bump(g.version)))
  }

  /** lq_config_add_remap: lock, then capacity, then ids; on success the entry is appended at index `num_remaps`. */
  function AddRemap(g: Registry, c: RemapCtx): (r: Outcome)
    requires Valid(g) && ValidRemap(c)
    ensures Valid(r.reg)
    ensures r.rc == 0 <==> Writable(g) && |g.remaps| < g.maxRemaps && IdsOk(c.input, c.output)
    ensures !Writable(g) ==> r.rc == NRC_SECURITY_DENIED
    ensures Writable(g) && |g.remaps| >= g.maxRemaps ==> r.rc == -ENOMEM
    ensures Writable(g) && |g.remaps| < g.maxRemaps && !IdsOk(c.input, c.output) ==> r.rc == NRC_OUT_OF_RANGE
    ensures r.rc != 0 ==> r.reg == g
    ensures r.rc == 0 ==> Committed(g, r.reg) && r.reg.scales == g.scales
    ensures r.rc == 0 ==> |r.reg.remaps| == |g.remaps| + 1 && r.reg.remaps[|g.remaps|] == c
    ensures r.rc == 0 ==> r.reg.remaps[..|g.remaps|] == g.remaps
  {
    if !Writable(g) then Outcome(NRC_SECURITY_DENIED, g)
    else if |g.remaps| >= g.maxRemaps then Outcome(-ENOMEM, g)
    else if !IdsOk(c.input, c.output) then Outcome(NRC_OUT_OF_RANGE, g)
    else Outcome(0, g.(remaps := g.remaps + [c], version := Bump(g.version)))
  }

  /** lq_config_add_scale: as add_remap, plus the clamp-order check. */
  function AddScale(g: Registry, c: ScaleCtx): (r: Outcome)
    requires Valid(g) && ValidScale(c)
    ensures Valid(r.reg)
    ensures r.rc == 0 <==> Writable(g) && |g.scales| < g.maxScales && IdsOk(c.input, c.output) && ClampsOk(c)
    ensures !Writable(g) ==> r.rc == NRC_SECURITY_DENIED
    ensures Writable(g) && |g.scales| >= g.maxScales ==> r.rc == -ENOMEM
    ensures Writable(g) && |g.scales| < g.maxScales && !(IdsOk(c.input, c.output) && ClampsOk(c)) ==> r.rc == NRC_OUT_OF_RANGE
    ensures r.rc != 0 ==> r.reg == g
    ensures r.rc == 0 ==> Committed(g, r.reg) && r.reg.remaps == g.remaps
    ensures r.rc == 0 ==> |r.reg.scales| == |g.scales| + 1 && r.reg.scales[|g.scales|] == c
    ensures r.rc == 0 ==> r.reg.scales[..|g.scales|] == g.scales
  {
    if !Writable(g) then Outcome(NRC_SECURITY_DENIED, g)
    else if |g.scales| >= g.maxScales then Outcome(-ENOMEM, g)
    else if !IdsOk(c.input, c.output) || !ClampsOk(c) then Outcome(NRC_OUT_OF_RANGE, g)
    else Outcome(0, g.(scales := g.scales + [c], version := Bump(g.version)))
  }

  /** lq_config_remove_remap: lock, then index; later entries shift down by one. */
  function RemoveRemap(g: Registry, index: int): (r: Outcome)
    requires Valid(g) && IsU8(index)
    ensures Valid(r.reg)
    ensures r.rc == 0 <==> Writable(g) && index < |g.remaps|
    ensures !Writable(g) ==> r.rc == NRC_SECURITY_DENIED
    ensures Writable(g) && index >= |g.remaps| ==> r.rc == -ENOENT
    ensures r.rc != 0 ==> r.reg == g
    ensures r.rc == 0 ==> Committed(g, r.reg) && r.reg.scales == g.scales
    ensures r.rc == 0 ==> |r.reg.remaps| == |g.remaps| - 1
    ensures r.rc == 0 ==> forall j :: 0 <= j < index ==> r.reg.remaps[j] == g.remaps[j]
    ensures r.rc == 0 ==> forall j :: index <= j < |r.reg.remaps| ==> r.reg.remaps[j] == g.remaps[j + 1]
  {
    if !Writable(g) then Outcome(NRC_SECURITY_DENIED, g)
    else if index >= |g.remaps| then Outcome(-ENOENT, g)
    else Outcome(0, g.(remaps := g.remaps[..index] + g.remaps[index + 1..], version := Bump(g.version)))
  }

  /** lq_config_remove_scale: lock, then index; later entries shift down by one. */
  function RemoveScale(g: Registry, index: int): (r: Outcome)
    requires Valid(g) && IsU8(index)
    ensures Valid(r.reg)
    ensures r.rc == 0 <==> Writable(g) && index < |g.scales|
    ensures !Writable(g) ==> r.rc == NRC_SECURITY_DENIED
    ensures Writable(g) && index >= |g.scales| ==> r.rc == -ENOENT
    ensures r.rc != 0 ==> r.reg == g
    ensures r.rc == 0 ==> Committed(g, r.reg) && r.reg.remaps == g.remaps
    ensures r.rc == 0 ==> |r.reg.scales| == |g.scales| - 1
    ensures r.rc == 0 ==> forall j :: 0 <= j < index ==> r.reg.scales[j] == g.scales[j]
    ensures r.rc == 0 ==> forall j :: index <= j < |r.reg.scales| ==> r.reg.scales[j] == g.scales[j + 1]
  {
    if !Writable(g) then Outcome(NRC_SECURITY_DENIED, g)
    else if index >= |g.scales| then Outcome(-ENOENT, g)
    else Outcome(0, g.(scales := g.scales[..index] + g.scales[index + 1..], version := Bump(g.version)))
  }

  /** lq_config_reset_to_defaults: lock, then both tables emptied. */
  function ResetToDefaults(g: Registry): (r: Outcome)
    requires Valid(g)
    ensures Valid(r.reg)
    ensures r.rc == 0 <==> Writable(g)
    ensures !Writable(g) ==> r.rc == NRC_SECURITY_DENIED && r.reg == g
    ensures Writable(g) ==> Committed(g, r.reg) && r.reg.remaps == [] && r.reg.scales == []
  {
    if !Writable(g) then Outcome(NRC_SECURITY_DENIED, g)
    else Outcome(0, g.(remaps := [], scales := [], version := Bump(g.version)))
  }

  /** lq_config_enter_calibration_mode: lifts the lock; nothing else changes. */
  function EnterCalibration(g: Registry): (r: Outcome)
    requires Valid(g)
    ensures Valid(r.reg) && r.rc == 0
    ensures r.reg.calibration && Writable(r.reg)
    ensures r.reg.(calibration := g.calibration) == g
  {
    Outcome(0, g.(calibration := true))
  }

  /** lq_config_exit_calibration_mode: always leaves the registry locked, whatever it was before. */
  function ExitCalibration(g: Registry): (r: Outcome)
    requires Valid(g)
    ensures Valid(r.reg) && r.rc == 0
    ensures r.reg.locked && !r.reg.calibration && !Writable(r.reg)
    ensures r.reg.(locked := g.locked, calibration := g.calibration) == g
  {
    Outcome(0, g.(calibration := false, locked := true))
  }

  // ---------------------------------------------------------------------
  // Properties relating the mutators
  // ---------------------------------------------------------------------

  /** A successful write is what the next read returns, and the other entries read as before. */
  lemma WriteThenRead(g: Registry, index: int, c: RemapCtx, j: int)
    requires Valid(g) && IsU8(index) && ValidRemap(c) && IsU8(j)
    requires WriteRemap(g, index, c).rc == 0
    ensures ReadRemap(WriteRemap(g, index, c).reg, index) == Some(c)
    ensures j != index ==> ReadRemap(WriteRemap(g, index, c).reg, j) == ReadRemap(g, j)
  {
  }

  /** Removing the entry just added restores the table; the version has moved by two. */
  lemma AddThenRemove(g: Registry, c: RemapCtx)
    requires Valid(g) && ValidRemap(c)
    requires AddRemap(g, c).rc == 0
    ensures RemoveRemap(AddRemap(g, c).reg, |g.remaps|).rc == 0
    ensures RemoveRemap(AddRemap(g, c).reg, |g.remaps|).reg.remaps == g.remaps
    ensures RemoveRemap(AddRemap(g, c).reg, |g.remaps|).reg.version == WrapU32(g.version + 2)
  {
    var a := AddRemap(g, c).reg;
    var b := RemoveRemap(a, |g.remaps|).reg;
    assert b.remaps == a.remaps[..|g.remaps|];
    BumpWraps(g.version);
    BumpWraps(a.version);
    ModAdd(g.version + 1, 1, U32);
  }

  /** Every registry operation, as a tester drives it. */
  datatype Op =
    | WriteRemapOp(index: int, remap: RemapCtx)
    | WriteScaleOp(index: int, scale: ScaleCtx)
    | AddRemapOp(remap: RemapCtx)
    | AddScaleOp(scale: ScaleCtx)
    | RemoveRemapOp(index: int)
    | RemoveScaleOp(index: int)
    | ResetOp
    | EnterCalibrationOp
    | ExitCalibrationOp

  predicate ValidOp(op: Op)
  {
    match op
    case WriteRemapOp(i, c) => IsU8(i) && ValidRemap(c)
    case WriteScaleOp(i, c) => IsU8(i) && ValidScale(c)
    case AddRemapOp(c) => ValidRemap(c)
    case AddScaleOp(c) => ValidScale(c)
    case RemoveRemapOp(i) => IsU8(i)
    case RemoveScaleOp(i) => IsU8(i)
    case _ => true
  }

  predicate ValidOps(ops: seq<Op>)
  {
    forall i :: 0 <= i < |ops| ==> ValidOp(ops[i])
  }

  /** The operations that change the tables (the calibration switches do not). */
  predicate IsMutation(op: Op)
  {
    !op.EnterCalibrationOp? && !op.ExitCalibrationOp?
  }

  function Apply(g: Registry, op: Op): (r: Outcome)
    requires Valid(g) && ValidOp(op)
    ensures Valid(r.reg)
    ensures r.reg.version == if IsMutation(op) && r.rc == 0 then Bump(g.version) else g.version
  {
    match op
    case WriteRemapOp(i, c) => WriteRemap(g, i, c)
    case WriteScaleOp(i, c) => WriteScale(g, i, c)
    case AddRemapOp(c) => AddRemap(g, c)
    case AddScaleOp(c) => AddScale(g, c)
    case RemoveRemapOp(i) => RemoveRemap(g, i)
    case RemoveScaleOp(i) => RemoveScale(g, i)
    case ResetOp => ResetToDefaults(g)
    case EnterCalibrationOp => EnterCalibration(g)
    case ExitCalibrationOp => ExitCalibration(g)
  }

  function Run(g: Registry, ops: seq<Op>): (r: Registry)
    requires Valid(g) && ValidOps(ops)
    ensures Valid(r)
    decreases |ops|
  {
    if |ops| == 0 then g else Run(Apply(g, ops[0]).reg, ops[1..])
  }

  /** How many operations of the run were successful mutations. */
  function Successes(g: Registry, ops: seq<Op>): (n: nat)
    requires Valid(g) && ValidOps(ops)
    ensures n <= |ops|
    decreases |ops|
  {
    if |ops| == 0 then 0
    else
      var o := Apply(g, ops[0]);
      (if IsMutation(ops[0]) && o.rc == 0 then 1 else 0) + Successes(o.reg, ops[1..])
  }

  /** `config_version` counts the successful mutations of any run, modulo 2^32. */
  lemma {:induction false} VersionCountsMutations(g: Registry, ops: seq<Op>)
    requires Valid(g) && ValidOps(ops)
    ensures Run(g, ops).version == WrapU32(g.version + Successes(g, ops))
    decreases |ops|
  {
    if |ops| > 0 {
      var op, rest := ops[0], ops[1..];
      assert ValidOp(op) && ValidOps(rest);
      var o := Apply(g, op);
      VersionCountsMutations(o.reg, rest);
      var k := if IsMutation(op) && o.rc == 0 then 1 else 0;
      assert Run(g, ops) == Run(o.reg, rest);
      VersionStep(g.version, k, Successes(o.reg, rest), Successes(g, ops), o.reg.version, Run(o.reg, rest).version);
    }
  }

  /** A counter bumped by k and then by `rest` more, modulo 2^32, was bumped by their sum. */
  lemma VersionStep(v: int, k: int, rest: nat, total: nat, v1: int, last: int)
    requires IsU32(v) && (k == 0 || k == 1) && total == k + rest
    requires v1 == (if k == 1 then Bump(v) else v) && last == WrapU32(v1 + rest)
    ensures last == WrapU32(v + total)
  {
    BumpWraps(v);
    ModAdd(v + k, rest, U32);
  }

  /**
    A locked registry outside calibration is frozen: whatever the tester
    sends, short of entering calibration, nothing changes.
   */
  lemma {:induction false} LockedIsFrozen(g: Registry, ops: seq<Op>)
    requires Valid(g) && ValidOps(ops)
    requires g.locked && !g.calibration
    requires forall i :: 0 <= i < |ops| ==> !ops[i].EnterCalibrationOp?
    ensures Run(g, ops) == g
    decreases |ops|
  {
    if |ops| > 0 {
      assert Apply(g, ops[0]).reg == g;
      LockedIsFrozen(g, ops[1..]);
    }
  }

  // ---------------------------------------------------------------------
  // Serializers
  // ---------------------------------------------------------------------

  function BoolBit(b: bool, m: int): int
  {
    if b then m else 0
  }

  /** serialize_remap: [input][output][invert 0x01 | enabled 0x02][deadzone, 16 bits big-endian]. */
  function SerializeRemap(c: RemapCtx): (r: seq<Byte>)
    requires ValidRemap(c)
    ensures |r| == REMAP_BYTES
  {
    [c.input, c.output, BoolBit(c.invert, 1) + BoolBit(c.enabled, 2)] + Be16(c.deadzone)
  }

  /** deserialize_remap: the deadzone is read back unsigned, `(d3 << 8) | d4`. */
  function DeserializeRemap(d: seq<Byte>): (r: RemapCtx)
    requires |d| == REMAP_BYTES
    ensures ValidRemap(r) && IsU16(r.deadzone)
  {
    RemapCtx(d[0], d[1], HasBit(d[2], 1), Join16(d[3..5]), HasBit(d[2], 2))
  }

  /**
    The remap layout round-trips exactly when the deadzone fits in 16
    unsigned bits; any other deadzone comes back as its low 16 bits.
   */
  lemma RemapRoundTrip(c: RemapCtx)
    requires ValidRemap(c)
    ensures DeserializeRemap(SerializeRemap(c)) == c.(deadzone := WrapU16(c.deadzone))
    ensures DeserializeRemap(SerializeRemap(c)) == c <==> IsU16(c.deadzone)
  {
    var d := SerializeRemap(c);
    assert d[3..5] == Be16(c.deadzone);
  }

  /** Bytes whose flag byte uses only the two defined bits survive decoding and re-encoding. */
  lemma RemapBytesRoundTrip(d: seq<Byte>)
    requires |d| == REMAP_BYTES && d[2] < 4
    ensures SerializeRemap(DeserializeRemap(d)) == d
  {
    Be16Join(d[3..5]);
    RemapFlagsReencode(d[2]);
    assert d == [d[0], d[1], d[2]] + d[3..5];
  }

  /**
    serialize_scale: [input][output][enabled 0x01 | has_min 0x02 | has_max 0x04]
    [factor, 16 bits][offset, 16 bits][clamp_min, 32 bits][clamp_max, 32 bits],
    all big-endian: 15 bytes in all.
   */
  function SerializeScale(c: ScaleCtx): (r: seq<Byte>)
    requires ValidScale(c)
    ensures |r| == SCALE_BYTES
  {
    [c.input, c.output, BoolBit(c.enabled, 1) + BoolBit(c.hasMin, 2) + BoolBit(c.hasMax, 4)]
    + Be16(c.factor) + Be16(c.offset) + Be32(c.clampMin) + Be32(c.clampMax)
  }

  /** deserialize_scale: factor and offset are sign-extended from 16 bits. */
  function DeserializeScale(d: seq<Byte>): (r: ScaleCtx)
    requires |d| == SCALE_BYTES
    ensures ValidScale(r) && IsInt16(r.factor) && IsInt16(r.offset)
  {
    ScaleCtx(d[0], d[1], DecodeI16(d[3..5]), DecodeI16(d[5..7]), DecodeI32(d[7..11]), DecodeI32(d[11..15]),
             HasBit(d[2], 2), HasBit(d[2], 4), HasBit(d[2], 1))
  }

  /**
    The scale layout round-trips exactly when factor and offset fit in
    int16; otherwise they come back as their low 16 bits, sign-extended.
    The clamps always survive.
   */
  lemma ScaleRoundTrip(c: ScaleCtx)
    requires ValidScale(c)
    ensures DeserializeScale(SerializeScale(c)) == c.(factor := Wrap16(c.factor), offset := Wrap16(c.offset))
    ensures DeserializeScale(SerializeScale(c)) == c <==> IsInt16(c.factor) && IsInt16(c.offset)
  {
    var d := SerializeScale(c);
    assert d[3..5] == Be16(c.factor);
    assert d[5..7] == Be16(c.offset);
    assert d[7..11] == Be32(c.clampMin);
    assert d[11..15] == Be32(c.clampMax);
    I16RoundTrip(c.factor);
    I16RoundTrip(c.offset);
    I32RoundTrip(c.clampMin);
    I32RoundTrip(c.clampMax);
  }

  /** Bytes whose flag byte uses only the three defined bits survive decoding and re-encoding. */
  lemma ScaleBytesRoundTrip(d: seq<Byte>)
    requires |d| == SCALE_BYTES && d[2] < 8
    ensures SerializeScale(DeserializeScale(d)) == d
  {
    var c := DeserializeScale(d);
    I16Reencode(d[3..5]);
    I16Reencode(d[5..7]);
    I32Reencode(d[7..11]);
    I32Reencode(d[11..15]);
    ScaleFlagsReencode(d[2]);
    assert SerializeScale(c) == [d[0], d[1], d[2]] + d[3..5] + d[5..7] + d[7..11] + d[11..15];
    assert d == [d[0], d[1], d[2]] + d[3..5] + d[5..7] + d[7..11] + d[11..15];
  }

  /** The remap flag byte: bits 0 and 1 decode and re-encode to themselves. */
  lemma RemapFlagsReencode(b: Byte)
    requires b < 4
    ensures BoolBit(HasBit(b, 1), 1) + BoolBit(HasBit(b, 2), 2) == b
  {
  }

  /** The scale flag byte: bits 0 to 2 decode and re-encode to themselves. */
  lemma ScaleFlagsReencode(b: Byte)
    requires b < 8
    ensures BoolBit(HasBit(b, 1), 1) + BoolBit(HasBit(b, 2), 2) + BoolBit(HasBit(b, 4), 4) == b
  {
    if b == 0 {} else if b == 1 {} else if b == 2 {} else if b == 3 {}
    else if b == 4 {} else if b == 5 {} else if b == 6 {} else {}
  }

  // ---------------------------------------------------------------------
  // UDS data identifier and routine handlers
  // ---------------------------------------------------------------------

  /** A DID read: the return code and, on 0, the reply bytes. */
  datatype DidReply = DidReply(rc: int, data: seq<Byte>)

  /**
    lq_config_uds_read_did. `arg` is the request byte the caller leaves in
    `data[0]` (signal id or table index); `maxLen` is the reply buffer size.
   */
  function ReadDid(g: Registry, did: int, arg: Byte, maxLen: nat): (r: DidReply)
    requires Valid(g) && IsU16(did)
    ensures r.rc != 0 ==> r.data == []
    ensures r.rc == 0 ==> |r.data| <= maxLen
    ensures r.rc == 0 <==>
      (did == DID_SIGNAL_VALUE && maxLen >= 4 && arg < MAX_SIGNALS)
      || (did == DID_SIGNAL_STATUS && maxLen >= 1 && arg < MAX_SIGNALS)
      || (did == DID_REMAP_CONFIG && maxLen >= REMAP_BYTES && arg < |g.remaps|)
      || (did == DID_SCALE_CONFIG && maxLen >= SCALE_BYTES && arg < |g.scales|)
      || (did == DID_CALIBRATION_MODE && maxLen >= 8)
    ensures r.rc == 0 && did == DID_SIGNAL_VALUE ==> |r.data| == 4 && DecodeI32(r.data) == g.signals[arg].value
    ensures r.rc == 0 && did == DID_SIGNAL_STATUS ==> r.data == [StatusCode(g.signals[arg].status)]
    ensures r.rc == 0 && did == DID_REMAP_CONFIG ==> |r.data| == REMAP_BYTES && DeserializeRemap(r.data) == g.remaps[arg].(deadzone := WrapU16(g.remaps[arg].deadzone))
    ensures r.rc == 0 && did == DID_SCALE_CONFIG ==>
      && |r.data| == SCALE_BYTES
      && DeserializeScale(r.data) == g.scales[arg].(factor := Wrap16(g.scales[arg].factor), offset := Wrap16(g.scales[arg].offset))
    ensures r.rc == 0 && did == DID_CALIBRATION_MODE ==>
      |r.data| == 8 && r.data[0] == BoolBit(g.calibration, 1) && r.data[1] == BoolBit(g.locked, 1)
      && r.data[2] == |g.remaps| && r.data[3] == |g.scales| && Join32(r.data[4..]) == g.version
    ensures r.rc != 0 && did != DID_CALIBRATION_MODE && maxLen < 1 ==> r.rc == NRC_OUT_OF_RANGE
  {
    if did == DID_SIGNAL_VALUE then
      if maxLen < 1 || arg >= MAX_SIGNALS then DidReply(NRC_OUT_OF_RANGE, [])
      else if maxLen < 4 then DidReply(NRC_PROGRAMMING_FAILURE, [])
      else
        I32RoundTrip(g.signals[arg].value);
        DidReply(0, Be32(g.signals[arg].value))
    else if did == DID_SIGNAL_STATUS then
      if maxLen < 1 || arg >= MAX_SIGNALS then DidReply(NRC_OUT_OF_RANGE, [])
      else DidReply(0, [StatusCode(g.signals[arg].status)])
    else if did == DID_REMAP_CONFIG then
      if maxLen < 1 || arg >= |g.remaps| then DidReply(NRC_OUT_OF_RANGE, [])
      else if maxLen < REMAP_BYTES then DidReply(NRC_PROGRAMMING_FAILURE, [])
      else
        RemapRoundTrip(g.remaps[arg]);
        DidReply(0, SerializeRemap(g.remaps[arg]))
    else if did == DID_SCALE_CONFIG then
      if maxLen < 1 || arg >= |g.scales| then DidReply(NRC_OUT_OF_RANGE, [])
      else if maxLen < SCALE_BYTES then DidReply(NRC_PROGRAMMING_FAILURE, [])
      else
        ScaleRoundTrip(g.scales[arg]);
        DidReply(0, SerializeScale(g.scales[arg]))
    else if did == DID_CALIBRATION_MODE then
      if maxLen < 8 then DidReply(NRC_PROGRAMMING_FAILURE, [])
      else
        var d := [BoolBit(g.calibration, 1), BoolBit(g.locked, 1), |g.remaps|, |g.scales|] + Be32(g.version);
        assert d[4..] == Be32(g.version);
        DidReply(0, d)
    else DidReply(NRC_OUT_OF_RANGE, [])
  }

  /**
    lq_config_uds_write_did as written: the registry's refusal codes are
    forwarded only when negative (`ret < 0`), so a positive `-LQ_NRC_*`
    refusal comes back as 0.
   */
  function WriteDidAsWritten(g: Registry, did: int, data: seq<Byte>): (r: Outcome)
    requires Valid(g) && IsU16(did)
    ensures Valid(r.reg)
    ensures r.rc >= 0 || r.rc == -ENOENT
    ensures did != DID_REMAP_CONFIG && did != DID_SCALE_CONFIG ==> r == Outcome(NRC_OUT_OF_RANGE, g)
    ensures did == DID_REMAP_CONFIG && |data| < 1 + REMAP_BYTES ==> r == Outcome(NRC_INCORRECT_LENGTH, g)
    ensures did == DID_SCALE_CONFIG && |data| < 1 + SCALE_BYTES ==> r == Outcome(NRC_INCORRECT_LENGTH, g)
    ensures did == DID_REMAP_CONFIG && |data| >= 1 + REMAP_BYTES ==>
      r.reg == WriteRemap(g, data[0], DeserializeRemap(data[1..1 + REMAP_BYTES])).reg
    ensures did == DID_SCALE_CONFIG && |data| >= 1 + SCALE_BYTES ==>
      r.reg == WriteScale(g, data[0], DeserializeScale(data[1..1 + SCALE_BYTES])).reg
  {
    if did == DID_REMAP_CONFIG then
      if |data| < 1 + REMAP_BYTES then Outcome(NRC_INCORRECT_LENGTH, g)
      else
        var w := WriteRemap(g, data[0], DeserializeRemap(data[1..1 + REMAP_BYTES]));
        Outcome(if w.rc < 0 then w.rc else 0, w.reg)
    else if did == DID_SCALE_CONFIG then
      if |data| < 1 + SCALE_BYTES then Outcome(NRC_INCORRECT_LENGTH, g)
      else
        var w := WriteScale(g, data[0], DeserializeScale(data[1..1 + SCALE_BYTES]));
        Outcome(if w.rc < 0 then w.rc else 0, w.reg)
    else Outcome(NRC_OUT_OF_RANGE, g)
  }

  /**
    As written, a write the locked registry refuses reports success (0)
    although nothing was stored.
   */
  lemma LockedWriteReportsSuccess(g: Registry, data: seq<Byte>)
    requires Valid(g) && !Writable(g) && |data| >= 1 + REMAP_BYTES
    ensures WriteDidAsWritten(g, DID_REMAP_CONFIG, data).rc == 0
    ensures WriteDidAsWritten(g, DID_REMAP_CONFIG, data).reg == g
  {
  }

  /** Turns a registry return code into the convention the UDS server expects: failures negative. */
  function AsNrc(rc: int): (r: int)
    ensures r <= 0 || r == rc
    ensures rc == 0 <==> r == 0
    ensures rc > 0 ==> r == -rc
  {
    if rc > 0 then -rc else rc
  }

  /**
    lq_config_uds_write_did as evidently intended: every refusal, including
    the registry's positive `-LQ_NRC_*` codes, is returned as a negative
    value, so the UDS server answers with a negative response carrying
    that code; 0 means the table really changed.
   */
  function WriteDid(g: Registry, did: int, data: seq<Byte>): (r: Outcome)
    requires Valid(g) && IsU16(did)
    ensures Valid(r.reg)
    ensures r.rc <= 0
    ensures r.rc == 0 <==> r.reg != g || r.reg.version != g.version
    ensures r.rc == 0 ==> r.reg.version == Bump(g.version)
    ensures did != DID_REMAP_CONFIG && did != DID_SCALE_CONFIG ==> r == Outcome(-NRC_OUT_OF_RANGE, g)
    ensures !Writable(g) && (did == DID_REMAP_CONFIG || did == DID_SCALE_CONFIG) ==>
      r.reg == g && (r.rc == -NRC_SECURITY_DENIED || r.rc == -NRC_INCORRECT_LENGTH)
    ensures did == DID_REMAP_CONFIG && |data| >= 1 + REMAP_BYTES ==>
      r == Outcome(AsNrc(WriteRemap(g, data[0], DeserializeRemap(data[1..1 + REMAP_BYTES])).rc),
                   WriteRemap(g, data[0], DeserializeRemap(data[1..1 + REMAP_BYTES])).reg)
  {
    if did == DID_REMAP_CONFIG then
      if |data| < 1 + REMAP_BYTES then Outcome(-NRC_INCORRECT_LENGTH, g)
      else
        var w := WriteRemap(g, data[0], DeserializeRemap(data[1..1 + REMAP_BYTES]));
        Outcome(AsNrc(w.rc), w.reg)
    else if did == DID_SCALE_CONFIG then
      if |data| < 1 + SCALE_BYTES then Outcome(-NRC_INCORRECT_LENGTH, g)
      else
        var w := WriteScale(g, data[0], DeserializeScale(data[1..1 + SCALE_BYTES]));
        Outcome(AsNrc(w.rc), w.reg)
    else Outcome(-NRC_OUT_OF_RANGE, g)
  }

  /** With the correction, a write the locked registry refuses is reported as NRC 0x33. */
  lemma LockedWriteRefused(g: Registry, data: seq<Byte>)
    requires Valid(g) && !Writable(g) && |data| >= 1 + REMAP_BYTES
    ensures WriteDid(g, DID_REMAP_CONFIG, data) == Outcome(-NRC_SECURITY_DENIED, g)
  {
  }

  /**
    lq_config_uds_routine_control: only "start" is accepted; the three
    routine ids enter calibration, exit it, or reset the tables.
   */
  function RoutineControl(g: Registry, rid: int, controlType: int): (r: Outcome)
    requires Valid(g) && IsU16(rid) && IsU8(controlType)
    ensures Valid(r.reg)
    ensures controlType != ROUTINE_START ==> r == Outcome(NRC_OUT_OF_RANGE, g)
    ensures controlType == ROUTINE_START && rid == RID_ENTER_CALIBRATION ==> r == EnterCalibration(g)
    ensures controlType == ROUTINE_START && rid == RID_EXIT_CALIBRATION ==> r == ExitCalibration(g)
    ensures controlType == ROUTINE_START && rid == RID_RESET_DEFAULTS ==> r == ResetToDefaults(g)
    ensures controlType == ROUTINE_START && rid !in {RID_ENTER_CALIBRATION, RID_EXIT_CALIBRATION, RID_RESET_DEFAULTS}
            ==> r == Outcome(NRC_OUT_OF_RANGE, g)
  {
    if controlType != ROUTINE_START then Outcome(NRC_OUT_OF_RANGE, g)
    else if rid == RID_ENTER_CALIBRATION then EnterCalibration(g)
    else if rid == RID_EXIT_CALIBRATION then ExitCalibration(g)
    else if rid == RID_RESET_DEFAULTS then ResetToDefaults(g)
    else Outcome(NRC_OUT_OF_RANGE, g)
  }
}

=== FILE: conflicts.dfy ===
/**
  Requirement conflict detection (`scripts/conflict_handler.py`): when
  code generation is blocked, which hardware resources two requirements
  claim at once, which dependencies point nowhere, which budgets are
  exceeded, and which conflicts resolve themselves.

  Descriptions, resolution texts and the printed report are not modelled;
  a conflict keeps its severity, type, affected requirements,
  auto-resolvability and metadata.
 */
module Conflicts {
  import opened Wrappers
  import opened Text
  import opened Dicts

  datatype Severity = Error | Warning | Info

  datatype Kind = Resource | Timing | Dependency | Incompatible | Budget

  /** A budget limit; a resource without one is limited by `float('inf')`. */
  datatype Limit = Finite(n: int) | Infinite

  datatype Meta =
    | NoMeta
    | ResourceMeta(resourceType: string, resourceId: string)
    | CycleMeta(cycle: seq<string>)
    | BudgetMeta(resource: string, count: nat, limit: Limit, suggested: nat)

  datatype Conflict = Conflict(severity: Severity, kind: Kind, affected: seq<string>, autoResolvable: bool, meta: Meta)

  // ---------------------------------------------------------------------
  // Blocking generation
  // ---------------------------------------------------------------------

  /** `any(c.severity == s for c in conflicts)`. */
  function HasSeverity(cs: seq<Conflict>, s: Severity): (r: bool)
    ensures r <==> exists i :: 0 <= i < |cs| && cs[i].severity == s
  {
    if cs == [] then false
    else
      assert forall i :: 1 <= i < |cs| ==> cs[i] == cs[1..][i - 1];
      cs[0].severity == s || HasSeverity(cs[1..], s)
  }

  /** `should_fail`: some error, or in strict mode some warning. */
  function ShouldFail(cs: seq<Conflict>, strict: bool): (r: bool)
    ensures r <==> (exists i :: 0 <= i < |cs| && cs[i].severity == Error)
                   || (strict && exists i :: 0 <= i < |cs| && cs[i].severity == Warning)
  {
    HasSeverity(cs, Error) || (strict && HasSeverity(cs, Warning))
  }

  /** Strict mode blocks whatever normal mode blocks, and info never blocks. */
  lemma StrictBlocksMore(cs: seq<Conflict>)
    ensures ShouldFail(cs, false) ==> ShouldFail(cs, true)
    ensures (forall i :: 0 <= i < |cs| ==> cs[i].severity == Info) ==> !ShouldFail(cs, true)
  {
  }

  /** The verdict on two lists of conflicts together is the verdict on either. */
  lemma ShouldFailAppend(a: seq<Conflict>, b: seq<Conflict>, strict: bool)
    ensures ShouldFail(a + b, strict) <==> ShouldFail(a, strict) || ShouldFail(b, strict)
  {
    var s := a + b;
    assert forall i :: 0 <= i < |a| ==> s[i] == a[i];
    assert forall i :: 0 <= i < |b| ==> s[|a| + i] == b[i];
    if ShouldFail(s, strict) {
      var sev := if HasSeverity(s, Error) then Error else Warning;
      var i :| 0 <= i < |s| && s[i].severity == sev;
      if i >= |a| { assert b[i - |a|] == s[i]; }
    }
  }

  // ---------------------------------------------------------------------
  // Requirements as the checks read them
  // ---------------------------------------------------------------------

  /** A property value: a string, or anything else with its `str()` text. */
  datatype PropVal = Str(s: string) | Other(repr: string)

  /** `str(value)`. */
  function Repr(v: PropVal): string
  {
    match v
    case Str(s) => s
    case Other(r) => r
  }

  /** What the checks read from a low-level requirement: its id and the `implementation` fields. */
  datatype Llr = Llr(id: string, nodeName: Option<string>, nodeType: Option<string>, props: map<string, PropVal>)

  // ---------------------------------------------------------------------
  // Resources
  // ---------------------------------------------------------------------

  /** `_extract_resources`: ADC channel, GPIO, and on a cyclic output its CAN identifier. */
  function ExtractResources(llr: Llr): (r: seq<(string, string)>)
    ensures |r| <= 3
    ensures forall x :: x in r ==> x.0 == "adc" || x.0 == "gpio" || x.0 == "can_cobid"
    ensures (exists x :: x in r && x.0 == "adc") <==> "io-channels" in llr.props
    ensures (exists x :: x in r && x.0 == "gpio") <==> "gpios" in llr.props
    ensures (exists x :: x in r && x.0 == "can_cobid")
            <==> "target-id" in llr.props && llr.nodeType == Some("lq,cyclic-output")
  {
    var p := llr.props;
    var adc := if "io-channels" in p then [("adc", Repr(p["io-channels"]))] else [];
    var gpio := if "gpios" in p then [("gpio", Repr(p["gpios"]))] else [];
    var can := if "target-id" in p && llr.nodeType == Some("lq,cyclic-output") then [("can_cobid", Repr(p["target-id"]))] else [];
    assert forall x :: x in adc + gpio + can <==> x in adc || x in gpio || x in can;
    assert adc != [] ==> adc[0] in adc + gpio + can;
    assert gpio != [] ==> gpio[0] in adc + gpio + can;
    assert can != [] ==> can[0] in adc + gpio + can;
    adc + gpio + can
  }

  /** A claim of one resource by one requirement, under the key `type:id`. */
  datatype Claim = Claim(key: string, resourceType: string, resourceId: string, owner: string)

  /** Every claim of every requirement, in the order the check visits them. */
  function Claims(llrs: seq<Llr>): (r: seq<Claim>)
  {
    if llrs == [] then []
    else
      var rs := ExtractResources(llrs[0]);
      seq(|rs|, i requires 0 <= i < |rs| => Claim(rs[i].0 + ":" + rs[i].1, rs[i].0, rs[i].1, llrs[0].id))
      + Claims(llrs[1..])
  }

  /** Some claim has this key. */
  predicate Claimed(cs: seq<Claim>, key: string)
  {
    exists i :: 0 <= i < |cs| && cs[i].key == key
  }

  /** The owner of the first claim of a key. */
  function FirstOwner(cs: seq<Claim>, key: string): string
    requires Claimed(cs, key)
  {
    if cs[0].key == key then cs[0].owner
    else
      var i :| 0 <= i < |cs| && cs[i].key == key;
      assert cs[1..][i - 1] == cs[i];
      FirstOwner(cs[1..], key)
  }

  /** The error for a repeat claim: the first claimant and the current one. */
  function ResourceError(first: string, c: Claim): Conflict
  {
    Conflict(Error, Resource, [first, c.owner], false, ResourceMeta(c.resourceType, c.resourceId))
  }

  /** The resource conflicts of a list of claims: one error for each claim of a key claimed before it. */
  function ResourceConflicts(cs: seq<Claim>): seq<Conflict>
  {
    if cs == [] then []
    else
      var init := cs[..|cs| - 1];
      var c := cs[|cs| - 1];
      ResourceConflicts(init) + (if Claimed(init, c.key) then [ResourceError(FirstOwner(init, c.key), c)] else [])
  }

  /** Claiming one more key. */
  lemma ClaimedSnoc(cs: seq<Claim>, c: Claim, key: string)
    ensures Claimed(cs + [c], key) <==> Claimed(cs, key) || c.key == key
  {
    var s := cs + [c];
    assert forall i :: 0 <= i < |cs| ==> s[i] == cs[i];
    assert s[|cs|] == c;
  }

  /** A later claim does not change who claimed a key first. */
  lemma {:induction false} FirstOwnerSnoc(cs: seq<Claim>, c: Claim, key: string)
    requires Claimed(cs, key) || c.key == key
    ensures Claimed(cs + [c], key)
    ensures Claimed(cs, key) ==> FirstOwner(cs + [c], key) == FirstOwner(cs, key)
    ensures !Claimed(cs, key) ==> FirstOwner(cs + [c], key) == c.owner
    decreases |cs|
  {
    ClaimedSnoc(cs, c, key);
    var s := cs + [c];
    if cs == [] {
      assert s == [c];
    } else if cs[0].key != key {
      assert s[1..] == cs[1..] + [c];
      if Claimed(cs, key) {
        var i :| 0 <= i < |cs| && cs[i].key == key;
        assert cs[1..][i - 1] == cs[i];
      }
      assert !Claimed(cs, key) ==> !Claimed(cs[1..], key);
      FirstOwnerSnoc(cs[1..], c, key);
    }
  }

  /** What one more claim does to the claimed keys and their first owners. */
  lemma ClaimStep(cs: seq<Claim>, c: Claim)
    ensures forall k :: Claimed(cs + [c], k) <==> Claimed(cs, k) || c.key == k
    ensures forall k :: Claimed(cs, k) ==> FirstOwner(cs + [c], k) == FirstOwner(cs, k)
    ensures !Claimed(cs, c.key) ==> FirstOwner(cs + [c], c.key) == c.owner
  {
    forall k ensures Claimed(cs + [c], k) <==> Claimed(cs, k) || c.key == k {
      ClaimedSnoc(cs, c, k);
    }
    forall k | Claimed(cs, k) ensures FirstOwner(cs + [c], k) == FirstOwner(cs, k) {
      FirstOwnerSnoc(cs, c, k);
    }
    if !Claimed(cs, c.key) {
      FirstOwnerSnoc(cs, c, c.key);
    }
  }

  /**
    `check_resource_conflict`: a map from key to first claimant, and an
    error for every claim whose key is already in it.
   */
  method CheckResourceConflict(llrs: seq<Llr>) returns (conflicts: seq<Conflict>)
    ensures conflicts == ResourceConflicts(Claims(llrs))
  {
    conflicts := FirstClaimConflicts(Claims(llrs));
  }

  /** The loop of `check_resource_conflict` over the claims in visiting order. */
  method FirstClaimConflicts(cs: seq<Claim>) returns (conflicts: seq<Conflict>)
    ensures conflicts == ResourceConflicts(cs)
  {
    var firstClaim: map<string, string> := map[];
    conflicts := [];
    var i := 0;
    while i < |cs|
      invariant 0 <= i <= |cs|
      invariant conflicts == ResourceConflicts(cs[..i])
      invariant forall k :: k in firstClaim <==> Claimed(cs[..i], k)
      invariant forall k :: k in firstClaim ==> firstClaim[k] == FirstOwner(cs[..i], k)
    {
      var c := cs[i];
      assert cs[..i + 1] == cs[..i] + [c];
      ClaimStep(cs[..i], c);
      if c.key in firstClaim {
        conflicts := conflicts + [ResourceError(firstClaim[c.key], c)];
      } else {
        firstClaim := firstClaim[c.key := c.owner];
      }
      i := i + 1;
    }
    assert cs[..|cs|] == cs;
  }

  /** The distinct keys claimed. */
  function Keys(cs: seq<Claim>): set<string>
  {
    set i | 0 <= i < |cs| :: cs[i].key
  }

  /** Every claim beyond the first of its key is one conflict: conflicts plus distinct keys make all claims. */
  lemma {:induction false} ConflictsCountRepeats(cs: seq<Claim>)
    ensures |ResourceConflicts(cs)| + |Keys(cs)| == |cs|
    decreases |cs|
  {
    if cs != [] {
      var init := cs[..|cs| - 1];
      var c := cs[|cs| - 1];
      ConflictsCountRepeats(init);
      assert cs == init + [c];
      assert Keys(cs) == Keys(init) + {c.key} by {
        forall k | k in Keys(cs) ensures k in Keys(init) + {c.key} {
          var i :| 0 <= i < |cs| && cs[i].key == k;
          if i < |init| { assert init[i] == cs[i]; }
        }
        forall k | k in Keys(init) ensures k in Keys(cs) {
          var i :| 0 <= i < |init| && init[i].key == k;
          assert cs[i] == init[i];
        }
        assert cs[|cs| - 1].key in Keys(cs);
      }
      if Claimed(init, c.key) {
        var i :| 0 <= i < |init| && init[i].key == c.key;
        assert c.key in Keys(init);
      } else {
        assert c.key !in Keys(init);
      }
    }
  }

  /** Each resource conflict is an error naming two claimants. */
  lemma {:induction false} ResourceConflictsAreErrors(cs: seq<Claim>)
    ensures forall c :: c in ResourceConflicts(cs) ==> c.severity == Error && c.kind == Resource && |c.affected| == 2
    decreases |cs|
  {
    if cs != [] {
      ResourceConflictsAreErrors(cs[..|cs| - 1]);
    }
  }

  // ---------------------------------------------------------------------
  // Dependencies
  // ---------------------------------------------------------------------

  /** `str.lstrip(chars)`. */
  function LStripChars(s: string, chars: set<char>): (r: string)
    ensures r == [] || r[0] !in chars
    ensures |r| <= |s| && r == s[|s| - |r|..]
  {
    if s != [] && s[0] in chars then LStripChars(s[1..], chars) else s
  }

  /** `str.rstrip(chars)`. */
  function RStripChars(s: string, chars: set<char>): (r: string)
    ensures r == [] || r[|r| - 1] !in chars
    ensures |r| <= |s| && r == s[..|r|]
  {
    if s != [] && s[|s| - 1] in chars then RStripChars(s[..|s| - 1], chars) else s
  }

  /** `str.strip(chars)`. */
  function StripChars(s: string, chars: set<char>): (r: string)
    ensures r == [] || (r[0] !in chars && r[|r| - 1] !in chars)
  {
    var l := LStripChars(s, chars);
    var r := RStripChars(l, chars);
    assert r != [] ==> r[0] == l[0];
    r
  }

  /** Removing `<`, `&` and `>` around a name written `<&name>`. */
  lemma StripReference(name: string)
    requires name != [] && name[0] !in RefChars && name[|name| - 1] !in RefChars
    ensures StripChars("<&" + name + ">", RefChars) == name
  {
    LStripReference(name);
    RStripReference(name);
  }

  /** The leading `<&` goes. */
  lemma LStripReference(name: string)
    requires name != [] && name[0] !in RefChars
    ensures LStripChars("<&" + name + ">", RefChars) == name + ">"
  {
    var s := "<&" + name + ">";
    var t := name + ">";
    assert s[0] == '<' && s[1..][0] == '&' && s[1..][1..] == t;
    assert t[0] == name[0];
    assert LStripChars(t, RefChars) == t;
    assert LStripChars(s[1..], RefChars) == t;
  }

  /** The trailing `>` goes. */
  lemma RStripReference(name: string)
    requires name != [] && name[|name| - 1] !in RefChars
    ensures RStripChars(name + ">", RefChars) == name
  {
    var t := name + ">";
    assert t[|t| - 1] == '>' && t[..|t| - 1] == name;
  }

  /** `node_to_llr`: node name to requirement id, for requirements with a non-empty node name; a later one wins. */
  function NodeToLlr(llrs: seq<Llr>): (m: map<string, string>)
  {
    var named := NamedPairs(llrs);
    Assign(map[], named)
  }

  /** The `(node_name, id)` pairs of the requirements that have a non-empty node name. */
  function NamedPairs(llrs: seq<Llr>): (r: seq<(string, string)>)
    ensures forall i :: 0 <= i < |r| ==> exists j :: 0 <= j < |llrs| && llrs[j].nodeName == Some(r[i].0) && llrs[j].id == r[i].1
  {
    if llrs == [] then []
    else
      var rest := NamedPairs(llrs[1..]);
      assert forall i :: 0 <= i < |rest| ==> exists j :: 0 <= j < |llrs| && llrs[j].nodeName == Some(rest[i].0) && llrs[j].id == rest[i].1 by {
        forall i | 0 <= i < |rest|
          ensures exists j :: 0 <= j < |llrs| && llrs[j].nodeName == Some(rest[i].0) && llrs[j].id == rest[i].1
        {
          var j :| 0 <= j < |llrs[1..]| && llrs[1..][j].nodeName == Some(rest[i].0) && llrs[1..][j].id == rest[i].1;
          assert llrs[j + 1] == llrs[1..][j];
        }
      }
      match llrs[0].nodeName
      case Some(n) => if n != [] then [(n, llrs[0].id)] + rest else rest
      case None => rest
  }

  /** The keys whose `<&name>` values are dependencies, in the order they are read. */
  const DependencyKeys: seq<string> := ["source", "input", "command", "verification", "control-signal"]

  /** The characters stripped around a reference. */
  const RefChars: set<char> := {'<', '&', '>'}

  /** The dependency one key contributes: the mapped id of the referenced node, or its name when unmapped. */
  function DependencyOf(props: map<string, PropVal>, key: string, nodeToLlr: map<string, string>): (r: Option<string>)
    ensures r.Some? <==> key in props && props[key].Str? && Contains(props[key].s, "<&")
    ensures r.Some? ==> var name := StripChars(props[key].s, RefChars);
                        r.value == if name in nodeToLlr then nodeToLlr[name] else name
  {
    if key in props && props[key].Str? && Contains(props[key].s, "<&") then
      var name := StripChars(props[key].s, RefChars);
      Some(if name in nodeToLlr then nodeToLlr[name] else name)
    else None
  }

  /** The present values among `xs`, in order. */
  function Present(xs: seq<Option<string>>): (r: seq<string>)
    ensures |r| <= |xs|
    ensures forall d :: d in r <==> Some(d) in xs
  {
    if xs == [] then []
    else
      var rest := Present(xs[1..]);
      assert forall o :: o in xs <==> o == xs[0] || o in xs[1..];
      if xs[0].Some? then [xs[0].value] + rest else rest
  }

  /** `_extract_dependencies`: the references of the dependency keys, in key order. */
  function ExtractDependencies(llr: Llr, nodeToLlr: map<string, string>): (r: seq<string>)
    ensures |r| <= 5
  {
    var found := seq(5, i requires 0 <= i < 5 => DependencyOf(llr.props, DependencyKeys[i], nodeToLlr));
    Present(found)
  }

  /** The reference of each dependency key is among the dependencies. */
  lemma DependencyListed(llr: Llr, nodeToLlr: map<string, string>, i: nat)
    requires i < 5 && DependencyOf(llr.props, DependencyKeys[i], nodeToLlr).Some?
    ensures DependencyOf(llr.props, DependencyKeys[i], nodeToLlr).value in ExtractDependencies(llr, nodeToLlr)
  {
    var found := seq(5, j requires 0 <= j < 5 => DependencyOf(llr.props, DependencyKeys[j], nodeToLlr));
    assert found[i] in found;
  }

  /** Every dependency is the reference of some dependency key. */
  lemma ListedDependency(llr: Llr, nodeToLlr: map<string, string>, d: string)
    requires d in ExtractDependencies(llr, nodeToLlr)
    ensures exists i :: 0 <= i < 5 && DependencyOf(llr.props, DependencyKeys[i], nodeToLlr) == Some(d)
  {
    var found := seq(5, j requires 0 <= j < 5 => DependencyOf(llr.props, DependencyKeys[j], nodeToLlr));
    assert Some(d) in found;
    var i :| 0 <= i < 5 && found[i] == Some(d);
  }

  /** A reference to a node no requirement names stays the node's name, so it is reported as missing under that name. */
  lemma UnmappedNameFallsBack(llr: Llr, nodeToLlr: map<string, string>, name: string)
    requires name != [] && name[0] !in RefChars && name[|name| - 1] !in RefChars && name !in nodeToLlr
    requires "source" in llr.props && llr.props["source"] == Str("<&" + name + ">")
    ensures |ExtractDependencies(llr, nodeToLlr)| > 0 && ExtractDependencies(llr, nodeToLlr)[0] == name
  {
    assert DependencyOf(llr.props, "source", nodeToLlr) == Some(name) by {
      StripReference(name);
      ContainsPrefix("<&", name + ">");
      assert "<&" + name + ">" == "<&" + (name + ">");
    }
    SourceFirst(llr, nodeToLlr);
  }

  /** A reference under `source`, the first dependency key, comes first. */
  lemma SourceFirst(llr: Llr, nodeToLlr: map<string, string>)
    requires DependencyOf(llr.props, "source", nodeToLlr).Some?
    ensures |ExtractDependencies(llr, nodeToLlr)| > 0
    ensures ExtractDependencies(llr, nodeToLlr)[0] == DependencyOf(llr.props, "source", nodeToLlr).value
  {
    assert DependencyKeys[0] == "source";
    var found := seq(5, j requires 0 <= j < 5 => DependencyOf(llr.props, DependencyKeys[j], nodeToLlr));
    assert found[0].Some?;
  }

  /** A text contains its own prefix. */
  lemma ContainsPrefix(p: string, t: string)
    ensures Contains(p + t, p)
  {
    assert (p + t)[0..|p|] == p;
    assert At(p + t, 0, p);
  }

  /** The ids of all requirements. */
  function Ids(llrs: seq<Llr>): (ids: set<string>)
    ensures forall i :: 0 <= i < |llrs| ==> llrs[i].id in ids
  {
    set i | 0 <= i < |llrs| :: llrs[i].id
  }

  /** The missing-dependency errors of one requirement, one per dependency outside `ids`. */
  function MissingOf(llr: Llr, deps: seq<string>, ids: set<string>): (r: seq<Conflict>)
    ensures |r| <= |deps|
    ensures forall c :: c in r ==> c == Conflict(Error, Dependency, [llr.id], false, NoMeta)
    ensures r == [] <==> forall d :: d in deps ==> d in ids
  {
    if deps == [] then []
    else
      var rest := MissingOf(llr, deps[1..], ids);
      assert forall d :: d in deps <==> d == deps[0] || d in deps[1..];
      (if deps[0] !in ids then [Conflict(Error, Dependency, [llr.id], false, NoMeta)] else []) + rest
  }

  /** The missing-dependency part of `check_dependency_conflict`, requirement by requirement. */
  function MissingDependencies(llrs: seq<Llr>, all: seq<Llr>): (r: seq<Conflict>)
  {
    if llrs == [] then []
    else MissingOf(llrs[0], ExtractDependencies(llrs[0], NodeToLlr(all)), Ids(all)) + MissingDependencies(llrs[1..], all)
  }

  /** Some dependency of the requirement is not the id of any requirement. */
  predicate HasMissing(llr: Llr, all: seq<Llr>)
  {
    exists d :: d in ExtractDependencies(llr, NodeToLlr(all)) && d !in Ids(all)
  }

  /** The error reported for a requirement with a missing dependency. */
  function MissingError(id: string): Conflict
  {
    Conflict(Error, Dependency, [id], false, NoMeta)
  }

  /** Every missing-dependency error names a requirement that has a dependency outside the ids. */
  lemma {:induction false} MissingDependenciesSound(llrs: seq<Llr>, all: seq<Llr>)
    ensures forall c :: c in MissingDependencies(llrs, all) ==>
              exists i :: 0 <= i < |llrs| && c == MissingError(llrs[i].id) && HasMissing(llrs[i], all)
    decreases |llrs|
  {
    if llrs != [] {
      MissingDependenciesSound(llrs[1..], all);
      var head := MissingOf(llrs[0], ExtractDependencies(llrs[0], NodeToLlr(all)), Ids(all));
      var tail := MissingDependencies(llrs[1..], all);
      forall c | c in head + tail
        ensures exists i :: 0 <= i < |llrs| && c == MissingError(llrs[i].id) && HasMissing(llrs[i], all)
      {
        if c in head {
          assert c == MissingError(llrs[0].id) && HasMissing(llrs[0], all);
        } else {
          var i :| 0 <= i < |llrs[1..]| && c == MissingError(llrs[1..][i].id) && HasMissing(llrs[1..][i], all);
          assert llrs[i + 1] == llrs[1..][i];
        }
      }
    }
  }

  /** Every requirement with a dependency outside the ids gets a missing-dependency error. */
  lemma {:induction false} MissingDependenciesComplete(llrs: seq<Llr>, all: seq<Llr>)
    ensures forall i :: 0 <= i < |llrs| && HasMissing(llrs[i], all) ==> MissingError(llrs[i].id) in MissingDependencies(llrs, all)
    decreases |llrs|
  {
    if llrs != [] {
      MissingDependenciesComplete(llrs[1..], all);
      var head := MissingOf(llrs[0], ExtractDependencies(llrs[0], NodeToLlr(all)), Ids(all));
      var tail := MissingDependencies(llrs[1..], all);
      forall i | 0 <= i < |llrs| && HasMissing(llrs[i], all)
        ensures MissingError(llrs[i].id) in head + tail
      {
        if i == 0 {
          assert head[0] in head;
        } else {
          assert llrs[1..][i - 1] == llrs[i];
        }
      }
    }
  }

  // ---------------------------------------------------------------------
  // Budgets
  // ---------------------------------------------------------------------

  /** The node type a requirement's counts read, `''` when absent. */
  function TypeOf(llr: Llr): string
  {
    llr.nodeType.GetOr("")
  }

  /** Counts signals. */
  predicate IsSignal(t: string)
  {
    Contains(t, "input") || Contains(t, "scale") || Contains(t, "verified")
  }

  /** Counts cyclic outputs. */
  predicate IsCyclicOutput(t: string)
  {
    Contains(t, "cyclic-output")
  }

  /** Counts merges. */
  predicate IsMerge(t: string)
  {
    Contains(t, "merge") || Contains(t, "voter")
  }

  /** How many requirements have a node type of the counted kind `which` (0 signals, 1 cyclic outputs, 2 merges). */
  function CountOf(llrs: seq<Llr>, which: nat): (n: nat)
    ensures n <= |llrs|
  {
    if llrs == [] then 0
    else
      var t := TypeOf(llrs[0]);
      var hit := if which == 0 then IsSignal(t) else if which == 1 then IsCyclicOutput(t) else IsMerge(t);
      (if hit then 1 else 0) + CountOf(llrs[1..], which)
  }

  /** The budgets in the order the check reads them. */
  const BudgetNames: seq<string> := ["signals", "cyclic_outputs", "merges"]

  /** `limits.get(resource, float('inf'))`. */
  function LimitOf(limits: map<string, int>, resource: string): Limit
  {
    if resource in limits then Finite(limits[resource]) else Infinite
  }

  /** `count > limit`. */
  predicate Exceeds(count: nat, limit: Limit)
  {
    limit.Finite? && count > limit.n
  }

  /** All requirement ids, in order. */
  function IdList(llrs: seq<Llr>): (r: seq<string>)
    ensures |r| == |llrs| && forall i :: 0 <= i < |llrs| ==> r[i] == llrs[i].id
  {
    seq(|llrs|, i requires 0 <= i < |llrs| => llrs[i].id)
  }

  /** The warning for an exceeded budget: every requirement is affected, and the suggested limit leaves 8 spare. */
  function BudgetWarning(llrs: seq<Llr>, resource: string, count: nat, limit: Limit): (c: Conflict)
    ensures c.severity == Warning && c.kind == Budget && c.autoResolvable
  {
    Conflict(Warning, Budget, IdList(llrs), true, BudgetMeta(resource, count, limit, count + 8))
  }

  /** `check_budget_conflict`. */
  function CheckBudgetConflict(llrs: seq<Llr>, limits: map<string, int>): (r: seq<Conflict>)
    ensures |r| <= 3
    ensures forall c :: c in r ==> c.severity == Warning && c.kind == Budget && c.autoResolvable
    ensures forall c :: c in r ==> c.meta.BudgetMeta?
  {
    var checks := seq(3, w requires 0 <= w < 3 => (BudgetNames[w], CountOf(llrs, w)));
    BudgetsFrom(llrs, limits, checks)
  }

  /** The warnings for the budgets in `checks`, in order. */
  function BudgetsFrom(llrs: seq<Llr>, limits: map<string, int>, checks: seq<(string, nat)>): (r: seq<Conflict>)
    ensures |r| <= |checks|
    ensures forall c :: c in r ==> c.severity == Warning && c.kind == Budget && c.autoResolvable
    ensures forall c :: c in r ==> c.meta.BudgetMeta? && c.meta.suggested == c.meta.count + 8 && Exceeds(c.meta.count, c.meta.limit)
    ensures forall c :: c in r ==>
              (exists i :: 0 <= i < |checks| && Exceeds(checks[i].1, LimitOf(limits, checks[i].0))
                           && c == BudgetWarning(llrs, checks[i].0, checks[i].1, LimitOf(limits, checks[i].0)))
    ensures forall i :: 0 <= i < |checks| && Exceeds(checks[i].1, LimitOf(limits, checks[i].0)) ==>
              BudgetWarning(llrs, checks[i].0, checks[i].1, LimitOf(limits, checks[i].0)) in r
  {
    if checks == [] then []
    else
      var rest := BudgetsFrom(llrs, limits, checks[1..]);
      assert forall i :: 1 <= i < |checks| ==> checks[i] == checks[1..][i - 1];
      var name := checks[0].0;
      var count := checks[0].1;
      var limit := LimitOf(limits, name);
      (if Exceeds(count, limit) then [BudgetWarning(llrs, name, count, limit)] else []) + rest
  }

  /** A budget without a limit is never exceeded. */
  lemma UnlimitedNeverWarns(llrs: seq<Llr>)
    ensures CheckBudgetConflict(llrs, map[]) == []
  {
    NoLimitsNoWarnings(llrs, seq(3, w requires 0 <= w < 3 => (BudgetNames[w], CountOf(llrs, w))));
  }

  /** No limits, no warnings, however many budgets are checked. */
  lemma {:induction false} NoLimitsNoWarnings(llrs: seq<Llr>, checks: seq<(string, nat)>)
    ensures BudgetsFrom(llrs, map[], checks) == []
  {
    if checks != [] {
      NoLimitsNoWarnings(llrs, checks[1..]);
    }
  }

  // ---------------------------------------------------------------------
  // Automatic resolution
  // ---------------------------------------------------------------------

  /** The conflicts `auto_resolve` removes. */
  predicate Resolvable(c: Conflict)
  {
    c.autoResolvable && c.kind == Budget
  }

  /** `auto_resolve`: the conflicts that remain, in order, and how many were removed. */
  function AutoResolve(cs: seq<Conflict>): (r: (seq<Conflict>, nat))
    ensures r.1 + |r.0| == |cs|
    ensures forall c :: c in r.0 <==> c in cs && !Resolvable(c)
  {
    if cs == [] then ([], 0)
    else
      var rest := AutoResolve(cs[1..]);
      assert forall c :: c in cs <==> c == cs[0] || c in cs[1..];
      if Resolvable(cs[0]) then (rest.0, rest.1 + 1) else ([cs[0]] + rest.0, rest.1)
  }

  /** What `auto_resolve` leaves: the remaining conflicts and the count, or the KeyError its message raises. */
  datatype Resolution = Resolved(kept: seq<Conflict>, count: nat) | KeyError(kept: seq<Conflict>)

  /** A resolvable conflict whose metadata lacks the resource and the suggested limit. */
  predicate Unprintable(c: Conflict)
  {
    Resolvable(c) && !c.meta.BudgetMeta?
  }

  /** The position of the first unprintable conflict, or none exactly when there is none. */
  function FirstUnprintable(cs: seq<Conflict>): (r: Option<nat>)
    ensures r.None? <==> forall c :: c in cs ==> !Unprintable(c)
    ensures r.Some? ==> r.value < |cs| && Unprintable(cs[r.value])
    ensures r.Some? ==> forall j :: 0 <= j < r.value ==> !Unprintable(cs[j])
  {
    if cs == [] then None
    else if Unprintable(cs[0]) then Some(0)
    else
      match FirstUnprintable(cs[1..])
      case None =>
        assert forall c :: c in cs ==> c == cs[0] || c in cs[1..];
        None
      case Some(k) =>
        assert forall j :: 1 <= j <= k ==> cs[j] == cs[1..][j - 1];
        Some(k + 1)
  }

  /**
    `auto_resolve` with its message: the message about a resolvable
    conflict reads the resource and the suggested limit from its metadata,
    so at the first one without budget metadata it raises KeyError, with
    the resolvable conflicts before it already removed and that one and
    everything after it still in the list.
   */
  function AutoResolveChecked(cs: seq<Conflict>): (r: Resolution)
    ensures r.Resolved? <==> forall c :: c in cs && Resolvable(c) ==> c.meta.BudgetMeta?
    ensures r.Resolved? ==> r.count + |r.kept| == |cs| && forall c :: c in r.kept <==> c in cs && !Resolvable(c)
    ensures r.KeyError? ==> |r.kept| <= |cs| && exists c :: c in r.kept && Unprintable(c)
    ensures r.KeyError? ==> forall c :: c in r.kept ==> c in cs
  {
    match FirstUnprintable(cs)
    case None => var (kept, n) := AutoResolve(cs); Resolved(kept, n)
    case Some(k) =>
      var done := AutoResolve(cs[..k]);
      assert cs[k..][0] == cs[k];
      assert forall c :: c in cs[..k] ==> c in cs;
      assert forall c :: c in cs[k..] ==> c in cs;
      KeyError(done.0 + cs[k..])
  }

  /** Conflicts whose resolvable ones all carry budget metadata resolve without raising. */
  lemma BudgetMetaResolves(llrs: seq<Llr>, limits: map<string, int>)
    ensures AutoResolveChecked(CheckBudgetConflict(llrs, limits)).Resolved?
  {
  }

  /** A second resolution finds nothing more to remove. */
  lemma AutoResolveIdempotent(cs: seq<Conflict>)
    ensures AutoResolve(AutoResolve(cs).0) == (AutoResolve(cs).0, 0)
  {
    var once := AutoResolve(cs).0;
    NothingResolvable(once);
  }

  /** Conflicts none of which is resolvable resolve to themselves. */
  lemma {:induction false} NothingResolvable(cs: seq<Conflict>)
    requires forall c :: c in cs ==> !Resolvable(c)
    ensures AutoResolve(cs) == (cs, 0)
  {
    if cs != [] {
      assert forall c :: c in cs[1..] ==> c in cs;
      NothingResolvable(cs[1..]);
      assert [cs[0]] + cs[1..] == cs;
    }
  }

  /** The budget warnings all resolve, whatever the limits. */
  lemma BudgetsResolve(llrs: seq<Llr>, limits: map<string, int>)
    ensures var r := CheckBudgetConflict(llrs, limits);
            AutoResolve(r) == ([], |r|)
  {
    AllResolvable(CheckBudgetConflict(llrs, limits));
  }

  /** Conflicts all of which are resolvable resolve to nothing. */
  lemma {:induction false} AllResolvable(cs: seq<Conflict>)
    requires forall c :: c in cs ==> Resolvable(c)
    ensures AutoResolve(cs) == ([], |cs|)
  {
    if cs != [] {
      assert forall c :: c in cs[1..] ==> c in cs;
      AllResolvable(cs[1..]);
    }
  }

  /** Removing warnings that resolve themselves leaves the non-strict verdict as it was. */
  lemma AutoResolveKeepsVerdict(cs: seq<Conflict>)
    requires forall c :: c in cs && Resolvable(c) ==> c.severity == Warning
    ensures ShouldFail(AutoResolve(cs).0, false) == ShouldFail(cs, false)
  {
    var r := AutoResolve(cs).0;
    if ShouldFail(cs, false) {
      var i :| 0 <= i < |cs| && cs[i].severity == Error;
      assert cs[i] in cs && cs[i] in r;
      var j :| 0 <= j < |r| && r[j] == cs[i];
    }
    if ShouldFail(r, false) {
      var i :| 0 <= i < |r| && r[i].severity == Error;
      assert r[i] in r && r[i] in cs;
      var j :| 0 <= j < |cs| && cs[j] == r[i];
    }
  }
}

=== FILE: crosscheck.dfy ===
/**
  The dual-MCU event crosscheck (`src/lq_event_crosscheck.c`): every output
  event one MCU sends to the other is framed in a 16-byte packet protected
  by a CRC-16/CCITT-FALSE, and kept in a 16-entry FIFO until the other
  side's echo of it arrives. A missing, late, corrupt or different echo
  drives the fail-safe state and raises the fail pin.

  The UART send, the millisecond tick and the fail pin are the platform's:
  the send's return code and the tick are parameters, and each operation
  returns the frames it hands to the UART and the levels it writes to the
  fail pin. The receive state machine is a file-level static in C, shared
  by every context; here it is the value `Rx` passed along.
 */
module Crosscheck {
  import opened CInt
  import opened Bytes
  import opened Wrappers
  import opened Ring
  import Engine

  /** `LQ_CROSSCHECK_QUEUE_SIZE`. */
  const QUEUE_SIZE: int := 16
  const MAGIC_START: int := 0xA5
  const MAGIC_END: int := 0x5A
  /** `sizeof(struct lq_crosscheck_packet)`. */
  const PACKET_SIZE: int := 16
  /** `offsetof(struct lq_crosscheck_packet, crc16)`: the bytes the CRC covers. */
  const CRC_SPAN: int := 12

  // ---------------------------------------------------------------------
  // CRC-16/CCITT-FALSE: polynomial 0x1021, initial value 0xFFFF, MSB first

  /** One bit of the inner loop: shift left, folding in the polynomial when the top bit falls out. */
  function Shift(crc: bv16): bv16
  {
    if crc & 0x8000 != 0 then (crc << 1) ^ 0x1021 else crc << 1
  }

  /** One data byte given as the low bits of a word: xor into the top byte, then eight shifts. */
  function UpdateWord(crc: bv16, b: bv16): bv16
  {
    var x := crc ^ (b << 8);
    Shift(Shift(Shift(Shift(Shift(Shift(Shift(Shift(x))))))))
  }

  /** One data byte. */
  function Update(crc: bv16, b: Byte): bv16
  {
    UpdateWord(crc, b as bv16)
  }

  /** The register after the bytes, starting from `crc`. */
  function CrcFrom(crc: bv16, data: seq<Byte>): bv16
    decreases |data|
  {
    if data == [] then crc else CrcFrom(Update(crc, data[0]), data[1..])
  }

  /** `crc16_ccitt`. */
  function Crc16(data: seq<Byte>): bv16
  {
    CrcFrom(0xFFFF, data)
  }

  /** The register after "56789" from the value "1234" leaves in it. */
  lemma CheckValueTail()
    ensures CrcFrom(0x5349, [0x35, 0x36, 0x37, 0x38, 0x39]) == 0x29B1
  {
    var d: seq<Byte> := [0x35, 0x36, 0x37, 0x38, 0x39];
    assert Update(0x5349, 0x35) == 0x4560;
    assert Update(0x4560, 0x36) == 0x2EF4;
    assert Update(0x2EF4, 0x37) == 0x7718;
    assert Update(0x7718, 0x38) == 0xA12B;
    assert Update(0xA12B, 0x39) == 0x29B1;
    assert CrcFrom(0xA12B, d[4..]) == 0x29B1;
    assert CrcFrom(0x7718, d[3..]) == 0x29B1;
    assert CrcFrom(0x2EF4, d[2..]) == 0x29B1;
    assert CrcFrom(0x4560, d[1..]) == 0x29B1;
  }

  /** The register after "1234". */
  lemma CheckValueHead()
    ensures Crc16([0x31, 0x32, 0x33, 0x34]) == 0x5349
  {
    var d: seq<Byte> := [0x31, 0x32, 0x33, 0x34];
    assert Update(0xFFFF, 0x31) == 0xC782;
    assert Update(0xC782, 0x32) == 0x3DBA;
    assert Update(0x3DBA, 0x33) == 0x5BCE;
    assert Update(0x5BCE, 0x34) == 0x5349;
    assert CrcFrom(0x5BCE, d[3..]) == 0x5349;
    assert CrcFrom(0x3DBA, d[2..]) == 0x5349;
    assert CrcFrom(0xC782, d[1..]) == 0x5349;
  }

  /** The catalogued check value of CRC-16/CCITT-FALSE: "123456789" gives 0x29B1. */
  lemma CrcCheckValue()
    ensures Crc16([0x31, 0x32, 0x33, 0x34, 0x35, 0x36, 0x37, 0x38, 0x39]) == 0x29B1
  {
    CheckValueHead();
    CheckValueTail();
    CrcAppend(0xFFFF, [0x31, 0x32, 0x33, 0x34], [0x35, 0x36, 0x37, 0x38, 0x39]);
    assert [0x31, 0x32, 0x33, 0x34] + [0x35, 0x36, 0x37, 0x38, 0x39] == [0x31, 0x32, 0x33, 0x34, 0x35, 0x36, 0x37, 0x38, 0x39];
  }

  /** The register runs over a concatenation in two legs. */
  lemma {:induction false} CrcAppend(crc: bv16, a: seq<Byte>, b: seq<Byte>)
    ensures CrcFrom(crc, a + b) == CrcFrom(CrcFrom(crc, a), b)
    decreases |a|
  {
    if a != [] {
      assert (a + b)[1..] == a[1..] + b;
      CrcAppend(Update(crc, a[0]), a[1..], b);
    } else {
      assert a + b == b;
    }
  }

  // ---------------------------------------------------------------------
  // The packet

  /** `struct lq_crosscheck_packet`, packed; the multi-byte fields are in the MCU's little-endian order. */
  datatype Packet = Packet(magicStart: int, sequence: int, eventType: int, flags: int, targetId: int,
                           value: int, crc: int, magicEnd: int, padding: int)

  predicate ValidPacket(p: Packet)
  {
    && IsU8(p.magicStart) && IsU8(p.sequence) && IsU8(p.eventType) && IsU8(p.flags)
    && IsU32(p.targetId) && IsInt32(p.value) && IsU16(p.crc) && IsU8(p.magicEnd) && IsU8(p.padding)
  }

  /** The packet's bytes as they lie in memory and go over the UART. */
  function Encode(p: Packet): (b: seq<Byte>)
    requires ValidPacket(p)
    ensures |b| == PACKET_SIZE
    ensures b[0] == p.magicStart && b[1] == p.sequence && b[14] == p.magicEnd
  {
    [p.magicStart, p.sequence, p.eventType, p.flags] + Le32(p.targetId) + Le32(p.value) + Le16(p.crc)
      + [p.magicEnd, p.padding]
  }

  /** The packet the receive buffer is cast to. */
  function Decode(b: seq<Byte>): (p: Packet)
    requires |b| == PACKET_SIZE
    ensures ValidPacket(p)
  {
    Packet(b[0], b[1], b[2], b[3], JoinLe32(b[4..8]), Wrap32(JoinLe32(b[8..12])), JoinLe16(b[12..14]), b[14], b[15])
  }

  /** An int32 stored as four bytes is read back as itself. */
  lemma Int32Field(v: int)
    requires IsInt32(v)
    ensures Wrap32(JoinLe32(Le32(v))) == v
  {
  }

  /** Four bytes read as an int32 are stored back as the same bytes. */
  lemma Int32Bytes(b: seq<Byte>)
    requires |b| == 4
    ensures Le32(Wrap32(JoinLe32(b))) == b
  {
    var j := JoinLe32(b);
    assert WrapU32(Wrap32(j)) == j;
    Le32Join(b);
    Le32Join(Le32(Wrap32(j)));
  }

  /** Reading a packet's bytes gives the packet. */
  lemma DecodeEncode(p: Packet)
    requires ValidPacket(p)
    ensures Decode(Encode(p)) == p
  {
    var b := Encode(p);
    assert b[4..8] == Le32(p.targetId) && b[8..12] == Le32(p.value) && b[12..14] == Le16(p.crc);
    Int32Field(p.value);
  }

  /** Writing out a received packet gives its bytes. */
  lemma EncodeDecode(b: seq<Byte>)
    requires |b| == PACKET_SIZE
    ensures Encode(Decode(b)) == b
  {
    Le32Join(b[4..8]);
    Int32Bytes(b[8..12]);
    Le16Join(b[12..14]);
    assert b == b[..4] + b[4..8] + b[8..12] + b[12..14] + b[14..];
  }

  /** `calculate_packet_crc`: the CRC of the twelve bytes before the CRC field. */
  function PacketCrc(b: seq<Byte>): (r: int)
    requires |b| == PACKET_SIZE
    ensures IsU16(r)
  {
    Crc16(b[..CRC_SPAN]) as int
  }

  /** The receiver's CRC check: the field holds the CRC of the bytes before it. */
  predicate CrcOk(b: seq<Byte>)
    requires |b| == PACKET_SIZE
  {
    PacketCrc(b) == Decode(b).crc
  }

  // ---------------------------------------------------------------------
  // The context and the pending FIFO

  /** `enum lq_crosscheck_state`. */
  datatype CheckState = StateOk | StateTimeout | StateMismatch | StateCrcError | StateSequenceError | StateFailSafe

  /** `struct lq_crosscheck_pending`. */
  datatype Pending = Pending(packet: Packet, timestampMs: int, waiting: bool)

  /** `struct lq_crosscheck_ctx`. */
  datatype Ctx = Ctx(uartId: int, timeoutMs: int, failGpio: int, enabled: bool,
                     txSequence: int, rxSequence: int, state: CheckState,
                     pending: seq<Pending>, head: int, tail: int, count: int,
                     sent: int, verified: int, timeouts: int, mismatches: int, crcErrors: int)

  /** What the declarations guarantee. */
  predicate Shape(c: Ctx)
  {
    && IsU8(c.uartId) && IsU16(c.timeoutMs) && IsU8(c.failGpio)
    && IsU8(c.txSequence) && IsU8(c.rxSequence)
    && |c.pending| == QUEUE_SIZE && 0 <= c.head < QUEUE_SIZE && 0 <= c.tail < QUEUE_SIZE && IsU8(c.count)
    && IsU32(c.sent) && IsU32(c.verified) && IsU32(c.timeouts) && IsU32(c.mismatches) && IsU32(c.crcErrors)
  }

  /** The FIFO invariant: at most 16 entries from the head on, the tail just past them, all waiting. */
  predicate Valid(c: Ctx)
  {
    && Shape(c) && c.count <= QUEUE_SIZE && c.tail == Pos(c.head, c.count, QUEUE_SIZE)
    && forall k :: 0 <= k < c.count ==> c.pending[Pos(c.head, k, QUEUE_SIZE)].waiting
  }

  /** The entries awaiting their echo, oldest first. */
  function Waiting(c: Ctx): (w: seq<Pending>)
    requires Shape(c) && c.count <= QUEUE_SIZE
    ensures |w| == c.count
    ensures forall k :: 0 <= k < c.count ==> w[k] == c.pending[Pos(c.head, k, QUEUE_SIZE)]
  {
    seq(c.count, k requires 0 <= k < c.count => c.pending[Pos(c.head, k, QUEUE_SIZE)])
  }

  /** A context after a call, with the return code and the levels written to the fail pin. */
  datatype Out = Out(rc: int, ctx: Ctx, pin: seq<bool>)

  /** `trigger_fail_safe`: into FAIL_SAFE, raising the fail pin, unless already there. */
  function TriggerFailSafe(c: Ctx): (r: (Ctx, seq<bool>))
    ensures r.0 == c.(state := StateFailSafe)
    ensures r.1 == if c.state == StateFailSafe then [] else [true]
  {
    if c.state != StateFailSafe then (c.(state := StateFailSafe), [true]) else (c, [])
  }

  /** An all-zero packet, as `memset` leaves the pending slots. */
  const ZERO_PACKET: Packet := Packet(0, 0, 0, 0, 0, 0, 0, 0, 0)

  /**
    lq_crosscheck_init: everything zeroed, then the configuration, enabled,
    state OK, and the fail pin driven low.
   */
  function Init(uartId: int, timeoutMs: int, failGpio: int): (r: Out)
    requires IsU8(uartId) && IsU16(timeoutMs) && IsU8(failGpio)
    ensures r.rc == 0 && Valid(r.ctx) && Waiting(r.ctx) == [] && r.pin == [false]
    ensures r.ctx.enabled && r.ctx.state == StateOk && r.ctx.txSequence == 0 && r.ctx.rxSequence == 0
    ensures r.ctx.uartId == uartId && r.ctx.timeoutMs == timeoutMs && r.ctx.failGpio == failGpio
    ensures r.ctx.sent == r.ctx.verified == r.ctx.timeouts == r.ctx.mismatches == r.ctx.crcErrors == 0
  {
    var slots := seq(QUEUE_SIZE, _ => Pending(ZERO_PACKET, 0, false));
    Out(0, Ctx(uartId, timeoutMs, failGpio, true, 0, 0, StateOk, slots, 0, 0, 0, 0, 0, 0, 0, 0), [false])
  }

  /** `enqueue_pending`: a full FIFO is a fail-safe condition (-1); otherwise the entry goes in at the tail. */
  function Enqueue(c: Ctx, p: Packet, nowMs: int): (r: Out)
    requires Shape(c)
    ensures Shape(r.ctx)
    ensures r.rc == -1 <==> c.count >= QUEUE_SIZE
    ensures r.rc != -1 ==> r.rc == 0
  {
    if c.count >= QUEUE_SIZE then
      var (f, pin) := TriggerFailSafe(c);
      Out(-1, f, pin)
    else
      Out(0, c.(pending := c.pending[c.tail := Pending(p, nowMs, true)],
                tail := Next(c.tail, QUEUE_SIZE), count := c.count + 1), [])
  }

  /** `dequeue_pending`: the head entry stops waiting and leaves the FIFO. */
  function Dequeue(c: Ctx): (r: Ctx)
    requires Shape(c)
    ensures Shape(r)
  {
    if c.count > 0 then
      c.(pending := c.pending[c.head := c.pending[c.head].(waiting := false)],
         head := Next(c.head, QUEUE_SIZE), count := c.count - 1)
    else c
  }

  /** The FIFO entry is appended. */
  lemma EnqueueAppends(c: Ctx, p: Packet, nowMs: int)
    requires Valid(c) && c.count < QUEUE_SIZE
    ensures Valid(Enqueue(c, p, nowMs).ctx)
    ensures Waiting(Enqueue(c, p, nowMs).ctx) == Waiting(c) + [Pending(p, nowMs, true)]
  {
    var r := Enqueue(c, p, nowMs).ctx;
    var w, w' := Waiting(c), Waiting(r);
    forall k | 0 <= k < |w'|
      ensures w'[k] == (w + [Pending(p, nowMs, true)])[k]
    {
      if k < c.count {
        assert Pos(c.head, k, QUEUE_SIZE) != Pos(c.head, c.count, QUEUE_SIZE);
      }
    }
  }

  /** The head entry leaves the FIFO. */
  lemma DequeueDrops(c: Ctx)
    requires Valid(c) && c.count > 0
    ensures Valid(Dequeue(c)) && Waiting(Dequeue(c)) == Waiting(c)[1..]
  {
    var r := Dequeue(c);
    var w, w' := Waiting(c), Waiting(r);
    forall k | 0 <= k < |w'|
      ensures w'[k] == w[1..][k]
    {
      assert Pos(r.head, k, QUEUE_SIZE) == Pos(c.head, k + 1, QUEUE_SIZE);
      assert Pos(c.head, k + 1, QUEUE_SIZE) != c.head;
    }
    forall k | 0 <= k < r.count
      ensures r.pending[Pos(r.head, k, QUEUE_SIZE)].waiting
    {
      assert Pos(r.head, k, QUEUE_SIZE) == Pos(c.head, k + 1, QUEUE_SIZE);
      assert Pos(c.head, k + 1, QUEUE_SIZE) != c.head;
    }
  }

  // ---------------------------------------------------------------------
  // Sending

  /** The packet for an output event: its type, flags, target and value, numbered and CRC'd. */
  function BuildPacket(c: Ctx, ev: Engine.OutputEvent): (p: Packet)
    requires Shape(c)
    ensures ValidPacket(p) && p.magicStart == MAGIC_START && p.magicEnd == MAGIC_END && p.padding == 0
    ensures p.sequence == c.txSequence && p.eventType == WrapU8(ev.kind) && p.flags == WrapU8(ev.flags)
    ensures p.targetId == WrapU32(ev.targetId) && p.value == Wrap32(ev.value)
  {
    var p0 := Packet(MAGIC_START, c.txSequence, WrapU8(ev.kind), WrapU8(ev.flags), WrapU32(ev.targetId),
                     Wrap32(ev.value), 0, MAGIC_END, 0);
    p0.(crc := PacketCrc(Encode(p0)))
  }

  /** The CRC over the first twelve bytes does not read the CRC field. */
  lemma CrcIgnoresField(p: Packet, crc: int)
    requires ValidPacket(p) && IsU16(crc)
    ensures Encode(p.(crc := crc))[..CRC_SPAN] == Encode(p)[..CRC_SPAN]
  {
  }

  /** A built packet passes the receiver's CRC check. */
  lemma BuiltPacketCrcOk(c: Ctx, ev: Engine.OutputEvent)
    requires Shape(c)
    ensures CrcOk(Encode(BuildPacket(c, ev)))
  {
    var p := BuildPacket(c, ev);
    var p0 := p.(crc := 0);
    CrcIgnoresField(p0, p.crc);
    DecodeEncode(p);
  }

  /** A send: the return code, the context, the frames handed to the UART and the fail-pin writes. */
  datatype Sent = Sent(rc: int, ctx: Ctx, frames: seq<seq<Byte>>, pin: seq<bool>)

  /**
    lq_crosscheck_send_event. Refused (-1) when disabled or in FAIL_SAFE.
    Otherwise the frame goes to the UART; a UART error is returned as is. A
    full FIFO is fail-safe (-1) although the frame has gone out. Only a
    queued frame counts as sent and moves the uint8 sequence on.
   */
  function SendEvent(c: Ctx, ev: Engine.OutputEvent, uartRc: int, nowMs: int): (r: Sent)
    requires Shape(c)
    ensures Shape(r.ctx)
    ensures r.rc == 0 ==> r.ctx.txSequence == Next(c.txSequence, U8) && r.ctx.sent == Bump(c.sent)
    ensures !c.enabled || c.state == StateFailSafe ==> r == Sent(-1, c, [], [])
    ensures c.enabled && c.state != StateFailSafe ==> r.frames == [Encode(BuildPacket(c, ev))]
    ensures c.enabled && c.state != StateFailSafe && uartRc != 0 ==> r == Sent(uartRc, c, r.frames, [])
  {
    if !c.enabled || c.state == StateFailSafe then Sent(-1, c, [], [])
    else
      var p := BuildPacket(c, ev);
      var frame := Encode(p);
      if uartRc != 0 then Sent(uartRc, c, [frame], [])
      else
        var q := Enqueue(c, p, nowMs);
        if q.rc != 0 then Sent(q.rc, q.ctx, [frame], q.pin)
        else Sent(0, q.ctx.(sent := Bump(c.sent), txSequence := Next(c.txSequence, U8)), [frame], [])
  }

  /**
    A send that goes through queues the packet behind the ones already
    waiting, stamped with the send time; a full FIFO instead drives
    FAIL_SAFE and raises the fail pin.
   */
  lemma SendQueues(c: Ctx, ev: Engine.OutputEvent, nowMs: int)
    requires Valid(c) && c.enabled && c.state != StateFailSafe
    ensures var r := SendEvent(c, ev, 0, nowMs);
      && Valid(r.ctx)
      && (r.rc == 0 <==> c.count < QUEUE_SIZE)
      && (r.rc == 0 ==> Waiting(r.ctx) == Waiting(c) + [Pending(BuildPacket(c, ev), nowMs, true)])
      && (r.rc != 0 ==> r.rc == -1 && r.ctx == c.(state := StateFailSafe) && r.pin == [true])
  {
    if c.count < QUEUE_SIZE {
      EnqueueAppends(c, BuildPacket(c, ev), nowMs);
    }
  }

  // ---------------------------------------------------------------------
  // Receiving

  /** The fields the echo must repeat: type, target and value. */
  predicate SameEvent(a: Packet, b: Packet)
  {
    a.eventType == b.eventType && a.targetId == b.targetId && a.value == b.value
  }

  /**
    `verify_received_event`: an echo with nothing pending is a sequence
    error and one that differs from the oldest pending packet a mismatch,
    both fail-safe; a matching echo retires that packet and sets the state
    back to OK, whatever it was.
   */
  function Verify(c: Ctx, rx: Packet): (r: Out)
    requires Shape(c)
    ensures Shape(r.ctx)
    ensures r.rc == 0 || r.rc == -1
    ensures r.rc == -1 ==> r.ctx.state == StateFailSafe && r.pin == [true]
    ensures r.rc == 0 ==> r.ctx.state == StateOk && r.pin == [] && r.ctx.verified == Bump(c.verified)
  {
    if c.count == 0 then
      var (f, pin) := TriggerFailSafe(c.(state := StateSequenceError));
      Out(-1, f, pin)
    else if !SameEvent(c.pending[c.head].packet, rx) then
      var (f, pin) := TriggerFailSafe(c.(mismatches := Bump(c.mismatches), state := StateMismatch));
      Out(-1, f, pin)
    else
      Out(0, Dequeue(c.(verified := Bump(c.verified))).(state := StateOk), [])
  }

  /** What an echo does to the FIFO: a match retires the oldest entry; anything else leaves it. */
  lemma VerifyRetires(c: Ctx, rx: Packet)
    requires Valid(c)
    ensures var r := Verify(c, rx);
      && Valid(r.ctx)
      && (r.rc == 0 <==> Waiting(c) != [] && SameEvent(Waiting(c)[0].packet, rx))
      && (r.rc == 0 ==> Waiting(r.ctx) == Waiting(c)[1..])
      && (r.rc != 0 ==> Waiting(r.ctx) == Waiting(c))
      && r.ctx.mismatches == if Waiting(c) != [] && !SameEvent(Waiting(c)[0].packet, rx) then Bump(c.mismatches) else c.mismatches
  {
    if c.count > 0 {
      assert Waiting(c)[0] == c.pending[c.head];
      if SameEvent(c.pending[c.head].packet, rx) {
        DequeueDrops(c.(verified := Bump(c.verified)));
      }
    }
  }

  /** `enum rx_state`. */
  datatype RxPhase = WaitStart | Collecting | Complete

  /** The static `g_rx_state`: the phase, the 16-byte buffer and the fill index. */
  datatype Rx = Rx(phase: RxPhase, buffer: seq<Byte>, index: int)

  /** The states the parser moves through: a collection has begun and not overrun the buffer. */
  predicate RxValid(rx: Rx)
  {
    && |rx.buffer| == PACKET_SIZE
    && (rx.phase == Collecting ==> 1 <= rx.index < PACKET_SIZE)
    && (rx.phase == Complete ==> rx.index == PACKET_SIZE)
  }

  /** The receiver's state at start-up. */
  const RX_IDLE: Rx := Rx(WaitStart, seq(PACKET_SIZE, _ => 0), 0)

  /**
    The RX_COMPLETE branch on a full buffer. A wrong end magic is dropped
    silently. A CRC mismatch counts a CRC error and a sequence number other
    than the expected one is a sequence error; both are fail-safe (-1). An
    accepted packet is checked against the FIFO, and the expected sequence
    number moves on whatever that check found.
   */
  function HandlePacket(c: Ctx, b: seq<Byte>): (r: Out)
    requires Shape(c) && |b| == PACKET_SIZE
    ensures Shape(r.ctx) && r.ctx.enabled == c.enabled
    ensures b[14] != MAGIC_END ==> r == Out(0, c, [])
    ensures b[14] == MAGIC_END && !CrcOk(b) ==> r.rc == -1 && r.ctx.state == StateFailSafe && r.ctx.crcErrors == Bump(c.crcErrors)
    ensures b[14] == MAGIC_END && CrcOk(b) && b[1] != c.rxSequence ==> r.rc == -1 && r.ctx.state == StateFailSafe && r.ctx.rxSequence == c.rxSequence
    ensures b[14] == MAGIC_END && CrcOk(b) && b[1] == c.rxSequence ==> r.rc == 0 && r.ctx.rxSequence == Next(c.rxSequence, U8)
  {
    var p := Decode(b);
    if p.magicEnd != MAGIC_END then Out(0, c, [])
    else if PacketCrc(b) != p.crc then
      var (f, pin) := TriggerFailSafe(c.(crcErrors := Bump(c.crcErrors), state := StateCrcError));
      Out(-1, f, pin)
    else if p.sequence != c.rxSequence then
      var (f, pin) := TriggerFailSafe(c.(state := StateSequenceError));
      Out(-1, f, pin)
    else
      var v := Verify(c, p);
      Out(0, v.ctx.(rxSequence := Next(c.rxSequence, U8)), v.pin)
  }

  /** A parser step: the return code, the context, the receiver and the fail-pin writes. */
  datatype Step = Step(rc: int, ctx: Ctx, rx: Rx, pin: seq<bool>)

  /**
    lq_crosscheck_process_byte, with the moment a full buffer is handled as
    a parameter. As written (`immediate` false) the parser enters
    RX_COMPLETE on the sixteenth byte and handles the packet only when the
    next byte arrives, consuming that byte; handled at once (`immediate`
    true) every byte reaches the framing.
   */
  function ProcessByteWith(c: Ctx, rx: Rx, byte: Byte, immediate: bool): (r: Step)
    requires Shape(c) && RxValid(rx)
    ensures Shape(r.ctx) && RxValid(r.rx)
    ensures !c.enabled ==> r == Step(-1, c, rx, [])
  {
    if !c.enabled then Step(-1, c, rx, [])
    else
      match rx.phase
      case WaitStart =>
        if byte == MAGIC_START then Step(0, c, Rx(Collecting, rx.buffer[0 := byte], 1), [])
        else Step(0, c, rx, [])
      case Collecting =>
        var buf := rx.buffer[rx.index := byte];
        if rx.index + 1 < PACKET_SIZE then Step(0, c, Rx(Collecting, buf, rx.index + 1), [])
        else if immediate then
          var h := HandlePacket(c, buf);
          Step(h.rc, h.ctx, Rx(WaitStart, buf, 0), h.pin)
        else Step(0, c, Rx(Complete, buf, PACKET_SIZE), [])
      case Complete =>
        var h := HandlePacket(c, rx.buffer);
        Step(h.rc, h.ctx, Rx(WaitStart, rx.buffer, 0), h.pin)
  }

  /** lq_crosscheck_process_byte as written. */
  function ProcessByteAsWritten(c: Ctx, rx: Rx, byte: Byte): (r: Step)
    requires Shape(c) && RxValid(rx)
    ensures Shape(r.ctx) && RxValid(r.rx)
    ensures rx.phase == Complete && c.enabled ==> r.rx.phase == WaitStart
  {
    ProcessByteWith(c, rx, byte, false)
  }

  /** lq_crosscheck_process_byte handling a packet as its last byte arrives. */
  function ProcessByte(c: Ctx, rx: Rx, byte: Byte): (r: Step)
    requires Shape(c) && RxValid(rx)
    ensures Shape(r.ctx) && RxValid(r.rx)
    ensures r.rx.phase != Complete || rx.phase == Complete
  {
    ProcessByteWith(c, rx, byte, true)
  }

  /** The context, receiver and fail-pin writes after a run of bytes. */
  datatype Fed = Fed(ctx: Ctx, rx: Rx, pin: seq<bool>)

  /** A parser step from any state; outside the states the parser reaches it changes nothing. */
  function StepAt(c: Ctx, rx: Rx, byte: Byte, immediate: bool): (r: Step)
    ensures Shape(c) && RxValid(rx) ==> r == ProcessByteWith(c, rx, byte, immediate)
  {
    if Shape(c) && RxValid(rx) then ProcessByteWith(c, rx, byte, immediate) else Step(-1, c, rx, [])
  }

  /** A run of bytes through a step function, in order, collecting the fail-pin writes. */
  function Run(step: (Ctx, Rx, Byte) -> Step, c: Ctx, rx: Rx, bytes: seq<Byte>): (r: Fed)
    ensures bytes == [] ==> r == Fed(c, rx, [])
    decreases |bytes|
  {
    if bytes == [] then Fed(c, rx, [])
    else
      var s := step(c, rx, bytes[0]);
      var r := Run(step, s.ctx, s.rx, bytes[1..]);
      Fed(r.ctx, r.rx, s.pin + r.pin)
  }

  /** A run of bytes through the parser. */
  function Feed(c: Ctx, rx: Rx, bytes: seq<Byte>, immediate: bool): (r: Fed)
  {
    Run(Stepper(immediate), c, rx, bytes)
  }

  /** The parser as a step function. */
  function Stepper(immediate: bool): (Ctx, Rx, Byte) -> Step
  {
    (c: Ctx, rx: Rx, x: Byte) => StepAt(c, rx, x, immediate)
  }

  /** Running two pieces is running the first, then the second from where it left off. */
  lemma {:induction false} RunAppend(step: (Ctx, Rx, Byte) -> Step, c: Ctx, rx: Rx, a: seq<Byte>, b: seq<Byte>)
    ensures var r1 := Run(step, c, rx, a);
      var r2 := Run(step, r1.ctx, r1.rx, b);
      Run(step, c, rx, a + b) == Fed(r2.ctx, r2.rx, r1.pin + r2.pin)
    decreases |a|
  {
    if a != [] {
      var s := step(c, rx, a[0]);
      assert (a + b)[0] == a[0] && (a + b)[1..] == a[1..] + b;
      RunAppend(step, s.ctx, s.rx, a[1..], b);
      var t1 := Run(step, s.ctx, s.rx, a[1..]);
      var t2 := Run(step, t1.ctx, t1.rx, b);
      assert s.pin + (t1.pin + t2.pin) == (s.pin + t1.pin) + t2.pin;
    } else {
      assert a + b == b;
    }
  }

  /** Feeding two runs is feeding the first, then the second from where it left off. */
  lemma FeedAppend(c: Ctx, rx: Rx, a: seq<Byte>, b: seq<Byte>, immediate: bool)
    ensures var r1 := Feed(c, rx, a, immediate);
      var r2 := Feed(r1.ctx, r1.rx, b, immediate);
      Feed(c, rx, a + b, immediate) == Fed(r2.ctx, r2.rx, r1.pin + r2.pin)
  {
    RunAppend(Stepper(immediate), c, rx, a, b);
  }

  /** Collecting copies bytes into the buffer without touching the context. */
  lemma {:induction false} CollectRest(c: Ctx, rx: Rx, b: seq<Byte>, immediate: bool)
    requires Shape(c) && c.enabled && |b| == PACKET_SIZE
    requires rx.phase == Collecting && 1 <= rx.index < PACKET_SIZE && |rx.buffer| == PACKET_SIZE
    requires rx.buffer[..rx.index] == b[..rx.index]
    ensures var r := Feed(c, rx, b[rx.index..PACKET_SIZE - 1], immediate);
      r == Fed(c, Rx(Collecting, r.rx.buffer, PACKET_SIZE - 1), [])
      && |r.rx.buffer| == PACKET_SIZE && r.rx.buffer[..PACKET_SIZE - 1] == b[..PACKET_SIZE - 1]
    decreases PACKET_SIZE - rx.index
  {
    var rest := b[rx.index..PACKET_SIZE - 1];
    if rest != [] {
      var s := ProcessByteWith(c, rx, rest[0], immediate);
      assert s.ctx == c && s.pin == [] && s.rx.phase == Collecting && s.rx.index == rx.index + 1;
      assert s.rx.buffer[..s.rx.index] == b[..s.rx.index];
      assert rest[1..] == b[s.rx.index..PACKET_SIZE - 1];
      CollectRest(c, s.rx, b, immediate);
    }
  }

  /** A frame's bytes from an idle receiver bring it up to its last byte, the context untouched. */
  lemma FrameUpToLast(c: Ctx, rx: Rx, b: seq<Byte>, immediate: bool)
    requires Shape(c) && c.enabled && RxValid(rx) && rx.phase == WaitStart
    requires |b| == PACKET_SIZE && b[0] == MAGIC_START
    ensures var r := Feed(c, rx, b[..PACKET_SIZE - 1], immediate);
      r == Fed(c, Rx(Collecting, r.rx.buffer, PACKET_SIZE - 1), [])
      && |r.rx.buffer| == PACKET_SIZE && r.rx.buffer[..PACKET_SIZE - 1] == b[..PACKET_SIZE - 1]
  {
    var s := ProcessByteWith(c, rx, b[0], immediate);
    assert s == Step(0, c, Rx(Collecting, rx.buffer[0 := b[0]], 1), []);
    assert b[..PACKET_SIZE - 1] == [b[0]] + b[1..PACKET_SIZE - 1];
    CollectRest(c, s.rx, b, immediate);
    FeedAppend(c, rx, [b[0]], b[1..PACKET_SIZE - 1], immediate);
    assert Feed(c, rx, [b[0]], immediate) == Fed(c, s.rx, []);
  }

  /** The last byte completes the buffer: it then holds exactly the frame. */
  lemma LastByte(c: Ctx, rx: Rx, b: seq<Byte>, immediate: bool)
    requires Shape(c) && c.enabled && |b| == PACKET_SIZE
    requires rx.phase == Collecting && rx.index == PACKET_SIZE - 1 && |rx.buffer| == PACKET_SIZE
    requires rx.buffer[..PACKET_SIZE - 1] == b[..PACKET_SIZE - 1]
    ensures var s := ProcessByteWith(c, rx, b[PACKET_SIZE - 1], immediate);
      && (immediate ==> s == Step(HandlePacket(c, b).rc, HandlePacket(c, b).ctx, Rx(WaitStart, b, 0), HandlePacket(c, b).pin))
      && (!immediate ==> s == Step(0, c, Rx(Complete, b, PACKET_SIZE), []))
  {
    var buf := rx.buffer[PACKET_SIZE - 1 := b[PACKET_SIZE - 1]];
    assert buf == b;
  }

  /**
    Handled as its last byte arrives, a frame fed to an idle receiver is
    handled exactly once, and the receiver is idle again after it.
   */
  lemma FrameHandled(c: Ctx, rx: Rx, b: seq<Byte>)
    requires Shape(c) && c.enabled && RxValid(rx) && rx.phase == WaitStart
    requires |b| == PACKET_SIZE && b[0] == MAGIC_START
    ensures var h := HandlePacket(c, b);
      Feed(c, rx, b, true) == Fed(h.ctx, Rx(WaitStart, b, 0), h.pin)
  {
    FrameUpToLast(c, rx, b, true);
    var r := Feed(c, rx, b[..PACKET_SIZE - 1], true);
    LastByte(c, r.rx, b, true);
    FeedAppend(c, rx, b[..PACKET_SIZE - 1], [b[PACKET_SIZE - 1]], true);
    assert b == b[..PACKET_SIZE - 1] + [b[PACKET_SIZE - 1]];
  }

  /** Handled at once, two frames back to back are both handled, in order. */
  lemma BackToBackHandled(c: Ctx, rx: Rx, b1: seq<Byte>, b2: seq<Byte>)
    requires Shape(c) && c.enabled && RxValid(rx) && rx.phase == WaitStart
    requires |b1| == PACKET_SIZE && b1[0] == MAGIC_START && |b2| == PACKET_SIZE && b2[0] == MAGIC_START
    ensures var h1 := HandlePacket(c, b1);
      var h2 := HandlePacket(h1.ctx, b2);
      Feed(c, rx, b1 + b2, true) == Fed(h2.ctx, Rx(WaitStart, b2, 0), h1.pin + h2.pin)
  {
    var h1 := HandlePacket(c, b1);
    FrameHandled(c, rx, b1);
    FeedAppend(c, rx, b1, b2, true);
    FrameHandled(h1.ctx, Rx(WaitStart, b1, 0), b2);
  }

  /** Bytes that hold no start magic pass an idle receiver by. */
  lemma {:induction false} NoStartIgnored(c: Ctx, rx: Rx, bytes: seq<Byte>, immediate: bool)
    requires Shape(c) && c.enabled && RxValid(rx) && rx.phase == WaitStart
    requires forall i :: 0 <= i < |bytes| ==> bytes[i] != MAGIC_START
    ensures Feed(c, rx, bytes, immediate) == Fed(c, rx, [])
    decreases |bytes|
  {
    if bytes != [] {
      NoStartIgnored(c, rx, bytes[1..], immediate);
    }
  }

  /**
    As written, a frame that follows a complete frame at once loses its
    start byte: that byte only triggers the handling of the first frame.
    Unless another 0xA5 happens to follow within it, the second frame is
    never handled — its packet is neither verified nor counted, and the
    FIFO entry it should retire is left to time out.
   */
  lemma BackToBackLost(c: Ctx, rx: Rx, b1: seq<Byte>, b2: seq<Byte>)
    requires Shape(c) && c.enabled && RxValid(rx) && rx.phase == WaitStart
    requires |b1| == PACKET_SIZE && b1[0] == MAGIC_START && |b2| == PACKET_SIZE && b2[0] == MAGIC_START
    requires forall i :: 1 <= i < PACKET_SIZE ==> b2[i] != MAGIC_START
    ensures var h1 := HandlePacket(c, b1);
      Feed(c, rx, b1 + b2, false) == Fed(h1.ctx, Rx(WaitStart, b1, 0), h1.pin)
  {
    var complete := Rx(Complete, b1, PACKET_SIZE);
    FrameCompletes(c, rx, b1);
    var h1 := HandlePacket(c, b1);
    var idle := Rx(WaitStart, b1, 0);
    assert ProcessByteWith(c, complete, b2[0], false) == Step(h1.rc, h1.ctx, idle, h1.pin);
    NoStartIgnored(h1.ctx, idle, b2[1..], false);
    FeedAppend(c, rx, b1, b2, false);
  }

  /** As written, a frame fed to an idle receiver leaves it complete and waiting for one more byte. */
  lemma FrameCompletes(c: Ctx, rx: Rx, b: seq<Byte>)
    requires Shape(c) && c.enabled && RxValid(rx) && rx.phase == WaitStart
    requires |b| == PACKET_SIZE && b[0] == MAGIC_START
    ensures Feed(c, rx, b, false) == Fed(c, Rx(Complete, b, PACKET_SIZE), [])
  {
    FrameUpToLast(c, rx, b, false);
    var r := Feed(c, rx, b[..PACKET_SIZE - 1], false);
    LastByte(c, r.rx, b, false);
    FeedAppend(c, rx, b[..PACKET_SIZE - 1], [b[PACKET_SIZE - 1]], false);
    assert b == b[..PACKET_SIZE - 1] + [b[PACKET_SIZE - 1]];
  }

  // ---------------------------------------------------------------------
  // Timeouts, reset, queries

  /**
    lq_crosscheck_check_timeouts: nothing to do when disabled (0); -1 in
    FAIL_SAFE; otherwise, when the oldest entry has waited longer than the
    timeout (uint32 milliseconds, wrapping), a timeout is counted and the
    state goes fail-safe (-1).
   */
  function CheckTimeouts(c: Ctx, nowMs: int): (r: Out)
    requires Shape(c)
    ensures Shape(r.ctx)
    ensures !c.enabled ==> r == Out(0, c, [])
    ensures c.enabled && c.state == StateFailSafe ==> r == Out(-1, c, [])
    ensures r.rc == 0 ==> r.ctx == c
    ensures r.rc == -1 && c.state != StateFailSafe ==> r.ctx == c.(timeouts := Bump(c.timeouts), state := StateFailSafe) && r.pin == [true]
  {
    if !c.enabled then Out(0, c, [])
    else if c.state == StateFailSafe then Out(-1, c, [])
    else if c.count > 0 && c.pending[c.head].waiting
            && WrapU32(nowMs - c.pending[c.head].timestampMs) > c.timeoutMs then
      var (f, pin) := TriggerFailSafe(c.(timeouts := Bump(c.timeouts), state := StateTimeout));
      Out(-1, f, pin)
    else Out(0, c, [])
  }

  /** In a valid context the timeout looks at the oldest waiting entry: its age decides. */
  lemma TimeoutOnOldest(c: Ctx, nowMs: int)
    requires Valid(c) && c.enabled && c.state != StateFailSafe
    ensures CheckTimeouts(c, nowMs).rc == -1 <==>
      Waiting(c) != [] && WrapU32(nowMs - Waiting(c)[0].timestampMs) > c.timeoutMs
  {
    if c.count > 0 {
      assert Waiting(c)[0] == c.pending[c.head];
    }
  }

  /** lq_crosscheck_reset: state OK, an empty FIFO, the fail pin low; counters and sequences stay. */
  function Reset(c: Ctx): (r: (Ctx, seq<bool>))
    requires Shape(c)
    ensures Valid(r.0) && Waiting(r.0) == [] && r.0.state == StateOk && r.1 == [false]
    ensures r.0.txSequence == c.txSequence && r.0.rxSequence == c.rxSequence && r.0.sent == c.sent
  {
    (c.(state := StateOk, head := 0, tail := 0, count := 0), [false])
  }

  /** lq_crosscheck_get_state: a missing context reads as FAIL_SAFE. */
  function GetState(c: Option<Ctx>): (s: CheckState)
    ensures c.None? ==> s == StateFailSafe
    ensures c.Some? ==> s == c.value.state
  {
    if c.Some? then c.value.state else StateFailSafe
  }

  /** lq_crosscheck_is_failed: only a context in FAIL_SAFE; a missing one is not failed. */
  function IsFailed(c: Option<Ctx>): (b: bool)
    ensures b <==> c.Some? && GetState(c) == StateFailSafe
  {
    c.Some? && c.value.state == StateFailSafe
  }

  /**
    FAIL_SAFE does not hold: the parser never looks at the state, so in
    FAIL_SAFE a correct echo of the oldest pending packet sets it back to
    OK, with the fail pin still high.
   */
  lemma FailSafeNotAbsorbing(c: Ctx, b: seq<Byte>)
    requires Valid(c) && c.state == StateFailSafe && c.count > 0
    requires |b| == PACKET_SIZE && b[14] == MAGIC_END && CrcOk(b) && b[1] == c.rxSequence
    requires SameEvent(c.pending[c.head].packet, Decode(b))
    ensures HandlePacket(c, b).ctx.state == StateOk && HandlePacket(c, b).pin == []
  {
  }
}

=== FILE: cycles.dfy ===
/**
  The circular-dependency search of `check_dependency_conflict`
  (`scripts/conflict_handler.py`): a depth-first search over the
  requirement dependency graph that reports the first cycle each search
  root reaches.

  The search keeps a visited set and a recursion-stack set. As written, a
  frame that returns a cycle leaves its node on the stack, so a later
  root that reaches such a node finds it "on the stack" but not on its
  own path, and `path.index` raises. `pop` chooses between the code as
  written (`false`) and the evidently intended search that leaves the
  stack as it found it (`true`).
 */
module Cycles {
  import opened Wrappers
  import opened Dicts
  import opened Conflicts

  /** Dependency lists by requirement id; a node that is not a key has no dependencies (`graph.get(node, [])`). */
  type Graph = map<string, seq<string>>

  /** The dependencies of a node. */
  function Nbrs(g: Graph, node: string): seq<string>
  {
    if node in g then g[node] else []
  }

  /** Every node the search can reach: the keys and every dependency. */
  function Nodes(g: Graph): (u: set<string>)
    ensures forall k :: k in g ==> k in u
  {
    g.Keys + set k, j | k in g && 0 <= j < |g[k]| :: g[k][j]
  }

  /** The outcome of a search: nothing found, a cycle, or the `ValueError` from `path.index`. */
  datatype Found = Clear | Cycle(nodes: seq<string>) | IndexError

  /** Visited nodes and the recursion stack. */
  datatype Search = Search(visited: set<string>, stack: set<string>)

  /** Each node of `p` depends on the next. */
  predicate IsWalk(g: Graph, p: seq<string>)
  {
    forall j :: 0 <= j < |p| - 1 ==> p[j] in g && p[j + 1] in g[p[j]]
  }

  /** A closed walk: it returns to the node it started from. */
  predicate IsCycle(g: Graph, c: seq<string>)
  {
    |c| >= 2 && c[0] == c[|c| - 1] && IsWalk(g, c)
  }

  /** The nodes of a path. */
  function Elems(p: seq<string>): set<string>
  {
    set x | x in p
  }

  /** `path.index(x)`: the first position of `x`. */
  function IndexOf(p: seq<string>, x: string): (k: nat)
    requires x in p
    ensures k < |p| && p[k] == x && forall j :: 0 <= j < k ==> p[j] != x
  {
    if p[0] == x then 0 else 1 + IndexOf(p[1..], x)
  }

  /** A subset is no larger. */
  lemma {:induction false} SubsetSize(a: set<string>, b: set<string>)
    requires a <= b
    ensures |a| <= |b|
    decreases |a|
  {
    if a != {} {
      var x :| x in a;
      SubsetSize(a - {x}, b - {x});
    }
  }

  /** Marking one more node of `u` visited leaves fewer unvisited. */
  lemma VisitShrinks(u: set<string>, visited: set<string>, node: string)
    requires node in u && node !in visited
    ensures |u - (visited + {node})| < |u - visited|
  {
    assert u - visited == (u - (visited + {node})) + {node};
  }

  /** Growing the visited set never leaves more unvisited. */
  lemma GrowShrinks(u: set<string>, v: set<string>, w: set<string>)
    requires v <= w
    ensures |u - w| <= |u - v|
  {
    SubsetSize(u - w, u - v);
  }

  /** The frame of a path's last node: `path` is a walk ending in `node`. */
  predicate Frame(g: Graph, path: seq<string>, node: string)
  {
    |path| > 0 && path[|path| - 1] == node && IsWalk(g, path)
  }

  /**
    `has_cycle(node, path)`: mark the node, search its dependencies, and
    take it off the stack when nothing was found (always, when `pop`).
   */
  function Dfs(g: Graph, pop: bool, node: string, path: seq<string>, st: Search): (r: (Found, Search))
    requires node in Nodes(g) && node !in st.visited && st.visited <= Nodes(g)
    requires Frame(g, path, node)
    ensures st.visited + {node} <= r.1.visited <= Nodes(g)
    ensures r.0.Cycle? ==> IsCycle(g, r.0.nodes)
    ensures pop && st.stack == Elems(path[..|path| - 1]) && st.stack <= st.visited ==>
              !r.0.IndexError? && r.1.stack == st.stack
    decreases |Nodes(g) - st.visited|, 0
  {
    var st1 := Search(st.visited + {node}, st.stack + {node});
    VisitShrinks(Nodes(g), st.visited, node);
    assert pop && st.stack == Elems(path[..|path| - 1]) ==> st1.stack == Elems(path) by {
      assert path == path[..|path| - 1] + [node];
    }
    var found := Neighbors(g, pop, node, 0, path, st1);
    if found.0.Clear? || pop then (found.0, Search(found.1.visited, found.1.stack - {node}))
    else found
  }

  /** The loop of `has_cycle` over the dependencies of `node`, from the `i`-th on. */
  function Neighbors(g: Graph, pop: bool, node: string, i: nat, path: seq<string>, st: Search): (r: (Found, Search))
    requires i <= |Nbrs(g, node)| && st.visited <= Nodes(g)
    requires Frame(g, path, node)
    ensures st.visited <= r.1.visited <= Nodes(g)
    ensures r.0.Cycle? ==> IsCycle(g, r.0.nodes)
    ensures pop && st.stack == Elems(path) && st.stack <= st.visited ==> !r.0.IndexError? && r.1.stack == st.stack
    decreases |Nodes(g) - st.visited|, |Nbrs(g, node)| - i + 1
  {
    var nbrs := Nbrs(g, node);
    if i == |nbrs| then (Clear, st)
    else
      var n := nbrs[i];
      assert n in Nodes(g) by {
        assert n == g[node][i];
      }
      if n !in st.visited then
        var path' := path + [n];
        assert IsWalk(g, path') by {
          assert forall j :: 0 <= j < |path| ==> path'[j] == path[j];
        }
        assert path'[..|path'| - 1] == path;
        var sub := Dfs(g, pop, n, path', st);
        if !sub.0.Clear? then sub
        else
          GrowShrinks(Nodes(g), st.visited, sub.1.visited);
          Neighbors(g, pop, node, i + 1, path, sub.1)
      else if n in st.stack then
        if n in path then (Cycle(CycleAt(g, path, n, i)), st) else (IndexError, st)
      else Neighbors(g, pop, node, i + 1, path, st)
  }

  /** `path[path.index(n):] + [n]`, for the `i`-th dependency `n` of the path's last node. */
  function CycleAt(g: Graph, path: seq<string>, n: string, i: nat): (c: seq<string>)
    requires |path| > 0 && IsWalk(g, path) && n in path
    requires i < |Nbrs(g, path[|path| - 1])| && Nbrs(g, path[|path| - 1])[i] == n
    ensures IsCycle(g, c)
  {
    var k := IndexOf(path, n);
    var c := path[k..] + [n];
    assert forall j :: 0 <= j < |path| - k ==> c[j] == path[k + j];
    assert c[|c| - 1] == n;
    c
  }

  /** The search state before any root. */
  const Fresh: Search := Search({}, {})

  /**
    `for llr_id in graph: if llr_id not in visited: has_cycle(llr_id, [llr_id])`:
    the cycles found, in order, or `None` when a search raises.
   */
  function Roots(g: Graph, pop: bool, order: seq<string>, st: Search): (r: Option<seq<seq<string>>>)
    requires forall x :: x in order ==> x in g
    requires st.visited <= Nodes(g)
    ensures r.Some? ==> forall c :: c in r.value ==> IsCycle(g, c)
    ensures pop && st.stack == {} ==> r.Some?
    decreases |order|
  {
    if order == [] then Some([])
    else
      var root := order[0];
      assert root in g;
      if root in st.visited then Roots(g, pop, order[1..], st)
      else
        assert Frame(g, [root], root);
        assert [root][..0] == [];
        var found := Dfs(g, pop, root, [root], st);
        match found.0
        case IndexError => None
        case Clear => Roots(g, pop, order[1..], found.1)
        case Cycle(c) =>
          var rest := Roots(g, pop, order[1..], found.1);
          if rest.Some? then Some([c] + rest.value) else None
  }

  /** `graph[llr.id] = deps`, requirement by requirement; a repeated id keeps its last list. */
  function DependencyGraph(llrs: seq<Llr>): (g: Graph)
    ensures forall i :: 0 <= i < |llrs| ==> llrs[i].id in g
  {
    var n2l := NodeToLlr(llrs);
    var pairs := seq(|llrs|, i requires 0 <= i < |llrs| => (llrs[i].id, ExtractDependencies(llrs[i], n2l)));
    assert forall i :: 0 <= i < |llrs| ==> pairs[i].0 == llrs[i].id;
    Assign(map[], pairs)
  }

  /** The ids in first-appearance order: the iteration order of the graph dict. */
  function FirstAppearance(ids: seq<string>, seen: set<string>): (r: seq<string>)
    ensures forall x :: x in r <==> x in ids && x !in seen
    ensures forall a, b :: 0 <= a < b < |r| ==> r[a] != r[b]
  {
    if ids == [] then []
    else
      assert forall x :: x in ids <==> x == ids[0] || x in ids[1..];
      if ids[0] in seen then FirstAppearance(ids[1..], seen)
      else [ids[0]] + FirstAppearance(ids[1..], seen + {ids[0]})
  }

  /** The error reported for a cycle: its nodes once each, and the cycle itself. */
  function CycleError(c: seq<string>): Conflict
    requires |c| > 0
  {
    Conflict(Error, Dependency, c[..|c| - 1], false, CycleMeta(c))
  }

  /** The cycle errors, in the order the cycles were found. */
  function CycleErrors(cycles: seq<seq<string>>): (r: seq<Conflict>)
    requires forall c :: c in cycles ==> |c| > 0
    ensures |r| == |cycles| && forall i :: 0 <= i < |r| ==> r[i] == CycleError(cycles[i])
  {
    seq(|cycles|, i requires 0 <= i < |cycles| => CycleError(cycles[i]))
  }

  /** The cycles the search over the requirements' dependency graph reports, in order; `None` when it raises. */
  function DependencyCycles(llrs: seq<Llr>, pop: bool): (r: Option<seq<seq<string>>>)
    ensures pop ==> r.Some?
    ensures r.Some? ==> forall c :: c in r.value ==> IsCycle(DependencyGraph(llrs), c)
  {
    var g := DependencyGraph(llrs);
    var ids := seq(|llrs|, i requires 0 <= i < |llrs| => llrs[i].id);
    assert forall x :: x in ids ==> x in g;
    Roots(g, pop, FirstAppearance(ids, {}), Fresh)
  }

  /**
    `check_dependency_conflict`: cycle errors, then missing-dependency
    errors; `None` when the search raises. Every cycle reported closes in
    the dependency graph.
   */
  function CheckDependencyConflict(llrs: seq<Llr>, pop: bool): (r: Option<seq<Conflict>>)
    ensures pop ==> r.Some?
    ensures r.None? <==> DependencyCycles(llrs, pop).None?
    ensures r.Some? ==> forall c :: c in r.value ==> c.severity == Error && c.kind == Dependency
    ensures r.Some? ==> forall c :: c in r.value && c.meta.CycleMeta? ==> IsCycle(DependencyGraph(llrs), c.meta.cycle)
  {
    match DependencyCycles(llrs, pop)
    case None => None
    case Some(cycles) =>
      var missing := MissingDependencies(llrs, llrs);
      MissingDependenciesSound(llrs, llrs);
      CycleErrorsClose(DependencyGraph(llrs), cycles);
      Some(CycleErrors(cycles) + missing)
  }

  /** Every cycle error is a dependency error whose cycle closes in `g`. */
  lemma CycleErrorsClose(g: Graph, cycles: seq<seq<string>>)
    requires forall c :: c in cycles ==> |c| > 0 && IsCycle(g, c)
    ensures forall c :: c in CycleErrors(cycles) ==>
      c.severity == Error && c.kind == Dependency && c.meta.CycleMeta? && IsCycle(g, c.meta.cycle)
  {
    var errs := CycleErrors(cycles);
    forall c | c in errs
      ensures c.severity == Error && c.kind == Dependency && c.meta.CycleMeta? && IsCycle(g, c.meta.cycle)
    {
      var i :| 0 <= i < |errs| && errs[i] == c;
      assert cycles[i] in cycles;
    }
  }

  /** Three requirements A → B → A and C → A, searched in the order A, B, C. */
  const Stale: Graph := map["A" := ["B"], "B" := ["A"], "C" := ["A"]]

  /**
    As written, the search from C raises: the first search found the cycle
    A → B → A and left A and B on the stack, so C's dependency A counts as
    "on the stack" while C's path is only `[C]`.
   */
  lemma StaleStackRaises()
    ensures Roots(Stale, false, ["A", "B", "C"], Fresh) == None
  {
    var g := Stale;
    var stB := Search({"A", "B"}, {"A", "B"});
    FirstRootFinds(false);
    var stC := Search({"A", "B", "C"}, {"A", "B", "C"});
    assert Nbrs(g, "C") == ["A"] && "C" in Nodes(g);
    assert "A" !in ["C"];
    assert Search(stB.visited + {"C"}, stB.stack + {"C"}) == stC;
    assert Neighbors(g, false, "C", 0, ["C"], stC).0 == IndexError;
    assert Dfs(g, false, "C", ["C"], stB).0 == IndexError;
    assert "B" in stB.visited;
    assert Roots(g, false, ["C"], stB) == None;
    assert Roots(g, false, ["B", "C"], stB) == None;
  }

  /** From B on the path A, B, the dependency A closes the cycle A → B → A. */
  lemma CycleBA(pop: bool, st: Search)
    requires "A" in st.visited && "A" in st.stack && st.visited <= Nodes(Stale)
    ensures Neighbors(Stale, pop, "B", 0, ["A", "B"], st) == (Cycle(["A", "B", "A"]), st)
  {
    var g := Stale;
    assert Nbrs(g, "B") == ["A"];
    assert IndexOf(["A", "B"], "A") == 0;
    assert ["A", "B"][0..] + ["A"] == ["A", "B", "A"];
    assert CycleAt(g, ["A", "B"], "A", 0) == ["A", "B", "A"];
  }

  /** The search from A finds A → B → A, leaving A and B on the stack unless it pops. */
  lemma FirstRootFinds(pop: bool)
    ensures Dfs(Stale, pop, "A", ["A"], Fresh)
            == (Cycle(["A", "B", "A"]), Search({"A", "B"}, if pop then {} else {"A", "B"}))
  {
    var g := Stale;
    assert Nbrs(g, "A") == ["B"] && "A" in Nodes(g) && "B" in Nodes(g);
    var stB := Search({"A", "B"}, {"A", "B"});
    CycleBA(pop, stB);
    assert Search({"A"} + {"B"}, {"A"} + {"B"}) == stB;
    assert stB.stack - {"B"} == {"A"};
    var fromB := Search({"A", "B"}, if pop then {"A"} else {"A", "B"});
    assert Dfs(g, pop, "B", ["A", "B"], Search({"A"}, {"A"})) == (Cycle(["A", "B", "A"]), fromB);
    assert ["A"] + ["B"] == ["A", "B"];
    assert Neighbors(g, pop, "A", 0, ["A"], Search({"A"}, {"A"})) == (Cycle(["A", "B", "A"]), fromB);
    assert Search({} + {"A"}, {} + {"A"}) == Search({"A"}, {"A"});
    assert {"A"} - {"A"} == {};
  }

  /** With the stack kept, the same graph reports its one cycle and nothing raises. */
  lemma StaleStackFixed()
    ensures Roots(Stale, true, ["A", "B", "C"], Fresh) == Some([["A", "B", "A"]])
  {
    var g := Stale;
    FirstRootFinds(true);
    var after := Search({"A", "B"}, {});
    var done := Search({"A", "B", "C"}, {});
    LastRootClear();
    assert Roots(g, true, [], done) == Some([]);
    assert Roots(g, true, ["C"], after) == Some([]);
    assert "B" in after.visited;
    assert Roots(g, true, ["B", "C"], after) == Some([]);
    assert ["A", "B", "C"][1..] == ["B", "C"];
    assert [["A", "B", "A"]] + [] == [["A", "B", "A"]];
  }

  /** With nothing left on the stack, the search from C finds A visited and no cycle. */
  lemma LastRootClear()
    ensures Dfs(Stale, true, "C", ["C"], Search({"A", "B"}, {})) == (Clear, Search({"A", "B", "C"}, {}))
  {
    var g := Stale;
    assert Nbrs(g, "C") == ["A"] && "C" in Nodes(g) && "A" in Nodes(g) && "B" in Nodes(g);
    var stC := Search({"A", "B", "C"}, {"C"});
    assert "A" !in stC.stack;
    assert Search({"A", "B"} + {"C"}, {} + {"C"}) == stC;
    assert stC.stack - {"C"} == {};
    assert Neighbors(g, true, "C", 1, ["C"], stC) == (Clear, stC);
    assert Neighbors(g, true, "C", 0, ["C"], stC) == (Clear, stC);
  }
}

=== FILE: dicts.dfy ===
/**
  Python dicts filled one assignment at a time: the order in which keys
  arrive decides which value a repeated key keeps.
 */
module Dicts {

  /** A Python dict filled by assigning each pair in turn, so the last pair of a name wins. */
  function Assign<V>(m: map<string, V>, pairs: seq<(string, V)>): (r: map<string, V>)
    ensures forall k :: k in r <==> k in m || exists i :: 0 <= i < |pairs| && pairs[i].0 == k
    decreases |pairs|
  {
    if pairs == [] then m
    else
      var r := Assign(m[pairs[0].0 := pairs[0].1], pairs[1..]);
      assert forall i :: 1 <= i < |pairs| ==> pairs[i] == pairs[1..][i - 1];
      r
  }

  /** A name that no pair mentions keeps its old value. */
  lemma {:induction false} AssignKeeps<V>(m: map<string, V>, pairs: seq<(string, V)>, k: string)
    requires k in m && forall i :: 0 <= i < |pairs| ==> pairs[i].0 != k
    ensures Assign(m, pairs)[k] == m[k]
    decreases |pairs|
  {
    if pairs != [] {
      assert forall j :: 0 <= j < |pairs[1..]| ==> pairs[1..][j] == pairs[j + 1];
      AssignKeeps(m[pairs[0].0 := pairs[0].1], pairs[1..], k);
    }
  }

  /** The value of a name is that of its last pair. */
  lemma {:induction false} AssignLastWins<V>(m: map<string, V>, pairs: seq<(string, V)>, i: nat)
    requires i < |pairs| && forall j :: i < j < |pairs| ==> pairs[j].0 != pairs[i].0
    ensures Assign(m, pairs)[pairs[i].0] == pairs[i].1
    decreases |pairs|
  {
    var m' := m[pairs[0].0 := pairs[0].1];
    var rest := pairs[1..];
    if i > 0 {
      assert rest[i - 1] == pairs[i];
      assert forall j :: i - 1 < j < |rest| ==> rest[j] == pairs[j + 1];
      AssignLastWins(m', rest, i - 1);
    } else {
      assert forall j :: 0 <= j < |rest| ==> rest[j] == pairs[j + 1];
      AssignKeeps(m', rest, pairs[0].0);
    }
  }

  /** Assigning two runs of pairs is assigning the first run, then the second. */
  lemma {:induction false} AssignConcat<V>(m: map<string, V>, a: seq<(string, V)>, b: seq<(string, V)>)
    ensures Assign(m, a + b) == Assign(Assign(m, a), b)
    decreases |a|
  {
    if a == [] {
      assert a + b == b;
    } else {
      assert (a + b)[0] == a[0];
      assert (a + b)[1..] == a[1..] + b;
      AssignConcat(m[a[0].0 := a[0].1], a[1..], b);
    }
  }
}

=== FILE: dtc.dfy ===
/**
  The diagnostic trouble code manager (`src/lq_dtc.c`, `include/lq_dtc.h`).
  It keeps a fixed table of 32 DTCs, each keyed by a J1939 suspect
  parameter number (SPN) and failure mode identifier (FMI). It counts the
  active (confirmed) and stored (cleared) entries, and builds the DM1
  (active) and DM2 (previously active) messages.

  Each entry point is a pure function: it returns the new manager together
  with the return code. A builder also returns the bytes it writes, which
  are the first `rc` bytes of the caller's buffer.
 */
module Dtc {
  import opened CInt
  import opened Bytes
  import opened Wrappers

  /** `LQ_MAX_DTCS`. */
  const MAX_DTCS: int := 32
  const DEFAULT_DM1_PERIOD_MS: int := 1000
  /** The two bits a lamp field sets when that lamp is on. */
  const LAMP_BITS: Byte := 0xC0
  /** The four filler bytes that stand in for "no DTC". */
  const NO_DTC: seq<Byte> := [0xFF, 0xFF, 0xFF, 0xFF]

  /** `enum lq_dtc_state`. */
  datatype DtcState = Inactive | Pending | Confirmed | Stored

  /** `enum lq_lamp_status`, in increasing severity. */
  datatype Lamp = LampOff | LampAmber | LampAmberFlash | LampRed

  /** The enumerator's value, which the C code compares with `>`. */
  function Severity(l: Lamp): nat
  {
    match l
    case LampOff => 0
    case LampAmber => 1
    case LampAmberFlash => 2
    case LampRed => 3
  }

  /** The more severe of two lamps, as `if (lamp > dtc->lamp) dtc->lamp = lamp`. */
  function MaxLamp(current: Lamp, lamp: Lamp): (r: Lamp)
    ensures Severity(r) >= Severity(current) && Severity(r) >= Severity(lamp)
    ensures r == current || r == lamp
  {
    if Severity(lamp) > Severity(current) then lamp else current
  }

  /** `struct lq_dtc`. */
  datatype Entry = Entry(spn: int, fmi: int, occurrences: int, state: DtcState, lamp: Lamp,
                         firstDetected: int, lastActive: int)

  /** The all-zero entry `memset` leaves. */
  const EMPTY: Entry := Entry(0, 0, 0, Inactive, LampOff, 0, 0)

  predicate ValidEntry(e: Entry)
  {
    IsU32(e.spn) && IsU8(e.fmi) && IsU8(e.occurrences) && IsU64(e.firstDetected) && IsU64(e.lastActive)
  }

  /** `struct lq_dtc_manager`. */
  datatype Manager = Manager(dtcs: seq<Entry>, numActive: int, numStored: int, lastDm1Send: int, dm1PeriodMs: int)

  predicate ValidManager(m: Manager)
  {
    && |m.dtcs| == MAX_DTCS
    && (forall i :: 0 <= i < |m.dtcs| ==> ValidEntry(m.dtcs[i]))
    && IsU8(m.numActive) && IsU8(m.numStored)
    && IsU64(m.lastDm1Send) && IsU32(m.dm1PeriodMs)
  }

  /** The entries in state `st`, in table order. */
  function Select(s: seq<Entry>, st: DtcState): (r: seq<Entry>)
    ensures |r| <= |s|
    ensures forall i :: 0 <= i < |r| ==> r[i].state == st
  {
    if |s| == 0 then []
    else if s[0].state == st then [s[0]] + Select(s[1..], st)
    else Select(s[1..], st)
  }

  function Count(s: seq<Entry>, st: DtcState): nat
  {
    |Select(s, st)|
  }

  /**
    The counters agree with the table: `num_active` counts the CONFIRMED
    entries, `num_stored` the STORED ones, and no entry is PENDING, a state
    the manager never enters.
   */
  predicate Consistent(m: Manager)
  {
    && ValidManager(m)
    && Count(m.dtcs, Pending) == 0
    && m.numActive == Count(m.dtcs, Confirmed)
    && m.numStored == Count(m.dtcs, Stored)
  }

  /** Replacing one entry moves each state's count by at most the two states involved. */
  lemma {:induction false} CountUpdate(s: seq<Entry>, k: nat, e: Entry, st: DtcState)
    requires k < |s|
    ensures Count(s[k := e], st) + (if s[k].state == st then 1 else 0)
         == Count(s, st) + (if e.state == st then 1 else 0)
  {
    if k == 0 {
      assert s[k := e][1..] == s[1..];
    } else {
      CountUpdate(s[1..], k - 1, e, st);
      assert s[k := e][1..] == s[1..][k - 1 := e];
    }
  }

  /** A table of empty entries has none in any state but INACTIVE. */
  lemma {:induction false} EmptyTableCount(n: nat, st: DtcState)
    requires st != Inactive
    ensures Count(seq(n, _ => EMPTY), st) == 0
  {
    if n > 0 {
      EmptyTableCount(n - 1, st);
      assert seq(n, _ => EMPTY)[1..] == seq(n - 1, _ => EMPTY);
    }
  }

  /** The entry find_dtc looks for: present, with this SPN and FMI. */
  predicate Matches(e: Entry, spn: int, fmi: int)
  {
    e.state != Inactive && e.spn == spn && e.fmi == fmi
  }

  /** find_dtc: the first present entry for (spn, fmi). */
  function Find(s: seq<Entry>, spn: int, fmi: int): (r: Option<nat>)
    ensures r.Some? ==> r.value < |s| && Matches(s[r.value], spn, fmi)
    ensures r.Some? ==> forall j :: 0 <= j < r.value ==> !Matches(s[j], spn, fmi)
    ensures r.None? <==> forall j :: 0 <= j < |s| ==> !Matches(s[j], spn, fmi)
  {
    if |s| == 0 then None
    else if Matches(s[0], spn, fmi) then Some(0)
    else
      match Find(s[1..], spn, fmi)
      case None => None
      case Some(k) => Some(k + 1)
  }

  /** find_free_slot: the first INACTIVE entry. */
  function FreeSlot(s: seq<Entry>): (r: Option<nat>)
    ensures r.Some? ==> r.value < |s| && s[r.value].state == Inactive
    ensures r.Some? ==> forall j :: 0 <= j < r.value ==> s[j].state != Inactive
    ensures r.None? <==> forall j :: 0 <= j < |s| ==> s[j].state != Inactive
  {
    if |s| == 0 then None
    else if s[0].state == Inactive then Some(0)
    else
      match FreeSlot(s[1..])
      case None => None
      case Some(k) => Some(k + 1)
  }

  /** A full table has no entry in the INACTIVE state. */
  lemma {:induction false} FullTable(s: seq<Entry>)
    requires FreeSlot(s).None?
    ensures Count(s, Inactive) == 0
  {
    if |s| > 0 {
      assert FreeSlot(s[1..]).None? by {
        forall j | 0 <= j < |s[1..]| ensures s[1..][j].state != Inactive {
          assert s[1..][j] == s[j + 1];
        }
      }
      FullTable(s[1..]);
    }
  }

  /** The slot set_active writes: the entry for (spn, fmi), else the first free one. */
  function Slot(s: seq<Entry>, spn: int, fmi: int): (r: Option<nat>)
    ensures r.Some? ==> r.value < |s|
    ensures r.None? <==> Find(s, spn, fmi).None? && Count(s, Inactive) == 0
  {
    if Find(s, spn, fmi).Some? then Find(s, spn, fmi)
    else if FreeSlot(s).None? then
      FullTable(s);
      None
    else
      var k := FreeSlot(s).value;
      CountUpdate(s, k, s[k].(state := Confirmed), Inactive);
      FreeSlot(s)
  }

  /** Writing a matching entry at a slot no earlier entry matches makes find_dtc stop there. */
  lemma FindAt(s: seq<Entry>, k: nat, e: Entry)
    requires k < |s| && Matches(e, e.spn, e.fmi)
    requires forall j :: 0 <= j < k ==> !Matches(s[j], e.spn, e.fmi)
    ensures Find(s[k := e], e.spn, e.fmi) == Some(k)
  {
    var t := s[k := e];
    assert Matches(t[k], e.spn, e.fmi);
    var r := Find(t, e.spn, e.fmi);
    assert r.Some?;
    assert forall j :: 0 <= j < k ==> t[j] == s[j];
  }

  /** The occurrence counter's `++` on a uint8_t, held at 255 instead of wrapping to 0. */
  function SatInc(oc: int): (r: int)
    requires IsU8(oc)
    ensures IsU8(r) && r >= oc
    ensures r == oc <==> oc == 255
    ensures oc < 255 ==> r == oc + 1
  {
    var n := WrapU8(oc + 1);
    if n == 0 then 255 else n
  }

  /** lq_dtc_init: an empty table, and a 1000 ms DM1 period when 0 is asked for. */
  function Init(periodMs: int): (m: Manager)
    requires IsU32(periodMs)
    ensures Consistent(m) && m.numActive == 0 && m.numStored == 0 && m.lastDm1Send == 0
    ensures m.dm1PeriodMs > 0 && (periodMs > 0 ==> m.dm1PeriodMs == periodMs)
    ensures periodMs == 0 ==> m.dm1PeriodMs == DEFAULT_DM1_PERIOD_MS
    ensures forall spn, fmi :: Find(m.dtcs, spn, fmi).None?
  {
    EmptyTableCount(MAX_DTCS, Pending);
    EmptyTableCount(MAX_DTCS, Confirmed);
    EmptyTableCount(MAX_DTCS, Stored);
    Manager(seq(MAX_DTCS, _ => EMPTY), 0, 0, 0, if periodMs != 0 then periodMs else DEFAULT_DM1_PERIOD_MS)
  }

  /**
    lq_dtc_set_active. A known (spn, fmi) is confirmed again: its count
    goes up, holding at 255, and its lamp only escalates; a STORED entry
    moves from the stored count to the active one. An unknown pair takes
    the first free slot as a new confirmed entry with count 1. With no
    free slot the call returns -ENOMEM and nothing changes.
   */
  function SetActive(m: Manager, spn: int, fmi: int, lamp: Lamp, now: int): (r: (int, Manager))
    requires ValidManager(m) && IsU32(spn) && IsU8(fmi) && IsU64(now)
    ensures ValidManager(r.1)
    ensures r.1.lastDm1Send == m.lastDm1Send && r.1.dm1PeriodMs == m.dm1PeriodMs
    ensures r.0 == 0 <==> Slot(m.dtcs, spn, fmi).Some?
    ensures r.0 != 0 ==> r.0 == -ENOMEM && r.1 == m
    ensures r.0 == 0 ==>
      var k := Slot(m.dtcs, spn, fmi).value;
      && Find(r.1.dtcs, spn, fmi) == Some(k)
      && |r.1.dtcs| == |m.dtcs|
      && (forall i :: 0 <= i < |m.dtcs| && i != k ==> r.1.dtcs[i] == m.dtcs[i])
      && r.1.dtcs[k].state == Confirmed && r.1.dtcs[k].lastActive == now
      && Severity(r.1.dtcs[k].lamp) >= Severity(lamp)
    ensures r.0 == 0 && Find(m.dtcs, spn, fmi).None? ==>
      && r.1.dtcs[Slot(m.dtcs, spn, fmi).value] == Entry(spn, fmi, 1, Confirmed, lamp, now, now)
      && r.1.numActive == WrapU8(m.numActive + 1) && r.1.numStored == m.numStored
    ensures Find(m.dtcs, spn, fmi).Some? ==>
      var k := Find(m.dtcs, spn, fmi).value;
      var e := r.1.dtcs[k];
      && e.occurrences == SatInc(m.dtcs[k].occurrences)
      && e.lamp == MaxLamp(m.dtcs[k].lamp, lamp)
      && e.firstDetected == m.dtcs[k].firstDetected
      && (m.dtcs[k].state == Stored ==>
            r.1.numActive == WrapU8(m.numActive + 1) && r.1.numStored == WrapU8(m.numStored - 1))
      && (m.dtcs[k].state != Stored ==> r.1.numActive == m.numActive && r.1.numStored == m.numStored)
  {
    match Find(m.dtcs, spn, fmi)
    case Some(k) =>
      var e := m.dtcs[k];
      var e' := e.(state := Confirmed, lastActive := now, occurrences := SatInc(e.occurrences),
                   lamp := MaxLamp(e.lamp, lamp));
      var reactivated := e.state == Stored;
      FindAt(m.dtcs, k, e');
      (0, m.(dtcs := m.dtcs[k := e'],
             numActive := if reactivated then WrapU8(m.numActive + 1) else m.numActive,
             numStored := if reactivated then WrapU8(m.numStored - 1) else m.numStored))
    case None =>
      match FreeSlot(m.dtcs)
      case None => (-ENOMEM, m)
      case Some(k) =>
        var e' := Entry(spn, fmi, 1, Confirmed, lamp, now, now);
        FindAt(m.dtcs, k, e');
        (0, m.(dtcs := m.dtcs[k := e'], numActive := WrapU8(m.numActive + 1)))
  }

  /** set_active keeps the counters in step with the table. */
  lemma SetActiveConsistent(m: Manager, spn: int, fmi: int, lamp: Lamp, now: int)
    requires Consistent(m) && IsU32(spn) && IsU8(fmi) && IsU64(now)
    ensures Consistent(SetActive(m, spn, fmi, lamp, now).1)
  {
    var r := SetActive(m, spn, fmi, lamp, now);
    if r.0 == 0 {
      var k := Slot(m.dtcs, spn, fmi).value;
      var e' := r.1.dtcs[k];
      assert r.1.dtcs == m.dtcs[k := e'];
      CountUpdate(m.dtcs, k, e', Pending);
      CountUpdate(m.dtcs, k, e', Confirmed);
      CountUpdate(m.dtcs, k, e', Stored);
    }
  }

  /**
    How lq_dtc_clear counts stored entries: as written, every successful
    clear increments `num_stored`; corrected, only a clear that moves an
    entry into the STORED state does.
   */
  datatype StoredCounting = CountEveryClear | CountNewlyStored

  /**
    lq_dtc_clear under a stored-count policy. An absent (spn, fmi) gives
    -ENOENT and changes nothing. Otherwise the entry is kept for history
    as STORED with its lamp off, and a CONFIRMED entry leaves the active
    count.
   */
  function ClearWith(m: Manager, spn: int, fmi: int, policy: StoredCounting): (r: (int, Manager))
    requires ValidManager(m)
    ensures ValidManager(r.1)
    ensures r.1.lastDm1Send == m.lastDm1Send && r.1.dm1PeriodMs == m.dm1PeriodMs
    ensures r.0 == -ENOENT <==> Find(m.dtcs, spn, fmi).None?
    ensures r.0 != -ENOENT ==> r.0 == 0
    ensures r.0 == -ENOENT ==> r.1 == m
    ensures r.0 == 0 ==>
      var k := Find(m.dtcs, spn, fmi).value;
      && |r.1.dtcs| == |m.dtcs|
      && (forall i :: 0 <= i < |m.dtcs| && i != k ==> r.1.dtcs[i] == m.dtcs[i])
      && r.1.dtcs[k] == m.dtcs[k].(state := Stored, lamp := LampOff)
      && Find(r.1.dtcs, spn, fmi) == Some(k)
      && r.1.numActive == (if m.dtcs[k].state == Confirmed then WrapU8(m.numActive - 1) else m.numActive)
  {
    match Find(m.dtcs, spn, fmi)
    case None => (-ENOENT, m)
    case Some(k) =>
      var e := m.dtcs[k];
      var e' := e.(state := Stored, lamp := LampOff);
      FindAt(m.dtcs, k, e');
      var counted := policy == CountEveryClear || e.state != Stored;
      (0, m.(dtcs := m.dtcs[k := e'],
             numActive := if e.state == Confirmed then WrapU8(m.numActive - 1) else m.numActive,
             numStored := if counted then WrapU8(m.numStored + 1) else m.numStored))
  }

  /** lq_dtc_clear as written: `num_stored` goes up on every successful clear. */
  function ClearAsWritten(m: Manager, spn: int, fmi: int): (r: (int, Manager))
    requires ValidManager(m)
    ensures ValidManager(r.1)
    ensures r.0 == 0 ==> r.1.numStored == WrapU8(m.numStored + 1)
    ensures r.0 != 0 ==> r.0 == -ENOENT && r.1 == m
  {
    ClearWith(m, spn, fmi, CountEveryClear)
  }

  /**
    lq_dtc_clear with the stored count corrected: the counters stay in
    agreement with the table, and clearing is idempotent.
   */
  function Clear(m: Manager, spn: int, fmi: int): (r: (int, Manager))
    requires ValidManager(m)
    ensures ValidManager(r.1)
    ensures r.0 == -ENOENT <==> Find(m.dtcs, spn, fmi).None?
    ensures r.0 == 0 ==>
      r.1.numStored == (if m.dtcs[Find(m.dtcs, spn, fmi).value].state == Stored then m.numStored else WrapU8(m.numStored + 1))
    ensures Consistent(m) ==> Consistent(r.1)
  {
    var r := ClearWith(m, spn, fmi, CountNewlyStored);
    if r.0 == 0 then
      var k := Find(m.dtcs, spn, fmi).value;
      var e' := m.dtcs[k].(state := Stored, lamp := LampOff);
      CountUpdate(m.dtcs, k, e', Pending);
      CountUpdate(m.dtcs, k, e', Confirmed);
      CountUpdate(m.dtcs, k, e', Stored);
      r
    else r
  }

  /** With the corrected count, clearing a DTC twice is the same as clearing it once. */
  lemma ClearIdempotent(m: Manager, spn: int, fmi: int)
    requires ValidManager(m)
    ensures var m1 := Clear(m, spn, fmi).1; Clear(m1, spn, fmi).1 == m1
  {
    var m1 := Clear(m, spn, fmi).1;
    if Find(m.dtcs, spn, fmi).Some? {
      var k := Find(m.dtcs, spn, fmi).value;
      assert Find(m1.dtcs, spn, fmi) == Some(k);
      assert m1.dtcs[k := m1.dtcs[k].(state := Stored, lamp := LampOff)] == m1.dtcs;
    }
  }

  /** lq_dtc_clear_all: every entry and both counters zeroed; the DM1 timing is kept. */
  function ClearAll(m: Manager): (r: Manager)
    requires ValidManager(m)
    ensures Consistent(r) && r.numActive == 0 && r.numStored == 0
    ensures r.lastDm1Send == m.lastDm1Send && r.dm1PeriodMs == m.dm1PeriodMs
    ensures forall spn, fmi :: Find(r.dtcs, spn, fmi).None?
  {
    EmptyTableCount(MAX_DTCS, Pending);
    EmptyTableCount(MAX_DTCS, Confirmed);
    EmptyTableCount(MAX_DTCS, Stored);
    m.(dtcs := seq(MAX_DTCS, _ => EMPTY), numActive := 0, numStored := 0)
  }

  /** lq_dtc_get_active_count: on a consistent manager, the number of confirmed entries. */
  function ActiveCount(m: Manager): (n: int)
    requires ValidManager(m)
    ensures IsU8(n)
    ensures Consistent(m) ==> n == |Select(m.dtcs, Confirmed)|
  {
    m.numActive
  }

  /** lq_dtc_get_stored_count: on a consistent manager, the number of stored entries. */
  function StoredCount(m: Manager): (n: int)
    requires ValidManager(m)
    ensures IsU8(n)
    ensures Consistent(m) ==> n == |Select(m.dtcs, Stored)|
  {
    m.numStored
  }

  /** The scan of lq_dtc_get_mil_status, from `highest` on. */
  function HighestLamp(s: seq<Entry>, highest: Lamp): (r: Lamp)
    ensures Severity(r) >= Severity(highest)
    ensures forall i :: 0 <= i < |s| && s[i].state == Confirmed ==> Severity(s[i].lamp) <= Severity(r)
    ensures r == highest || exists i :: 0 <= i < |s| && s[i].state == Confirmed && s[i].lamp == r
  {
    if |s| == 0 then highest
    else
      var h := if s[0].state == Confirmed && Severity(s[0].lamp) > Severity(highest) then s[0].lamp else highest;
      var r := HighestLamp(s[1..], h);
      assert forall i :: 1 <= i < |s| ==> s[i] == s[1..][i - 1];
      r
  }

  /** lq_dtc_get_mil_status: the most severe lamp of the confirmed entries, OFF when there is none. */
  function MilStatus(m: Manager): (r: Lamp)
    ensures forall i :: 0 <= i < |m.dtcs| && m.dtcs[i].state == Confirmed ==> Severity(m.dtcs[i].lamp) <= Severity(r)
    ensures r == LampOff || exists i :: 0 <= i < |m.dtcs| && m.dtcs[i].state == Confirmed && m.dtcs[i].lamp == r
  {
    HighestLamp(m.dtcs, LampOff)
  }

  /**
    The four DM1 lamp bytes for the MIL status: byte 0 for amber (steady
    or flashing), bytes 1 and 2 for red, byte 3 for flashing amber.
   */
  function LampHeader(mil: Lamp): (h: seq<Byte>)
    ensures |h| == 4 && HeaderLamp(h) == mil
  {
    [if mil == LampAmber || mil == LampAmberFlash then LAMP_BITS else 0,
     if mil == LampRed then LAMP_BITS else 0,
     if mil == LampRed then LAMP_BITS else 0,
     if mil == LampAmberFlash then LAMP_BITS else 0]
  }

  /** The lamp a receiver reads back from the four lamp bytes. */
  function HeaderLamp(h: seq<Byte>): Lamp
    requires |h| >= 4
  {
    if h[3] == LAMP_BITS then LampAmberFlash
    else if h[2] == LAMP_BITS then LampRed
    else if h[0] == LAMP_BITS then LampAmber
    else LampOff
  }

  /**
    The four bytes of one DTC: the SPN's low and middle bytes, then its
    bits 16 to 18 above the five FMI bits, then the occurrence count. The
    third byte is `((spn >> 16) << 5) | (fmi & 0x1F)` stored into a uint8_t.
   */
  function DtcBytes(e: Entry): (b: seq<Byte>)
    requires ValidEntry(e)
    ensures |b| == 4
  {
    [e.spn % 0x100, (e.spn / 0x100) % 0x100, ((e.spn / 0x1_0000) * 32) % 0x100 + e.fmi % 32, e.occurrences]
  }

  /** What a receiver reads from four DTC bytes: (SPN, FMI, occurrence count). */
  function ReadDtc(b: seq<Byte>): (int, int, int)
    requires |b| == 4
  {
    (b[0] as int + b[1] as int * 0x100 + (b[2] as int / 32) * 0x1_0000, b[2] as int % 32, b[3] as int)
  }

  /** Reading a DTC back gives its 19-bit SPN, its 5-bit FMI and its count. */
  lemma DtcRoundTrip(e: Entry)
    requires ValidEntry(e)
    ensures ReadDtc(DtcBytes(e)) == (e.spn % 0x8_0000, e.fmi % 32, e.occurrences)
  {
    var s := e.spn;
    var hi := s / 0x1_0000;
    assert (hi * 32) % 0x100 == (hi % 8) * 32 by {
      assert hi * 32 == (hi / 8) * 0x100 + (hi % 8) * 32;
    }
    assert ((hi * 32) % 0x100 + e.fmi % 32) / 32 == hi % 8;
    assert ((hi * 32) % 0x100 + e.fmi % 32) % 32 == e.fmi % 32;
    SplitMod(s, 0x100, 0x100);
    SplitMod(s, 0x1_0000, 8);
  }

  /** The DTC bytes of a run of entries, one after the other. */
  function Listing(es: seq<Entry>): (r: seq<Byte>)
    requires forall i :: 0 <= i < |es| ==> ValidEntry(es[i])
    ensures |r| == 4 * |es|
  {
    if |es| == 0 then [] else DtcBytes(es[0]) + Listing(es[1..])
  }

  /** Entry k of a listing occupies bytes 4k to 4k+3. */
  lemma {:induction false} ListingAt(es: seq<Entry>, k: nat)
    requires forall i :: 0 <= i < |es| ==> ValidEntry(es[i])
    requires k < |es|
    ensures Listing(es)[4 * k .. 4 * k + 4] == DtcBytes(es[k])
  {
    if k > 0 {
      ListingAt(es[1..], k - 1);
      assert Listing(es) == DtcBytes(es[0]) + Listing(es[1..]);
    }
  }

  /** The number of whole DTCs that fit between `offset` and `maxSize`. */
  function Room(offset: nat, maxSize: nat): nat
  {
    if maxSize < offset then 0 else (maxSize - offset) / 4
  }

  lemma RoomStep(offset: nat, maxSize: nat)
    requires offset + 4 <= maxSize
    ensures Room(offset, maxSize) >= 1 && Room(offset + 4, maxSize) == Room(offset, maxSize) - 1
  {
  }

  /**
    The DTC loop of the DM1 and DM2 builders, from table position 0 and
    write offset `offset`: each entry in state `st` is written while four
    more bytes fit in `maxSize`.
   */
  function Scan(s: seq<Entry>, st: DtcState, offset: nat, maxSize: nat): (r: seq<Byte>)
    requires forall i :: 0 <= i < |s| ==> ValidEntry(s[i])
    ensures |r| % 4 == 0 && |r| <= 4 * Room(offset, maxSize)
    ensures |r| == 0 <==> Count(s, st) == 0 || Room(offset, maxSize) == 0
  {
    if |s| == 0 || offset + 4 > maxSize then []
    else if s[0].state != st then Scan(s[1..], st, offset, maxSize)
    else
      RoomStep(offset, maxSize);
      DtcBytes(s[0]) + Scan(s[1..], st, offset + 4, maxSize)
  }

  /** The loop writes the first entries in state `st`, as many as fit. */
  lemma {:induction false} ScanIsListing(s: seq<Entry>, st: DtcState, offset: nat, maxSize: nat)
    requires forall i :: 0 <= i < |s| ==> ValidEntry(s[i])
    ensures forall i :: 0 <= i < |Select(s, st)| ==> ValidEntry(Select(s, st)[i])
    ensures Scan(s, st, offset, maxSize)
         == Listing(Select(s, st)[..Min(Count(s, st), Room(offset, maxSize))])
  {
    SelectValid(s, st);
    var sel := Select(s, st);
    if |s| == 0 || offset + 4 > maxSize {
      assert Min(Count(s, st), Room(offset, maxSize)) == 0;
    } else if s[0].state != st {
      ScanIsListing(s[1..], st, offset, maxSize);
    } else {
      ScanIsListing(s[1..], st, offset + 4, maxSize);
      ScanStep(s, st, offset, maxSize);
    }
  }

  /** ScanIsListing when the first entry is listed, given the claim for the rest. */
  lemma ScanStep(s: seq<Entry>, st: DtcState, offset: nat, maxSize: nat)
    requires forall i :: 0 <= i < |s| ==> ValidEntry(s[i])
    requires |s| > 0 && offset + 4 <= maxSize && s[0].state == st
    requires forall i :: 0 <= i < |Select(s[1..], st)| ==> ValidEntry(Select(s[1..], st)[i])
    requires Scan(s[1..], st, offset + 4, maxSize)
          == Listing(Select(s[1..], st)[..Min(Count(s[1..], st), Room(offset + 4, maxSize))])
    ensures forall i :: 0 <= i < |Select(s, st)| ==> ValidEntry(Select(s, st)[i])
    ensures Scan(s, st, offset, maxSize) == Listing(Select(s, st)[..Min(Count(s, st), Room(offset, maxSize))])
  {
    RoomStep(offset, maxSize);
    var n := Min(Count(s, st), Room(offset, maxSize));
    var rest := Select(s[1..], st);
    assert Select(s, st) == [s[0]] + rest;
    assert n == 1 + Min(Count(s[1..], st), Room(offset + 4, maxSize));
    ListingTakeCons(s[0], rest, n);
  }

  /** The listing of the first n entries of a table starting with e. */
  lemma ListingTakeCons(e: Entry, rest: seq<Entry>, n: nat)
    requires ValidEntry(e) && forall i :: 0 <= i < |rest| ==> ValidEntry(rest[i])
    requires 1 <= n <= 1 + |rest|
    ensures forall i :: 0 <= i < n ==> ValidEntry(([e] + rest)[i])
    ensures Listing(([e] + rest)[..n]) == DtcBytes(e) + Listing(rest[..n - 1])
  {
    var t := ([e] + rest)[..n];
    assert t == [e] + rest[..n - 1];
    assert t[1..] == rest[..n - 1];
  }

  /** Every selected entry is valid when the table's are. */
  lemma {:induction false} SelectValid(s: seq<Entry>, st: DtcState)
    requires forall i :: 0 <= i < |s| ==> ValidEntry(s[i])
    ensures forall i :: 0 <= i < |Select(s, st)| ==> ValidEntry(Select(s, st)[i])
  {
    if |s| > 0 {
      SelectValid(s[1..], st);
    }
  }

  /** A DM1 within its period of the previous one, unless none has been sent (recorded time 0). */
  predicate RateLimited(m: Manager, now: int)
  {
    m.lastDm1Send != 0 && WrapU64(now - m.lastDm1Send) < m.dm1PeriodMs * 1000
  }

  /** A DM1 or DM2 message: four lamp bytes, then the DTCs listed, or the filler when there is none. */
  function Message(header: seq<Byte>, body: seq<Byte>): (out: seq<Byte>)
    requires |header| == 4 && |body| % 4 == 0
    ensures |out| >= 8 && out[..4] == header
    ensures body != [] ==> out[4..] == body
    ensures body == [] ==> out[4..] == NO_DTC
  {
    header + (if body == [] then NO_DTC else body)
  }

  /** The DTCs one message lists: the first entries in state `st` that fit after four header bytes. */
  function Listed(m: Manager, st: DtcState, maxSize: nat): (es: seq<Entry>)
    requires ValidManager(m) && maxSize >= 8
    ensures forall i :: 0 <= i < |es| ==> ValidEntry(es[i]) && es[i].state == st
    ensures |es| == Min(Count(m.dtcs, st), (maxSize - 4) / 4)
  {
    SelectValid(m.dtcs, st);
    Select(m.dtcs, st)[..Min(Count(m.dtcs, st), Room(4, maxSize))]
  }

  /**
    lq_dtc_build_dm1. Within the period of the previous DM1 it returns 0
    and writes nothing. A buffer under 8 bytes gives -EINVAL. Otherwise it
    writes the MIL status lamps, then the first confirmed DTCs that fit
    (or the filler when there is none), and records `now` as the send time.
   */
  function BuildDm1(m: Manager, maxSize: nat, now: int): (r: (int, seq<Byte>, Manager))
    requires ValidManager(m) && IsU64(now)
    ensures r.0 == 0 <==> RateLimited(m, now)
    ensures r.0 == -EINVAL <==> !RateLimited(m, now) && maxSize < 8
    ensures r.0 <= 0 ==> r.1 == [] && r.2 == m
    ensures r.0 > 0 ==>
      && r.0 == |r.1| && 8 <= r.0 <= maxSize && r.0 % 4 == 0
      && r.2 == m.(lastDm1Send := now)
      && r.1[..4] == LampHeader(MilStatus(m))
      && (Count(m.dtcs, Confirmed) == 0 ==> r.1[4..] == NO_DTC)
      && (Count(m.dtcs, Confirmed) > 0 ==> r.1[4..] == Listing(Listed(m, Confirmed, maxSize)))
  {
    if RateLimited(m, now) then (0, [], m)
    else if maxSize < 8 then (-EINVAL, [], m)
    else
      var body := Scan(m.dtcs, Confirmed, 4, maxSize);
      ScanIsListing(m.dtcs, Confirmed, 4, maxSize);
      var out := Message(LampHeader(MilStatus(m)), body);
      (|out|, out, m.(lastDm1Send := now))
  }

  /**
    lq_dtc_build_dm2: with a buffer of at least 8 bytes, four zero lamp
    bytes, then the first stored DTCs that fit (or the filler); a smaller
    buffer gives -EINVAL. The manager does not change.
   */
  function BuildDm2(m: Manager, maxSize: nat): (r: (int, seq<Byte>))
    requires ValidManager(m)
    ensures r.0 == -EINVAL <==> maxSize < 8
    ensures r.0 != -EINVAL ==>
      && r.0 == |r.1| && 8 <= r.0 <= maxSize && r.0 % 4 == 0
      && r.1[..4] == [0, 0, 0, 0] && HeaderLamp(r.1) == LampOff
      && (Count(m.dtcs, Stored) == 0 ==> r.1[4..] == NO_DTC)
      && (Count(m.dtcs, Stored) > 0 ==> r.1[4..] == Listing(Listed(m, Stored, maxSize)))
    ensures r.0 == -EINVAL ==> r.1 == []
  {
    if maxSize < 8 then (-EINVAL, [])
    else
      var body := Scan(m.dtcs, Stored, 4, maxSize);
      ScanIsListing(m.dtcs, Stored, 4, maxSize);
      var out := Message([0, 0, 0, 0], body);
      (|out|, out)
  }

  /**
    A receiver of a DM1 recovers, in table order, the SPN (19 bits), FMI
    and count of each confirmed DTC that fitted, and the MIL status.
   */
  lemma Dm1Decodes(m: Manager, maxSize: nat, now: int, k: nat)
    requires ValidManager(m) && IsU64(now)
    requires BuildDm1(m, maxSize, now).0 > 0
    ensures HeaderLamp(BuildDm1(m, maxSize, now).1) == MilStatus(m)
    ensures Count(m.dtcs, Confirmed) > 0 && k < |Listed(m, Confirmed, maxSize)| ==>
      var out := BuildDm1(m, maxSize, now).1;
      var e := Listed(m, Confirmed, maxSize)[k];
      4 * k + 8 <= |out| && ReadDtc(out[4 * k + 4 .. 4 * k + 8]) == (e.spn % 0x8_0000, e.fmi % 32, e.occurrences)
  {
    var out := BuildDm1(m, maxSize, now).1;
    assert out[..4] == LampHeader(MilStatus(m));
    assert HeaderLamp(out) == HeaderLamp(out[..4]);
    if Count(m.dtcs, Confirmed) > 0 && k < |Listed(m, Confirmed, maxSize)| {
      var es := Listed(m, Confirmed, maxSize);
      ListingAt(es, k);
      assert out[4 * k + 4 .. 4 * k + 8] == out[4..][4 * k .. 4 * k + 4];
      DtcRoundTrip(es[k]);
    }
  }

  /**
    After a DM1 sent at a nonzero time, the next call within the period
    sends nothing; a call a full period later sends again.
   */
  lemma Dm1Period(m: Manager, maxSize: nat, now: int, later: int)
    requires ValidManager(m) && IsU64(now) && IsU64(later) && now != 0 && now <= later
    requires BuildDm1(m, maxSize, now).0 > 0
    ensures var m' := BuildDm1(m, maxSize, now).2;
      && (later - now < m.dm1PeriodMs * 1000 ==> BuildDm1(m', maxSize, later) == (0, [], m'))
      && (later - now >= m.dm1PeriodMs * 1000 ==> BuildDm1(m', maxSize, later).0 > 0)
  {
  }

  /** A DM1 sent at time 0 records 0, which reads as "never sent": the next call is not held back. */
  lemma Dm1AtTimeZero(m: Manager, maxSize: nat, later: int)
    requires ValidManager(m) && IsU64(later) && maxSize >= 8
    requires BuildDm1(m, maxSize, 0).0 > 0
    ensures BuildDm1(BuildDm1(m, maxSize, 0).2, maxSize, later).0 > 0
  {
  }

  /**
    One fault's life on a fresh manager: raising it confirms it with its
    lamp as the MIL status; clearing it stores it with the MIL off and
    lists it in DM2; raising it again confirms it with count 2.
   */
  lemma FaultLifecycle(period: int, spn: int, fmi: int, lamp: Lamp, t1: int, t3: int)
    requires IsU32(period) && IsU32(spn) && IsU8(fmi) && IsU64(t1) && IsU64(t3)
    ensures var m0 := Init(period);
      var (rc1, m1) := SetActive(m0, spn, fmi, lamp, t1);
      var (rc2, m2) := Clear(m1, spn, fmi);
      var (rc3, m3) := SetActive(m2, spn, fmi, lamp, t3);
      && rc1 == 0 && rc2 == 0 && rc3 == 0
      && MilStatus(m1) == lamp && ActiveCount(m1) == 1 && StoredCount(m1) == 0
      && MilStatus(m2) == LampOff && ActiveCount(m2) == 0 && StoredCount(m2) == 1
      && BuildDm2(m2, 8).1 == [0, 0, 0, 0] + DtcBytes(Entry(spn, fmi, 1, Stored, LampOff, t1, t1))
      && ActiveCount(m3) == 1 && StoredCount(m3) == 0
      && m3.dtcs[0] == Entry(spn, fmi, 2, Confirmed, lamp, t1, t3)
  {
    FaultRaised(period, spn, fmi, lamp, t1);
    var m1 := SetActive(Init(period), spn, fmi, lamp, t1).1;
    FaultCleared(m1, Entry(spn, fmi, 1, Confirmed, lamp, t1, t1));
    var m2 := Clear(m1, spn, fmi).1;
    FaultReturns(m2, Entry(spn, fmi, 1, Stored, LampOff, t1, t1), lamp, t3);
  }

  /** The table holds `e` in its first slot and nothing after it. */
  predicate Lone(m: Manager, e: Entry)
  {
    ValidManager(m) && m.dtcs[0] == e && forall i :: 1 <= i < |m.dtcs| ==> m.dtcs[i].state == Inactive
  }

  /** FaultLifecycle, first step: the fault raised on a fresh manager. */
  lemma FaultRaised(period: int, spn: int, fmi: int, lamp: Lamp, t1: int)
    requires IsU32(period) && IsU32(spn) && IsU8(fmi) && IsU64(t1)
    ensures var r := SetActive(Init(period), spn, fmi, lamp, t1);
      && r.0 == 0 && Lone(r.1, Entry(spn, fmi, 1, Confirmed, lamp, t1, t1))
      && r.1.numActive == 1 && r.1.numStored == 0 && MilStatus(r.1) == lamp
  {
    var m0 := Init(period);
    assert FreeSlot(m0.dtcs) == Some(0);
  }

  /** FaultLifecycle, second step: the lone confirmed fault cleared into history. */
  lemma FaultCleared(m: Manager, e: Entry)
    requires Lone(m, e) && e.state == Confirmed && m.numActive == 1 && m.numStored == 0
    ensures var r := Clear(m, e.spn, e.fmi);
      && r.0 == 0 && Lone(r.1, e.(state := Stored, lamp := LampOff))
      && r.1.numActive == 0 && r.1.numStored == 1 && MilStatus(r.1) == LampOff
      && BuildDm2(r.1, 8).1 == [0, 0, 0, 0] + DtcBytes(e.(state := Stored, lamp := LampOff))
  {
    assert Find(m.dtcs, e.spn, e.fmi) == Some(0);
    var m2 := Clear(m, e.spn, e.fmi).1;
    var e2 := e.(state := Stored, lamp := LampOff);
    assert m2.dtcs[0] == e2;
    assert Select(m2.dtcs, Stored) == [e2] by {
      OnlyFirst(m2.dtcs, Stored);
    }
    assert Listed(m2, Stored, 8) == [e2];
  }

  /** FaultLifecycle, last step: the stored fault raised again. */
  lemma FaultReturns(m: Manager, e: Entry, lamp: Lamp, now: int)
    requires Lone(m, e) && e.state == Stored && e.lamp == LampOff && e.occurrences == 1
    requires m.numActive == 0 && m.numStored == 1 && IsU64(now)
    ensures var r := SetActive(m, e.spn, e.fmi, lamp, now);
      && r.0 == 0 && r.1.numActive == 1 && r.1.numStored == 0
      && r.1.dtcs[0] == e.(occurrences := 2, state := Confirmed, lamp := lamp, lastActive := now)
  {
    assert Find(m.dtcs, e.spn, e.fmi) == Some(0);
  }

  /** A table whose entries after the first are all INACTIVE selects at most its first entry. */
  lemma OnlyFirst(s: seq<Entry>, st: DtcState)
    requires |s| > 0 && st != Inactive
    requires forall i :: 1 <= i < |s| ==> s[i].state == Inactive
    ensures Select(s, st) == if s[0].state == st then [s[0]] else []
  {
    NoneInState(s[1..], st);
  }

  /** A run of INACTIVE entries has none in any other state. */
  lemma {:induction false} NoneInState(s: seq<Entry>, st: DtcState)
    requires st != Inactive
    requires forall i :: 0 <= i < |s| ==> s[i].state == Inactive
    ensures Count(s, st) == 0
  {
    if |s| > 0 {
      NoneInState(s[1..], st);
    }
  }

  /** As written, clearing a DTC a second time counts it as stored twice. */
  lemma ClearTwiceOvercounts(m: Manager, spn: int, fmi: int)
    requires Consistent(m)
    requires Find(m.dtcs, spn, fmi).Some? && m.dtcs[Find(m.dtcs, spn, fmi).value].state == Stored
    ensures ClearAsWritten(m, spn, fmi).0 == 0
    ensures ClearAsWritten(m, spn, fmi).1.numStored == Count(ClearAsWritten(m, spn, fmi).1.dtcs, Stored) + 1
  {
    var k := Find(m.dtcs, spn, fmi).value;
    var r := ClearAsWritten(m, spn, fmi).1;
    assert r.dtcs == m.dtcs[k := m.dtcs[k].(state := Stored, lamp := LampOff)];
    CountUpdate(m.dtcs, k, m.dtcs[k].(state := Stored, lamp := LampOff), Stored);
  }
}

=== FILE: dtsgen.dfy ===
/**
  The device-tree to C generator (`scripts/dts_gen.py`): the property
  values `parse_property_value` reads, the comment removal and per-node
  property extraction of `simple_dts_parser`, and what `generate_source`
  derives from the nodes — the four categories, the engine's counts and
  one push per hardware input ISR.

  The node pattern itself is not re-implemented: a `RawNode` is one match
  of it, carrying the block text, the first `compatible = "…"` string and
  the `name = value;` pairs found in the block, in textual order. The C
  text written around these values is not modelled.
 */
module DtsGen {
  import opened Wrappers
  import opened Text

  // ---------------------------------------------------------------------
  // Property values
  // ---------------------------------------------------------------------

  /**
    What `parse_property_value` returns: a string (a reference name, a
    quoted string or raw text), one integer, a list of integers, a list of
    unparsed tokens, or `True` for a property with no value.
   */
  datatype Value = Str(s: string) | Int(n: int) | Ints(ns: seq<int>) | Tokens(ts: seq<string>) | Flag

  /** `s.rstrip(c)` for one character. */
  function RStripChar(s: string, c: char): (r: string)
    ensures |r| <= |s| && r == s[..|r|]
    ensures forall i :: |r| <= i < |s| ==> s[i] == c
    ensures r == [] || r[|r| - 1] != c
    decreases |s|
  {
    if s != [] && s[|s| - 1] == c then RStripChar(s[..|s| - 1], c) else s
  }

  /** `value[k:-1]`: what lies between the first `k` characters and the last one, empty when they overlap. */
  function Inner(value: string, k: nat): (r: string)
    ensures |value| >= k + 1 ==> r == value[k..|value| - 1]
    ensures |value| <= k ==> r == []
  {
    if |value| >= k + 1 then value[k..|value| - 1] else []
  }

  /** The first white-space position at or after `k`, or the end. */
  function SpaceFrom(t: string, k: nat): (r: nat)
    requires k <= |t|
    ensures k <= r <= |t| && (r < |t| ==> IsSpace(t[r]))
    ensures forall j :: k <= j < r ==> !IsSpace(t[j])
    decreases |t| - k
  {
    if k == |t| || IsSpace(t[k]) then k else SpaceFrom(t, k + 1)
  }

  /** A token of `str.split()`: not empty and free of white space. */
  predicate Word(w: string)
  {
    w != [] && forall i :: 0 <= i < |w| ==> !IsSpace(w[i])
  }

  /** `s.split()` with no separator: the maximal runs of non-white-space, in order. */
  function SplitWords(s: string): (ws: seq<string>)
    decreases |s|
  {
    var t := LStrip(s);
    if t == [] then []
    else
      var k := SpaceFrom(t, 0);
      [t[..k]] + SplitWords(t[k..])
  }

  /** Every piece `str.split()` returns is a word. */
  lemma {:induction false} SplitWordsAreWords(s: string)
    ensures AllWords(SplitWords(s))
    decreases |s|
  {
    var t := LStrip(s);
    if t != [] {
      var k := SpaceFrom(t, 0);
      FirstWord(t);
      SplitWordsAreWords(t[k..]);
      WordsCons(t[..k], SplitWords(t[k..]));
    }
  }

  /** Every element is a word. */
  predicate AllWords(ws: seq<string>)
  {
    forall i :: 0 <= i < |ws| ==> Word(ws[i])
  }

  /** Text that starts with a non-space character starts with a word. */
  lemma FirstWord(t: string)
    requires t != [] && !IsSpace(t[0])
    ensures Word(t[..SpaceFrom(t, 0)])
  {
  }

  /** A word in front of words gives words. */
  lemma WordsCons(w: string, ws: seq<string>)
    requires Word(w) && AllWords(ws)
    ensures AllWords([w] + ws)
  {
    forall i | 0 <= i < |[w] + ws| ensures Word(([w] + ws)[i]) {
      if i > 0 { assert ([w] + ws)[i] == ws[i - 1]; }
    }
  }

  /** `' '.join(ws)`, which is empty for no words. */
  function JoinWords(ws: seq<string>): (s: string)
  {
    if ws == [] then "" else Join(ws, " ")
  }

  /** `[int(n, 0) for n in nums]`, or None when one of them raises `ValueError`. */
  function AllInts(nums: seq<string>): (r: Option<seq<int>>)
    ensures r.Some? <==> forall i :: 0 <= i < |nums| ==> ParseInt0(nums[i]).Some?
    ensures r.Some? ==> |r.value| == |nums| && forall i :: 0 <= i < |nums| ==> Some(r.value[i]) == ParseInt0(nums[i])
    decreases |nums|
  {
    if nums == [] then Some([])
    else
      match (ParseInt0(nums[0]), AllInts(nums[1..]))
      case (Some(n), Some(ns)) => Some([n] + ns)
      case _ => None
  }

  /** The content of `<…>` once the brackets are gone: a reference list stays text, one cell an integer, several cells a list. */
  function Cells(inner: string): (v: Value)
    ensures v != Flag
  {
    if Contains(inner, "&") then Str(inner)
    else
      var nums := SplitWords(inner);
      if |nums| == 1 then
        match ParseInt0(nums[0])
        case Some(n) => Int(n)
        case None => Str(nums[0])
      else
        match AllInts(nums)
        case Some(ns) => Ints(ns)
        case None => Tokens(nums)
  }

  /** The value text once stripped of white space and then of trailing `;`. */
  function Trimmed(raw: string): string
  {
    RStripChar(Strip(raw), ';')
  }

  /**
    `parse_property_value`: `<&x>` gives the text after `<&`, `<…>` its
    cells, a quoted string its content, nothing at all `True`, and any
    other text itself.
   */
  function ParsePropertyValue(raw: string): (v: Value)
    ensures v == Flag <==> Trimmed(raw) == []
    ensures (v.Int? || v.Ints? || v.Tokens?) ==> StartsWith(Trimmed(raw), "<") && EndsWith(Trimmed(raw), ">")
  {
    var value := Trimmed(raw);
    if StartsWith(value, "<&") then Str(Inner(value, 2))
    else if StartsWith(value, "<") && EndsWith(value, ">") then Cells(Strip(Inner(value, 1)))
    else if StartsWith(value, "\"") && EndsWith(value, "\"") then Str(Inner(value, 1))
    else if value == [] then Flag
    else Str(value)
  }

  /** Text that starts and ends with a character other than white space and ends with something other than `;` is its own trimmed form. */
  lemma TrimmedFixed(s: string)
    requires s != [] && !IsSpace(s[0]) && !IsSpace(s[|s| - 1]) && s[|s| - 1] != ';'
    ensures Trimmed(s) == s
  {
    StripFixed(s);
  }

  /** A reference `<&x>` reads back as `x`. */
  lemma PhandleValue(x: string)
    ensures ParsePropertyValue("<&" + x + ">") == Str(x)
  {
    var s := "<&" + x + ">";
    TrimmedFixed(s);
    assert StartsWith(s, "<&");
    assert Inner(s, 2) == x;
  }

  /** A reference list `<&a &b>` is not split: it comes back as the single string `a &b`. */
  lemma ReferenceListUnparsed(a: string, b: string)
    ensures ParsePropertyValue("<&" + a + " &" + b + ">") == Str(a + " &" + b)
  {
    assert "<&" + a + " &" + b + ">" == "<&" + (a + " &" + b) + ">";
    PhandleValue(a + " &" + b);
  }

  /** A quoted string reads back as its content, whatever that content is. */
  lemma QuotedValue(s: string)
    ensures ParsePropertyValue("\"" + s + "\"") == Str(s)
  {
    var q := "\"" + s + "\"";
    TrimmedFixed(q);
    assert !StartsWith(q, "<");
    assert StartsWith(q, "\"") && EndsWith(q, "\"");
    assert Inner(q, 1) == s;
  }

  /** Every character of `sep.join(ws)` satisfies `p` when those of the words and the separator do. */
  lemma {:induction false} JoinAll(ws: seq<string>, sep: string, p: char -> bool)
    requires |ws| >= 1
    requires forall i, j :: 0 <= i < |ws| && 0 <= j < |ws[i]| ==> p(ws[i][j])
    requires forall j :: 0 <= j < |sep| ==> p(sep[j])
    ensures forall j :: 0 <= j < |Join(ws, sep)| ==> p(Join(ws, sep)[j])
    decreases |ws|
  {
    if |ws| > 1 {
      JoinAll(ws[1..], sep, p);
      var rest := Join(ws[1..], sep);
      var s := ws[0] + sep + rest;
      forall j | 0 <= j < |s| ensures p(s[j]) {
        if j < |ws[0]| { assert s[j] == ws[0][j]; }
        else if j < |ws[0]| + |sep| { assert s[j] == sep[j - |ws[0]|]; }
        else { assert s[j] == rest[j - |ws[0]| - |sep|]; }
      }
    }
  }

  /** Stripping leading white space from white space followed by a word leaves the rest. */
  lemma {:induction false} LStripSpaces(sp: string, x: string)
    requires forall i :: 0 <= i < |sp| ==> IsSpace(sp[i])
    requires x == [] || !IsSpace(x[0])
    ensures LStrip(sp + x) == x
    decreases |sp|
  {
    if sp != [] {
      assert (sp + x)[1..] == sp[1..] + x;
      LStripSpaces(sp[1..], x);
    } else {
      assert sp + x == x;
    }
  }

  /** The search for white space stops at the first one. */
  lemma {:induction false} SpaceFromIs(t: string, k: nat, e: nat)
    requires k <= e <= |t| && (e < |t| ==> IsSpace(t[e]))
    requires forall j :: k <= j < e ==> !IsSpace(t[j])
    ensures SpaceFrom(t, k) == e
    decreases e - k
  {
    if k < e {
      SpaceFromIs(t, k + 1, e);
    }
  }

  /** A word followed by nothing or by white space is split off first. */
  lemma SplitFirstWord(w: string, rest: string)
    requires Word(w) && (rest == [] || IsSpace(rest[0]))
    ensures SplitWords(w + rest) == [w] + SplitWords(rest)
  {
    var t := w + rest;
    LStripSpaces([], t);
    assert [] + t == t;
    assert forall j :: 0 <= j < |w| ==> t[j] == w[j];
    assert |w| < |t| ==> t[|w|] == rest[0];
    SpaceFromIs(t, 0, |w|);
    assert t[..|w|] == w && t[|w|..] == rest;
  }

  /** A leading space does not change the split. */
  lemma SplitAfterSpace(rest: string)
    ensures SplitWords(" " + rest) == SplitWords(rest)
  {
    assert (" " + rest)[1..] == rest;
    assert LStrip(" " + rest) == LStrip(rest);
  }

  /** A non-empty sequence is its head followed by its tail. */
  lemma HeadTail<T>(s: seq<T>)
    requires s != []
    ensures [s[0]] + s[1..] == s
  {
  }

  /** A sequence is what precedes position `k`, the element there, and what follows. */
  lemma PickOut<T>(s: seq<T>, k: nat)
    requires k < |s|
    ensures s == s[..k] + ([s[k]] + s[k + 1..])
  {
  }

  /** Text written in five pieces is its first piece followed by the other four. */
  lemma Regroup<T>(a: seq<T>, p: seq<T>, c: seq<T>, q: seq<T>, b: seq<T>)
    ensures a + p + c + q + b == a + (p + c + q + b)
  {
  }

  /** `' '.join(ws).split()` gives the words back. */
  lemma {:induction false} SplitJoinWords(ws: seq<string>)
    requires AllWords(ws)
    ensures SplitWords(JoinWords(ws)) == ws
    decreases |ws|
  {
    if |ws| == 1 {
      SplitJoinOne(ws);
    } else if |ws| > 1 {
      SplitJoinWords(ws[1..]);
      SplitJoinStep(ws);
    }
  }

  /** One word splits back to itself. */
  lemma SplitJoinOne(ws: seq<string>)
    requires |ws| == 1 && Word(ws[0])
    ensures SplitWords(JoinWords(ws)) == ws
  {
    assert JoinWords(ws) == ws[0] + [];
    SplitFirstWord(ws[0], []);
    HeadTail(ws);
  }

  /** The step of the round trip: the first word comes off, then the rest splits as before. */
  lemma SplitJoinStep(ws: seq<string>)
    requires |ws| > 1 && Word(ws[0])
    requires SplitWords(JoinWords(ws[1..])) == ws[1..]
    ensures SplitWords(JoinWords(ws)) == ws
  {
    var rest := JoinWords(ws[1..]);
    JoinWordsCons(ws);
    SplitFirstWord(ws[0], " " + rest);
    SplitAfterSpace(rest);
    HeadTail(ws);
  }

  /** Joining two or more words puts a space after the first. */
  lemma JoinWordsCons(ws: seq<string>)
    requires |ws| > 1
    ensures JoinWords(ws) == ws[0] + (" " + JoinWords(ws[1..]))
  {
  }

  /** Text without `&` contains no reference. */
  lemma NoAmpersand(s: string)
    requires forall i :: 0 <= i < |s| ==> s[i] != '&'
    ensures !Contains(s, "&")
  {
    forall i | 0 <= i <= |s| ensures !At(s, i, "&") {
      if i < |s| {
        assert s[i..i + 1] == [s[i]];
      }
    }
  }

  /** The characters of `str(n)`: an optional minus sign, then decimal digits. */
  lemma DecimalChars(n: int)
    ensures forall i :: 0 <= i < |Decimal(n)| ==> Decimal(n)[i] == '-' || IsDigit(Decimal(n)[i])
    ensures Word(Decimal(n))
  {
    var m: nat := if n < 0 then -n else n;
    var d := Digits(m, 10, false);
    DigitsWritten(m, 10, false);
    assert forall i :: 0 <= i < |d| ==> IsDigit(d[i]) by {
      forall i | 0 <= i < |d| ensures IsDigit(d[i]) {
        assert InBase(d[i], 10);
      }
    }
    if n < 0 {
      assert Decimal(n) == "-" + d;
      forall i | 1 <= i < |Decimal(n)| ensures IsDigit(Decimal(n)[i]) {
        assert Decimal(n)[i] == d[i - 1];
      }
    }
  }

  /** Bracketed text that holds no reference and needs no stripping is read as its cells. */
  lemma CellsText(j: string)
    requires j == [] || (!IsSpace(j[0]) && !IsSpace(j[|j| - 1]))
    requires !Contains(j, "&")
    ensures ParsePropertyValue("<" + j + ">") == Cells(j)
  {
    var s := "<" + j + ">";
    TrimmedFixed(s);
    assert !StartsWith(s, "<&") by {
      if j != [] {
        assert s[1] == j[0];
        assert j[0..1] == [j[0]];
        assert !At(j, 0, "&");
      } else {
        assert s == "<>";
      }
    }
    assert StartsWith(s, "<") && EndsWith(s, ">");
    assert Inner(s, 1) == j;
    StripFixed(j);
  }

  /** `<n>` with `n` written in decimal reads back as the integer `n`. */
  lemma CellValue(n: int)
    ensures ParsePropertyValue("<" + Decimal(n) + ">") == Int(n)
  {
    var d := Decimal(n);
    DecimalChars(n);
    NoAmpersand(d);
    CellsText(d);
    CellOfDecimal(n);
  }

  /** The cells of one written integer are that integer. */
  lemma CellOfDecimal(n: int)
    ensures Cells(Decimal(n)) == Int(n)
  {
    var d := Decimal(n);
    DecimalChars(n);
    NoAmpersand(d);
    assert JoinWords([d]) == d;
    SplitJoinWords([d]);
    DecimalRoundTrip(n);
  }

  /** The words of several decimal cells, as `' '.join` writes a list. */
  function DecimalWords(ns: seq<int>): (ws: seq<string>)
    ensures |ws| == |ns| && forall i :: 0 <= i < |ns| ==> ws[i] == Decimal(ns[i])
  {
    seq(|ns|, i requires 0 <= i < |ns| => Decimal(ns[i]))
  }

  /** A character of a decimal list. */
  predicate DecimalListChar(c: char)
  {
    c == '-' || c == ' ' || IsDigit(c)
  }

  /** The text of a decimal list: words of digits and minus signs, no reference, nothing to strip. */
  lemma DecimalListText(ns: seq<int>)
    ensures AllWords(DecimalWords(ns))
    ensures !Contains(JoinWords(DecimalWords(ns)), "&")
    ensures var j := JoinWords(DecimalWords(ns)); j == [] || (!IsSpace(j[0]) && !IsSpace(j[|j| - 1]))
  {
    var ws := DecimalWords(ns);
    var j := JoinWords(ws);
    forall i | 0 <= i < |ns| ensures Word(ws[i]) && forall k :: 0 <= k < |ws[i]| ==> DecimalListChar(ws[i][k]) {
      DecimalChars(ns[i]);
    }
    if ns != [] {
      JoinAll(ws, " ", DecimalListChar);
      assert j[0] == ws[0][0];
      LastWord(ws);
      var last := ws[|ws| - 1];
      assert j[|j| - 1] == last[|last| - 1];
    }
    assert forall i :: 0 <= i < |j| ==> DecimalListChar(j[i]);
    NoAmpersand(j);
  }

  /** Decimal words all read back as their integers. */
  lemma DecimalsParse(ns: seq<int>)
    ensures AllInts(DecimalWords(ns)) == Some(ns)
  {
    var ws := DecimalWords(ns);
    forall i | 0 <= i < |ws| ensures ParseInt0(ws[i]) == Some(ns[i]) {
      DecimalRoundTrip(ns[i]);
    }
    AllIntsOf(ws, ns);
  }

  /** The cells of a written decimal list, of any length but one, are that list. */
  lemma CellsOfDecimals(ns: seq<int>)
    requires |ns| != 1
    ensures Cells(JoinWords(DecimalWords(ns))) == Ints(ns)
  {
    DecimalListText(ns);
    SplitJoinWords(DecimalWords(ns));
    DecimalsParse(ns);
  }

  /** `<a b c>` — any number of cells but one — reads back as the list of integers. */
  lemma CellsValue(ns: seq<int>)
    requires |ns| != 1
    ensures ParsePropertyValue("<" + JoinWords(DecimalWords(ns)) + ">") == Ints(ns)
  {
    DecimalListText(ns);
    CellsText(JoinWords(DecimalWords(ns)));
    CellsOfDecimals(ns);
  }

  /** `' '.join(ws)` ends with the last word. */
  lemma {:induction false} LastWord(ws: seq<string>)
    requires |ws| >= 1
    ensures EndsWith(JoinWords(ws), ws[|ws| - 1])
    decreases |ws|
  {
    if |ws| > 1 {
      LastWord(ws[1..]);
      var rest := Join(ws[1..], " ");
      assert JoinWords(ws) == ws[0] + " " + rest;
      assert ws[1..][|ws[1..]| - 1] == ws[|ws| - 1];
    }
  }

  /** Reading integers that all parse gives them in order. */
  lemma {:induction false} AllIntsOf(nums: seq<string>, ns: seq<int>)
    requires |nums| == |ns| && forall i :: 0 <= i < |nums| ==> ParseInt0(nums[i]) == Some(ns[i])
    ensures AllInts(nums) == Some(ns)
    decreases |nums|
  {
    if nums != [] {
      AllIntsOf(nums[1..], ns[1..]);
      HeadTail(ns);
    }
  }

  // ---------------------------------------------------------------------
  // Comments
  // ---------------------------------------------------------------------

  /**
    `re.sub(r'//.*?\n', '\n', s)`: every `//` up to the end of its line
    becomes a bare line break. A `//` with no line break after it is left
    in place, as the pattern needs the line break to match.
   */
  function LineComments(s: string): (r: string)
    ensures |r| <= |s|
    decreases |s|
  {
    if |s| >= 2 && s[..2] == "//" then
      match FindFrom(s, "\n", 2)
      case Some(k) => "\n" + LineComments(s[k + 1..])
      case None => s
    else if s == [] then s
    else [s[0]] + LineComments(s[1..])
  }

  /** The number of line breaks in a text. */
  function Breaks(s: string): (n: nat)
    ensures n <= |s|
    ensures n == 0 <==> forall i :: 0 <= i < |s| ==> s[i] != '\n'
    decreases |s|
  {
    if s == [] then 0 else (if s[0] == '\n' then 1 else 0) + Breaks(s[1..])
  }

  /** Line breaks add up over a concatenation. */
  lemma {:induction false} BreaksAppend(x: string, y: string)
    ensures Breaks(x + y) == Breaks(x) + Breaks(y)
    decreases |x|
  {
    if x != [] {
      assert (x + y)[0] == x[0] && (x + y)[1..] == x[1..] + y;
      BreaksAppend(x[1..], y);
    } else {
      assert x + y == y;
    }
  }

  /** Up to the first line break after a `//` there is none, so the comment holds one line break. */
  lemma CommentBreaks(s: string, k: nat)
    requires 2 <= k <= |s| && s[..2] == "//" && FindFrom(s, "\n", 2) == Some(k)
    ensures Breaks(s) == 1 + Breaks(s[k + 1..])
  {
    assert s[0] == "//"[0] && s[1] == "//"[1];
    assert s[k] == "\n"[0];
    forall j | 0 <= j < k ensures s[..k][j] != '\n' {
      if j >= 2 { assert !At(s, j, "\n"); }
    }
    PickOut(s, k);
    BreaksAppend(s[..k], [s[k]] + s[k + 1..]);
  }

  /** Removing line comments keeps every line break, so the line count stays the same. */
  lemma {:induction false} LineCommentsKeepLines(s: string)
    ensures Breaks(LineComments(s)) == Breaks(s)
    decreases |s|
  {
    if |s| >= 2 && s[..2] == "//" {
      match FindFrom(s, "\n", 2)
      case Some(k) =>
        CommentBreaks(s, k);
        LineCommentsKeepLines(s[k + 1..]);
        assert LineComments(s) == "\n" + LineComments(s[k + 1..]);
      case None =>
    } else if s != [] {
      LineCommentsKeepLines(s[1..]);
      assert LineComments(s) == [s[0]] + LineComments(s[1..]);
    }
  }

  /** The search finds `k` when `p` occurs there and nowhere between `from` and `k`. */
  lemma {:induction false} FindFromIs(t: string, p: string, from: nat, k: nat)
    requires from <= k <= |t| && At(t, k, p)
    requires forall j :: from <= j < k ==> !At(t, j, p)
    ensures FindFrom(t, p, from) == Some(k)
    decreases k - from
  {
    if from < k {
      FindFromIs(t, p, from + 1, k);
    }
  }

  /** Text without `/` holds no line comment. */
  lemma {:induction false} NoSlashLine(a: string, b: string)
    requires forall i :: 0 <= i < |a| ==> a[i] != '/'
    ensures LineComments(a + b) == a + LineComments(b)
    decreases |a|
  {
    if a != [] {
      var s := a + b;
      assert s[0] == a[0] && s[1..] == a[1..] + b;
      assert !(|s| >= 2 && s[..2] == "//") by {
        if |s| >= 2 { assert s[..2][0] == s[0]; }
      }
      assert LineComments(s) == [s[0]] + LineComments(s[1..]);
      NoSlashLine(a[1..], b);
      var x := LineComments(b);
      assert [a[0]] + (a[1..] + x) == ([a[0]] + a[1..]) + x;
      assert [a[0]] + a[1..] == a;
    } else {
      assert a + b == b;
    }
  }

  /** A leading line comment up to its line break becomes that line break. */
  lemma LineCommentFirst(c: string, b: string)
    requires forall i :: 0 <= i < |c| ==> c[i] != '\n'
    ensures LineComments("//" + c + "\n" + b) == "\n" + LineComments(b)
  {
    var t := "//" + c + "\n" + b;
    var k := 2 + |c|;
    assert t[k..k + 1] == "\n";
    forall j | 2 <= j < k ensures !At(t, j, "\n") {
      assert t[j..j + 1] == [c[j - 2]];
    }
    FindFromIs(t, "\n", 2, k);
    assert t[..2] == "//";
    assert t[k + 1..] == b;
  }

  /** A line comment up to its line break is replaced by the line break; what precedes it is kept. */
  lemma LineCommentRemoved(a: string, c: string, b: string)
    requires forall i :: 0 <= i < |a| ==> a[i] != '/'
    requires forall i :: 0 <= i < |c| ==> c[i] != '\n'
    ensures LineComments(a + "//" + c + "\n" + b) == a + "\n" + LineComments(b)
  {
    Regroup(a, "//", c, "\n", b);
    NoSlashLine(a, "//" + c + "\n" + b);
    LineCommentFirst(c, b);
  }

  // The block-comment substitution of `simple_dts_parser`, with
  // `re.DOTALL`: every comment opener up to the first closer after it is
  // removed, across line breaks. An unterminated opener is left in place.
  function BlockComments(s: string): (r: string)
    ensures |r| <= |s|
    decreases |s|
  {
    if |s| >= 2 && s[..2] == "/*" then
      match FindFrom(s, "*/", 2)
      case Some(k) => BlockComments(s[k + 2..])
      case None => s
    else if s == [] then s
    else [s[0]] + BlockComments(s[1..])
  }

  /** Text without `/` holds no block comment. */
  lemma {:induction false} NoSlashBlock(a: string, b: string)
    requires forall i :: 0 <= i < |a| ==> a[i] != '/'
    ensures BlockComments(a + b) == a + BlockComments(b)
    decreases |a|
  {
    if a != [] {
      var s := a + b;
      assert s[0] == a[0] && s[1..] == a[1..] + b;
      assert !(|s| >= 2 && s[..2] == "/*") by {
        if |s| >= 2 { assert s[..2][0] == s[0]; }
      }
      assert BlockComments(s) == [s[0]] + BlockComments(s[1..]);
      NoSlashBlock(a[1..], b);
      var x := BlockComments(b);
      assert [a[0]] + (a[1..] + x) == ([a[0]] + a[1..]) + x;
      assert [a[0]] + a[1..] == a;
    } else {
      assert a + b == b;
    }
  }

  /** A leading block comment is removed with its delimiters. */
  lemma BlockCommentFirst(c: string, b: string)
    requires !Contains(c, "*/")
    ensures BlockComments("/*" + c + "*/" + b) == BlockComments(b)
  {
    var t := "/*" + c + "*/" + b;
    var k := 2 + |c|;
    assert t[k..k + 2] == "*/";
    forall j | 2 <= j < k ensures !At(t, j, "*/") {
      NoCloserInside(c, b, j);
    }
    FindFromIs(t, "*/", 2, k);
    assert t[..2] == "/*";
    assert t[k + 2..] == b;
  }

  /** No closer starts inside a comment body that holds none, nor on its last character. */
  lemma NoCloserInside(c: string, b: string, j: nat)
    requires !Contains(c, "*/") && 2 <= j < 2 + |c|
    ensures !At("/*" + c + "*/" + b, j, "*/")
  {
    var t := "/*" + c + "*/" + b;
    if j + 2 <= 2 + |c| {
      assert t[j..j + 2] == c[j - 2..j];
      assert !At(c, j - 2, "*/");
    } else {
      assert t[j..j + 2][1] == t[j + 1] == '*';
    }
  }

  /** A block comment is removed with its delimiters; what precedes it is kept. */
  lemma BlockCommentRemoved(a: string, c: string, b: string)
    requires forall i :: 0 <= i < |a| ==> a[i] != '/'
    requires !Contains(c, "*/")
    ensures BlockComments(a + "/*" + c + "*/" + b) == a + BlockComments(b)
  {
    Regroup(a, "/*", c, "*/", b);
    NoSlashBlock(a, "/*" + c + "*/" + b);
    BlockCommentFirst(c, b);
  }

  /** The comment removal of `simple_dts_parser`: line comments first, then block comments. */
  function StripComments(s: string): (r: string)
    ensures |r| <= |s|
  {
    BlockComments(LineComments(s))
  }

  // ---------------------------------------------------------------------
  // Nodes
  // ---------------------------------------------------------------------

  /**
    One match of the node pattern `label: name@addr { … }`: the label, the
    address, the block text, the first `compatible = "…"` string in the
    block, and the `name = value;` pairs of the property pattern in order.
   */
  datatype RawNode = RawNode(nodeLabel: string, address: Option<string>, content: string,
                             compatible: Option<string>, props: seq<(string, string)>)

  /** `DTSNode` after parsing. */
  datatype Node = Node(nodeLabel: string, compatible: string, address: Option<string>, properties: map<string, Value>)

  /** `name.replace('-', '_')`. */
  function Underscored(name: string): (r: string)
    ensures |r| == |name|
    ensures forall i :: 0 <= i < |name| ==> r[i] == (if name[i] == '-' then '_' else name[i])
  {
    seq(|name|, i requires 0 <= i < |name| => if name[i] == '-' then '_' else name[i])
  }

  /** Some pair is named `k` once its dashes are underscores. */
  predicate Names(props: seq<(string, string)>, k: string)
  {
    exists i :: 0 <= i < |props| && Underscored(props[i].0) == k
  }

  /** The property dictionary: each pair assigned in turn, so a later pair of the same name wins. */
  function Properties(props: seq<(string, string)>): (m: map<string, Value>)
    ensures forall k :: k in m <==> Names(props, k)
    decreases |props|
  {
    if props == [] then map[]
    else
      var init, last := props[..|props| - 1], props[|props| - 1];
      assert forall k :: Names(props, k) <==> Names(init, k) || k == Underscored(last.0) by {
        forall k | Names(props, k) ensures Names(init, k) || k == Underscored(last.0) {
          var i :| 0 <= i < |props| && Underscored(props[i].0) == k;
          if i < |init| { assert init[i] == props[i]; }
        }
        forall k | Names(init, k) ensures Names(props, k) {
          var i :| 0 <= i < |init| && Underscored(init[i].0) == k;
          assert props[i] == init[i];
        }
      }
      Properties(init)[Underscored(last.0) := ParsePropertyValue(last.1)]
  }

  /** A property's value is the one parsed from the last pair of that name. */
  lemma {:induction false} LastPairWins(props: seq<(string, string)>, i: nat)
    requires i < |props|
    requires forall j :: i < j < |props| ==> Underscored(props[j].0) != Underscored(props[i].0)
    ensures Properties(props)[Underscored(props[i].0)] == ParsePropertyValue(props[i].1)
    decreases |props|
  {
    if i < |props| - 1 {
      var init := props[..|props| - 1];
      assert init[i] == props[i];
      LastPairWins(init, i);
      assert Underscored(props[|props| - 1].0) != Underscored(props[i].0);
    }
  }

  /**
    One node of `simple_dts_parser`: none without a `compatible`; the
    properties with dashes turned into underscores; and the flag `signed`
    set whenever the block text contains `signed` anywhere.
   */
  function ParseNode(raw: RawNode): (r: Option<Node>)
    ensures r.None? <==> raw.compatible.None?
    ensures r.Some? ==> r.value.nodeLabel == raw.nodeLabel && r.value.address == raw.address
                        && Some(r.value.compatible) == raw.compatible
    ensures r.Some? ==> forall k :: k != "signed" ==> (k in r.value.properties <==> Names(raw.props, k))
    ensures r.Some? ==> ("signed" in r.value.properties <==> Names(raw.props, "signed") || Contains(raw.content, "signed"))
  {
    match raw.compatible
    case None => None
    case Some(c) =>
      var ps := Properties(raw.props);
      var ps' := if Contains(raw.content, "signed") && "signed" !in ps then ps["signed" := Flag] else ps;
      Some(Node(raw.nodeLabel, c, raw.address, ps'))
  }

  /** The substring test also fires on `unsigned`: a node whose text says `unsigned` is flagged `signed`. */
  lemma UnsignedSetsSigned(raw: RawNode)
    requires raw.compatible.Some? && Contains(raw.content, "unsigned") && !Names(raw.props, "signed")
    ensures var r := ParseNode(raw).value; "signed" in r.properties && r.properties["signed"] == Flag
  {
    var i :| 0 <= i <= |raw.content| && At(raw.content, i, "unsigned");
    assert raw.content[i + 2..i + 8] == "unsigned"[2..];
    assert At(raw.content, i + 2, "signed");
  }

  /** `simple_dts_parser`: the nodes that have a `compatible`, in order. */
  function SimpleDtsParser(raws: seq<RawNode>): (nodes: seq<Node>)
    ensures |nodes| <= |raws|
    ensures forall n :: n in nodes ==> exists i :: 0 <= i < |raws| && ParseNode(raws[i]) == Some(n)
    ensures forall i :: 0 <= i < |raws| && raws[i].compatible.Some? ==> ParseNode(raws[i]).value in nodes
    decreases |raws|
  {
    if raws == [] then []
    else
      var rest := SimpleDtsParser(raws[1..]);
      assert forall i :: 1 <= i < |raws| ==> raws[i] == raws[1..][i - 1];
      match ParseNode(raws[0])
      case Some(n) => [n] + rest
      case None => rest
  }

  // ---------------------------------------------------------------------
  // generate_source
  // ---------------------------------------------------------------------

  /** The categories of `generate_source`; any other compatible is ignored. */
  datatype Kind = EngineNode | HwInput | Merge | CyclicOutput | Ignored

  function KindOf(compatible: string): (k: Kind)
    ensures k == HwInput <==> compatible != "lq,engine" && StartsWith(compatible, "lq,hw-")
    ensures k == EngineNode <==> compatible == "lq,engine"
    ensures k == Merge <==> compatible == "lq,mid-merge"
    ensures k == CyclicOutput <==> compatible == "lq,cyclic-output"
  {
    assert !StartsWith("lq,mid-merge", "lq,hw-") by { assert "lq,mid-merge"[3] != "lq,hw-"[3]; }
    assert !StartsWith("lq,cyclic-output", "lq,hw-") by { assert "lq,cyclic-output"[3] != "lq,hw-"[3]; }
    if compatible == "lq,engine" then EngineNode
    else if StartsWith(compatible, "lq,hw-") then HwInput
    else if compatible == "lq,mid-merge" then Merge
    else if compatible == "lq,cyclic-output" then CyclicOutput
    else Ignored
  }

  /** How many nodes fall into a category. */
  function CountKind(nodes: seq<Node>, k: Kind): nat
    decreases |nodes|
  {
    if nodes == [] then 0
    else CountKind(nodes[..|nodes| - 1], k) + (if KindOf(nodes[|nodes| - 1].compatible) == k then 1 else 0)
  }

  /** The last engine node, which is the one the categorising loop keeps. */
  function LastEngine(nodes: seq<Node>): (e: Option<Node>)
    ensures e.Some? ==> e.value in nodes && KindOf(e.value.compatible) == EngineNode
    ensures e.None? ==> forall n :: n in nodes ==> KindOf(n.compatible) != EngineNode
    decreases |nodes|
  {
    if nodes == [] then None
    else if KindOf(nodes[|nodes| - 1].compatible) == EngineNode then Some(nodes[|nodes| - 1])
    else
      assert forall n :: n in nodes ==> n in nodes[..|nodes| - 1] || n == nodes[|nodes| - 1];
      LastEngine(nodes[..|nodes| - 1])
  }

  datatype Categories = Categories(engine: Option<Node>, hwInputs: seq<Node>, merges: seq<Node>, cyclicOutputs: seq<Node>)

  /** The nodes of one category, in order. */
  function OfKind(nodes: seq<Node>, k: Kind): (r: seq<Node>)
    ensures |r| == CountKind(nodes, k)
    ensures forall n :: n in r <==> n in nodes && KindOf(n.compatible) == k
    decreases |nodes|
  {
    if nodes == [] then []
    else
      var init, last := nodes[..|nodes| - 1], nodes[|nodes| - 1];
      assert forall n :: n in nodes <==> n in init || n == last;
      OfKind(init, k) + (if KindOf(last.compatible) == k then [last] else [])
  }

  /** The categorising loop of `generate_source`. */
  function Categorize(nodes: seq<Node>): (c: Categories)
    ensures c.engine == LastEngine(nodes)
    ensures |c.hwInputs| == CountKind(nodes, HwInput) && |c.merges| == CountKind(nodes, Merge)
    ensures |c.cyclicOutputs| == CountKind(nodes, CyclicOutput)
    ensures forall n :: n in c.hwInputs <==> n in nodes && KindOf(n.compatible) == HwInput
    ensures forall n :: n in c.merges <==> n in nodes && n.compatible == "lq,mid-merge"
    ensures forall n :: n in c.cyclicOutputs <==> n in nodes && n.compatible == "lq,cyclic-output"
  {
    Categories(LastEngine(nodes), OfKind(nodes, HwInput), OfKind(nodes, Merge), OfKind(nodes, CyclicOutput))
  }

  /** Every node has exactly one category. */
  lemma {:induction false} KindsPartition(nodes: seq<Node>)
    ensures CountKind(nodes, EngineNode) + CountKind(nodes, HwInput) + CountKind(nodes, Merge)
            + CountKind(nodes, CyclicOutput) + CountKind(nodes, Ignored) == |nodes|
    decreases |nodes|
  {
    if nodes != [] {
      KindsPartition(nodes[..|nodes| - 1]);
    }
  }

  /** The counts written into `g_lq_engine`. */
  datatype EngineCounts = EngineCounts(numSignals: Value, numMerges: nat, numCyclicOutputs: nat)

  /** `max_signals` of the engine node, or 32 without an engine node or without that property. */
  function SignalCount(engine: Option<Node>): (v: Value)
    ensures engine.None? ==> v == Int(32)
    ensures engine.Some? && "max_signals" !in engine.value.properties ==> v == Int(32)
    ensures engine.Some? && "max_signals" in engine.value.properties ==> v == engine.value.properties["max_signals"]
  {
    match engine
    case None => Int(32)
    case Some(e) => if "max_signals" in e.properties then e.properties["max_signals"] else Int(32)
  }

  /** The engine instance's counts: the merge and cyclic-output totals of the device tree, and the signal count. */
  function Counts(nodes: seq<Node>): (e: EngineCounts)
    ensures e.numMerges == CountKind(nodes, Merge) && e.numCyclicOutputs == CountKind(nodes, CyclicOutput)
    ensures e.numSignals == SignalCount(LastEngine(nodes))
  {
    var c := Categorize(nodes);
    EngineCounts(SignalCount(c.engine), |c.merges|, |c.cyclicOutputs|)
  }

  /** One generated ISR: `lq_hw_push(signal_id, …)` for an ADC or an SPI input. */
  datatype Isr = AdcIsr(nodeLabel: string, signalId: Value) | SpiIsr(nodeLabel: string, signalId: Value)

  /** `signal_id`, or 0 when absent: no id is assigned automatically. */
  function SignalIdOf(n: Node): (v: Value)
    ensures "signal_id" !in n.properties ==> v == Int(0)
    ensures "signal_id" in n.properties ==> v == n.properties["signal_id"]
  {
    if "signal_id" in n.properties then n.properties["signal_id"] else Int(0)
  }

  /** The ISR of one hardware input: ADC and SPI inputs have one, other hardware inputs none. */
  function IsrFor(n: Node): (r: Option<Isr>)
    ensures r.Some? <==> n.compatible == "lq,hw-adc-input" || n.compatible == "lq,hw-spi-input"
    ensures r.Some? ==> r.value.nodeLabel == n.nodeLabel && r.value.signalId == SignalIdOf(n)
    ensures r.Some? ==> (r.value.AdcIsr? <==> n.compatible == "lq,hw-adc-input")
  {
    if n.compatible == "lq,hw-adc-input" then Some(AdcIsr(n.nodeLabel, SignalIdOf(n)))
    else if n.compatible == "lq,hw-spi-input" then Some(SpiIsr(n.nodeLabel, SignalIdOf(n)))
    else None
  }

  /** The ISRs of `generate_source`, one per ADC or SPI input, in device-tree order. */
  function Isrs(hw: seq<Node>): (r: seq<Isr>)
    ensures |r| <= |hw|
    ensures forall isr :: isr in r ==> exists n :: n in hw && IsrFor(n) == Some(isr)
    ensures forall n :: n in hw && IsrFor(n).Some? ==> IsrFor(n).value in r
    decreases |hw|
  {
    if hw == [] then []
    else
      var rest := Isrs(hw[1..]);
      assert forall n :: n in hw <==> n == hw[0] || n in hw[1..];
      match IsrFor(hw[0])
      case Some(isr) => [isr] + rest
      case None => rest
  }
}

=== FILE: eds.dfy ===
/**
  The CANopen EDS/DCF importer (`scripts/canopen_eds_parser.py`): the
  object dictionary read from an INI-style electronic data sheet (CiA 306),
  the TPDO/RPDO mapping records decoded from objects 0x1A00-0x1A03 and
  0x1600-0x1603, and what the three generators derive from them — the
  device-tree PDO nodes with their COB-IDs and signal ids, the signal
  header, and the summary `parse_eds_file` hands to code generation.

  `configparser` has already read the file: a section is its header and
  its options, with option names lower-cased and values stripped as
  `configparser` stores them. A Python exception that escapes `parse_eds`
  is `None`.
 */
module Eds {
  import opened Wrappers
  import opened Text
  import CInt
  import CanOpen

  // ---------------------------------------------------------------------
  // Sections and objects
  // ---------------------------------------------------------------------

  datatype Section = Section(name: string, options: map<string, string>)

  /** `section.get(key)`. */
  function Get(s: Section, key: string): Option<string>
  {
    if key in s.options then Some(s.options[key]) else None
  }

  /** `section.get(key, default)`. */
  function GetOr(s: Section, key: string, default: string): string
  {
    Get(s, key).GetOr(default)
  }

  datatype SubObject = SubObject(name: string, dataType: int, bitLength: int, defaultValue: Option<string>)

  datatype Object = Object(name: string, objectType: int, dataType: int, defaultValue: Option<string>,
                           subs: map<int, SubObject>)

  /** One packed PDO mapping: object index, subindex, length in bits, and the name it resolved to. */
  datatype Mapping = Mapping(index: int, subindex: int, length: int, name: string)

  /** The identity read from the `[DeviceInfo]` section. */
  datatype Identity = Identity(vendorName: string, productName: string, vendorId: int, productCode: int)

  /** The parsed device: its identity, its object dictionary and the mappings of the four TPDOs and four RPDOs. */
  datatype Device = Device(identity: Identity, objects: map<int, Object>, tpdo: seq<seq<Mapping>>, rpdo: seq<seq<Mapping>>)

  const PDO_SLOTS: int := 4
  const MAX_MAPPED: int := 8
  const TPDO_MAPPING: int := 0x1A00
  const RPDO_MAPPING: int := 0x1600

  /** The mapping objects of slots 0..3 lie at 0x1A00.. and 0x1600..; what they decode to never exceeds 8 records a slot. */
  predicate Valid(d: Device)
  {
    |d.tpdo| == PDO_SLOTS && |d.rpdo| == PDO_SLOTS
    && (forall k :: 0 <= k < PDO_SLOTS ==> |d.tpdo[k]| <= MAX_MAPPED)
    && (forall k :: 0 <= k < PDO_SLOTS ==> |d.rpdo[k]| <= MAX_MAPPED)
  }

  /** The characters `'0123456789abcdef'` only (an empty string qualifies, as Python's `all` of nothing is true). */
  predicate LowerHex(t: string)
  {
    forall i :: 0 <= i < |t| ==> IsLowerHexDigit(t[i])
  }

  /** `str.isdigit`. */
  predicate AllDigits(t: string)
  {
    t != [] && forall i :: 0 <= i < |t| ==> IsDigit(t[i])
  }

  /** The section with header `name`, if any (`configparser` refuses a file that repeats a header). */
  function FindSection(secs: seq<Section>, name: string): (r: Option<Section>)
    ensures r.Some? ==> r.value in secs && r.value.name == name
    ensures r.None? ==> forall i :: 0 <= i < |secs| ==> secs[i].name != name
    decreases |secs|
  {
    if secs == [] then None
    else if secs[0].name == name then Some(secs[0])
    else FindSection(secs[1..], name)
  }

  /**
    The `[DeviceInfo]` section: names default to empty, and VendorNumber
    and ProductNumber are read with `int(x, 0)` (default "0"), either of
    which raises on a malformed value. Without the section every field
    keeps its default.
   */
  function ParseIdentity(secs: seq<Section>): (r: Option<Identity>)
    ensures FindSection(secs, "DeviceInfo").None? ==> r == Some(Identity("", "", 0, 0))
    ensures FindSection(secs, "DeviceInfo").Some? ==> var s := FindSection(secs, "DeviceInfo").value;
      && (r.Some? <==> ParseInt0(GetOr(s, "vendornumber", "0")).Some? && ParseInt0(GetOr(s, "productnumber", "0")).Some?)
      && (r.Some? ==> r.value.vendorName == GetOr(s, "vendorname", "") && r.value.productName == GetOr(s, "productname", ""))
  {
    match FindSection(secs, "DeviceInfo")
    case None => Some(Identity("", "", 0, 0))
    case Some(s) =>
      var vendor := ParseInt0(GetOr(s, "vendornumber", "0"));
      var product := ParseInt0(GetOr(s, "productnumber", "0"));
      if vendor.None? || product.None? then None
      else Some(Identity(GetOr(s, "vendorname", ""), GetOr(s, "productname", ""), vendor.value, product.value))
  }

  /**
    The first pass's reading of a section header: an object index for a
    header without "sub" that is "0x"-prefixed or at most four plain hex
    digits, None for every header it skips. The `ValueError` of a malformed
    number is caught here and skips the section too.
   */
  function ObjectIndex(name: string): (r: Option<int>)
    ensures Contains(Lower(name), "sub") ==> r.None?
    ensures r.Some? ==> StartsWith(Lower(name), "0x") || (1 <= |name| <= 4 && LowerHex(Lower(name)))
  {
    var lower := Lower(name);
    if Contains(lower, "sub") then None
    else if StartsWith(lower, "0x") then ParseInt(name, 16)
    else if LowerHex(lower) && |name| <= 4 then ParseInt(name, 16)
    else None
  }

  /** f'{n:04X}': upper-case hex of at least four characters, the sign counting towards the width. */
  function Hex4(n: int): (s: string)
    ensures |s| >= 4
  {
    if n < 0 then "-" + HexField(-n, 3) else HexField(n, 4)
  }

  /** An object section's options; an unparsable ObjectType or DataType raises. */
  function NewObject(index: int, s: Section): (r: Option<Object>)
    ensures r.Some? <==> ParseInt0(GetOr(s, "objecttype", "7")).Some? && ParseInt0(GetOr(s, "datatype", "0")).Some?
    ensures r.Some? ==> r.value.subs == map[] && r.value.defaultValue == Get(s, "defaultvalue")
  {
    var objectType := ParseInt0(GetOr(s, "objecttype", "7"));
    var dataType := ParseInt0(GetOr(s, "datatype", "0"));
    if objectType.None? || dataType.None? then None
    else Some(Object(GetOr(s, "parametername", "Object_" + Hex4(index)), objectType.value, dataType.value,
                     Get(s, "defaultvalue"), map[]))
  }

  /** First pass: every object section in order, a later section for the same index replacing an earlier one. */
  function FirstPass(secs: seq<Section>, objects: map<int, Object>): (r: Option<map<int, Object>>)
    decreases |secs|
  {
    if secs == [] then Some(objects)
    else
      match ObjectIndex(secs[0].name)
      case None => FirstPass(secs[1..], objects)
      case Some(i) =>
        match NewObject(i, secs[0])
        case None => None
        case Some(o) => FirstPass(secs[1..], objects[i := o])
  }

  // ---------------------------------------------------------------------
  // Sub-object sections
  // ---------------------------------------------------------------------

  /** A number in a sub-object header: skipped, read, or the `ValueError` of `int()`. */
  datatype Num = Skip | Read(value: int) | Raise

  function OrRaise(r: Option<int>): (n: Num)
    ensures n != Skip
  {
    match r
    case None => Raise
    case Some(v) => Read(v)
  }

  /** The index part before "sub": hex with or without "0x"; the empty string passes the digit test and raises. */
  function IndexNum(t: string): Num
  {
    if StartsWith(t, "0x") then OrRaise(ParseInt(t, 16))
    else if LowerHex(t) then OrRaise(ParseInt(t, 16))
    else Skip
  }

  /** The subindex part after "sub": "0x" hex, then decimal digits, then plain hex. */
  function SubNum(t: string): Num
  {
    if StartsWith(t, "0x") then OrRaise(ParseInt(t, 16))
    else if AllDigits(t) then OrRaise(ParseInt(t, 10))
    else if LowerHex(t) then OrRaise(ParseInt(t, 16))
    else Skip
  }

  datatype SubKey = NotSub | Key(index: int, subindex: int) | Raises

  /**
    The second pass's reading of a section header. With `guarded` false
    this is the code as written, where a `ValueError` from either number
    escapes the parser; with `guarded` true such a header is skipped, as
    the first pass skips its malformed headers.
   */
  function SubSectionWith(name: string, guarded: bool): (r: SubKey)
    ensures !Contains(Lower(name), "sub") ==> r == NotSub
    ensures guarded ==> r != Raises
  {
    var lower := Lower(name);
    if !Contains(lower, "sub") then NotSub
    else
      var parts := Split(lower, "sub");
      if |parts| != 2 then NotSub
      else
        match IndexNum(Strip(parts[0]))
        case Skip => NotSub
        case Raise => if guarded then NotSub else Raises
        case Read(i) =>
          match SubNum(Strip(parts[1]))
          case Skip => NotSub
          case Raise => if guarded then NotSub else Raises
          case Read(j) => Key(i, j)
  }

  /** `get_data_type_length`: the bit length of a CiA 301 basic data type, 0 for strings and unknown codes. */
  function DataTypeLength(t: int): (bits: int)
    ensures bits in {0, 1, 8, 16, 32, 64}
    ensures bits == 1 <==> t == 0x01
    ensures bits == 64 <==> t == 0x10 || t == 0x1B
    ensures t in {0x02, 0x05} ==> bits == 8
    ensures t in {0x03, 0x06} ==> bits == 16
    ensures t in {0x04, 0x07, 0x08} ==> bits == 32
    ensures !(t in {0x01, 0x02, 0x03, 0x04, 0x05, 0x06, 0x07, 0x08, 0x10, 0x1B}) ==> bits == 0
  {
    if t == 0x01 then 1
    else if t == 0x02 || t == 0x05 then 8
    else if t == 0x03 || t == 0x06 then 16
    else if t == 0x04 || t == 0x07 || t == 0x08 then 32
    else if t == 0x10 || t == 0x1B then 64
    else 0
  }

  /** A sub-object section's options; an unparsable DataType raises. */
  function NewSub(subindex: int, s: Section): (r: Option<SubObject>)
    ensures r.Some? <==> ParseInt0(GetOr(s, "datatype", "0")).Some?
    ensures r.Some? ==> r.value.defaultValue == Get(s, "defaultvalue")
  {
    match ParseInt0(GetOr(s, "datatype", "0"))
    case None => None
    case Some(t) =>
      Some(SubObject(GetOr(s, "parametername", "SubIndex_" + Decimal(subindex)), t, DataTypeLength(t), Get(s, "defaultvalue")))
  }

  /** One section of the second pass, whose header reads as `key`: a sub-object section of a known object becomes (or replaces) that subindex. */
  function SubStep(s: Section, key: SubKey, objects: map<int, Object>): (r: Option<map<int, Object>>)
    ensures r.Some? ==> r.value.Keys == objects.Keys
    ensures key == Raises ==> r.None?
    ensures r.None? && key != Raises ==> ParseInt0(GetOr(s, "datatype", "0")).None?
    ensures key.Key? && key.index in objects && r.Some? ==> key.subindex in r.value[key.index].subs
  {
    match key
    case NotSub => Some(objects)
    case Raises => None
    case Key(i, j) =>
      if i in objects then
        match NewSub(j, s)
        case None => None
        case Some(sub) => Some(objects[i := objects[i].(subs := objects[i].subs[j := sub])])
      else Some(objects)
  }

  /** How the second pass reads each section header, in order. */
  function Headers(secs: seq<Section>, guarded: bool): (keys: seq<SubKey>)
    ensures |keys| == |secs|
    ensures forall i :: 0 <= i < |secs| ==> keys[i] == SubSectionWith(secs[i].name, guarded)
  {
    seq(|secs|, i requires 0 <= i < |secs| => SubSectionWith(secs[i].name, guarded))
  }

  /** Every section in order through SubStep, section i read as `keys[i]`. */
  function SubSteps(secs: seq<Section>, keys: seq<SubKey>, objects: map<int, Object>): (r: Option<map<int, Object>>)
    requires |keys| == |secs|
    ensures r.Some? ==> r.value.Keys == objects.Keys
    decreases |secs|
  {
    if secs == [] then Some(objects)
    else
      match SubStep(secs[0], keys[0], objects)
      case None => None
      case Some(next) => SubSteps(secs[1..], keys[1..], next)
  }

  /** Second pass: every section in order, through SubStep. */
  function SecondPass(secs: seq<Section>, objects: map<int, Object>, guarded: bool): (r: Option<map<int, Object>>)
    ensures r.Some? ==> r.value.Keys == objects.Keys
  {
    SubSteps(secs, Headers(secs, guarded), objects)
  }

  /** Section `s`, read as `key`, is where the steps stop: a raising header, or a known object's sub-object with an unparsable DataType. */
  predicate StopsAt(s: Section, key: SubKey, objects: map<int, Object>)
  {
    key == Raises || (key.Key? && key.index in objects && ParseInt0(GetOr(s, "datatype", "0")).None?)
  }

  /** One raising header anywhere makes the steps fail. */
  lemma {:induction false} SubStepsRaise(secs: seq<Section>, keys: seq<SubKey>, objects: map<int, Object>)
    requires |keys| == |secs| && Raises in keys
    ensures SubSteps(secs, keys, objects).None?
    decreases |secs|
  {
    if keys[0] != Raises {
      assert Raises in keys[1..];
      var r := SubStep(secs[0], keys[0], objects);
      if r.Some? {
        SubStepsRaise(secs[1..], keys[1..], r.value);
      }
    }
  }

  /** Steps that fail point at a sub-object section of a known object whose DataType does not parse, or at a raising header. */
  lemma {:induction false} SubStepsFail(secs: seq<Section>, keys: seq<SubKey>, objects: map<int, Object>)
    requires |keys| == |secs| && SubSteps(secs, keys, objects).None?
    ensures exists i :: 0 <= i < |secs| && StopsAt(secs[i], keys[i], objects)
    decreases |secs|
  {
    var r := SubStep(secs[0], keys[0], objects);
    if r.None? {
      assert StopsAt(secs[0], keys[0], objects);
    } else {
      SubStepsFail(secs[1..], keys[1..], r.value);
      var i :| 0 <= i < |secs[1..]| && StopsAt(secs[1..][i], keys[1..][i], r.value);
      assert secs[1..][i] == secs[i + 1] && keys[1..][i] == keys[i + 1];
      assert StopsAt(secs[i + 1], keys[i + 1], objects);
    }
  }

  // ---------------------------------------------------------------------
  // PDO mapping records
  // ---------------------------------------------------------------------

  /** `(v >> 16) & 0xFFFF`, `(v >> 8) & 0xFF`, `v & 0xFF`; Python shifts floor, as Euclidean division by a power of two does. */
  function Unpack(v: int): (r: (int, int, int))
    ensures 0 <= r.0 < 0x1_0000 && 0 <= r.1 < 0x100 && 0 <= r.2 < 0x100
  {
    ((v / 0x1_0000) % 0x1_0000, (v / 0x100) % 0x100, v % 0x100)
  }

  /** The 0xIIIISSLL layout a mapping entry packs. */
  function Pack(index: int, subindex: int, length: int): int
  {
    index * 0x1_0000 + subindex * 0x100 + length
  }

  /** Unpacking a packed record gives its three fields back. */
  lemma UnpackPack(index: int, subindex: int, length: int)
    requires 0 <= index < 0x1_0000 && 0 <= subindex < 0x100 && 0 <= length < 0x100
    ensures Unpack(Pack(index, subindex, length)) == (index, subindex, length)
  {
    var v := Pack(index, subindex, length);
    CInt.DivModUnique(v, 0x100, index * 0x100 + subindex, length);
    CInt.DivModUnique(v, 0x1_0000, index, subindex * 0x100 + length);
    CInt.DivModUnique(index * 0x100 + subindex, 0x100, index, subindex);
    CInt.DivModUnique(index, 0x1_0000, 0, index);
  }

  /** Every 32-bit entry is the packing of its three fields. */
  lemma PackUnpack(v: int)
    requires 0 <= v < 0x1_0000_0000
    ensures var (i, s, l) := Unpack(v); Pack(i, s, l) == v
  {
    var q := v / 0x100;
    assert v == q * 0x100 + v % 0x100;
    assert q == (q / 0x100) * 0x100 + q % 0x100;
    assert v / 0x1_0000 == q / 0x100 by { CInt.DivModUnique(v, 0x1_0000, q / 0x100, (q % 0x100) * 0x100 + v % 0x100); }
    CInt.DivModUnique(q / 0x100, 0x1_0000, 0, q / 0x100);
  }

  /**
    What subindex `j` of a mapping object contributes: its DefaultValue
    read with `int(x, 0)`, nothing when the entry is missing, empty or 0,
    and a `ValueError` for a value that is not an integer literal.
   */
  function EntryAt(o: Object, j: int): Num
  {
    if j in o.subs && Truthy(o.subs[j].defaultValue) then
      match ParseInt0(o.subs[j].defaultValue.value)
      case None => Raise
      case Some(v) => if v != 0 then Read(v) else Skip
    else Skip
  }

  /** What each subindex of a mapping object contributes. */
  function Entries(o: Object): int -> Num
  {
    j => EntryAt(o, j)
  }

  lemma EntriesAt(o: Object, j: int)
    ensures Entries(o)(j) == EntryAt(o, j)
  {
  }

  /** The loop over subindices `j..last`: the (subindex, value) of every entry that contributes, in order. */
  function Collect(e: int -> Num, j: int, last: int): (r: Option<seq<(int, int)>>)
    ensures r.Some? ==> |r.value| <= if last < j then 0 else last - j + 1
    decreases last - j + 1
  {
    if j > last then Some([])
    else
      match e(j)
      case Raise => None
      case Skip => Collect(e, j + 1, last)
      case Read(v) =>
        match Collect(e, j + 1, last)
        case None => None
        case Some(rest) => Some([(j, v)] + rest)
  }

  /** The loop raises exactly when one of the subindices `j..last` holds a value `int()` rejects. */
  lemma {:induction false} CollectRaises(e: int -> Num, j: int, last: int)
    ensures Collect(e, j, last).None? <==> exists k :: j <= k <= last && e(k) == Raise
    decreases last - j + 1
  {
    if j <= last {
      CollectRaises(e, j + 1, last);
      if e(j) != Raise && Collect(e, j + 1, last).Some? {
        forall k | j <= k <= last
          ensures e(k) != Raise
        {
          if k == j {
          } else {
            assert j + 1 <= k <= last;
          }
        }
      }
    }
  }

  /** Every collected entry is a contributing subindex between `j` and `last` with its value. */
  lemma {:induction false} CollectSound(e: int -> Num, j: int, last: int)
    requires Collect(e, j, last).Some?
    ensures var es := Collect(e, j, last).value;
      forall i :: 0 <= i < |es| ==> j <= es[i].0 <= last && e(es[i].0) == Read(es[i].1)
    decreases last - j + 1
  {
    if j <= last && e(j) != Raise {
      CollectSound(e, j + 1, last);
      if e(j).Read? {
        var rest := Collect(e, j + 1, last).value;
        var es := Collect(e, j, last).value;
        assert es == [(j, e(j).value)] + rest;
        assert forall i :: 1 <= i < |es| ==> es[i] == rest[i - 1];
      }
    }
  }

  /** The collected subindices strictly increase. */
  lemma {:induction false} CollectSorted(e: int -> Num, j: int, last: int)
    requires Collect(e, j, last).Some?
    ensures var es := Collect(e, j, last).value;
      forall i, i' :: 0 <= i < i' < |es| ==> es[i].0 < es[i'].0
    decreases last - j + 1
  {
    if j <= last && e(j) != Raise {
      CollectSorted(e, j + 1, last);
      if e(j).Read? {
        CollectSound(e, j + 1, last);
        var rest := Collect(e, j + 1, last).value;
        var es := Collect(e, j, last).value;
        assert es == [(j, e(j).value)] + rest;
        forall i, i' | 0 <= i < i' < |es|
          ensures es[i].0 < es[i'].0
        {
          assert es[i'] == rest[i' - 1];
          if i > 0 {
            assert es[i] == rest[i - 1];
          }
        }
      }
    }
  }

  /** Every contributing subindex between `j` and `last` is collected. */
  lemma {:induction false} CollectComplete(e: int -> Num, j: int, last: int)
    requires Collect(e, j, last).Some?
    ensures var es := Collect(e, j, last).value;
      forall k :: j <= k <= last && e(k).Read? ==> exists i :: 0 <= i < |es| && es[i].0 == k
    decreases last - j + 1
  {
    if j <= last && e(j) != Raise {
      CollectComplete(e, j + 1, last);
      var rest := Collect(e, j + 1, last).value;
      var es := Collect(e, j, last).value;
      forall k | j <= k <= last && e(k).Read?
        ensures exists i :: 0 <= i < |es| && es[i].0 == k
      {
        if k == j {
          assert es[0].0 == k;
        } else {
          var i :| 0 <= i < |rest| && rest[i].0 == k;
          if e(j).Read? {
            assert es[i + 1] == rest[i];
          } else {
            assert es[i] == rest[i];
          }
        }
      }
    }
  }

  /**
    The collected entries are exactly the contributing subindices between
    `j` and `last`, each once and in increasing order; the loop raises
    exactly when one of them holds a value `int()` rejects.
   */
  lemma CollectExact(e: int -> Num, j: int, last: int)
    ensures Collect(e, j, last).None? <==> exists k :: j <= k <= last && e(k) == Raise
    ensures Collect(e, j, last).Some? ==> var es := Collect(e, j, last).value;
      && (forall i :: 0 <= i < |es| ==> j <= es[i].0 <= last && e(es[i].0) == Read(es[i].1))
      && (forall i, i' :: 0 <= i < i' < |es| ==> es[i].0 < es[i'].0)
      && (forall k :: j <= k <= last && e(k).Read? ==> exists i :: 0 <= i < |es| && es[i].0 == k)
  {
    CollectRaises(e, j, last);
    if Collect(e, j, last).Some? {
      CollectSound(e, j, last);
      CollectSorted(e, j, last);
      CollectComplete(e, j, last);
    }
  }

  /** The name a mapping takes: the sub-object's if it exists, else the object's, else none. */
  function MappingName(objects: map<int, Object>, index: int, subindex: int): string
  {
    if index in objects then
      if subindex in objects[index].subs then objects[index].subs[subindex].name else objects[index].name
    else ""
  }

  /** Each collected value as its mapping record. */
  function Decoded(objects: map<int, Object>, es: seq<(int, int)>): (ms: seq<Mapping>)
    ensures |ms| == |es|
    ensures forall i :: 0 <= i < |es| ==> var (x, y, z) := Unpack(es[i].1); ms[i] == Mapping(x, y, z, MappingName(objects, x, y))
  {
    seq(|es|, i requires 0 <= i < |es| =>
      var (x, y, z) := Unpack(es[i].1); Mapping(x, y, z, MappingName(objects, x, y)))
  }

  /** `num_mapped`: subindex 0's DefaultValue read with `int(x, 0)`, or 0 when it is missing or empty. */
  function MappedCount(o: Object): Option<int>
  {
    if 0 in o.subs && Truthy(o.subs[0].defaultValue) then ParseInt0(o.subs[0].defaultValue.value) else Some(0)
  }

  /** The mappings of the PDO whose mapping object is `at`: subindices 1..min(count, 8). */
  function SlotMappings(objects: map<int, Object>, at: int): (r: Option<seq<Mapping>>)
    ensures r.Some? ==> |r.value| <= MAX_MAPPED
  {
    if at !in objects then Some([])
    else
      var o := objects[at];
      match MappedCount(o)
      case None => None
      case Some(n) =>
        match Collect(Entries(o), 1, if n < MAX_MAPPED then n else MAX_MAPPED)
        case None => None
        case Some(es) => Some(Decoded(objects, es))
  }

  /** Subindices `j..|vs|` all contribute, subindex k the value `vs[k - 1]`: the loop collects every one, in order. */
  lemma {:induction false} CollectAll(e: int -> Num, vs: seq<int>, j: int)
    requires 1 <= j <= |vs| + 1
    requires forall k :: j <= k <= |vs| ==> e(k) == Read(vs[k - 1])
    ensures Collect(e, j, |vs|).Some?
    ensures var es := Collect(e, j, |vs|).value;
      |es| == |vs| - j + 1 && forall i :: 0 <= i < |es| ==> es[i] == (j + i, vs[j + i - 1])
    decreases |vs| - j + 1
  {
    if j <= |vs| {
      CollectAll(e, vs, j + 1);
      var rest := Collect(e, j + 1, |vs|).value;
      assert e(j) == Read(vs[j - 1]);
      var es := Collect(e, j, |vs|).value;
      assert es == [(j, vs[j - 1])] + rest;
      forall i | 1 <= i < |es|
        ensures es[i] == (j + i, vs[j + i - 1])
      {
        assert es[i] == rest[i - 1];
      }
    }
  }

  /** A valid mapping record: a non-zero 16-bit index, an 8-bit subindex and an 8-bit length. */
  predicate Packable(r: Mapping)
  {
    0 < r.index < 0x1_0000 && 0 <= r.subindex < 0x100 && 0 <= r.length < 0x100
  }

  /** The packed entry of a valid record. */
  function PackOf(r: Mapping): (v: nat)
    requires Packable(r)
    ensures 0 < v < 0x1_0000_0000
  {
    Pack(r.index, r.subindex, r.length)
  }

  /** How an EDS file writes a packed entry: "0x" and eight hex digits, which `int(x, 0)` reads back. */
  function EntryText(n: nat): (t: string)
    ensures ParseInt0(t) == Some(n) && t != []
  {
    HexLiteralRoundTrip(n, 8);
    "0x" + HexField(n, 8)
  }

  /** Subindex j of the mapping object holding `records`: the count at 0, then one 0x-prefixed packed entry per record. */
  function MappingSub(records: seq<Mapping>, j: int): SubObject
    requires 0 <= j <= |records| && forall i :: 0 <= i < |records| ==> Packable(records[i])
  {
    if j == 0 then SubObject("Number of entries", 0x05, 8, Some(Decimal(|records|)))
    else SubObject("Mapping entry " + Decimal(j), 0x07, 32, Some(EntryText(PackOf(records[j - 1]))))
  }

  /** A PDO mapping object as an EDS file writes it for `records`. */
  function MappingObject(name: string, records: seq<Mapping>): Object
    requires forall i :: 0 <= i < |records| ==> Packable(records[i])
  {
    Object(name, 9, 0, None, map j | 0 <= j <= |records| :: MappingSub(records, j))
  }

  /** The packed entries of `records`, in order. */
  function PackedValues(records: seq<Mapping>): (vs: seq<int>)
    ensures |vs| == |records|
    ensures forall i :: 0 <= i < |records| ==> vs[i] == Pack(records[i].index, records[i].subindex, records[i].length)
  {
    seq(|records|, i requires 0 <= i < |records| => Pack(records[i].index, records[i].subindex, records[i].length))
  }

  /** The (subindex, value) pairs the loop should collect from the mapping object holding `records`. */
  function PackedEntries(records: seq<Mapping>): (es: seq<(int, int)>)
    ensures |es| == |records|
    ensures forall i :: 0 <= i < |records| ==> es[i] == (1 + i, PackedValues(records)[i])
  {
    var vs := PackedValues(records);
    seq(|vs|, i requires 0 <= i < |vs| => (1 + i, vs[i]))
  }

  /** The count at subindex 0 reads back as the number of records. */
  lemma MappingCount(name: string, records: seq<Mapping>)
    requires forall i :: 0 <= i < |records| ==> Packable(records[i])
    ensures MappedCount(MappingObject(name, records)) == Some(|records|)
  {
    var o := MappingObject(name, records);
    var t := Decimal(|records|);
    assert 0 in o.subs && o.subs[0] == MappingSub(records, 0);
    assert o.subs[0].defaultValue == Some(t);
    DecimalRoundTrip(|records|);
    assert ParseInt0(t) == Some(|records|);
  }

  /** A subindex whose DefaultValue is the written form of a non-zero entry contributes that entry. */
  lemma EntryReads(o: Object, j: int, n: nat)
    requires j in o.subs && o.subs[j].defaultValue == Some(EntryText(n)) && n != 0
    ensures EntryAt(o, j) == Read(n)
  {
  }

  /** Each packed entry of a mapping object reads back as its packing. */
  lemma MappingEntry(name: string, records: seq<Mapping>, j: int)
    requires forall i :: 0 <= i < |records| ==> Packable(records[i])
    requires 1 <= j <= |records|
    ensures EntryAt(MappingObject(name, records), j) == Read(PackedValues(records)[j - 1])
  {
    var o := MappingObject(name, records);
    var n := PackOf(records[j - 1]);
    assert j in o.subs && o.subs[j] == MappingSub(records, j);
    EntryReads(o, j, n);
  }

  /** Subindices 1..n all contribute the packed entries of `records`: the loop collects every one, in order. */
  lemma MappingCollect(e: int -> Num, records: seq<Mapping>)
    requires forall k :: 1 <= k <= |records| ==> e(k) == Read(PackedValues(records)[k - 1])
    ensures Collect(e, 1, |records|) == Some(PackedEntries(records))
  {
    var vs := PackedValues(records);
    CollectAll(e, vs, 1);
    var es := Collect(e, 1, |vs|).value;
    var ps := PackedEntries(records);
    forall i | 0 <= i < |es|
      ensures es[i] == ps[i]
    {
      assert es[i] == (1 + i, vs[i]);
    }
    assert es == ps;
  }

  /** Unpacking the packed entries gives back records named as the decoder names them. */
  lemma MappingDecode(objects: map<int, Object>, records: seq<Mapping>)
    requires forall i :: 0 <= i < |records| ==> Packable(records[i])
    requires forall i :: 0 <= i < |records| ==> records[i].name == MappingName(objects, records[i].index, records[i].subindex)
    ensures Decoded(objects, PackedEntries(records)) == records
  {
    forall i | 0 <= i < |records|
      ensures Decoded(objects, PackedEntries(records))[i] == records[i]
    {
      UnpackPack(records[i].index, records[i].subindex, records[i].length);
    }
  }

  /**
    Decoding inverts encoding: the mapping object an EDS file holds for up
    to eight valid records, each named as the decoder names it, reads back
    as exactly those records.
   */
  lemma MappingRoundTrip(objects: map<int, Object>, at: int, records: seq<Mapping>)
    requires |records| <= MAX_MAPPED
    requires forall i :: 0 <= i < |records| ==> Packable(records[i])
    requires forall i :: 0 <= i < |records| ==> records[i].name == MappingName(objects, records[i].index, records[i].subindex)
    requires at in objects && objects[at] == MappingObject(objects[at].name, records)
    ensures SlotMappings(objects, at) == Some(records)
  {
    var o := objects[at];
    MappingCount(o.name, records);
    forall k | 1 <= k <= |records|
      ensures Entries(o)(k) == Read(PackedValues(records)[k - 1])
    {
      MappingEntry(o.name, records, k);
      EntriesAt(o, k);
    }
    MappingCollect(Entries(o), records);
    MappingDecode(objects, records);
    SlotMappingsOf(objects, at, |records|, PackedEntries(records));
  }

  /** The mappings of a slot whose count reads as n <= 8 and whose loop collects `es`. */
  lemma SlotMappingsOf(objects: map<int, Object>, at: int, n: int, es: seq<(int, int)>)
    requires at in objects && n <= MAX_MAPPED && MappedCount(objects[at]) == Some(n)
    requires Collect(Entries(objects[at]), 1, n) == Some(es)
    ensures SlotMappings(objects, at) == Some(Decoded(objects, es))
  {
  }


  /** The mappings of slots k..3 whose mapping objects start at `base`. */
  function Slots(objects: map<int, Object>, base: int, k: nat): (r: Option<seq<seq<Mapping>>>)
    requires k <= PDO_SLOTS
    ensures r.Some? ==> |r.value| == PDO_SLOTS - k && forall i :: 0 <= i < |r.value| ==> |r.value[i]| <= MAX_MAPPED
    decreases PDO_SLOTS - k
  {
    if k == PDO_SLOTS then Some([])
    else
      match SlotMappings(objects, base + k)
      case None => None
      case Some(ms) =>
        match Slots(objects, base, k + 1)
        case None => None
        case Some(rest) => Some([ms] + rest)
  }

  /** `parse_eds` from the sections on: the identity, both passes, then the TPDO and RPDO mappings. */
  function ParseEdsWith(secs: seq<Section>, guarded: bool): (r: Option<Device>)
    ensures r.Some? ==> Valid(r.value)
  {
    match ParseIdentity(secs)
    case None => None
    case Some(identity) =>
      match FirstPass(secs, map[])
      case None => None
      case Some(firsts) =>
        match SecondPass(secs, firsts, guarded)
        case None => None
        case Some(objects) =>
          match Slots(objects, TPDO_MAPPING, 0)
          case None => None
          case Some(tpdo) =>
            match Slots(objects, RPDO_MAPPING, 0)
            case None => None
            case Some(rpdo) => Some(Device(identity, objects, tpdo, rpdo))
  }

  /** `parse_eds` as written. */
  function ParseEdsAsWritten(secs: seq<Section>): (r: Option<Device>)
    ensures r.Some? ==> Valid(r.value)
  {
    ParseEdsWith(secs, false)
  }

  /** `parse_eds` with malformed sub-object headers skipped. */
  function ParseEds(secs: seq<Section>): (r: Option<Device>)
    ensures r.Some? ==> Valid(r.value)
  {
    ParseEdsWith(secs, true)
  }

  /** "sub1" is lower-case already and splits around "sub" into an empty index and "1". */
  lemma SplitSub1()
    ensures Lower("sub1") == "sub1" && Split("sub1", "sub") == ["", "1"]
  {
    assert Lower("sub1") == "sub1";
    assert "" + "sub" + "1" == "sub1";
    SplitOnce("", "sub", "1");
  }

  /** A header "sub1" has nothing before "sub": the empty index passes the digit test, and `int("", 16)` raises unless guarded. */
  lemma EmptyIndexHeader()
    ensures SubSectionWith("sub1", false) == Raises
    ensures SubSectionWith("sub1", true) == NotSub
  {
    SplitSub1();
    assert Strip("") == "";
    assert IndexNum("") == Raise;
  }

  /** A section whose header makes the second pass as written raise. */
  predicate RaisingHeader(s: Section)
  {
    SubSectionWith(s.name, false) == Raises
  }

  /** A sub-object section of a known object whose DataType does not parse. */
  predicate BadSubObject(s: Section, objects: map<int, Object>)
  {
    var key := SubSectionWith(s.name, true);
    key.Key? && key.index in objects && ParseInt0(GetOr(s, "datatype", "0")).None?
  }

  /** As written, one section header whose number does not parse makes the whole second pass fail. */
  lemma SecondPassRaises(secs: seq<Section>, objects: map<int, Object>)
    requires exists i :: 0 <= i < |secs| && RaisingHeader(secs[i])
    ensures SecondPass(secs, objects, false).None?
  {
    var i :| 0 <= i < |secs| && RaisingHeader(secs[i]);
    var keys := Headers(secs, false);
    assert keys[i] == Raises;
    SubStepsRaise(secs, keys, objects);
  }

  /** As written, an EDS file with a section named "sub1" is rejected whatever else it holds. */
  lemma AsWrittenRejectsEmptyIndex(secs: seq<Section>)
    requires exists i :: 0 <= i < |secs| && secs[i].name == "sub1"
    ensures ParseEdsAsWritten(secs).None?
  {
    EmptyIndexHeader();
    var i :| 0 <= i < |secs| && secs[i].name == "sub1";
    assert RaisingHeader(secs[i]);
    if ParseIdentity(secs).Some? && FirstPass(secs, map[]).Some? {
      SecondPassRaises(secs, FirstPass(secs, map[]).value);
    }
  }

  /** Guarded, the second pass fails only on a sub-object section of a known object whose DataType does not parse. */
  lemma GuardedSecondPassFails(secs: seq<Section>, objects: map<int, Object>)
    requires SecondPass(secs, objects, true).None?
    ensures exists i :: 0 <= i < |secs| && BadSubObject(secs[i], objects)
  {
    var keys := Headers(secs, true);
    SubStepsFail(secs, keys, objects);
    var i :| 0 <= i < |secs| && StopsAt(secs[i], keys[i], objects);
    assert keys[i] == SubSectionWith(secs[i].name, true);
    assert BadSubObject(secs[i], objects);
  }

  // ---------------------------------------------------------------------
  // Generated identifiers
  // ---------------------------------------------------------------------

  /**
    The COB-ID of TPDO slot k: 0x180 + 0x100·k + node id. For slots 0..3
    and a 7-bit node id, the bits above the node id hold the function
    code 3, 5, 7 or 9 (TPDO1..TPDO4) and the low seven bits the node id.
   */
  function TpdoCobId(k: int, node: int): (id: int)
    ensures 0 <= k < PDO_SLOTS && 0 <= node < 0x80 ==> id / 0x80 == 3 + 2 * k && id % 0x80 == node
  {
    0x180 + k * 0x100 + node
  }

  /** The COB-ID of RPDO slot k: 0x200 + 0x100·k + node id, function code 4, 6, 8 or 10 (RPDO1..RPDO4). */
  function RpdoCobId(k: int, node: int): (id: int)
    ensures 0 <= k < PDO_SLOTS && 0 <= node < 0x80 ==> id / 0x80 == 4 + 2 * k && id % 0x80 == node
  {
    0x200 + k * 0x100 + node
  }

  /** For one 7-bit node id the eight PDO COB-IDs are pairwise distinct. */
  lemma CobIdsDistinct(node: int, k: int, k': int)
    requires 0 <= node < 0x80 && 0 <= k < PDO_SLOTS && 0 <= k' < PDO_SLOTS
    ensures TpdoCobId(k, node) != RpdoCobId(k', node)
    ensures k != k' ==> TpdoCobId(k, node) != TpdoCobId(k', node) && RpdoCobId(k, node) != RpdoCobId(k', node)
  {
  }

  /** The importer's COB-IDs are the runtime's CiA 301 PDO function codes plus the node id. */
  lemma CobIdsAgree(node: int, k: int)
    requires 0 <= k < PDO_SLOTS
    ensures TpdoCobId(k, node) == CanOpen.TpdoFunctionCode(k + 1) as int + node
    ensures RpdoCobId(k, node) == CanOpen.RpdoFunctionCode(k + 1) as int + node
  {
  }

  /** `sanitize_name` on one character: upper-cased, space and '-' as '_', anything else not alphanumeric dropped. */
  function SanitizeChar(c: char): (r: string)
    ensures |r| <= 1
  {
    var u := UpperChar(c);
    var v := if u == ' ' || u == '-' then '_' else u;
    if IsAlnum(v) || v == '_' then [v] else []
  }

  /** A character `sanitize_name` can emit. */
  predicate Clean(c: char)
  {
    IsUpperLetter(c) || IsDigit(c) || c == '_'
  }

  /** `sanitize_name`: a C identifier body made of upper-case letters, digits and underscores. */
  function Sanitize(name: string): (r: string)
    ensures |r| <= |name|
    ensures forall i :: 0 <= i < |r| ==> Clean(r[i])
    decreases |name|
  {
    if name == [] then [] else SanitizeChar(name[0]) + Sanitize(name[1..])
  }

  /** A clean name comes through unchanged. */
  lemma {:induction false} SanitizeClean(name: string)
    requires forall i :: 0 <= i < |name| ==> Clean(name[i])
    ensures Sanitize(name) == name
    decreases |name|
  {
    if name != [] {
      SanitizeClean(name[1..]);
      assert SanitizeChar(name[0]) == [name[0]];
      assert name == [name[0]] + name[1..];
    }
  }

  /** Sanitizing twice is sanitizing once. */
  lemma SanitizeIdempotent(name: string)
    ensures Sanitize(Sanitize(name)) == Sanitize(name)
  {
    SanitizeClean(Sanitize(name));
  }

  /** The ids `generate_device_tree` hands out: consecutive from `first`, slot after slot, in mapping order. */
  function Numbered(slots: seq<seq<Mapping>>, first: int): (ids: seq<seq<int>>)
    ensures |ids| == |slots| && forall k :: 0 <= k < |slots| ==> |ids[k]| == |slots[k]|
    decreases |slots|
  {
    if slots == [] then []
    else [seq(|slots[0]|, m => first + m)] + Numbered(slots[1..], first + |slots[0]|)
  }

  /** The number of mappings in the slots. */
  function Total(slots: seq<seq<Mapping>>): nat
    decreases |slots|
  {
    if slots == [] then 0 else |slots[0]| + Total(slots[1..])
  }

  /** Mapping m of slot k gets `first` plus the count of all mappings before it. */
  lemma {:induction false} NumberedAt(slots: seq<seq<Mapping>>, first: int, k: int, m: int)
    requires 0 <= k < |slots| && 0 <= m < |slots[k]|
    ensures Numbered(slots, first)[k][m] == first + Total(slots[..k]) + m
    decreases k
  {
    if k == 0 {
      assert slots[..0] == [];
    } else {
      var next := first + |slots[0]|;
      NumberedAt(slots[1..], next, k - 1, m);
      NumberedTail(slots, first, k);
      TotalHead(slots, k);
      assert Numbered(slots[1..], next)[k - 1][m] == next + Total(slots[1..][..k - 1]) + m;
    }
  }

  lemma NumberedTail(slots: seq<seq<Mapping>>, first: int, k: int)
    requires 0 < k < |slots|
    ensures Numbered(slots, first)[k] == Numbered(slots[1..], first + |slots[0]|)[k - 1]
  {
  }

  lemma TotalHead(slots: seq<seq<Mapping>>, k: int)
    requires 0 < k <= |slots|
    ensures Total(slots[..k]) == |slots[0]| + Total(slots[1..][..k - 1])
  {
    assert slots[..k][0] == slots[0];
    assert slots[..k][1..] == slots[1..][..k - 1];
  }

  /** The mappings before slot k plus those of slot k are the mappings before slot k + 1. */
  lemma {:induction false} TotalStep(slots: seq<seq<Mapping>>, k: int)
    requires 0 <= k < |slots|
    ensures Total(slots[..k + 1]) == Total(slots[..k]) + |slots[k]|
    decreases k
  {
    if k > 0 {
      TotalStep(slots[1..], k - 1);
      assert slots[1..][..k - 1] == slots[..k][1..];
      assert slots[1..][..k] == slots[..k + 1][1..];
    }
  }

  /** Counting the mappings before a slot never decreases as the slot moves right. */
  lemma {:induction false} TotalMono(slots: seq<seq<Mapping>>, k: int, k': int)
    requires 0 <= k <= k' <= |slots|
    ensures Total(slots[..k]) <= Total(slots[..k'])
    decreases k' - k
  {
    if k < k' {
      TotalStep(slots, k' - 1);
      TotalMono(slots, k, k' - 1);
    }
  }

  /** With at most 8 mappings a slot, fewer than 8·k mappings come before slot k. */
  lemma {:induction false} TotalBelow(slots: seq<seq<Mapping>>, k: int)
    requires 0 <= k <= |slots|
    requires forall i :: 0 <= i < |slots| ==> |slots[i]| <= MAX_MAPPED
    ensures Total(slots[..k]) <= MAX_MAPPED * k
    decreases k
  {
    if k > 0 {
      TotalStep(slots, k - 1);
      TotalBelow(slots, k - 1);
    }
  }

  /** Every id lies between `first` and `first + Total(slots) - 1`. */
  lemma NumberedRange(slots: seq<seq<Mapping>>, first: int, k: int, m: int)
    requires 0 <= k < |slots| && 0 <= m < |slots[k]|
    ensures first <= Numbered(slots, first)[k][m] < first + Total(slots)
  {
    NumberedAt(slots, first, k, m);
    TotalStep(slots, k);
    TotalMono(slots, k + 1, |slots|);
    assert slots[..|slots|] == slots;
  }

  /** No two mappings get the same id. */
  lemma NumberedDistinct(slots: seq<seq<Mapping>>, first: int, k: int, m: int, k': int, m': int)
    requires 0 <= k < |slots| && 0 <= m < |slots[k]| && 0 <= k' < |slots| && 0 <= m' < |slots[k']|
    requires (k, m) != (k', m')
    ensures Numbered(slots, first)[k][m] != Numbered(slots, first)[k'][m']
  {
    NumberedAt(slots, first, k, m);
    NumberedAt(slots, first, k', m');
    if k < k' {
      TotalStep(slots, k);
      TotalMono(slots, k + 1, k');
    } else if k' < k {
      TotalStep(slots, k');
      TotalMono(slots, k' + 1, k);
    }
  }

  /** With four slots of at most 8 mappings, the ids of one direction lie in `first .. first + 31`. */
  lemma SlotIdRange(slots: seq<seq<Mapping>>, first: int, k: int, m: int)
    requires |slots| == PDO_SLOTS && forall i :: 0 <= i < PDO_SLOTS ==> |slots[i]| <= MAX_MAPPED
    requires 0 <= k < PDO_SLOTS && 0 <= m < |slots[k]|
    ensures first <= Numbered(slots, first)[k][m] < first + 32
  {
    NumberedRange(slots, first, k, m);
    TotalBelow(slots, PDO_SLOTS);
    assert slots[..PDO_SLOTS] == slots;
  }

  /** The TPDO ids start at 100 and the RPDO ids at 0; with at most 32 of each, no TPDO id equals an RPDO id. */
  lemma DeviceTreeIdsDisjoint(d: Device, k: int, m: int, k': int, m': int)
    requires Valid(d)
    requires 0 <= k < PDO_SLOTS && 0 <= m < |d.tpdo[k]| && 0 <= k' < PDO_SLOTS && 0 <= m' < |d.rpdo[k']|
    ensures 100 <= Numbered(d.tpdo, 100)[k][m] < 132
    ensures 0 <= Numbered(d.rpdo, 0)[k'][m'] < 32
  {
    SlotIdRange(d.tpdo, 100, k, m);
    SlotIdRange(d.rpdo, 0, k', m');
  }

  /** The scheme `parse_eds_file` and `generate_signal_header` use: mapping m of slot k gets base + 32·k + m. */
  function SlotSignalId(base: int, k: int, m: int): int
  {
    base + 32 * k + m
  }

  /**
    The device-tree numbering and the 32-per-slot numbering give a TPDO
    mapping the same id exactly when it sits in the first slot: in every
    later slot fewer than 32·k mappings come before it.
   */
  lemma SchemesAgreeIff(d: Device, k: int, m: int)
    requires Valid(d) && 0 <= k < PDO_SLOTS && 0 <= m < |d.tpdo[k]|
    ensures Numbered(d.tpdo, 100)[k][m] == SlotSignalId(100, k, m) <==> k == 0
  {
    NumberedAt(d.tpdo, 100, k, m);
    TotalBelow(d.tpdo, k);
    if k == 0 {
      assert d.tpdo[..0] == [];
    }
  }

  // ---------------------------------------------------------------------
  // Generated output
  // ---------------------------------------------------------------------

  /** The slots from k on that hold at least one mapping, in slot order: the PDOs a generator emits. */
  function Occupied(slots: seq<seq<Mapping>>, k: nat): (ks: seq<nat>)
    requires k <= |slots|
    ensures forall i :: 0 <= i < |ks| ==> k <= ks[i] < |slots| && slots[ks[i]] != []
    ensures forall i, i' :: 0 <= i < i' < |ks| ==> ks[i] < ks[i']
    ensures forall s :: k <= s < |slots| && slots[s] != [] ==> s in ks
    decreases |slots| - k
  {
    if k == |slots| then []
    else if slots[k] == [] then Occupied(slots, k + 1)
    else [k] + Occupied(slots, k + 1)
  }

  /** One `mapping@m` child of a PDO node: the mapping, its `signal-id` and the `SIG_` name in its comment. */
  datatype TreeSignal = TreeSignal(mapping: Mapping, signalId: int, macro: string)

  /** One `tpdo@k`/`rpdo@k` node: its slot, its `cob-id` and its mappings. */
  datatype PdoNode = PdoNode(slot: int, cobId: int, signals: seq<TreeSignal>)

  function TreeSignals(ms: seq<Mapping>, ids: seq<int>): (r: seq<TreeSignal>)
    requires |ids| == |ms|
    ensures |r| == |ms|
  {
    seq(|ms|, i requires 0 <= i < |ms| => TreeSignal(ms[i], ids[i], "SIG_" + Sanitize(ms[i].name)))
  }

  /** The PDO nodes of one direction for the occupied slots, with the ids Numbered hands out from `first`. */
  function PdoNodes(slots: seq<seq<Mapping>>, first: int, transmit: bool, node: int): (r: seq<PdoNode>)
    ensures |r| == |Occupied(slots, 0)|
  {
    var ks := Occupied(slots, 0);
    var ids := Numbered(slots, first);
    seq(|ks|, i requires 0 <= i < |ks| =>
      PdoNode(ks[i], if transmit then TpdoCobId(ks[i], node) else RpdoCobId(ks[i], node), TreeSignals(slots[ks[i]], ids[ks[i]])))
  }

  /** `generate_device_tree`: the TPDO nodes, numbered from 100, and the RPDO nodes, numbered from 0. */
  function DeviceTree(d: Device, node: int): (r: (seq<PdoNode>, seq<PdoNode>))
  {
    (PdoNodes(d.tpdo, 100, true, node), PdoNodes(d.rpdo, 0, false, node))
  }

  /**
    Every TPDO node of the device tree is an occupied slot with its CiA 301
    COB-ID; its signals are the slot's mappings in order, each with its
    device-tree id and a clean `SIG_` name; and the ids lie in 100..131.
   */
  lemma DeviceTreeTpdo(d: Device, node: int, i: int, m: int)
    requires Valid(d) && 0 <= i < |DeviceTree(d, node).0|
    ensures var n := DeviceTree(d, node).0[i];
      && 0 <= n.slot < PDO_SLOTS && d.tpdo[n.slot] != []
      && n.cobId == 0x180 + 0x100 * n.slot + node
      && |n.signals| == |d.tpdo[n.slot]|
      && (0 <= m < |n.signals| ==>
            && n.signals[m].mapping == d.tpdo[n.slot][m]
            && n.signals[m].signalId == 100 + Total(d.tpdo[..n.slot]) + m
            && 100 <= n.signals[m].signalId < 132
            && n.signals[m].macro == "SIG_" + Sanitize(d.tpdo[n.slot][m].name))
  {
    var n := DeviceTree(d, node).0[i];
    var k := Occupied(d.tpdo, 0)[i];
    assert n.slot == k;
    if 0 <= m < |n.signals| {
      NumberedAt(d.tpdo, 100, k, m);
      SlotIdRange(d.tpdo, 100, k, m);
    }
  }

  /** "TPDO1".."TPDO4" or "RPDO1".."RPDO4": slot k's label in comments and fallback names. */
  function PdoLabel(transmit: bool, k: int): string
  {
    (if transmit then "TPDO" else "RPDO") + Decimal(k + 1)
  }

  /** One `#define SIG_<name> <id>` line of the signal header, with its comment. */
  datatype HeaderLine = HeaderLine(macro: string, signalId: int, comment: string)

  /** The positions from m on of the mappings whose index is a known object, in order. */
  function Known(objects: map<int, Object>, ms: seq<Mapping>, m: nat): (ps: seq<nat>)
    requires m <= |ms|
    ensures forall i :: 0 <= i < |ps| ==> m <= ps[i] < |ms| && ms[ps[i]].index in objects
    ensures forall i, i' :: 0 <= i < i' < |ps| ==> ps[i] < ps[i']
    ensures forall p :: m <= p < |ms| && ms[p].index in objects ==> p in ps
    decreases |ms| - m
  {
    if m == |ms| then []
    else if ms[m].index in objects then [m] + Known(objects, ms, m + 1)
    else Known(objects, ms, m + 1)
  }

  /** The header line of position p of slot k, named after the mapping's object. */
  function HeaderLineAt(objects: map<int, Object>, ms: seq<Mapping>, transmit: bool, base: int, k: int, p: int): HeaderLine
    requires 0 <= p < |ms| && ms[p].index in objects
  {
    var o := objects[ms[p].index];
    HeaderLine("SIG_" + Sanitize(o.name), SlotSignalId(base, k, p), PdoLabel(transmit, k) + ": " + o.name)
  }

  /** The header lines of slot k: one per mapping of a known object, in mapping order. */
  function SlotHeader(objects: map<int, Object>, ms: seq<Mapping>, transmit: bool, base: int, k: int): (r: seq<HeaderLine>)
    ensures |r| == |Known(objects, ms, 0)|
  {
    var ps := Known(objects, ms, 0);
    seq(|ps|, i requires 0 <= i < |ps| => HeaderLineAt(objects, ms, transmit, base, k, ps[i]))
  }

  /**
    Slot k's header has a line for position p exactly when that mapping's
    index is a known object; the line carries id base + 32·k + p and the
    object's sanitized name.
   */
  lemma SlotHeaderExact(objects: map<int, Object>, ms: seq<Mapping>, transmit: bool, base: int, k: int, p: int)
    requires 0 <= p < |ms|
    ensures ms[p].index in objects <==> exists i :: 0 <= i < |SlotHeader(objects, ms, transmit, base, k)| && Known(objects, ms, 0)[i] == p
    ensures ms[p].index in objects ==> forall i :: 0 <= i < |SlotHeader(objects, ms, transmit, base, k)| && Known(objects, ms, 0)[i] == p ==>
      SlotHeader(objects, ms, transmit, base, k)[i].signalId == base + 32 * k + p
      && SlotHeader(objects, ms, transmit, base, k)[i].macro == "SIG_" + Sanitize(objects[ms[p].index].name)
  {
    var ps := Known(objects, ms, 0);
    if ms[p].index in objects {
      assert p in ps;
      var i :| 0 <= i < |ps| && ps[i] == p;
      assert 0 <= i < |SlotHeader(objects, ms, transmit, base, k)| && Known(objects, ms, 0)[i] == p;
    } else {
      forall i | 0 <= i < |ps|
        ensures ps[i] != p
      {
        assert ms[ps[i]].index in objects;
      }
    }
  }

  /** The parts from k on, one after the other. */
  function ConcatFrom<T>(parts: seq<seq<T>>, k: nat): seq<T>
    requires k <= |parts|
    decreases |parts| - k
  {
    if k == |parts| then [] else parts[k] + ConcatFrom(parts, k + 1)
  }

  /** Every element of part k' is an element of the parts from k on, when k <= k'. */
  lemma {:induction false} ConcatFromHas<T>(parts: seq<seq<T>>, k: nat, k': nat, i: int)
    requires k <= k' < |parts| && 0 <= i < |parts[k']|
    ensures parts[k'][i] in ConcatFrom(parts, k)
    decreases k' - k
  {
    var here, later := parts[k], ConcatFrom(parts, k + 1);
    assert ConcatFrom(parts, k) == here + later;
    if k < k' {
      ConcatFromHas(parts, k + 1, k', i);
      var j :| 0 <= j < |later| && later[j] == parts[k'][i];
      assert (here + later)[|here| + j] == later[j];
    } else {
      assert (here + later)[i] == here[i];
    }
  }

  /** The header lines of one direction, slot by slot. */
  function DirectionHeader(objects: map<int, Object>, slots: seq<seq<Mapping>>, transmit: bool, base: int): seq<HeaderLine>
  {
    ConcatFrom(seq(|slots|, k requires 0 <= k < |slots| => SlotHeader(objects, slots[k], transmit, base, k)), 0)
  }

  /** Each line of slot k's part of the header is also a line of the direction's part. */
  lemma DirectionHeaderHas(objects: map<int, Object>, slots: seq<seq<Mapping>>, transmit: bool, base: int, k: int, i: int)
    requires 0 <= k < |slots| && 0 <= i < |SlotHeader(objects, slots[k], transmit, base, k)|
    ensures SlotHeader(objects, slots[k], transmit, base, k)[i] in DirectionHeader(objects, slots, transmit, base)
  {
    var parts := seq(|slots|, k requires 0 <= k < |slots| => SlotHeader(objects, slots[k], transmit, base, k));
    assert parts[k] == SlotHeader(objects, slots[k], transmit, base, k);
    ConcatFromHas(parts, 0, k, i);
  }

  /** `generate_signal_header` with the TPDO ids counted from `tpdoBase`: the RPDO lines, then the TPDO lines. */
  function SignalHeaderWith(d: Device, tpdoBase: int): seq<HeaderLine>
    requires Valid(d)
  {
    DirectionHeader(d.objects, d.rpdo, false, 0) + DirectionHeader(d.objects, d.tpdo, true, tpdoBase)
  }

  /** `generate_signal_header` as written: RPDO ids from 0, TPDO ids from 100. */
  function SignalHeader(d: Device): seq<HeaderLine>
    requires Valid(d)
  {
    SignalHeaderWith(d, 100)
  }

  /** The header line of position p of slot k of one direction is in that direction's part of the header. */
  lemma DirectionHeaderLine(objects: map<int, Object>, slots: seq<seq<Mapping>>, transmit: bool, base: int, k: int, p: int)
    requires 0 <= k < |slots| && 0 <= p < |slots[k]| && slots[k][p].index in objects
    ensures HeaderLineAt(objects, slots[k], transmit, base, k, p) in DirectionHeader(objects, slots, transmit, base)
  {
    var ps := Known(objects, slots[k], 0);
    assert p in ps;
    var i :| 0 <= i < |ps| && ps[i] == p;
    assert SlotHeader(objects, slots[k], transmit, base, k)[i] == HeaderLineAt(objects, slots[k], transmit, base, k, p);
    DirectionHeaderHas(objects, slots, transmit, base, k, i);
  }

  /**
    Every mapping of a known object has its line in the signal header:
    `SIG_` and the object's sanitized name, id 32·k + p for RPDO slot k and
    tpdoBase + 32·k + p for TPDO slot k.
   */
  lemma SignalHeaderLines(d: Device, tpdoBase: int, k: int, p: int)
    requires Valid(d) && 0 <= k < PDO_SLOTS
    ensures 0 <= p < |d.rpdo[k]| && d.rpdo[k][p].index in d.objects ==>
      var l := HeaderLineAt(d.objects, d.rpdo[k], false, 0, k, p);
      l in SignalHeaderWith(d, tpdoBase) && l.signalId == 32 * k + p
      && l.macro == "SIG_" + Sanitize(d.objects[d.rpdo[k][p].index].name)
    ensures 0 <= p < |d.tpdo[k]| && d.tpdo[k][p].index in d.objects ==>
      var l := HeaderLineAt(d.objects, d.tpdo[k], true, tpdoBase, k, p);
      l in SignalHeaderWith(d, tpdoBase) && l.signalId == tpdoBase + 32 * k + p
      && l.macro == "SIG_" + Sanitize(d.objects[d.tpdo[k][p].index].name)
  {
    if 0 <= p < |d.rpdo[k]| && d.rpdo[k][p].index in d.objects {
      DirectionHeaderLine(d.objects, d.rpdo, false, 0, k, p);
    }
    if 0 <= p < |d.tpdo[k]| && d.tpdo[k][p].index in d.objects {
      DirectionHeaderLine(d.objects, d.tpdo, true, tpdoBase, k, p);
    }
  }

  /**
    As written, the header defines two macros with id 100 when RPDO4's
    fifth mapping and TPDO1's first mapping are known objects; counting
    the TPDO ids from 128 instead keeps every TPDO id above every RPDO id.
   */
  lemma SignalHeaderClash(d: Device)
    requires Valid(d) && |d.rpdo[3]| >= 5 && d.tpdo[0] != []
    requires d.rpdo[3][4].index in d.objects && d.tpdo[0][0].index in d.objects
    ensures HeaderLineAt(d.objects, d.rpdo[3], false, 0, 3, 4) in SignalHeader(d)
    ensures HeaderLineAt(d.objects, d.tpdo[0], true, 100, 0, 0) in SignalHeader(d)
    ensures HeaderLineAt(d.objects, d.rpdo[3], false, 0, 3, 4).signalId == 100
    ensures HeaderLineAt(d.objects, d.tpdo[0], true, 100, 0, 0).signalId == 100
  {
    SignalHeaderLines(d, 100, 3, 4);
    SignalHeaderLines(d, 100, 0, 0);
  }

  /** One mapping in the `parse_eds_file` summary. */
  datatype MapSummary = MapSummary(index: int, subindex: int, length: int, signalId: int, name: string)

  /** One PDO in the summary: its COB-ID and its mappings. */
  datatype PdoSummary = PdoSummary(cobId: int, mappings: seq<MapSummary>)

  /** What `parse_eds_file` hands to code generation. */
  datatype EdsSummary = EdsSummary(deviceName: string, nodeId: int, vendorId: int, productCode: int,
                                   tpdos: seq<PdoSummary>, rpdos: seq<PdoSummary>)

  /** The node id `parse_eds_file` always reports, whatever node the device is configured for. */
  const SUMMARY_NODE_ID: int := 5

  /** A summary mapping's name: its object's name, or "TPDOk_Signalm" / "RPDOk_Signalm" for an unknown index. */
  function SummaryName(objects: map<int, Object>, transmit: bool, k: int, m: int, index: int): string
  {
    if index in objects then objects[index].name else PdoLabel(transmit, k) + "_Signal" + Decimal(m)
  }

  function SlotSummary(objects: map<int, Object>, ms: seq<Mapping>, transmit: bool, base: int, k: int): (r: seq<MapSummary>)
    ensures |r| == |ms|
  {
    seq(|ms|, m requires 0 <= m < |ms| =>
      MapSummary(ms[m].index, ms[m].subindex, ms[m].length, SlotSignalId(base, k, m), SummaryName(objects, transmit, k, m, ms[m].index)))
  }

  /** The summary PDOs of one direction: one per occupied slot, in slot order, for node 5. */
  function DirectionSummary(objects: map<int, Object>, slots: seq<seq<Mapping>>, transmit: bool, base: int): (r: seq<PdoSummary>)
    ensures |r| == |Occupied(slots, 0)|
  {
    var ks := Occupied(slots, 0);
    seq(|ks|, i requires 0 <= i < |ks| =>
      PdoSummary(if transmit then TpdoCobId(ks[i], SUMMARY_NODE_ID) else RpdoCobId(ks[i], SUMMARY_NODE_ID),
                 SlotSummary(objects, slots[ks[i]], transmit, base, ks[i])))
  }

  /** `parse_eds_file` with the TPDO ids counted from `tpdoBase`. */
  function SummaryWith(d: Device, tpdoBase: int): (r: EdsSummary)
    requires Valid(d)
  {
    EdsSummary(d.identity.productName, SUMMARY_NODE_ID, d.identity.vendorId, d.identity.productCode,
               DirectionSummary(d.objects, d.tpdo, true, tpdoBase), DirectionSummary(d.objects, d.rpdo, false, 0))
  }

  /** `parse_eds_file` as written: TPDO ids from 100. */
  function ParseEdsFileAsWritten(d: Device): (r: EdsSummary)
    requires Valid(d)
    ensures r.nodeId == SUMMARY_NODE_ID
  {
    SummaryWith(d, 100)
  }

  /** `parse_eds_file` with the TPDO ids counted from 128, past every RPDO id. */
  function ParseEdsFile(d: Device): (r: EdsSummary)
    requires Valid(d)
    ensures r.nodeId == SUMMARY_NODE_ID
  {
    SummaryWith(d, 128)
  }

  /**
    Summary PDO i of a direction is the i-th occupied slot k: its COB-ID
    is that slot's for node 5, and its mapping m carries the slot's
    mapping m with id base + 32·k + m and the object's name or the
    fallback name.
   */
  lemma DirectionSummaryAt(objects: map<int, Object>, slots: seq<seq<Mapping>>, transmit: bool, base: int, i: int, m: int)
    requires 0 <= i < |DirectionSummary(objects, slots, transmit, base)|
    ensures var p := DirectionSummary(objects, slots, transmit, base)[i];
      var k := Occupied(slots, 0)[i];
      && 0 <= k < |slots| && slots[k] != []
      && p.cobId == (if transmit then 0x180 else 0x200) + 0x100 * k + SUMMARY_NODE_ID
      && |p.mappings| == |slots[k]|
      && (0 <= m < |slots[k]| ==>
            && p.mappings[m].index == slots[k][m].index
            && p.mappings[m].subindex == slots[k][m].subindex
            && p.mappings[m].length == slots[k][m].length
            && p.mappings[m].signalId == base + 32 * k + m
            && p.mappings[m].name == SummaryName(objects, transmit, k, m, slots[k][m].index))
  {
  }

  /** Some PDO of `ps` has a mapping at position m with id `id`. */
  predicate CarriesId(ps: seq<PdoSummary>, m: int, id: int)
  {
    exists i :: 0 <= i < |ps| && 0 <= m < |ps[i].mappings| && ps[i].mappings[m].signalId == id
  }

  /** Mapping m of a non-empty slot k shows up in the summary with id base + 32·k + m. */
  lemma DirectionCarries(objects: map<int, Object>, slots: seq<seq<Mapping>>, transmit: bool, base: int, k: int, m: int)
    requires 0 <= k < |slots| && 0 <= m < |slots[k]|
    ensures CarriesId(DirectionSummary(objects, slots, transmit, base), m, base + 32 * k + m)
  {
    var ks := Occupied(slots, 0);
    assert k in ks;
    var i :| 0 <= i < |ks| && ks[i] == k;
    DirectionSignalId(objects, slots, transmit, base, i, m);
  }

  /** Mapping m of summary PDO i has id base + 32·k + m, k being the PDO's slot. */
  lemma DirectionSignalId(objects: map<int, Object>, slots: seq<seq<Mapping>>, transmit: bool, base: int, i: int, m: int)
    requires 0 <= i < |Occupied(slots, 0)| && 0 <= m < |slots[Occupied(slots, 0)[i]]|
    ensures var ps := DirectionSummary(objects, slots, transmit, base);
      i < |ps| && m < |ps[i].mappings| && ps[i].mappings[m].signalId == base + 32 * Occupied(slots, 0)[i] + m
  {
  }

  /** A summary id of slot k lies in base + 32·k .. base + 32·k + 7 when the slot holds at most 8 mappings. */
  lemma DirectionIdBounds(objects: map<int, Object>, slots: seq<seq<Mapping>>, transmit: bool, base: int, i: int, m: int)
    requires |slots| == PDO_SLOTS && forall k :: 0 <= k < PDO_SLOTS ==> |slots[k]| <= MAX_MAPPED
    requires 0 <= i < |DirectionSummary(objects, slots, transmit, base)|
    requires 0 <= m < |DirectionSummary(objects, slots, transmit, base)[i].mappings|
    ensures var k := Occupied(slots, 0)[i];
      DirectionSummary(objects, slots, transmit, base)[i].mappings[m].signalId == base + 32 * k + m
      && base <= base + 32 * k + m < base + 32 * 3 + MAX_MAPPED
  {
    DirectionSummaryAt(objects, slots, transmit, base, i, m);
  }

  /**
    As written, the TPDO ids from 100 collide with the RPDO ids, which run
    up to 3·32 + 7 = 103: with five mappings in RPDO4 and one in TPDO1, the
    fifth RPDO4 mapping and the first TPDO1 mapping both get signal id 100.
   */
  lemma SummaryIdsClash(d: Device)
    requires Valid(d) && |d.rpdo[3]| >= 5 && d.tpdo[0] != []
    ensures CarriesId(ParseEdsFileAsWritten(d).rpdos, 4, 100) && CarriesId(ParseEdsFileAsWritten(d).tpdos, 0, 100)
  {
    DirectionCarries(d.objects, d.rpdo, false, 0, 3, 4);
    DirectionCarries(d.objects, d.tpdo, true, 100, 0, 0);
  }

  /** With the TPDO ids counted from 128, no RPDO mapping shares an id with a TPDO mapping. */
  lemma SummaryIdsSeparated(d: Device, i: int, m: int, i': int, m': int)
    requires Valid(d)
    requires 0 <= i < |ParseEdsFile(d).rpdos| && 0 <= m < |ParseEdsFile(d).rpdos[i].mappings|
    requires 0 <= i' < |ParseEdsFile(d).tpdos| && 0 <= m' < |ParseEdsFile(d).tpdos[i'].mappings|
    ensures ParseEdsFile(d).rpdos[i].mappings[m].signalId < 128 <= ParseEdsFile(d).tpdos[i'].mappings[m'].signalId
  {
    DirectionIdBounds(d.objects, d.rpdo, false, 0, i, m);
    DirectionIdBounds(d.objects, d.tpdo, true, 128, i', m');
  }

  /** Within one direction of the summary, two different mappings never share an id. */
  lemma SummaryIdsDistinct(objects: map<int, Object>, slots: seq<seq<Mapping>>, transmit: bool, base: int, i: int, m: int, i': int, m': int)
    requires |slots| == PDO_SLOTS && forall k :: 0 <= k < PDO_SLOTS ==> |slots[k]| <= MAX_MAPPED
    requires 0 <= i < |DirectionSummary(objects, slots, transmit, base)| && 0 <= i' < |DirectionSummary(objects, slots, transmit, base)|
    requires 0 <= m < |DirectionSummary(objects, slots, transmit, base)[i].mappings|
    requires 0 <= m' < |DirectionSummary(objects, slots, transmit, base)[i'].mappings|
    requires (i, m) != (i', m')
    ensures DirectionSummary(objects, slots, transmit, base)[i].mappings[m].signalId
         != DirectionSummary(objects, slots, transmit, base)[i'].mappings[m'].signalId
  {
    var ks := Occupied(slots, 0);
    DirectionIdBounds(objects, slots, transmit, base, i, m);
    DirectionIdBounds(objects, slots, transmit, base, i', m');
    assert (ks[i], m) != (ks[i'], m') by {
      if i != i' {
        assert ks[i] != ks[i'];
      }
    }
    SlotIdsApart(base, ks[i], m, ks[i'], m');
  }

  /** Positions below 32 in different slots, or different positions in one slot, get different ids. */
  lemma SlotIdsApart(base: int, k: int, m: int, k': int, m': int)
    requires 0 <= m < 32 && 0 <= m' < 32 && (k, m) != (k', m')
    ensures base + 32 * k + m != base + 32 * k' + m'
  {
    if k < k' {
      assert 32 * k + 32 <= 32 * k';
    } else if k' < k {
      assert 32 * k' + 32 <= 32 * k;
    }
  }
}

=== FILE: engine.dfy ===
/**
  The engine core: initialisation, the five phases of `lq_engine_step`
  (ingest, staleness, merge/vote, on-change outputs, cyclic outputs) and
  the direct signal accessors.
 */
module Engine {
  import opened CInt
  import opened Events
  import opened Signals
  import opened Wrappers
  import Util
  import Scale

  /** `struct lq_merge_ctx`. */
  datatype Merge = Merge(inputs: seq<int>, output: int, vm: Util.VoteMethod, tolerance: int, staleUs: int, enabled: bool)

  /** `struct lq_cyclic_ctx`; `kind` is the opaque `lq_output_type`. */
  datatype Cyclic = Cyclic(kind: nat, targetId: int, deviceIndex: int, source: int,
                           periodUs: int, nextDeadline: int, flags: int, enabled: bool)

  /** `struct lq_output_event`. */
  datatype OutputEvent = OutputEvent(kind: nat, targetId: int, deviceIndex: int, value: int, flags: int, timestamp: int)

  /**
    The parts of `struct lq_engine` the engine phases and limp-home read.
    Remap, PID and verified-output contexts are handed to their processors
    separately, as the C processors take them by pointer.
   */
  datatype Engine = Engine(signals: seq<Signal>, numSignals: int, merges: seq<Merge>,
                           scales: seq<Scale.ScaleCtx>, cyclics: seq<Cyclic>, outEvents: seq<OutputEvent>)

  /** Merge fields fit their C types; the output index is used unchecked, so it must be a slot. */
  predicate ValidMerge(m: Merge)
  {
    |m.inputs| <= 8 && (forall j :: 0 <= j < |m.inputs| ==> IsU8(m.inputs[j]))
    && 0 <= m.output < MAX_SIGNALS && IsU32(m.tolerance)
  }

  /** The source index is used unchecked, so it must be a slot. */
  predicate ValidCyclic(c: Cyclic)
  {
    0 <= c.source < MAX_SIGNALS && IsU64(c.periodUs) && IsU64(c.nextDeadline)
  }

  predicate ValidEvents(evs: seq<OutputEvent>)
  {
    |evs| <= MAX_OUTPUT_EVENTS
  }

  predicate Valid(e: Engine)
  {
    ValidTable(e.signals, e.numSignals)
    && |e.merges| <= MAX_MERGES && (forall i :: 0 <= i < |e.merges| ==> ValidMerge(e.merges[i]))
    && |e.scales| <= MAX_SCALES && (forall i :: 0 <= i < |e.scales| ==> Scale.ValidScale(e.scales[i]))
    && |e.cyclics| <= MAX_CYCLIC_OUTPUTS && (forall i :: 0 <= i < |e.cyclics| ==> ValidCyclic(e.cyclics[i]))
    && ValidEvents(e.outEvents)
  }

  /** The configuration: everything except signal runtime state and the output buffer. */
  predicate SameConfig(a: Engine, b: Engine)
  {
    a.numSignals == b.numSignals && a.merges == b.merges && a.scales == b.scales
    && |a.cyclics| == |b.cyclics|
  }

  // ---------------------------------------------------------------------------
  // Initialisation
  // ---------------------------------------------------------------------------

  /** Clears the `updated` flag of slots i.. of the table. */
  function ClearUpdated(sigs: seq<Signal>, i: nat): (r: seq<Signal>)
    requires i <= |sigs|
    ensures |r| == |sigs|
    ensures forall k :: 0 <= k < i ==> r[k] == sigs[k]
    ensures forall k :: i <= k < |sigs| ==> !r[k].updated && r[k] == sigs[k].(updated := false)
    decreases |sigs| - i
  {
    if i == |sigs| then sigs
    else ClearUpdated(sigs[i := sigs[i].(updated := false)], i + 1)
  }

  /**
    lq_engine_init: -EINVAL for a NULL engine; otherwise only the output
    buffer and every `updated` flag are reset.
   */
  function Init(e: Option<Engine>): (r: (int, Option<Engine>))
    ensures e.None? <==> r.0 == -EINVAL
    ensures e.None? ==> r.1.None?
    ensures e.Some? ==> r.0 == 0 && r.1.Some?
    ensures e.Some? ==> var x, y := e.value, r.1.value;
      SameConfig(x, y) && y.cyclics == x.cyclics && y.outEvents == []
      && |y.signals| == |x.signals|
      && forall k :: 0 <= k < |x.signals| ==> y.signals[k] == x.signals[k].(updated := false)
    ensures e.Some? && Valid(e.value) ==> Valid(r.1.value)
  {
    match e
    case None => (-EINVAL, None)
    case Some(x) => (0, Some(x.(outEvents := [], signals := ClearUpdated(x.signals, 0))))
  }

  // ---------------------------------------------------------------------------
  // Phase 1: ingest
  // ---------------------------------------------------------------------------

  /** The event fields fit `struct lq_event`. */
  predicate ValidEvent(ev: Event)
  {
    ev.sourceId >= 0 && IsInt32(ev.value) && IsU64(ev.timestamp)
  }

  /** One iteration of the ingest loop. */
  function IngestOne(sigs: seq<Signal>, ev: Event): seq<Signal>
    requires |sigs| == MAX_SIGNALS && ValidEvent(ev)
  {
    if ev.sourceId >= MAX_SIGNALS then sigs
    else
      var s := sigs[ev.sourceId];
      sigs[ev.sourceId := s.(value := ev.value, status := ev.status, timestamp := ev.timestamp,
                             updated := s.value != ev.value)]
  }

  /** The index of the last event addressed to slot k, or -1. */
  function LastFor(events: seq<Event>, k: int): (r: int)
    ensures -1 <= r < |events|
    ensures r >= 0 ==> events[r].sourceId == k
    ensures forall j :: r < j < |events| ==> events[j].sourceId != k
  {
    if |events| == 0 then -1
    else if events[|events| - 1].sourceId == k then |events| - 1
    else LastFor(events[..|events| - 1], k)
  }

  /** The value slot k holds just before event j is applied. */
  function ValueBefore(s: Signal, events: seq<Event>, j: nat, k: int): int
    requires j <= |events|
  {
    var p := LastFor(events[..j], k);
    if p >= 0 then events[p].value else s.value
  }

  /**
    What ingesting `events` into `sigs` leaves in `r`: each slot holds the
    value, status and timestamp of the last event addressed to it, and is
    `updated` iff that event changed the value; a slot no event addresses
    is untouched.
   */
  predicate IngestSpec(sigs: seq<Signal>, events: seq<Event>, r: seq<Signal>)
    requires |sigs| == MAX_SIGNALS
  {
    |r| == MAX_SIGNALS
    && (forall k :: 0 <= k < MAX_SIGNALS && LastFor(events, k) < 0 ==> r[k] == sigs[k])
    && (forall k :: 0 <= k < MAX_SIGNALS && LastFor(events, k) >= 0 ==>
         var ev := events[LastFor(events, k)];
         r[k].value == ev.value && r[k].status == ev.status && r[k].timestamp == ev.timestamp
         && r[k].staleUs == sigs[k].staleUs
         && r[k].updated == (ev.value != ValueBefore(sigs[k], events, LastFor(events, k), k)))
  }

  /** lq_ingest_events: events addressed past the table are skipped; see IngestSpec. */
  function Ingest(sigs: seq<Signal>, events: seq<Event>): (r: seq<Signal>)
    requires |sigs| == MAX_SIGNALS
    requires forall j :: 0 <= j < |events| ==> ValidEvent(events[j])
    ensures IngestSpec(sigs, events, r)
  {
    if |events| == 0 then sigs
    else
      var init := events[..|events| - 1];
      var prev := Ingest(sigs, init);
      var last := events[|events| - 1];
      assert events == init + [last];
      IngestStep(sigs, init, last, prev);
      IngestOne(prev, last)
  }

  /** One more event preserves the ingest specification. */
  lemma IngestStep(sigs: seq<Signal>, init: seq<Event>, last: Event, prev: seq<Signal>)
    requires |sigs| == MAX_SIGNALS && ValidEvent(last)
    requires IngestSpec(sigs, init, prev)
    ensures IngestSpec(sigs, init + [last], IngestOne(prev, last))
  {
    var events := init + [last];
    var r := IngestOne(prev, last);
    assert events[..|init|] == init;
    forall k | 0 <= k < MAX_SIGNALS
      ensures LastFor(events, k) == (if last.sourceId == k then |init| else LastFor(init, k))
    {
    }
    forall j, k | 0 <= j <= |init| && 0 <= k < MAX_SIGNALS
      ensures ValueBefore(sigs[k], events, j, k) == ValueBefore(sigs[k], init, j, k)
    {
      assert events[..j] == init[..j];
    }
    forall k | 0 <= k < MAX_SIGNALS && last.sourceId == k
      ensures ValueBefore(sigs[k], events, |init|, k) == prev[k].value
    {
      assert events[..|init|] == init;
    }
  }

  /** Ingesting well-formed events keeps the table well formed. */
  lemma {:induction false} IngestValid(sigs: seq<Signal>, n: int, events: seq<Event>)
    requires ValidTable(sigs, n)
    requires forall j :: 0 <= j < |events| ==> ValidEvent(events[j])
    ensures ValidTable(Ingest(sigs, events), n)
  {
    if |events| > 0 {
      IngestValid(sigs, n, events[..|events| - 1]);
    }
  }

  // ---------------------------------------------------------------------------
  // Phase 2: staleness
  // ---------------------------------------------------------------------------

  /** `now - timestamp` as uint64 exceeds a nonzero `stale_us`. */
  predicate IsStale(s: Signal, now: int)
  {
    s.staleUs != 0 && WrapU64(now - s.timestamp) > s.staleUs
  }

  /** One iteration of the staleness loop. */
  function MarkStale(s: Signal, now: int): Signal
  {
    if IsStale(s, now) then s.(status := EvTimeout, updated := true) else s
  }

  /** The staleness loop from slot i up to n. */
  function StaleFrom(sigs: seq<Signal>, n: nat, i: nat, now: int): (r: seq<Signal>)
    requires i <= n <= |sigs|
    ensures |r| == |sigs|
    ensures forall k :: 0 <= k < |sigs| && !(i <= k < n) ==> r[k] == sigs[k]
    ensures forall k :: i <= k < n ==>
      (if IsStale(sigs[k], now) then r[k] == sigs[k].(status := EvTimeout, updated := true) else r[k] == sigs[k])
    decreases n - i
  {
    if i == n then sigs
    else StaleFrom(sigs[i := MarkStale(sigs[i], now)], n, i + 1, now)
  }

  /**
    lq_apply_input_staleness: a slot below `num_signals` turns TIMEOUT and
    updated exactly when it is stale; nothing else changes.
   */
  function ApplyStaleness(sigs: seq<Signal>, n: int, now: int): (r: seq<Signal>)
    requires ValidTable(sigs, n)
    ensures ValidTable(r, n)
    ensures forall k :: 0 <= k < MAX_SIGNALS ==>
      r[k].value == sigs[k].value && r[k].timestamp == sigs[k].timestamp && r[k].staleUs == sigs[k].staleUs
    ensures forall k :: 0 <= k < n && IsStale(sigs[k], now) ==> r[k].status == EvTimeout && r[k].updated
    ensures forall k :: 0 <= k < MAX_SIGNALS && !(k < n && IsStale(sigs[k], now)) ==> r[k] == sigs[k]
  {
    StaleFrom(sigs, n, 0, now)
  }

  /** A slot becomes TIMEOUT iff it is checked, has a staleness bound, and has aged past it. */
  lemma StalenessIff(sigs: seq<Signal>, n: int, now: int, k: int)
    requires ValidTable(sigs, n) && 0 <= k < MAX_SIGNALS
    requires sigs[k].status != EvTimeout
    ensures ApplyStaleness(sigs, n, now)[k].status == EvTimeout
            <==> k < n && sigs[k].staleUs != 0 && WrapU64(now - sigs[k].timestamp) > sigs[k].staleUs
    ensures sigs[k].staleUs == 0 ==> ApplyStaleness(sigs, n, now)[k] == sigs[k]
  {
  }

  // ---------------------------------------------------------------------------
  // Phase 3: merge / vote
  // ---------------------------------------------------------------------------

  /** The values of the merge inputs that are table slots below n with status OK, in input order. */
  function CollectInputs(sigs: seq<Signal>, n: int, inputs: seq<int>): (r: seq<int>)
    requires ValidTable(sigs, n)
    ensures |r| <= |inputs|
    ensures Util.AllInt32(r)
  {
    if |inputs| == 0 then []
    else
      var front := CollectInputs(sigs, n, inputs[..|inputs| - 1]);
      var i := inputs[|inputs| - 1];
      if 0 <= i < n && sigs[i].status == EvOk then front + [sigs[i].value] else front
  }

  /** The collected values are exactly the values of the valid (OK) inputs below `n`. */
  lemma {:induction false} CollectedValues(sigs: seq<Signal>, n: int, inputs: seq<int>)
    requires ValidTable(sigs, n)
    ensures forall v :: v in CollectInputs(sigs, n, inputs) <==>
      exists j :: 0 <= j < |inputs| && 0 <= inputs[j] < n && sigs[inputs[j]].status == EvOk && sigs[inputs[j]].value == v
  {
    if |inputs| > 0 {
      var front := inputs[..|inputs| - 1];
      CollectedValues(sigs, n, front);
      forall v
        ensures v in CollectInputs(sigs, n, inputs) <==>
          exists j :: 0 <= j < |inputs| && 0 <= inputs[j] < n && sigs[inputs[j]].status == EvOk && sigs[inputs[j]].value == v
      {
        if v in CollectInputs(sigs, n, front) {
          var j :| 0 <= j < |front| && 0 <= front[j] < n && sigs[front[j]].status == EvOk && sigs[front[j]].value == v;
          assert inputs[j] == front[j];
        }
        if exists j :: 0 <= j < |inputs| && 0 <= inputs[j] < n && sigs[inputs[j]].status == EvOk && sigs[inputs[j]].value == v {
          var j :| 0 <= j < |inputs| && 0 <= inputs[j] < n && sigs[inputs[j]].status == EvOk && sigs[inputs[j]].value == v;
          if j < |front| {
            assert front[j] == inputs[j];
          }
        }
      }
    }
  }

  /** The lq_status to lq_event_status conversion of the merge phase. */
  function ToEventStatus(st: Util.Status): EventStatus
  {
    match st
    case Ok => EvOk
    case Degraded => EvDegraded
    case OutOfRange => EvOutOfRange
    case Error => EvError
    case Timeout => EvError
    case Inconsistent => EvInconsistent
  }

  /** `(uint32_t)(max_val - min_val)` over the inputs and the voted result. */
  function Spread(values: seq<int>, result: int): (r: int)
    requires |values| > 0
    ensures IsU32(r)
  {
    var hi := if result > Util.SeqMax(values) then result else Util.SeqMax(values);
    var lo := if result < Util.SeqMin(values) then result else Util.SeqMin(values);
    WrapU32(hi - lo)
  }

  /** The status the merge writes after voting. */
  function MergeStatus(values: seq<int>, m: Merge, voted: Util.VoteResult): EventStatus
    requires |values| > 0 && voted.Voted?
  {
    if |values| > 1 && m.tolerance > 0 && Spread(values, voted.value) > m.tolerance then EvInconsistent
    else ToEventStatus(voted.status)
  }

  /**
    One merge context. A disabled merge changes nothing; with no valid
    input only the output's status becomes ERROR; otherwise the output
    takes the voted value, a status of OK or INCONSISTENT, the timestamp
    `now`, and `updated` iff the value changed. No other slot changes.
   */
  function MergeOne(sigs: seq<Signal>, n: int, m: Merge, now: int): (r: seq<Signal>)
    requires ValidTable(sigs, n) && ValidMerge(m) && IsU64(now)
    ensures ValidTable(r, n)
    ensures OnlyWrites(sigs, r, {m.output})
    ensures !m.enabled ==> r == sigs
    ensures m.enabled && |CollectInputs(sigs, n, m.inputs)| == 0 ==> r[m.output] == sigs[m.output].(status := EvError)
    ensures m.enabled && |CollectInputs(sigs, n, m.inputs)| > 0 ==>
      var vals := CollectInputs(sigs, n, m.inputs);
      r == MergeVoted(sigs, n, m, vals, Util.Vote(vals, m.vm, Wrap32(m.tolerance)), now)
  {
    if !m.enabled then sigs
    else
      var vals := CollectInputs(sigs, n, m.inputs);
      if |vals| == 0 then Store(sigs, n, m.output, sigs[m.output].(status := EvError))
      else MergeVoted(sigs, n, m, vals, Util.Vote(vals, m.vm, Wrap32(m.tolerance)), now)
  }

  /**
    An enabled merge with valid inputs `vals`: the output takes the voted
    value, which lies between the least and greatest input, a status of OK
    or INCONSISTENT, the timestamp `now`, and `updated` iff the value
    changed. A spread beyond a nonzero tolerance is INCONSISTENT.
   */
  function MergeVoted(sigs: seq<Signal>, n: int, m: Merge, vals: seq<int>, voted: Util.VoteResult, now: int): (r: seq<Signal>)
    requires ValidTable(sigs, n) && ValidMerge(m) && IsU64(now) && 0 < |vals|
    requires voted.Voted? && Util.SeqMin(vals) <= voted.value <= Util.SeqMax(vals) && IsInt32(voted.value)
    requires voted.status == Util.Ok || voted.status == Util.Inconsistent
    ensures ValidTable(r, n) && OnlyWrites(sigs, r, {m.output})
    ensures Util.SeqMin(vals) <= r[m.output].value <= Util.SeqMax(vals)
    ensures r[m.output].status == EvOk || r[m.output].status == EvInconsistent
    ensures r[m.output].timestamp == now && r[m.output].staleUs == sigs[m.output].staleUs
    ensures r[m.output].updated == (r[m.output].value != sigs[m.output].value)
    ensures |vals| > 1 && m.tolerance > 0 && Spread(vals, r[m.output].value) > m.tolerance ==> r[m.output].status == EvInconsistent
  {
    var out := sigs[m.output];
    var status := MergeStatus(vals, m, voted);
    Store(sigs, n, m.output, Signal(voted.value, status, now, out.staleUs, out.value != voted.value))
  }

  /**
    With several valid inputs, the merge status is INCONSISTENT exactly
    when the vote found an input farther than the (int32) tolerance from
    the result, or the spread of the inputs exceeds the (uint32) tolerance.
   */
  lemma MergeInconsistentIff(sigs: seq<Signal>, n: int, m: Merge, now: int)
    requires ValidTable(sigs, n) && ValidMerge(m) && IsU64(now) && m.enabled
    requires |CollectInputs(sigs, n, m.inputs)| > 1
    ensures var vals := CollectInputs(sigs, n, m.inputs);
      var voted := Util.Vote(vals, m.vm, Wrap32(m.tolerance));
      MergeOne(sigs, n, m, now)[m.output].status == EvInconsistent
      <==> voted.status == Util.Inconsistent || (m.tolerance > 0 && Spread(vals, voted.value) > m.tolerance)
  {
    var vals := CollectInputs(sigs, n, m.inputs);
    VotedStatus(sigs, n, m, vals, Util.Vote(vals, m.vm, Wrap32(m.tolerance)), now);
  }

  /** MergeInconsistentIff for the voted branch. */
  lemma VotedStatus(sigs: seq<Signal>, n: int, m: Merge, vals: seq<int>, voted: Util.VoteResult, now: int)
    requires ValidTable(sigs, n) && ValidMerge(m) && IsU64(now) && 1 < |vals|
    requires voted.Voted? && Util.SeqMin(vals) <= voted.value <= Util.SeqMax(vals) && IsInt32(voted.value)
    requires voted.status == Util.Ok || voted.status == Util.Inconsistent
    ensures MergeVoted(sigs, n, m, vals, voted, now)[m.output].status == EvInconsistent
      <==> voted.status == Util.Inconsistent || (m.tolerance > 0 && Spread(vals, voted.value) > m.tolerance)
  {
    assert MergeVoted(sigs, n, m, vals, voted, now)[m.output].status == MergeStatus(vals, m, voted);
  }

  /** The output slots of the enabled merges. */
  function MergeOutputs(ms: seq<Merge>): (r: set<int>)
    ensures forall i :: 0 <= i < |ms| && ms[i].enabled ==> ms[i].output in r
  {
    if |ms| == 0 then {}
    else
      var last := ms[|ms| - 1];
      MergeOutputs(ms[..|ms| - 1]) + (if last.enabled then {last.output} else {})
  }

  /** lq_process_merges: the merges run in array order; only enabled merges' outputs are written. */
  function ProcessMerges(sigs: seq<Signal>, n: int, ms: seq<Merge>, now: int): (r: seq<Signal>)
    requires ValidTable(sigs, n) && IsU64(now)
    requires forall i :: 0 <= i < |ms| ==> ValidMerge(ms[i])
    ensures ValidTable(r, n)
    ensures OnlyWrites(sigs, r, MergeOutputs(ms))
  {
    if |ms| == 0 then sigs
    else
      var prev := ProcessMerges(sigs, n, ms[..|ms| - 1], now);
      MergeOne(prev, n, ms[|ms| - 1], now)
  }

  /** Phase 4, lq_process_outputs: on-change outputs are not implemented, so the engine is unchanged. */
  function ProcessOutputs(e: Engine): (r: Engine)
    ensures r == e
  {
    e
  }

  // ---------------------------------------------------------------------------
  // Phase 5: cyclic outputs
  // ---------------------------------------------------------------------------

  datatype CyclicResult = CyclicResult(ctx: Cyclic, events: seq<OutputEvent>)

  /** The context is due, enabled, and the output buffer has room. */
  predicate Emits(c: Cyclic, events: seq<OutputEvent>, now: int)
  {
    c.enabled && now >= c.nextDeadline && |events| < MAX_OUTPUT_EVENTS
  }

  /**
    lq_cyclic_process: when due, appends exactly one event built from the
    context and the source signal, and moves the deadline on by one period
    (uint64 arithmetic); otherwise changes nothing.
   */
  function CyclicProcess(sigs: seq<Signal>, c: Cyclic, events: seq<OutputEvent>, now: int): (r: CyclicResult)
    requires |sigs| == MAX_SIGNALS && ValidCyclic(c) && ValidEvents(events)
    ensures ValidCyclic(r.ctx) && ValidEvents(r.events)
    ensures !Emits(c, events, now) ==> r == CyclicResult(c, events)
    ensures Emits(c, events, now) ==>
      |r.events| == |events| + 1 && r.events[..|events|] == events
      && r.events[|events|] == OutputEvent(c.kind, c.targetId, c.deviceIndex, sigs[c.source].value, c.flags, now)
      && r.ctx == c.(nextDeadline := WrapU64(c.nextDeadline + c.periodUs))
  {
    if !c.enabled || now < c.nextDeadline then CyclicResult(c, events)
    else if |events| >= MAX_OUTPUT_EVENTS then CyclicResult(c, events)
    else
      var ev := OutputEvent(c.kind, c.targetId, c.deviceIndex, sigs[c.source].value, c.flags, now);
      CyclicResult(c.(nextDeadline := WrapU64(c.nextDeadline + c.periodUs)), events + [ev])
  }

  /**
    Deadline scheduling: after an emission with a nonzero period and no
    uint64 overflow, a second call at the same instant emits nothing, so a
    context emits at most once per call time.
   */
  lemma CyclicOncePerDeadline(sigs: seq<Signal>, c: Cyclic, events: seq<OutputEvent>, now: int)
    requires |sigs| == MAX_SIGNALS && ValidCyclic(c) && ValidEvents(events)
    requires Emits(c, events, now) && c.periodUs > 0 && c.nextDeadline + c.periodUs < U64
    requires now < c.nextDeadline + c.periodUs
    ensures var r1 := CyclicProcess(sigs, c, events, now);
      CyclicProcess(sigs, r1.ctx, r1.events, now) == r1
  {
    var r1 := CyclicProcess(sigs, c, events, now);
    assert r1.ctx.nextDeadline == c.nextDeadline + c.periodUs;
  }

  datatype CyclicsResult = CyclicsResult(ctxs: seq<Cyclic>, events: seq<OutputEvent>)

  /**
    lq_process_cyclic_outputs: every context in order; the buffer only
    grows by appending, by at most one event per context, within capacity.
   */
  function ProcessCyclics(sigs: seq<Signal>, cs: seq<Cyclic>, events: seq<OutputEvent>, now: int): (r: CyclicsResult)
    requires |sigs| == MAX_SIGNALS && ValidEvents(events)
    requires forall i :: 0 <= i < |cs| ==> ValidCyclic(cs[i])
    ensures |r.ctxs| == |cs| && (forall i :: 0 <= i < |cs| ==> ValidCyclic(r.ctxs[i]))
    ensures ValidEvents(r.events)
    ensures |events| <= |r.events| <= |events| + |cs| && r.events[..|events|] == events
    ensures forall i :: 0 <= i < |cs| ==> r.ctxs[i].periodUs == cs[i].periodUs && r.ctxs[i].source == cs[i].source
  {
    if |cs| == 0 then CyclicsResult(cs, events)
    else
      var prev := ProcessCyclics(sigs, cs[..|cs| - 1], events, now);
      var one := CyclicProcess(sigs, cs[|cs| - 1], prev.events, now);
      assert one.events[..|events|] == prev.events[..|events|];
      CyclicsResult(prev.ctxs + [one.ctx], one.events)
  }

  // ---------------------------------------------------------------------------
  // The step and the direct accessors
  // ---------------------------------------------------------------------------

  /**
    lq_engine_step: a NULL engine is left alone; otherwise the output buffer
    is emptied and the phases run in order.
   */
  function Step(e: Option<Engine>, now: int, events: seq<Event>): (r: Option<Engine>)
    requires e.Some? ==> Valid(e.value)
    requires IsU64(now) && forall j :: 0 <= j < |events| ==> ValidEvent(events[j])
    ensures e.None? <==> r.None?
    ensures e.Some? ==> Valid(r.value) && SameConfig(e.value, r.value)
    ensures e.Some? ==> |r.value.outEvents| <= |e.value.cyclics|
  {
    match e
    case None => None
    case Some(x) =>
      var x0 := x.(outEvents := []);
      IngestValid(x0.signals, x0.numSignals, events);
      var s1 := Ingest(x0.signals, events);
      var s2 := ApplyStaleness(s1, x0.numSignals, now);
      var s3 := ProcessMerges(s2, x0.numSignals, x0.merges, now);
      var x3 := ProcessOutputs(x0.(signals := s3));
      var c := ProcessCyclics(x3.signals, x3.cyclics, [], now);
      Some(x3.(cyclics := c.ctxs, outEvents := c.events))
  }

  /** Every event from position `from` on carries time `now`. */
  predicate StampedFrom(evs: seq<OutputEvent>, from: int, now: int)
  {
    forall k :: from <= k < |evs| && k >= 0 ==> evs[k].timestamp == now
  }

  /** Every event a step emits carries the step's time. */
  lemma StepEventsStamped(x: Engine, now: int, events: seq<Event>)
    requires Valid(x) && IsU64(now) && forall j :: 0 <= j < |events| ==> ValidEvent(events[j])
    ensures StampedFrom(Step(Some(x), now, events).value.outEvents, 0, now)
  {
    var x0 := x.(outEvents := []);
    IngestValid(x0.signals, x0.numSignals, events);
    var s3 := ProcessMerges(ApplyStaleness(Ingest(x0.signals, events), x0.numSignals, now), x0.numSignals, x0.merges, now);
    CyclicEventsAt(s3, x.cyclics, [], now);
    assert Step(Some(x), now, events).value.outEvents == ProcessCyclics(s3, x.cyclics, [], now).events;
  }

  /** Every event the cyclic phase appends carries the call time. */
  lemma {:induction false} CyclicEventsAt(sigs: seq<Signal>, cs: seq<Cyclic>, events: seq<OutputEvent>, now: int)
    requires |sigs| == MAX_SIGNALS && ValidEvents(events)
    requires forall i :: 0 <= i < |cs| ==> ValidCyclic(cs[i])
    ensures StampedFrom(ProcessCyclics(sigs, cs, events, now).events, |events|, now)
  {
    if |cs| > 0 {
      CyclicEventsAt(sigs, cs[..|cs| - 1], events, now);
      var prev := ProcessCyclics(sigs, cs[..|cs| - 1], events, now);
      var one := CyclicProcess(sigs, cs[|cs| - 1], prev.events, now);
      assert ProcessCyclics(sigs, cs, events, now).events == one.events;
      forall k | |events| <= k < |one.events|
        ensures one.events[k].timestamp == now
      {
        if k < |prev.events| {
          assert one.events[k] == one.events[..|prev.events|][k] == prev.events[k];
        }
      }
    }
  }

  /** lq_engine_set_signal: ignores ids past the table; otherwise writes value, OK, updated, `now`. */
  function SetSignal(e: Engine, id: int, value: int, now: int): (r: Engine)
    requires Valid(e) && IsU8(id) && IsInt32(value) && IsU64(now)
    ensures Valid(r) && SameConfig(e, r) && r.cyclics == e.cyclics && r.outEvents == e.outEvents
    ensures id >= MAX_SIGNALS ==> r == e
    ensures id < MAX_SIGNALS ==>
      OnlyWrites(e.signals, r.signals, {id}) && r.signals[id] == Written(e.signals[id], value, now)
  {
    if id >= MAX_SIGNALS then e
    else e.(signals := e.signals[id := Written(e.signals[id], value, now)])
  }

  /** lq_engine_get_signal: the slot's value, or 0 for an id past the table. */
  function GetSignal(e: Engine, id: int): (r: int)
    requires Valid(e) && IsU8(id)
    ensures IsInt32(r)
    ensures id >= MAX_SIGNALS ==> r == 0
  {
    if id >= MAX_SIGNALS then 0 else e.signals[id].value
  }

  /** Reading back a written slot returns the written value; other slots read as before. */
  lemma SetGet(e: Engine, id: int, value: int, now: int, other: int)
    requires Valid(e) && IsU8(id) && IsInt32(value) && IsU64(now) && IsU8(other) && other != id
    ensures id < MAX_SIGNALS ==> GetSignal(SetSignal(e, id, value, now), id) == value
    ensures GetSignal(SetSignal(e, id, value, now), other) == GetSignal(e, other)
  {
  }
}

=== FILE: events.dfy ===
/**
  The event record the protocol decoders produce and the engine ingests.

  include/lq_event.h is not part of this model; the fields and the status
  values below are the ones the modelled sources read and write.
 */
module Events {

  /** `enum lq_event_status`, the values the modelled code uses. */
  datatype EventStatus = EvOk | EvDegraded | EvOutOfRange | EvError | EvTimeout | EvInconsistent | EvFault

  /**
    The numeric value of a status, as cast to `uint8_t` by the diagnostic
    readers. The values follow the declaration order above; distinct
    statuses have distinct codes.
   */
  function StatusCode(s: EventStatus): (r: nat)
    ensures r < 7
  {
    match s
    case EvOk => 0
    case EvDegraded => 1
    case EvOutOfRange => 2
    case EvError => 3
    case EvTimeout => 4
    case EvInconsistent => 5
    case EvFault => 6
  }

  lemma StatusCodeInjective(s: EventStatus, t: EventStatus)
    ensures StatusCode(s) == StatusCode(t) ==> s == t
  {
  }

  /** `struct lq_event`: one input sample addressed to a signal. */
  datatype Event = Event(sourceId: int, value: int, status: EventStatus, timestamp: int)
}

=== FILE: gpio.dfy ===
/**
  The GPIO pattern driver (`src/drivers/lq_gpio_pattern.c`): each context
  drives one pin with a static level, a blink or PWM waveform, or a custom
  bit pattern that advances one bit per period. An optional engine signal
  gates the pattern.

  A call is a pure function of the context. It returns the new context and
  the levels written to the context's pin, oldest first. `lq_gpio_set` is
  the platform's; it appears here only through those writes. The engine is
  the values of its first `num_signals` signals, or nothing for a NULL
  engine.
 */
module GpioPattern {
  import opened CInt
  import opened Wrappers
  import opened Bytes

  /** The control signal id meaning "no control signal". */
  const NO_CONTROL: int := 0xFF
  const MAX_PATTERN_BITS: int := 32

  /** `enum lq_gpio_pattern_type`. */
  datatype PatternType = Static | Blink | Pwm | Custom

  /** `struct lq_gpio_pattern_ctx`. */
  datatype Pattern = Pattern(pin: int, control: int, kind: PatternType, periodUs: int, onTimeUs: int,
                             bits: int, length: int, lastUpdate: int, phase: int, index: int,
                             current: bool, enabled: bool, inverted: bool)

  predicate ValidPattern(c: Pattern)
  {
    && IsU8(c.pin) && IsU8(c.control) && IsU32(c.periodUs) && IsU32(c.onTimeUs)
    && IsU32(c.bits) && 0 <= c.length <= MAX_PATTERN_BITS
    && IsU64(c.lastUpdate) && IsU32(c.phase) && IsU8(c.index)
  }

  /** `last_update_us == UINT64_MAX`: the pattern has not been processed yet. */
  predicate FirstRun(c: Pattern)
  {
    c.lastUpdate == UINT64_MAX
  }

  /** lq_gpio_pattern_init: 50% duty, no control signal, enabled, not inverted, not yet run. */
  function Init(pin: int, kind: PatternType, periodUs: int): (c: Pattern)
    requires IsU8(pin) && IsU32(periodUs)
    ensures ValidPattern(c) && FirstRun(c) && c.enabled && !c.inverted && !c.current
    ensures c.control == NO_CONTROL && c.pin == pin && c.kind == kind && c.periodUs == periodUs
    ensures c.onTimeUs * 2 <= c.periodUs <= c.onTimeUs * 2 + 1
    ensures c.bits == 0 && c.length == 0 && c.phase == 0 && c.index == 0
  {
    Pattern(pin, NO_CONTROL, kind, periodUs, periodUs / 2, 0, 0, UINT64_MAX, 0, 0, false, true, false)
  }

  /**
    lq_gpio_pattern_set_duty as written: `period_us * duty_percent` is a
    uint32_t product, so it wraps for periods above about 42.9 s. A duty
    above 100 is ignored.
   */
  function SetDutyAsWritten(c: Pattern, duty: int): (r: Pattern)
    requires ValidPattern(c) && IsU8(duty)
    ensures ValidPattern(r) && r == c.(onTimeUs := r.onTimeUs)
    ensures duty > 100 ==> r == c
    ensures duty <= 100 && c.periodUs * duty < U32 ==>
      r.onTimeUs * 100 <= c.periodUs * duty < r.onTimeUs * 100 + 100
  {
    if duty > 100 then c else c.(onTimeUs := WrapU32(c.periodUs * duty) / 100)
  }

  /**
    lq_gpio_pattern_set_duty with the product taken wide enough: the on
    time is `duty` percent of the period, rounded down, for every period.
   */
  function SetDuty(c: Pattern, duty: int): (r: Pattern)
    requires ValidPattern(c) && IsU8(duty)
    ensures ValidPattern(r) && r == c.(onTimeUs := r.onTimeUs)
    ensures duty > 100 ==> r == c
    ensures duty <= 100 ==>
      r.onTimeUs * 100 <= c.periodUs * duty < r.onTimeUs * 100 + 100 && r.onTimeUs <= c.periodUs
    ensures duty == 100 ==> r.onTimeUs == c.periodUs
  {
    if duty > 100 then c
    else
      MulMono(duty, 100, c.periodUs + 1);
      c.(onTimeUs := c.periodUs * duty / 100)
  }

  /** With a 60 s period, a 100% duty as written gives an on time of about 28% of the period. */
  lemma SetDutyOverflows(c: Pattern)
    requires ValidPattern(c) && c.periodUs == 60_000_000
    ensures SetDutyAsWritten(c, 100).onTimeUs == 17_050_327
    ensures SetDuty(c, 100).onTimeUs == 60_000_000
  {
  }

  /**
    lq_gpio_pattern_set_custom: a pattern of 1 to 32 bits replaces the
    waveform and restarts at bit 0; any other length is ignored.
   */
  function SetCustom(c: Pattern, pattern: int, length: int): (r: Pattern)
    requires ValidPattern(c) && IsU32(pattern) && IsU8(length)
    ensures ValidPattern(r)
    ensures 1 <= length <= MAX_PATTERN_BITS ==>
      r == c.(kind := Custom, bits := pattern, length := length, index := 0)
    ensures !(1 <= length <= MAX_PATTERN_BITS) ==> r == c
  {
    if length == 0 || length > MAX_PATTERN_BITS then c
    else c.(kind := Custom, bits := pattern, length := length, index := 0)
  }

  /**
    How the driver records the pin level when it drives a pattern
    inactive: as written, `current_state` becomes false, which is the
    level written only when the pattern is not inverted; corrected, it
    becomes the level written.
   */
  datatype IdleTracking = RecordFalse | RecordLevel

  /** The level the pin holds last, after the writes `w` to a pin that held `pin`. */
  function PinAfter(pin: bool, w: seq<bool>): bool
  {
    if w == [] then pin else w[|w| - 1]
  }

  /**
    lq_gpio_pattern_enable under a tracking policy: enabling only sets the
    flag; disabling also drives the pin to its inactive level, which is
    high for an inverted pattern.
   */
  function EnableWith(c: Pattern, enabled: bool, t: IdleTracking): (r: (Pattern, seq<bool>))
    requires ValidPattern(c)
    ensures ValidPattern(r.0) && r.0.enabled == enabled
    ensures enabled ==> r == (c.(enabled := true), [])
    ensures !enabled ==> r.1 == [c.inverted] && r.0 == c.(enabled := false, current := r.0.current)
    ensures t == RecordLevel || !c.inverted ==> r.0.current == PinAfter(c.current, r.1)
  {
    if enabled then (c.(enabled := true), [])
    else (c.(enabled := false, current := if t == RecordFalse then false else c.inverted), [c.inverted])
  }

  function EnableAsWritten(c: Pattern, enabled: bool): (r: (Pattern, seq<bool>))
    requires ValidPattern(c)
    ensures ValidPattern(r.0)
    ensures !enabled ==> r.1 == [c.inverted] && !r.0.current
  {
    EnableWith(c, enabled, RecordFalse)
  }

  /** lq_gpio_pattern_enable, corrected: the recorded level is the pin's. */
  function Enable(c: Pattern, enabled: bool): (r: (Pattern, seq<bool>))
    requires ValidPattern(c)
    ensures ValidPattern(r.0) && r.0.current == PinAfter(c.current, r.1)
    ensures !enabled ==> PinAfter(c.current, r.1) == c.inverted
  {
    EnableWith(c, enabled, RecordLevel)
  }

  /** Bit k of a pattern word, as `(pattern_bits & (1U << k)) != 0`. */
  predicate Bit(bits: nat, k: nat)
  {
    Bits(bits, k, 1) == 1
  }

  /**
    lq_gpio_pattern_calculate_state: STATIC is high, BLINK and PWM are
    high for the first `on_time_us` of each period, and CUSTOM shows the
    pattern bit at the current index (low while no pattern is set).
   */
  function Level(c: Pattern, phase: int): bool
    requires ValidPattern(c)
  {
    match c.kind
    case Static => true
    case Blink => phase < c.onTimeUs
    case Pwm => phase < c.onTimeUs
    case Custom => c.length > 0 && Bit(c.bits, c.index % c.length)
  }

  /** The level written to the pin: the computed state, inverted when the pattern is. */
  function Output(c: Pattern, phase: int): bool
    requires ValidPattern(c)
  {
    Level(c, phase) != c.inverted
  }

  /** One step of the custom index: `pattern_index++`, back to 0 at the pattern length. */
  function NextIndex(index: int, length: int): int
  {
    if index + 1 >= length then 0 else index + 1
  }

  /** The custom index after `n` period wraps. */
  function AdvanceIndex(index: int, length: int, n: nat): (r: int)
    decreases n
    ensures n > 0 && length > 0 && index >= 0 ==> 0 <= r < length
    ensures 0 <= index < length ==> 0 <= r < length
  {
    if n == 0 then index else AdvanceIndex(NextIndex(index, length), length, n - 1)
  }

  /** Starting inside the pattern, `n` wraps move the index `n` places round it. */
  lemma {:induction false} AdvanceMod(index: int, length: int, n: nat)
    requires 0 <= index < length
    decreases n
    ensures AdvanceIndex(index, length, n) == (index + n) % length
  {
    if n > 0 {
      var next := NextIndex(index, length);
      assert next == (index + 1) % length;
      AdvanceMod(next, length, n - 1);
      ModAdd(index + 1, n - 1, length);
    }
  }

  /** One more wrap is one more step. */
  lemma {:induction false} AdvanceSnoc(index: int, length: int, n: nat)
    decreases n
    ensures AdvanceIndex(index, length, n + 1) == NextIndex(AdvanceIndex(index, length, n), length)
  {
    if n > 0 {
      AdvanceSnoc(NextIndex(index, length), length, n - 1);
    }
  }

  /** Wraps compose: m wraps then n wraps are m + n wraps. */
  lemma {:induction false} AdvanceCompose(index: int, length: int, m: nat, n: nat)
    decreases m
    ensures AdvanceIndex(AdvanceIndex(index, length, m), length, n) == AdvanceIndex(index, length, m + n)
  {
    if m > 0 {
      AdvanceCompose(NextIndex(index, length), length, m - 1, n);
    }
  }

  /** Whether a period wrap advances the custom index. */
  predicate Advances(c: Pattern)
  {
    c.kind == Custom && c.length > 0
  }

  /** The phase and index after the period wrap-around, in closed form. */
  function Wrapped(c: Pattern, phase: nat): (r: (int, int))
    requires ValidPattern(c) && c.periodUs > 0
    ensures 0 <= r.0 < c.periodUs && r.0 <= phase
    ensures IsU8(r.1) && (Advances(c) && c.index < c.length ==> r.1 < c.length)
  {
    DivBounds(phase, c.periodUs);
    (phase % c.periodUs, if Advances(c) then AdvanceIndex(c.index, c.length, phase / c.periodUs) else c.index)
  }

  /**
    The wrap-around loop of lq_process_gpio_patterns: while the phase has
    reached the period, take one period off and, for a custom pattern,
    advance the index. It ends with the phase and index of `Wrapped`.
   */
  method WrapPhase(c: Pattern, phase: nat) returns (p: int, index: int)
    requires ValidPattern(c) && IsU32(phase) && c.periodUs > 0
    ensures (p, index) == Wrapped(c, phase)
  {
    p, index := phase, c.index;
    ghost var n: nat := 0;
    while p >= c.periodUs
      invariant 0 <= p && phase == n * c.periodUs + p
      invariant index == if Advances(c) then AdvanceIndex(c.index, c.length, n) else c.index
      decreases p
    {
      p := p - c.periodUs;
      if c.kind == Custom && c.length > 0 {
        AdvanceSnoc(c.index, c.length, n);
        index := index + 1;
        if index >= c.length {
          index := 0;
        }
      }
      n := n + 1;
    }
    DivModUnique(phase, c.periodUs, n, p);
  }

  /** The engine signal gating a pattern, when both the engine and a control signal are set. */
  predicate Controlled(signals: Option<seq<int>>, c: Pattern)
  {
    signals.Some? && c.control != NO_CONTROL
  }

  /** The pattern is skipped: disabled, or its control signal is beyond the engine's signals. */
  predicate Skipped(signals: Option<seq<int>>, c: Pattern)
  {
    !c.enabled || (Controlled(signals, c) && c.control >= |signals.value|)
  }

  /** The pattern is held inactive: its control signal reads 0. */
  predicate Idled(signals: Option<seq<int>>, c: Pattern)
  {
    && !Skipped(signals, c) && Controlled(signals, c)
    && 0 <= c.control < |signals.value| && signals.value[c.control] == 0
  }

  /** The pattern runs: it is neither skipped nor held inactive. */
  predicate Runs(signals: Option<seq<int>>, c: Pattern)
  {
    !Skipped(signals, c) && !Idled(signals, c)
  }

  /** The phase after `now`: the elapsed time, cut to 32 bits, added to the 32-bit phase. */
  function Advanced(c: Pattern, now: int): (phase: int)
    requires ValidPattern(c) && IsU64(now)
    ensures IsU32(phase)
    ensures now >= c.lastUpdate && c.phase + (now - c.lastUpdate) < U32 ==> phase == c.phase + (now - c.lastUpdate)
  {
    WrapU32(c.phase + WrapU32(WrapU64(now - c.lastUpdate)))
  }

  /**
    One context's turn in lq_process_gpio_patterns, under a tracking
    policy. A skipped pattern is untouched. A pattern held inactive drives
    its pin inactive if it recorded the pin as active. On its first run a
    pattern writes its phase-0 level. Later it advances its phase by the
    elapsed time, wraps it, and writes the new level only when it differs
    from the recorded one.
   */
  function StepWith(signals: Option<seq<int>>, c: Pattern, now: int, t: IdleTracking): (r: (Pattern, seq<bool>))
    requires ValidPattern(c) && IsU64(now)
    ensures ValidPattern(r.0) && |r.1| <= 1
    ensures r.0 == c.(lastUpdate := r.0.lastUpdate, phase := r.0.phase, index := r.0.index, current := r.0.current)
    ensures Skipped(signals, c) ==> r == (c, [])
    ensures Idled(signals, c) ==> r.0 == c.(current := r.0.current)
    ensures Idled(signals, c) && t == RecordLevel ==> PinAfter(c.current, r.1) == c.inverted
    ensures t == RecordLevel || !c.inverted ==> r.0.current == PinAfter(c.current, r.1)
    ensures Runs(signals, c) ==> r.0.lastUpdate == now && r.0.current == Output(r.0, r.0.phase)
    ensures Runs(signals, c) && FirstRun(c) ==> r.0.phase == 0 && r.0.index == c.index && r.1 == [r.0.current]
    ensures Runs(signals, c) && !FirstRun(c) ==>
      && (r.1 == [] <==> r.0.current == c.current)
      && (c.periodUs > 0 ==> (r.0.phase, r.0.index) == Wrapped(c, Advanced(c, now)))
      && (c.periodUs == 0 ==> r.0.phase == Advanced(c, now) && r.0.index == c.index)
  {
    if Skipped(signals, c) then (c, [])
    else if Idled(signals, c) then
      match t
      case RecordFalse => if c.current then (c.(current := false), [c.inverted]) else (c, [])
      case RecordLevel => if c.current != c.inverted then (c.(current := c.inverted), [c.inverted]) else (c, [])
    else if FirstRun(c) then
      var c' := c.(lastUpdate := now, phase := 0);
      var level := Output(c', 0);
      (c'.(current := level), [level])
    else
      var phase := Advanced(c, now);
      var (p, index) := if c.periodUs > 0 then Wrapped(c, phase) else (phase, c.index);
      var c' := c.(lastUpdate := now, phase := p, index := index);
      var level := Output(c', p);
      if level != c.current then (c'.(current := level), [level]) else (c', [])
  }

  function StepAsWritten(signals: Option<seq<int>>, c: Pattern, now: int): (r: (Pattern, seq<bool>))
    requires ValidPattern(c) && IsU64(now)
    ensures ValidPattern(r.0) && |r.1| <= 1
    ensures Idled(signals, c) ==> (r.1 == [] <==> !c.current) && !r.0.current
  {
    StepWith(signals, c, now, RecordFalse)
  }

  /** One context's turn with the corrected tracking: the recorded level is always the pin's. */
  function Step(signals: Option<seq<int>>, c: Pattern, now: int): (r: (Pattern, seq<bool>))
    requires ValidPattern(c) && IsU64(now)
    ensures ValidPattern(r.0) && r.0.current == PinAfter(c.current, r.1)
    ensures Idled(signals, c) ==> PinAfter(c.current, r.1) == c.inverted
    ensures Runs(signals, c) ==> PinAfter(c.current, r.1) == Output(r.0, r.0.phase)
  {
    StepWith(signals, c, now, RecordLevel)
  }

  /** One pin write: `lq_gpio_set(pin, level)`. */
  datatype Write = Write(pin: int, level: bool)

  /** The writes of one context, tagged with its pin. */
  function Tagged(pin: int, levels: seq<bool>): (w: seq<Write>)
    ensures |w| == |levels|
    ensures forall i :: 0 <= i < |w| ==> w[i] == Write(pin, levels[i])
  {
    if levels == [] then [] else [Write(pin, levels[0])] + Tagged(pin, levels[1..])
  }

  /**
    lq_process_gpio_patterns under a tracking policy: each context takes
    its turn in order, and the pin writes come out in the same order.
   */
  function ProcessWith(signals: Option<seq<int>>, ps: seq<Pattern>, now: int, t: IdleTracking): (r: (seq<Pattern>, seq<Write>))
    requires |ps| < U8 && IsU64(now)
    requires forall i :: 0 <= i < |ps| ==> ValidPattern(ps[i])
    ensures |r.0| == |ps| && |r.1| <= |ps|
    ensures forall i :: 0 <= i < |ps| ==> r.0[i] == StepWith(signals, ps[i], now, t).0
    ensures forall w :: w in r.1 ==> exists i :: 0 <= i < |ps| && w.pin == ps[i].pin
  {
    if ps == [] then ([], [])
    else
      var s := StepWith(signals, ps[0], now, t);
      var rest := ProcessWith(signals, ps[1..], now, t);
      var w := Tagged(ps[0].pin, s.1);
      assert forall i :: 1 <= i < |ps| ==> ps[1..][i - 1] == ps[i];
      ([s.0] + rest.0, w + rest.1)
  }

  /** lq_process_gpio_patterns as written. */
  function ProcessAsWritten(signals: Option<seq<int>>, ps: seq<Pattern>, now: int): (r: (seq<Pattern>, seq<Write>))
    requires |ps| < U8 && IsU64(now)
    requires forall i :: 0 <= i < |ps| ==> ValidPattern(ps[i])
    ensures |r.0| == |ps| && forall i :: 0 <= i < |ps| ==> r.0[i] == StepAsWritten(signals, ps[i], now).0
  {
    ProcessWith(signals, ps, now, RecordFalse)
  }

  /** lq_process_gpio_patterns with the corrected tracking. */
  function Process(signals: Option<seq<int>>, ps: seq<Pattern>, now: int): (r: (seq<Pattern>, seq<Write>))
    requires |ps| < U8 && IsU64(now)
    requires forall i :: 0 <= i < |ps| ==> ValidPattern(ps[i])
    ensures |r.0| == |ps| && forall i :: 0 <= i < |ps| ==> r.0[i] == Step(signals, ps[i], now).0
  {
    ProcessWith(signals, ps, now, RecordLevel)
  }

  /**
    As written, an inverted STATIC pattern that is disabled and enabled
    again is never driven active again: the disable leaves the pin high
    (inactive) but records it as low, which is the level the pattern
    wants, so no later turn writes it.
   */
  lemma InvertedStaticStuck(pin: int, period: int, t0: int, t1: int)
    requires IsU8(pin) && IsU32(period) && IsU64(t0) && IsU64(t1) && t0 != UINT64_MAX
    ensures var c0 := Init(pin, Static, period).(inverted := true);
      var s0 := StepAsWritten(None, c0, t0);
      var d := EnableAsWritten(s0.0, false);
      var e := EnableAsWritten(d.0, true);
      var s1 := StepAsWritten(None, e.0, t1);
      && s0.1 == [false] && d.1 == [true] && e.1 == [] && s1.1 == []
      && Output(s1.0, s1.0.phase) == false
  {
  }

  /**
    With the corrected tracking, the same sequence drives the pin back to
    its active level on the first turn after the pattern is enabled again.
   */
  lemma ResumeDrivesOutput(pin: int, period: int, t0: int, t1: int)
    requires IsU8(pin) && IsU32(period) && IsU64(t0) && IsU64(t1) && t0 != UINT64_MAX
    ensures var c0 := Init(pin, Static, period).(inverted := true);
      var s0 := Step(None, c0, t0);
      var d := Enable(s0.0, false);
      var e := Enable(d.0, true);
      var s1 := Step(None, e.0, t1);
      && s0.1 == [false] && d.1 == [true] && e.1 == [] && s1.1 == [false]
  {
  }

  /** The number of phases in [0, n) at which the pattern's computed state is high. */
  function HighTime(c: Pattern, n: nat): nat
    requires ValidPattern(c)
  {
    if n == 0 then 0 else HighTime(c, n - 1) + (if Level(c, n - 1) then 1 else 0)
  }

  /** A BLINK or PWM pattern is high for its on time out of each period, or the whole period if shorter. */
  lemma {:induction false} HighTimeIsOnTime(c: Pattern, n: nat)
    requires ValidPattern(c) && (c.kind == Blink || c.kind == Pwm)
    ensures HighTime(c, n) == Min(c.onTimeUs, n)
  {
    if n > 0 {
      HighTimeIsOnTime(c, n - 1);
    }
  }

  /** After set_duty, a PWM period is high for `duty` percent of it, rounded down. */
  lemma DutyCycle(c: Pattern, duty: int)
    requires ValidPattern(c) && c.kind == Pwm && IsU8(duty) && duty <= 100
    ensures var r := SetDuty(c, duty);
      HighTime(r, r.periodUs) * 100 <= r.periodUs * duty < HighTime(r, r.periodUs) * 100 + 100
  {
    HighTimeIsOnTime(SetDuty(c, duty), c.periodUs);
  }

  /** The number whose binary digits, least significant first, are `b`. */
  function Word(b: seq<bool>): nat
  {
    if b == [] then 0 else (if b[0] then 1 else 0) + 2 * Word(b[1..])
  }

  /** Bit k + 1 of x is bit k of x / 2. */
  lemma BitShift(x: nat, k: nat)
    ensures Bit(x, k + 1) == Bit(x / 2, k)
  {
    var p := Pow2(k);
    var q := x / 2;
    assert x == 2 * q + x % 2;
    var d := q / p;
    assert q == d * p + q % p;
    assert x == d * (2 * p) + (2 * (q % p) + x % 2);
    DivModUnique(x, 2 * p, d, 2 * (q % p) + x % 2);
  }

  /** The first n bits of x, least significant first. */
  function PatternBits(x: nat, n: nat): (b: seq<bool>)
    ensures |b| == n && forall k :: 0 <= k < n ==> b[k] == Bit(x, k)
  {
    seq(n, k requires 0 <= k < n => Bit(x, k))
  }

  /** The first n bits of x, read as binary digits, give x modulo 2^n. */
  lemma {:induction false} BitsWord(x: nat, n: nat)
    ensures Word(PatternBits(x, n)) == x % Pow2(n)
  {
    var s := PatternBits(x, n);
    if n > 0 {
      BitsWord(x / 2, n - 1);
      var t := PatternBits(x / 2, n - 1);
      assert s[1..] == t by {
        forall k | 0 <= k < n - 1 ensures s[1..][k] == t[k] {
          BitShift(x, k);
        }
      }
      assert s[0] == (x % 2 == 1);
      SplitMod(x, 2, Pow2(n - 1));
    }
  }

  /** The levels of the first `length` periods of a custom pattern restarted at bit 0. */
  function Replay(c: Pattern): (levels: seq<bool>)
    requires ValidPattern(c) && c.kind == Custom
    ensures |levels| == c.length
  {
    seq(c.length, j requires 0 <= j < c.length =>
      AdvanceMod(0, c.length, j);
      Level(c.(index := AdvanceIndex(0, c.length, j)), 0))
  }

  /** From bit 0, the index after j < length wraps is j. */
  lemma IndexAfterWraps(length: int, j: nat)
    requires 0 <= j < length
    ensures AdvanceIndex(0, length, j) == j && j % length == j
  {
    AdvanceMod(0, length, j);
    DivModUnique(j, length, 0, j);
  }

  /** Playing a custom pattern back from bit 0 shows its bits in order. */
  lemma ReplayBits(c: Pattern)
    requires ValidPattern(c) && c.kind == Custom && c.length > 0
    ensures Replay(c) == PatternBits(c.bits, c.length)
  {
    forall j | 0 <= j < c.length
      ensures Replay(c)[j] == Bit(c.bits, j)
    {
      IndexAfterWraps(c.length, j);
    }
  }

  /** Over one round of periods, a custom pattern plays back exactly the bits set_custom gave it. */
  lemma CustomReplay(c: Pattern, pattern: int, length: int)
    requires ValidPattern(c) && IsU32(pattern) && 1 <= length <= MAX_PATTERN_BITS
    ensures var r := SetCustom(c, pattern, length);
      Word(Replay(r)) == pattern % Pow2(length)
  {
    var r := SetCustom(c, pattern, length);
    ReplayBits(r);
    BitsWord(pattern, length);
  }

  /** Reducing the phase in two turns is reducing it once. */
  lemma TwoWraps(p: nat, a: nat, b: nat, period: int)
    requires period > 0
    ensures ((p + a) % period + b) % period == (p + a + b) % period
    ensures (p + a) / period + ((p + a) % period + b) / period == (p + a + b) / period
  {
    var q1, r1 := (p + a) / period, (p + a) % period;
    var q2, r2 := (r1 + b) / period, (r1 + b) % period;
    assert p + a + b == (q1 + q2) * period + r2;
    DivModUnique(p + a + b, period, q1 + q2, r2);
  }

  /** The index moves by the wraps of `a` then those of `b` as by the wraps of `a + b`. */
  lemma IndexWrapsTwice(index: int, length: int, p: nat, a: nat, b: nat, period: int)
    requires period > 0
    ensures AdvanceIndex(AdvanceIndex(index, length, (p + a) / period), length, ((p + a) % period + b) / period)
         == AdvanceIndex(index, length, (p + a + b) / period)
  {
    var q1, q2 := (p + a) / period, ((p + a) % period + b) / period;
    TwoWraps(p, a, b, period);
    AdvanceCompose(index, length, q1, q2);
  }

  /** Wrapping after `a` and then after `b` more is wrapping after `a + b`. */
  lemma WrappedTwice(c: Pattern, a: nat, b: nat)
    requires ValidPattern(c) && c.periodUs > 0 && c.phase + a + b < U32
    ensures var w := Wrapped(c, c.phase + a);
      var m := c.(phase := w.0, index := w.1);
      ValidPattern(m) && Wrapped(m, m.phase + b) == Wrapped(c, c.phase + a + b)
  {
    TwoWraps(c.phase, a, b, c.periodUs);
    IndexWrapsTwice(c.index, c.length, c.phase, a, b, c.periodUs);
  }

  /**
    The waveform does not depend on how often the driver runs: two turns
    of a running pattern, at `mid` and then `now`, reach the same phase
    and index as one turn at `now`, while the elapsed time stays within
    the 32-bit phase counter.
   */
  lemma SamplingInvariant(signals: Option<seq<int>>, c: Pattern, mid: int, now: int)
    requires ValidPattern(c) && IsU64(now) && Runs(signals, c) && !FirstRun(c) && c.periodUs > 0
    requires c.lastUpdate <= mid <= now && mid != UINT64_MAX && c.phase + (now - c.lastUpdate) < U32
    ensures Step(signals, Step(signals, c, mid).0, now).0 == Step(signals, c, now).0
  {
    var a, b := mid - c.lastUpdate, now - mid;
    RunningTurn(signals, c, mid);
    var m := Step(signals, c, mid).0;
    WrappedTwice(c, a, b);
    var w := Wrapped(c, c.phase + a);
    assert Wrapped(m, m.phase + b) == Wrapped(c.(phase := w.0, index := w.1), m.phase + b);
    assert Runs(signals, m) && !FirstRun(m);
    RunningTurn(signals, m, now);
    RunningTurn(signals, c, now);
  }

  /** A running pattern's turn within the 32-bit phase: Wrapped's phase and index, and the level they select. */
  lemma RunningTurn(signals: Option<seq<int>>, c: Pattern, now: int)
    requires ValidPattern(c) && IsU64(now) && Runs(signals, c) && !FirstRun(c) && c.periodUs > 0
    requires c.lastUpdate <= now && c.phase + (now - c.lastUpdate) < U32
    ensures var w := Wrapped(c, c.phase + (now - c.lastUpdate));
      var c' := c.(lastUpdate := now, phase := w.0, index := w.1, current := false);
      Step(signals, c, now).0 == c'.(current := Output(c', w.0))
  {
    assert Advanced(c, now) == c.phase + (now - c.lastUpdate);
    var w := Wrapped(c, c.phase + (now - c.lastUpdate));
    var c' := c.(lastUpdate := now, phase := w.0, index := w.1);
    assert Output(c', w.0) == Output(c'.(current := false), w.0);
  }
}

=== FILE: hilgen.dfy ===
/**
  The HIL test runner generator (`scripts/hil_test_gen.py`): how test and
  step blocks are cut out of the test file by brace counting, what C each
  step action turns into, and how the generated runner counts and reports
  results in TAP form.

  The regular-expression scans (test headers, step headers, the
  `name = value` pairs of a step) are inputs: their match positions and
  matched pairs arrive as parameters. The generated C is modelled as a
  list of statements, not as text.
 */
module HilGen {
  import opened Wrappers
  import opened Text
  import opened Dicts
  import J1939

  // ---------------------------------------------------------------------
  // Brace counting
  // ---------------------------------------------------------------------

  /** How a character moves the brace depth. */
  function Delta(c: char): int
  {
    if c == '{' then 1 else if c == '}' then -1 else 0
  }

  /** Opening minus closing braces in `s`. */
  function Depth(s: string): int
  {
    if s == [] then 0 else Depth(s[..|s| - 1]) + Delta(s[|s| - 1])
  }

  /** Depth of a text extended by one character. */
  lemma DepthSnoc(s: string, c: char)
    ensures Depth(s + [c]) == Depth(s) + Delta(c)
  {
    assert (s + [c])[..|s + [c]| - 1] == s;
  }

  /** Depth of one slice extended by its next character. */
  lemma DepthStep(s: string, from: nat, k: nat)
    requires from <= k < |s|
    ensures Depth(s[from..k + 1]) == Depth(s[from..k]) + Delta(s[k])
  {
    assert s[from..k + 1] == s[from..k] + [s[k]];
    DepthSnoc(s[from..k], s[k]);
  }

  /** The block opened just before `from` is still open after `s[from..k]`. */
  predicate Open(s: string, from: nat, k: nat)
    requires from <= k <= |s|
  {
    Depth(s[from..k]) >= 0
  }

  /** The block stays open at every position from `from` through `j`. */
  predicate OpenThrough(s: string, from: nat, j: nat)
    requires from <= j <= |s|
  {
    forall k :: from <= k <= j ==> Open(s, from, k)
  }

  /** Staying open one position further. */
  lemma OpenExtend(s: string, from: nat, j: nat)
    requires from <= j < |s| && OpenThrough(s, from, j) && Open(s, from, j + 1)
    ensures OpenThrough(s, from, j + 1)
  {
  }

  /**
    The scan of `parse_test_dts`: from `pos`, at depth `depth`, the first
    position before `to` whose closing brace brings the depth to zero.
   */
  function CloseFrom(s: string, from: nat, pos: nat, to: nat, depth: int): (r: Option<nat>)
    requires from <= pos <= to <= |s| && depth == 1 + Depth(s[from..pos]) && OpenThrough(s, from, pos)
    ensures r.Some? ==> pos <= r.value < to && s[r.value] == '}' && Depth(s[from..r.value + 1]) == -1
    ensures r.Some? ==> OpenThrough(s, from, r.value)
    ensures r.None? ==> OpenThrough(s, from, to)
    decreases (to as int) - (pos as int)
  {
    if pos == to then None
    else
      DepthStep(s, from, pos);
      assert Open(s, from, pos);
      var d := depth + Delta(s[pos]);
      if d == 0 then Some(pos)
      else
        OpenExtend(s, from, pos);
        CloseFrom(s, from, pos + 1, to, d)
  }

  /** The first position from `from` on, before `to`, that closes a block opened just before `from`. */
  function Close(s: string, from: nat, to: nat): (r: Option<nat>)
    requires from <= to <= |s|
    ensures r.Some? ==> from <= r.value < to && s[r.value] == '}' && Depth(s[from..r.value + 1]) == -1
    ensures r.Some? ==> OpenThrough(s, from, r.value)
    ensures r.None? ==> OpenThrough(s, from, to)
  {
    assert s[from..from] == [];
    assert OpenThrough(s, from, from);
    CloseFrom(s, from, from, to, 1)
  }

  /** A block body: its braces balance and never close more than they opened. */
  predicate Balanced(b: string)
  {
    Depth(b) == 0 && forall k :: 0 <= k <= |b| ==> Depth(b[..k]) >= 0
  }

  /** Inside `pre + b + "}" + rest`, the slices from the end of `pre` up to the closing brace are those of `b`. */
  lemma BodySlices(pre: string, b: string, rest: string, k: nat)
    requires k <= |b|
    ensures (pre + b + "}" + rest)[|pre|..|pre| + k] == b[..k]
    ensures (pre + b + "}" + rest)[|pre|..|pre| + |b| + 1] == b + "}"
  {
  }

  /** The scan stops at `i` when the depth first reaches zero there. */
  lemma {:induction false} CloseFromAt(s: string, from: nat, pos: nat, to: nat, depth: int, i: nat)
    requires from <= pos <= i < to <= |s| && depth == 1 + Depth(s[from..pos])
    requires OpenThrough(s, from, i) && Depth(s[from..i + 1]) == -1
    ensures OpenThrough(s, from, pos) && CloseFrom(s, from, pos, to, depth) == Some(i)
    decreases i - pos
  {
    DepthStep(s, from, pos);
    if pos < i {
      assert Open(s, from, pos + 1);
      CloseFromAt(s, from, pos + 1, to, depth + Delta(s[pos]), i);
    }
  }

  /** `Close` finds `i` when the depth first reaches zero there. */
  lemma CloseAt(s: string, from: nat, to: nat, i: nat)
    requires from <= i < to <= |s|
    requires OpenThrough(s, from, i) && Depth(s[from..i + 1]) == -1
    ensures Close(s, from, to) == Some(i)
  {
    assert s[from..from] == [];
    CloseFromAt(s, from, from, to, 1, i);
  }

  /** Inside the body the depth never drops below zero. */
  lemma BodyDepths(pre: string, b: string, rest: string)
    requires Balanced(b)
    ensures var s := pre + b + "}" + rest;
            OpenThrough(s, |pre|, |pre| + |b|)
  {
    var s := pre + b + "}" + rest;
    forall k | |pre| <= k <= |pre| + |b| ensures Open(s, |pre|, k) {
      BodySlices(pre, b, rest, k - |pre|);
    }
  }

  /** The brace after the body takes the depth below zero. */
  lemma BodyCloseDepth(pre: string, b: string, rest: string)
    requires Balanced(b)
    ensures var s := pre + b + "}" + rest;
            Depth(s[|pre|..|pre| + |b| + 1]) == -1
  {
    BodySlices(pre, b, rest, 0);
    DepthSnoc(b, '}');
  }

  /**
    A balanced body followed by `}` closes exactly at the end of the body,
    whatever comes before or after: brace matching finds the block the
    header opened.
   */
  lemma BalancedBodyCloses(pre: string, b: string, rest: string)
    requires Balanced(b)
    ensures var s := pre + b + "}" + rest;
            Close(s, |pre|, |s|) == Some(|pre| + |b|)
  {
    var s := pre + b + "}" + rest;
    BodyDepths(pre, b, rest);
    BodyCloseDepth(pre, b, rest);
    CloseAt(s, |pre|, |s|, |pre| + |b|);
  }

  /**
    The block of a test header: the text up to the brace that closes it,
    or nothing when it never closes (`end` stays at `start`).
   */
  function TestBlock(dts: string, start: nat): (b: string)
    requires start <= |dts|
    ensures Close(dts, start, |dts|).Some? ==> b == dts[start..Close(dts, start, |dts|).value]
    ensures Close(dts, start, |dts|).None? ==> b == []
  {
    match Close(dts, start, |dts|)
    case Some(i) => dts[start..i]
    case None => []
  }

  /**
    The block of a sequence or step: the text up to the closing brace; when
    it never closes before `to`, the text up to `to` less its last
    character, because the slice ends at `pos - 1`.
   */
  function InnerBlock(s: string, from: nat, to: nat): (b: string)
    requires from <= to <= |s|
    ensures |b| <= to - from
    ensures Close(s, from, to).Some? ==> b == s[from..Close(s, from, to).value]
    ensures Close(s, from, to).None? && from < to ==> b == s[from..to - 1]
  {
    match Close(s, from, to)
    case Some(i) => s[from..i]
    case None => if from < to then s[from..to - 1] else []
  }

  /** A step with no closing brace before the next step loses its last character. */
  lemma UnclosedDropsLast(s: string, from: nat, to: nat)
    requires from < to <= |s| && forall k :: from <= k < to ==> s[k] != '}'
    ensures InnerBlock(s, from, to) == s[from..to - 1]
  {
  }

  /** The `sequence { … }` block of a test block, or nothing. */
  function SequenceBlock(tb: string): (b: string)
    ensures |b| <= |tb|
    ensures Find(tb, "sequence").None? ==> b == []
  {
    match Find(tb, "sequence")
    case None => []
    case Some(k) =>
      match FindFrom(tb, "{", k)
      case None => []
      case Some(bs) => InnerBlock(tb, bs + 1, |tb|)
  }

  /** A test block is the balanced body after its header. */
  lemma TestBlockIsBody(pre: string, b: string, rest: string)
    requires Balanced(b)
    ensures TestBlock(pre + b + "}" + rest, |pre|) == b
  {
    BalancedBodyCloses(pre, b, rest);
    BodySlices(pre, b, rest, |b|);
  }

  /** So is a sequence or step block that closes before its limit. */
  lemma InnerBlockIsBody(pre: string, b: string, rest: string, to: nat)
    requires Balanced(b) && |pre| + |b| < to <= |pre + b + "}" + rest|
    ensures InnerBlock(pre + b + "}" + rest, |pre|, to) == b
  {
    var s := pre + b + "}" + rest;
    BodyDepths(pre, b, rest);
    BodyCloseDepth(pre, b, rest);
    CloseAt(s, |pre|, to, |pre| + |b|);
    BodySlices(pre, b, rest, |b|);
  }

  /** A close found before a nearer limit is found with that limit too. */
  lemma CloseWithin(s: string, from: nat, to: nat, far: nat)
    requires from <= to <= far <= |s|
    requires Close(s, from, far).Some? && Close(s, from, far).value < to
    ensures Close(s, from, to) == Close(s, from, far)
  {
    var i := Close(s, from, far).value;
    CloseAt(s, from, to, i);
  }

  // ---------------------------------------------------------------------
  // Tests and steps
  // ---------------------------------------------------------------------

  /** A `step@N {` match in a sequence block: its number, where the match starts, and where its body starts. */
  datatype StepMatch = StepMatch(num: nat, start: nat, bodyStart: nat)

  /** One `name = value` match of a step: `<…>`, `"…"` or `[…]`. */
  datatype PropMatch = Angle(name: string, text: string) | Quoted(name: string, text: string) | Bracket(name: string, text: string)

  /** The regular-expression scans the parser runs, as functions of the text they scan. */
  datatype Scanners = Scanners(
    description: string -> Option<string>,
    timeout: string -> Option<nat>,
    steps: string -> seq<StepMatch>,
    action: string -> Option<string>,
    props: string -> seq<PropMatch>)

  /** `TestStep`. */
  datatype TestStep = TestStep(num: nat, action: string, properties: map<string, string>)

  /** `HILTest`. */
  datatype HilTest = HilTest(name: string, description: string, timeoutMs: nat, steps: seq<TestStep>)

  /** What a property match stores: angle-bracket text stripped, other text as matched. */
  function Entry(m: PropMatch): (e: (string, string))
    ensures e.0 == m.name
  {
    match m
    case Angle(n, t) => (n, Strip(t))
    case Quoted(n, t) => (n, t)
    case Bracket(n, t) => (n, t)
  }

  /** The step's property dict: every match assigned in turn. */
  function StepProperties(ms: seq<PropMatch>): (props: map<string, string>)
    ensures forall k :: k in props <==> exists i :: 0 <= i < |ms| && ms[i].name == k
  {
    var es := seq(|ms|, i requires 0 <= i < |ms| => Entry(ms[i]));
    assert forall i :: 0 <= i < |ms| ==> es[i].0 == ms[i].name;
    Assign(map[], es)
  }

  /** Where step `i` may extend to: the start of the next step match, or the end of the block. */
  function StepEnd(ms: seq<StepMatch>, i: nat, len: nat): nat
    requires i < |ms|
  {
    if i + 1 < |ms| then ms[i + 1].start else len
  }

  /** Python's slice bounds: clamped into the text. */
  function Clamp(k: nat, len: nat): (r: nat)
    ensures r <= len && (k <= len ==> r == k)
  {
    if k <= len then k else len
  }

  /** Step `i` of a sequence block: its body, brace-matched up to the next step. */
  function StepAt(block: string, ms: seq<StepMatch>, i: nat, sc: Scanners): (st: TestStep)
    requires i < |ms|
    ensures st.num == ms[i].num
  {
    var from := Clamp(ms[i].bodyStart, |block|);
    var to := Clamp(StepEnd(ms, i, |block|), |block|);
    var content := if from <= to then InnerBlock(block, from, to) else [];
    TestStep(ms[i].num, sc.action(content).GetOr(""), StepProperties(sc.props(content)))
  }

  /** The steps of a sequence block, in textual order; none for an empty block. */
  function Steps(block: string, sc: Scanners): (r: seq<TestStep>)
    ensures block == [] ==> r == []
    ensures block != [] ==> |r| == |sc.steps(block)|
                            && forall i :: 0 <= i < |r| ==> r[i].num == sc.steps(block)[i].num
  {
    if block == [] then []
    else
      var ms := sc.steps(block);
      seq(|ms|, i requires 0 <= i < |ms| => StepAt(block, ms, i, sc))
  }

  /** One test of `parse_test_dts`, from its name and the position after its header's brace. */
  function ParseTest(dts: string, name: string, start: nat, sc: Scanners): (t: HilTest)
    requires start <= |dts|
    ensures t.name == name
    ensures sc.timeout(TestBlock(dts, start)).None? ==> t.timeoutMs == 5000
  {
    var tb := TestBlock(dts, start);
    HilTest(name, sc.description(tb).GetOr(""), sc.timeout(tb).GetOr(5000), Steps(SequenceBlock(tb), sc))
  }

  /** `parse_test_dts`: one test per header match, in order. */
  function ParseTestDts(dts: string, headers: seq<(string, nat)>, sc: Scanners): (ts: seq<HilTest>)
    ensures |ts| == |headers|
    ensures forall i :: 0 <= i < |ts| ==> ts[i].name == headers[i].0
  {
    seq(|headers|, i requires 0 <= i < |headers| =>
      ParseTest(dts, headers[i].0, Clamp(headers[i].1, |dts|), sc))
  }

  // ---------------------------------------------------------------------
  // Generated C
  // ---------------------------------------------------------------------

  /** A statement of a generated test function; the ones that can fail return false. */
  datatype CStmt =
    | InjectAdcCall(channel: string, value: string)
    | Sleep(ms: string)
    | J1939Id(step: nat, pgn: string, priority: string, source: string)
    | CanIdLiteral(step: nat, canId: string)
    | InjectCanCall(step: nat, extended: string, data: string)
    | WaitGpioCall(pin: string, expected: string, timeoutMs: string)
    | WaitCanCall(step: nat, timeoutMs: string)
    | CheckPgn(step: nat, pgn: string)
    | LatencyCheck(maxUs: string)

  /** Statements that return false from the test function when their check fails. */
  predicate MayFail(st: CStmt)
  {
    !(st.Sleep? || st.J1939Id? || st.CanIdLiteral?)
  }

  /** `properties.get(key, default)`. */
  function Get(props: map<string, string>, key: string, default: string): (v: string)
    ensures key in props ==> v == props[key]
    ensures key !in props ==> v == default
  {
    if key in props then props[key] else default
  }

  /** The actions the generator knows. */
  predicate Known(action: string)
  {
    || action == "inject-adc" || action == "inject-can" || action == "inject-can-pgn"
    || action == "wait-gpio-high" || action == "wait-gpio-low" || action == "expect-can"
    || action == "measure-latency" || action == "delay"
  }

  /** `inject-adc`, given what `int(delay_ms)` reads: the injection, then a sleep when that is positive; None when `int` raises. */
  function AdcCode(p: map<string, string>, delay: Option<int>): (r: Option<seq<CStmt>>)
    ensures r.None? <==> delay.None?
    ensures r.Some? ==> NoPgnCheck(r.value) && 1 <= |r.value| <= 2 && r.value[0].InjectAdcCall?
    ensures r.Some? ==> (|r.value| == 2 <==> delay.value > 0)
  {
    match delay
    case None => None
    case Some(d) =>
      var inject := InjectAdcCall(Get(p, "channel", "0"), Get(p, "value", "0"));
      Some(if d > 0 then [inject, Sleep(Get(p, "delay-ms", "0"))] else [inject])
  }

  /** `inject-can` and `inject-can-pgn`: the identifier, raw or built from a PGN, then the injection. */
  function CanCode(action: string, p: map<string, string>, n: nat): (r: seq<CStmt>)
    ensures |r| == 2 && NoPgnCheck(r) && r[1].InjectCanCall?
    ensures r[0].J1939Id? <==> action == "inject-can-pgn"
  {
    var id := if action == "inject-can-pgn"
              then J1939Id(n, Get(p, "pgn", "0"), Get(p, "priority", "6"), Get(p, "source-addr", "0x28"))
              else CanIdLiteral(n, Get(p, "can-id", "0"));
    [id, InjectCanCall(n, Get(p, "extended", "1"), Get(p, "data", "[0x00]"))]
  }

  /** `expect-can`: the wait, then the PGN check when a non-empty `pgn` is given. */
  function ExpectCanCode(p: map<string, string>, n: nat): (r: seq<CStmt>)
    ensures 1 <= |r| <= 2 && r[0] == WaitCanCall(n, Get(p, "timeout-ms", "1000"))
    ensures |r| == 2 <==> "pgn" in p && p["pgn"] != []
    ensures |r| == 2 ==> r[1] == CheckPgn(n, p["pgn"])
  {
    var wait := WaitCanCall(n, Get(p, "timeout-ms", "1000"));
    if "pgn" in p && p["pgn"] != [] then [wait, CheckPgn(n, p["pgn"])] else [wait]
  }

  /**
    The code of one step. None when `int(delay_ms)` of an ADC injection
    raises; nothing for an action the generator does not know.
   */
  function StepCode(st: TestStep): (r: Option<seq<CStmt>>)
    ensures r.None? <==> st.action == "inject-adc" && ParseInt(Get(st.properties, "delay-ms", "0"), 10).None?
    ensures r.Some? && st.action != "expect-can" ==> NoPgnCheck(r.value)
  {
    var p := st.properties;
    if st.action == "inject-adc" then AdcCode(p, ParseInt(Get(p, "delay-ms", "0"), 10))
    else if st.action == "inject-can" || st.action == "inject-can-pgn" then Some(CanCode(st.action, p, st.num))
    else if st.action == "wait-gpio-high" || st.action == "wait-gpio-low" then
      Some([WaitGpioCall(Get(p, "pin", "0"), if st.action == "wait-gpio-high" then "1" else "0", Get(p, "timeout-ms", "1000"))])
    else if st.action == "expect-can" then Some(ExpectCanCode(p, st.num))
    else if st.action == "measure-latency" then Some([LatencyCheck(Get(p, "max-latency-us", "50000"))])
    else if st.action == "delay" then Some([Sleep(Get(p, "duration-ms", "100"))])
    else Some([])
  }

  /** An action the generator does not know produces no code. */
  lemma UnknownEmitsNothing(st: TestStep)
    requires !Known(st.action)
    ensures StepCode(st) == Some([])
  {
  }

  /** `wait-gpio-high` waits for 1 and `wait-gpio-low` for 0. */
  lemma GpioLevels(num: nat, props: map<string, string>)
    ensures StepCode(TestStep(num, "wait-gpio-high", props)).value[0].expected == "1"
    ensures StepCode(TestStep(num, "wait-gpio-low", props)).value[0].expected == "0"
  {
  }

  /**
    The comprehensive generator's `expect-can-pgn` steps produce no code,
    and its `delay` steps, which carry `delay-ms`, sleep the default 100 ms.
   */
  lemma ComprehensiveStepsMisread(num: nat, props: map<string, string>)
    requires "duration-ms" !in props
    ensures StepCode(TestStep(num, "expect-can-pgn", props)) == Some([])
    ensures StepCode(TestStep(num, "delay", props)) == Some([Sleep("100")])
  {
    UnknownEmitsNothing(TestStep(num, "expect-can-pgn", props));
  }

  /** An ADC injection sleeps after itself exactly when its delay reads as positive. */
  lemma InjectSleeps(st: TestStep)
    requires st.action == "inject-adc" && StepCode(st).Some?
    ensures var d := ParseInt(Get(st.properties, "delay-ms", "0"), 10).value;
            |StepCode(st).value| == (if d > 0 then 2 else 1) && StepCode(st).value[0].InjectAdcCall?
  {
    assert StepCode(st) == AdcCode(st.properties, ParseInt(Get(st.properties, "delay-ms", "0"), 10));
  }

  /** The PGN the runner reads from a received identifier. */
  function ReceivedPgn(id: bv32): (pgn: bv32)
    ensures pgn < 0x40000
  {
    (id >> 8) & 0x3FFFF
  }

  /**
    The runner's PGN check agrees with the J1939 layer: a frame built for
    an 18-bit PGN passes, and a wider PGN never matches.
   */
  lemma PgnCheckMatchesJ1939(pgn: bv32, priority: bv8, sa: bv8)
    ensures ReceivedPgn(J1939.BuildIdFromPgn(pgn, priority, sa)) == J1939.ExtractPgn(J1939.BuildIdFromPgn(pgn, priority, sa))
    ensures pgn < 0x40000 <==> ReceivedPgn(J1939.BuildIdFromPgn(pgn, priority, sa)) == pgn
  {
    J1939.PgnRoundTrip(pgn, priority, sa);
  }

  /** The code of a test's steps, in order; None when some step's code is. */
  function TestCode(steps: seq<TestStep>): (r: Option<seq<CStmt>>)
    ensures r.Some? <==> forall i :: 0 <= i < |steps| ==> StepCode(steps[i]).Some?
    decreases |steps|
  {
    if steps == [] then Some([])
    else
      assert forall i :: 1 <= i < |steps| ==> steps[i] == steps[1..][i - 1];
      var a := StepCode(steps[0]);
      var b := TestCode(steps[1..]);
      if a.Some? && b.Some? then Some(a.value + b.value) else None
  }

  /** How many times a statement list declares `received_pgn`. */
  function PgnDeclarations(code: seq<CStmt>): nat
  {
    if code == [] then 0 else (if code[0].CheckPgn? then 1 else 0) + PgnDeclarations(code[1..])
  }

  /** Declarations add up over concatenation. */
  lemma {:induction false} PgnDeclarationsAppend(a: seq<CStmt>, b: seq<CStmt>)
    ensures PgnDeclarations(a + b) == PgnDeclarations(a) + PgnDeclarations(b)
    decreases |a|
  {
    if a != [] {
      assert (a + b)[1..] == a[1..] + b;
      PgnDeclarationsAppend(a[1..], b);
    } else {
      assert a + b == b;
    }
  }

  /** A step that checks a PGN. */
  predicate ChecksPgn(st: TestStep)
  {
    st.action == "expect-can" && "pgn" in st.properties && st.properties["pgn"] != []
  }

  /** How many steps check a PGN. */
  function PgnSteps(steps: seq<TestStep>): nat
  {
    if steps == [] then 0 else (if ChecksPgn(steps[0]) then 1 else 0) + PgnSteps(steps[1..])
  }

  /** Statements none of which checks a PGN. */
  predicate NoPgnCheck(code: seq<CStmt>)
  {
    forall i :: 0 <= i < |code| ==> !code[i].CheckPgn?
  }

  /** Such statements declare no `received_pgn`. */
  lemma {:induction false} NoPgnDeclarations(code: seq<CStmt>)
    requires NoPgnCheck(code)
    ensures PgnDeclarations(code) == 0
    decreases |code|
  {
    if code != [] {
      assert forall i :: 0 <= i < |code[1..]| ==> code[1..][i] == code[i + 1];
      NoPgnDeclarations(code[1..]);
    }
  }

  /** One step declares `received_pgn` once if it checks a PGN, otherwise not at all. */
  lemma StepPgnDeclarations(st: TestStep)
    requires StepCode(st).Some?
    ensures PgnDeclarations(StepCode(st).value) == if ChecksPgn(st) then 1 else 0
  {
    var c := StepCode(st).value;
    if st.action == "expect-can" {
      assert c == ExpectCanCode(st.properties, st.num);
      if ChecksPgn(st) {
        assert c[1..][0] == c[1] && c[1].CheckPgn? && c[1..][1..] == [];
        assert PgnDeclarations(c[1..][1..]) == 0;
        assert PgnDeclarations(c[1..]) == 1;
      } else {
        assert c[1..] == [];
      }
    } else {
      NoPgnDeclarations(c);
    }
  }

  /**
    A test function declares `received_pgn` once per PGN-checking step in
    the same scope, so two such steps redeclare it and the C does not
    compile.
   */
  lemma {:induction false} PgnDeclarationsPerStep(steps: seq<TestStep>)
    requires TestCode(steps).Some?
    ensures PgnDeclarations(TestCode(steps).value) == PgnSteps(steps)
    decreases |steps|
  {
    if steps != [] {
      StepPgnDeclarations(steps[0]);
      PgnDeclarationsPerStep(steps[1..]);
      PgnDeclarationsAppend(StepCode(steps[0]).value, TestCode(steps[1..]).value);
    }
  }

  // ---------------------------------------------------------------------
  // Running a test function
  // ---------------------------------------------------------------------

  /**
    A generated test function run against the outcomes `ok` of its checks:
    it returns false from the first check that fails, and true after the
    last statement otherwise. `executed` counts the statements that ran.
   */
  method RunTest(code: seq<CStmt>, ok: nat -> bool) returns (passed: bool, executed: nat)
    ensures passed <==> forall j :: 0 <= j < |code| && MayFail(code[j]) ==> ok(j)
    ensures passed ==> executed == |code|
    ensures !passed ==> 1 <= executed <= |code| && MayFail(code[executed - 1]) && !ok(executed - 1)
                        && forall j :: 0 <= j < executed - 1 && MayFail(code[j]) ==> ok(j)
  {
    var i := 0;
    while i < |code|
      invariant 0 <= i <= |code|
      invariant forall j :: 0 <= j < i && MayFail(code[j]) ==> ok(j)
    {
      if MayFail(code[i]) && !ok(i) {
        return false, i + 1;
      }
      i := i + 1;
    }
    return true, |code|;
  }

  // ---------------------------------------------------------------------
  // The runner and its TAP report
  // ---------------------------------------------------------------------

  /** `test.name.replace('-', '_')`. */
  function FunctionName(name: string): (r: string)
    ensures |r| == |name| && forall i :: 0 <= i < |r| ==> r[i] != '-'
  {
    seq(|name|, i requires 0 <= i < |name| => if name[i] == '-' then '_' else name[i])
  }

  /** Two test names that differ only in `-` against `_` give one C function name twice. */
  lemma FunctionNamesCollide()
    ensures FunctionName("hil-test-a-b") == FunctionName("hil-test-a_b")
  {
  }

  /** The generated runner: the TAP plan, the test functions, and the `tap_result` calls in order. */
  datatype Runner = Runner(plan: nat, functions: seq<(string, seq<CStmt>)>, calls: seq<(string, string)>)

  /** The test functions, one per test in order; None when some step's code is. */
  function Functions(tests: seq<HilTest>): (r: Option<seq<(string, seq<CStmt>)>>)
    ensures r.Some? <==> forall i :: 0 <= i < |tests| ==> TestCode(tests[i].steps).Some?
    ensures r.Some? ==> |r.value| == |tests|
                        && forall i :: 0 <= i < |tests| ==> r.value[i].0 == FunctionName(tests[i].name)
                                                            && r.value[i].1 == TestCode(tests[i].steps).value
  {
    if forall i :: 0 <= i < |tests| ==> TestCode(tests[i].steps).Some? then
      Some(seq(|tests|, i requires 0 <= i < |tests| => (FunctionName(tests[i].name), TestCode(tests[i].steps).value)))
    else None
  }

  /** `generate_test_runner`. */
  function GenerateRunner(tests: seq<HilTest>): (r: Option<Runner>)
    ensures r.Some? <==> forall i :: 0 <= i < |tests| ==> TestCode(tests[i].steps).Some?
  {
    match Functions(tests)
    case None => None
    case Some(fs) =>
      Some(Runner(|tests|, fs, seq(|tests|, i requires 0 <= i < |tests| => (FunctionName(tests[i].name), tests[i].name))))
  }

  /**
    The plan announces as many tests as are reported, and report `i`
    calls the function generated for test `i` under that test's name.
   */
  lemma RunnerCallsInOrder(tests: seq<HilTest>)
    requires GenerateRunner(tests).Some?
    ensures var r := GenerateRunner(tests).value;
            r.plan == |r.calls| == |r.functions| == |tests|
            && forall i :: 0 <= i < |tests| ==> r.calls[i].0 == r.functions[i].0 && r.calls[i].1 == tests[i].name
  {
  }

  /** The runner's counters. */
  datatype Tally = Tally(run: nat, passed: nat, failed: nat)

  /** `tap_result`: the line it prints, numbered by the incremented run count, and the new counters. */
  function TapResult(t: Tally, passed: bool): (r: (Tally, nat))
    ensures r.0.run == t.run + 1 && r.1 == r.0.run
    ensures r.0.passed + r.0.failed == t.passed + t.failed + 1
    ensures passed <==> r.0.passed == t.passed + 1
    ensures !passed <==> r.0.failed == t.failed + 1
  {
    if passed then (Tally(t.run + 1, t.passed + 1, t.failed), t.run + 1)
    else (Tally(t.run + 1, t.passed, t.failed + 1), t.run + 1)
  }

  /** How many results are `b`. */
  function Count(results: seq<bool>, b: bool): nat
  {
    if results == [] then 0 else Count(results[..|results| - 1], b) + (if results[|results| - 1] == b then 1 else 0)
  }

  /** The counters and the numbers of the TAP lines after reporting `results` in order. */
  function Report(results: seq<bool>): (r: (Tally, seq<nat>))
    ensures |r.1| == |results|
  {
    if results == [] then (Tally(0, 0, 0), [])
    else
      var prev := Report(results[..|results| - 1]);
      var next := TapResult(prev.0, results[|results| - 1]);
      (next.0, prev.1 + [next.1])
  }

  /** After N reports the run count is N, passed and failed count the results, and lines are numbered 1 to N. */
  lemma {:induction false} ReportCounts(results: seq<bool>)
    ensures var r := Report(results);
            r.0.run == |results| && r.0.passed == Count(results, true) && r.0.failed == Count(results, false)
            && forall i :: 0 <= i < |results| ==> r.1[i] == i + 1
  {
    if results != [] {
      var init := results[..|results| - 1];
      ReportCounts(init);
      var prev := Report(init);
      assert forall i :: 0 <= i < |init| ==> Report(results).1[i] == prev.1[i];
    }
  }

  /** The exit status of the generated `main`. */
  function ExitCode(t: Tally): (code: int)
    ensures code == 0 || code == 1
  {
    if t.failed > 0 then 1 else 0
  }

  /** Some result is false exactly when the count of false results is positive. */
  lemma {:induction false} CountFalse(results: seq<bool>)
    ensures Count(results, false) > 0 <==> exists i :: 0 <= i < |results| && !results[i]
  {
    if results != [] {
      var init := results[..|results| - 1];
      CountFalse(init);
      assert forall i :: 0 <= i < |init| ==> init[i] == results[i];
      if !results[|results| - 1] {
        assert !results[|results| - 1];
      }
    }
  }

  /** The runner exits 1 exactly when some test failed. */
  lemma ExitIffFailure(results: seq<bool>)
    ensures ExitCode(Report(results).0) == 1 <==> exists i :: 0 <= i < |results| && !results[i]
  {
    ReportCounts(results);
    CountFalse(results);
  }
}

=== FILE: hiltests.dfy ===
/**
  The comprehensive HIL test generator
  (`scripts/generate_comprehensive_hil_tests.py`): how a node's properties
  are read, how nodes are sorted into categories, and which tests
  `generate_tests` writes for them, in which order, with which steps and
  numbers.

  The node pattern is not re-implemented: a node arrives with its name,
  its compatible string and the property matches found in its block. A
  test is modelled by what it says, not by its text: its builder, name,
  overall timeout and numbered steps.
 */
module HilTests {
  import opened Wrappers
  import opened Text
  import opened Dicts

  // ---------------------------------------------------------------------
  // Properties
  // ---------------------------------------------------------------------

  /** A property value: the integer of `<digits>`, or the text of a quoted string or a reference. */
  datatype PropValue = Num(n: nat) | Str(s: string)

  /** Numbers as text pairs. */
  function Numbers(nums: seq<(string, nat)>): (r: seq<(string, PropValue)>)
    ensures |r| == |nums| && forall i :: 0 <= i < |nums| ==> r[i] == (nums[i].0, Num(nums[i].1))
  {
    seq(|nums|, i requires 0 <= i < |nums| => (nums[i].0, Num(nums[i].1)))
  }

  /** Strings as text pairs. */
  function Strings(strs: seq<(string, string)>): (r: seq<(string, PropValue)>)
    ensures |r| == |strs| && forall i :: 0 <= i < |strs| ==> r[i] == (strs[i].0, Str(strs[i].1))
  {
    seq(|strs|, i requires 0 <= i < |strs| => (strs[i].0, Str(strs[i].1)))
  }

  /**
    `_parse_properties`: the `name = <digits>` matches, then the
    `name = "text"` matches, then the first `<&name>` reference as
    `source_ref`; each assignment overwrites the one before.
   */
  function ParseProperties(nums: seq<(string, nat)>, strs: seq<(string, string)>, firstRef: Option<string>): (m: map<string, PropValue>)
    ensures firstRef.Some? ==> "source_ref" in m && m["source_ref"] == Str(firstRef.value)
  {
    var m := Assign(Assign(map[], Numbers(nums)), Strings(strs));
    match firstRef
    case Some(r) => m["source_ref" := Str(r)]
    case None => m
  }

  /** A quoted value overrides a number of the same name. */
  lemma StringOverridesNumber(nums: seq<(string, nat)>, strs: seq<(string, string)>, i: nat)
    requires i < |strs| && strs[i].0 != "source_ref"
    requires forall j :: i < j < |strs| ==> strs[j].0 != strs[i].0
    ensures ParseProperties(nums, strs, None)[strs[i].0] == Str(strs[i].1)
  {
    var ps := Strings(strs);
    assert ps[i].0 == strs[i].0;
    assert forall j :: i < j < |ps| ==> ps[j].0 != strs[i].0;
    AssignLastWins(Assign(map[], Numbers(nums)), ps, i);
  }

  /** A number is kept when no quoted value has its name. */
  lemma NumberKept(nums: seq<(string, nat)>, strs: seq<(string, string)>, i: nat)
    requires i < |nums| && nums[i].0 != "source_ref"
    requires forall j :: i < j < |nums| ==> nums[j].0 != nums[i].0
    requires forall j :: 0 <= j < |strs| ==> strs[j].0 != nums[i].0
    ensures ParseProperties(nums, strs, None)[nums[i].0] == Num(nums[i].1)
  {
    var k := nums[i].0;
    var ns := Numbers(nums);
    assert ns[i].0 == k;
    AssignLastWins(map[], ns, i);
    var ps := Strings(strs);
    assert forall j :: 0 <= j < |ps| ==> ps[j].0 != k;
    AssignKeeps(Assign(map[], ns), ps, k);
  }

  /** `properties.get(key, default)` where the value takes part in arithmetic: None for text, the `TypeError`. */
  function NumProp(props: map<string, PropValue>, key: string, default: nat): (r: Option<nat>)
    ensures key !in props ==> r == Some(default)
    ensures key in props ==> (r.Some? <==> props[key].Num?) && (r.Some? ==> r.value == props[key].n)
  {
    if key !in props then Some(default)
    else match props[key]
      case Num(n) => Some(n)
      case Str(_) => None
  }

  /** `properties.get(key, default)` where the value is only written out. */
  function RawProp(props: map<string, PropValue>, key: string, default: nat): (v: PropValue)
    ensures key in props ==> v == props[key]
    ensures key !in props ==> v == Num(default)
  {
    if key in props then props[key] else Num(default)
  }

  // ---------------------------------------------------------------------
  // Categories
  // ---------------------------------------------------------------------

  datatype HilNode = HilNode(name: string, compatible: string, properties: map<string, PropValue>)

  datatype Category = HwInput | Merge | FaultMonitor | CyclicOutput | Pid | Remap | Scale | Uncategorized

  /** The first-match substring chain of `parse_dts`. */
  function CategoryOf(compatible: string): (k: Category)
    ensures k == HwInput <==> Contains(compatible, "hw-adc-input") || Contains(compatible, "hw-spi-input")
    ensures k == Merge ==> Contains(compatible, "mid-merge")
    ensures k == Uncategorized ==> !Contains(compatible, "mid-merge") && !Contains(compatible, "fault-monitor")
                                   && !Contains(compatible, "cyclic-output") && !Contains(compatible, "lq-pid")
  {
    if Contains(compatible, "hw-adc-input") || Contains(compatible, "hw-spi-input") then HwInput
    else if Contains(compatible, "mid-merge") then Merge
    else if Contains(compatible, "fault-monitor") then FaultMonitor
    else if Contains(compatible, "cyclic-output") then CyclicOutput
    else if Contains(compatible, "lq-pid") then Pid
    else if Contains(compatible, "lq-remap") then Remap
    else if Contains(compatible, "lq-scale") then Scale
    else Uncategorized
  }

  /** A text of which `p` is a substring contains `p`. */
  lemma ContainsWithin(a: string, p: string, b: string)
    ensures Contains(a + p + b, p)
  {
    assert (a + p + b)[|a|..|a| + |p|] == p;
    assert At(a + p + b, |a|, p);
  }

  /** A text lacking one of the characters of `p` does not contain `p`. */
  lemma MissingChar(s: string, p: string, j: nat)
    requires j < |p| && p[j] !in s
    ensures !Contains(s, p)
  {
    forall i | 0 <= i <= |s| ensures !At(s, i, p) {
      if i + |p| <= |s| {
        assert s[i..i + |p|][j] == s[i + j] && s[i + j] in s;
      }
    }
  }

  /** A CAN hardware input is not a hardware input here: only ADC and SPI ones are. */
  lemma CanInputNotCounted()
    ensures CategoryOf("lq,hw-can-input") != HwInput
  {
    MissingChar("lq,hw-can-input", "hw-adc-input", 4);
    MissingChar("lq,hw-can-input", "hw-spi-input", 3);
  }

  /** The nodes of one category, in order. */
  function OfCategory(nodes: seq<HilNode>, k: Category): (r: seq<HilNode>)
    ensures |r| <= |nodes|
    ensures forall n :: n in r <==> n in nodes && CategoryOf(n.compatible) == k
    decreases |nodes|
  {
    if nodes == [] then []
    else
      var rest := OfCategory(nodes[1..], k);
      assert forall n :: n in nodes <==> n == nodes[0] || n in nodes[1..];
      if CategoryOf(nodes[0].compatible) == k then [nodes[0]] + rest else rest
  }

  // ---------------------------------------------------------------------
  // Tests
  // ---------------------------------------------------------------------

  /** What a step does; `channels = "0,1"` of the multi-channel step is fixed and not kept. */
  datatype Action =
    | InjectAdc(channel: nat, value: int, delayMs: Option<nat>)
    | InjectMultiAdc(values: seq<int>, settleMs: nat)
    | InjectAdcPeriodic(channel: nat, value: int, periodMs: nat, count: nat)
    | Delay(ms: nat)
    | ExpectCanPgn(pgn: PropValue, timeoutMs: nat)
    | MeasureLatency(maxLatencyUs: nat)

  /** `step@index { … }`. */
  datatype Step = Step(index: nat, action: Action)

  /** The builder a test comes from. */
  datatype TestKind =
    | AllNominal | SingleInput | MergeAgree | MergeWithin | MergeFault | MergeStale
    | FaultHigh | FaultLow | OutputTiming | BoundaryZero | BoundaryMax | Latency | PidProportional | PidIntegral

  /** One `hil-test-…` node. */
  datatype Test = Test(kind: TestKind, name: string, timeoutMs: nat, steps: seq<Step>)

  /** `name.replace('_', '-')`. */
  function Dashed(name: string): (r: string)
    ensures |r| == |name| && forall i :: 0 <= i < |r| ==> r[i] != '_'
    ensures forall i :: 0 <= i < |name| && name[i] != '_' ==> r[i] == name[i]
  {
    seq(|name|, i requires 0 <= i < |name| => if name[i] == '_' then '-' else name[i])
  }

  /** The steps `step@0 … step@n-1` of a test, numbered by position. */
  predicate NumberedInOrder(steps: seq<Step>)
  {
    forall i :: 0 <= i < |steps| ==> steps[i].index == i
  }

  /** The three nominal injections on one input, numbered `3·idx + rep`. */
  function NominalInjects(hw: seq<HilNode>, idx: nat): (r: Option<seq<Step>>)
    requires idx <= |hw|
    ensures r.Some? ==> |r.value| == 3 * (|hw| - idx)
    ensures r.Some? ==> forall i :: 0 <= i < |r.value| ==> r.value[i].index == 3 * idx + i
    ensures r.Some? <==> forall j :: idx <= j < |hw| ==> NumProp(hw[j].properties, "stale-us", 10000).Some?
    decreases |hw| - idx
  {
    if idx == |hw| then Some([])
    else
      match (NumProp(hw[idx].properties, "stale-us", 10000), NominalInjects(hw, idx + 1))
      case (Some(stale), Some(rest)) =>
        var delay := (stale / 3) / 1000;
        Some(seq(3, rep requires 0 <= rep < 3 => Step(3 * idx + rep, InjectAdc(idx, 2500, Some(delay)))) + rest)
      case _ => None
  }

  /** The expectations of the nominal test, one per cyclic output, numbered on from `first`. */
  function NominalExpects(outputs: seq<HilNode>, first: nat): (r: Option<seq<Step>>)
    ensures r.Some? ==> |r.value| == |outputs|
    ensures r.Some? ==> forall i :: 0 <= i < |r.value| ==> r.value[i].index == first + i && r.value[i].action.ExpectCanPgn?
    ensures r.Some? <==> forall j :: 0 <= j < |outputs| ==> NumProp(outputs[j].properties, "period-us", 100000).Some?
    decreases |outputs|
  {
    if outputs == [] then Some([])
    else
      var o := outputs[0];
      assert forall j :: 1 <= j < |outputs| ==> outputs[j] == outputs[1..][j - 1];
      match (NumProp(o.properties, "period-us", 100000), NominalExpects(outputs[1..], first + 1))
      case (Some(period), Some(rest)) =>
        Some([Step(first, ExpectCanPgn(RawProp(o.properties, "target-id", 0), period / 1000 + 100))] + rest)
      case _ => None
  }

  /** `_test_all_nominal`. */
  function NominalTest(hw: seq<HilNode>, outputs: seq<HilNode>): (r: Option<Test>)
    ensures r.Some? ==> r.value.kind == AllNominal && |r.value.steps| == 3 * |hw| + |outputs|
  {
    match (NominalInjects(hw, 0), NominalExpects(outputs, 3 * |hw|))
    case (Some(a), Some(b)) => Some(Test(AllNominal, "hil-test-all-nominal", 5000, a + b))
    case _ => None
  }

  /** The nominal test numbers its steps `step@0, step@1, …` without gaps or repeats. */
  lemma NominalNumbered(hw: seq<HilNode>, outputs: seq<HilNode>)
    requires NominalTest(hw, outputs).Some?
    ensures NumberedInOrder(NominalTest(hw, outputs).value.steps)
  {
    var a := NominalInjects(hw, 0).value;
    var b := NominalExpects(outputs, 3 * |hw|).value;
    var s := a + b;
    forall i | 0 <= i < |s| ensures s[i].index == i {
      if i >= |a| { assert s[i] == b[i - |a|]; }
    }
  }

  /** Input `j` gets three injections of 2500 on its own channel, each followed by a third of its staleness window. */
  lemma {:induction false} NominalInjectAt(hw: seq<HilNode>, idx: nat, j: nat, rep: nat)
    requires idx <= j < |hw| && rep < 3 && NominalInjects(hw, idx).Some?
    ensures var stale := NumProp(hw[j].properties, "stale-us", 10000).value;
            NominalInjects(hw, idx).value[3 * (j - idx) + rep].action == InjectAdc(j, 2500, Some((stale / 3) / 1000))
    decreases j - idx
  {
    var rest := NominalInjects(hw, idx + 1);
    var stale := NumProp(hw[idx].properties, "stale-us", 10000).value;
    var head := seq(3, r requires 0 <= r < 3 => Step(3 * idx + r, InjectAdc(idx, 2500, Some((stale / 3) / 1000))));
    assert NominalInjects(hw, idx).value == head + rest.value;
    if j > idx {
      NominalInjectAt(hw, idx + 1, j, rep);
      assert (head + rest.value)[3 * (j - idx) + rep] == rest.value[3 * (j - idx - 1) + rep];
    }
  }

  /** `_test_single_input`: minimum, maximum and middle value on the input's channel. */
  function SingleInputTest(hw: HilNode, idx: nat): (t: Test)
    ensures t.kind == SingleInput && NumberedInOrder(t.steps) && |t.steps| == 3
    ensures forall i :: 0 <= i < 3 ==> t.steps[i].action.InjectAdc? && t.steps[i].action.channel == idx
  {
    Test(SingleInput, "hil-test-input-" + Dashed(hw.name), 2000,
         [Step(0, InjectAdc(idx, 0, None)), Step(1, InjectAdc(idx, 4095, None)), Step(2, InjectAdc(idx, 2048, None))])
  }

  /** One isolation test per hardware input, in order. */
  function InputTests(hw: seq<HilNode>, idx: nat): (r: seq<Test>)
    requires idx <= |hw|
    ensures |r| == |hw| - idx
    ensures forall i :: 0 <= i < |r| ==> r[i] == SingleInputTest(hw[idx + i], idx + i)
    decreases |hw| - idx
  {
    if idx == |hw| then [] else [SingleInputTest(hw[idx], idx)] + InputTests(hw, idx + 1)
  }

  /** The two values of the within-tolerance and the fault merge tests. */
  function MergeValues(tolerance: nat): (r: (int, int))
  {
    (2500 + tolerance / 2, 2500 + tolerance * 2)
  }

  /** `_test_merge_scenarios`: agree, within tolerance, fault, stale. */
  function MergeTests(m: HilNode): (r: Option<seq<Test>>)
    ensures r.Some? <==> NumProp(m.properties, "tolerance", 50).Some? && NumProp(m.properties, "stale-us", 10000).Some?
    ensures r.Some? ==> |r.value| == 4 && r.value[0].kind == MergeAgree && r.value[1].kind == MergeWithin
                        && r.value[2].kind == MergeFault && r.value[3].kind == MergeStale
  {
    var n := Dashed(m.name);
    match (NumProp(m.properties, "tolerance", 50), NumProp(m.properties, "stale-us", 10000))
    case (Some(tol), Some(stale)) =>
      var v := MergeValues(tol);
      Some([Test(MergeAgree, "hil-test-merge-" + n + "-agree", 2000, [Step(0, InjectMultiAdc([2500, 2500], 10))]),
            Test(MergeWithin, "hil-test-merge-" + n + "-within-tolerance", 2000, [Step(0, InjectMultiAdc([2500, v.0], 10))]),
            Test(MergeFault, "hil-test-merge-" + n + "-fault", 2000, [Step(0, InjectMultiAdc([2500, v.1], 10))]),
            Test(MergeStale, "hil-test-merge-" + n + "-stale", stale / 1000 + 1000,
                 [Step(0, InjectAdc(0, 2500, None)), Step(1, Delay(stale / 1000 + 100)), Step(2, InjectAdc(1, 2500, None))])])
    case _ => None
  }

  /**
    The within-tolerance pair differs by at most the tolerance and the
    fault pair by more, for any positive tolerance, so the two tests take
    the two branches of the voter.
   */
  lemma MergeValuesStraddle(tolerance: nat)
    requires tolerance > 0
    ensures MergeValues(tolerance).0 - 2500 <= tolerance < MergeValues(tolerance).1 - 2500
  {
  }

  /** The stale test waits past the staleness window, and its timeout leaves room for that wait. */
  lemma StaleTestOutwaitsWindow(m: HilNode)
    requires MergeTests(m).Some?
    ensures var t := MergeTests(m).value[3];
            var stale := NumProp(m.properties, "stale-us", 10000).value;
            t.steps[1].action.Delay? && t.steps[1].action.ms * 1000 > stale && t.steps[1].action.ms < t.timeoutMs
  {
  }

  /** The merge tests of every merge node, in order. */
  function AllMergeTests(ms: seq<HilNode>): (r: Option<seq<Test>>)
    ensures r.Some? <==> forall i :: 0 <= i < |ms| ==> MergeTests(ms[i]).Some?
    ensures r.Some? ==> |r.value| == 4 * |ms|
    decreases |ms|
  {
    if ms == [] then Some([])
    else
      assert forall i :: 1 <= i < |ms| ==> ms[i] == ms[1..][i - 1];
      var a := MergeTests(ms[0]);
      var b := AllMergeTests(ms[1..]);
      if a.Some? && b.Some? then Some(a.value + b.value) else None
  }

  /** `_test_fault_monitor`: one value above the high threshold, one below the low one. */
  function FaultTests(fm: HilNode): (r: Option<seq<Test>>)
    ensures r.Some? <==> NumProp(fm.properties, "high-threshold", 4000).Some? && NumProp(fm.properties, "low-threshold", 100).Some?
    ensures r.Some? ==> |r.value| == 2 && r.value[0].kind == FaultHigh && r.value[1].kind == FaultLow
  {
    var n := Dashed(fm.name);
    match (NumProp(fm.properties, "high-threshold", 4000), NumProp(fm.properties, "low-threshold", 100))
    case (Some(high), Some(low)) =>
      Some([Test(FaultHigh, "hil-test-fault-" + n + "-high", 2000, [Step(0, InjectAdc(0, high + 100, None))]),
            Test(FaultLow, "hil-test-fault-" + n + "-low", 2000, [Step(0, InjectAdc(0, low as int - 100, None))])])
    case _ => None
  }

  /** The injected values lie strictly outside the thresholds; below a low threshold of 100 the low one is negative. */
  lemma FaultValuesOutside(fm: HilNode)
    requires FaultTests(fm).Some?
    ensures var ts := FaultTests(fm).value;
            var high := NumProp(fm.properties, "high-threshold", 4000).value;
            var low := NumProp(fm.properties, "low-threshold", 100).value;
            ts[0].steps[0].action.value > high && ts[1].steps[0].action.value < low
            && (low < 100 <==> ts[1].steps[0].action.value < 0)
  {
  }

  /** The fault tests of every fault monitor, in order. */
  function AllFaultTests(fs: seq<HilNode>): (r: Option<seq<Test>>)
    ensures r.Some? <==> forall i :: 0 <= i < |fs| ==> FaultTests(fs[i]).Some?
    ensures r.Some? ==> |r.value| == 2 * |fs|
    decreases |fs|
  {
    if fs == [] then Some([])
    else
      assert forall i :: 1 <= i < |fs| ==> fs[i] == fs[1..][i - 1];
      var a := FaultTests(fs[0]);
      var b := AllFaultTests(fs[1..]);
      if a.Some? && b.Some? then Some(a.value + b.value) else None
  }

  /** `_test_cyclic_output`: one injection, then two frames expected, each within a period and 100 ms. */
  function OutputTest(o: HilNode): (r: Option<Test>)
    ensures r.Some? <==> NumProp(o.properties, "period-us", 100000).Some?
    ensures r.Some? ==> r.value.kind == OutputTiming && NumberedInOrder(r.value.steps)
  {
    match NumProp(o.properties, "period-us", 100000)
    case Some(period) =>
      var pgn := RawProp(o.properties, "target-id", 0);
      Some(Test(OutputTiming, "hil-test-output-" + Dashed(o.name), (period / 1000) * 3 + 500,
                [Step(0, InjectAdc(0, 2500, None)),
                 Step(1, ExpectCanPgn(pgn, period / 1000 + 100)),
                 Step(2, ExpectCanPgn(pgn, period / 1000 + 100))]))
    case None => None
  }

  /** The output test's timeout covers both of its waits, whatever the period. */
  lemma OutputTimeoutCoversWaits(o: HilNode)
    requires OutputTest(o).Some?
    ensures var t := OutputTest(o).value;
            t.steps[1].action.timeoutMs + t.steps[2].action.timeoutMs <= t.timeoutMs
  {
  }

  /** The output tests, one per cyclic output, in order. */
  function AllOutputTests(os: seq<HilNode>): (r: Option<seq<Test>>)
    ensures r.Some? <==> forall i :: 0 <= i < |os| ==> OutputTest(os[i]).Some?
    ensures r.Some? ==> |r.value| == |os|
    decreases |os|
  {
    if os == [] then Some([])
    else
      assert forall i :: 1 <= i < |os| ==> os[i] == os[1..][i - 1];
      var a := OutputTest(os[0]);
      var b := AllOutputTests(os[1..]);
      if a.Some? && b.Some? then Some([a.value] + b.value) else None
  }

  /** One injection of `value` on every input channel, numbered by channel. */
  function AllChannels(count: nat, value: int): (r: seq<Step>)
    ensures |r| == count && NumberedInOrder(r)
    ensures forall i :: 0 <= i < count ==> r[i].action == InjectAdc(i, value, None)
  {
    seq(count, i requires 0 <= i < count => Step(i, InjectAdc(i, value, None)))
  }

  /** `_test_boundaries`: all inputs at 0, then all at 4095. */
  function BoundaryTests(inputs: nat): (r: seq<Test>)
    ensures |r| == 2 && r[0].kind == BoundaryZero && r[1].kind == BoundaryMax
  {
    [Test(BoundaryZero, "hil-test-boundary-all-zero", 2000, AllChannels(inputs, 0)),
     Test(BoundaryMax, "hil-test-boundary-all-max", 2000, AllChannels(inputs, 4095))]
  }

  /** `_test_latency`. */
  const LatencyTest := Test(Latency, "hil-test-latency-measurement", 1000, [Step(0, MeasureLatency(10000))])

  /** `_test_pid`: a proportional step and an integral build-up. */
  function PidTests(p: HilNode): (r: seq<Test>)
    ensures |r| == 2 && r[0].kind == PidProportional && r[1].kind == PidIntegral
  {
    var n := Dashed(p.name);
    [Test(PidProportional, "hil-test-pid-" + n + "-proportional", 2000,
          [Step(0, InjectAdc(0, 2500, None)), Step(1, InjectAdc(1, 2000, None)), Step(2, Delay(100))]),
     Test(PidIntegral, "hil-test-pid-" + n + "-integral", 5000,
          [Step(0, InjectAdc(0, 2500, None)), Step(1, InjectAdcPeriodic(1, 2000, 50, 20))])]
  }

  /** The PID tests of every controller, in order. */
  function AllPidTests(ps: seq<HilNode>): (r: seq<Test>)
    ensures |r| == 2 * |ps|
    ensures forall t :: t in r ==> t.kind == PidProportional || t.kind == PidIntegral
    decreases |ps|
  {
    if ps == [] then [] else PidTests(ps[0]) + AllPidTests(ps[1..])
  }

  /** The node lists `generate_tests` reads. */
  datatype Categories = Categories(hw: seq<HilNode>, merges: seq<HilNode>, faults: seq<HilNode>,
                                   outputs: seq<HilNode>, pids: seq<HilNode>)

  /** `parse_dts`'s categorisation of the nodes; remap and scale nodes are collected but never tested. */
  function Categorize(nodes: seq<HilNode>): (c: Categories)
    ensures forall n :: n in c.hw <==> n in nodes && CategoryOf(n.compatible) == HwInput
  {
    Categories(OfCategory(nodes, HwInput), OfCategory(nodes, Merge), OfCategory(nodes, FaultMonitor),
               OfCategory(nodes, CyclicOutput), OfCategory(nodes, Pid))
  }

  /**
    `generate_tests`: nominal, inputs, merges, fault monitors, outputs,
    boundaries, latency, PIDs. None when a property used in arithmetic is
    a string, where the generator raises `TypeError`.
   */
  function GenerateTests(c: Categories): (r: Option<seq<Test>>)
    ensures r.Some? <==> NominalTest(c.hw, c.outputs).Some? && AllMergeTests(c.merges).Some?
                         && AllFaultTests(c.faults).Some? && AllOutputTests(c.outputs).Some?
  {
    match (NominalTest(c.hw, c.outputs), AllMergeTests(c.merges), AllFaultTests(c.faults), AllOutputTests(c.outputs))
    case (Some(nominal), Some(merges), Some(faults), Some(outputs)) =>
      Some([nominal] + InputTests(c.hw, 0) + merges + faults + outputs
           + BoundaryTests(|c.hw|) + [LatencyTest] + AllPidTests(c.pids))
    case _ => None
  }

  /** The number of tests: 4 + H + 4M + 2F + C + 2P. */
  lemma TestCount(c: Categories)
    requires GenerateTests(c).Some?
    ensures |GenerateTests(c).value| == 4 + |c.hw| + 4 * |c.merges| + 2 * |c.faults| + |c.outputs| + 2 * |c.pids|
  {
  }

  /** The section of the generated file a builder writes into, in file order. */
  function Section(k: TestKind): nat
  {
    match k
    case AllNominal => 0
    case SingleInput => 1
    case MergeAgree => 2
    case MergeWithin => 2
    case MergeFault => 2
    case MergeStale => 2
    case FaultHigh => 3
    case FaultLow => 3
    case OutputTiming => 4
    case BoundaryZero => 5
    case BoundaryMax => 5
    case Latency => 6
    case PidProportional => 7
    case PidIntegral => 7
  }

  /** Tests whose sections never go back. */
  predicate SectionsInOrder(ts: seq<Test>)
  {
    forall i, j :: 0 <= i < j < |ts| ==> Section(ts[i].kind) <= Section(ts[j].kind)
  }

  /** Every test of a block is in section `k`. */
  predicate AllInSection(ts: seq<Test>, k: nat)
  {
    forall t :: t in ts ==> Section(t.kind) == k
  }

  /** Tests at most at section `k`. */
  predicate UpToSection(ts: seq<Test>, k: nat)
  {
    forall t :: t in ts ==> Section(t.kind) <= k
  }

  /** Appending a block of one section at or after everything before keeps the order. */
  lemma AppendSection(a: seq<Test>, b: seq<Test>, k: nat)
    requires SectionsInOrder(a) && UpToSection(a, k) && AllInSection(b, k)
    ensures SectionsInOrder(a + b) && UpToSection(a + b, k)
  {
    var s := a + b;
    forall t | t in s ensures Section(t.kind) <= k {
      if t !in a { assert t in b; }
    }
    forall i, j | 0 <= i < j < |s| ensures Section(s[i].kind) <= Section(s[j].kind) {
      if j >= |a| {
        assert s[j] == b[j - |a|] && s[j] in b;
        if i < |a| { assert s[i] == a[i] && s[i] in a; } else { assert s[i] == b[i - |a|] && s[i] in b; }
      } else {
        assert s[i] == a[i] && s[j] == a[j];
      }
    }
  }

  /** The four tests of one merge node are in the merge section. */
  lemma OneMergeSection(m: HilNode)
    requires MergeTests(m).Some?
    ensures AllInSection(MergeTests(m).value, 2)
  {
    var a := MergeTests(m).value;
    assert a == [a[0], a[1], a[2], a[3]];
  }

  /** The two tests of one fault monitor are in the fault section. */
  lemma OneFaultSection(fm: HilNode)
    requires FaultTests(fm).Some?
    ensures AllInSection(FaultTests(fm).value, 3)
  {
    var a := FaultTests(fm).value;
    assert a == [a[0], a[1]];
  }

  /** The merge tests are all in the merge section. */
  lemma MergeSection(ms: seq<HilNode>)
    requires AllMergeTests(ms).Some?
    ensures AllInSection(AllMergeTests(ms).value, 2)
    decreases |ms|
  {
    if ms != [] {
      assert forall i :: 1 <= i < |ms| ==> ms[i] == ms[1..][i - 1];
      MergeSection(ms[1..]);
      OneMergeSection(ms[0]);
    }
  }

  /** The fault tests are all in the fault section. */
  lemma FaultSection(fs: seq<HilNode>)
    requires AllFaultTests(fs).Some?
    ensures AllInSection(AllFaultTests(fs).value, 3)
    decreases |fs|
  {
    if fs != [] {
      assert forall i :: 1 <= i < |fs| ==> fs[i] == fs[1..][i - 1];
      FaultSection(fs[1..]);
      OneFaultSection(fs[0]);
    }
  }

  /** The output tests are all in the output section. */
  lemma OutputSection(os: seq<HilNode>)
    requires AllOutputTests(os).Some?
    ensures AllInSection(AllOutputTests(os).value, 4)
    decreases |os|
  {
    if os != [] {
      assert forall i :: 1 <= i < |os| ==> os[i] == os[1..][i - 1];
      OutputSection(os[1..]);
    }
  }

  /** The isolation tests are all in the input section. */
  lemma InputSection(hw: seq<HilNode>)
    ensures AllInSection(InputTests(hw, 0), 1)
  {
    var inputs := InputTests(hw, 0);
    forall t | t in inputs ensures Section(t.kind) == 1 {
      var i :| 0 <= i < |inputs| && inputs[i] == t;
    }
  }

  /** The boundary tests are both in the boundary section. */
  lemma BoundarySection(inputs: nat)
    ensures AllInSection(BoundaryTests(inputs), 5)
  {
    var b := BoundaryTests(inputs);
    assert forall t :: t in b ==> t == b[0] || t == b[1];
  }

  /** The PID tests are all in the last section. */
  lemma PidSection(ps: seq<HilNode>)
    ensures AllInSection(AllPidTests(ps), 7)
  {
  }

  /** The first five blocks are in order and reach at most the output section. */
  lemma HeadInOrder(c: Categories)
    requires GenerateTests(c).Some?
    ensures var s := [NominalTest(c.hw, c.outputs).value] + InputTests(c.hw, 0) + AllMergeTests(c.merges).value
                     + AllFaultTests(c.faults).value + AllOutputTests(c.outputs).value;
            SectionsInOrder(s) && UpToSection(s, 4)
  {
    var s0 := [NominalTest(c.hw, c.outputs).value];
    var s1 := s0 + InputTests(c.hw, 0);
    var s2 := s1 + AllMergeTests(c.merges).value;
    var s3 := s2 + AllFaultTests(c.faults).value;
    InputSection(c.hw);
    AppendSection(s0, InputTests(c.hw, 0), 1);
    MergeSection(c.merges);
    AppendSection(s1, AllMergeTests(c.merges).value, 2);
    FaultSection(c.faults);
    AppendSection(s2, AllFaultTests(c.faults).value, 3);
    OutputSection(c.outputs);
    AppendSection(s3, AllOutputTests(c.outputs).value, 4);
  }

  /** The last three blocks follow anything that stops at the output section. */
  lemma TailInOrder(s: seq<Test>, inputs: nat, ps: seq<HilNode>)
    requires SectionsInOrder(s) && UpToSection(s, 4)
    ensures SectionsInOrder(s + BoundaryTests(inputs) + [LatencyTest] + AllPidTests(ps))
  {
    BoundarySection(inputs);
    AppendSection(s, BoundaryTests(inputs), 5);
    var s5 := s + BoundaryTests(inputs);
    AppendSection(s5, [LatencyTest], 6);
    PidSection(ps);
    AppendSection(s5 + [LatencyTest], AllPidTests(ps), 7);
  }

  /** The generated tests come in the order nominal, inputs, merges, faults, outputs, boundaries, latency, PIDs. */
  lemma TestOrder(c: Categories)
    requires GenerateTests(c).Some?
    ensures SectionsInOrder(GenerateTests(c).value)
    ensures GenerateTests(c).value[0].kind == AllNominal
  {
    HeadInOrder(c);
    TailInOrder([NominalTest(c.hw, c.outputs).value] + InputTests(c.hw, 0) + AllMergeTests(c.merges).value
                + AllFaultTests(c.faults).value + AllOutputTests(c.outputs).value, |c.hw|, c.pids);
  }

  /** The boundary tests inject 0 and 4095 on every input index. */
  lemma BoundariesCoverInputs(inputs: nat, idx: nat)
    requires idx < inputs
    ensures BoundaryTests(inputs)[0].steps[idx].action == InjectAdc(idx, 0, None)
    ensures BoundaryTests(inputs)[1].steps[idx].action == InjectAdc(idx, 4095, None)
  {
  }
}

=== FILE: hwinput.dfy ===
/**
  The hardware-input ring buffer (`src/drivers/lq_hw_input.c`, native
  build): raw samples pushed from interrupt context wait in a fixed
  128-slot ring until the engine pops them. The buffer is one static
  object; here it is a value the operations take and return. The platform
  clock is the parameter `nowMs`, the value `lq_platform_uptime_get` would
  return.
 */
module HwInput {
  import opened CInt
  import opened Ring
  import opened Wrappers

  /** `LQ_HW_RINGBUFFER_SIZE`. */
  const RING_SIZE: int := 128

  /** `struct lq_hw_sample`: source, raw value, capture time in microseconds. */
  datatype Sample = Sample(src: int, value: int, timestamp: int)

  /** The static `hw_ringbuf`. */
  datatype HwRing = HwRing(buffer: seq<Sample>, writeIdx: int, readIdx: int, count: int)

  /** What the declarations guarantee: 128 slots, indices within them, a `size_t` count. */
  predicate Shape(h: HwRing)
  {
    |h.buffer| == RING_SIZE && 0 <= h.writeIdx < RING_SIZE && 0 <= h.readIdx < RING_SIZE && 0 <= h.count
  }

  /** The invariant: at most 128 samples, from the read index on, the write index just past them. */
  predicate Valid(h: HwRing)
  {
    Shape(h) && h.count <= RING_SIZE && h.writeIdx == Pos(h.readIdx, h.count, RING_SIZE)
  }

  /** The samples waiting, oldest first. */
  function Contents(h: HwRing): (c: seq<Sample>)
    requires Shape(h) && h.count <= RING_SIZE
    ensures |c| == h.count
    ensures forall k :: 0 <= k < h.count ==> c[k] == h.buffer[Pos(h.readIdx, k, RING_SIZE)]
  {
    seq(h.count, k requires 0 <= k < h.count => h.buffer[Pos(h.readIdx, k, RING_SIZE)])
  }

  /**
    lq_hw_input_init: the indices and the count go back to zero whatever
    size is asked for; the slots keep their old contents. The mutex
    initialisation is the platform's and is taken to succeed.
   */
  function Init(h: HwRing, size: int): (r: (int, HwRing))
    requires Shape(h)
    ensures r.0 == 0 && Valid(r.1) && Contents(r.1) == [] && r.1.buffer == h.buffer
  {
    (0, h.(writeIdx := 0, readIdx := 0, count := 0))
  }

  /**
    The capture time of a sample pushed at `nowMs`. As written (`wide`
    false) the product `uptime * 1000` is computed in 32-bit unsigned
    arithmetic before it reaches the 64-bit field, so it wraps once the
    uptime passes 4,294,967 ms; the full product (`wide` true) is the
    microsecond time the field is declared to hold.
   */
  function TimestampWith(nowMs: int, wide: bool): (t: int)
    requires IsU32(nowMs)
    ensures IsU64(t)
    ensures wide ==> t == nowMs * 1000
    ensures !wide ==> IsU32(t) && (nowMs * 1000 < U32 ==> t == nowMs * 1000)
  {
    if wide then nowMs * 1000 else WrapU32(nowMs * 1000)
  }

  /** lq_hw_push: a sample goes in while there is room; a push onto a full ring is dropped silently. */
  function PushWith(h: HwRing, src: int, value: int, nowMs: int, wide: bool): (r: HwRing)
    requires Shape(h) && IsU32(nowMs)
    ensures Shape(r)
    ensures h.count >= RING_SIZE ==> r == h
    ensures h.count < RING_SIZE ==> r.count == h.count + 1 && r.readIdx == h.readIdx
  {
    if h.count < RING_SIZE then
      h.(buffer := h.buffer[h.writeIdx := Sample(src, value, TimestampWith(nowMs, wide))],
         writeIdx := Next(h.writeIdx, RING_SIZE), count := h.count + 1)
    else h
  }

  /** lq_hw_push as written, with the 32-bit timestamp product. */
  function PushAsWritten(h: HwRing, src: int, value: int, nowMs: int): (r: HwRing)
    requires Shape(h) && IsU32(nowMs)
    ensures Shape(r)
    ensures h.count < RING_SIZE ==> r.buffer[h.writeIdx] == Sample(src, value, WrapU32(nowMs * 1000))
  {
    PushWith(h, src, value, nowMs, false)
  }

  /** lq_hw_push with the timestamp computed in 64 bits. */
  function Push(h: HwRing, src: int, value: int, nowMs: int): (r: HwRing)
    requires Shape(h) && IsU32(nowMs)
    ensures Shape(r)
    ensures h.count < RING_SIZE ==> r.buffer[h.writeIdx] == Sample(src, value, nowMs * 1000)
  {
    PushWith(h, src, value, nowMs, true)
  }

  /** lq_hw_pop: the sample at the read index, or -1 and nothing when the ring is empty. */
  function Pop(h: HwRing): (r: (int, Option<Sample>, HwRing))
    requires Shape(h)
    ensures Shape(r.2)
    ensures r.0 == -1 <==> h.count == 0
    ensures r.0 == -1 ==> r.1.None? && r.2 == h
    ensures r.0 != -1 ==> r.0 == 0 && r.1 == Some(h.buffer[h.readIdx]) && r.2.count == h.count - 1
  {
    if h.count > 0 then
      (0, Some(h.buffer[h.readIdx]), h.(readIdx := Next(h.readIdx, RING_SIZE), count := h.count - 1))
    else (-1, None, h)
  }

  /** lq_hw_pending: the number of samples waiting, never more than the ring holds. */
  function Pending(h: HwRing): (n: int)
    requires Valid(h)
    ensures 0 <= n <= RING_SIZE && n == |Contents(h)|
  {
    h.count
  }

  // ---------------------------------------------------------------------
  // The ring as a sequence of samples

  /**
    A push appends the sample to the waiting ones while fewer than 128
    wait, and changes nothing once 128 wait.
   */
  lemma PushContents(h: HwRing, src: int, value: int, nowMs: int, wide: bool)
    requires Valid(h) && IsU32(nowMs)
    ensures var r := PushWith(h, src, value, nowMs, wide);
      && Valid(r)
      && Contents(r) == if h.count < RING_SIZE then Contents(h) + [Sample(src, value, TimestampWith(nowMs, wide))]
                        else Contents(h)
  {
    if h.count < RING_SIZE {
      var r := PushWith(h, src, value, nowMs, wide);
      var x := Sample(src, value, TimestampWith(nowMs, wide));
      var c, c' := Contents(h), Contents(r);
      forall k | 0 <= k < |c'|
        ensures c'[k] == (c + [x])[k]
      {
        if k < h.count {
          assert Pos(h.readIdx, k, RING_SIZE) != Pos(h.readIdx, h.count, RING_SIZE);
        }
      }
    }
  }

  /** A pop takes the oldest waiting sample and leaves the rest in order; -1 exactly when none waits. */
  lemma PopContents(h: HwRing)
    requires Valid(h)
    ensures var r := Pop(h);
      && Valid(r.2)
      && (r.0 == -1 <==> Contents(h) == [])
      && (r.0 == 0 ==> r.1 == Some(Contents(h)[0]) && Contents(r.2) == Contents(h)[1..])
  {
    if h.count > 0 {
      var r := Pop(h);
      var c, c' := Contents(h), Contents(r.2);
      assert c[0] == h.buffer[h.readIdx];
      forall k | 0 <= k < |c'|
        ensures c'[k] == c[1..][k]
      {
        assert Pos(r.2.readIdx, k, RING_SIZE) == Pos(h.readIdx, k + 1, RING_SIZE);
      }
    }
  }

  /** A raw reading handed to lq_hw_push: source, value and the uptime at the call. */
  datatype Reading = Reading(src: int, value: int, nowMs: int)

  predicate Clocked(xs: seq<Reading>)
  {
    forall i :: 0 <= i < |xs| ==> IsU32(xs[i].nowMs)
  }

  /** The samples the readings become. */
  function Samples(xs: seq<Reading>): (s: seq<Sample>)
    requires Clocked(xs)
    ensures |s| == |xs|
  {
    if xs == [] then []
    else [Sample(xs[0].src, xs[0].value, TimestampWith(xs[0].nowMs, true))] + Samples(xs[1..])
  }

  /** Pushes of the readings in order. */
  function PushAll(h: HwRing, xs: seq<Reading>): (r: HwRing)
    requires Shape(h) && Clocked(xs)
    ensures Shape(r)
    decreases |xs|
  {
    if xs == [] then h else PushAll(Push(h, xs[0].src, xs[0].value, xs[0].nowMs), xs[1..])
  }

  /**
    A burst of pushes keeps the first samples that fit: whatever waited
    before, then the burst's readings in order up to 128 samples in all;
    the rest are lost.
   */
  lemma {:induction false} PushAllKeepsFirst(h: HwRing, xs: seq<Reading>)
    requires Valid(h) && Clocked(xs)
    ensures Valid(PushAll(h, xs))
    ensures Contents(PushAll(h, xs)) == (Contents(h) + Samples(xs))[..Min(RING_SIZE, h.count + |xs|)]
    decreases |xs|
  {
    if xs != [] {
      var x := xs[0];
      var h1 := Push(h, x.src, x.value, x.nowMs);
      PushContents(h, x.src, x.value, x.nowMs, true);
      PushAllKeepsFirst(h1, xs[1..]);
      var sample := Sample(x.src, x.value, TimestampWith(x.nowMs, true));
      assert Samples(xs) == [sample] + Samples(xs[1..]);
      KeepFirstStep(Contents(h), sample, Samples(xs[1..]), Contents(h1));
    }
  }

  /** One push in the middle of a burst: the kept prefix is the same either way. */
  lemma KeepFirstStep(c: seq<Sample>, s: Sample, t: seq<Sample>, c1: seq<Sample>)
    requires |c| <= RING_SIZE && c1 == if |c| < RING_SIZE then c + [s] else c
    ensures (c1 + t)[..Min(RING_SIZE, |c1| + |t|)] == (c + ([s] + t))[..Min(RING_SIZE, |c| + 1 + |t|)]
  {
    if |c| < RING_SIZE {
      assert c1 + t == c + ([s] + t);
    } else {
      assert (c1 + t)[..RING_SIZE] == c == (c + ([s] + t))[..RING_SIZE];
    }
  }

  /** With the 64-bit product, a sample taken later never carries an earlier time. */
  lemma TimestampMonotone(a: int, b: int)
    requires IsU32(a) && IsU32(b) && a <= b
    ensures TimestampWith(a, true) <= TimestampWith(b, true)
  {
  }

  /**
    As written, the sample pushed one millisecond after the 32-bit product
    runs out carries a capture time of 704 µs, earlier than the one pushed
    a millisecond before it.
   */
  lemma TimestampWrapsBack()
    ensures TimestampWith(4294967, false) == 4294967000
    ensures TimestampWith(4294968, false) == 704
    ensures TimestampWith(4294968, false) < TimestampWith(4294967, false)
  {
    DivModUnique(4294968000, U32, 1, 704);
  }
}

=== FILE: isotp.dfy ===
/**
  ISO-TP, the segmentation and reassembly of ISO 15765-2 (`lq_isotp.c`).

  A message of up to 7 bytes goes out as one single frame (SF). A longer
  one goes out as a first frame (FF) carrying a 12-bit length and 6 bytes.
  The sender then waits for a flow control frame (FC) from the receiver.
  After that it sends consecutive frames (CF) of up to 7 bytes with a 4-bit
  sequence number, paced by the receiver's STmin and block size.

  Frames handed to the CAN driver are returned as a list instead of being
  sent through the callback (whose return value the C code ignores). The
  receive buffer is a sequence of the configured size. The sender's data
  pointer is the message itself.
 */
module IsoTp {
  import opened CInt
  import opened Bytes
  import opened Wrappers

  const PCI_SF: int := 0x00
  const PCI_FF: int := 0x10
  const PCI_CF: int := 0x20
  const PCI_FC: int := 0x30

  const FC_CTS: int := 0
  const FC_WAIT: int := 1
  const FC_OVFLW: int := 2

  const SF_MAX_DATA: int := 7
  const FF_DATA: int := 6
  const CF_MAX_DATA: int := 7

  const DEFAULT_TIMEOUT_MS: int := 1000
  const DEFAULT_BUF_SIZE: int := 4095

  /** A CAN frame's eight data bytes. */
  type Data8 = s: seq<Byte> | |s| == 8 witness [0, 0, 0, 0, 0, 0, 0, 0]

  /** `struct lq_isotp_can_frame`; the frames built here leave unused bytes zero. */
  datatype Frame = Frame(id: int, extended: bool, dlc: int, data: Data8)

  /** `struct lq_isotp_config`; timing fields are in ms. */
  datatype Config = Config(txId: int, rxId: int, extended: bool,
                           nBs: int, nStMin: int, nAs: int, nAr: int, nBsTimeout: int, nCr: int,
                           txBufSize: int, rxBufSize: int)

  predicate ValidConfig(c: Config)
  {
    IsU32(c.txId) && IsU32(c.rxId) && IsU32(c.nBs) && IsU32(c.nStMin) && IsU32(c.nAs) && IsU32(c.nAr)
    && IsU32(c.nBsTimeout) && IsU32(c.nCr) && c.txBufSize >= 0 && c.rxBufSize >= 0
  }

  datatype TxState = TxIdle | TxSendingSf | TxSendingFf | TxWaitFc | TxSendingCf
  datatype RxState = RxIdle | RxReceivingFf | RxReceivingCf

  /** `struct lq_isotp_channel`. */
  datatype Channel = Channel(
    cfg: Config,
    txState: TxState, txData: seq<Byte>, txOffset: int, txSn: int, txDeadline: int,
    rxState: RxState, rxBuf: seq<Byte>, rxLen: int, rxOffset: int, rxSn: int, rxDeadline: int,
    fcBs: int, fcStMin: int, blockCount: int, nextCfTime: int)

  /** The states the code can reach. */
  predicate ValidChannel(ch: Channel)
  {
    && ValidConfig(ch.cfg)
    && |ch.rxBuf| == ch.cfg.rxBufSize
    && (ch.txState == TxIdle || ch.txState == TxWaitFc || ch.txState == TxSendingCf)
    && (ch.txState != TxIdle ==> FF_DATA <= ch.txOffset < |ch.txData|)
    && 0 <= ch.txSn < 16 && IsU64(ch.txDeadline)
    && (ch.rxState == RxIdle || ch.rxState == RxReceivingCf)
    && 0 <= ch.rxOffset <= ch.rxLen <= |ch.rxBuf|
    && (ch.rxState == RxReceivingCf && ch.rxOffset > 0 ==> ch.rxOffset < ch.rxLen)
    && 0 <= ch.rxSn < 16 && IsU64(ch.rxDeadline)
    && IsU8(ch.fcBs) && IsU8(ch.fcStMin) && IsU8(ch.blockCount) && IsU64(ch.nextCfTime)
  }

  /** A call's return code, the channel afterwards and the frames sent. */
  datatype Step = Step(rc: int, ch: Channel, out: seq<Frame>)

  /** Eight data bytes: `b` followed by zeros. */
  function Pad8(b: seq<Byte>): (r: Data8)
    requires |b| <= 8
    ensures r[..|b|] == b
    ensures forall i :: |b| <= i < 8 ==> r[i] == 0
  {
    b + seq(8 - |b|, _ => 0)
  }

  // ---------------------------------------------------------------------
  // Frame layouts
  // ---------------------------------------------------------------------

  /** The upper nibble of byte 0 names the frame type. */
  function PciType(f: Frame): (r: int)
    ensures r in {0x00, 0x10, 0x20, 0x30, 0x40, 0x50, 0x60, 0x70, 0x80, 0x90, 0xA0, 0xB0, 0xC0, 0xD0, 0xE0, 0xF0}
  {
    (f.data[0] / 16) * 16
  }

  /** The lower nibble of byte 0: SF length, CF sequence number or FC status. */
  function LowNibble(f: Frame): (r: int)
    ensures 0 <= r < 16
  {
    f.data[0] % 16
  }

  /** The 12-bit message length of a first frame. */
  function FfLength(f: Frame): (r: int)
    ensures 0 <= r < 0x1000
  {
    LowNibble(f) * 0x100 + f.data[1]
  }

  function SingleFrame(c: Config, msg: seq<Byte>): (f: Frame)
    requires 1 <= |msg| <= SF_MAX_DATA
    ensures f.dlc == |msg| + 1
  {
    Frame(c.txId, c.extended, |msg| + 1, Pad8([|msg|] + msg))
  }

  /** The first frame: length bits 8-11 in the PCI byte, bits 0-7 next, then 6 bytes. */
  function FirstFrame(c: Config, msg: seq<Byte>): (f: Frame)
    requires |msg| > SF_MAX_DATA
    ensures f.dlc == 8
  {
    Frame(c.txId, c.extended, 8, [PCI_FF + (|msg| / 0x100) % 16, |msg| % 0x100] + msg[..FF_DATA])
  }

  function ConsecutiveFrame(c: Config, sn: int, chunk: seq<Byte>): (f: Frame)
    requires 0 <= sn < 16 && |chunk| <= CF_MAX_DATA
    ensures f.dlc == |chunk| + 1
  {
    Frame(c.txId, c.extended, |chunk| + 1, Pad8([PCI_CF + sn] + chunk))
  }

  function FlowControl(c: Config, fs: int, bs: int, stMin: int): (f: Frame)
    requires 0 <= fs < 16 && IsU8(bs) && IsU8(stMin)
    ensures f.dlc == 3
  {
    Frame(c.txId, c.extended, 3, Pad8([PCI_FC + fs, bs, stMin]))
  }

  /** Each layout decodes to its own type and the fields it was built from. */
  lemma FrameLayouts(c: Config, msg: seq<Byte>, sn: int, chunk: seq<Byte>, fs: int, bs: int, st: int)
    requires 0 <= sn < 16 && |chunk| <= CF_MAX_DATA && 0 <= fs < 16 && IsU8(bs) && IsU8(st)
    ensures 1 <= |msg| <= SF_MAX_DATA ==>
      var f := SingleFrame(c, msg); PciType(f) == PCI_SF && LowNibble(f) == |msg| && f.data[1..1 + |msg|] == msg
    ensures |msg| > SF_MAX_DATA ==>
      var f := FirstFrame(c, msg); PciType(f) == PCI_FF && FfLength(f) == |msg| % 0x1000 && f.data[2..] == msg[..FF_DATA]
    ensures var f := ConsecutiveFrame(c, sn, chunk);
      PciType(f) == PCI_CF && LowNibble(f) == sn && f.data[1..1 + |chunk|] == chunk
    ensures var f := FlowControl(c, fs, bs, st);
      PciType(f) == PCI_FC && LowNibble(f) == fs && f.data[1] == bs && f.data[2] == st
  {
    if |msg| > SF_MAX_DATA {
      var f := FirstFrame(c, msg);
      var n := |msg|;
      assert f.data[0] == PCI_FF + (n / 0x100) % 16;
      DivModUnique(f.data[0], 16, 1, (n / 0x100) % 16);
      SplitMod(n, 0x100, 16);
    }
    var f := ConsecutiveFrame(c, sn, chunk);
    DivModUnique(f.data[0], 16, 2, sn);
    var g := FlowControl(c, fs, bs, st);
    DivModUnique(g.data[0], 16, 3, fs);
    if 1 <= |msg| <= SF_MAX_DATA {
      var h := SingleFrame(c, msg);
      DivModUnique(h.data[0], 16, 0, |msg|);
    }
  }

  /** STmin in µs: 0-127 are milliseconds, 0xF1-0xF9 are 100-900 µs, and other values mean none. */
  function StMinUs(st: int): (r: int)
    requires IsU8(st)
    ensures 0 <= r <= 127_000
    ensures st <= 127 ==> r == st * 1000
    ensures 0xF1 <= st <= 0xF9 ==> 100 <= r <= 900 && r % 100 == 0
    ensures (128 <= st < 0xF1 || st > 0xF9) ==> r == 0
  {
    if st <= 127 then st * 1000
    else if 0xF1 <= st <= 0xF9 then (st - 0xF0) * 100
    else 0
  }

  // ---------------------------------------------------------------------
  // Channel API
  // ---------------------------------------------------------------------

  function OrDefault(x: int, d: int): int
  {
    if x == 0 then d else x
  }

  /** lq_isotp_init: zero timing and buffer fields take their defaults; both directions idle. */
  function Init(cfg: Option<Config>, buffer: Option<seq<Byte>>): (r: (int, Option<Channel>))
    requires cfg.Some? ==> ValidConfig(cfg.value)
    requires cfg.Some? && buffer.Some? ==> |buffer.value| >= OrDefault(cfg.value.rxBufSize, DEFAULT_BUF_SIZE)
    ensures cfg.None? || buffer.None? <==> r.0 == -EINVAL
    ensures r.1.Some? <==> r.0 == 0
    ensures r.1.Some? ==>
      var ch := r.1.value;
      && ValidChannel(ch) && ch.txState == TxIdle && ch.rxState == RxIdle && ch.rxOffset == 0
      && ch.cfg.txBufSize > 0 && ch.cfg.rxBufSize > 0 && ch.cfg.nBsTimeout > 0 && ch.cfg.nCr > 0
      && ch.cfg.txId == cfg.value.txId && ch.cfg.rxId == cfg.value.rxId
  {
    if cfg.None? || buffer.None? then (-EINVAL, None)
    else
      var c0 := cfg.value;
      var c := c0.(nAs := OrDefault(c0.nAs, DEFAULT_TIMEOUT_MS), nAr := OrDefault(c0.nAr, DEFAULT_TIMEOUT_MS),
                   nBsTimeout := OrDefault(c0.nBsTimeout, DEFAULT_TIMEOUT_MS), nCr := OrDefault(c0.nCr, DEFAULT_TIMEOUT_MS),
                   txBufSize := OrDefault(c0.txBufSize, DEFAULT_BUF_SIZE),
                   rxBufSize := OrDefault(c0.rxBufSize, DEFAULT_BUF_SIZE));
      (0, Some(Channel(c, TxIdle, [], 0, 0, 0, RxIdle, buffer.value[..c.rxBufSize], 0, 0, 0, 0, 0, 0, 0, 0)))
  }

  /** Whether a send of `msg` is accepted: non-empty, sender idle, and within the TX buffer. */
  predicate SendAccepted(ch: Channel, msg: seq<Byte>)
  {
    |msg| > 0 && ch.txState == TxIdle && |msg| <= ch.cfg.txBufSize
  }

  /**
    lq_isotp_send: a single frame for up to 7 bytes (the sender is idle
    again at once), otherwise a first frame, after which the sender waits
    for flow control with CF sequence number 1 next.
   */
  function Send(ch: Channel, msg: seq<Byte>, now: int): (r: Step)
    requires ValidChannel(ch) && IsU64(now)
    ensures ValidChannel(r.ch)
    ensures |msg| == 0 ==> r == Step(-EINVAL, ch, [])
    ensures |msg| > 0 && ch.txState != TxIdle ==> r == Step(-EBUSY, ch, [])
    ensures |msg| > 0 && ch.txState == TxIdle && |msg| > ch.cfg.txBufSize ==> r == Step(-EMSGSIZE, ch, [])
    ensures r.rc == 0 <==> SendAccepted(ch, msg)
    ensures SendAccepted(ch, msg) && |msg| <= SF_MAX_DATA ==>
      r.out == [SingleFrame(ch.cfg, msg)] && r.ch.txState == TxIdle
    ensures SendAccepted(ch, msg) && |msg| > SF_MAX_DATA ==>
      && r.out == [FirstFrame(ch.cfg, msg)]
      && r.ch.txState == TxWaitFc && r.ch.txData == msg && r.ch.txOffset == FF_DATA && r.ch.txSn == 1
      && r.ch.txDeadline == WrapU64(now + ch.cfg.nBsTimeout * 1000)
    // the receive side is untouched
    ensures r.ch.rxState == ch.rxState && r.ch.rxBuf == ch.rxBuf && r.ch.rxOffset == ch.rxOffset && r.ch.rxLen == ch.rxLen
  {
    if |msg| == 0 then Step(-EINVAL, ch, [])
    else if ch.txState != TxIdle then Step(-EBUSY, ch, [])
    else if |msg| > ch.cfg.txBufSize then Step(-EMSGSIZE, ch, [])
    else if |msg| <= SF_MAX_DATA then
      Step(0, ch.(txState := TxIdle, txData := [], txOffset := 0), [SingleFrame(ch.cfg, msg)])
    else
      Step(0, ch.(txState := TxWaitFc, txData := msg, txOffset := FF_DATA, txSn := 1,
                  txDeadline := WrapU64(now + ch.cfg.nBsTimeout * 1000)),
           [FirstFrame(ch.cfg, msg)])
  }

  /**
    What a receiver does with a reception it abandons (a consecutive frame
    out of sequence, or a rejected first frame arriving mid-reception).
    `KeepPartial` is the code as written: only the state returns to idle.
    `DropPartial` also clears the offset and length, as the timeout path does.
   */
  datatype AbandonPolicy = KeepPartial | DropPartial

  function Abandon(ch: Channel, p: AbandonPolicy): (r: Channel)
    requires ValidChannel(ch)
    ensures ValidChannel(r) && r.rxState == RxIdle
    ensures p == DropPartial && ch.rxState == RxReceivingCf ==> r.rxOffset == 0 && r.rxLen == 0
    ensures p == KeepPartial || ch.rxState == RxIdle ==> r == ch.(rxState := RxIdle)
  {
    if p == DropPartial && ch.rxState == RxReceivingCf then ch.(rxState := RxIdle, rxOffset := 0, rxLen := 0)
    else ch.(rxState := RxIdle)
  }

  function HandleSingle(ch: Channel, f: Frame): (r: Step)
    requires ValidChannel(ch)
    ensures ValidChannel(r.ch) && r.out == []
  {
    var len := LowNibble(f);
    if len == 0 || len > SF_MAX_DATA then Step(-EINVAL, ch, [])
    else if len > |ch.rxBuf| then Step(-ENOMEM, ch, [])
    else Step(0, ch.(rxBuf := Splice(ch.rxBuf, 0, f.data[1..1 + len]), rxLen := len, rxOffset := len, rxState := RxIdle), [])
  }

  function HandleFirst(ch: Channel, f: Frame, now: int, p: AbandonPolicy): (r: Step)
    requires ValidChannel(ch) && IsU64(now)
    ensures ValidChannel(r.ch) && r.rc == 0
  {
    var len := FfLength(f);
    if len <= SF_MAX_DATA || len > |ch.rxBuf| then
      Step(0, Abandon(ch, p), [FlowControl(ch.cfg, FC_OVFLW, 0, 0)])
    else
      Step(0, ch.(rxBuf := Splice(ch.rxBuf, 0, f.data[2..8]), rxLen := len, rxOffset := FF_DATA, rxSn := 1,
                  rxState := RxReceivingCf, rxDeadline := WrapU64(now + ch.cfg.nCr * 1000)),
           [FlowControl(ch.cfg, FC_CTS, WrapU8(ch.cfg.nBs), WrapU8(ch.cfg.nStMin))])
  }

  function HandleConsecutive(ch: Channel, f: Frame, now: int, p: AbandonPolicy): (r: Step)
    requires ValidChannel(ch) && IsU64(now)
    ensures ValidChannel(r.ch) && r.out == []
  {
    if ch.rxState != RxReceivingCf then Step(-EINVAL, ch, [])
    else if LowNibble(f) != ch.rxSn then Step(-EINVAL, Abandon(ch, p), [])
    else
      var n := Min(ch.rxLen - ch.rxOffset, CF_MAX_DATA);
      var off := ch.rxOffset + n;
      Step(0, ch.(rxBuf := Splice(ch.rxBuf, ch.rxOffset, f.data[1..1 + n]), rxOffset := off,
                  rxSn := (ch.rxSn + 1) % 16, rxDeadline := WrapU64(now + ch.cfg.nCr * 1000),
                  rxState := if off >= ch.rxLen then RxIdle else RxReceivingCf), [])
  }

  function HandleFlowControl(ch: Channel, f: Frame, now: int): (r: Step)
    requires ValidChannel(ch) && IsU64(now)
    ensures ValidChannel(r.ch) && r.out == [] && r.rc == 0
  {
    if ch.txState != TxWaitFc then Step(0, ch, [])
    else
      var fs := LowNibble(f);
      if fs == FC_CTS then
        Step(0, ch.(fcBs := f.data[1], fcStMin := f.data[2], blockCount := 0, txState := TxSendingCf,
                    nextCfTime := WrapU64(now + StMinUs(f.data[2]))), [])
      else if fs == FC_WAIT then Step(0, ch.(txDeadline := WrapU64(now + ch.cfg.nBsTimeout * 1000)), [])
      else if fs == FC_OVFLW then Step(0, ch.(txState := TxIdle, txData := []), [])
      else Step(0, ch, [])
  }

  /** lq_isotp_recv, parameterised by what an abandoned reception leaves behind. */
  function RecvWith(ch: Channel, f: Frame, now: int, p: AbandonPolicy): (r: Step)
    requires ValidChannel(ch) && IsU64(now)
    ensures ValidChannel(r.ch)
  {
    if f.id != ch.cfg.rxId then Step(0, ch, [])
    else
      var pci := PciType(f);
      if pci == PCI_SF then HandleSingle(ch, f)
      else if pci == PCI_FF then HandleFirst(ch, f, now, p)
      else if pci == PCI_CF then HandleConsecutive(ch, f, now, p)
      else if pci == PCI_FC then HandleFlowControl(ch, f, now)
      else Step(-EINVAL, ch, [])
  }

  /** lq_isotp_recv as written. */
  function RecvAsWritten(ch: Channel, f: Frame, now: int): (r: Step)
    requires ValidChannel(ch) && IsU64(now)
    ensures ValidChannel(r.ch)
    ensures f.id != ch.cfg.rxId ==> r == Step(0, ch, [])
  {
    RecvWith(ch, f, now, KeepPartial)
  }

  /**
    lq_isotp_recv with abandoned receptions cleared. Frames for other ids
    are ignored; flow control never touches the receive side and data
    frames never touch the send side.
   */
  function Recv(ch: Channel, f: Frame, now: int): (r: Step)
    requires ValidChannel(ch) && IsU64(now)
    ensures ValidChannel(r.ch)
    ensures f.id != ch.cfg.rxId ==> r == Step(0, ch, [])
    ensures f.id == ch.cfg.rxId && PciType(f) == PCI_SF && !(1 <= LowNibble(f) <= SF_MAX_DATA) ==> r == Step(-EINVAL, ch, [])
    ensures f.id == ch.cfg.rxId && PciType(f) == PCI_CF && ch.rxState == RxIdle ==> r == Step(-EINVAL, ch, [])
    ensures f.id == ch.cfg.rxId && PciType(f) == PCI_CF && ch.rxState == RxReceivingCf && LowNibble(f) != ch.rxSn ==>
      r.rc == -EINVAL && r.ch == ch.(rxState := RxIdle, rxOffset := 0, rxLen := 0)
    ensures f.id == ch.cfg.rxId && PciType(f) == PCI_FF && (FfLength(f) <= SF_MAX_DATA || FfLength(f) > |ch.rxBuf|) ==>
      r.rc == 0 && r.out == [FlowControl(ch.cfg, FC_OVFLW, 0, 0)] && r.ch.rxState == RxIdle
    ensures f.id == ch.cfg.rxId && PciType(f) == PCI_FC ==>
      r.rc == 0 && r.out == [] && r.ch.rxState == ch.rxState && r.ch.rxBuf == ch.rxBuf
      && r.ch.rxOffset == ch.rxOffset && r.ch.rxLen == ch.rxLen
    ensures f.id == ch.cfg.rxId && PciType(f) == PCI_FC && ch.txState != TxWaitFc ==> r.ch == ch
    ensures f.id == ch.cfg.rxId && PciType(f) != PCI_FC ==>
      r.ch.txState == ch.txState && r.ch.txData == ch.txData && r.ch.txOffset == ch.txOffset
    ensures f.id == ch.cfg.rxId && PciType(f) !in {PCI_SF, PCI_FF, PCI_CF, PCI_FC} ==> r == Step(-EINVAL, ch, [])
  {
    RecvWith(ch, f, now, DropPartial)
  }

  /** send_consecutive_frame: the next chunk of at most 7 bytes, then idle, a new block, or more. */
  function SendConsecutive(ch: Channel, now: int): (r: (Channel, Frame))
    requires ValidChannel(ch) && ch.txState == TxSendingCf && IsU64(now)
    ensures ValidChannel(r.0)
    ensures r.1 == ConsecutiveFrame(ch.cfg, ch.txSn, ch.txData[ch.txOffset..ch.txOffset + Min(|ch.txData| - ch.txOffset, CF_MAX_DATA)])
    ensures r.0.txState == TxIdle <==> ch.txOffset + CF_MAX_DATA >= |ch.txData|
    ensures r.0.txState != TxIdle ==>
      r.0.txOffset == ch.txOffset + CF_MAX_DATA && r.0.txData == ch.txData && r.0.txSn == (ch.txSn + 1) % 16
    ensures r.0.txState == TxWaitFc <==>
      ch.txOffset + CF_MAX_DATA < |ch.txData| && ch.fcBs > 0 && WrapU8(ch.blockCount + 1) >= ch.fcBs
    ensures r.0.fcBs == ch.fcBs && r.0.fcStMin == ch.fcStMin
    ensures r.0.rxState == ch.rxState && r.0.rxBuf == ch.rxBuf && r.0.rxOffset == ch.rxOffset
            && r.0.rxLen == ch.rxLen && r.0.rxDeadline == ch.rxDeadline && r.0.nextCfTime == ch.nextCfTime
  {
    var n := Min(|ch.txData| - ch.txOffset, CF_MAX_DATA);
    var f := ConsecutiveFrame(ch.cfg, ch.txSn, ch.txData[ch.txOffset..ch.txOffset + n]);
    var off := ch.txOffset + n;
    var c1 := ch.(txOffset := off, txSn := (ch.txSn + 1) % 16, blockCount := WrapU8(ch.blockCount + 1));
    if off >= |ch.txData| then (c1.(txState := TxIdle, txData := []), f)
    else if ch.fcBs > 0 && c1.blockCount >= ch.fcBs then
      (c1.(txState := TxWaitFc, txDeadline := WrapU64(now + ch.cfg.nBsTimeout * 1000), blockCount := 0), f)
    else (c1, f)
  }

  /**
    lq_isotp_periodic: a flow-control wait past its deadline aborts the
    send and returns -ETIMEDOUT at once; otherwise at most one consecutive
    frame goes out when STmin has elapsed, and then a reception past its
    deadline is cleared with -ETIMEDOUT.
   */
  function Periodic(ch: Channel, now: int): (r: Step)
    requires ValidChannel(ch) && IsU64(now)
    ensures ValidChannel(r.ch) && |r.out| <= 1
    ensures ch.txState == TxWaitFc && now >= ch.txDeadline ==>
      r == Step(-ETIMEDOUT, ch.(txState := TxIdle, txData := []), [])
    ensures r.out != [] <==> ch.txState == TxSendingCf && now >= ch.nextCfTime
    ensures ch.txState == TxSendingCf && now >= ch.nextCfTime ==>
      var (c, f) := SendConsecutive(ch, now);
      && r.out == [f] && r.ch.txState == c.txState && r.ch.txData == c.txData
      && r.ch.txOffset == c.txOffset && r.ch.txSn == c.txSn
    ensures !(ch.txState == TxWaitFc && now >= ch.txDeadline) ==>
      if ch.rxState == RxReceivingCf && now >= ch.rxDeadline then
        r.rc == -ETIMEDOUT && r.ch.rxState == RxIdle && r.ch.rxOffset == 0 && r.ch.rxLen == 0
      else
        r.rc == 0 && r.ch.rxState == ch.rxState && r.ch.rxOffset == ch.rxOffset && r.ch.rxLen == ch.rxLen
    ensures r.ch.rxBuf == ch.rxBuf && r.ch.fcBs == ch.fcBs
  {
    if ch.txState == TxWaitFc && now >= ch.txDeadline then
      Step(-ETIMEDOUT, ch.(txState := TxIdle, txData := []), [])
    else
      var (c1, out) :=
        if ch.txState == TxSendingCf && now >= ch.nextCfTime then
          var (c, f) := SendConsecutive(ch, now);
          (if c.txState == TxSendingCf then c.(nextCfTime := WrapU64(now + StMinUs(c.fcStMin))) else c, [f])
        else (ch, []);
      if c1.rxState == RxReceivingCf && now >= c1.rxDeadline then
        Step(-ETIMEDOUT, c1.(rxState := RxIdle, rxOffset := 0, rxLen := 0), out)
      else Step(0, c1, out)
  }

  predicate TxDone(ch: Channel)
  {
    ch.txState == TxIdle
  }

  /** lq_isotp_rx_available: the receive buffer's first `rx_len` bytes, once reception is idle with data. */
  function RxAvailable(ch: Channel): (r: Option<seq<Byte>>)
    requires ValidChannel(ch)
    ensures r.Some? <==> ch.rxState == RxIdle && ch.rxOffset > 0
    ensures r.Some? ==> r.value == ch.rxBuf[..ch.rxLen]
  {
    if ch.rxState == RxIdle && ch.rxOffset > 0 then Some(ch.rxBuf[..ch.rxLen]) else None
  }

  /** lq_isotp_rx_ack: nothing is available afterwards. */
  function RxAck(ch: Channel): (r: Channel)
    requires ValidChannel(ch)
    ensures ValidChannel(r) && RxAvailable(r).None?
    ensures r == ch.(rxOffset := 0, rxLen := 0)
  {
    ch.(rxOffset := 0, rxLen := 0)
  }

  /** lq_isotp_abort: both directions idle, nothing available. */
  function Abort(ch: Channel): (r: Channel)
    requires ValidChannel(ch)
    ensures ValidChannel(r) && TxDone(r) && RxAvailable(r).None? && r.rxState == RxIdle
  {
    ch.(txState := TxIdle, txData := [], rxState := RxIdle, rxOffset := 0, rxLen := 0)
  }

  // ---------------------------------------------------------------------
  // Segmentation and reassembly
  // ---------------------------------------------------------------------

  /** The consecutive frames that carry `msg` from offset `off` with first sequence number `sn`. */
  function ConsecutiveFrames(c: Config, msg: seq<Byte>, off: int, sn: int): (r: seq<Frame>)
    requires 0 <= off <= |msg| && 0 <= sn < 16
    decreases |msg| - off
  {
    if off == |msg| then []
    else
      var n := Min(|msg| - off, CF_MAX_DATA);
      [ConsecutiveFrame(c, sn, msg[off..off + n])] + ConsecutiveFrames(c, msg, off + n, (sn + 1) % 16)
  }

  /** `ceil((|msg| - off) / 7)` frames. */
  lemma {:induction false} ConsecutiveFrameCount(c: Config, msg: seq<Byte>, off: int, sn: int)
    requires 0 <= off <= |msg| && 0 <= sn < 16
    ensures |ConsecutiveFrames(c, msg, off, sn)| == (|msg| - off + CF_MAX_DATA - 1) / CF_MAX_DATA
    decreases |msg| - off
  {
    if off < |msg| {
      var n := Min(|msg| - off, CF_MAX_DATA);
      ConsecutiveFrameCount(c, msg, off + n, (sn + 1) % 16);
      if n < CF_MAX_DATA {
        assert |msg| - off - n == 0;
      }
    }
  }

  /** The frames of one message: a single frame, or a first frame and the consecutive frames. */
  function Segments(c: Config, msg: seq<Byte>): (r: seq<Frame>)
    requires |msg| > 0
  {
    if |msg| <= SF_MAX_DATA then [SingleFrame(c, msg)]
    else [FirstFrame(c, msg)] + ConsecutiveFrames(c, msg, FF_DATA, 1)
  }

  /** A message of n bytes takes 1 frame when n <= 7, else 1 + ceil((n - 6) / 7). */
  lemma SegmentCount(c: Config, msg: seq<Byte>)
    requires |msg| > 0
    ensures |msg| <= SF_MAX_DATA ==> |Segments(c, msg)| == 1
    ensures |msg| > SF_MAX_DATA ==> |Segments(c, msg)| == 1 + (|msg| - FF_DATA + CF_MAX_DATA - 1) / CF_MAX_DATA
  {
    if |msg| > SF_MAX_DATA {
      ConsecutiveFrameCount(c, msg, FF_DATA, 1);
    }
  }

  /**
    Runs the sender with no block-size limit, calling the periodic function
    each time STmin has just elapsed, until the message is out.
   */
  function Pump(ch: Channel): (r: (Channel, seq<Frame>))
    requires ValidChannel(ch) && ch.txState == TxSendingCf && ch.fcBs == 0
    decreases |ch.txData| - ch.txOffset
  {
    var s := Periodic(ch, ch.nextCfTime);
    if s.ch.txState == TxSendingCf then
      var (c, fs) := Pump(s.ch);
      (c, s.out + fs)
    else (s.ch, s.out)
  }

  /** The pumped sender emits exactly the consecutive frames of the rest of its message, then is idle. */
  lemma {:induction false} PumpSendsRest(ch: Channel)
    requires ValidChannel(ch) && ch.txState == TxSendingCf && ch.fcBs == 0
    ensures Pump(ch).0.txState == TxIdle
    ensures Pump(ch).1 == ConsecutiveFrames(ch.cfg, ch.txData, ch.txOffset, ch.txSn)
    decreases |ch.txData| - ch.txOffset
  {
    var s := Periodic(ch, ch.nextCfTime);
    var n := Min(|ch.txData| - ch.txOffset, CF_MAX_DATA);
    var rest := ConsecutiveFrames(ch.cfg, ch.txData, ch.txOffset + n, (ch.txSn + 1) % 16);
    assert ConsecutiveFrames(ch.cfg, ch.txData, ch.txOffset, ch.txSn) == s.out + rest;
    if s.ch.txState == TxSendingCf {
      PumpSendsRest(s.ch);
    } else {
      assert rest == [];
    }
  }

  /** Feeds frames to a receiver at one instant, keeping only the channel. */
  function Feed(ch: Channel, frames: seq<Frame>, now: int): (r: Channel)
    requires ValidChannel(ch) && IsU64(now)
    ensures ValidChannel(r)
    decreases |frames|
  {
    if frames == [] then ch
    else Feed(Recv(ch, frames[0], now).ch, frames[1..], now)
  }

  /** Receiving mid-message: the receiver so far holds `msg`'s first `rxOffset` bytes. */
  predicate Receiving(ch: Channel, msg: seq<Byte>)
    requires ValidChannel(ch)
  {
    ch.rxState == RxReceivingCf && 0 < ch.rxOffset && ch.rxLen == |msg| && ch.rxBuf[..ch.rxOffset] == msg[..ch.rxOffset]
  }

  /** One in-sequence consecutive frame extends the received prefix by its chunk. */
  lemma OneConsecutive(ch: Channel, c: Config, msg: seq<Byte>, now: int)
    requires ValidChannel(ch) && IsU64(now) && Receiving(ch, msg) && c.txId == ch.cfg.rxId
    ensures var n := Min(|msg| - ch.rxOffset, CF_MAX_DATA);
      var r := Recv(ch, ConsecutiveFrame(c, ch.rxSn, msg[ch.rxOffset..ch.rxOffset + n]), now).ch;
      && r.rxOffset == ch.rxOffset + n && r.rxSn == (ch.rxSn + 1) % 16 && r.rxLen == |msg|
      && r.rxBuf[..r.rxOffset] == msg[..r.rxOffset]
      && (r.rxState == RxIdle <==> r.rxOffset == |msg|)
      && (r.rxState == RxReceivingCf ==> Receiving(r, msg))
  {
    var n := Min(|msg| - ch.rxOffset, CF_MAX_DATA);
    var chunk := msg[ch.rxOffset..ch.rxOffset + n];
    var f := ConsecutiveFrame(c, ch.rxSn, chunk);
    FrameLayouts(c, [], ch.rxSn, chunk, 0, 0, 0);
    var r := Recv(ch, f, now).ch;
    assert r.rxBuf == Splice(ch.rxBuf, ch.rxOffset, chunk);
    assert r.rxBuf[..ch.rxOffset + n] == ch.rxBuf[..ch.rxOffset] + chunk;
    assert msg[..ch.rxOffset + n] == msg[..ch.rxOffset] + chunk;
  }

  /** A receiver mid-message that is fed the rest of the consecutive frames ends idle holding the message. */
  lemma {:induction false} ReceiveRest(ch: Channel, c: Config, msg: seq<Byte>, now: int)
    requires ValidChannel(ch) && IsU64(now) && Receiving(ch, msg) && c.txId == ch.cfg.rxId
    ensures RxAvailable(Feed(ch, ConsecutiveFrames(c, msg, ch.rxOffset, ch.rxSn), now)) == Some(msg)
    decreases |msg| - ch.rxOffset
  {
    var n := Min(|msg| - ch.rxOffset, CF_MAX_DATA);
    var f := ConsecutiveFrame(c, ch.rxSn, msg[ch.rxOffset..ch.rxOffset + n]);
    var rest := ConsecutiveFrames(c, msg, ch.rxOffset + n, (ch.rxSn + 1) % 16);
    assert ConsecutiveFrames(c, msg, ch.rxOffset, ch.rxSn) == [f] + rest;
    OneConsecutive(ch, c, msg, now);
    var r := Recv(ch, f, now).ch;
    FeedStep(ch, f, rest, now);
    if r.rxState == RxReceivingCf {
      ReceiveRest(r, c, msg, now);
    } else {
      assert r.rxOffset == r.rxLen == |msg|;
      assert msg[..|msg|] == msg;
    }
  }

  /** Feeding a frame and then the rest is feeding them all. */
  lemma FeedStep(ch: Channel, f: Frame, rest: seq<Frame>, now: int)
    requires ValidChannel(ch) && IsU64(now)
    ensures Feed(ch, [f] + rest, now) == Feed(Recv(ch, f, now).ch, rest, now)
    ensures Feed(ch, [f], now) == Recv(ch, f, now).ch
  {
    assert ([f] + rest)[1..] == rest;
    assert [f][1..] == [];
  }

  /** The mirrored peer configuration the loopback needs. */
  predicate Mirrored(tx: Channel, rx: Channel)
  {
    tx.cfg.txId == rx.cfg.rxId && rx.cfg.txId == tx.cfg.rxId && WrapU8(rx.cfg.nBs) == 0
  }

  /** First frame out, flow control back: the receiver is mid-message and the sender may stream. */
  lemma Handshake(tx: Channel, rx: Channel, msg: seq<Byte>, now: int)
    requires ValidChannel(tx) && ValidChannel(rx) && IsU64(now) && Mirrored(tx, rx)
    requires tx.txState == TxIdle && SF_MAX_DATA < |msg| <= tx.cfg.txBufSize && |msg| < 0x1000 && |msg| <= |rx.rxBuf|
    ensures var s1 := Send(tx, msg, now);
      var r1 := Recv(rx, s1.out[0], now);
      && s1.out == [FirstFrame(tx.cfg, msg)]
      && |r1.out| == 1 && Receiving(r1.ch, msg) && r1.ch.rxOffset == FF_DATA && r1.ch.rxSn == 1
      && var s2 := Recv(s1.ch, r1.out[0], now);
      && s2.ch.txState == TxSendingCf && s2.ch.fcBs == 0
      && s2.ch.txData == msg && s2.ch.txOffset == FF_DATA && s2.ch.txSn == 1 && s2.ch.cfg == tx.cfg
  {
    var s1 := Send(tx, msg, now);
    var ff := FirstFrame(tx.cfg, msg);
    var fc := FlowControl(rx.cfg, FC_CTS, WrapU8(rx.cfg.nBs), WrapU8(rx.cfg.nStMin));
    FrameLayouts(tx.cfg, msg, 0, [], FC_CTS, WrapU8(rx.cfg.nBs), WrapU8(rx.cfg.nStMin));
    assert FfLength(ff) == |msg|;
    var r1 := Recv(rx, ff, now);
    assert r1.out == [fc];
    assert r1.ch.rxBuf[..FF_DATA] == msg[..FF_DATA];
  }

  /** The sender's half of the loopback: it ends idle, and the wire carries the message's segments. */
  lemma TransferSends(tx: Channel, rx: Channel, msg: seq<Byte>, now: int)
    requires ValidChannel(tx) && ValidChannel(rx) && IsU64(now) && Mirrored(tx, rx)
    requires tx.txState == TxIdle && SF_MAX_DATA < |msg| <= tx.cfg.txBufSize && |msg| < 0x1000 && |msg| <= |rx.rxBuf|
    ensures var s1 := Send(tx, msg, now);
      var s2 := Recv(s1.ch, Recv(rx, s1.out[0], now).out[0], now);
      && s2.ch.txState == TxSendingCf && s2.ch.fcBs == 0
      && Pump(s2.ch).0.txState == TxIdle
      && s1.out + Pump(s2.ch).1 == Segments(tx.cfg, msg)
  {
    Handshake(tx, rx, msg, now);
    var s1 := Send(tx, msg, now);
    var s2 := Recv(s1.ch, Recv(rx, s1.out[0], now).out[0], now);
    PumpSendsRest(s2.ch);
  }

  /** A first frame that fits starts a reception holding its six bytes, expecting sequence number 1. */
  lemma FirstFrameStarts(c: Config, rx: Channel, msg: seq<Byte>, now: int)
    requires ValidChannel(rx) && IsU64(now) && c.txId == rx.cfg.rxId
    requires SF_MAX_DATA < |msg| < 0x1000 && |msg| <= |rx.rxBuf|
    ensures var r := Recv(rx, FirstFrame(c, msg), now).ch;
      Receiving(r, msg) && r.rxOffset == FF_DATA && r.rxSn == 1
  {
    var ff := FirstFrame(c, msg);
    FrameLayouts(c, msg, 0, [], 0, 0, 0);
    assert FfLength(ff) == |msg|;
    var r := HandleFirst(rx, ff, now, DropPartial).ch;
    assert r.rxBuf[..FF_DATA] == msg[..FF_DATA];
  }

  /**
    Reassembly inverts segmentation: a receiver listening on the sender's
    id, with room for the message, that is fed the message's segments
    holds exactly the message.
   */
  lemma ReceiveSegments(c: Config, rx: Channel, msg: seq<Byte>, now: int)
    requires ValidChannel(rx) && IsU64(now) && c.txId == rx.cfg.rxId
    requires 0 < |msg| < 0x1000 && |msg| <= |rx.rxBuf|
    ensures RxAvailable(Feed(rx, Segments(c, msg), now)) == Some(msg)
  {
    if |msg| <= SF_MAX_DATA {
      SingleFrameRoundTrip(c, rx, msg, now);
      assert Feed(rx, Segments(c, msg), now) == Feed(Recv(rx, SingleFrame(c, msg), now).ch, [], now);
    } else {
      FirstFrameStarts(c, rx, msg, now);
      var r1 := Recv(rx, FirstFrame(c, msg), now).ch;
      var cfs := ConsecutiveFrames(c, msg, FF_DATA, 1);
      assert Segments(c, msg)[1..] == cfs;
      assert Feed(rx, Segments(c, msg), now) == Feed(r1, cfs, now);
      ReceiveRest(r1, c, msg, now);
    }
  }

  /**
    Loopback: a message of 8 to 4095 bytes sent on one channel, answered
    by a mirrored peer that asks for no block limit, and pumped out
    frame by frame, arrives whole at the peer.
   */
  lemma TransferRoundTrip(tx: Channel, rx: Channel, msg: seq<Byte>, now: int)
    requires ValidChannel(tx) && ValidChannel(rx) && IsU64(now) && Mirrored(tx, rx)
    requires tx.txState == TxIdle && SF_MAX_DATA < |msg| <= tx.cfg.txBufSize && |msg| < 0x1000 && |msg| <= |rx.rxBuf|
    ensures var s1 := Send(tx, msg, now);
      var s2 := Recv(s1.ch, Recv(rx, s1.out[0], now).out[0], now);
      && s2.ch.txState == TxSendingCf && s2.ch.fcBs == 0
      && RxAvailable(Feed(rx, s1.out + Pump(s2.ch).1, now)) == Some(msg)
  {
    TransferSends(tx, rx, msg, now);
    ReceiveSegments(tx.cfg, rx, msg, now);
  }

  /** A single-frame message arrives whole at any receiver listening on its id with room for it. */
  lemma SingleFrameRoundTrip(c: Config, rx: Channel, msg: seq<Byte>, now: int)
    requires ValidChannel(rx) && IsU64(now) && 1 <= |msg| <= SF_MAX_DATA && |msg| <= |rx.rxBuf|
    requires c.txId == rx.cfg.rxId
    ensures RxAvailable(Recv(rx, SingleFrame(c, msg), now).ch) == Some(msg)
  {
    FrameLayouts(c, msg, 0, [], 0, 0, 0);
  }

  // ---------------------------------------------------------------------
  // Abandoned receptions
  // ---------------------------------------------------------------------

  /** A receiver that reports data reports only bytes it received in full. */
  predicate Settled(ch: Channel)
  {
    ch.rxState == RxIdle ==> ch.rxOffset == 0 || ch.rxOffset == ch.rxLen
  }

  /**
    As written, a consecutive frame out of sequence leaves the partial
    reception readable: `rx_available` then reports the full announced
    length although only `rx_offset` bytes of it arrived.
   */
  lemma WrongSequenceLeavesPartial(ch: Channel, f: Frame, now: int)
    requires ValidChannel(ch) && IsU64(now)
    requires ch.rxState == RxReceivingCf && ch.rxOffset > 0
    requires f.id == ch.cfg.rxId && PciType(f) == PCI_CF && LowNibble(f) != ch.rxSn
    ensures RecvAsWritten(ch, f, now).rc == -EINVAL
    ensures RxAvailable(RecvAsWritten(ch, f, now).ch) == Some(ch.rxBuf[..ch.rxLen])
    ensures ch.rxOffset < ch.rxLen && !Settled(RecvAsWritten(ch, f, now).ch)
  {
  }

  /** With abandoned receptions cleared, every receive and timer step keeps the receiver settled. */
  lemma RecvKeepsSettled(ch: Channel, f: Frame, now: int)
    requires ValidChannel(ch) && IsU64(now) && Settled(ch)
    ensures Settled(Recv(ch, f, now).ch)
    ensures Settled(Periodic(ch, now).ch)
    ensures Settled(RxAck(ch)) && Settled(Abort(ch))
    ensures Settled(Send(ch, f.data, now).ch)
  {
  }

  /** So whatever a settled receiver reports is exactly the bytes of a completed reception. */
  lemma SettledReportsComplete(ch: Channel)
    requires ValidChannel(ch) && Settled(ch) && RxAvailable(ch).Some?
    ensures |RxAvailable(ch).value| == ch.rxOffset
  {
  }
}

=== FILE: j1939.dfy ===
/**
  SAE J1939 (`lq_j1939.h`, `lq_j1939.c`): the 29-bit identifier and its
  parameter group number (section 5.2 of SAE J1939-21), diagnostic trouble
  codes and the DM1/DM0 lamp-and-fault frames, and the J1939
  protocol driver. That driver decodes EEC1 and ET1 frames into events,
  caches signal values and sends its periodic frames.

  Identifiers and DTCs are `uint32_t` values that the C code packs with
  shifts, masks and ORs, so they are modelled as `bv32`. Frame payloads
  are bytes, as in the rest of the model.

  The DM1 byte layout is the one this code writes and reads. Bytes 2-4
  hold the 19-bit SPN low bits first, then the FMI; byte 5 holds the
  occurrence count shifted left by two. Encoder and decoder agree on that
  layout, but it is not the bit order of section 5.7.1 of SAE J1939-73.
 */
module J1939 {
  import opened CInt
  import opened Bytes
  import opened Wrappers
  import opened Events
  import opened Protocol

  const PGN_EEC1: bv32 := 65265
  const PGN_EEC2: bv32 := 65266
  const PGN_ET1: bv32 := 65262
  const PGN_EFL_P1: bv32 := 65263
  const PGN_DM1: bv32 := 65226
  const PGN_DM2: bv32 := 65227
  const PGN_DM13: bv32 := 57088
  const PGN_REQUEST: bv32 := 59904

  /** `signals[32]` and `cyclic_msgs[16]` in `struct lq_j1939_ctx`; `dtc_list[10]` in a DM1. */
  const MAX_SIGNALS: int := 32
  const MAX_CYCLIC: int := 16
  const MAX_DTCS: int := 10

  /** The priority every periodic frame is sent with. */
  const CYCLIC_PRIORITY: bv8 := 6

  /** The SPN value meaning "no DTC" in a DM1 frame (all 19 bits set). */
  const SPN_NOT_AVAILABLE: bv32 := 0x7FFFF

  /** The J1939 "not available" filler byte. */
  const NOT_AVAILABLE: Byte := 0xFF

  // ---------------------------------------------------------------------
  // Identifiers
  // ---------------------------------------------------------------------

  /** `lq_j1939_id_t`: the six fields of an identifier, each a `uint8_t`. */
  datatype Id = Id(priority: bv8, edp: bv8, dp: bv8, pf: bv8, ps: bv8, sa: bv8)

  /**
    lq_j1939_build_id. When every field is within its width, each field can
    be read back from its own bit range and the identifier fits in 29 bits.
   */
  function BuildId(id: Id): (r: bv32)
    ensures id.priority < 8 && id.edp < 2 && id.dp < 2 ==>
      && r & 0xFF == id.sa as bv32
      && (r >> 8) & 0xFF == id.ps as bv32
      && (r >> 16) & 0xFF == id.pf as bv32
      && (r >> 24) & 1 == id.dp as bv32
      && (r >> 25) & 1 == id.edp as bv32
      && r >> 26 == id.priority as bv32
  {
    (id.priority as bv32 << 26) | (id.edp as bv32 << 25) | (id.dp as bv32 << 24)
      | (id.pf as bv32 << 16) | (id.ps as bv32 << 8) | id.sa as bv32
  }

  /** lq_j1939_build_id_from_pgn: the PGN's EDP, DP, PF and PS bits with a priority and source address. */
  function BuildIdFromPgn(pgn: bv32, priority: bv8, sa: bv8): (r: bv32)
    ensures r & 0xFF == sa as bv32
    ensures priority < 8 ==> r >> 26 == priority as bv32 && r < 0x2000_0000
  {
    BuildId(Id(priority, ((pgn >> 17) & 1) as bv8, ((pgn >> 16) & 1) as bv8,
               ((pgn >> 8) & 0xFF) as bv8, (pgn & 0xFF) as bv8, sa))
  }

  /** lq_j1939_extract_pgn: the 18 bits above the source address. */
  function ExtractPgn(id: bv32): (pgn: bv32)
    ensures pgn < 0x40000
  {
    (id >> 8) & 0x3FFFF
  }

  /**
    A PGN survives being packed into an identifier and extracted again,
    whatever the priority and source address; a wider value comes back as
    its low 18 bits.
   */
  lemma PgnRoundTrip(pgn: bv32, priority: bv8, sa: bv8)
    ensures ExtractPgn(BuildIdFromPgn(pgn, priority, sa)) == pgn & 0x3FFFF
    ensures pgn < 0x40000 ==> ExtractPgn(BuildIdFromPgn(pgn, priority, sa)) == pgn
  {
  }

  // ---------------------------------------------------------------------
  // Diagnostic trouble codes
  // ---------------------------------------------------------------------

  /** lq_j1939_create_dtc: SPN in bits 0-18, FMI in 19-23, OC in 24-30; each field is masked first. */
  function CreateDtc(spn: bv32, fmi: bv8, oc: bv8): (dtc: bv32)
    ensures dtc < 0x8000_0000
  {
    (spn & 0x7FFFF) | ((fmi & 0x1F) as bv32 << 19) | ((oc & 0x7F) as bv32 << 24)
  }

  /** lq_j1939_get_spn. */
  function GetSpn(dtc: bv32): (spn: bv32)
    ensures spn < 0x80000
  {
    dtc & 0x7FFFF
  }

  /** lq_j1939_get_fmi. */
  function GetFmi(dtc: bv32): (fmi: bv8)
    ensures fmi < 32
  {
    ((dtc >> 19) & 0x1F) as bv8
  }

  /** lq_j1939_get_oc. */
  function GetOc(dtc: bv32): (oc: bv8)
    ensures oc < 128
  {
    ((dtc >> 24) & 0x7F) as bv8
  }

  lemma SpnField(spn: bv32, fmi: bv8, oc: bv8)
    ensures GetSpn(CreateDtc(spn, fmi, oc)) == spn & 0x7FFFF
  {
  }

  lemma FmiField(spn: bv32, fmi: bv8, oc: bv8)
    ensures GetFmi(CreateDtc(spn, fmi, oc)) == fmi & 0x1F
  {
  }

  lemma OcField(spn: bv32, fmi: bv8, oc: bv8)
    ensures GetOc(CreateDtc(spn, fmi, oc)) == oc & 0x7F
  {
  }

  /**
    The getters read back what lq_j1939_create_dtc packed: each field
    masked to its width, so in-range fields come back unchanged.
   */
  lemma DtcFields(spn: bv32, fmi: bv8, oc: bv8)
    ensures GetSpn(CreateDtc(spn, fmi, oc)) == spn & 0x7FFFF
    ensures GetFmi(CreateDtc(spn, fmi, oc)) == fmi & 0x1F
    ensures GetOc(CreateDtc(spn, fmi, oc)) == oc & 0x7F
    ensures spn < 0x80000 && fmi < 32 && oc < 128 ==>
      GetSpn(CreateDtc(spn, fmi, oc)) == spn && GetFmi(CreateDtc(spn, fmi, oc)) == fmi
      && GetOc(CreateDtc(spn, fmi, oc)) == oc
  {
    SpnField(spn, fmi, oc);
    FmiField(spn, fmi, oc);
    OcField(spn, fmi, oc);
  }

  /** A DTC is rebuilt from its fields exactly when its unused top bit is clear. */
  lemma DtcRebuild(dtc: bv32)
    ensures CreateDtc(GetSpn(dtc), GetFmi(dtc), GetOc(dtc)) == dtc <==> dtc < 0x8000_0000
  {
  }

  // ---------------------------------------------------------------------
  // DM1 and DM0
  // ---------------------------------------------------------------------

  /** `lq_j1939_lamp_t`. */
  datatype Lamp = LampOff | LampOn | LampSlowFlash | LampFastFlash

  /** The enumerator's value; reading it back from two bits gives the lamp again. */
  function LampCode(l: Lamp): (c: bv8)
    ensures c < 4 && LampOf(c) == l
  {
    match l
    case LampOff => 0
    case LampOn => 1
    case LampSlowFlash => 2
    case LampFastFlash => 3
  }

  /** The lamp held in the two low bits of `c`, as the DM1 decoder's `(lq_j1939_lamp_t)(x & 0x03)`. */
  function LampOf(c: bv8): (l: Lamp)
  {
    match c & 3
    case 0 => LampOff
    case 1 => LampOn
    case 2 => LampSlowFlash
    case _ => LampFastFlash
  }

  /** `lq_j1939_dm1_t`; `dtcs` is `dtc_list[0 .. dtc_count]`. */
  datatype Dm1 = Dm1(mil: Lamp, redStop: Lamp, amberWarning: Lamp, protect: Lamp,
                     flashMil: bv16, flashRedStop: bv16, flashAmberWarning: bv16, flashProtect: bv16,
                     dtcs: seq<bv32>)

  predicate ValidDm1(d: Dm1)
  {
    |d.dtcs| <= MAX_DTCS
  }

  /** The all-zero DM1 that `memset` leaves: lamps off, no flashing, no DTC. */
  const NO_FAULTS: Dm1 := Dm1(LampOff, LampOff, LampOff, LampOff, 0, 0, 0, 0, [])

  /** Bytes as the `uint8_t` values stored into the frame. */
  function Octets(b: seq<bv8>): (r: seq<Byte>)
    ensures |r| == |b| && forall i :: 0 <= i < |b| ==> r[i] as bv8 == b[i]
  {
    seq(|b|, i requires 0 <= i < |b| => b[i] as int)
  }

  /** The first eight bytes of a frame as `uint8_t` values. */
  function Bits8(data: seq<Byte>): (b: seq<bv8>)
    requires |data| >= 8
    ensures |b| == 8 && forall i :: 0 <= i < 8 ==> b[i] == data[i] as bv8
  {
    seq(8, i requires 0 <= i < 8 => data[i] as bv8)
  }

  /** A buffer of `n` "not available" bytes, as `memset(data, 0xFF, n)`. */
  function Filler(n: nat): (r: seq<Byte>)
    ensures |r| == n && forall i :: 0 <= i < n ==> r[i] == NOT_AVAILABLE
  {
    seq(n, _ => NOT_AVAILABLE)
  }

  /** A two-bit field of a flash pattern, `x & 0x03`, as a byte. */
  function Low2(x: bv16): (r: bv8)
    ensures r < 4 && r as bv16 == x & 3
  {
    (x & 3) as bv8
  }

  /** Byte 0 of a DM1: protect, amber, red stop and MIL lamps at bits 0-1, 2-3, 4-5 and 6-7. */
  function LampByte(d: Dm1): (b: bv8)
    ensures LampOf(b) == d.protect && LampOf(b >> 2) == d.amberWarning
    ensures LampOf(b >> 4) == d.redStop && LampOf(b >> 6) == d.mil
  {
    LampCode(d.protect) | (LampCode(d.amberWarning) << 2) | (LampCode(d.redStop) << 4) | (LampCode(d.mil) << 6)
  }

  /** Byte 1 of a DM1: the MIL, red stop, amber and protect flash patterns, two bits each. */
  function FlashByte(d: Dm1): (b: bv8)
    ensures (b & 3) as bv16 == d.flashMil & 3 && ((b >> 2) & 3) as bv16 == d.flashRedStop & 3
    ensures ((b >> 4) & 3) as bv16 == d.flashAmberWarning & 3 && ((b >> 6) & 3) as bv16 == d.flashProtect & 3
  {
    Low2(d.flashMil) | (Low2(d.flashRedStop) << 2) | (Low2(d.flashAmberWarning) << 4) | (Low2(d.flashProtect) << 6)
  }

  /**
    Bytes 2-7 of a DM1 carrying `dtc`: its SPN over bytes 2-4, its FMI in
    the top five bits of byte 4, and `(uint8_t)(oc << 2)` in byte 5 (the FMI
    never has bits above 4), then two zero bytes.
   */
  function DtcBytes(dtc: bv32): (b: seq<bv8>)
    ensures |b| == 6 && b[3] == (GetOc(dtc) & 63) << 2 && b[4] == 0 && b[5] == 0
  {
    var spn, fmi, oc := GetSpn(dtc), GetFmi(dtc), GetOc(dtc);
    [(spn & 0xFF) as bv8, ((spn >> 8) & 0xFF) as bv8,
     (((spn >> 16) & 7) as bv8) | ((fmi & 0x1F) << 3),
     ((fmi >> 5) & 3) | (oc << 2),
     0, 0]
  }

  /** The eight bytes of a DM1 frame: lamps, flash patterns, then the first DTC or 0xFF filler. */
  function Dm1Bytes(d: Dm1): (b: seq<bv8>)
    ensures |b| == 8 && b[0] == LampByte(d) && b[1] == FlashByte(d)
    ensures d.dtcs == [] ==> forall i :: 2 <= i < 8 ==> b[i] == 0xFF
    ensures d.dtcs != [] ==> b[2..] == DtcBytes(d.dtcs[0])
  {
    [LampByte(d), FlashByte(d)] + (if d.dtcs == [] then [0xFF, 0xFF, 0xFF, 0xFF, 0xFF, 0xFF] else DtcBytes(d.dtcs[0]))
  }

  /**
    lq_j1939_format_dm1 into a buffer of `len` bytes: none (-1) when the
    buffer is shorter than a frame. Otherwise every byte starts as 0xFF,
    bytes 0-1 carry the lamps, and bytes 2-7 carry the first DTC if there
    is one.
   */
  function FormatDm1(d: Dm1, len: int): (r: Option<seq<Byte>>)
    ensures r.None? <==> len < 8
    ensures r.Some? ==> |r.value| == len && Bits8(r.value) == Dm1Bytes(d)
    ensures r.Some? ==> forall i :: 8 <= i < len ==> r.value[i] == NOT_AVAILABLE
  {
    if len < 8 then None
    else
      var data := Octets(Dm1Bytes(d)) + Filler(len - 8);
      assert forall i :: 0 <= i < 8 ==> data[i] as bv8 == Dm1Bytes(d)[i];
      Some(data)
  }

  /** Without a DTC every byte after the lamps is filler; with one, bytes 6-7 are zero. */
  lemma Dm1Padding(d: Dm1, len: int)
    requires len >= 8
    ensures d.dtcs == [] ==> forall i :: 2 <= i < len ==> FormatDm1(d, len).value[i] == NOT_AVAILABLE
    ensures d.dtcs != [] ==> FormatDm1(d, len).value[6] == 0 && FormatDm1(d, len).value[7] == 0
  {
    var r := FormatDm1(d, len).value;
    var b := Dm1Bytes(d);
    assert forall i :: 0 <= i < 8 ==> r[i] as bv8 == b[i];
  }

  /** The SPN a DM1 frame's bytes 2-4 carry. */
  function FrameSpn(b2: bv8, b3: bv8, b4: bv8): (spn: bv32)
    ensures spn < 0x80000
  {
    b2 as bv32 | (b3 as bv32 << 8) | ((b4 & 7) as bv32 << 16)
  }

  /** The DTC bytes 2-5 of a DM1 frame carry, unless they carry the "not available" SPN. */
  function FrameDtcs(b2: bv8, b3: bv8, b4: bv8, b5: bv8): (r: seq<bv32>)
    ensures |r| <= 1 && (r == [] <==> FrameSpn(b2, b3, b4) == SPN_NOT_AVAILABLE)
  {
    var spn := FrameSpn(b2, b3, b4);
    var fmi := ((b4 >> 3) & 0x1F) | ((b5 & 3) << 5);
    var oc := (b5 >> 2) & 0x7F;
    if spn != SPN_NOT_AVAILABLE then [CreateDtc(spn, fmi, oc)] else []
  }

  /** A DM1 read from the eight bytes of a frame. */
  function Dm1Of(b: seq<bv8>): (d: Dm1)
    requires |b| == 8
    ensures ValidDm1(d) && |d.dtcs| <= 1
    ensures d.flashMil < 4 && d.flashRedStop < 4 && d.flashAmberWarning < 4 && d.flashProtect < 4
  {
    Dm1(LampOf(b[0] >> 6), LampOf(b[0] >> 4), LampOf(b[0] >> 2), LampOf(b[0]),
        (b[1] & 3) as bv16, ((b[1] >> 2) & 3) as bv16, ((b[1] >> 4) & 3) as bv16, ((b[1] >> 6) & 3) as bv16,
        FrameDtcs(b[2], b[3], b[4], b[5]))
  }

  /**
    lq_j1939_decode_dm1: none (-1) for fewer than eight bytes. Otherwise the
    lamps and flash patterns come from bytes 0-1, and bytes 2-5 give one
    DTC unless they carry the "not available" SPN.
   */
  function DecodeDm1(data: seq<Byte>): (r: Option<Dm1>)
    ensures r.None? <==> |data| < 8
    ensures r.Some? ==> ValidDm1(r.value) && |r.value.dtcs| <= 1
    ensures r.Some? ==> (r.value.dtcs == [] <==> FrameSpn(data[2] as bv8, data[3] as bv8, data[4] as bv8) == SPN_NOT_AVAILABLE)
  {
    if |data| < 8 then None else Some(Dm1Of(Bits8(data)))
  }

  /** The first DTC as a DM1 frame carries it: SPN and FMI intact, the OC cut to six bits. */
  function CarriedDtc(dtc: bv32): bv32
  {
    CreateDtc(GetSpn(dtc), GetFmi(dtc), GetOc(dtc) & 63)
  }

  /** The SPN bytes of a DTC read back as its SPN. */
  lemma DtcSpnReadBack(dtc: bv32)
    ensures var b := DtcBytes(dtc); FrameSpn(b[0], b[1], b[2]) == GetSpn(dtc)
  {
  }

  /** The DTC bytes of a frame read back as the DTC less the OC's top bit, or as none for the "not available" SPN. */
  lemma DtcReadBack(dtc: bv32)
    ensures var b := DtcBytes(dtc);
      FrameDtcs(b[0], b[1], b[2], b[3]) == if GetSpn(dtc) == SPN_NOT_AVAILABLE then [] else [CarriedDtc(dtc)]
  {
    DtcSpnReadBack(dtc);
    var b := DtcBytes(dtc);
    var fmi := ((b[2] >> 3) & 0x1F) | ((b[3] & 3) << 5);
    var oc := (b[3] >> 2) & 0x7F;
    assert fmi & 0x1F == GetFmi(dtc);
    assert oc == GetOc(dtc) & 63;
  }

  /**
    What a DM1 frame can carry of a DM1: its lamps, the low two bits of
    each flash pattern, and the first DTC less the top bit of its
    occurrence count. A first DTC whose SPN is the "not available" value,
    and every DTC after the first, is not carried.
   */
  function Carried(d: Dm1): Dm1
  {
    d.(flashMil := d.flashMil & 3, flashRedStop := d.flashRedStop & 3,
       flashAmberWarning := d.flashAmberWarning & 3, flashProtect := d.flashProtect & 3,
       dtcs := if d.dtcs == [] || GetSpn(d.dtcs[0]) == SPN_NOT_AVAILABLE then [] else [CarriedDtc(d.dtcs[0])])
  }

  /** The lamp and flash bytes read back as the lamps and the flash patterns' low bits. */
  lemma LampBytesReadBack(d: Dm1)
    ensures var b0, b1 := LampByte(d), FlashByte(d);
      && LampOf(b0 >> 6) == d.mil && LampOf(b0 >> 4) == d.redStop
      && LampOf(b0 >> 2) == d.amberWarning && LampOf(b0) == d.protect
      && (b1 & 3) as bv16 == d.flashMil & 3 && ((b1 >> 2) & 3) as bv16 == d.flashRedStop & 3
      && ((b1 >> 4) & 3) as bv16 == d.flashAmberWarning & 3 && ((b1 >> 6) & 3) as bv16 == d.flashProtect & 3
  {
  }

  /** Bytes 2-5 of a DM1 frame read back as the DTCs the frame carries. */
  lemma DtcTailReadBack(d: Dm1)
    ensures var b := Dm1Bytes(d); FrameDtcs(b[2], b[3], b[4], b[5]) == Carried(d).dtcs
  {
    var b := Dm1Bytes(d);
    if d.dtcs == [] {
      assert FrameSpn(b[2], b[3], b[4]) == SPN_NOT_AVAILABLE;
    } else {
      var t := DtcBytes(d.dtcs[0]);
      DtcReadBack(d.dtcs[0]);
      assert b[2] == t[0] && b[3] == t[1] && b[4] == t[2] && b[5] == t[3];
    }
  }

  /** The eight bytes of a DM1 frame read back as what the frame carries of it. */
  lemma Dm1BytesReadBack(d: Dm1)
    ensures Dm1Of(Dm1Bytes(d)) == Carried(d)
  {
    LampBytesReadBack(d);
    DtcTailReadBack(d);
  }

  /** Formatting then decoding a DM1 gives back what the frame carries of it. */
  lemma Dm1ReadBack(d: Dm1, len: int)
    requires len >= 8
    ensures DecodeDm1(FormatDm1(d, len).value) == Some(Carried(d))
  {
    Dm1BytesReadBack(d);
  }

  /** A well-formed DTC is carried unchanged exactly when its occurrence count is below 64. */
  lemma CarriedDtcSame(dtc: bv32)
    requires dtc < 0x8000_0000
    ensures CarriedDtc(dtc) == dtc <==> GetOc(dtc) < 64
  {
    DtcRebuild(dtc);
    OcField(GetSpn(dtc), GetFmi(dtc), GetOc(dtc) & 63);
  }

  /**
    For a DM1 with flash patterns below 4, a single well-formed DTC and a
    real SPN, decoding its frame gives it back exactly when the DTC's
    occurrence count is below 64.
   */
  lemma Dm1RoundTrip(d: Dm1, len: int)
    requires len >= 8
    requires d.flashMil < 4 && d.flashRedStop < 4 && d.flashAmberWarning < 4 && d.flashProtect < 4
    requires |d.dtcs| <= 1
    requires d.dtcs != [] ==> d.dtcs[0] < 0x8000_0000 && GetSpn(d.dtcs[0]) != SPN_NOT_AVAILABLE
    ensures DecodeDm1(FormatDm1(d, len).value) == Some(d) <==> (d.dtcs == [] || GetOc(d.dtcs[0]) < 64)
  {
    Dm1ReadBack(d, len);
    if d.dtcs != [] {
      CarriedDtcSame(d.dtcs[0]);
      assert Carried(d) == d <==> CarriedDtc(d.dtcs[0]) == d.dtcs[0];
    } else {
      assert Carried(d) == d;
    }
  }

  /**
    lq_j1939_format_dm0: none (-1) for a short buffer. Otherwise 0xFF
    everywhere except byte 0, which carries the stop lamp in bits 4-5 and
    the warning lamp in bits 2-3.
   */
  function FormatDm0(stop: Lamp, warning: Lamp, len: int): (r: Option<seq<Byte>>)
    ensures r.None? <==> len < 8
    ensures r.Some? ==> |r.value| == len && forall i :: 1 <= i < len ==> r.value[i] == NOT_AVAILABLE
  {
    if len < 8 then None
    else
      var data := Octets([(LampCode(stop) << 4) | (LampCode(warning) << 2)]) + Filler(len - 1);
      assert forall i :: 1 <= i < len ==> data[i] == Filler(len - 1)[i - 1];
      Some(data)
  }

  /**
    A DM0 frame read as a DM1 shows the stop lamp as red stop and the
    warning lamp as amber, with the other lamps off, all flash bits set and
    no DTC.
   */
  lemma Dm0ReadsAsDm1(stop: Lamp, warning: Lamp, len: int)
    requires len >= 8
    ensures DecodeDm1(FormatDm0(stop, warning, len).value)
      == Some(Dm1(LampOff, stop, warning, LampOff, 3, 3, 3, 3, []))
  {
    var data := FormatDm0(stop, warning, len).value;
    var b0 := (LampCode(stop) << 4) | (LampCode(warning) << 2);
    var b := Bits8(data);
    assert b[0] == b0;
    assert LampOf(b0 >> 4) == stop && LampOf(b0 >> 2) == warning;
    assert b[1] == 0xFF && b[2] == 0xFF && b[3] == 0xFF && b[4] == 0xFF;
  }

  // ---------------------------------------------------------------------
  // EEC1 payload helpers
  // ---------------------------------------------------------------------

  /**
    The engine speed an EEC1 payload carries: the little-endian raw value
    in bytes 3-4 at 0.125 rpm per bit. The C code multiplies by 0.125 in
    floating point and truncates; the product is exact, so this is the raw
    value divided by 8.
   */
  function Eec1Rpm(data: seq<Byte>): (rpm: int)
    requires |data| >= 5
    ensures 0 <= rpm < 8192
  {
    JoinLe16(data[3..5]) / 8
  }

  /** lq_j1939_decode_eec1: engine speed from bytes 3-4 and the raw torque byte 2. */
  function DecodeEec1(data: seq<Byte>): (r: (int, Byte))
    requires |data| >= 8
    ensures r.0 == Eec1Rpm(data) && r.1 == data[2]
  {
    (JoinLe16(data[3..5]) / 8, data[2])
  }

  /**
    lq_j1939_encode_eec1: 0xFF everywhere, the torque byte at 2 and the
    speed at 8 bits per rpm in bytes 3-4. The product is converted to
    `uint16_t`; it is reduced modulo 2^16 here.
   */
  function EncodeEec1(rpm: int, torque: Byte): (data: seq<Byte>)
    requires IsU16(rpm)
    ensures |data| == 8 && data[2] == torque
    ensures forall i :: 0 <= i < 8 && i !in {2, 3, 4} ==> data[i] == NOT_AVAILABLE
  {
    Filler(2) + [torque] + Le16(rpm * 8) + Filler(3)
  }

  /** A speed that fits in bytes 3-4 at 8 bits per rpm: 8·rpm is below 2^16. */
  lemma SpeedScale(rpm: int)
    requires 0 <= rpm
    ensures WrapU16(rpm * 8) / 8 == rpm <==> rpm < 8192
  {
    if rpm < 8192 {
      assert WrapU16(rpm * 8) == rpm * 8;
    }
  }

  /** The speed and torque survive EEC1 encoding and decoding exactly when the speed is below 8192 rpm. */
  lemma Eec1RoundTrip(rpm: int, torque: Byte)
    requires IsU16(rpm)
    ensures DecodeEec1(EncodeEec1(rpm, torque)) == (rpm, torque) <==> rpm < 8192
  {
    var data := EncodeEec1(rpm, torque);
    assert data[3..5] == Le16(rpm * 8);
    SpeedScale(rpm);
  }

  // ---------------------------------------------------------------------
  // The J1939 protocol driver
  // ---------------------------------------------------------------------

  /** One periodic message: `cyclic_msgs[i]` in the context. */
  datatype Cyclic = Cyclic(pgn: bv32, lastTx: int, periodMs: int)

  /** `struct lq_j1939_ctx`: the live prefixes of the two tables, and the DM1 state. */
  datatype Ctx = Ctx(nodeAddress: Byte, signals: seq<Signal>, cyclic: seq<Cyclic>, dm1: Dm1)

  predicate ValidCtx(c: Ctx)
  {
    && |c.signals| <= MAX_SIGNALS && |c.cyclic| <= MAX_CYCLIC && ValidDm1(c.dm1)
    && UniqueIds(c.signals)
    && (forall i :: 0 <= i < |c.signals| ==> IsU32(c.signals[i].id) && IsInt32(c.signals[i].value))
    && (forall i :: 0 <= i < |c.cyclic| ==>
          IsU64(c.cyclic[i].lastTx) && IsU32(c.cyclic[i].periodMs))
  }

  /**
    j1939_init: -1 without a configuration. Otherwise the context is
    cleared, takes the node address, and tracks the first `min(n, 16)`
    encode maps as periodic messages never yet sent.
   */
  function Init(cfg: Option<ProtocolConfig>): (r: (int, Option<Ctx>))
    requires cfg.Some? ==> ValidConfig(cfg.value)
    ensures r.0 == 0 <==> r.1.Some?
    ensures r.0 == -1 <==> cfg.None?
    ensures r.1.Some? ==>
      var c := r.1.value;
      var maps := cfg.value.encodeMaps;
      && ValidCtx(c) && c.signals == [] && c.dm1 == NO_FAULTS && c.nodeAddress == cfg.value.nodeAddress
      && |c.cyclic| == Min(|maps|, MAX_CYCLIC)
      && forall i :: 0 <= i < |c.cyclic| ==>
           c.cyclic[i].pgn == maps[i].protocolId && c.cyclic[i].periodMs == maps[i].periodMs
           && c.cyclic[i].lastTx == 0
  {
    match cfg
    case None => (-1, None)
    case Some(p) =>
      var n := Min(|p.encodeMaps|, MAX_CYCLIC);
      var cyc := seq(n, i requires 0 <= i < n => Cyclic(p.encodeMaps[i].protocolId, 0, p.encodeMaps[i].periodMs));
      (0, Some(Ctx(p.nodeAddress, [], cyc, NO_FAULTS)))
  }

  /** The PGN of a frame's identifier, as j1939_decode extracts it. */
  function PgnOf(m: Msg): (pgn: bv32)
    ensures pgn < 0x40000
  {
    ExtractPgn(m.address)
  }

  /** An event as the driver emits it: status OK, stamped with the decode time. */
  function Sample(id: int, value: int, now: int): Event
  {
    Event(id, value, EvOk, now)
  }

  /**
    j1939_decode: nothing when no event may be written, the frame is
    shorter than eight bytes, or no decode map names its PGN. An EEC1
    frame yields the engine speed, then the torque (byte 2 less 125), and
    an ET1 frame the coolant temperature (byte 0 less 40). Each event goes
    to the map's next signal id and is written only while both the map's
    signal count and `max_events` leave room.
   */
  function Decode(cfg: ProtocolConfig, now: int, m: Msg, maxEvents: nat): (r: seq<Event>)
    ensures |r| <= maxEvents
    ensures (|| maxEvents == 0 || |m.data| < 8 || FirstMap(cfg.decodeMaps, PgnOf(m)).None?
             || PgnOf(m) !in {PGN_EEC1, PGN_ET1}) ==> r == []
    ensures r != [] ==>
      var ids := cfg.decodeMaps[FirstMap(cfg.decodeMaps, PgnOf(m)).value].signalIds;
      && |r| <= |ids|
      && forall i :: 0 <= i < |r| ==> r[i].sourceId == ids[i] && r[i].status == EvOk && r[i].timestamp == now
    ensures |m.data| >= 8 && maxEvents > 0 && PgnOf(m) == PGN_ET1 && FirstMap(cfg.decodeMaps, PGN_ET1).Some? ==>
      var ids := cfg.decodeMaps[FirstMap(cfg.decodeMaps, PGN_ET1).value].signalIds;
      |r| == Min(1, |ids|) && (r != [] ==> r[0].value == m.data[0] as int - 40)
    ensures |m.data| >= 8 && PgnOf(m) == PGN_EEC1 && FirstMap(cfg.decodeMaps, PGN_EEC1).Some? ==>
      var ids := cfg.decodeMaps[FirstMap(cfg.decodeMaps, PGN_EEC1).value].signalIds;
      && |r| == Min(2, Min(|ids|, maxEvents))
      && (|r| >= 1 ==> r[0].value == Eec1Rpm(m.data))
      && (|r| == 2 ==> r[1].value == m.data[2] as int - 125)
  {
    var pgn := PgnOf(m);
    if maxEvents == 0 || |m.data| < 8 then []
    else
      match FirstMap(cfg.decodeMaps, pgn)
      case None => []
      case Some(k) =>
        var ids := cfg.decodeMaps[k].signalIds;
        if pgn == PGN_EEC1 then
          var speed := if 0 < |ids| then [Sample(ids[0], Eec1Rpm(m.data), now)] else [];
          var torque := if |speed| < maxEvents && 1 < |ids| then [Sample(ids[1], m.data[2] as int - 125, now)] else [];
          speed + torque
        else if pgn == PGN_ET1 then
          if 0 < |ids| then [Sample(ids[0], m.data[0] as int - 40, now)] else []
        else []
  }

  /** The cached value of a signal, if the driver holds one. */
  function ValueOf(c: Ctx, id: int): Option<int>
  {
    Lookup(c.signals, id)
  }

  /**
    j1939_update_signal: an id already cached is overwritten in place; a
    new id is appended while fewer than 32 are cached, and otherwise the
    update is dropped. No other signal's cached value changes.
   */
  function UpdateSignal(c: Ctx, id: int, value: int, timestamp: int): (r: Ctx)
    requires ValidCtx(c) && IsU32(id) && IsInt32(value)
    ensures ValidCtx(r) && r.cyclic == c.cyclic && r.dm1 == c.dm1 && r.nodeAddress == c.nodeAddress
    ensures ValueOf(c, id).Some? || |c.signals| < MAX_SIGNALS <==> ValueOf(r, id) == Some(value)
    ensures ValueOf(c, id).None? && |c.signals| == MAX_SIGNALS ==> r == c
    ensures forall other :: other != id ==> ValueOf(r, other) == ValueOf(c, other)
    ensures |r.signals| == |c.signals| + (if ValueOf(c, id).None? && |c.signals| < MAX_SIGNALS then 1 else 0)
  {
    c.(signals := Upsert(c.signals, id, value, timestamp, MAX_SIGNALS))
  }

  /** A cached value after an update: the update applies only to a signal that is cached. */
  function Latest(cached: Option<int>, update: Option<int>): Option<int>
  {
    if cached.Some? && update.Some? then update else cached
  }

  /** The value of the last event addressed to `id`, if any. */
  function LastValueFor(events: seq<Event>, id: int): Option<int>
  {
    if |events| == 0 then None
    else if events[|events| - 1].sourceId == id then Some(events[|events| - 1].value)
    else LastValueFor(events[..|events| - 1], id)
  }

  /** One pass of j1939_encode's outer loop: refresh the cached signal the event names, if any. */
  function Refresh(c: Ctx, e: Event): (r: Ctx)
    requires ValidCtx(c) && IsInt32(e.value)
    ensures ValidCtx(r) && r.cyclic == c.cyclic && r.dm1 == c.dm1 && r.nodeAddress == c.nodeAddress
    ensures |r.signals| == |c.signals| && forall i :: 0 <= i < |c.signals| ==> r.signals[i].id == c.signals[i].id
    ensures ValueOf(c, e.sourceId).Some? ==> ValueOf(r, e.sourceId) == Some(e.value)
    ensures forall id :: id != e.sourceId ==> ValueOf(r, id) == ValueOf(c, id)
    ensures ValueOf(c, e.sourceId).None? ==> r == c
  {
    match FindSignal(c.signals, e.sourceId)
    case None => c
    case Some(k) =>
      FindAfterWrite(c.signals, k, Signal(e.sourceId, e.value, e.timestamp));
      c.(signals := c.signals[k := Signal(e.sourceId, e.value, e.timestamp)])
  }

  predicate AllInt32Values(events: seq<Event>)
  {
    forall i :: 0 <= i < |events| ==> IsInt32(events[i].value)
  }

  /** The cache after refreshing it from each event in turn. */
  function RefreshAll(c: Ctx, events: seq<Event>): (r: Ctx)
    requires ValidCtx(c) && AllInt32Values(events)
    ensures ValidCtx(r) && r.cyclic == c.cyclic && r.dm1 == c.dm1 && r.nodeAddress == c.nodeAddress
    ensures |r.signals| == |c.signals| && forall i :: 0 <= i < |c.signals| ==> r.signals[i].id == c.signals[i].id
    decreases |events|
  {
    if |events| == 0 then c
    else Refresh(RefreshAll(c, events[..|events| - 1]), events[|events| - 1])
  }

  /** Refreshing from a run of events leaves each cached signal at the last value addressed to it. */
  lemma {:induction false} RefreshAllKeepsLatest(c: Ctx, events: seq<Event>, id: int)
    requires ValidCtx(c) && AllInt32Values(events)
    ensures ValueOf(c, id).None? ==> ValueOf(RefreshAll(c, events), id).None?
    ensures ValueOf(c, id).Some? ==>
      ValueOf(RefreshAll(c, events), id) == (if LastValueFor(events, id).Some? then LastValueFor(events, id) else ValueOf(c, id))
    decreases |events|
  {
    if |events| > 0 {
      RefreshAllKeepsLatest(c, events[..|events| - 1], id);
    }
  }

  /**
    j1939_encode: frames are built by get_cyclic, so this always returns
    -1; when there are events, each one refreshes the cached signal with
    its id, and the last event for an id wins. Ids not cached are ignored.
   */
  function Encode(c: Ctx, events: seq<Event>): (r: (int, Ctx))
    requires ValidCtx(c) && AllInt32Values(events)
    ensures r.0 == -1 && ValidCtx(r.1)
    ensures |r.1.signals| == |c.signals| && r.1.cyclic == c.cyclic && r.1.dm1 == c.dm1
    ensures forall id :: ValueOf(r.1, id) == Latest(ValueOf(c, id), LastValueFor(events, id))
  {
    if |events| == 0 then (-1, c)
    else
      var r := RefreshAll(c, events);
      forall id
        ensures ValueOf(r, id) == Latest(ValueOf(c, id), LastValueFor(events, id))
      {
        RefreshAllKeepsLatest(c, events, id);
      }
      (-1, r)
  }

  /** Whether a periodic message is due: whole milliseconds since its last transmission, in `uint64_t`, reach its period. */
  predicate Due(e: Cyclic, now: int)
  {
    WrapU64(now - e.lastTx) / 1000 >= e.periodMs
  }

  /**
    The EEC1 payload from the first two cached signals: torque plus 125
    in byte 2 as `int8_t` then `uint8_t`, and speed at 8 bits per rpm in
    bytes 3-4. Both narrowing conversions are reductions modulo 2^8 and
    2^16 here.
   */
  function Eec1Payload(speed: int, torque: int): (data: seq<Byte>)
    ensures |data| == 8 && data[2] == WrapU8(torque + 125)
  {
    Filler(2) + [WrapU8(torque + 125)] + Le16(speed * 8) + Filler(3)
  }

  /** The payload j1939_get_cyclic sends for a PGN: 0xFF filler, EEC1 from the signal cache, or the DM1 state. */
  function CyclicPayload(c: Ctx, pgn: bv32): (data: seq<Byte>)
    ensures |data| == 8
  {
    if pgn == PGN_EEC1 then
      if |c.signals| >= 2 then Eec1Payload(c.signals[0].value, c.signals[1].value) else Filler(8)
    else if pgn == PGN_DM1 then FormatDm1(c.dm1, 8).value
    else Filler(8)
  }

  /** The frame j1939_get_cyclic sends for a PGN at time `now`, from this node at priority 6. */
  function CyclicMsg(c: Ctx, pgn: bv32, now: int): (m: Msg)
    ensures |m.data| == 8 && m.timestamp == now
    ensures PgnOf(m) == pgn & 0x3FFFF && m.address & 0xFF == c.nodeAddress as bv32
  {
    PgnRoundTrip(pgn, CYCLIC_PRIORITY, c.nodeAddress as bv8);
    Msg(BuildIdFromPgn(pgn, CYCLIC_PRIORITY, c.nodeAddress as bv8), CyclicPayload(c, pgn), now)
  }

  /** The due entries of a table, in order. */
  function DueEntries(cyc: seq<Cyclic>, now: int): (r: seq<Cyclic>)
    ensures |r| <= |cyc|
  {
    if |cyc| == 0 then []
    else (if Due(cyc[0], now) then [cyc[0]] else []) + DueEntries(cyc[1..], now)
  }

  /**
    The loop of j1939_get_cyclic over the periodic table, with `budget`
    frames still allowed. The first `budget` due entries are sent, in table
    order, and their last transmission time becomes `now`; every other
    entry is unchanged.
   */
  function Scan(c: Ctx, cyc: seq<Cyclic>, now: int, budget: nat): (r: (seq<Msg>, seq<Cyclic>))
    ensures |r.0| == Min(budget, |DueEntries(cyc, now)|)
    ensures forall k :: 0 <= k < |r.0| ==> r.0[k] == CyclicMsg(c, DueEntries(cyc, now)[k].pgn, now)
    ensures |r.1| == |cyc|
    ensures forall i :: 0 <= i < |cyc| ==> r.1[i] == Marked(cyc, now, budget, i)
    decreases |cyc|
  {
    if |cyc| == 0 || budget == 0 then
      ([], cyc)
    else
      var e := cyc[0];
      var due := Due(e, now);
      var rest := Scan(c, cyc[1..], now, if due then budget - 1 else budget);
      ScanTable(cyc, now, budget, rest.1);
      ScanMsgs(c, cyc, now, budget, rest.0);
      if due then ([CyclicMsg(c, e.pgn, now)] + rest.0, [e.(lastTx := now)] + rest.1)
      else (rest.0, [e] + rest.1)
  }

  /** Entry i of the table after the scan: marked sent at `now` when due and within the budget. */
  function Marked(cyc: seq<Cyclic>, now: int, budget: nat, i: int): Cyclic
    requires 0 <= i < |cyc|
  {
    if Due(cyc[i], now) && |DueEntries(cyc[..i], now)| < budget then cyc[i].(lastTx := now) else cyc[i]
  }

  /** The scan's table is the head, marked if due, followed by the rest scanned with what budget is left. */
  lemma ScanTable(cyc: seq<Cyclic>, now: int, budget: nat, rest: seq<Cyclic>)
    requires |cyc| > 0 && budget > 0
    requires var b := if Due(cyc[0], now) then budget - 1 else budget;
      |rest| == |cyc| - 1 && forall i :: 0 <= i < |rest| ==> rest[i] == Marked(cyc[1..], now, b, i)
    ensures var head := if Due(cyc[0], now) then cyc[0].(lastTx := now) else cyc[0];
      forall i :: 0 <= i < |cyc| ==> ([head] + rest)[i] == Marked(cyc, now, budget, i)
  {
    DueEntriesPrefix(cyc, now);
    assert cyc[..0] == [];
  }

  /** The scan's frames are the head's frame, if due, followed by the rest's frames. */
  lemma ScanMsgs(c: Ctx, cyc: seq<Cyclic>, now: int, budget: nat, rest: seq<Msg>)
    requires |cyc| > 0 && budget > 0
    requires var b := if Due(cyc[0], now) then budget - 1 else budget;
      && |rest| == Min(b, |DueEntries(cyc[1..], now)|)
      && forall k :: 0 <= k < |rest| ==> rest[k] == CyclicMsg(c, DueEntries(cyc[1..], now)[k].pgn, now)
    ensures var msgs := if Due(cyc[0], now) then [CyclicMsg(c, cyc[0].pgn, now)] + rest else rest;
      && |msgs| == Min(budget, |DueEntries(cyc, now)|)
      && forall k :: 0 <= k < |msgs| ==> msgs[k] == CyclicMsg(c, DueEntries(cyc, now)[k].pgn, now)
  {
    var d, d' := DueEntries(cyc, now), DueEntries(cyc[1..], now);
    if Due(cyc[0], now) {
      assert d == [cyc[0]] + d';
      var msgs := [CyclicMsg(c, cyc[0].pgn, now)] + rest;
      forall k | 0 <= k < |msgs|
        ensures msgs[k] == CyclicMsg(c, d[k].pgn, now)
      {
        if k > 0 {
          assert msgs[k] == rest[k - 1] && d[k] == d'[k - 1];
        }
      }
    } else {
      assert d == d';
    }
  }

  /** Counting due entries in a prefix peels off the head like the full table does. */
  lemma DueEntriesPrefix(cyc: seq<Cyclic>, now: int)
    requires |cyc| > 0
    ensures forall i :: 0 < i <= |cyc| ==>
      |DueEntries(cyc[..i], now)| == (if Due(cyc[0], now) then 1 else 0) + |DueEntries(cyc[1..][..i - 1], now)|
  {
    forall i | 0 < i <= |cyc|
      ensures |DueEntries(cyc[..i], now)| == (if Due(cyc[0], now) then 1 else 0) + |DueEntries(cyc[1..][..i - 1], now)|
    {
      assert cyc[..i][1..] == cyc[1..][..i - 1];
    }
  }

  /**
    j1939_get_cyclic: no frames when none may be written. Otherwise each
    due periodic message, in table order and up to `max_msgs`, is sent as
    an eight-byte frame for its PGN and marked sent at `now`.
   */
  function GetCyclic(c: Ctx, now: int, maxMsgs: nat): (r: (seq<Msg>, Ctx))
    requires ValidCtx(c) && IsU64(now)
    ensures ValidCtx(r.1) && r.1.signals == c.signals && r.1.dm1 == c.dm1 && r.1.nodeAddress == c.nodeAddress
    ensures |r.0| == Min(maxMsgs, |DueEntries(c.cyclic, now)|)
    ensures forall k :: 0 <= k < |r.0| ==> r.0[k] == CyclicMsg(c, DueEntries(c.cyclic, now)[k].pgn, now)
    ensures |r.1.cyclic| == |c.cyclic|
    ensures forall i :: 0 <= i < |c.cyclic| ==> r.1.cyclic[i] == Marked(c.cyclic, now, maxMsgs, i)
  {
    if maxMsgs == 0 then ([], c)
    else
      var s := Scan(c, c.cyclic, now, maxMsgs);
      (s.0, c.(cyclic := s.1))
  }

  /**
    A periodic message with a non-zero period that has just been sent is
    not due again at the same instant.
   */
  lemma SentNotDueAgain(c: Ctx, now: int, maxMsgs: nat, i: int)
    requires ValidCtx(c) && IsU64(now) && 0 <= i < |c.cyclic| && c.cyclic[i].periodMs > 0
    requires GetCyclic(c, now, maxMsgs).1.cyclic[i].lastTx == now
    ensures !Due(GetCyclic(c, now, maxMsgs).1.cyclic[i], now)
  {
  }

  /**
    The EEC1 frame the driver sends decodes, on a node whose first EEC1
    decode map names two signals, into the two cached values again,
    provided the speed is 0-8191 rpm and the torque -125 to 130 %.
   */
  lemma CyclicEec1Decodes(c: Ctx, cfg: ProtocolConfig, now: int, later: int, maxEvents: nat)
    requires ValidCtx(c) && |c.signals| >= 2
    requires 0 <= c.signals[0].value < 8192 && -125 <= c.signals[1].value <= 130
    requires FirstMap(cfg.decodeMaps, PGN_EEC1).Some?
    requires |cfg.decodeMaps[FirstMap(cfg.decodeMaps, PGN_EEC1).value].signalIds| >= 2 && maxEvents >= 2
    ensures var ids := cfg.decodeMaps[FirstMap(cfg.decodeMaps, PGN_EEC1).value].signalIds;
      Decode(cfg, later, CyclicMsg(c, PGN_EEC1, now), maxEvents)
        == [Sample(ids[0], c.signals[0].value, later), Sample(ids[1], c.signals[1].value, later)]
  {
    var m := CyclicMsg(c, PGN_EEC1, now);
    var data := Eec1Payload(c.signals[0].value, c.signals[1].value);
    assert m.data == data;
    assert data[3..5] == Le16(c.signals[0].value * 8);
    SpeedScale(c.signals[0].value);
    assert Eec1Rpm(data) == c.signals[0].value;
  }
}

=== FILE: limp.dfy ===
/**
  Limp-home mode (`process_single_limp_home` in `lq_limp_home.c`): while a
  fault signal is at or above its threshold, one scale entry runs with
  degraded parameters; once the fault has been clear for the restore
  delay, the saved parameters come back.
 */
module LimpHome {
  import opened CInt
  import opened Signals
  import Scale
  import Engine

  /**
    `struct lq_limp_home_ctx`. The C struct saves a single
    `saved_has_clamp`, modelled by `savedHasMin`; `savedHasMax` is the
    second flag the corrected transition keeps and the as-written one
    never reads.
   */
  datatype LimpCtx = LimpCtx(
    faultSignal: int, threshold: int, targetScale: int,
    limpFactor: int, limpClampMax: int, limpClampMin: int, restoreDelayMs: int,
    active: bool, clearTimestampMs: int,
    savedFactor: int, savedClampMax: int, savedClampMin: int,
    savedHasMin: bool, savedHasMax: bool, enabled: bool)

  predicate ValidLimp(c: LimpCtx)
  {
    IsU16(c.faultSignal) && IsInt32(c.threshold) && IsU8(c.targetScale)
    && IsInt32(c.limpFactor) && IsInt32(c.limpClampMax) && IsInt32(c.limpClampMin)
    && IsU32(c.restoreDelayMs) && IsU64(c.clearTimestampMs)
    && IsInt32(c.savedFactor) && IsInt32(c.savedClampMax) && IsInt32(c.savedClampMin)
  }

  datatype LimpResult = LimpResult(ctx: LimpCtx, scales: seq<Scale.ScaleCtx>)

  /** The controller acts: enabled, its scale exists, its fault signal is a live slot. */
  predicate Acts(c: LimpCtx, e: Engine.Engine)
  {
    c.enabled && 0 <= c.targetScale < |e.scales| && 0 <= c.faultSignal < e.numSignals
  }

  /** The fault is active iff the fault signal is at or above the threshold. */
  predicate Faulted(c: LimpCtx, e: Engine.Engine)
    requires Acts(c, e) && Engine.Valid(e)
  {
    e.signals[c.faultSignal].value >= c.threshold
  }

  /** The degraded scale: each override that is not INT32_MIN replaces its field. */
  function Degraded(s: Scale.ScaleCtx, c: LimpCtx): (r: Scale.ScaleCtx)
    requires Scale.ValidScale(s) && ValidLimp(c)
    ensures Scale.ValidScale(r)
    ensures r.factor == (if c.limpFactor != INT32_MIN then c.limpFactor else s.factor)
    ensures c.limpClampMax != INT32_MIN ==> r.clampMax == c.limpClampMax && r.hasMax
    ensures c.limpClampMax == INT32_MIN ==> r.clampMax == s.clampMax && r.hasMax == s.hasMax
    ensures c.limpClampMin != INT32_MIN ==> r.clampMin == c.limpClampMin && r.hasMin
    ensures c.limpClampMin == INT32_MIN ==> r.clampMin == s.clampMin && r.hasMin == s.hasMin
    ensures r.(factor := s.factor, clampMax := s.clampMax, hasMax := s.hasMax, clampMin := s.clampMin, hasMin := s.hasMin) == s
  {
    var s1 := if c.limpFactor != INT32_MIN then s.(factor := c.limpFactor) else s;
    var s2 := if c.limpClampMax != INT32_MIN then s1.(clampMax := c.limpClampMax, hasMax := true) else s1;
    if c.limpClampMin != INT32_MIN then s2.(clampMin := c.limpClampMin, hasMin := true) else s2
  }

  /** process_single_limp_home as written, with the clock in milliseconds as a parameter. */
  function LimpOneAsWritten(c: LimpCtx, e: Engine.Engine, nowMs: int): (r: LimpResult)
    requires ValidLimp(c) && Engine.Valid(e) && IsU64(nowMs)
    ensures ValidLimp(r.ctx) && |r.scales| == |e.scales| && Engine.Valid(e.(scales := r.scales))
    ensures !Acts(c, e) ==> r == LimpResult(c, e.scales)
    ensures Acts(c, e) ==> forall i :: 0 <= i < |e.scales| && i != c.targetScale ==> r.scales[i] == e.scales[i]
    // entering limp mode saves the scale once and applies the overrides
    ensures Acts(c, e) && Faulted(c, e) && !c.active ==>
      var s := e.scales[c.targetScale];
      r.ctx.active && r.ctx.savedFactor == s.factor && r.ctx.savedClampMax == s.clampMax
      && r.ctx.savedClampMin == s.clampMin && r.ctx.savedHasMin == (s.hasMin || s.hasMax)
      && r.scales[c.targetScale] == Degraded(s, c)
    // while faulted, the clear timestamp follows the clock and nothing is re-saved
    ensures Acts(c, e) && Faulted(c, e) ==> r.ctx.clearTimestampMs == nowMs && r.ctx.active
    ensures Acts(c, e) && Faulted(c, e) && c.active ==> r == LimpResult(c.(clearTimestampMs := nowMs), e.scales)
    // restore happens only after the delay, and writes back the saved values
    ensures Acts(c, e) && !Faulted(c, e) && c.active ==>
      if WrapU64(nowMs - c.clearTimestampMs) >= c.restoreDelayMs then
        !r.ctx.active && r.scales[c.targetScale] == e.scales[c.targetScale].(
          factor := c.savedFactor, clampMax := c.savedClampMax, clampMin := c.savedClampMin,
          hasMin := c.savedHasMin, hasMax := c.savedHasMin)
      else r == LimpResult(c, e.scales)
    ensures Acts(c, e) && !Faulted(c, e) && !c.active ==> r == LimpResult(c.(clearTimestampMs := nowMs), e.scales)
  {
    if !Acts(c, e) then LimpResult(c, e.scales)
    else
      var s := e.scales[c.targetScale];
      if Faulted(c, e) then
        if !c.active then
          var c1 := c.(savedFactor := s.factor, savedClampMax := s.clampMax, savedClampMin := s.clampMin,
                       savedHasMin := s.hasMin || s.hasMax, active := true, clearTimestampMs := nowMs);
          LimpResult(c1, e.scales[c.targetScale := Degraded(s, c)])
        else LimpResult(c.(clearTimestampMs := nowMs), e.scales)
      else if c.active then
        if WrapU64(nowMs - c.clearTimestampMs) >= c.restoreDelayMs then
          var restored := s.(factor := c.savedFactor, clampMax := c.savedClampMax, clampMin := c.savedClampMin,
                             hasMin := c.savedHasMin, hasMax := c.savedHasMin);
          LimpResult(c.(active := false), e.scales[c.targetScale := restored])
        else LimpResult(c, e.scales)
      else LimpResult(c.(clearTimestampMs := nowMs), e.scales)
  }

  /** The corrected transition: both clamp flags are saved and restored separately. */
  function LimpOne(c: LimpCtx, e: Engine.Engine, nowMs: int): (r: LimpResult)
    requires ValidLimp(c) && Engine.Valid(e) && IsU64(nowMs)
    ensures ValidLimp(r.ctx) && |r.scales| == |e.scales| && Engine.Valid(e.(scales := r.scales))
    ensures !Acts(c, e) ==> r == LimpResult(c, e.scales)
    ensures Acts(c, e) ==> forall i :: 0 <= i < |e.scales| && i != c.targetScale ==> r.scales[i] == e.scales[i]
    ensures Acts(c, e) && Faulted(c, e) ==> r.ctx.active && r.ctx.clearTimestampMs == nowMs
    ensures Acts(c, e) && Faulted(c, e) && !c.active ==> r.scales[c.targetScale] == Degraded(e.scales[c.targetScale], c)
  {
    if !Acts(c, e) then LimpResult(c, e.scales)
    else
      var s := e.scales[c.targetScale];
      if Faulted(c, e) then
        if !c.active then
          var c1 := c.(savedFactor := s.factor, savedClampMax := s.clampMax, savedClampMin := s.clampMin,
                       savedHasMin := s.hasMin, savedHasMax := s.hasMax, active := true, clearTimestampMs := nowMs);
          LimpResult(c1, e.scales[c.targetScale := Degraded(s, c)])
        else LimpResult(c.(clearTimestampMs := nowMs), e.scales)
      else if c.active then
        if WrapU64(nowMs - c.clearTimestampMs) >= c.restoreDelayMs then
          var restored := s.(factor := c.savedFactor, clampMax := c.savedClampMax, clampMin := c.savedClampMin,
                             hasMin := c.savedHasMin, hasMax := c.savedHasMax);
          LimpResult(c.(active := false), e.scales[c.targetScale := restored])
        else LimpResult(c, e.scales)
      else LimpResult(c.(clearTimestampMs := nowMs), e.scales)
  }

  /**
    The corrected transition is a round trip: a fault followed by a clear
    past the restore delay gives back exactly the original scale entry.
   */
  lemma RestoreRoundTrip(c: LimpCtx, e: Engine.Engine, clearValue: int, t1: int, t2: int)
    requires ValidLimp(c) && Engine.Valid(e) && IsU64(t1) && IsU64(t2)
    requires Acts(c, e) && !c.active && e.signals[c.faultSignal].value >= c.threshold
    requires IsInt32(clearValue) && clearValue < c.threshold
    requires t2 >= t1 && t2 - t1 >= c.restoreDelayMs
    ensures var r1 := LimpOne(c, e, t1);
      var e2 := e.(scales := r1.scales, signals := e.signals[c.faultSignal := e.signals[c.faultSignal].(value := clearValue)]);
      var r2 := LimpOne(r1.ctx, e2, t2);
      r2.scales == e.scales && !r2.ctx.active
  {
    var r1 := LimpOne(c, e, t1);
    var e2 := e.(scales := r1.scales, signals := e.signals[c.faultSignal := e.signals[c.faultSignal].(value := clearValue)]);
    assert Engine.Valid(e2);
    assert !Faulted(r1.ctx, e2);
    var r2 := LimpOne(r1.ctx, e2, t2);
    assert r2.scales[c.targetScale] == e.scales[c.targetScale];
  }

  /**
    As written, a scale with only a minimum clamp comes back from limp
    mode with both clamps enabled, so its stale maximum starts clamping.
   */
  lemma SingleClampRestoredAsBoth(c: LimpCtx, e: Engine.Engine, clearValue: int, t1: int, t2: int)
    requires ValidLimp(c) && Engine.Valid(e) && IsU64(t1) && IsU64(t2)
    requires Acts(c, e) && !c.active && e.signals[c.faultSignal].value >= c.threshold
    requires e.scales[c.targetScale].hasMin && !e.scales[c.targetScale].hasMax
    requires IsInt32(clearValue) && clearValue < c.threshold
    requires t2 >= t1 && t2 - t1 >= c.restoreDelayMs
    ensures var r1 := LimpOneAsWritten(c, e, t1);
      var e2 := e.(scales := r1.scales, signals := e.signals[c.faultSignal := e.signals[c.faultSignal].(value := clearValue)]);
      var r2 := LimpOneAsWritten(r1.ctx, e2, t2);
      r2.scales[c.targetScale].hasMax && r2.scales != e.scales
  {
    var r1 := LimpOneAsWritten(c, e, t1);
    var e2 := e.(scales := r1.scales, signals := e.signals[c.faultSignal := e.signals[c.faultSignal].(value := clearValue)]);
    assert Engine.Valid(e2);
    assert !Faulted(r1.ctx, e2);
    var r2 := LimpOneAsWritten(r1.ctx, e2, t2);
    assert r2.scales[c.targetScale] != e.scales[c.targetScale];
  }

  datatype LimpsResult = LimpsResult(ctxs: seq<LimpCtx>, scales: seq<Scale.ScaleCtx>)

  /** The scale entries the enabled controllers of `cs` target. */
  function Targets(cs: seq<LimpCtx>): (r: set<int>)
    ensures forall i :: 0 <= i < |cs| && cs[i].enabled ==> cs[i].targetScale in r
    ensures forall k :: k in r ==> exists i :: 0 <= i < |cs| && cs[i].enabled && cs[i].targetScale == k
  {
    if cs == [] then {}
    else
      var rest := Targets(cs[..|cs| - 1]);
      var last := cs[|cs| - 1];
      if last.enabled then rest + {last.targetScale} else rest
  }

  /** One controller's turn, as written (`asWritten`) or corrected. */
  function LimpOneWith(c: LimpCtx, e: Engine.Engine, nowMs: int, asWritten: bool): (r: LimpResult)
    requires ValidLimp(c) && Engine.Valid(e) && IsU64(nowMs)
    ensures ValidLimp(r.ctx) && |r.scales| == |e.scales| && Engine.Valid(e.(scales := r.scales))
    ensures SameLimpConfig(c, r.ctx)
    ensures !Acts(c, e) ==> r == LimpResult(c, e.scales)
    ensures forall i :: 0 <= i < |e.scales| && i != c.targetScale ==> r.scales[i] == e.scales[i]
    ensures !c.enabled ==> r.scales == e.scales
  {
    if asWritten then LimpOneAsWritten(c, e, nowMs) else LimpOne(c, e, nowMs)
  }

  /**
    lq_process_limp_home: the controllers run in array order against one
    clock reading, each seeing the scales as the ones before it left them.
    Each keeps its configuration, and only scale entries some enabled
    controller targets can change.
   */
  function ProcessLimpHomesWith(cs: seq<LimpCtx>, e: Engine.Engine, nowMs: int, asWritten: bool): (r: LimpsResult)
    requires Engine.Valid(e) && IsU64(nowMs)
    requires forall i :: 0 <= i < |cs| ==> ValidLimp(cs[i])
    ensures |r.ctxs| == |cs| && |r.scales| == |e.scales| && Engine.Valid(e.(scales := r.scales))
    ensures forall i :: 0 <= i < |cs| ==> ValidLimp(r.ctxs[i]) && SameLimpConfig(cs[i], r.ctxs[i])
    ensures forall k :: 0 <= k < |e.scales| && k !in Targets(cs) ==> r.scales[k] == e.scales[k]
    decreases |cs|
  {
    if cs == [] then LimpsResult([], e.scales)
    else
      var p := ProcessLimpHomesWith(cs[..|cs| - 1], e, nowMs, asWritten);
      var one := LimpOneWith(cs[|cs| - 1], e.(scales := p.scales), nowMs, asWritten);
      LimpsResult(p.ctxs + [one.ctx], one.scales)
  }

  /** lq_process_limp_home as written: one saved flag restores both clamps. */
  function ProcessLimpHomesAsWritten(cs: seq<LimpCtx>, e: Engine.Engine, nowMs: int): (r: LimpsResult)
    requires Engine.Valid(e) && IsU64(nowMs)
    requires forall i :: 0 <= i < |cs| ==> ValidLimp(cs[i])
    ensures |r.ctxs| == |cs| && |r.scales| == |e.scales| && Engine.Valid(e.(scales := r.scales))
    ensures forall k :: 0 <= k < |e.scales| && k !in Targets(cs) ==> r.scales[k] == e.scales[k]
  {
    ProcessLimpHomesWith(cs, e, nowMs, true)
  }

  /** lq_process_limp_home with each clamp flag saved and restored separately. */
  function ProcessLimpHomes(cs: seq<LimpCtx>, e: Engine.Engine, nowMs: int): (r: LimpsResult)
    requires Engine.Valid(e) && IsU64(nowMs)
    requires forall i :: 0 <= i < |cs| ==> ValidLimp(cs[i])
    ensures |r.ctxs| == |cs| && |r.scales| == |e.scales| && Engine.Valid(e.(scales := r.scales))
    ensures forall i :: 0 <= i < |cs| ==> ValidLimp(r.ctxs[i]) && SameLimpConfig(cs[i], r.ctxs[i])
    ensures forall k :: 0 <= k < |e.scales| && k !in Targets(cs) ==> r.scales[k] == e.scales[k]
  {
    ProcessLimpHomesWith(cs, e, nowMs, false)
  }

  /**
    Through the processing loop, one controller over a fault and a clear
    past the restore delay: as written a scale with only a minimum clamp
    comes back with its maximum clamp enabled too; corrected, the scale
    table comes back exactly as it was.
   */
  lemma LoopRestore(c: LimpCtx, e: Engine.Engine, clearValue: int, t1: int, t2: int, asWritten: bool)
    requires ValidLimp(c) && Engine.Valid(e) && IsU64(t1) && IsU64(t2)
    requires Acts(c, e) && !c.active && e.signals[c.faultSignal].value >= c.threshold
    requires e.scales[c.targetScale].hasMin && !e.scales[c.targetScale].hasMax
    requires IsInt32(clearValue) && clearValue < c.threshold
    requires t2 >= t1 && t2 - t1 >= c.restoreDelayMs
    ensures var r1 := ProcessLimpHomesWith([c], e, t1, asWritten);
      var e2 := e.(scales := r1.scales, signals := e.signals[c.faultSignal := e.signals[c.faultSignal].(value := clearValue)]);
      var r2 := ProcessLimpHomesWith(r1.ctxs, e2, t2, asWritten);
      (asWritten ==> r2.scales[c.targetScale].hasMax && r2.scales != e.scales)
      && (!asWritten ==> r2.scales == e.scales && !r2.ctxs[0].active)
  {
    var r1 := ProcessLimpHomesWith([c], e, t1, asWritten);
    assert [c][..0] == [];
    assert r1.ctxs == [LimpOneWith(c, e, t1, asWritten).ctx];
    var e2 := e.(scales := r1.scales, signals := e.signals[c.faultSignal := e.signals[c.faultSignal].(value := clearValue)]);
    assert r1.ctxs[..0] == [];
    if asWritten {
      SingleClampRestoredAsBoth(c, e, clearValue, t1, t2);
    } else {
      RestoreRoundTrip(c, e, clearValue, t1, t2);
    }
  }

  /** Two controllers share every configuration field. */
  predicate SameLimpConfig(a: LimpCtx, b: LimpCtx)
  {
    a.faultSignal == b.faultSignal && a.threshold == b.threshold && a.targetScale == b.targetScale
    && a.limpFactor == b.limpFactor && a.limpClampMax == b.limpClampMax
    && a.limpClampMin == b.limpClampMin && a.restoreDelayMs == b.restoreDelayMs && a.enabled == b.enabled
  }
}

=== FILE: order.dfy ===
/**
  Python's ordering of strings (code point by code point, a proper prefix
  first) and `sorted` over a set of strings.
 */
module Order {

  /** `a < b` on Python strings. */
  predicate Below(a: string, b: string)
    decreases |a|
  {
    if a == [] then b != []
    else b != [] && (a[0] < b[0] || (a[0] == b[0] && Below(a[1..], b[1..])))
  }

  /** No string is below itself. */
  lemma {:induction false} BelowIrreflexive(a: string)
    ensures !Below(a, a)
    decreases |a|
  {
    if a != [] {
      BelowIrreflexive(a[1..]);
    }
  }

  /** Two strings are never below each other. */
  lemma {:induction false} BelowAsymmetric(a: string, b: string)
    ensures !(Below(a, b) && Below(b, a))
    decreases |a|
  {
    if a != [] && b != [] && a[0] == b[0] {
      BelowAsymmetric(a[1..], b[1..]);
    }
  }

  /** Below is transitive. */
  lemma {:induction false} BelowTransitive(a: string, b: string, c: string)
    requires Below(a, b) && Below(b, c)
    ensures Below(a, c)
    decreases |a|
  {
    if a != [] && a[0] == b[0] && b[0] == c[0] {
      BelowTransitive(a[1..], b[1..], c[1..]);
    }
  }

  /** Two different strings are ordered one way or the other. */
  lemma {:induction false} BelowTotal(a: string, b: string)
    requires a != b
    ensures Below(a, b) || Below(b, a)
    decreases |a|
  {
    if a != [] && b != [] && a[0] == b[0] {
      assert a == [a[0]] + a[1..] && b == [b[0]] + b[1..];
      BelowTotal(a[1..], b[1..]);
    }
  }

  /** The least element of `s`: below every other member. */
  predicate Least(s: set<string>, m: string)
  {
    m in s && forall x :: x in s && x != m ==> Below(m, x)
  }

  /** A non-empty finite set has a least element. */
  lemma {:induction false} LeastExists(s: set<string>)
    requires s != {}
    ensures exists m :: Least(s, m)
    decreases |s|
  {
    var x :| x in s;
    if s != {x} {
      LeastExists(s - {x});
      var m :| Least(s - {x}, m);
      BelowTotal(x, m);
      if Below(x, m) {
        forall y | y in s && y != x ensures Below(x, y) {
          if y != m { BelowTransitive(x, m, y); }
        }
        assert Least(s, x);
      } else {
        assert Least(s, m);
      }
    } else {
      assert Least(s, x);
    }
  }

  /** There is only one least element. */
  lemma LeastUnique(s: set<string>)
    ensures forall m, n :: Least(s, m) && Least(s, n) ==> m == n
  {
    forall m, n | Least(s, m) && Least(s, n) ensures m == n {
      if m != n {
        BelowAsymmetric(m, n);
      }
    }
  }

  /** `min(s)`. */
  function MinOf(s: set<string>): (m: string)
    requires s != {}
    ensures Least(s, m)
  {
    LeastExists(s);
    LeastUnique(s);
    var m :| Least(s, m);
    m
  }

  /** Every element is strictly below every later one. */
  predicate Ascending(r: seq<string>)
  {
    forall i, j :: 0 <= i < j < |r| ==> Below(r[i], r[j])
  }

  /** `sorted(s)`: the members of `s`, each once, in ascending order. */
  function Sorted(s: set<string>): (r: seq<string>)
    ensures |r| == |s|
    ensures forall x :: x in r <==> x in s
    ensures Ascending(r)
    decreases |s|
  {
    if s == {} then []
    else
      var m := MinOf(s);
      var rest := Sorted(s - {m});
      assert forall j :: 0 <= j < |rest| ==> rest[j] in s - {m};
      [m] + rest
  }

  /** An ascending sequence repeats nothing. */
  lemma AscendingDistinct(r: seq<string>)
    requires Ascending(r)
    ensures forall i, j :: 0 <= i < j < |r| ==> r[i] != r[j]
  {
    forall i, j | 0 <= i < j < |r| ensures r[i] != r[j] {
      BelowIrreflexive(r[i]);
    }
  }
}

=== FILE: pid.dfy ===
/**
  The PID controller (`lq_pid.c`): gains scaled by 1000, an integral
  accumulator with deadband and anti-windup, a derivative on the error,
  and an output clamp.
 */
module Pid {
  import opened CInt
  import opened Events
  import opened Signals

  /** `struct lq_pid_ctx`: configuration followed by runtime state. */
  datatype PidCtx = PidCtx(
    setpoint: int, measurement: int, output: int,
    kp: int, ki: int, kd: int,
    outputMin: int, outputMax: int, integralMin: int, integralMax: int,
    deadband: int, sampleTimeUs: int, resetOnSetpointChange: bool,
    integral: int, lastError: int, lastSetpoint: int, lastTime: int,
    firstRun: bool, enabled: bool)

  predicate ValidPid(c: PidCtx)
  {
    IsU8(c.setpoint) && IsU8(c.measurement) && IsU8(c.output)
    && IsInt32(c.kp) && IsInt32(c.ki) && IsInt32(c.kd)
    && IsInt32(c.outputMin) && IsInt32(c.outputMax)
    && IsInt32(c.integralMin) && IsInt32(c.integralMax)
    && IsInt32(c.deadband) && IsU64(c.sampleTimeUs)
    && IsInt64(c.integral) && IsInt32(c.lastError) && IsInt32(c.lastSetpoint) && IsU64(c.lastTime)
  }

  /** `clamp`: below min gives min, else above max gives max, else the value. */
  function Clamp(v: int, lo: int, hi: int): (r: int)
    requires IsInt32(lo) && IsInt32(hi)
    ensures IsInt32(r)
    ensures lo <= hi ==> lo <= r <= hi
    ensures lo <= v <= hi ==> r == v
    ensures v < lo ==> r == lo
  {
    if v < lo then lo else if v > hi then hi else v
  }

  /** Anti-windup: above max gives max, else below min gives min. */
  function AntiWindup(v: int, lo: int, hi: int): (r: int)
    requires IsInt32(lo) && IsInt32(hi)
    ensures IsInt64(v) ==> IsInt64(r)
    ensures lo <= hi ==> lo <= r <= hi
    ensures lo <= v <= hi ==> r == v
    ensures v > hi ==> r == hi
  {
    if v > hi then hi else if v < lo then lo else v
  }

  // ---------------------------------------------------------------------------
  // The integral and derivative steps: as written, and as intended
  // ---------------------------------------------------------------------------

  /**
    `integral += ((int64_t)error * dt_us) / 1000000` as compiled: the
    product of an int64 and a uint64 is computed in uint64, so a negative
    error wraps to a huge unsigned value before the unsigned division.
   */
  function IntegralStepAsWritten(integral: int, error: int, dt: int): (r: int)
    requires IsInt64(integral) && IsInt32(error) && IsU64(dt)
    ensures IsInt64(r)
    ensures error >= 0 && IsInt64(error * dt) && IsInt64(integral + error * dt / 1000000) ==>
      r == integral + error * dt / 1000000
  {
    Wrap64(integral + WrapU64(error * dt) / 1000000)
  }

  /** The intended signed update: the increment is error·dt/10^6 truncated toward zero. */
  function IntegralStep(integral: int, error: int, dt: int): (r: int)
    requires IsInt64(integral) && IsInt32(error) && IsU64(dt)
    ensures IsInt64(r)
  {
    Wrap64(integral + TruncDiv(Wrap64(error * dt), 1000000))
  }

  /**
    Without overflow, the intended update moves the integral in the
    direction of the error and by at most |error|·dt/10^6.
   */
  lemma IntegralFollowsError(integral: int, error: int, dt: int)
    requires IsInt64(integral) && IsInt32(error) && IsU64(dt)
    requires IsInt64(error * dt) && IsInt64(integral + TruncDiv(error * dt, 1000000))
    ensures error <= 0 ==> IntegralStep(integral, error, dt) <= integral
    ensures error >= 0 ==> IntegralStep(integral, error, dt) >= integral
    ensures Abs(IntegralStep(integral, error, dt) - integral) * 1000000 <= Abs(error * dt)
  {
    var q := TruncDiv(error * dt, 1000000);
    assert IntegralStep(integral, error, dt) == integral + q;
    if error <= 0 {
      MulMono(error, 0, dt + 1);
      assert error * dt <= 0 by {
        if dt > 0 { MulMono(error, 0, dt); }
      }
    } else {
      assert error * dt >= 0 by {
        if dt > 0 { MulMono(0, error, dt); }
      }
    }
  }

  /**
    The as-written update winds a falling error the wrong way: with the
    integral at 0, an error of -1000 over one second adds 18446744072709
    instead of -1000, so anti-windup pins the integral at its maximum
    where the intended update reaches its minimum.
   */
  lemma NegativeErrorWindsUp()
    ensures IntegralStepAsWritten(0, -1000, 1000000) == 18446744072709
    ensures AntiWindup(IntegralStepAsWritten(0, -1000, 1000000), -500, 500) == 500
    ensures IntegralStep(0, -1000, 1000000) == -1000
    ensures AntiWindup(IntegralStep(0, -1000, 1000000), -500, 500) == -500
  {
    assert WrapU64(-1000 * 1000000) == U64 - 1000000000;
    assert TruncDiv(-1000000000, 1000000) == -1000;
  }

  /**
    `((int64_t)kd * error_delta * 1000000) / (dt_us * 1000)` as compiled:
    the divisor is uint64, so the int64 numerator is converted to uint64
    and a falling error yields a huge positive term. A divisor that wraps
    to 0 is a division by zero in C; the model yields 0 there.
   */
  function DerivativeAsWritten(kd: int, delta: int, dt: int): (r: int)
    requires IsInt32(kd) && IsInt32(delta) && IsU64(dt)
    ensures IsInt64(r)
    ensures WrapU64(dt * 1000) == 0 ==> r == 0
  {
    var num := Wrap64(kd * delta * 1000000);
    var den := WrapU64(dt * 1000);
    if den == 0 then 0 else Wrap64(WrapU64(num) / den)
  }

  /** The intended signed derivative term, truncated toward zero. */
  function Derivative(kd: int, delta: int, dt: int): (r: int)
    requires IsInt32(kd) && IsInt32(delta) && IsU64(dt)
    ensures IsInt64(r)
    ensures WrapU64(dt * 1000) == 0 ==> r == 0
  {
    var num := Wrap64(kd * delta * 1000000);
    var den := WrapU64(dt * 1000);
    if den == 0 then 0 else Wrap64(TruncDiv(num, den))
  }

  /**
    For a positive gain and no overflow, the intended derivative has the
    sign of the error change; the as-written one turns a unit fall over
    one millisecond into a huge positive kick.
   */
  lemma DerivativeSign(kd: int, delta: int, dt: int)
    requires IsInt32(kd) && IsInt32(delta) && IsU64(dt) && kd > 0 && dt > 0
    requires IsInt64(kd * delta * 1000000) && dt * 1000 < U64
    ensures delta <= 0 ==> Derivative(kd, delta, dt) <= 0
    ensures delta >= 0 ==> Derivative(kd, delta, dt) >= 0
  {
    var p := kd * delta;
    if delta <= 0 {
      MulMono(delta, 0, kd);
    } else {
      MulMono(0, delta, kd);
    }
    var num := p * 1000000;
    var den := dt * 1000;
    assert num == kd * delta * 1000000;
    assert Wrap64(kd * delta * 1000000) == num;
    assert WrapU64(dt * 1000) == den;
    TruncDivSignLemma(num, den);
    TruncDivShrinks(num, den);
    assert Derivative(kd, delta, dt) == TruncDiv(num, den);
  }

  /** Dividing by a positive divisor does not grow the magnitude. */
  lemma TruncDivShrinks(a: int, b: int)
    requires b > 0
    ensures Abs(TruncDiv(a, b)) <= Abs(a)
  {
    var q := TruncDiv(a, b);
    if q != 0 {
      MulMono(1, b, Abs(q));
    }
  }

  lemma TruncDivSignLemma(a: int, b: int)
    requires b > 0
    ensures a <= 0 ==> TruncDiv(a, b) <= 0
    ensures a >= 0 ==> TruncDiv(a, b) >= 0
  {
  }

  /** The derivative discrepancy on a concrete input. */
  lemma FallingErrorKicksAsWritten()
    ensures DerivativeAsWritten(1000, -1, 1000) > 0
    ensures Derivative(1000, -1, 1000) == -1000
  {
    assert Wrap64(1000 * -1 * 1000000) == -1000000000;
    assert WrapU64(-1000000000) == U64 - 1000000000;
    assert TruncDiv(-1000000000, 1000000) == -1000;
  }

  // ---------------------------------------------------------------------------
  // One controller
  // ---------------------------------------------------------------------------

  datatype PidResult = PidResult(ctx: PidCtx, sigs: seq<Signal>)

  /** The controller can run: enabled and all three signal ids below num_signals. */
  predicate Wired(c: PidCtx, n: int)
  {
    c.enabled && c.setpoint < n && c.measurement < n && c.output < n
  }

  /** The context after the optional integral reset on a setpoint change. */
  function AfterSetpointCheck(c: PidCtx, sp: int): (r: PidCtx)
    requires ValidPid(c) && IsInt32(sp)
    ensures ValidPid(r)
    ensures c.resetOnSetpointChange && sp != c.lastSetpoint ==> r.integral == 0 && r.lastSetpoint == sp
    ensures !(c.resetOnSetpointChange && sp != c.lastSetpoint) ==> r == c
    ensures r.(integral := c.integral, lastSetpoint := c.lastSetpoint) == c
  {
    if c.resetOnSetpointChange && sp != c.lastSetpoint then c.(integral := 0, lastSetpoint := sp) else c
  }

  /** The integral after a computing step, with the as-written or the intended update. */
  function NextIntegralWith(c: PidCtx, error: int, dt: int, asWritten: bool): (r: int)
    requires ValidPid(c) && IsInt32(error) && IsU64(dt)
    ensures IsInt64(r)
    ensures c.ki == 0 || AbsC32(error) <= c.deadband ==> r == c.integral
    ensures c.ki != 0 && AbsC32(error) > c.deadband && c.integralMin <= c.integralMax ==>
      c.integralMin <= r <= c.integralMax
  {
    if c.ki != 0 && AbsC32(error) > c.deadband then
      var next := if asWritten then IntegralStepAsWritten(c.integral, error, dt) else IntegralStep(c.integral, error, dt);
      AntiWindup(next, c.integralMin, c.integralMax)
    else c.integral
  }

  /** The unclamped controller output P + I + D in int64, with the as-written or the intended derivative. */
  function RawOutputWith(c: PidCtx, integral: int, error: int, dt: int, asWritten: bool): (r: int)
    requires ValidPid(c) && IsInt64(integral) && IsInt32(error) && IsU64(dt)
    ensures IsInt64(r)
  {
    var p := TruncDiv(c.kp * error, 1000);
    var i := if c.ki != 0 then TruncDiv(Wrap64(c.ki * integral), 1000) else 0;
    var delta := Wrap32(error - c.lastError);
    var d := if c.kd == 0 then 0 else if asWritten then DerivativeAsWritten(c.kd, delta, dt) else Derivative(c.kd, delta, dt);
    Wrap64(p + i + d)
  }

  /** The time step: the fixed sample time, else the uint64 time since the last run. */
  function Dt(c: PidCtx, now: int): (r: int)
    requires ValidPid(c)
    ensures IsU64(r)
    ensures c.sampleTimeUs > 0 ==> r == c.sampleTimeUs
  {
    if c.sampleTimeUs > 0 then c.sampleTimeUs else WrapU64(now - c.lastTime)
  }

  /**
    The computing part of a step: the new integral, the clamped output
    written to the output slot, and the error and time remembered.
   */
  function Compute(c: PidCtx, sigs: seq<Signal>, n: int, error: int, dt: int, now: int, asWritten: bool): (r: PidResult)
    requires ValidPid(c) && ValidTable(sigs, n) && 0 <= c.output < n && IsInt32(error) && IsU64(dt) && IsU64(now)
    ensures ValidPid(r.ctx) && ValidTable(r.sigs, n)
    ensures OnlyWrites(sigs, r.sigs, {c.output})
    ensures r.ctx == c.(integral := r.ctx.integral, lastError := error, lastTime := now)
    ensures r.ctx.integral == NextIntegralWith(c, error, dt, asWritten)
    ensures c.outputMin <= c.outputMax ==> c.outputMin <= r.sigs[c.output].value <= c.outputMax
    ensures r.sigs[c.output].status == EvOk && r.sigs[c.output].timestamp == now && r.sigs[c.output].updated
  {
    var integral := NextIntegralWith(c, error, dt, asWritten);
    var out := Clamp(RawOutputWith(c, integral, error, dt, asWritten), c.outputMin, c.outputMax);
    PidResult(c.(integral := integral, lastError := error, lastTime := now),
              sigs[c.output := Written(sigs[c.output], out, now)])
  }

  /** The context once a wired, started controller has checked for a setpoint change. */
  function Checked(c: PidCtx, sigs: seq<Signal>, n: int): PidCtx
    requires ValidPid(c) && ValidTable(sigs, n) && Wired(c, n)
  {
    AfterSetpointCheck(c, sigs[c.setpoint].value)
  }

  /** `setpoint - measurement` in int32. */
  function ErrorOf(c: PidCtx, sigs: seq<Signal>, n: int): int
    requires ValidPid(c) && ValidTable(sigs, n) && Wired(c, n)
  {
    Wrap32(sigs[c.setpoint].value - sigs[c.measurement].value)
  }

  /**
    process_single_pid, with the integral and derivative updates of the
    code as written (`asWritten`) or the intended signed ones.
   */
  function PidOneWith(c: PidCtx, sigs: seq<Signal>, n: int, now: int, asWritten: bool): (r: PidResult)
    requires ValidPid(c) && ValidTable(sigs, n) && IsU64(now)
    ensures ValidPid(r.ctx) && ValidTable(r.sigs, n)
    ensures OnlyWrites(sigs, r.sigs, {c.output})
    // nothing happens to an unwired controller
    ensures !Wired(c, n) ==> r == PidResult(c, sigs)
    // the first run only records the starting point
    ensures Wired(c, n) && c.firstRun ==>
      r.sigs == sigs
      && r.ctx == c.(integral := 0, lastError := 0, lastSetpoint := sigs[c.setpoint].value, lastTime := now, firstRun := false)
    // a later run
    ensures Wired(c, n) && !c.firstRun ==>
      var c1 := AfterSetpointCheck(c, sigs[c.setpoint].value);
      var error := Wrap32(sigs[c.setpoint].value - sigs[c.measurement].value);
      (c.sampleTimeUs == 0 && now == c.lastTime ==> r == PidResult(c1, sigs))
      && (c.sampleTimeUs != 0 || now != c.lastTime ==>
            r.ctx == c1.(integral := r.ctx.integral, lastError := error, lastTime := now)
            && (c.outputMin <= c.outputMax ==> c.outputMin <= r.sigs[c.output].value <= c.outputMax)
            && r.sigs[c.output].status == EvOk && r.sigs[c.output].timestamp == now && r.sigs[c.output].updated
            && (c1.ki == 0 || AbsC32(error) <= c1.deadband ==> r.ctx.integral == c1.integral)
            && (c1.ki != 0 && AbsC32(error) > c1.deadband && c.integralMin <= c.integralMax ==>
                  c.integralMin <= r.ctx.integral <= c.integralMax))
  {
    if !Wired(c, n) then PidResult(c, sigs)
    else
      var sp := sigs[c.setpoint].value;
      if c.firstRun then
        PidResult(c.(integral := 0, lastError := 0, lastSetpoint := sp, lastTime := now, firstRun := false), sigs)
      else
        var c1 := AfterSetpointCheck(c, sp);
        var error := Wrap32(sp - sigs[c.measurement].value);
        var dt := Dt(c1, now);
        if c1.sampleTimeUs == 0 && dt == 0 then
          assert now == c.lastTime;
          PidResult(c1, sigs)
        else
          assert c.sampleTimeUs != 0 || now != c.lastTime;
          Compute(c1, sigs, n, error, dt, now, asWritten)
  }

  /** process_single_pid as written: unsigned integral and derivative arithmetic. */
  function PidOneAsWritten(c: PidCtx, sigs: seq<Signal>, n: int, now: int): (r: PidResult)
    requires ValidPid(c) && ValidTable(sigs, n) && IsU64(now)
  {
    PidOneWith(c, sigs, n, now, true)
  }

  /** process_single_pid with the signed integral and derivative. */
  function PidOne(c: PidCtx, sigs: seq<Signal>, n: int, now: int): (r: PidResult)
    requires ValidPid(c) && ValidTable(sigs, n) && IsU64(now)
  {
    PidOneWith(c, sigs, n, now, false)
  }

  /**
    A computing step of the intended controller moves an integral that
    lies within its limits with the error: never up for a falling error,
    never down for a rising one, as long as error·dt and the sum stay in
    int64.
   */
  lemma PidIntegralFollowsError(c: PidCtx, sigs: seq<Signal>, n: int, now: int)
    requires ValidPid(c) && ValidTable(sigs, n) && IsU64(now) && Wired(c, n) && !c.firstRun
    requires c.sampleTimeUs != 0 || now != c.lastTime
    requires var c1, e := Checked(c, sigs, n), ErrorOf(c, sigs, n);
      c1.integralMin <= c1.integral <= c1.integralMax
      && IsInt64(e * Dt(c, now)) && IsInt64(c1.integral + TruncDiv(e * Dt(c, now), 1000000))
    ensures var c1, e, next := Checked(c, sigs, n), ErrorOf(c, sigs, n), PidOne(c, sigs, n, now).ctx.integral;
      (e <= 0 ==> next <= c1.integral) && (e >= 0 ==> next >= c1.integral)
  {
    var c1 := Checked(c, sigs, n);
    var error := ErrorOf(c, sigs, n);
    var dt := Dt(c, now);
    assert Dt(c1, now) == dt;
    NextIntegralFollowsError(c1, error, dt);
    PidOneComputes(c, sigs, n, now, false);
  }

  /** A wired, started controller with a non-zero time step runs the computing part on the checked context. */
  lemma PidOneComputes(c: PidCtx, sigs: seq<Signal>, n: int, now: int, asWritten: bool)
    requires ValidPid(c) && ValidTable(sigs, n) && IsU64(now) && Wired(c, n) && !c.firstRun
    requires c.sampleTimeUs != 0 || now != c.lastTime
    ensures PidOneWith(c, sigs, n, now, asWritten) == Compute(Checked(c, sigs, n), sigs, n, ErrorOf(c, sigs, n), Dt(c, now), now, asWritten)
  {
    assert Dt(Checked(c, sigs, n), now) == Dt(c, now);
  }

  /** The intended integral update, anti-windup included, keeps an in-range integral moving with the error. */
  lemma NextIntegralFollowsError(c: PidCtx, error: int, dt: int)
    requires ValidPid(c) && IsInt32(error) && IsU64(dt) && c.integralMin <= c.integral <= c.integralMax
    requires IsInt64(error * dt) && IsInt64(c.integral + TruncDiv(error * dt, 1000000))
    ensures error <= 0 ==> NextIntegralWith(c, error, dt, false) <= c.integral
    ensures error >= 0 ==> NextIntegralWith(c, error, dt, false) >= c.integral
  {
    IntegralFollowsError(c.integral, error, dt);
  }

  /**
    The as-written controller winds up on a falling error: with ki 1000,
    no P or D gain, integral limits ±500 and output limits ±1000, a
    setpoint of 0 against a measurement of 1000 over a one-second sample
    pins the integral and the output at +500, where the intended
    controller drives both to -500.
   */
  lemma OutputWindsUpAsWritten(c: PidCtx, sigs: seq<Signal>, n: int, now: int)
    requires ValidPid(c) && ValidTable(sigs, n) && IsU64(now) && Wired(c, n) && !c.firstRun
    requires c.sampleTimeUs == 1000000 && c.kp == 0 && c.ki == 1000 && c.kd == 0 && c.deadband == 0
    requires c.integral == 0 && !c.resetOnSetpointChange
    requires c.integralMin == -500 && c.integralMax == 500 && c.outputMin == -1000 && c.outputMax == 1000
    requires sigs[c.setpoint].value == 0 && sigs[c.measurement].value == 1000
    ensures PidOneAsWritten(c, sigs, n, now).ctx.integral == 500
    ensures PidOneAsWritten(c, sigs, n, now).sigs[c.output].value == 500
    ensures PidOne(c, sigs, n, now).ctx.integral == -500
    ensures PidOne(c, sigs, n, now).sigs[c.output].value == -500
  {
    NegativeErrorWindsUp();
    assert ErrorOf(c, sigs, n) == -1000;
    assert Checked(c, sigs, n) == c;
    assert NextIntegralWith(c, -1000, 1000000, true) == 500;
    assert NextIntegralWith(c, -1000, 1000000, false) == -500;
    assert RawOutputWith(c, 500, -1000, 1000000, true) == 500;
    assert RawOutputWith(c, -500, -1000, 1000000, false) == -500;
  }

  /** The output slots of the enabled controllers. */
  function PidOutputs(cs: seq<PidCtx>): (r: set<int>)
    ensures forall i :: 0 <= i < |cs| && cs[i].enabled ==> cs[i].output in r
    ensures forall k :: k in r ==> exists i :: 0 <= i < |cs| && cs[i].enabled && cs[i].output == k
  {
    if |cs| == 0 then {}
    else
      var last := cs[|cs| - 1];
      var front := PidOutputs(cs[..|cs| - 1]);
      assert forall k :: k in front ==> exists i :: 0 <= i < |cs| - 1 && cs[i].enabled && cs[i].output == k;
      front + (if last.enabled then {last.output} else {})
  }

  datatype PidsResult = PidsResult(ctxs: seq<PidCtx>, sigs: seq<Signal>)

  /**
    lq_process_pids: the controllers run in array order, each with the
    integral and derivative updates as written (`asWritten`) or the
    intended signed ones; each keeps its configuration, and only enabled
    controllers' output slots change.
   */
  function ProcessPidsWith(cs: seq<PidCtx>, sigs: seq<Signal>, n: int, now: int, asWritten: bool): (r: PidsResult)
    requires ValidTable(sigs, n) && IsU64(now)
    requires forall i :: 0 <= i < |cs| ==> ValidPid(cs[i])
    ensures ValidTable(r.sigs, n) && |r.ctxs| == |cs|
    ensures forall i :: 0 <= i < |cs| ==> ValidPid(r.ctxs[i]) && SameConfig(cs[i], r.ctxs[i])
    ensures OnlyWrites(sigs, r.sigs, PidOutputs(cs))
  {
    if |cs| == 0 then PidsResult([], sigs)
    else
      var prev := ProcessPidsWith(cs[..|cs| - 1], sigs, n, now, asWritten);
      var one := PidOneWith(cs[|cs| - 1], prev.sigs, n, now, asWritten);
      TurnShape(cs[|cs| - 1], prev.sigs, n, now, asWritten);
      PidsResult(prev.ctxs + [one.ctx], one.sigs)
  }

  /** One turn keeps the controller's configuration and writes at most its output slot, and only when enabled. */
  lemma TurnShape(c: PidCtx, sigs: seq<Signal>, n: int, now: int, asWritten: bool)
    requires ValidPid(c) && ValidTable(sigs, n) && IsU64(now)
    ensures var r := PidOneWith(c, sigs, n, now, asWritten);
      ValidPid(r.ctx) && ValidTable(r.sigs, n) && SameConfig(c, r.ctx)
      && OnlyWrites(sigs, r.sigs, if c.enabled then {c.output} else {})
  {
  }

  /** lq_process_pids as written: unsigned integral and derivative arithmetic. */
  function ProcessPidsAsWritten(cs: seq<PidCtx>, sigs: seq<Signal>, n: int, now: int): (r: PidsResult)
    requires ValidTable(sigs, n) && IsU64(now)
    requires forall i :: 0 <= i < |cs| ==> ValidPid(cs[i])
    ensures ValidTable(r.sigs, n) && |r.ctxs| == |cs|
    ensures OnlyWrites(sigs, r.sigs, PidOutputs(cs))
  {
    ProcessPidsWith(cs, sigs, n, now, true)
  }

  /** lq_process_pids with the intended signed updates. */
  function ProcessPids(cs: seq<PidCtx>, sigs: seq<Signal>, n: int, now: int): (r: PidsResult)
    requires ValidTable(sigs, n) && IsU64(now)
    requires forall i :: 0 <= i < |cs| ==> ValidPid(cs[i])
    ensures ValidTable(r.sigs, n) && |r.ctxs| == |cs|
    ensures forall i :: 0 <= i < |cs| ==> ValidPid(r.ctxs[i]) && SameConfig(cs[i], r.ctxs[i])
    ensures OnlyWrites(sigs, r.sigs, PidOutputs(cs))
  {
    ProcessPidsWith(cs, sigs, n, now, false)
  }

  /**
    Through the processing loop, the controller of OutputWindsUpAsWritten
    drives its output to +500 as written and to -500 as intended.
   */
  lemma LoopWindsUpAsWritten(c: PidCtx, sigs: seq<Signal>, n: int, now: int)
    requires ValidPid(c) && ValidTable(sigs, n) && IsU64(now) && Wired(c, n) && !c.firstRun
    requires c.sampleTimeUs == 1000000 && c.kp == 0 && c.ki == 1000 && c.kd == 0 && c.deadband == 0
    requires c.integral == 0 && !c.resetOnSetpointChange
    requires c.integralMin == -500 && c.integralMax == 500 && c.outputMin == -1000 && c.outputMax == 1000
    requires sigs[c.setpoint].value == 0 && sigs[c.measurement].value == 1000
    ensures ProcessPidsAsWritten([c], sigs, n, now).sigs[c.output].value == 500
    ensures ProcessPids([c], sigs, n, now).sigs[c.output].value == -500
  {
    assert [c][..0] == [];
    OutputWindsUpAsWritten(c, sigs, n, now);
  }

  /** Two contexts share every configuration field. */
  predicate SameConfig(a: PidCtx, b: PidCtx)
  {
    a.(integral := 0, lastError := 0, lastSetpoint := 0, lastTime := 0, firstRun := false)
    == b.(integral := 0, lastError := 0, lastSetpoint := 0, lastTime := 0, firstRun := false)
  }
}

=== FILE: protocol.dfy ===
/**
  The unified protocol-driver interface (`lq_protocol.h`) that the J1939
  and CANopen drivers implement: a configuration of decode and encode
  maps, and the CAN message record both drivers read and write.

  The drivers read the message's identifier as `address` and its payload
  through `data` and `len`. Here the payload is a sequence whose length is
  `len`. Identifiers are `uint32_t` values the drivers take apart with
  shifts and masks, so they are `bv32`.
 */
module Protocol {
  import opened CInt
  import opened Bytes
  import opened Wrappers

  /** `struct lq_protocol_msg`: identifier, payload (its length is `len`), timestamp. */
  datatype Msg = Msg(address: bv32, data: seq<Byte>, timestamp: int)

  /** A classic CAN frame: at most eight payload bytes. */
  predicate ValidMsg(m: Msg)
  {
    |m.data| <= 8 && IsU64(m.timestamp)
  }

  /** `struct lq_protocol_decode_map`: the signals carried by one protocol id. */
  datatype DecodeMap = DecodeMap(protocolId: bv32, signalIds: seq<int>)

  /** `struct lq_protocol_encode_map`: the signals sent under one protocol id, and its period. */
  datatype EncodeMap = EncodeMap(protocolId: bv32, signalIds: seq<int>, periodMs: int, onChange: bool)

  /** `struct lq_protocol_config`, less the opaque protocol settings. */
  datatype ProtocolConfig = ProtocolConfig(nodeAddress: Byte, decodeMaps: seq<DecodeMap>, encodeMaps: seq<EncodeMap>)

  predicate ValidConfig(c: ProtocolConfig)
  {
    forall i :: 0 <= i < |c.encodeMaps| ==> IsU32(c.encodeMaps[i].periodMs)
  }

  /**
    The first decode map for a protocol id, as the drivers' linear search
    with `break` finds it: its index, or nothing when no map has that id.
   */
  function FirstMap(maps: seq<DecodeMap>, id: bv32): (r: Option<nat>)
    ensures r.Some? ==> r.value < |maps| && maps[r.value].protocolId == id
    ensures r.Some? ==> forall j :: 0 <= j < r.value ==> maps[j].protocolId != id
    ensures r.None? <==> forall j :: 0 <= j < |maps| ==> maps[j].protocolId != id
  {
    if |maps| == 0 then None
    else if maps[0].protocolId == id then Some(0)
    else
      match FirstMap(maps[1..], id)
      case None => None
      case Some(k) => Some(k + 1)
  }

  /** One cached signal value, as the drivers' `signals[]` tables hold it. */
  datatype Signal = Signal(id: int, value: int, timestamp: int)

  /** No two cached signals share an id. */
  predicate UniqueIds(s: seq<Signal>)
  {
    forall i, j :: 0 <= i < j < |s| ==> s[i].id != s[j].id
  }

  /** The index of the cached signal with id `id`, as the drivers' linear search finds it. */
  function FindSignal(s: seq<Signal>, id: int): (r: Option<nat>)
    ensures r.Some? ==> r.value < |s| && s[r.value].id == id
    ensures r.Some? ==> forall j :: 0 <= j < r.value ==> s[j].id != id
    ensures r.None? <==> forall j :: 0 <= j < |s| ==> s[j].id != id
  {
    if |s| == 0 then None
    else if s[0].id == id then Some(0)
    else
      match FindSignal(s[1..], id)
      case None => None
      case Some(k) => Some(k + 1)
  }

  /** The cached value of signal `id`, if there is one. */
  function Lookup(s: seq<Signal>, id: int): Option<int>
  {
    match FindSignal(s, id)
    case None => None
    case Some(k) => Some(s[k].value)
  }

  /**
    The drivers' update_signal on a table of `capacity` entries: an id
    already cached is overwritten in place; a new id is appended while the
    table has room, and otherwise the update is dropped. No other signal's
    cached value changes.
   */
  function Upsert(s: seq<Signal>, id: int, value: int, timestamp: int, capacity: nat): (r: seq<Signal>)
    requires UniqueIds(s) && |s| <= capacity
    ensures UniqueIds(r) && |r| <= capacity
    ensures forall i :: 0 <= i < |r| ==> r[i] in s || r[i] == Signal(id, value, timestamp)
    ensures Lookup(s, id).Some? || |s| < capacity <==> Lookup(r, id) == Some(value)
    ensures Lookup(s, id).None? && |s| == capacity ==> r == s
    ensures forall other :: other != id ==> Lookup(r, other) == Lookup(s, other)
    ensures |r| == |s| + (if Lookup(s, id).None? && |s| < capacity then 1 else 0)
  {
    var e := Signal(id, value, timestamp);
    match FindSignal(s, id)
    case Some(k) =>
      FindAfterWrite(s, k, e);
      s[k := e]
    case None =>
      if |s| < capacity then
        FindAfterAppend(s, e);
        s + [e]
      else s
  }

  /** Overwriting entry k with a record of the same id moves no lookup. */
  lemma {:induction false} FindAfterWrite(s: seq<Signal>, k: nat, e: Signal)
    requires k < |s| && s[k].id == e.id
    ensures forall id :: FindSignal(s[k := e], id) == FindSignal(s, id)
  {
    if k > 0 {
      FindAfterWrite(s[1..], k - 1, e);
      assert s[k := e][1..] == s[1..][k - 1 := e];
    }
  }

  /** Appending a record for a new id finds it at the end and moves no other lookup. */
  lemma {:induction false} FindAfterAppend(s: seq<Signal>, e: Signal)
    requires FindSignal(s, e.id).None?
    ensures FindSignal(s + [e], e.id) == Some(|s|)
    ensures forall id :: id != e.id ==> FindSignal(s + [e], id) == FindSignal(s, id)
  {
    if |s| > 0 {
      FindAfterAppend(s[1..], e);
      assert (s + [e])[1..] == s[1..] + [e];
    }
  }
}

=== FILE: queue.dfy ===
/**
  The item queue (`src/drivers/lq_queue_core.c`): a ring buffer of
  `capacity` items with a policy for pushes onto a full queue, a counter
  that numbers every insert, statistics, and the two counting semaphores of
  the platform layer: `sem_read` counts the items a reader may take and
  `sem_write` the slots a blocked writer may take.

  Only the sequential behaviour is modelled. A semaphore take that finds
  the count at zero fails at once with -EAGAIN, as the non-blocking take
  does; a give at the semaphore's maximum leaves it there, as the platform's
  give does. The count is the queue's `int32_t` atomic, so its increments
  and decrements wrap; the statistics are `uint32_t`.
 */
module Queue {
  import opened CInt
  import opened Ring
  import opened Wrappers
  import opened Util

  /** `enum lq_drop_policy`. */
  datatype Policy = DropOldest | DropNewest | Block

  /** `struct lq_item`; `status` is `enum lq_status`, which has the same members as the engine's status. */
  datatype Item = Item(timestamp: int, value: int, status: Status, sourceId: int, sequence: int)

  /** `struct lq_stats`. */
  datatype Stats = Stats(written: int, read: int, dropped: int, current: int, peak: int)

  /** A queue handle with its `struct lq_queue_config` and `struct lq_queue_data`. */
  datatype Queue = Queue(capacity: int, policy: Policy, items: seq<Item>, readIdx: int, writeIdx: int,
                         count: int, sequence: int, stats: Stats, semRead: int, semWrite: int)

  predicate StatsU32(s: Stats)
  {
    IsU32(s.written) && IsU32(s.read) && IsU32(s.dropped) && IsU32(s.current) && IsU32(s.peak)
  }

  /** What the C types and the platform's semaphores guarantee of any initialised queue. */
  predicate Shape(q: Queue)
  {
    && 0 < q.capacity < U32 && |q.items| == q.capacity
    && 0 <= q.readIdx < q.capacity && 0 <= q.writeIdx < q.capacity
    && IsInt32(q.count) && IsU32(q.sequence) && StatsU32(q.stats)
    && 0 <= q.semRead <= q.capacity && 0 <= q.semWrite <= q.capacity
  }

  /**
    The invariant of a working queue: at most `capacity` items, stored from
    the read index on; `sem_read` counts them, and under the blocking policy
    `sem_write` counts the free slots. The peak is at least the current
    count and at most the capacity.
   */
  predicate Valid(q: Queue)
  {
    && Laid(q)
    && q.semRead == q.count
    && (q.policy == Block ==> q.semWrite == q.capacity - q.count)
    && q.count <= q.stats.peak <= q.capacity
  }

  /** The ring layout: `count` items from the read index on, the write index just past them. */
  predicate Laid(q: Queue)
  {
    && Shape(q) && q.capacity <= INT32_MAX
    && 0 <= q.count <= q.capacity && q.writeIdx == Pos(q.readIdx, q.count, q.capacity)
  }

  /** The items in the queue, oldest first. */
  function Contents(q: Queue): (c: seq<Item>)
    requires Shape(q) && 0 <= q.count <= q.capacity
    ensures |c| == q.count
    ensures forall k :: 0 <= k < q.count ==> c[k] == q.items[Pos(q.readIdx, k, q.capacity)]
  {
    seq(q.count, k requires 0 <= k < q.count => q.items[Pos(q.readIdx, k, q.capacity)])
  }

  /** lq_queue_init: capacity 0 is refused (-EINVAL); otherwise an empty queue with zeroed statistics. */
  function Init(capacity: int, policy: Policy, buffer: seq<Item>): (r: Option<Queue>)
    requires IsU32(capacity) && |buffer| == capacity
    ensures r.None? <==> capacity == 0
    ensures r.Some? ==> Shape(r.value) && r.value.capacity == capacity && r.value.policy == policy
    ensures r.Some? && capacity <= INT32_MAX ==> Valid(r.value) && Contents(r.value) == []
    ensures r.Some? ==> r.value.stats == Stats(0, 0, 0, 0, 0) && r.value.sequence == 0
  {
    if capacity == 0 then None
    else Some(Queue(capacity, policy, buffer, 0, 0, 0, 0, Stats(0, 0, 0, 0, 0), 0, capacity))
  }

  /** The item as stored: the caller's copy with the queue's timestamp and sequence number. */
  function Stamp(item: Item, now: int, sequence: int): Item
  {
    item.(timestamp := now, sequence := sequence)
  }

  /** `lq_sem_give`: one more, unless the count is already at the maximum. */
  function Give(count: int, max: int): (r: int)
    requires 0 <= count <= max
    ensures 0 <= r <= max
    ensures r == count + 1 || (count == max && r == count)
  {
    if count < max then count + 1 else count
  }

  /** The full test: the atomic count against the capacity cast to `int32_t`. */
  predicate Full(q: Queue)
  {
    q.count >= Wrap32(q.capacity)
  }

  /** The insert at the write index (lines 116-131): stamp, number, advance, count, peak, signal. */
  function Insert(q: Queue, item: Item, now: int): (r: Queue)
    requires Shape(q) && IsU32(now)
    ensures Shape(r)
  {
    var count := Wrap32(q.count + 1);
    var current := WrapU32(count);
    q.(items := q.items[q.writeIdx := Stamp(item, now, q.sequence)],
       sequence := Bump(q.sequence),
       writeIdx := Next(q.writeIdx, q.capacity),
       count := count,
       stats := q.stats.(written := Bump(q.stats.written),
                         peak := if current > q.stats.peak then current else q.stats.peak),
       semRead := Give(q.semRead, q.capacity))
  }

  /** The DROP_OLDEST removal (lines 97-100): the read index moves on past the oldest item. */
  function DropFront(q: Queue): (r: Queue)
    requires Shape(q)
    ensures Shape(r)
  {
    q.(readIdx := Next(q.readIdx, q.capacity), count := Wrap32(q.count - 1),
       stats := q.stats.(dropped := Bump(q.stats.dropped)))
  }

  /**
    lq_queue_push, for a policy of when a blocking writer takes a slot from
    `sem_write`: only on a full queue (`slotPerInsert` false, as written) or
    before every insert (`slotPerInsert` true). A full queue refuses the
    item under DROP_NEWEST and drops its oldest under DROP_OLDEST.
   */
  function PushWith(q: Queue, item: Item, now: int, slotPerInsert: bool): (r: (int, Queue))
    requires Shape(q) && IsU32(now)
    ensures Shape(r.1)
    ensures r.0 == 0 || r.0 == -ENOMEM || r.0 == -EAGAIN
    ensures r.0 == -ENOMEM <==> Full(q) && q.policy == DropNewest
    ensures r.0 == -EAGAIN <==> q.policy == Block && (slotPerInsert || Full(q)) && q.semWrite == 0
    ensures r.0 == -EAGAIN ==> r.1 == q
    ensures r.0 == -ENOMEM ==> r.1 == q.(stats := q.stats.(dropped := Bump(q.stats.dropped)))
  {
    if Full(q) && q.policy == DropNewest then
      (-ENOMEM, q.(stats := q.stats.(dropped := Bump(q.stats.dropped))))
    else if Full(q) && q.policy == DropOldest then
      (0, Insert(DropFront(q), item, now))
    else if q.policy == Block && (slotPerInsert || Full(q)) then
      if q.semWrite == 0 then (-EAGAIN, q)
      else (0, Insert(q.(semWrite := q.semWrite - 1), item, now))
    else
      (0, Insert(q, item, now))
  }

  /** lq_queue_push as written: a blocking writer takes from `sem_write` only when the queue is full. */
  function PushAsWritten(q: Queue, item: Item, now: int): (r: (int, Queue))
    requires Shape(q) && IsU32(now)
    ensures Shape(r.1)
    ensures r.0 == -EAGAIN <==> q.policy == Block && Full(q) && q.semWrite == 0
  {
    PushWith(q, item, now, false)
  }

  /**
    lq_queue_push with `sem_write` counting free slots: a blocking writer
    takes one before every insert, so a full queue refuses it (-EAGAIN)
    instead of being written past its capacity.
   */
  function Push(q: Queue, item: Item, now: int): (r: (int, Queue))
    requires Shape(q) && IsU32(now)
    ensures Shape(r.1)
    ensures Valid(q) ==> (r.0 == -EAGAIN <==> q.policy == Block && q.count == q.capacity)
    ensures Valid(q) ==> (r.0 == -ENOMEM <==> q.policy == DropNewest && q.count == q.capacity)
  {
    PushWith(q, item, now, true)
  }

  /**
    lq_queue_pop: -EAGAIN when `sem_read` is zero; otherwise the item at the
    read index, which moves on. Under the blocking policy a slot is given
    back to `sem_write`.
   */
  function Pop(q: Queue): (r: (int, Option<Item>, Queue))
    requires Shape(q)
    ensures Shape(r.2)
    ensures r.0 == 0 || r.0 == -EAGAIN
    ensures r.0 == -EAGAIN <==> q.semRead == 0
    ensures r.0 == -EAGAIN ==> r.1.None? && r.2 == q
    ensures r.0 == 0 ==> r.1 == Some(q.items[q.readIdx]) && r.2.stats.read == Bump(q.stats.read)
  {
    if q.semRead == 0 then (-EAGAIN, None, q)
    else
      var q' := q.(readIdx := Next(q.readIdx, q.capacity), count := Wrap32(q.count - 1),
                   stats := q.stats.(read := Bump(q.stats.read)), semRead := q.semRead - 1,
                   semWrite := if q.policy == Block then Give(q.semWrite, q.capacity) else q.semWrite);
      (0, Some(q.items[q.readIdx]), q')
  }

  /** lq_queue_peek: -ENODATA on an empty queue; otherwise the slot before the write index. */
  function Peek(q: Queue): (r: (int, Option<Item>))
    requires Shape(q)
    ensures r.0 == -ENODATA <==> q.count == 0
    ensures r.0 != -ENODATA ==> r.0 == 0 && r.1.Some?
    ensures r.0 == -ENODATA ==> r.1.None?
  {
    if q.count == 0 then (-ENODATA, None)
    else
      var idx := if q.writeIdx == 0 then q.capacity - 1 else q.writeIdx - 1;
      (0, Some(q.items[idx]))
  }

  /** lq_queue_get_stats: the statistics with `items_current` filled in from the count. */
  function GetStats(q: Queue): (s: Stats)
    requires Shape(q)
    ensures StatsU32(s)
    ensures Valid(q) ==> s.current == |Contents(q)| <= s.peak <= q.capacity
    ensures s.(current := q.stats.current) == q.stats
  {
    q.stats.(current := WrapU32(q.count))
  }

  /** lq_queue_count: the count as a `uint32_t`. */
  function Count(q: Queue): (n: int)
    requires Shape(q)
    ensures IsU32(n)
    ensures Valid(q) ==> n == |Contents(q)|
  {
    WrapU32(q.count)
  }

  // ---------------------------------------------------------------------
  // The queue as a sequence of items

  /** An insert into a queue with room appends the stamped item. */
  lemma InsertAppends(q: Queue, item: Item, now: int)
    requires Laid(q) && q.count < q.capacity && IsU32(now)
    ensures var r := Insert(q, item, now);
      && Laid(r) && r.count == q.count + 1 && r.semRead == Give(q.semRead, q.capacity)
      && r.semWrite == q.semWrite && r.stats.peak == Max(q.stats.peak, r.count)
      && Contents(r) == Contents(q) + [Stamp(item, now, q.sequence)]
  {
    var r := Insert(q, item, now);
    var n := q.capacity;
    assert r.count == q.count + 1;
    var c, c' := Contents(q), Contents(r);
    forall k | 0 <= k < |c'|
      ensures c'[k] == (c + [Stamp(item, now, q.sequence)])[k]
    {
      if k < q.count {
        assert Pos(q.readIdx, k, n) != Pos(q.readIdx, q.count, n);
      }
    }
  }

  /** Dropping the oldest item of a full queue removes the head of the sequence. */
  lemma DropFrontTail(q: Queue)
    requires Laid(q) && q.count == q.capacity
    ensures var r := DropFront(q);
      && Laid(r) && r.count == q.count - 1 && r.semRead == q.semRead && r.stats.peak == q.stats.peak
      && Contents(r) == Contents(q)[1..]
  {
    var r := DropFront(q);
    assert r.count == q.count - 1;
    var c, c' := Contents(q), Contents(r);
    forall k | 0 <= k < |c'|
      ensures c'[k] == c[1..][k]
    {
      assert Pos(r.readIdx, k, q.capacity) == Pos(q.readIdx, k + 1, q.capacity);
    }
  }

  function Max(a: int, b: int): int
  {
    if a >= b then a else b
  }

  /**
    What a push does to the queue's items: a queue with room gets the
    stamped item at the back; a full queue drops its oldest first (DROP_OLDEST),
    or keeps its items and refuses (DROP_NEWEST, -ENOMEM; blocking, -EAGAIN).
    Only a drop counts as dropped, and only an insert advances the sequence
    and the written count. The invariant holds after the push.
   */
  lemma PushContents(q: Queue, item: Item, now: int)
    requires Valid(q) && IsU32(now)
    ensures var r := Push(q, item, now);
      var full := q.count == q.capacity;
      && Valid(r.1)
      && (r.0 != 0 ==> Contents(r.1) == Contents(q) && r.1.sequence == q.sequence)
      && (r.0 == 0 ==> Contents(r.1) == (if full then Contents(q)[1..] else Contents(q)) + [Stamp(item, now, q.sequence)])
      && (r.0 == 0 ==> r.1.sequence == Bump(q.sequence) && r.1.stats.written == Bump(q.stats.written))
      && (r.0 != 0 ==> r.1.stats.written == q.stats.written)
      && r.1.stats.dropped == (if full && q.policy != Block then Bump(q.stats.dropped) else q.stats.dropped)
  {
    var full := q.count == q.capacity;
    assert Full(q) <==> full;
    if full && q.policy == DropOldest {
      DropFrontTail(q);
      InsertAppends(DropFront(q), item, now);
    } else if q.policy == Block && q.semWrite > 0 {
      InsertAppends(q.(semWrite := q.semWrite - 1), item, now);
    } else if !full {
      InsertAppends(q, item, now);
    }
  }

  /**
    What a pop does: an empty queue gives -EAGAIN and stays as it is;
    otherwise the oldest item comes out and the rest stay in order.
   */
  lemma PopContents(q: Queue)
    requires Valid(q)
    ensures var r := Pop(q);
      && Valid(r.2)
      && (r.0 == -EAGAIN <==> Contents(q) == [])
      && (r.0 == 0 ==> r.1 == Some(Contents(q)[0]) && Contents(r.2) == Contents(q)[1..])
  {
    var r := Pop(q);
    if q.count > 0 {
      var n := q.capacity;
      assert r.2.count == q.count - 1;
      var c, c' := Contents(q), Contents(r.2);
      assert c[0] == q.items[q.readIdx];
      forall k | 0 <= k < |c'|
        ensures c'[k] == c[1..][k]
      {
        assert Pos(r.2.readIdx, k, n) == Pos(q.readIdx, k + 1, n);
      }
    }
  }

  /** Peek gives the newest item, the one the last push stored, and leaves the queue alone. */
  lemma PeekNewest(q: Queue)
    requires Valid(q)
    ensures var r := Peek(q);
      && (r.0 == -ENODATA <==> Contents(q) == [])
      && (r.0 == 0 ==> r.1 == Some(Contents(q)[|Contents(q)| - 1]))
  {
    if q.count > 0 {
      assert Contents(q)[q.count - 1] == q.items[Pos(q.readIdx, q.count - 1, q.capacity)];
    }
  }

  /** A push followed by a peek shows the item just pushed, stamped. */
  lemma PushThenPeek(q: Queue, item: Item, now: int)
    requires Valid(q) && IsU32(now)
    requires Push(q, item, now).0 == 0
    ensures Peek(Push(q, item, now).1) == (0, Some(Stamp(item, now, q.sequence)))
  {
    PushContents(q, item, now);
    PeekNewest(Push(q, item, now).1);
  }

  // ---------------------------------------------------------------------
  // Sequence numbers

  /** Each item's number is one more (modulo 2^32) than its predecessor's. */
  predicate Consecutive(c: seq<Item>)
  {
    forall k :: 0 <= k < |c| - 1 ==> IsU32(c[k].sequence) && c[k + 1].sequence == Bump(c[k].sequence)
  }

  /** The items are numbered consecutively, and the counter holds the number the next insert gets. */
  predicate Numbered(q: Queue)
    requires Valid(q)
  {
    var c := Contents(q);
    Consecutive(c) && (c != [] ==> IsU32(c[|c| - 1].sequence) && Bump(c[|c| - 1].sequence) == q.sequence)
  }

  lemma InitNumbered(capacity: int, policy: Policy, buffer: seq<Item>)
    requires 0 < capacity <= INT32_MAX && |buffer| == capacity
    ensures var q := Init(capacity, policy, buffer).value; Valid(q) && Numbered(q)
  {
  }

  /**
    Every insert takes the next number of the counter: the items in the
    queue stay numbered consecutively through any push, so a later item
    has a higher number until the uint32 counter wraps.
   */
  lemma PushNumbered(q: Queue, item: Item, now: int)
    requires Valid(q) && Numbered(q) && IsU32(now)
    ensures Valid(Push(q, item, now).1) && Numbered(Push(q, item, now).1)
  {
    PushContents(q, item, now);
    NumberedAfter(q, Push(q, item, now), Stamp(item, now, q.sequence));
  }

  /** The numbering step of a push, from what the push does to the items and the counter. */
  lemma NumberedAfter(q: Queue, r: (int, Queue), x: Item)
    requires Valid(q) && Numbered(q) && Valid(r.1) && x.sequence == q.sequence
    requires r.0 != 0 ==> Contents(r.1) == Contents(q) && r.1.sequence == q.sequence
    requires r.0 == 0 ==> r.1.sequence == Bump(q.sequence)
    requires r.0 == 0 ==> Contents(r.1) == (if q.count == q.capacity then Contents(q)[1..] else Contents(q)) + [x]
    ensures Numbered(r.1)
  {
    if r.0 == 0 {
      var c := Contents(q);
      var kept := if q.count == q.capacity then c[1..] else c;
      if q.count == q.capacity {
        ConsecutiveTail(c);
      }
      assert kept != [] ==> kept[|kept| - 1] == c[|c| - 1];
      ConsecutiveSnoc(kept, x);
      var c' := Contents(r.1);
      assert c'[|c'| - 1] == x;
    }
  }

  /** Dropping the head keeps a numbering consecutive. */
  lemma ConsecutiveTail(c: seq<Item>)
    requires Consecutive(c) && c != []
    ensures Consecutive(c[1..])
  {
    var t := c[1..];
    forall k | 0 <= k < |t| - 1
      ensures IsU32(t[k].sequence) && t[k + 1].sequence == Bump(t[k].sequence)
    {
      assert t[k] == c[k + 1] && t[k + 1] == c[k + 2];
    }
  }

  /** An item numbered one past the last extends a consecutive numbering. */
  lemma ConsecutiveSnoc(c: seq<Item>, x: Item)
    requires Consecutive(c)
    requires c != [] ==> IsU32(c[|c| - 1].sequence) && x.sequence == Bump(c[|c| - 1].sequence)
    ensures Consecutive(c + [x])
  {
    var c' := c + [x];
    forall k | 0 <= k < |c'| - 1
      ensures IsU32(c'[k].sequence) && c'[k + 1].sequence == Bump(c'[k].sequence)
    {
      assert c'[k] == c[k];
    }
  }

  /** A pop keeps the rest numbered. */
  lemma PopNumbered(q: Queue)
    requires Valid(q) && Numbered(q)
    ensures Valid(Pop(q).2) && Numbered(Pop(q).2)
  {
    PopContents(q);
    if q.count > 0 {
      ConsecutiveTail(Contents(q));
    }
  }

  // ---------------------------------------------------------------------
  // The blocking policy as written

  /**
    As written, `sem_write` starts at the capacity and no insert into a
    queue with room takes from it, so when the queue fills up the blocking
    writer still finds a slot to take: the insert lands on the oldest item
    and the count passes the capacity.
   */
  lemma BlockOverfills(a: Item, b: Item, now: int)
    requires IsU32(now)
    ensures var q0 := Init(1, Block, [a]).value;
      var q1 := PushAsWritten(q0, a, now).1;
      var r := PushAsWritten(q1, b, now);
      && q1.count == q1.capacity
      && r.0 == 0 && r.1.count == 2 > r.1.capacity
      && Count(r.1) == 2 && r.1.items == [Stamp(b, now, 1)]
  {
    var q0 := Init(1, Block, [a]).value;
    var q1 := PushAsWritten(q0, a, now).1;
    assert q1.count == 1 && q1.semWrite == 1 && q1.writeIdx == 0;
  }

  /** With a slot taken per insert, a blocking push onto a full queue is refused and nothing is lost. */
  lemma BlockRefusesWhenFull(q: Queue, item: Item, now: int)
    requires Valid(q) && IsU32(now) && q.policy == Block && q.count == q.capacity
    ensures Push(q, item, now) == (-EAGAIN, q)
  {
  }
}

=== FILE: remap.dfy ===
/**
  The remap transform (`lq_process_remaps`): a symmetric deadzone that
  snaps small inputs to zero, followed by an optional sign inversion.
 */
module Remap {
  import opened CInt
  import opened Events
  import opened Signals
  import opened Wrappers

  /** `struct lq_remap_ctx`. */
  datatype RemapCtx = RemapCtx(input: int, output: int, invert: bool, deadzone: int, enabled: bool)

  predicate ValidRemap(c: RemapCtx)
  {
    IsU8(c.input) && IsU8(c.output) && IsInt32(c.deadzone)
  }

  /** The value lies in the closed deadzone of a positive width. */
  predicate InDeadzone(x: int, deadzone: int)
  {
    deadzone > 0 && -deadzone <= x <= deadzone
  }

  /**
    The value written for an OK input: 0 inside the deadzone (bounds
    included), otherwise the input, negated when inverting; negating
    INT32_MIN wraps to itself as in two's complement.
   */
  function RemapValue(x: int, c: RemapCtx): (r: int)
    requires IsInt32(x) && ValidRemap(c)
    ensures IsInt32(r)
    ensures InDeadzone(x, c.deadzone) ==> r == 0
    ensures !InDeadzone(x, c.deadzone) && !c.invert ==> r == x
    ensures !InDeadzone(x, c.deadzone) && c.invert && x != INT32_MIN ==> r == -x
    ensures !InDeadzone(x, c.deadzone) && c.invert && x == INT32_MIN ==> r == INT32_MIN
  {
    var v := if InDeadzone(x, c.deadzone) then 0 else x;
    if c.invert then Wrap32(-v) else v
  }

  /**
    Inversion commutes with the deadzone: the inverted remap is the negation
    of the plain remap, and a remap's result is never inside its own
    deadzone unless it is 0.
   */
  lemma InvertNegates(x: int, c: RemapCtx)
    requires IsInt32(x) && ValidRemap(c) && x != INT32_MIN
    ensures RemapValue(x, c.(invert := true)) == -RemapValue(x, c.(invert := false))
    ensures InDeadzone(RemapValue(x, c), c.deadzone) ==> RemapValue(x, c) == 0
  {
  }

  /** One remap entry; the same guards and propagation as the scale transform. */
  function RemapOne(sigs: seq<Signal>, n: int, c: RemapCtx, now: int): (r: seq<Signal>)
    requires ValidTable(sigs, n) && ValidRemap(c) && IsU64(now)
    ensures ValidTable(r, n)
    ensures OnlyWrites(sigs, r, {c.output})
    ensures !c.enabled || c.input >= n || c.output >= n ==> r == sigs
    ensures c.enabled && c.input < n && c.output < n && sigs[c.input].status != EvOk ==>
      r[c.output] == Propagated(sigs[c.output], sigs[c.input].status, now)
    ensures c.enabled && c.input < n && c.output < n && sigs[c.input].status == EvOk ==>
      r[c.output] == Written(sigs[c.output], RemapValue(sigs[c.input].value, c), now)
  {
    if !c.enabled || c.input >= n || c.output >= n then sigs
    else if sigs[c.input].status != EvOk then
      sigs[c.output := Propagated(sigs[c.output], sigs[c.input].status, now)]
    else
      sigs[c.output := Written(sigs[c.output], RemapValue(sigs[c.input].value, c), now)]
  }

  /** The output slots of the enabled entries. */
  function RemapOutputs(cs: seq<RemapCtx>): (r: set<int>)
    ensures forall i :: 0 <= i < |cs| && cs[i].enabled ==> cs[i].output in r
    ensures forall k :: k in r ==> exists i :: 0 <= i < |cs| && cs[i].enabled && cs[i].output == k
  {
    if |cs| == 0 then {}
    else
      var last := cs[|cs| - 1];
      var front := RemapOutputs(cs[..|cs| - 1]);
      assert forall k :: k in front ==> exists i :: 0 <= i < |cs| - 1 && cs[i].enabled && cs[i].output == k;
      front + (if last.enabled then {last.output} else {})
  }

  /** lq_process_remaps: a NULL array writes nothing; otherwise only output slots change. */
  function ProcessRemaps(sigs: seq<Signal>, n: int, remaps: Option<seq<RemapCtx>>, now: int): (r: seq<Signal>)
    requires ValidTable(sigs, n) && IsU64(now)
    requires remaps.Some? ==> forall i :: 0 <= i < |remaps.value| ==> ValidRemap(remaps.value[i])
    ensures ValidTable(r, n)
    ensures remaps.None? ==> r == sigs
    ensures remaps.Some? ==> OnlyWrites(sigs, r, RemapOutputs(remaps.value))
  {
    match remaps
    case None => sigs
    case Some(cs) => RemapAll(sigs, n, cs, now)
  }

  function RemapAll(sigs: seq<Signal>, n: int, cs: seq<RemapCtx>, now: int): (r: seq<Signal>)
    requires ValidTable(sigs, n) && IsU64(now)
    requires forall i :: 0 <= i < |cs| ==> ValidRemap(cs[i])
    ensures ValidTable(r, n)
    ensures OnlyWrites(sigs, r, RemapOutputs(cs))
  {
    if |cs| == 0 then sigs
    else RemapOne(RemapAll(sigs, n, cs[..|cs| - 1], now), n, cs[|cs| - 1], now)
  }
}

=== FILE: reqgen.dfy ===
/**
  The requirements-driven generator (`scripts/reqgen.py`): archiving of
  replaced low-level requirements, merging of the requirements that
  configure one device-tree node, the formatting of property values, the
  v2 API rewrite of hardware inputs, the order in which nodes and
  properties are written, the gate in front of DTS generation, and board
  discovery.

  A low-level requirement is the part of its YAML document these
  operations read; loading files, printing and the HIL test and
  documentation skeletons are not modelled.
 */
module ReqGen {
  import opened Wrappers
  import opened Text
  import opened Dicts
  import opened Order
  import DtsGen
  import Conflicts
  import Cycles

  // ---------------------------------------------------------------------
  // Values
  // ---------------------------------------------------------------------

  /** A YAML scalar or list as `yaml.safe_load` returns it; `YNull` is `None` or a missing key. */
  datatype Yaml = YStr(s: string) | YInt(n: int) | YBool(b: bool) | YList(items: seq<Yaml>) | YNull

  /** `str(v)`. */
  function PyStr(v: Yaml): (r: string)
    decreases v, 1
  {
    match v
    case YStr(s) => s
    case YInt(n) => Decimal(n)
    case YBool(b) => if b then "True" else "False"
    case YNull => "None"
    case YList(items) =>
      if items == [] then "[]"
      else "[" + Join(seq(|items|, i requires 0 <= i < |items| => PyRepr(items[i])), ", ") + "]"
  }

  /** `repr(v)`, as a list shows its items: strings in single quotes. */
  function PyRepr(v: Yaml): (r: string)
    decreases v, 2
  {
    if v.YStr? then "'" + v.s + "'" else PyStr(v)
  }

  /** Python truthiness. */
  predicate IsTruthy(v: Yaml)
  {
    match v
    case YStr(s) => s != []
    case YInt(n) => n != 0
    case YBool(b) => b
    case YList(items) => items != []
    case YNull => false
  }

  /**
    `_format_dts_value`: a `<&…>` reference as it is, another string
    quoted, an integer (and so a bool) in angle brackets, a list as its
    items' text joined by spaces in angle brackets, anything else its text.
   */
  function FormatDtsValue(v: Yaml): (r: string)
    ensures v.YStr? && StartsWith(v.s, "<&") ==> r == v.s
    ensures v.YStr? && !StartsWith(v.s, "<&") ==> r == "\"" + v.s + "\""
    ensures v.YInt? || v.YBool? || v.YList? ==> StartsWith(r, "<") && EndsWith(r, ">")
  {
    match v
    case YStr(s) => if StartsWith(s, "<&") then s else "\"" + s + "\""
    case YInt(n) => "<" + Decimal(n) + ">"
    case YBool(_) => "<" + PyStr(v) + ">"
    case YList(items) => "<" + DtsGen.JoinWords(seq(|items|, i requires 0 <= i < |items| => PyStr(items[i]))) + ">"
    case YNull => PyStr(v)
  }

  /** A reference is written as it is and reads back as the referenced name. */
  lemma ReferenceRoundTrip(x: string)
    ensures DtsGen.ParsePropertyValue(FormatDtsValue(YStr("<&" + x + ">"))) == DtsGen.Str(x)
  {
    assert StartsWith("<&" + x + ">", "<&") by {
      assert ("<&" + x + ">")[..2] == "<&";
    }
    DtsGen.PhandleValue(x);
  }

  /** Any other string is quoted and reads back as itself. */
  lemma StringRoundTrip(s: string)
    requires !StartsWith(s, "<&")
    ensures DtsGen.ParsePropertyValue(FormatDtsValue(YStr(s))) == DtsGen.Str(s)
  {
    DtsGen.QuotedValue(s);
  }

  /** An integer reads back as itself. */
  lemma IntRoundTrip(n: int)
    ensures DtsGen.ParsePropertyValue(FormatDtsValue(YInt(n))) == DtsGen.Int(n)
  {
    DtsGen.CellValue(n);
  }

  /** A YAML list of integers. */
  function IntList(ns: seq<int>): (v: Yaml)
    ensures v.YList? && |v.items| == |ns| && forall i :: 0 <= i < |ns| ==> v.items[i] == YInt(ns[i])
  {
    YList(seq(|ns|, i requires 0 <= i < |ns| => YInt(ns[i])))
  }

  /** A list of integers is written as its decimal cells. */
  lemma IntListText(ns: seq<int>)
    ensures FormatDtsValue(IntList(ns)) == "<" + DtsGen.JoinWords(DtsGen.DecimalWords(ns)) + ">"
  {
    var items := IntList(ns).items;
    var words := seq(|items|, i requires 0 <= i < |items| => PyStr(items[i]));
    assert words == DtsGen.DecimalWords(ns);
  }

  /** A list of integers, of any length but one, reads back as the same list. */
  lemma IntListRoundTrip(ns: seq<int>)
    requires |ns| != 1
    ensures DtsGen.ParsePropertyValue(FormatDtsValue(IntList(ns))) == DtsGen.Ints(ns)
  {
    IntListText(ns);
    DtsGen.CellsValue(ns);
  }

  /**
    A bool is an `int` to `isinstance`, so `True` is written `<True>`: not
    a device-tree cell, and it reads back as the text `True`.
   */
  lemma TrueNotAFlag()
    ensures DtsGen.ParsePropertyValue(FormatDtsValue(YBool(true))) == DtsGen.Str("True")
  {
    TrueWritten();
    TrueReadsAsText();
  }

  /** `True` is written `<True>`. */
  lemma TrueWritten()
    ensures FormatDtsValue(YBool(true)) == "<True>"
  {
    assert PyStr(YBool(true)) == "True";
  }

  /** `<True>` reads back as the text `True`. */
  lemma TrueReadsAsText()
    ensures DtsGen.ParsePropertyValue("<True>") == DtsGen.Str("True")
  {
    var t := "<True>";
    assert DtsGen.Trimmed(t) == t && !StartsWith(t, "<&") && StartsWith(t, "<") && EndsWith(t, ">") by {
      DtsGen.TrimmedFixed(t);
      assert t[1] == 'T';
      assert t[..1] == "<";
      assert t[5..] == ">";
    }
    assert Strip(DtsGen.Inner(t, 1)) == "True" by {
      assert DtsGen.Inner(t, 1) == "True";
      StripFixed("True");
    }
    TrueCells();
  }

  /** The cell text `True` is no integer and no reference: it stays text. */
  lemma TrueCells()
    ensures DtsGen.Cells("True") == DtsGen.Str("True")
  {
    var w := "True";
    assert forall i :: 0 <= i < |w| ==> w[i] != '&';
    DtsGen.NoAmpersand(w);
    TrueWords();
    TrueNotInt();
  }

  /** `int("True", 0)` raises. */
  lemma TrueNotInt()
    ensures ParseInt0("True") == None
  {
    var w := "True";
    assert |w| == 4 && w[0] == 'T' && w[3] == 'e';
    StripFixed(w);
    assert SplitSign(w) == (false, w);
    assert Magnitude0(w) == None by {
      assert !HasPrefix(w, 'x') && !HasPrefix(w, 'o') && !HasPrefix(w, 'b');
      assert !DecimalLiteral(w) by { assert !IsHexDigit(w[0]); }
    }
  }

  /** `"True".split()` is the one word. */
  lemma TrueWords()
    ensures DtsGen.SplitWords("True") == ["True"]
  {
    var w := "True";
    assert forall i :: 0 <= i < |w| ==> !IsSpace(w[i]);
    assert LStrip(w) == w;
    assert DtsGen.SpaceFrom(w, 0) == 4;
    assert w[..4] == w && w[4..] == [];
    assert LStrip([]) == [];
  }

  // ---------------------------------------------------------------------
  // Low-level requirements
  // ---------------------------------------------------------------------

  /** What the generator reads from a low-level requirement document. */
  datatype Llr = Llr(
    id: string,
    title: string,
    nodeName: string,
    nodeType: string,
    props: seq<(string, Yaml)>,
    replacedIds: seq<string>,
    board: Yaml,
    hardware: map<string, Yaml>)

  /** The ids of the requirements. */
  function LlrIds(llrs: seq<Llr>): set<string>
  {
    set i | 0 <= i < |llrs| :: llrs[i].id
  }

  /** Every id some requirement lists in `replaced_ids`. */
  function Replaced(llrs: seq<Llr>): set<string>
  {
    set i, j | 0 <= i < |llrs| && 0 <= j < |llrs[i].replacedIds| :: llrs[i].replacedIds[j]
  }

  /** `to_remove`: the replaced ids that are ids of some requirement. */
  function ToRemove(llrs: seq<Llr>): (r: set<string>)
    ensures r <= Replaced(llrs) && r <= LlrIds(llrs)
  {
    set i, j | 0 <= i < |llrs| && 0 <= j < |llrs[i].replacedIds| && llrs[i].replacedIds[j] in LlrIds(llrs) :: llrs[i].replacedIds[j]
  }

  /** The requirements whose id is not in `gone`, in order. */
  function Keep(llrs: seq<Llr>, gone: set<string>): (r: seq<Llr>)
    ensures |r| <= |llrs|
    ensures forall x :: x in r <==> x in llrs && x.id !in gone
  {
    if llrs == [] then []
    else
      assert forall x :: x in llrs <==> x == llrs[0] || x in llrs[1..];
      (if llrs[0].id in gone then [] else [llrs[0]]) + Keep(llrs[1..], gone)
  }

  /** Keeping is done piece by piece, so the kept requirements stay in their order. */
  lemma {:induction false} KeepAppend(a: seq<Llr>, b: seq<Llr>, gone: set<string>)
    ensures Keep(a + b, gone) == Keep(a, gone) + Keep(b, gone)
    decreases |a|
  {
    if a == [] {
      assert a + b == b;
    } else {
      assert (a + b)[1..] == a[1..] + b;
      KeepAppend(a[1..], b, gone);
    }
  }

  /** Removing nothing keeps everything. */
  lemma {:induction false} KeepAll(llrs: seq<Llr>, gone: set<string>)
    requires forall i :: 0 <= i < |llrs| ==> llrs[i].id !in gone
    ensures Keep(llrs, gone) == llrs
    decreases |llrs|
  {
    if llrs != [] {
      KeepAll(llrs[1..], gone);
      assert [llrs[0]] + llrs[1..] == llrs;
    }
  }

  /**
    `_apply_replaced_ids`: every requirement whose id some requirement
    lists as replaced is archived; the others stay, in order.
   */
  function ApplyReplacedIds(llrs: seq<Llr>): (r: seq<Llr>)
    ensures forall x :: x in r ==> x in llrs && x.id !in Replaced(llrs)
    ensures forall x :: x in llrs && x.id !in Replaced(llrs) ==> x in r
  {
    var r := Keep(llrs, ToRemove(llrs));
    assert forall x :: x in llrs && x.id in Replaced(llrs) ==> x.id in ToRemove(llrs) by {
      forall x | x in llrs && x.id in Replaced(llrs) ensures x.id in ToRemove(llrs) {
        var k :| 0 <= k < |llrs| && llrs[k] == x;
        assert x.id in LlrIds(llrs);
      }
    }
    r
  }

  /** Archiving twice archives nothing more: a kept requirement's replaced ids name no kept requirement. */
  lemma ApplyReplacedIdempotent(llrs: seq<Llr>)
    ensures ApplyReplacedIds(ApplyReplacedIds(llrs)) == ApplyReplacedIds(llrs)
  {
    var r := ApplyReplacedIds(llrs);
    assert Replaced(r) <= Replaced(llrs) by {
      forall rid | rid in Replaced(r) ensures rid in Replaced(llrs) {
        var i, j :| 0 <= i < |r| && 0 <= j < |r[i].replacedIds| && r[i].replacedIds[j] == rid;
        assert r[i] in r;
        var k :| 0 <= k < |llrs| && llrs[k] == r[i];
      }
    }
    forall i | 0 <= i < |r| ensures r[i].id !in ToRemove(r) {
      assert r[i] in r;
    }
    KeepAll(r, ToRemove(r));
  }

  // ---------------------------------------------------------------------
  // Merging the requirements of one node
  // ---------------------------------------------------------------------

  /** A merged node: its name and type, merged properties, and the requirements that contributed, in order. */
  datatype Node = Node(name: string, nodeType: string, props: map<string, Yaml>, llrIds: seq<string>, comments: seq<string>)

  /** The merged nodes in creation order. */
  datatype Merged = Merged(order: seq<string>, nodes: map<string, Node>)

  /** The comment a requirement leaves on its node. */
  function Comment(llr: Llr): string
  {
    llr.title + " - " + llr.id
  }

  /** One iteration of `_merge_llr_nodes`: create the node on first sight, then assign the properties and record the requirement. */
  function MergeStep(m: Merged, llr: Llr): (r: Merged)
  {
    var n := llr.nodeName;
    var base := if n in m.nodes then m.nodes[n] else Node(n, llr.nodeType, map[], [], []);
    var node := base.(props := Assign(base.props, llr.props),
                      llrIds := base.llrIds + [llr.id],
                      comments := base.comments + [Comment(llr)]);
    Merged(if n in m.nodes then m.order else m.order + [n], m.nodes[n := node])
  }

  /** `_merge_llr_nodes`. */
  function MergeLlrNodes(llrs: seq<Llr>): (r: Merged)
    ensures forall n :: n in r.nodes ==> r.nodes[n].name == n && |r.nodes[n].comments| >= 1
  {
    if llrs == [] then Merged([], map[])
    else MergeStep(MergeLlrNodes(llrs[..|llrs| - 1]), llrs[|llrs| - 1])
  }

  /** The requirements that configure node `n`, in order. */
  function Contributors(llrs: seq<Llr>, n: string): (r: seq<Llr>)
    ensures forall x :: x in r <==> x in llrs && x.nodeName == n
  {
    if llrs == [] then []
    else
      var init := llrs[..|llrs| - 1];
      var last := llrs[|llrs| - 1];
      assert llrs == init + [last];
      assert forall x :: x in llrs <==> x in init || x == last;
      Contributors(init, n) + (if last.nodeName == n then [last] else [])
  }

  /** All property assignments of some requirements, in order. */
  function AllProps(cs: seq<Llr>): seq<(string, Yaml)>
  {
    if cs == [] then [] else AllProps(cs[..|cs| - 1]) + cs[|cs| - 1].props
  }

  /** The node that merging the contributors `cs` of `n` should give: type of the first, properties assigned in order, every id and comment. */
  function Expected(cs: seq<Llr>, n: string): Node
    requires cs != []
  {
    Node(n, cs[0].nodeType, Assign(map[], AllProps(cs)),
         seq(|cs|, i requires 0 <= i < |cs| => cs[i].id),
         seq(|cs|, i requires 0 <= i < |cs| => Comment(cs[i])))
  }

  /** One more contributor extends the expected node. */
  lemma ExpectedSnoc(cs: seq<Llr>, x: Llr, n: string)
    requires cs != []
    ensures Expected(cs + [x], n)
            == Expected(cs, n).(props := Assign(Expected(cs, n).props, x.props),
                                llrIds := Expected(cs, n).llrIds + [x.id],
                                comments := Expected(cs, n).comments + [Comment(x)])
  {
    var s := cs + [x];
    assert s[..|s| - 1] == cs;
    AssignConcat(map[], AllProps(cs), x.props);
  }

  /** The first contributor alone. */
  lemma ExpectedOne(x: Llr, n: string)
    ensures Expected([x], n) == Node(n, x.nodeType, Assign(map[], x.props), [x.id], [Comment(x)])
  {
    assert [x][..0] == [];
    assert AllProps([x]) == [] + x.props;
    assert [] + x.props == x.props;
  }

  /** Merging gives node `n` exactly when some requirement configures it, and then the node its contributors make. */
  lemma {:induction false} MergeNodeAt(llrs: seq<Llr>, n: string)
    ensures n in MergeLlrNodes(llrs).nodes <==> Contributors(llrs, n) != []
    ensures n in MergeLlrNodes(llrs).nodes ==> MergeLlrNodes(llrs).nodes[n] == Expected(Contributors(llrs, n), n)
    decreases |llrs|
  {
    if llrs != [] {
      var init := llrs[..|llrs| - 1];
      var x := llrs[|llrs| - 1];
      MergeNodeAt(init, n);
      if x.nodeName == n {
        assert Contributors(llrs, n) == Contributors(init, n) + [x];
        if Contributors(init, n) != [] {
          ExpectedSnoc(Contributors(init, n), x, n);
        } else {
          assert Contributors(llrs, n) == [x];
          ExpectedOne(x, n);
        }
      } else {
        assert Contributors(llrs, n) == Contributors(init, n);
      }
    }
  }

  /**
    Merging gives one node per node name in use, and each is what its
    contributors make: the type of the first, the properties assigned in
    order so that a later value wins, and every contributing id and
    comment in order.
   */
  lemma MergeNodes(llrs: seq<Llr>)
    ensures forall n :: n in MergeLlrNodes(llrs).nodes <==> Contributors(llrs, n) != []
    ensures forall n :: n in MergeLlrNodes(llrs).nodes ==> MergeLlrNodes(llrs).nodes[n] == Expected(Contributors(llrs, n), n)
  {
    forall n ensures n in MergeLlrNodes(llrs).nodes <==> Contributors(llrs, n) != [] {
      MergeNodeAt(llrs, n);
    }
    forall n | n in MergeLlrNodes(llrs).nodes ensures MergeLlrNodes(llrs).nodes[n] == Expected(Contributors(llrs, n), n) {
      MergeNodeAt(llrs, n);
    }
  }

  /** Two requirements on one node setting one key: the node keeps the first one's type and the second one's value, and lists both. */
  lemma LaterValueWins(a: Llr, b: Llr, k: string, va: Yaml, vb: Yaml)
    requires a.nodeName == b.nodeName && a.props == [(k, va)] && b.props == [(k, vb)]
    ensures var node := MergeLlrNodes([a, b]).nodes[a.nodeName];
            node.nodeType == a.nodeType && node.props[k] == vb && node.llrIds == [a.id, b.id]
  {
    var n := a.nodeName;
    var m1 := MergeLlrNodes([a]);
    assert [a][..0] == [];
    assert m1 == MergeStep(MergeLlrNodes([]), a);
    assert MergeLlrNodes([a, b]) == MergeStep(m1, b) by { assert [a, b][..1] == [a]; }
    AssignLastWins(Assign(map[], a.props), b.props, 0);
  }

  /** The index of the first requirement configuring `n`. */
  function FirstAt(llrs: seq<Llr>, n: string): (k: nat)
    requires exists i :: 0 <= i < |llrs| && llrs[i].nodeName == n
    ensures k < |llrs| && llrs[k].nodeName == n && forall j :: 0 <= j < k ==> llrs[j].nodeName != n
  {
    if llrs[0].nodeName == n then 0
    else
      var i :| 0 <= i < |llrs| && llrs[i].nodeName == n;
      assert llrs[1..][i - 1] == llrs[i];
      1 + FirstAt(llrs[1..], n)
  }

  /** Some requirement configures `n`. */
  predicate Uses(llrs: seq<Llr>, n: string)
  {
    exists i :: 0 <= i < |llrs| && llrs[i].nodeName == n
  }

  /** Node creation order: every node once, ordered by where its first requirement stands. */
  ghost predicate FirstAppearanceOrder(llrs: seq<Llr>, order: seq<string>)
  {
    (forall n :: n in order <==> Uses(llrs, n))
    && (forall i :: 0 <= i < |order| ==> Uses(llrs, order[i]))
    && (forall i, j :: 0 <= i < j < |order| ==> FirstAt(llrs, order[i]) < FirstAt(llrs, order[j]))
  }

  /** A requirement appended after others leaves their first positions alone. */
  lemma FirstAtSnoc(llrs: seq<Llr>, x: Llr, n: string)
    requires Uses(llrs, n)
    ensures Uses(llrs + [x], n) && FirstAt(llrs + [x], n) == FirstAt(llrs, n)
  {
    var k := FirstAt(llrs, n);
    var s := llrs + [x];
    assert s[k] == llrs[k];
    assert forall j :: 0 <= j < |llrs| ==> s[j] == llrs[j];
    var k' := FirstAt(s, n);
    assert !(k' < k) && !(k < k');
  }

  /** Nodes are created in the order their names first appear. */
  lemma {:induction false} MergeOrder(llrs: seq<Llr>)
    ensures FirstAppearanceOrder(llrs, MergeLlrNodes(llrs).order)
    ensures forall n :: n in MergeLlrNodes(llrs).order <==> n in MergeLlrNodes(llrs).nodes
    decreases |llrs|
  {
    if llrs != [] {
      var init := llrs[..|llrs| - 1];
      var x := llrs[|llrs| - 1];
      assert llrs == init + [x];
      MergeOrder(init);
      var n := x.nodeName;
      MergeNodeAt(init, n);
      ContributorsUse(init, n);
      if Uses(init, n) {
        OrderKept(init, x, MergeLlrNodes(init).order);
      } else {
        OrderGrows(init, x, MergeLlrNodes(init).order);
      }
    }
  }

  /** A requirement on a node already in use leaves the creation order as it is. */
  lemma OrderKept(init: seq<Llr>, x: Llr, o: seq<string>)
    requires FirstAppearanceOrder(init, o) && Uses(init, x.nodeName)
    ensures FirstAppearanceOrder(init + [x], o)
  {
    UsesSnoc(init, x);
  }

  /** A requirement on a new node appends that node to the creation order. */
  lemma OrderGrows(init: seq<Llr>, x: Llr, o: seq<string>)
    requires FirstAppearanceOrder(init, o) && !Uses(init, x.nodeName)
    ensures FirstAppearanceOrder(init + [x], o + [x.nodeName])
  {
    var llrs := init + [x];
    var o' := o + [x.nodeName];
    UsesSnoc(init, x);
    NewNodeLast(init, x);
    forall i | 0 <= i < |o'| ensures Uses(llrs, o'[i]) {
      if i < |o| { assert o'[i] == o[i]; }
    }
    forall i, j | 0 <= i < j < |o'| ensures FirstAt(llrs, o'[i]) < FirstAt(llrs, o'[j]) {
      assert o'[i] == o[i];
      if j < |o| { assert o'[j] == o[j]; }
    }
  }

  /** A node is in use exactly when it has contributors. */
  lemma ContributorsUse(llrs: seq<Llr>, n: string)
    ensures Contributors(llrs, n) != [] <==> Uses(llrs, n)
  {
    if Uses(llrs, n) {
      var i :| 0 <= i < |llrs| && llrs[i].nodeName == n;
      assert llrs[i] in Contributors(llrs, n);
    }
    if Contributors(llrs, n) != [] {
      assert Contributors(llrs, n)[0] in llrs;
    }
  }

  /** The names in use after one more requirement, and their unchanged first positions. */
  lemma UsesSnoc(init: seq<Llr>, x: Llr)
    ensures forall n :: Uses(init + [x], n) <==> Uses(init, n) || x.nodeName == n
    ensures forall n :: Uses(init, n) ==> Uses(init + [x], n) && FirstAt(init + [x], n) == FirstAt(init, n)
  {
    var llrs := init + [x];
    forall n | Uses(llrs, n) ensures Uses(init, n) || x.nodeName == n {
      var i :| 0 <= i < |llrs| && llrs[i].nodeName == n;
      if i < |init| { assert init[i] == llrs[i]; }
    }
    forall n | Uses(init, n) ensures Uses(llrs, n) && FirstAt(llrs, n) == FirstAt(init, n) {
      FirstAtSnoc(init, x, n);
    }
    assert llrs[|init|] == x;
  }

  /** A name first used by the last requirement is first found there. */
  lemma NewNodeLast(init: seq<Llr>, x: Llr)
    requires !Uses(init, x.nodeName)
    ensures Uses(init + [x], x.nodeName) && FirstAt(init + [x], x.nodeName) == |init|
  {
    var llrs := init + [x];
    assert llrs[|init|] == x;
  }

  // ---------------------------------------------------------------------
  // The v2 API rewrite
  // ---------------------------------------------------------------------

  /** The node types rewritten to `lq,input`. */
  predicate HardwareInput(t: string)
  {
    t == "lq,hw-adc-input" || t == "lq,hw-spi-input" || t == "lq,hw-sensor-input"
  }

  /** The keys the rewrite of node type `t` reads, writes or drops. */
  function Touched(t: string): set<string>
  {
    if t == "lq,hw-adc-input" then {"io-channels", "input", "min-raw", "max-raw", "isr-priority", "init-priority"}
    else if t == "lq,hw-spi-input" then {"spi-device", "input", "isr-priority", "init-priority"}
    else if t == "lq,hw-sensor-input" then
      {"sensor-device", "sensor-channel", "input", "trigger-type", "poll-interval-ms", "scale-factor", "offset", "init-priority"}
    else {}
  }

  /** The hardware-only keys the rewrite of node type `t` drops. */
  function Dropped(t: string): set<string>
  {
    if t == "lq,hw-adc-input" then {"min-raw", "max-raw", "isr-priority", "init-priority"}
    else if t == "lq,hw-spi-input" then {"isr-priority", "init-priority"}
    else if t == "lq,hw-sensor-input" then {"trigger-type", "poll-interval-ms", "scale-factor", "offset", "init-priority"}
    else {}
  }

  /** `new_props['input'] = new_props.pop(key)`, when the key is there. */
  function Rename(p: map<string, Yaml>, key: string): (r: map<string, Yaml>)
  {
    if key in p then (p - {key})["input" := p[key]] else p
  }

  /**
    `_transform_to_v2_api`, on a copy of the properties: an ADC or SPI
    input moves its `io-channels` or `spi-device` to `input`, a sensor
    input with both device and channel gets `input = "device channel"`,
    all three become `lq,input` and lose their hardware-only keys; any
    other type is returned as it is.
   */
  function TransformToV2(t: string, props: map<string, Yaml>): (r: (string, map<string, Yaml>))
    ensures r.0 == if HardwareInput(t) then "lq,input" else t
    ensures forall k :: k in Dropped(t) ==> k !in r.1
    ensures forall k :: k !in Touched(t) ==> (k in r.1 <==> k in props) && (k in props ==> r.1[k] == props[k])
    ensures t == "lq,hw-adc-input" && "io-channels" in props ==> "io-channels" !in r.1 && "input" in r.1 && r.1["input"] == props["io-channels"]
    ensures t == "lq,hw-spi-input" && "spi-device" in props ==> "spi-device" !in r.1 && "input" in r.1 && r.1["input"] == props["spi-device"]
    ensures t == "lq,hw-sensor-input" && "sensor-device" in props && "sensor-channel" in props ==>
              "sensor-device" !in r.1 && "sensor-channel" !in r.1 && "input" in r.1
              && r.1["input"] == YStr(PyStr(props["sensor-device"]) + " " + PyStr(props["sensor-channel"]))
  {
    if t == "lq,hw-adc-input" then
      ("lq,input", Rename(props, "io-channels") - Dropped(t))
    else if t == "lq,hw-spi-input" then
      ("lq,input", Rename(props, "spi-device") - Dropped(t))
    else if t == "lq,hw-sensor-input" then
      var p := if "sensor-device" in props && "sensor-channel" in props then
                 (props - {"sensor-device", "sensor-channel"})["input" := YStr(PyStr(props["sensor-device"]) + " " + PyStr(props["sensor-channel"]))]
               else props;
      ("lq,input", p - Dropped(t))
    else (t, props)
  }

  /** The rewrite settles: rewriting its own output changes nothing. */
  lemma TransformSettles(t: string, props: map<string, Yaml>)
    ensures var r := TransformToV2(t, props); TransformToV2(r.0, r.1) == r
  {
  }

  // ---------------------------------------------------------------------
  // Writing nodes
  // ---------------------------------------------------------------------

  /** `'    ' * indent`. */
  function Indent(indent: nat): (s: string)
    ensures |s| == 4 * indent && forall i :: 0 <= i < |s| ==> s[i] == ' '
  {
    seq(4 * indent, _ => ' ')
  }

  /** `name.replace('_', '-')`. */
  function Dashes(s: string): (r: string)
    ensures |r| == |s| && forall i :: 0 <= i < |s| ==> r[i] == if s[i] == '_' then '-' else s[i]
  {
    seq(|s|, i requires 0 <= i < |s| => if s[i] == '_' then '-' else s[i])
  }

  /** The keys written as properties: all but `compatible`, in the given order. */
  function PropertyKeys(keys: seq<string>): (r: seq<string>)
    ensures forall x :: x in r <==> x in keys && x != "compatible"
    ensures Ascending(keys) ==> Ascending(r)
  {
    if keys == [] then []
    else
      var rest := PropertyKeys(keys[1..]);
      assert forall x :: x in keys <==> x == keys[0] || x in keys[1..];
      assert Ascending(keys) ==> Ascending(keys[1..]) && forall x :: x in rest ==> Below(keys[0], x) by {
        if Ascending(keys) {
          forall x | x in rest ensures Below(keys[0], x) {
            var j :| 1 <= j < |keys| && keys[j] == x;
          }
        }
      }
      if keys[0] == "compatible" then rest else [keys[0]] + rest
  }

  /** One property line. */
  function PropLine(ind: string, key: string, v: Yaml): string
  {
    ind + "    " + key + " = " + FormatDtsValue(v) + ";"
  }

  /** The property lines of `_merged_node_to_dts`, one per written key. */
  function PropLines(ind: string, p: map<string, Yaml>, keys: seq<string>): (r: seq<string>)
    requires forall k :: k in keys ==> k in p
    ensures |r| == |keys| && forall i :: 0 <= i < |keys| ==> r[i] == PropLine(ind, keys[i], p[keys[i]])
  {
    seq(|keys|, i requires 0 <= i < |keys| => PropLine(ind, keys[i], p[keys[i]]))
  }

  /** The comment lines above a node: every contributor when several, else the one comment. */
  function HeaderLines(ind: string, node: Node): (r: seq<string>)
    requires |node.llrIds| > 1 || |node.comments| > 0
    ensures |r| == if |node.llrIds| > 1 then 1 + |node.comments| else 1
  {
    if |node.llrIds| > 1 then
      [ind + "/* " + node.name + " - configured by: " + Join(node.llrIds, ", ") + " */"]
      + seq(|node.comments|, i requires 0 <= i < |node.comments| => ind + "/*   - " + node.comments[i] + " */")
    else [ind + "/* " + node.comments[0] + " */"]
  }

  /** The lines of `_merged_node_to_dts`, before they are joined. */
  function NodeLines(node: Node, indent: nat): (r: seq<string>)
    requires |node.llrIds| > 1 || |node.comments| > 0
  {
    var tp := TransformToV2(node.nodeType, node.props);
    var ind := Indent(indent);
    var keys := PropertyKeys(Sorted(tp.1.Keys));
    HeaderLines(ind, node)
    + [ind + node.name + ": " + Dashes(node.name) + " {", ind + "    compatible = \"" + tp.0 + "\";"]
    + PropLines(ind, tp.1, keys)
    + [ind + "}\n"]
  }

  /**
    After the header, a node's lines are its label line, the one
    `compatible` line with the rewritten type, one line per other property
    in ascending key order, and the closing brace.
   */
  lemma NodeLayout(node: Node, indent: nat)
    requires |node.llrIds| > 1 || |node.comments| > 0
    ensures var tp := TransformToV2(node.nodeType, node.props);
            var keys := PropertyKeys(Sorted(tp.1.Keys));
            var h := |HeaderLines(Indent(indent), node)|;
            var lines := NodeLines(node, indent);
            |lines| == h + 3 + |keys|
            && lines[h + 1] == Indent(indent) + "    compatible = \"" + tp.0 + "\";"
            && Ascending(keys) && (forall k :: k in keys <==> k in tp.1 && k != "compatible")
            && (forall i :: 0 <= i < |keys| ==> lines[h + 2 + i] == PropLine(Indent(indent), keys[i], tp.1[keys[i]]))
  {
  }

  /** `_merged_node_to_dts`. */
  function NodeText(node: Node, indent: nat): string
    requires |node.llrIds| > 1 || |node.comments| > 0
  {
    Join(NodeLines(node, indent), "\n")
  }

  /** The order nodes are written in: `engine` first, then the others by name. */
  function DtsOrder(names: set<string>): (r: seq<string>)
    ensures forall x :: x in r <==> x in names
    ensures forall i, j :: 0 <= i < j < |r| ==> r[i] != r[j]
    ensures "engine" in names ==> r[0] == "engine"
    ensures var rest := if "engine" in names then r[1..] else r; Ascending(rest) && "engine" !in rest
  {
    var rest := Sorted(names - {"engine"});
    AscendingDistinct(rest);
    if "engine" in names then
      var r := ["engine"] + rest;
      assert r[1..] == rest;
      assert forall i :: 1 <= i < |r| ==> r[i] == rest[i - 1];
      r
    else rest
  }

  /** The text of every node of `m`, in the given order. */
  function NodeBlocks(m: Merged, order: seq<string>): (r: seq<string>)
    requires forall n :: n in m.nodes ==> |m.nodes[n].comments| >= 1
    requires forall i :: 0 <= i < |order| ==> order[i] in m.nodes
    ensures |r| == |order|
  {
    seq(|order|, i requires 0 <= i < |order| => NodeText(m.nodes[order[i]], 1))
  }

  /** The banner at the top of the generated file. */
  const Banner: seq<string> := ["// Auto-generated from requirements", "// DO NOT EDIT - Regenerate with: reqgen generate-dts\n", "/ {"]

  /** `_generate_dts_content`: the banner, `/ {`, every merged node in order, and `};`. */
  function DtsContent(llrs: seq<Llr>): string
  {
    var m := MergeLlrNodes(llrs);
    var order := DtsOrder(m.nodes.Keys);
    assert forall i :: 0 <= i < |order| ==> order[i] in m.nodes by {
      forall i | 0 <= i < |order| ensures order[i] in m.nodes {
        assert order[i] in order;
      }
    }
    var parts := Banner + NodeBlocks(m, order) + ["};"];
    Join(parts, "\n") + "\n"
  }

  // ---------------------------------------------------------------------
  // Validation and the generation gate
  // ---------------------------------------------------------------------

  /** The properties as the conflict checks see them: strings stay strings, anything else is its text. */
  function PropVals(p: map<string, Yaml>): map<string, Conflicts.PropVal>
  {
    map k | k in p :: if p[k].YStr? then Conflicts.Str(p[k].s) else Conflicts.Other(PyStr(p[k]))
  }

  /** `_llr_to_object`. */
  function ToObject(llr: Llr): Conflicts.Llr
  {
    Conflicts.Llr(llr.id, Some(llr.nodeName), Some(llr.nodeType), PropVals(Assign(map[], llr.props)))
  }

  /** The example budget limits `_detect_conflicts` checks against. */
  const Limits: map<string, int> := map["signals" := 32, "cyclic_outputs" := 16, "merges" := 8]

  /** The requirements as the conflict checks see them. */
  function Objects(llrs: seq<Llr>): (r: seq<Conflicts.Llr>)
    ensures |r| == |llrs|
    ensures forall i :: 0 <= i < |llrs| ==> r[i].id == llrs[i].id && r[i].nodeName == Some(llrs[i].nodeName)
  {
    seq(|llrs|, i requires 0 <= i < |llrs| => ToObject(llrs[i]))
  }

  /**
    `_detect_conflicts`: resource, timing, dependency and budget conflicts
    in that order. The timing conflicts come from floating-point
    arithmetic and are a parameter. With `pop` the dependency search keeps
    its stack; without it, it is the search as written, and `None` stands
    for the ValueError it raises.
   */
  function DetectConflictsWith(llrs: seq<Llr>, timing: seq<Conflicts.Conflict>, pop: bool): (r: Option<seq<Conflicts.Conflict>>)
    ensures pop ==> r.Some?
    ensures r.None? <==> Cycles.DependencyCycles(Objects(llrs), pop).None?
    ensures r.Some? ==> |r.value| >= |timing| && forall c :: c in timing ==> c in r.value
    ensures r.Some? ==> forall c :: c in r.value && c !in timing ==> Detected(c)
    ensures r.Some? ==> forall c :: c in r.value && c !in timing && c.kind == Conflicts.Budget ==>
      c in Conflicts.CheckBudgetConflict(Objects(llrs), Limits)
  {
    var objs := Objects(llrs);
    var found := Cycles.CheckDependencyConflict(objs, pop);
    if found.None? then None
    else
      var res := Conflicts.ResourceConflicts(Conflicts.Claims(objs));
      var budget := Conflicts.CheckBudgetConflict(objs, Limits);
      DetectedParts(objs, pop, found.value);
      Some(Concat4(res, timing, found.value, budget))
  }

  /** Four lists one after the other. */
  function Concat4<T(!new)>(a: seq<T>, b: seq<T>, c: seq<T>, d: seq<T>): (r: seq<T>)
    ensures |r| == |a| + |b| + |c| + |d|
    ensures forall x :: x in r <==> x in a || x in b || x in c || x in d
  {
    a + b + c + d
  }

  /** The resource, dependency and budget conflicts are all Detected. */
  lemma DetectedParts(objs: seq<Conflicts.Llr>, pop: bool, deps: seq<Conflicts.Conflict>)
    requires Cycles.CheckDependencyConflict(objs, pop) == Some(deps)
    ensures forall c :: c in Conflicts.ResourceConflicts(Conflicts.Claims(objs)) ==> Detected(c) && c.kind == Conflicts.Resource
    ensures forall c :: c in deps ==> Detected(c) && c.kind == Conflicts.Dependency
    ensures forall c :: c in Conflicts.CheckBudgetConflict(objs, Limits) ==> Detected(c)
  {
    Conflicts.ResourceConflictsAreErrors(Conflicts.Claims(objs));
  }

  /**
    A conflict `_detect_conflicts` adds itself: a resource or dependency
    error or a budget warning, whose metadata lets auto-resolution report
    it without raising.
   */
  predicate Detected(c: Conflicts.Conflict)
  {
    c.kind in {Conflicts.Resource, Conflicts.Dependency, Conflicts.Budget}
    && (c.kind == Conflicts.Budget ==> c.severity == Conflicts.Warning)
    && (c.kind != Conflicts.Budget ==> c.severity == Conflicts.Error)
    && !Conflicts.Unprintable(c)
  }

  /**
    `_detect_conflicts` as written: the dependency search leaves nodes on
    its stack and raises on graphs such as Cycles.Stale.
   */
  function DetectConflictsAsWritten(llrs: seq<Llr>, timing: seq<Conflicts.Conflict>): (r: Option<seq<Conflicts.Conflict>>)
    ensures r.None? <==> Cycles.DependencyCycles(Objects(llrs), false).None?
    ensures r.Some? ==> forall c :: c in timing ==> c in r.value
  {
    DetectConflictsWith(llrs, timing, false)
  }

  /** `_detect_conflicts` with the search that keeps its stack: it never raises. */
  function DetectConflicts(llrs: seq<Llr>, timing: seq<Conflicts.Conflict>): (r: seq<Conflicts.Conflict>)
    ensures |r| >= |timing|
    ensures forall c :: c in timing ==> c in r
    ensures forall c :: c in r && c !in timing ==> c.kind in {Conflicts.Resource, Conflicts.Dependency, Conflicts.Budget}
    ensures forall c :: c in r && c !in timing && c.kind == Conflicts.Budget ==> c.severity == Conflicts.Warning
    ensures forall c :: c in r && c !in timing && c.kind != Conflicts.Budget ==> c.severity == Conflicts.Error
    ensures forall c :: c in r && c !in timing && c.kind == Conflicts.Budget ==> c in Conflicts.CheckBudgetConflict(Objects(llrs), Limits)
  {
    DetectConflictsWith(llrs, timing, true).value
  }

  /**
    The conflicts `_detect_conflicts` adds never make `auto_resolve` raise:
    with timing conflicts that carry budget metadata whenever they are
    resolvable, resolution goes through and is the one `validate` uses.
   */
  lemma DetectedResolve(llrs: seq<Llr>, timing: seq<Conflicts.Conflict>)
    requires forall c :: c in timing ==> !Conflicts.Unprintable(c)
    ensures var r := Conflicts.AutoResolveChecked(DetectConflicts(llrs, timing));
      r.Resolved? && r.kept == Conflicts.AutoResolve(DetectConflicts(llrs, timing)).0
  {
  }

  /** `validate`: resolve what resolves itself when asked, then pass unless the conflicts block. */
  function Validate(conflicts: seq<Conflicts.Conflict>, strict: bool, autoFix: bool): (r: (bool, seq<Conflicts.Conflict>))
    ensures r.1 == if autoFix then Conflicts.AutoResolve(conflicts).0 else conflicts
    ensures r.0 <==> !Conflicts.ShouldFail(r.1, strict)
  {
    var kept := if autoFix then Conflicts.AutoResolve(conflicts).0 else conflicts;
    (!Conflicts.ShouldFail(kept, strict), kept)
  }

  /** `generate_dts`: nothing is written when the conflicts block generation and it is not forced. */
  function GenerateDts(llrs: seq<Llr>, conflicts: seq<Conflicts.Conflict>, strict: bool, force: bool): (r: Option<string>)
    ensures r.None? <==> !force && Conflicts.ShouldFail(conflicts, strict)
    ensures r.Some? ==> r.value == DtsContent(llrs)
  {
    if !force && Conflicts.ShouldFail(conflicts, strict) then None else Some(DtsContent(llrs))
  }

  /** Once validation has passed on the same conflicts, generation goes ahead. */
  lemma ValidatedGenerates(llrs: seq<Llr>, conflicts: seq<Conflicts.Conflict>, strict: bool, autoFix: bool, force: bool)
    requires Validate(conflicts, strict, autoFix).0
    ensures GenerateDts(llrs, Validate(conflicts, strict, autoFix).1, strict, force).Some?
  {
  }

  // ---------------------------------------------------------------------
  // Board discovery
  // ---------------------------------------------------------------------

  /** `d.get(key)`, `None` when absent. */
  function Get(m: map<string, Yaml>, key: string): Yaml
  {
    if key in m then m[key] else YNull
  }

  /** What `discover_board` has found so far. */
  datatype Found = Found(board: Yaml, overlay: Yaml)

  /** `board = v` when nothing truthy is set yet and `v` is truthy. */
  function Fill(cur: Yaml, v: Yaml): Yaml
  {
    if !IsTruthy(cur) && IsTruthy(v) then v else cur
  }

  /** One iteration of `discover_board`. */
  function BoardStep(f: Found, llr: Llr): Found
  {
    var b1 := if IsTruthy(llr.board) then llr.board else f.board;
    var props := Assign(map[], llr.props);
    var b2 := Fill(b1, Get(props, "board"));
    var o2 := Fill(f.overlay, Get(props, "overlay"));
    Found(Fill(b2, Get(llr.hardware, "board")), Fill(o2, Get(llr.hardware, "overlay")))
  }

  /** `discover_board`. */
  function DiscoverBoard(llrs: seq<Llr>): Found
  {
    if llrs == [] then Found(YNull, YNull)
    else BoardStep(DiscoverBoard(llrs[..|llrs| - 1]), llrs[|llrs| - 1])
  }

  /** The top-level `board` of the last requirement that has a truthy one, `None` when none has. */
  function LastTopBoard(llrs: seq<Llr>): (r: Yaml)
    ensures r == YNull || IsTruthy(r)
  {
    if llrs == [] then YNull
    else if IsTruthy(llrs[|llrs| - 1].board) then llrs[|llrs| - 1].board
    else LastTopBoard(llrs[..|llrs| - 1])
  }

  /** The first truthy value, `None` when there is none. */
  function FirstTruthy(vs: seq<Yaml>): (r: Yaml)
    ensures r == YNull || (IsTruthy(r) && r in vs)
    ensures r == YNull <==> forall v :: v in vs ==> !IsTruthy(v)
  {
    if vs == [] then YNull
    else if IsTruthy(vs[0]) then vs[0]
    else
      assert forall v :: v in vs <==> v == vs[0] || v in vs[1..];
      FirstTruthy(vs[1..])
  }

  /** The first truthy value of two runs. */
  lemma {:induction false} FirstTruthyAppend(a: seq<Yaml>, b: seq<Yaml>)
    ensures FirstTruthy(a + b) == if IsTruthy(FirstTruthy(a)) then FirstTruthy(a) else FirstTruthy(b)
    decreases |a|
  {
    if a == [] {
      assert a + b == b;
    } else {
      assert (a + b)[0] == a[0] && (a + b)[1..] == a[1..] + b;
      FirstTruthyAppend(a[1..], b);
    }
  }

  /** The places a requirement can name a board after its top level, in reading order. */
  function BoardCandidates(llrs: seq<Llr>): seq<Yaml>
  {
    if llrs == [] then []
    else
      var x := llrs[|llrs| - 1];
      BoardCandidates(llrs[..|llrs| - 1]) + [Get(Assign(map[], x.props), "board"), Get(x.hardware, "board")]
  }

  /** The places a requirement can name an overlay, in reading order. */
  function OverlayCandidates(llrs: seq<Llr>): seq<Yaml>
  {
    if llrs == [] then []
    else
      var x := llrs[|llrs| - 1];
      OverlayCandidates(llrs[..|llrs| - 1]) + [Get(Assign(map[], x.props), "overlay"), Get(x.hardware, "overlay")]
  }

  /**
    A top-level `board` overrides whatever was found before it, so the
    last one wins; without any, the board is the first one found in the
    properties or hardware sections. The overlay is always the first one
    found.
   */
  lemma {:induction false} BoardDiscovery(llrs: seq<Llr>)
    ensures DiscoverBoard(llrs).board
            == if IsTruthy(LastTopBoard(llrs)) then LastTopBoard(llrs) else FirstTruthy(BoardCandidates(llrs))
    ensures DiscoverBoard(llrs).overlay == FirstTruthy(OverlayCandidates(llrs))
    decreases |llrs|
  {
    if llrs != [] {
      var init := llrs[..|llrs| - 1];
      var x := llrs[|llrs| - 1];
      BoardDiscovery(init);
      var props := Assign(map[], x.props);
      var pair := [Get(props, "board"), Get(x.hardware, "board")];
      FirstTruthyAppend(BoardCandidates(init), pair);
      FirstTruthyAppend(OverlayCandidates(init), [Get(props, "overlay"), Get(x.hardware, "overlay")]);
      assert pair[1..] == [Get(x.hardware, "board")];
    }
  }
}

=== FILE: ring.dfy ===
/**
  Index arithmetic of a ring buffer of `n` slots, shared by the item queue
  and the hardware-input buffer: the C code advances an index with
  `(i + 1) % n` and the k-th oldest entry sits k slots after the read index.
 */
module Ring {
  import opened CInt

  /** One slot on from an index already below n, back to 0 after the last slot. */
  function Next(i: int, n: int): (j: int)
    requires 0 <= i < n
    ensures 0 <= j < n
  {
    if i + 1 == n then 0 else i + 1
  }

  /** The slot `k` places after `r` in a ring of `n` slots, for `k <= n`. */
  function Pos(r: int, k: int, n: int): (p: int)
    requires 0 <= r < n && 0 <= k <= n
    ensures 0 <= p < n
  {
    if r + k < n then r + k else r + k - n
  }

  /** Next is the C code's `(i + 1) % n`. */
  lemma NextIsMod(i: int, n: int)
    requires 0 <= i < n
    ensures Next(i, n) == (i + 1) % n
  {
    if i + 1 == n {
      DivModUnique(i + 1, n, 1, 0);
    } else {
      DivModUnique(i + 1, n, 0, i + 1);
    }
  }

  /** Pos is `(r + k) % n`. */
  lemma PosIsMod(r: int, k: int, n: int)
    requires 0 <= r < n && 0 <= k <= n
    ensures Pos(r, k, n) == (r + k) % n
  {
    if r + k < n {
      DivModUnique(r + k, n, 0, r + k);
    } else {
      DivModUnique(r + k, n, 1, r + k - n);
    }
  }
}

=== FILE: scale.dfy ===
/**
  The linear scale transform (`lq_process_scales`): output =
  sat_int32(trunc(input · factor / 1000) + offset), then the optional
  clamps, minimum first and maximum last.
 */
module Scale {
  import opened CInt
  import opened Events
  import opened Signals
  import opened Wrappers

  /** `struct lq_scale_ctx`. */
  datatype ScaleCtx = ScaleCtx(input: int, output: int, factor: int, offset: int,
                               clampMin: int, clampMax: int, hasMin: bool, hasMax: bool, enabled: bool)

  predicate ValidScale(c: ScaleCtx)
  {
    IsU8(c.input) && IsU8(c.output) && IsInt32(c.factor) && IsInt32(c.offset)
    && IsInt32(c.clampMin) && IsInt32(c.clampMax)
  }

  /** The int64 computation before the clamps, saturated to int32. */
  function Unclamped(x: int, c: ScaleCtx): (r: int)
    requires IsInt32(x) && ValidScale(c)
    ensures IsInt32(r)
  {
    Sat32(TruncDiv(x * c.factor, 1000) + c.offset)
  }

  /**
    The value written for an OK input. An enabled maximum always bounds it;
    an enabled minimum bounds it unless it exceeds an enabled maximum, in
    which case the maximum wins; a value inside the enabled clamps passes
    through.
   */
  function ScaledValue(x: int, c: ScaleCtx): (r: int)
    requires IsInt32(x) && ValidScale(c)
    ensures IsInt32(r)
    ensures c.hasMax ==> r <= c.clampMax
    ensures c.hasMin && (!c.hasMax || c.clampMin <= c.clampMax) ==> c.clampMin <= r
    ensures c.hasMin && c.hasMax && c.clampMin > c.clampMax ==> r == c.clampMax
    ensures (!c.hasMin || c.clampMin <= Unclamped(x, c)) && (!c.hasMax || Unclamped(x, c) <= c.clampMax)
            ==> r == Unclamped(x, c)
  {
    var v := Unclamped(x, c);
    var v1 := if c.hasMin && v < c.clampMin then c.clampMin else v;
    if c.hasMax && v1 > c.clampMax then c.clampMax else v1
  }

  /** With a non-negative factor the scale is monotone in its input. */
  lemma ScaleMonotone(x: int, y: int, c: ScaleCtx)
    requires IsInt32(x) && IsInt32(y) && ValidScale(c)
    requires x <= y && c.factor >= 0
    ensures ScaledValue(x, c) <= ScaledValue(y, c)
  {
    MulMono(x, y, c.factor + 1);
    assert x * c.factor <= y * c.factor by {
      if c.factor > 0 {
        MulMono(x, y, c.factor);
      }
    }
    TruncDivMono(x * c.factor, y * c.factor, 1000);
  }

  /** One scale entry. */
  function ScaleOne(sigs: seq<Signal>, n: int, c: ScaleCtx, now: int): (r: seq<Signal>)
    requires ValidTable(sigs, n) && ValidScale(c) && IsU64(now)
    ensures ValidTable(r, n)
    ensures OnlyWrites(sigs, r, {c.output})
    ensures !c.enabled || c.input >= n || c.output >= n ==> r == sigs
    ensures c.enabled && c.input < n && c.output < n && sigs[c.input].status != EvOk ==>
      r[c.output] == Propagated(sigs[c.output], sigs[c.input].status, now)
    ensures c.enabled && c.input < n && c.output < n && sigs[c.input].status == EvOk ==>
      r[c.output] == Written(sigs[c.output], ScaledValue(sigs[c.input].value, c), now)
  {
    if !c.enabled || c.input >= n || c.output >= n then sigs
    else if sigs[c.input].status != EvOk then
      sigs[c.output := Propagated(sigs[c.output], sigs[c.input].status, now)]
    else
      sigs[c.output := Written(sigs[c.output], ScaledValue(sigs[c.input].value, c), now)]
  }

  /** The output slots of the entries that can write. */
  function ScaleOutputs(cs: seq<ScaleCtx>): (r: set<int>)
    ensures forall i :: 0 <= i < |cs| && cs[i].enabled ==> cs[i].output in r
    ensures forall k :: k in r ==> exists i :: 0 <= i < |cs| && cs[i].enabled && cs[i].output == k
  {
    if |cs| == 0 then {}
    else
      var last := cs[|cs| - 1];
      var front := ScaleOutputs(cs[..|cs| - 1]);
      assert forall k :: k in front ==> exists i :: 0 <= i < |cs| - 1 && cs[i].enabled && cs[i].output == k;
      front + (if last.enabled then {last.output} else {})
  }

  /**
    lq_process_scales: a NULL array writes nothing; otherwise the entries
    run in array order and only their output slots change.
   */
  function ProcessScales(sigs: seq<Signal>, n: int, scales: Option<seq<ScaleCtx>>, now: int): (r: seq<Signal>)
    requires ValidTable(sigs, n) && IsU64(now)
    requires scales.Some? ==> forall i :: 0 <= i < |scales.value| ==> ValidScale(scales.value[i])
    ensures ValidTable(r, n)
    ensures scales.None? ==> r == sigs
    ensures scales.Some? ==> OnlyWrites(sigs, r, ScaleOutputs(scales.value))
  {
    match scales
    case None => sigs
    case Some(cs) => ScaleAll(sigs, n, cs, now)
  }

  function ScaleAll(sigs: seq<Signal>, n: int, cs: seq<ScaleCtx>, now: int): (r: seq<Signal>)
    requires ValidTable(sigs, n) && IsU64(now)
    requires forall i :: 0 <= i < |cs| ==> ValidScale(cs[i])
    ensures ValidTable(r, n)
    ensures OnlyWrites(sigs, r, ScaleOutputs(cs))
  {
    if |cs| == 0 then sigs
    else ScaleOne(ScaleAll(sigs, n, cs[..|cs| - 1], now), n, cs[|cs| - 1], now)
  }
}

=== FILE: signals.dfy ===
/**
  The engine's canonical signal table (`struct lq_signal signals[32]` plus
  `num_signals`), shared by the engine phases and the signal transforms.
 */
module Signals {
  import opened CInt
  import opened Events

  const MAX_SIGNALS: int := 32
  const MAX_CYCLIC_OUTPUTS: int := 16
  const MAX_OUTPUT_EVENTS: int := 64
  const MAX_MERGES: int := 8
  const MAX_REMAPS: int := 16
  const MAX_SCALES: int := 16
  const MAX_VERIFIED_OUTPUTS: int := 16
  const MAX_PIDS: int := 8

  /** `struct lq_signal`. */
  datatype Signal = Signal(value: int, status: EventStatus, timestamp: int, staleUs: int, updated: bool)

  /** The C field widths: int32 value, uint64 timestamp and staleness. */
  predicate ValidSignal(s: Signal)
  {
    IsInt32(s.value) && IsU64(s.timestamp) && IsU64(s.staleUs)
  }

  /**
    A signal table: exactly LQ_MAX_SIGNALS slots, and a `num_signals` that
    does not exceed them (the staleness loop indexes every slot below it).
   */
  predicate ValidTable(sigs: seq<Signal>, n: int)
  {
    |sigs| == MAX_SIGNALS && 0 <= n <= MAX_SIGNALS
    && forall i :: 0 <= i < |sigs| ==> ValidSignal(sigs[i])
  }

  /** Every slot outside `outs` is the same in `a` and `b`. */
  predicate OnlyWrites(a: seq<Signal>, b: seq<Signal>, outs: set<int>)
  {
    |a| == |b| && forall k :: 0 <= k < |a| && k !in outs ==> a[k] == b[k]
  }

  /** Slot `k` replaced by `s`: a valid table stays valid and no other slot changes. */
  function Store(sigs: seq<Signal>, n: int, k: int, s: Signal): (r: seq<Signal>)
    requires ValidTable(sigs, n) && 0 <= k < |sigs| && ValidSignal(s)
    ensures ValidTable(r, n) && OnlyWrites(sigs, r, {k}) && r[k] == s
  {
    sigs[k := s]
  }

  /** Writing a computed value: status OK, stamped `now`, marked updated. */
  function Written(s: Signal, value: int, now: int): (r: Signal)
    ensures r.value == value && r.status == EvOk && r.timestamp == now && r.updated
    ensures r.staleUs == s.staleUs
  {
    s.(value := value, status := EvOk, timestamp := now, updated := true)
  }

  /** Propagating a non-OK input: only status, timestamp and the updated flag change. */
  function Propagated(s: Signal, status: EventStatus, now: int): (r: Signal)
    ensures r.value == s.value && r.staleUs == s.staleUs
    ensures r.status == status && r.timestamp == now && r.updated
  {
    s.(status := status, timestamp := now, updated := true)
  }
}

=== FILE: spi.dfy ===
/**
  The SPI source (`src/lq_spi_source.c`): the bytes of one SPI transfer
  become a signed 32-bit reading, big-endian and sign-extended from the
  transfer's width, and a status looked up among the expected values.
 */
module SpiSource {
  import opened CInt
  import opened Bytes
  import opened Wrappers
  import opened Util

  /** `struct lq_spi_source_config`. */
  datatype SpiConfig = SpiConfig(pollIntervalMs: int, readLength: int, expected: seq<Expected>, defaultStatus: Status)

  /** The value of bytes read most significant first. */
  function BeUnsigned(b: seq<Byte>): (u: nat)
    ensures u < Pow2(8 * |b|)
  {
    if b == [] then 0
    else
      Pow2Add(8 * (|b| - 1), 8);
      BeUnsigned(b[..|b| - 1]) * 256 + b[|b| - 1]
  }

  lemma {:induction false} Pow2Add(a: nat, b: nat)
    ensures Pow2(a + b) == Pow2(a) * Pow2(b)
  {
    if b > 0 {
      Pow2Add(a, b - 1);
    }
  }

  /** The two's-complement value of `b`, a signed integer `8·|b|` bits wide. */
  function Signed(b: seq<Byte>): (v: int)
    requires 1 <= |b|
    ensures -(Pow2(8 * |b| - 1) as int) <= v < Pow2(8 * |b| - 1)
    ensures v % Pow2(8 * |b|) == BeUnsigned(b)
  {
    Pow2Add(8 * |b| - 1, 1);
    var u := BeUnsigned(b);
    var half := Pow2(8 * |b| - 1);
    if u >= half then
      DivModUnique(u - 2 * half, 2 * half, -1, u);
      u - 2 * half
    else
      DivModUnique(u, 2 * half, 0, u);
      u
  }

  /** The `n` bytes, most significant first, of `v` in two's complement. */
  function SignedBytes(v: int, n: nat): (b: seq<Byte>)
    decreases n
    ensures |b| == n
  {
    if n == 0 then [] else SignedBytes(v / 256, n - 1) + [v % 256]
  }

  /** The bytes of a value give back its residue modulo 2^(8n). */
  lemma {:induction false} SignedBytesValue(v: int, n: nat)
    decreases n
    ensures BeUnsigned(SignedBytes(v, n)) == v % Pow2(8 * n)
  {
    if n > 0 {
      var b := SignedBytes(v, n);
      SignedBytesValue(v / 256, n - 1);
      assert b[..n - 1] == SignedBytes(v / 256, n - 1);
      assert BeUnsigned(b) == BeUnsigned(b[..n - 1]) * 256 + v % 256;
      var p := Pow2(8 * (n - 1));
      Pow2Add(8 * (n - 1), 8);
      Pow2Byte();
      assert Pow2(8 * n) == p * 256;
      SplitMod(v, 256, p);
    }
  }

  /** 2^8 is one byte's range. */
  lemma Pow2Byte()
    ensures Pow2(8) == 256
  {
    assert Pow2(2) == 4;
    assert Pow2(4) == 16;
    assert Pow2(6) == 64;
  }

  /** 2^31 and 2^32 are the int32 and uint32 ranges. */
  lemma Pow2Word()
    ensures Pow2(31) == INT32_MAX + 1 && Pow2(32) == U32
  {
    Pow2Byte();
    Pow2Add(8, 8);
    Pow2Add(16, 8);
    Pow2Add(24, 8);
    Pow2Add(31, 1);
  }

  /** Two byte strings of the same length with the same value are equal. */
  lemma {:induction false} BeUnsignedInjective(a: seq<Byte>, b: seq<Byte>)
    requires |a| == |b| && BeUnsigned(a) == BeUnsigned(b)
    ensures a == b
  {
    if |a| > 0 {
      var n := |a| - 1;
      DivModUnique(BeUnsigned(a), 256, BeUnsigned(a[..n]), a[n]);
      DivModUnique(BeUnsigned(b), 256, BeUnsigned(b[..n]), b[n]);
      BeUnsignedInjective(a[..n], b[..n]);
      assert a == a[..n] + [a[n]] && b == b[..n] + [b[n]];
    }
  }

  /** A value in [-half, half) reduced modulo 2·half and re-centred is itself. */
  lemma Recentre(v: int, half: int)
    requires half > 0 && -half <= v < half
    ensures v >= 0 ==> v % (2 * half) == v
    ensures v < 0 ==> v % (2 * half) == v + 2 * half
  {
    if v >= 0 {
      DivModUnique(v, 2 * half, 0, v);
    } else {
      DivModUnique(v, 2 * half, -1, v + 2 * half);
    }
  }

  /** A reading in range, sent as `n` bytes, is read back unchanged. */
  lemma ValueRoundTrip(v: int, n: nat)
    requires 1 <= n && -(Pow2(8 * n - 1) as int) <= v < Pow2(8 * n - 1)
    ensures Signed(SignedBytes(v, n)) == v
  {
    SignedBytesValue(v, n);
    Pow2Add(8 * n - 1, 1);
    Recentre(v, Pow2(8 * n - 1));
  }

  /** The bytes of a reading are the bytes read. */
  lemma BytesRoundTrip(b: seq<Byte>)
    requires 1 <= |b|
    ensures SignedBytes(Signed(b), |b|) == b
  {
    SignedBytesValue(Signed(b), |b|);
    BeUnsignedInjective(SignedBytes(Signed(b), |b|), b);
  }

  /** The width of the reading in bytes: the transfer length, at most 4. */
  function Width(length: int): int
  {
    Min(length, 4)
  }

  /**
    lq_spi_source_process. A NULL buffer or configuration, or an empty
    transfer, gives -EINVAL and no reading. Otherwise the first four bytes
    at most are read big-endian as a signed value as wide as they are, and
    its status is the one the configuration's expected values give it.
   */
  method Process(data: Option<seq<Byte>>, length: int, config: Option<SpiConfig>) returns (rc: int, reading: Option<(int, Status)>)
    requires IsU8(length) && (data.Some? ==> |data.value| >= Width(length))
    ensures rc == -EINVAL <==> data.None? || config.None? || length == 0
    ensures rc != -EINVAL ==> rc == 0
    ensures rc == 0 <==> reading.Some?
    ensures reading.Some? ==>
      var bytes := data.value[..Width(length)];
      && reading.value.0 == Signed(bytes)
      && IsInt32(reading.value.0)
      && reading.value.1 == ValidateValue(reading.value.0, config.value.expected, config.value.defaultStatus)
  {
    if data.None? || config.None? || length == 0 {
      return -EINVAL, None;
    }
    var d := data.value;
    var result := ReadBigEndian(d, length);
    if length < 4 {
      result := ExtendSign(result, d[..length]);
    } else {
      FullWidth(d[..4]);
    }
    var status := ValidateValue(result, config.value.expected, config.value.defaultStatus);
    return 0, Some((result, status));
  }

  /** The read loop: up to four bytes shifted in most significant first, in an int32. */
  method ReadBigEndian(d: seq<Byte>, length: int) returns (result: int)
    requires 1 <= length && |d| >= Width(length)
    ensures length < 4 ==> result == BeUnsigned(d[..length])
    ensures length >= 4 ==> result == Wrap32(BeUnsigned(d[..4]))
  {
    var n := Width(length);
    result := 0;
    var i := 0;
    while i < length && i < 4
      invariant 0 <= i <= n
      invariant i < 4 ==> result == BeUnsigned(d[..i])
      invariant i == 4 ==> result == Wrap32(BeUnsigned(d[..4]))
    {
      // The shift and OR of a byte into a value whose low byte is clear is a multiply-add.
      AppendByte(d, i);
      result := Wrap32(result * 256 + d[i]);
      i := i + 1;
    }
  }

  /** The sign extension of a reading narrower than four bytes. */
  method ExtendSign(u: int, b: seq<Byte>) returns (result: int)
    requires 1 <= |b| < 4 && u == BeUnsigned(b)
    ensures result == Signed(b)
  {
    SignExtended(b);
    var signBit := 8 * |b| - 1;
    SignBit(u, signBit);
    result := u;
    if Bits(result, signBit, 1) == 1 {
      // OR with the ones above the sign bit: in two's complement, minus 2^(8·length).
      result := result - Pow2(signBit + 1);
    }
  }

  /** One more byte shifts the value up by eight bits. */
  lemma AppendByte(d: seq<Byte>, i: nat)
    requires i < |d|
    ensures BeUnsigned(d[..i + 1]) == BeUnsigned(d[..i]) * 256 + d[i]
    ensures i < 3 ==> IsInt32(BeUnsigned(d[..i]) * 256 + d[i])
  {
    assert d[..i + 1][..i] == d[..i];
    if i < 3 {
      Pow2Add(8 * i + 8, 31 - 8 * i - 8);
      Pow2Word();
    }
  }

  /** Below four bytes, the reading is the value with its sign bit extended. */
  lemma SignExtended(b: seq<Byte>)
    requires 1 <= |b| < 4
    ensures BeUnsigned(b) < 2 * Pow2(8 * |b| - 1) && Pow2(8 * |b|) == 2 * Pow2(8 * |b| - 1)
    ensures Signed(b) == if BeUnsigned(b) >= Pow2(8 * |b| - 1) then BeUnsigned(b) - Pow2(8 * |b|) else BeUnsigned(b)
    ensures IsInt32(Signed(b))
  {
    Pow2Add(8 * |b| - 1, 1);
    Pow2Add(8 * |b| - 1, 32 - 8 * |b|);
    Pow2Word();
  }

  /** Four bytes read into an int32 are the four-byte signed value. */
  lemma FullWidth(b: seq<Byte>)
    requires |b| == 4
    ensures Signed(b) == Wrap32(BeUnsigned(b))
    ensures IsInt32(Signed(b))
  {
    Pow2Word();
  }

  /** Below 2^(k+1), bit k is set exactly from 2^k up. */
  lemma SignBit(x: nat, k: nat)
    requires x < 2 * Pow2(k)
    ensures Bits(x, k, 1) == 1 <==> x >= Pow2(k)
  {
    if x >= Pow2(k) {
      DivModUnique(x, Pow2(k), 1, x - Pow2(k));
    } else {
      DivModUnique(x, Pow2(k), 0, x);
    }
  }
}

=== FILE: text.dfy ===
/**
  The few Python string built-ins the build-time generators rely on, over
  ASCII text: `str.strip`, `str.upper`/`lower`, `in`, `startswith`,
  `split`/`join`, `int(s, base)` and `int(s, 0)`, and the `d`/`X` format
  specifiers. A Python `str` is a `string` here; characters outside ASCII
  are never letters, digits or white space in this model.
 */
module Text {
  import opened Wrappers

  // ---------------------------------------------------------------------
  // Characters
  // ---------------------------------------------------------------------

  /** `str.isspace` on ASCII: tab, line feed, vertical tab, form feed, carriage return, the four separators 0x1C..0x1F and space. */
  predicate IsSpace(c: char)
  {
    9 <= c as int <= 13 || 28 <= c as int <= 32
  }

  predicate IsDigit(c: char) { '0' <= c <= '9' }

  predicate IsLowerLetter(c: char) { 'a' <= c <= 'z' }

  predicate IsUpperLetter(c: char) { 'A' <= c <= 'Z' }

  /** `str.isalnum` on ASCII. */
  predicate IsAlnum(c: char) { IsDigit(c) || IsLowerLetter(c) || IsUpperLetter(c) }

  /** A digit of base 16 in either case. */
  predicate IsHexDigit(c: char) { IsDigit(c) || 'a' <= c <= 'f' || 'A' <= c <= 'F' }

  /** The characters `'0123456789abcdef'`, the set the EDS importer tests lower-cased names against. */
  predicate IsLowerHexDigit(c: char) { IsDigit(c) || 'a' <= c <= 'f' }

  function UpperChar(c: char): (r: char)
    ensures IsLowerLetter(c) ==> IsUpperLetter(r) && r as int == c as int - 32
    ensures !IsLowerLetter(c) ==> r == c
  {
    if IsLowerLetter(c) then (c as int - 32) as char else c
  }

  function LowerChar(c: char): (r: char)
    ensures IsUpperLetter(c) ==> IsLowerLetter(r) && r as int == c as int + 32
    ensures !IsUpperLetter(c) ==> r == c
  {
    if IsUpperLetter(c) then (c as int + 32) as char else c
  }

  /** `str.upper`. */
  function Upper(s: string): (r: string)
    ensures |r| == |s|
    ensures forall i :: 0 <= i < |s| ==> r[i] == UpperChar(s[i])
  {
    seq(|s|, i requires 0 <= i < |s| => UpperChar(s[i]))
  }

  /** `str.lower`. */
  function Lower(s: string): (r: string)
    ensures |r| == |s|
    ensures forall i :: 0 <= i < |s| ==> r[i] == LowerChar(s[i])
  {
    seq(|s|, i requires 0 <= i < |s| => LowerChar(s[i]))
  }

  /** Upper-casing twice is upper-casing once. */
  lemma UpperIdempotent(s: string)
    ensures Upper(Upper(s)) == Upper(s)
  {
  }

  /** Lower-casing leaves digits and lower-case letters alone. */
  lemma LowerKeepsLowerHex(s: string)
    requires forall i :: 0 <= i < |s| ==> IsLowerHexDigit(s[i])
    ensures Lower(s) == s
  {
  }

  // ---------------------------------------------------------------------
  // Stripping white space
  // ---------------------------------------------------------------------

  /** `str.lstrip()`: the suffix after the leading white space. */
  function LStrip(s: string): (r: string)
    ensures |r| <= |s| && r == s[|s| - |r|..]
    ensures forall i :: 0 <= i < |s| - |r| ==> IsSpace(s[i])
    ensures r == [] || !IsSpace(r[0])
    decreases |s|
  {
    if s != [] && IsSpace(s[0]) then LStrip(s[1..]) else s
  }

  /** `str.rstrip()`: the prefix before the trailing white space. */
  function RStrip(s: string): (r: string)
    ensures |r| <= |s| && r == s[..|r|]
    ensures forall i :: |r| <= i < |s| ==> IsSpace(s[i])
    ensures r == [] || !IsSpace(r[|r| - 1])
    decreases |s|
  {
    if s != [] && IsSpace(s[|s| - 1]) then RStrip(s[..|s| - 1]) else s
  }

  /** `str.strip()`. */
  function Strip(s: string): (r: string)
    ensures |r| <= |s|
    ensures r == [] || (!IsSpace(r[0]) && !IsSpace(r[|r| - 1]))
  {
    RStrip(LStrip(s))
  }

  /** A string without white space at either end is its own strip. */
  lemma StripFixed(s: string)
    requires s == [] || (!IsSpace(s[0]) && !IsSpace(s[|s| - 1]))
    ensures Strip(s) == s
  {
  }

  /** Stripping twice is stripping once. */
  lemma StripIdempotent(s: string)
    ensures Strip(Strip(s)) == Strip(s)
  {
    StripFixed(Strip(s));
  }

  /** A string with no white space at all is its own strip. */
  lemma StripNoSpace(s: string)
    requires forall i :: 0 <= i < |s| ==> !IsSpace(s[i])
    ensures Strip(s) == s
  {
    StripFixed(s);
  }

  // ---------------------------------------------------------------------
  // Substrings
  // ---------------------------------------------------------------------

  /** `p` occurs in `s` at position `i`. */
  predicate At(s: string, i: int, p: string)
  {
    0 <= i && i + |p| <= |s| && s[i..i + |p|] == p
  }

  /** Python's `p in s`. */
  predicate Contains(s: string, p: string)
  {
    exists i :: 0 <= i <= |s| && At(s, i, p)
  }

  /** `s.startswith(p)`. */
  predicate StartsWith(s: string, p: string)
  {
    |p| <= |s| && s[..|p|] == p
  }

  /** `s.endswith(p)`. */
  predicate EndsWith(s: string, p: string)
  {
    |p| <= |s| && s[|s| - |p|..] == p
  }

  /** The first occurrence of `p` at or after `k`, as `str.find` searches. */
  function FindFrom(s: string, p: string, k: nat): (r: Option<nat>)
    requires k <= |s|
    ensures r.Some? ==> k <= r.value && At(s, r.value, p)
    ensures r.Some? ==> forall j :: k <= j < r.value ==> !At(s, j, p)
    ensures r.None? ==> forall j :: k <= j ==> !At(s, j, p)
    decreases |s| - k
  {
    if At(s, k, p) then Some(k)
    else if k == |s| then None
    else FindFrom(s, p, k + 1)
  }

  /** `str.find`: the search finds something exactly when `p in s`. */
  function Find(s: string, p: string): (r: Option<nat>)
    ensures r.Some? <==> Contains(s, p)
    ensures r.Some? ==> At(s, r.value, p) && forall j :: 0 <= j < r.value ==> !At(s, j, p)
  {
    FindFrom(s, p, 0)
  }

  /** `sep.join(parts)`. */
  function Join(parts: seq<string>, sep: string): (r: string)
    requires |parts| >= 1
    ensures StartsWith(r, parts[0])
    decreases |parts|
  {
    if |parts| == 1 then parts[0] else parts[0] + sep + Join(parts[1..], sep)
  }

  /**
    `s.split(sep)`: the pieces between the occurrences of `sep` found from
    left to right. Joining them with `sep` gives `s` back, and no piece
    contains `sep`.
   */
  function Split(s: string, sep: string): (parts: seq<string>)
    requires |sep| > 0
    ensures |parts| >= 1
    ensures Join(parts, sep) == s
    ensures forall i :: 0 <= i < |parts| ==> !Contains(parts[i], sep)
    ensures |parts| == 1 <==> !Contains(s, sep)
    decreases |s|
  {
    match Find(s, sep)
    case None => [s]
    case Some(i) =>
      var head, rest := s[..i], Split(s[i + |sep|..], sep);
      PrefixClear(s, sep, i);
      assert s == head + sep + s[i + |sep|..];
      [head] + rest
  }

  /** Before the first occurrence of `sep` there is none. */
  lemma PrefixClear(s: string, sep: string, i: nat)
    requires |sep| > 0 && i <= |s| && forall j :: 0 <= j < i ==> !At(s, j, sep)
    ensures !Contains(s[..i], sep)
  {
    forall j | 0 <= j <= i && At(s[..i], j, sep)
      ensures false
    {
      assert s[j..j + |sep|] == s[..i][j..j + |sep|];
      assert At(s, j, sep);
    }
  }

  /** A string with exactly one occurrence of `sep` splits into what lies before it and what lies after it. */
  lemma SplitOnce(a: string, sep: string, b: string)
    requires |sep| > 0 && !Contains(a, sep) && !Contains(b, sep)
    requires forall j :: 0 <= j < |a| ==> !At(a + sep + b, j, sep)
    ensures Split(a + sep + b, sep) == [a, b]
  {
    var s := a + sep + b;
    assert At(s, |a|, sep);
    assert s[|a| + |sep|..] == b;
  }

  // ---------------------------------------------------------------------
  // Digits and integers
  // ---------------------------------------------------------------------

  /** The value of a hexadecimal digit in either case (and 0 for any other character). */
  function DigitValue(c: char): (d: nat)
    ensures d < 16
    ensures IsHexDigit(c) ==> (IsDigit(c) <==> d < 10)
  {
    if IsDigit(c) then c as int - '0' as int
    else if 'a' <= c <= 'f' then c as int - 'a' as int + 10
    else if 'A' <= c <= 'F' then c as int - 'A' as int + 10
    else 0
  }

  /** A digit of the given base (2, 8, 10 or 16). */
  predicate InBase(c: char, base: nat)
  {
    IsHexDigit(c) && DigitValue(c) < base
  }

  predicate AllInBase(s: string, base: nat)
  {
    forall i :: 0 <= i < |s| ==> InBase(s[i], base)
  }

  /** The number the digits spell, most significant first. */
  function Value(s: string, base: nat): (v: nat)
    decreases |s|
  {
    if s == [] then 0 else Value(s[..|s| - 1], base) * base + DigitValue(s[|s| - 1])
  }

  /** Leading zeros do not change the value. */
  lemma {:induction false} LeadingZero(s: string, base: nat)
    requires AllInBase(s, base) && base >= 2
    ensures AllInBase("0" + s, base) && Value("0" + s, base) == Value(s, base)
    decreases |s|
  {
    var t := "0" + s;
    assert AllInBase(t, base) by {
      forall i | 0 <= i < |t| ensures InBase(t[i], base) {
        if i > 0 { assert t[i] == s[i - 1]; }
      }
    }
    if s != [] {
      var init := s[..|s| - 1];
      LeadingZero(init, base);
      assert t[..|t| - 1] == "0" + init;
    }
  }

  /** A digit as `format` writes it: lower-case letters for `x`, upper-case for `X`. */
  predicate Written(c: char, upper: bool)
  {
    IsHexDigit(c) && (if upper then !IsLowerLetter(c) else IsLowerHexDigit(c))
  }

  /** Only written digits, which are never white space. */
  predicate AllWritten(s: string, upper: bool)
  {
    forall i :: 0 <= i < |s| ==> Written(s[i], upper)
  }

  /** The digit for `d` in lower or upper case (`x` or `X`). */
  function DigitChar(d: nat, upper: bool): (c: char)
    requires d < 16
    ensures Written(c, upper) && DigitValue(c) == d
    ensures c == '0' <==> d == 0
  {
    if d < 10 then ('0' as int + d) as char
    else if upper then ('A' as int + d - 10) as char
    else ('a' as int + d - 10) as char
  }

  /** The digits of `n` in `base`, most significant first, as `format` writes them. */
  function Digits(n: nat, base: nat, upper: bool): (s: string)
    requires base == 10 || base == 16
    ensures |s| >= 1 && AllInBase(s, base) && Value(s, base) == n
    decreases n
  {
    if n < base then [DigitChar(n, upper)]
    else
      var init, last := Digits(n / base, base, upper), DigitChar(n % base, upper);
      DigitsStep(init, last, base, n);
      init + [last]
  }

  /** The digits are written in the requested case. */
  lemma {:induction false} DigitsWritten(n: nat, base: nat, upper: bool)
    requires base == 10 || base == 16
    ensures AllWritten(Digits(n, base, upper), upper)
    decreases n
  {
    if n >= base {
      DigitsWritten(n / base, base, upper);
      var init := Digits(n / base, base, upper);
      assert Digits(n, base, upper) == init + [DigitChar(n % base, upper)];
    }
  }

  /** Only zero is written with a leading `0`. */
  lemma {:induction false} DigitsLead(n: nat, base: nat, upper: bool)
    requires base == 10 || base == 16
    ensures Digits(n, base, upper)[0] == '0' <==> n == 0
    decreases n
  {
    if n >= base {
      DigitsLead(n / base, base, upper);
      var init := Digits(n / base, base, upper);
      assert Digits(n, base, upper)[0] == init[0];
    }
  }

  /** Appending the digit for `n % base` to the digits of `n / base` spells `n`. */
  lemma DigitsStep(init: string, last: char, base: nat, n: nat)
    requires 2 <= base && AllInBase(init, base) && InBase(last, base)
    requires Value(init, base) == n / base && DigitValue(last) == n % base
    ensures AllInBase(init + [last], base)
    ensures Value(init + [last], base) == n
  {
    var s := init + [last];
    assert s[..|s| - 1] == init;
    assert Value(s, base) == Value(init, base) * base + DigitValue(last);
    Euclid(n, base);
  }

  lemma Euclid(n: nat, base: nat)
    requires base > 0
    ensures (n / base) * base + n % base == n
  {
  }

  /** Written digits contain no white space. */
  lemma WrittenNoSpace(s: string, upper: bool)
    requires AllWritten(s, upper)
    ensures forall i :: 0 <= i < |s| ==> !IsSpace(s[i])
  {
  }

  /** f'{n:0{width}X}' for a non-negative `n`: upper-case hex, zero-padded to `width`. */
  function HexField(n: nat, width: nat): (s: string)
    ensures |s| >= 1 && |s| >= width && AllInBase(s, 16) && AllWritten(s, true)
    ensures Value(s, 16) == n
    decreases width
  {
    var d := Digits(n, 16, true);
    DigitsWritten(n, 16, true);
    DigitsLead(n, 16, true);
    if |d| >= width then d
    else
      var h := HexField(n, width - 1);
      LeadingZero(h, 16);
      assert AllWritten("0" + h, true) by {
        forall i | 1 <= i < |h| + 1 ensures Written(("0" + h)[i], true) {
          assert ("0" + h)[i] == h[i - 1];
        }
      }
      "0" + h
  }

  /** f'{n}': decimal with a minus sign for negative numbers. */
  function Decimal(n: int): (s: string)
    ensures |s| >= 1
  {
    if n < 0 then "-" + Digits(-n, 10, false) else Digits(n, 10, false)
  }

  // ---------------------------------------------------------------------
  // Reading integers back
  // ---------------------------------------------------------------------

  /** The sign of a Python integer literal and the text after it. */
  function SplitSign(t: string): (r: (bool, string))
    ensures r.1 == (if t != [] && (t[0] == '-' || t[0] == '+') then t[1..] else t)
    ensures r.0 <==> t != [] && t[0] == '-'
  {
    if t != [] && (t[0] == '-' || t[0] == '+') then (t[0] == '-', t[1..]) else (false, t)
  }

  /** At least one digit, all of the base. */
  function Unsigned(s: string, base: nat): (r: Option<nat>)
    ensures r.Some? <==> s != [] && AllInBase(s, base)
    ensures r.Some? ==> r.value == Value(s, base)
  {
    if s != [] && AllInBase(s, base) then Some(Value(s, base)) else None
  }

  /** A radix prefix `0x`, `0o` or `0b` in either case. */
  predicate HasPrefix(u: string, letter: char)
  {
    |u| >= 2 && u[0] == '0' && LowerChar(u[1]) == letter
  }

  /** The signed result of a magnitude read after an optional sign. */
  function Signed(neg: bool, m: Option<nat>): (r: Option<int>)
    ensures r.Some? <==> m.Some?
    ensures m.Some? ==> r.value == if neg then -(m.value as int) else m.value
  {
    match m
    case None => None
    case Some(v) => Some(if neg then -(v as int) else v)
  }

  /** The magnitude `int(s, base)` reads for base 10 or 16 once the sign is gone. */
  function Magnitude(u: string, base: nat): (r: Option<nat>)
  {
    Unsigned(if base == 16 && HasPrefix(u, 'x') then u[2..] else u, base)
  }

  /**
    `int(s, base)` for base 10 or 16: white space around the literal, an
    optional sign, for base 16 an optional `0x`/`0X`, then at least one
    digit. None is the `ValueError` Python raises.
   */
  function ParseInt(s: string, base: nat): (r: Option<int>)
    requires base == 10 || base == 16
    ensures r.Some? ==> Strip(s) != []
  {
    var t := SplitSign(Strip(s));
    Signed(t.0, Magnitude(t.1, base))
  }

  /** A decimal literal as `int(s, 0)` accepts it: no leading zero unless every digit is zero. */
  predicate DecimalLiteral(u: string)
  {
    u != [] && AllInBase(u, 10) && (u[0] == '0' ==> forall i :: 0 <= i < |u| ==> u[i] == '0')
  }

  /** The magnitude `int(s, 0)` reads once the sign is gone: the prefix picks the base. */
  function Magnitude0(u: string): (r: Option<nat>)
  {
    if HasPrefix(u, 'x') then Unsigned(u[2..], 16)
    else if HasPrefix(u, 'o') then Unsigned(u[2..], 8)
    else if HasPrefix(u, 'b') then Unsigned(u[2..], 2)
    else if DecimalLiteral(u) then Some(Value(u, 10))
    else None
  }

  /**
    `int(s, 0)`: the base comes from the literal's prefix — `0x`, `0o`,
    `0b` or none for decimal. None is the `ValueError` Python raises.
   */
  function ParseInt0(s: string): (r: Option<int>)
    ensures r.Some? ==> Strip(s) != []
  {
    var t := SplitSign(Strip(s));
    Signed(t.0, Magnitude0(t.1))
  }

  /** Python's truth value of an optional string: present and not empty. */
  predicate Truthy(s: Option<string>)
  {
    s.Some? && s.value != []
  }

  // ---------------------------------------------------------------------
  // Round trips
  // ---------------------------------------------------------------------

  /** A literal without white space that starts with a digit: a leading minus is its only sign. */
  lemma SignedLiteral(neg: bool, u: string)
    requires u != [] && IsHexDigit(u[0]) && forall i :: 0 <= i < |u| ==> !IsSpace(u[i])
    ensures var s := if neg then "-" + u else u;
      && ParseInt0(s) == Signed(neg, Magnitude0(u))
      && ParseInt(s, 10) == Signed(neg, Magnitude(u, 10))
      && ParseInt(s, 16) == Signed(neg, Magnitude(u, 16))
  {
    var s := if neg then "-" + u else u;
    assert forall i :: 0 <= i < |s| ==> !IsSpace(s[i]) by {
      forall i | 0 <= i < |s| ensures !IsSpace(s[i]) {
        if neg && i > 0 { assert s[i] == u[i - 1]; }
      }
    }
    StripNoSpace(s);
    SignOf(neg, u);
  }

  /** A leading minus is read as the sign and the text after it is the rest. */
  lemma SignOf(neg: bool, u: string)
    requires u != [] && IsHexDigit(u[0])
    ensures SplitSign(if neg then "-" + u else u) == (neg, u)
  {
    if neg {
      var s := "-" + u;
      assert s[0] == '-' && s[1..] == u;
    }
  }

  /** Decimal digits without a leading zero are a decimal literal for `int(s, 0)` and for `int(s, 10)`. */
  lemma DecimalMagnitude(m: nat)
    ensures Magnitude0(Digits(m, 10, false)) == Some(m)
    ensures Magnitude(Digits(m, 10, false), 10) == Some(m)
  {
    var d := Digits(m, 10, false);
    DigitsWritten(m, 10, false);
    DigitsLead(m, 10, false);
    assert !HasPrefix(d, 'x') && !HasPrefix(d, 'o') && !HasPrefix(d, 'b') by {
      if |d| >= 2 { assert d[0] != '0'; }
    }
    assert DecimalLiteral(d) by {
      if d[0] == '0' { assert |d| == 1; }
    }
  }

  /** A number written in decimal reads back with `int(s, 0)` and with `int(s, 10)`. */
  lemma DecimalRoundTrip(n: int)
    ensures ParseInt0(Decimal(n)) == Some(n)
    ensures ParseInt(Decimal(n), 10) == Some(n)
  {
    var m: nat := if n < 0 then -n else n;
    var d := Digits(m, 10, false);
    DigitsWritten(m, 10, false);
    WrittenNoSpace(d, false);
    SignedLiteral(n < 0, d);
    DecimalMagnitude(m);
  }

  /** After a `0x` prefix come the hex digits, for `int(s, 0)` and for `int(s, 16)`. */
  lemma PrefixedMagnitude(h: string)
    requires h != [] && AllInBase(h, 16)
    ensures Magnitude0("0x" + h) == Some(Value(h, 16))
    ensures Magnitude("0x" + h, 16) == Some(Value(h, 16))
  {
    var u := "0x" + h;
    assert HasPrefix(u, 'x');
    assert u[2..] == h;
  }

  /** Upper-case hex digits with a `0x` prefix read back with `int(s, 0)` and `int(s, 16)`. */
  lemma HexLiteralRoundTrip(n: nat, width: nat)
    ensures ParseInt0("0x" + HexField(n, width)) == Some(n)
    ensures ParseInt("0x" + HexField(n, width), 16) == Some(n)
  {
    var h := HexField(n, width);
    var u := "0x" + h;
    WrittenNoSpace(h, true);
    assert forall i :: 0 <= i < |u| ==> !IsSpace(u[i]) by {
      forall i | 2 <= i < |u| ensures !IsSpace(u[i]) {
        assert u[i] == h[i - 2];
      }
    }
    SignedLiteral(false, u);
    PrefixedMagnitude(h);
  }

  /** Bare hex digits read back with `int(s, 16)`. */
  lemma HexFieldRoundTrip(n: nat, width: nat)
    ensures ParseInt(HexField(n, width), 16) == Some(n)
  {
    var h := HexField(n, width);
    WrittenNoSpace(h, true);
    SignedLiteral(false, h);
    assert !HasPrefix(h, 'x') by {
      if |h| >= 2 { assert Written(h[1], true); }
    }
  }
}

=== FILE: uds.dfy ===
/**
  The UDS diagnostic server of ISO 14229-1 (`lq_uds.c`): session control
  (0x10), security access by seed and key (0x27), tester present (0x3E),
  read and write data by identifier (0x22, 0x2E), routine control (0x31),
  the session gate in front of them, and the S3 session timeout.

  The application callbacks (seed generator, key check, DID and routine
  handlers) and the transport's send function are parameters held in the
  configuration. A request produces a `Reply`: the return code, the bytes
  handed to the transport (None when there is no transport or the reply is
  suppressed), and the server state afterwards.
 */
module Uds {
  import opened CInt
  import opened Bytes
  import opened Wrappers

  const SID_SESSION_CONTROL: int := 0x10
  const SID_SECURITY_ACCESS: int := 0x27
  const SID_TESTER_PRESENT: int := 0x3E
  const SID_READ_DID: int := 0x22
  const SID_WRITE_DID: int := 0x2E
  const SID_ROUTINE_CONTROL: int := 0x31
  const SID_REQUEST_DOWNLOAD: int := 0x34
  const SID_REQUEST_TRANSFER_EXIT: int := 0x37
  const POSITIVE_OFFSET: int := 0x40
  const SID_NEGATIVE: int := 0x7F

  const NRC_SERVICE_NOT_SUPPORTED: int := 0x11
  const NRC_SUBFUNCTION_NOT_SUPPORTED: int := 0x12
  const NRC_INCORRECT_LENGTH: int := 0x13
  const NRC_CONDITIONS_NOT_CORRECT: int := 0x22
  const NRC_SECURITY_DENIED: int := 0x33
  const NRC_INVALID_KEY: int := 0x35
  const NRC_EXCEEDED_ATTEMPTS: int := 0x36
  const NRC_DELAY_NOT_EXPIRED: int := 0x37
  const NRC_NOT_IN_SESSION: int := 0x7F

  const SESSION_DEFAULT: int := 1
  const SESSION_PROGRAMMING: int := 2
  const SESSION_EXTENDED: int := 3
  const SESSION_SAFETY: int := 4

  const SECURITY_LOCKED: int := 0
  const SECURITY_LEVEL_1: int := 1

  const ROUTINE_START: int := 1
  const ROUTINE_REQUEST_RESULTS: int := 3

  /** The reply buffer of RDBI and routine control. */
  const MAX_MESSAGE: int := 4095

  /** A callback's return code with the bytes it produced. */
  datatype Answer = Answer(rc: int, data: seq<Byte>)

  /** `struct lq_uds_config`: callbacks (None for NULL) and timing parameters in ms. */
  datatype UdsConfig = UdsConfig(
    transport: Option<seq<Byte> -> int>,
    getSeed: Option<int -> Answer>,
    verifyKey: Option<(int, seq<Byte>) -> bool>,
    readDid: Option<(int, int) -> Answer>,
    writeDid: Option<(int, seq<Byte>) -> int>,
    routine: Option<(int, int, seq<Byte>, int) -> Answer>,
    p2: int, p2Star: int, s3: int, securityDelayMs: int, maxAttempts: int)

  predicate ValidConfig(c: UdsConfig)
  {
    IsU32(c.p2) && IsU32(c.p2Star) && IsU32(c.s3) && IsU32(c.securityDelayMs) && IsU8(c.maxAttempts)
  }

  /** The mutable part of `struct lq_uds_server`. */
  datatype State = State(session: int, sessionStart: int, lastActivity: int,
                         security: int, attempts: int, lockoutUntil: int, seed: seq<Byte>)

  predicate ValidState(s: State)
  {
    SESSION_DEFAULT <= s.session <= SESSION_SAFETY
    && IsU64(s.sessionStart) && IsU64(s.lastActivity) && IsU64(s.lockoutUntil)
    && 0 <= s.security <= 128 && IsU8(s.attempts) && |s.seed| == 4
  }

  datatype Reply = Reply(rc: int, sent: Option<seq<Byte>>, state: State)

  // ---------------------------------------------------------------------
  // Response builders and the transport
  // ---------------------------------------------------------------------

  /** lq_uds_build_positive_response: the SID plus 0x40 (as a uint8), then the data. */
  function PositiveResponse(sid: int, data: seq<Byte>): (r: seq<Byte>)
    requires IsU8(sid)
    ensures |r| == 1 + |data| && r[0] == WrapU8(sid + POSITIVE_OFFSET) && r[1..] == data
  {
    [WrapU8(sid + POSITIVE_OFFSET)] + data
  }

  /** lq_uds_build_negative_response: always the three bytes 0x7F, SID, NRC. */
  function NegativeResponse(sid: int, nrc: int): (r: seq<Byte>)
    requires IsU8(sid) && IsU8(nrc)
    ensures |r| == 3 && r[0] == SID_NEGATIVE && r[1] == sid && r[2] == nrc
  {
    [SID_NEGATIVE, sid, nrc]
  }

  /** For the SIDs the server answers, positive and negative replies are told apart by byte 0. */
  lemma ResponsesDistinct(sid: int, data: seq<Byte>, nrc: int)
    requires IsU8(sid) && IsU8(nrc) && sid < SID_NEGATIVE - POSITIVE_OFFSET
    ensures PositiveResponse(sid, data)[0] != NegativeResponse(sid, nrc)[0]
    ensures PositiveResponse(sid, data)[0] - POSITIVE_OFFSET == sid
  {
  }

  /** The reply `msg` was handed to the transport, whose result is returned, with state `s`. */
  predicate Sends(cfg: UdsConfig, r: Reply, msg: seq<Byte>, s: State)
  {
    r.state == s
    && match cfg.transport
       case None => r.rc == -ENOTSUP && r.sent.None?
       case Some(send) => r.rc == send(msg) && r.sent == Some(msg)
  }

  /** send_response: -ENOTSUP without a transport. */
  function Send(cfg: UdsConfig, s: State, msg: seq<Byte>): (r: Reply)
    ensures Sends(cfg, r, msg, s)
  {
    match cfg.transport
    case None => Reply(-ENOTSUP, None, s)
    case Some(send) => Reply(send(msg), Some(msg), s)
  }

  /** A negative reply: the state is as given. */
  predicate Refuses(cfg: UdsConfig, r: Reply, sid: int, nrc: int, s: State)
    requires IsU8(sid) && IsU8(nrc)
  {
    Sends(cfg, r, NegativeResponse(sid, nrc), s)
  }

  function Negative(cfg: UdsConfig, s: State, sid: int, nrc: int): (r: Reply)
    requires IsU8(sid) && IsU8(nrc)
    ensures Refuses(cfg, r, sid, nrc, s)
  {
    Send(cfg, s, NegativeResponse(sid, nrc))
  }

  // ---------------------------------------------------------------------
  // Gates
  // ---------------------------------------------------------------------

  /** check_session_for_service. */
  predicate SessionAllows(session: int, sid: int)
  {
    if sid == SID_TESTER_PRESENT || sid == SID_SESSION_CONTROL then true
    else if sid == SID_SECURITY_ACCESS && session != SESSION_DEFAULT then true
    else if sid == SID_READ_DID then true
    else if sid == SID_WRITE_DID || sid == SID_ROUTINE_CONTROL then
      session == SESSION_EXTENDED || session == SESSION_PROGRAMMING
    else if SID_REQUEST_DOWNLOAD <= sid <= SID_REQUEST_TRANSFER_EXIT then session == SESSION_PROGRAMMING
    else session != SESSION_DEFAULT
  }

  /**
    The session gate as a table, session by session: the default session
    admits only 0x10, 0x3E and 0x22; programming admits everything;
    extended admits everything but the transfer services 0x34 to 0x37;
    the safety session additionally refuses 0x2E and 0x31.
   */
  lemma SessionGateTable(session: int, sid: int)
    requires SESSION_DEFAULT <= session <= SESSION_SAFETY
    ensures session == SESSION_DEFAULT ==>
      (SessionAllows(session, sid) <==> sid in {SID_SESSION_CONTROL, SID_TESTER_PRESENT, SID_READ_DID})
    ensures session == SESSION_PROGRAMMING ==> SessionAllows(session, sid)
    ensures session == SESSION_EXTENDED ==>
      (SessionAllows(session, sid) <==> !(SID_REQUEST_DOWNLOAD <= sid <= SID_REQUEST_TRANSFER_EXIT))
    ensures session == SESSION_SAFETY ==>
      (SessionAllows(session, sid) <==>
        !(SID_REQUEST_DOWNLOAD <= sid <= SID_REQUEST_TRANSFER_EXIT) && sid != SID_WRITE_DID && sid != SID_ROUTINE_CONTROL)
  {
  }

  /** check_security_access. */
  predicate SecurityAllows(s: State, required: int)
  {
    s.security >= required
  }

  // ---------------------------------------------------------------------
  // Services
  // ---------------------------------------------------------------------

  /**
    0x10 Diagnostic Session Control. A valid session type switches the
    session, restarts the session and activity clocks, relocks security
    unless the new session is the default one, and replies with P2 and P2*
    in units of 10 ms.
   */
  function SessionControl(cfg: UdsConfig, s: State, req: seq<Byte>, now: int): (r: Reply)
    requires ValidConfig(cfg) && ValidState(s) && |req| >= 1 && IsU64(now)
    ensures ValidState(r.state)
    ensures |req| < 2 ==> Refuses(cfg, r, SID_SESSION_CONTROL, NRC_INCORRECT_LENGTH, s)
    ensures |req| >= 2 && !(SESSION_DEFAULT <= req[1] <= SESSION_SAFETY) ==>
      Refuses(cfg, r, SID_SESSION_CONTROL, NRC_SUBFUNCTION_NOT_SUPPORTED, s)
    ensures |req| >= 2 && SESSION_DEFAULT <= req[1] <= SESSION_SAFETY ==>
      && r.state.session == req[1] && r.state.sessionStart == now && r.state.lastActivity == now
      && r.state.security == (if req[1] == SESSION_DEFAULT then s.security else SECURITY_LOCKED)
      && r.state.attempts == s.attempts && r.state.lockoutUntil == s.lockoutUntil && r.state.seed == s.seed
      && (r.sent.Some? ==> |r.sent.value| == 6 && r.sent.value[..2] == [SID_SESSION_CONTROL + POSITIVE_OFFSET, req[1]]
                            && Join16(r.sent.value[2..4]) == WrapU16(cfg.p2 / 10)
                            && Join16(r.sent.value[4..6]) == WrapU16(cfg.p2Star / 10))
  {
    if |req| < 2 then Negative(cfg, s, SID_SESSION_CONTROL, NRC_INCORRECT_LENGTH)
    else if !(SESSION_DEFAULT <= req[1] <= SESSION_SAFETY) then
      Negative(cfg, s, SID_SESSION_CONTROL, NRC_SUBFUNCTION_NOT_SUPPORTED)
    else
      var t := req[1];
      var s1 := s.(session := t, sessionStart := now, lastActivity := now,
                   security := if t != SESSION_DEFAULT then SECURITY_LOCKED else s.security);
      var msg := [SID_SESSION_CONTROL + POSITIVE_OFFSET, t] + Be16(cfg.p2 / 10) + Be16(cfg.p2Star / 10);
      assert msg[2..4] == Be16(cfg.p2 / 10) && msg[4..6] == Be16(cfg.p2Star / 10);
      Send(cfg, s1, msg)
  }

  /** The security level a 0x27 sub-function addresses: `(sub + 1) / 2`. */
  function LevelOf(sub: Byte): (r: int)
    ensures 0 <= r <= 128
    ensures sub % 2 == 1 ==> 2 * r - 1 == sub
    ensures sub % 2 == 0 ==> 2 * r == sub
  {
    (sub + 1) / 2
  }

  /** The lockout clock has not yet expired. */
  predicate LockedOut(s: State, now: int)
  {
    now < s.lockoutUntil
  }

  /**
    0x27 Security Access. Odd sub-functions request a seed, even ones send
    the key for the level `(sub + 1) / 2`.
   */
  function SecurityAccess(cfg: UdsConfig, s: State, req: seq<Byte>, now: int): (r: Reply)
    requires ValidConfig(cfg) && ValidState(s) && |req| >= 1 && IsU64(now)
    ensures ValidState(r.state)
    ensures r.state.session == s.session && r.state.lastActivity == s.lastActivity
    ensures |req| < 2 ==> Refuses(cfg, r, SID_SECURITY_ACCESS, NRC_INCORRECT_LENGTH, s)
    ensures |req| >= 2 && LockedOut(s, now) ==> Refuses(cfg, r, SID_SECURITY_ACCESS, NRC_DELAY_NOT_EXPIRED, s)
    // seed requests never change the level or the attempt counter
    ensures |req| >= 2 && req[1] % 2 == 1 ==> r.state.security == s.security && r.state.attempts == s.attempts
    ensures |req| == 2 && req[1] % 2 == 1 && !LockedOut(s, now) && s.security >= LevelOf(req[1]) ==>
      Sends(cfg, r, [SID_SECURITY_ACCESS + POSITIVE_OFFSET, req[1], 0, 0, 0, 0], s)
    // the level rises only through a key the callback accepts
    ensures r.state.security != s.security ==>
      && |req| == 6 && req[1] % 2 == 0 && !LockedOut(s, now) && cfg.verifyKey.Some?
      && cfg.verifyKey.value(LevelOf(req[1]), req[2..6])
      && r.state.security == LevelOf(req[1])
    ensures |req| == 6 && req[1] % 2 == 0 && !LockedOut(s, now) && cfg.verifyKey.Some? ==>
      if cfg.verifyKey.value(LevelOf(req[1]), req[2..6]) then
        Sends(cfg, r, [SID_SECURITY_ACCESS + POSITIVE_OFFSET, req[1]], s.(security := LevelOf(req[1]), attempts := 0))
      else
        r.state.attempts == WrapU8(s.attempts + 1)
        && (if WrapU8(s.attempts + 1) >= cfg.maxAttempts then
              Refuses(cfg, r, SID_SECURITY_ACCESS, NRC_EXCEEDED_ATTEMPTS,
                      s.(attempts := WrapU8(s.attempts + 1), lockoutUntil := WrapU64(now + cfg.securityDelayMs * 1000)))
            else
              Refuses(cfg, r, SID_SECURITY_ACCESS, NRC_INVALID_KEY, s.(attempts := WrapU8(s.attempts + 1))))
  {
    if |req| < 2 then Negative(cfg, s, SID_SECURITY_ACCESS, NRC_INCORRECT_LENGTH)
    else
      var sub := req[1];
      var level := LevelOf(sub);
      if LockedOut(s, now) then Negative(cfg, s, SID_SECURITY_ACCESS, NRC_DELAY_NOT_EXPIRED)
      else if sub % 2 == 1 then
        if |req| != 2 then Negative(cfg, s, SID_SECURITY_ACCESS, NRC_INCORRECT_LENGTH)
        else if s.security >= level then
          Send(cfg, s, [SID_SECURITY_ACCESS + POSITIVE_OFFSET, sub, 0, 0, 0, 0])
        else
          match cfg.getSeed
          case None => Negative(cfg, s, SID_SECURITY_ACCESS, NRC_CONDITIONS_NOT_CORRECT)
          case Some(gen) =>
            var a := gen(level);
            if a.rc != 0 || |a.data| != 4 then Negative(cfg, s, SID_SECURITY_ACCESS, NRC_CONDITIONS_NOT_CORRECT)
            else Send(cfg, s.(seed := a.data), [SID_SECURITY_ACCESS + POSITIVE_OFFSET, sub] + a.data)
      else if |req| != 6 then Negative(cfg, s, SID_SECURITY_ACCESS, NRC_INCORRECT_LENGTH)
      else
        match cfg.verifyKey
        case None => Negative(cfg, s, SID_SECURITY_ACCESS, NRC_CONDITIONS_NOT_CORRECT)
        case Some(check) =>
          if !check(level, req[2..6]) then
            var tries := WrapU8(s.attempts + 1);
            if tries >= cfg.maxAttempts then
              Negative(cfg, s.(attempts := tries, lockoutUntil := WrapU64(now + cfg.securityDelayMs * 1000)),
                       SID_SECURITY_ACCESS, NRC_EXCEEDED_ATTEMPTS)
            else Negative(cfg, s.(attempts := tries), SID_SECURITY_ACCESS, NRC_INVALID_KEY)
          else
            Send(cfg, s.(security := level, attempts := 0), [SID_SECURITY_ACCESS + POSITIVE_OFFSET, sub])
  }

  /** 0x3E Tester Present: bit 7 of the sub-function suppresses the reply. */
  function TesterPresent(cfg: UdsConfig, s: State, req: seq<Byte>, now: int): (r: Reply)
    requires ValidConfig(cfg) && ValidState(s) && |req| >= 1 && IsU64(now)
    ensures ValidState(r.state)
    ensures |req| < 2 ==> Refuses(cfg, r, SID_TESTER_PRESENT, NRC_INCORRECT_LENGTH, s)
    ensures |req| >= 2 && req[1] % 0x80 != 0 ==> Refuses(cfg, r, SID_TESTER_PRESENT, NRC_SUBFUNCTION_NOT_SUPPORTED, s)
    ensures |req| >= 2 && req[1] == 0x80 ==> r == Reply(0, None, s.(lastActivity := now))
    ensures |req| >= 2 && req[1] == 0 ==> Sends(cfg, r, [SID_TESTER_PRESENT + POSITIVE_OFFSET, 0], s.(lastActivity := now))
  {
    if |req| < 2 then Negative(cfg, s, SID_TESTER_PRESENT, NRC_INCORRECT_LENGTH)
    else
      var sub := req[1] % 0x80;
      var suppress := req[1] >= 0x80;
      if sub != 0 then Negative(cfg, s, SID_TESTER_PRESENT, NRC_SUBFUNCTION_NOT_SUPPORTED)
      else if suppress then Reply(0, None, s.(lastActivity := now))
      else Send(cfg, s.(lastActivity := now), [SID_TESTER_PRESENT + POSITIVE_OFFSET, sub])
  }

  /** The NRC a negative callback result maps to: `(uint8_t)(-result)`. */
  function CallbackNrc(result: int): (r: int)
    requires result < 0
    ensures IsU8(r)
    ensures -result < U8 ==> r == -result
  {
    WrapU8(-result)
  }

  /** 0x22 Read Data By Identifier: the reply echoes the DID and carries the callback's bytes. */
  function ReadDataById(cfg: UdsConfig, s: State, req: seq<Byte>): (r: Reply)
    requires ValidConfig(cfg) && ValidState(s) && |req| >= 1
    ensures r.state == s
    ensures |req| < 3 ==> Refuses(cfg, r, SID_READ_DID, NRC_INCORRECT_LENGTH, s)
    ensures |req| >= 3 && cfg.readDid.None? ==> Refuses(cfg, r, SID_READ_DID, NRC_SERVICE_NOT_SUPPORTED, s)
    ensures |req| >= 3 && cfg.readDid.Some? ==>
      var a := cfg.readDid.value(Join16(req[1..3]), MAX_MESSAGE - 3);
      if a.rc < 0 then Refuses(cfg, r, SID_READ_DID, CallbackNrc(a.rc), s)
      else Sends(cfg, r, [SID_READ_DID + POSITIVE_OFFSET, req[1], req[2]] + a.data, s)
  {
    if |req| < 3 then Negative(cfg, s, SID_READ_DID, NRC_INCORRECT_LENGTH)
    else
      match cfg.readDid
      case None => Negative(cfg, s, SID_READ_DID, NRC_SERVICE_NOT_SUPPORTED)
      case Some(read) =>
        var a := read(Join16(req[1..3]), MAX_MESSAGE - 3);
        if a.rc < 0 then Negative(cfg, s, SID_READ_DID, CallbackNrc(a.rc))
        else Send(cfg, s, [SID_READ_DID + POSITIVE_OFFSET, req[1], req[2]] + a.data)
  }

  /** 0x2E Write Data By Identifier: needs security level 1 before the callback runs. */
  function WriteDataById(cfg: UdsConfig, s: State, req: seq<Byte>): (r: Reply)
    requires ValidConfig(cfg) && ValidState(s) && |req| >= 1
    ensures r.state == s
    ensures |req| < 4 ==> Refuses(cfg, r, SID_WRITE_DID, NRC_INCORRECT_LENGTH, s)
    ensures |req| >= 4 && cfg.writeDid.None? ==> Refuses(cfg, r, SID_WRITE_DID, NRC_SERVICE_NOT_SUPPORTED, s)
    ensures |req| >= 4 && cfg.writeDid.Some? && !SecurityAllows(s, SECURITY_LEVEL_1) ==>
      Refuses(cfg, r, SID_WRITE_DID, NRC_SECURITY_DENIED, s)
    ensures |req| >= 4 && cfg.writeDid.Some? && SecurityAllows(s, SECURITY_LEVEL_1) ==>
      var rc := cfg.writeDid.value(Join16(req[1..3]), req[3..]);
      if rc < 0 then Refuses(cfg, r, SID_WRITE_DID, CallbackNrc(rc), s)
      else Sends(cfg, r, [SID_WRITE_DID + POSITIVE_OFFSET, req[1], req[2]], s)
  {
    if |req| < 4 then Negative(cfg, s, SID_WRITE_DID, NRC_INCORRECT_LENGTH)
    else
      match cfg.writeDid
      case None => Negative(cfg, s, SID_WRITE_DID, NRC_SERVICE_NOT_SUPPORTED)
      case Some(write) =>
        if !SecurityAllows(s, SECURITY_LEVEL_1) then Negative(cfg, s, SID_WRITE_DID, NRC_SECURITY_DENIED)
        else
          var rc := write(Join16(req[1..3]), req[3..]);
          if rc < 0 then Negative(cfg, s, SID_WRITE_DID, CallbackNrc(rc))
          else Send(cfg, s, [SID_WRITE_DID + POSITIVE_OFFSET, req[1], req[2]])
  }

  /** 0x31 Routine Control: needs security level 1, and a control type of 1 to 3. */
  function RoutineControl(cfg: UdsConfig, s: State, req: seq<Byte>): (r: Reply)
    requires ValidConfig(cfg) && ValidState(s) && |req| >= 1
    ensures r.state == s
    ensures |req| < 4 ==> Refuses(cfg, r, SID_ROUTINE_CONTROL, NRC_INCORRECT_LENGTH, s)
    ensures |req| >= 4 && cfg.routine.None? ==> Refuses(cfg, r, SID_ROUTINE_CONTROL, NRC_SERVICE_NOT_SUPPORTED, s)
    ensures |req| >= 4 && cfg.routine.Some? && !SecurityAllows(s, SECURITY_LEVEL_1) ==>
      Refuses(cfg, r, SID_ROUTINE_CONTROL, NRC_SECURITY_DENIED, s)
    ensures |req| >= 4 && cfg.routine.Some? && SecurityAllows(s, SECURITY_LEVEL_1)
            && !(ROUTINE_START <= req[1] <= ROUTINE_REQUEST_RESULTS) ==>
      Refuses(cfg, r, SID_ROUTINE_CONTROL, NRC_SUBFUNCTION_NOT_SUPPORTED, s)
    ensures |req| >= 4 && cfg.routine.Some? && SecurityAllows(s, SECURITY_LEVEL_1)
            && ROUTINE_START <= req[1] <= ROUTINE_REQUEST_RESULTS ==>
      var a := cfg.routine.value(Join16(req[2..4]), req[1], req[4..], MAX_MESSAGE - 4);
      if a.rc < 0 then Refuses(cfg, r, SID_ROUTINE_CONTROL, CallbackNrc(a.rc), s)
      else Sends(cfg, r, [SID_ROUTINE_CONTROL + POSITIVE_OFFSET, req[1], req[2], req[3]] + a.data, s)
  {
    if |req| < 4 then Negative(cfg, s, SID_ROUTINE_CONTROL, NRC_INCORRECT_LENGTH)
    else
      match cfg.routine
      case None => Negative(cfg, s, SID_ROUTINE_CONTROL, NRC_SERVICE_NOT_SUPPORTED)
      case Some(run) =>
        if !SecurityAllows(s, SECURITY_LEVEL_1) then Negative(cfg, s, SID_ROUTINE_CONTROL, NRC_SECURITY_DENIED)
        else if !(ROUTINE_START <= req[1] <= ROUTINE_REQUEST_RESULTS) then
          Negative(cfg, s, SID_ROUTINE_CONTROL, NRC_SUBFUNCTION_NOT_SUPPORTED)
        else
          var a := run(Join16(req[2..4]), req[1], req[4..], MAX_MESSAGE - 4);
          if a.rc < 0 then Negative(cfg, s, SID_ROUTINE_CONTROL, CallbackNrc(a.rc))
          else Send(cfg, s, [SID_ROUTINE_CONTROL + POSITIVE_OFFSET, req[1], req[2], req[3]] + a.data)
  }

  // ---------------------------------------------------------------------
  // Server API
  // ---------------------------------------------------------------------

  /** lq_uds_server_init: zero timing fields take their defaults; default session, locked. */
  function Init(cfg: Option<UdsConfig>): (r: (int, Option<(UdsConfig, State)>))
    requires cfg.Some? ==> ValidConfig(cfg.value)
    ensures cfg.None? <==> r.0 == -EINVAL
    ensures cfg.None? ==> r.1.None?
    ensures cfg.Some? ==> r.0 == 0 && r.1.Some? && ValidConfig(r.1.value.0) && ValidState(r.1.value.1)
    ensures cfg.Some? ==>
      var (c, s) := r.1.value;
      && c.p2 == (if cfg.value.p2 == 0 then 50 else cfg.value.p2)
      && c.p2Star == (if cfg.value.p2Star == 0 then 5000 else cfg.value.p2Star)
      && c.s3 == (if cfg.value.s3 == 0 then 5000 else cfg.value.s3)
      && c.securityDelayMs == (if cfg.value.securityDelayMs == 0 then 10000 else cfg.value.securityDelayMs)
      && c.maxAttempts == (if cfg.value.maxAttempts == 0 then 3 else cfg.value.maxAttempts)
      && c.p2 > 0 && c.p2Star > 0 && c.s3 > 0 && c.securityDelayMs > 0 && c.maxAttempts > 0
      && s.session == SESSION_DEFAULT && s.security == SECURITY_LOCKED && s.attempts == 0 && s.lockoutUntil == 0
  {
    match cfg
    case None => (-EINVAL, None)
    case Some(c0) =>
      var c := c0.(p2 := if c0.p2 == 0 then 50 else c0.p2,
                   p2Star := if c0.p2Star == 0 then 5000 else c0.p2Star,
                   s3 := if c0.s3 == 0 then 5000 else c0.s3,
                   securityDelayMs := if c0.securityDelayMs == 0 then 10000 else c0.securityDelayMs,
                   maxAttempts := if c0.maxAttempts == 0 then 3 else c0.maxAttempts);
      (0, Some((c, State(SESSION_DEFAULT, 0, 0, SECURITY_LOCKED, 0, 0, [0, 0, 0, 0]))))
  }

  /**
    lq_uds_server_process_request: an empty request gives -EINVAL with no
    change; otherwise the activity clock is set, the session gate is
    applied (NRC 0x7F), and the SID is dispatched; unknown SIDs get NRC 0x11.
   */
  function Process(cfg: UdsConfig, s: State, req: seq<Byte>, now: int): (r: Reply)
    requires ValidConfig(cfg) && ValidState(s) && IsU64(now)
    ensures ValidState(r.state)
    ensures |req| == 0 ==> r == Reply(-EINVAL, None, s)
    ensures |req| > 0 && !SessionAllows(s.session, req[0]) ==>
      Refuses(cfg, r, req[0], NRC_NOT_IN_SESSION, s.(lastActivity := now))
    ensures |req| > 0 && SessionAllows(s.session, req[0]) ==>
      r == Dispatch(cfg, s.(lastActivity := now), req, now)
  {
    if |req| == 0 then Reply(-EINVAL, None, s)
    else
      var s1 := s.(lastActivity := now);
      if !SessionAllows(s.session, req[0]) then Negative(cfg, s1, req[0], NRC_NOT_IN_SESSION)
      else Dispatch(cfg, s1, req, now)
  }

  /** The service switch of process_request. */
  function Dispatch(cfg: UdsConfig, s: State, req: seq<Byte>, now: int): (r: Reply)
    requires ValidConfig(cfg) && ValidState(s) && IsU64(now) && |req| > 0
    ensures ValidState(r.state)
    ensures req[0] !in {SID_SESSION_CONTROL, SID_SECURITY_ACCESS, SID_TESTER_PRESENT, SID_READ_DID, SID_WRITE_DID, SID_ROUTINE_CONTROL}
            ==> Refuses(cfg, r, req[0], NRC_SERVICE_NOT_SUPPORTED, s)
  {
    var sid := req[0];
    if sid == SID_SESSION_CONTROL then SessionControl(cfg, s, req, now)
    else if sid == SID_SECURITY_ACCESS then SecurityAccess(cfg, s, req, now)
    else if sid == SID_TESTER_PRESENT then TesterPresent(cfg, s, req, now)
    else if sid == SID_READ_DID then ReadDataById(cfg, s, req)
    else if sid == SID_WRITE_DID then WriteDataById(cfg, s, req)
    else if sid == SID_ROUTINE_CONTROL then RoutineControl(cfg, s, req)
    else Negative(cfg, s, sid, NRC_SERVICE_NOT_SUPPORTED)
  }

  /**
    lq_uds_server_periodic (S3): a non-default session idle for more than
    `s3` ms (uint64 clock arithmetic) falls back to the default session and
    relocks; nothing else changes.
   */
  function Periodic(cfg: UdsConfig, s: State, now: int): (r: State)
    requires ValidConfig(cfg) && ValidState(s) && IsU64(now)
    ensures ValidState(r)
    ensures s.session != SESSION_DEFAULT && WrapU64(now - s.lastActivity) > cfg.s3 * 1000 ==>
      r == s.(session := SESSION_DEFAULT, security := SECURITY_LOCKED)
    ensures !(s.session != SESSION_DEFAULT && WrapU64(now - s.lastActivity) > cfg.s3 * 1000) ==> r == s
  {
    if s.session != SESSION_DEFAULT && WrapU64(now - s.lastActivity) > cfg.s3 * 1000 then
      s.(session := SESSION_DEFAULT, security := SECURITY_LOCKED)
    else s
  }

  // ---------------------------------------------------------------------
  // Properties across requests
  // ---------------------------------------------------------------------

  /**
    Every reply the server sends is either a negative response
    [0x7F, sid, nrc] or starts with the request's SID plus 0x40.
   */
  lemma ReplyShape(cfg: UdsConfig, s: State, req: seq<Byte>, now: int)
    requires ValidConfig(cfg) && ValidState(s) && IsU64(now)
    ensures var r := Process(cfg, s, req, now);
      r.sent.Some? ==>
        (|r.sent.value| == 3 && r.sent.value[0] == SID_NEGATIVE && r.sent.value[1] == req[0])
        || (|r.sent.value| >= 2 && r.sent.value[0] == req[0] + POSITIVE_OFFSET)
  {
  }

  /**
    No request raises the security level except a key the verification
    callback accepts, sent outside a lockout in a non-default session.
   */
  lemma SecurityRisesOnlyByKey(cfg: UdsConfig, s: State, req: seq<Byte>, now: int)
    requires ValidConfig(cfg) && ValidState(s) && IsU64(now)
    requires Process(cfg, s, req, now).state.security > s.security
    ensures |req| == 6 && req[0] == SID_SECURITY_ACCESS && req[1] % 2 == 0
    ensures s.session != SESSION_DEFAULT && !LockedOut(s, now)
    ensures cfg.verifyKey.Some? && cfg.verifyKey.value(LevelOf(req[1]), req[2..6])
  {
  }

  /** While locked out, security access answers 0x37 and changes nothing but the activity clock. */
  lemma LockoutRefuses(cfg: UdsConfig, s: State, req: seq<Byte>, now: int)
    requires ValidConfig(cfg) && ValidState(s) && IsU64(now)
    requires |req| >= 2 && req[0] == SID_SECURITY_ACCESS && s.session != SESSION_DEFAULT && LockedOut(s, now)
    ensures Refuses(cfg, Process(cfg, s, req, now), SID_SECURITY_ACCESS, NRC_DELAY_NOT_EXPIRED, s.(lastActivity := now))
  {
  }

  /** A locked server never reaches the write or routine callbacks. */
  lemma LockedRefusesWrites(cfg: UdsConfig, s: State, req: seq<Byte>, now: int)
    requires ValidConfig(cfg) && ValidState(s) && IsU64(now)
    requires |req| >= 4 && req[0] in {SID_WRITE_DID, SID_ROUTINE_CONTROL} && s.security == SECURITY_LOCKED
    ensures Process(cfg, s, req, now).state == s.(lastActivity := now)
    ensures Process(cfg, s, req, now).sent.Some? ==> Process(cfg, s, req, now).sent.value[0] == SID_NEGATIVE
  {
  }

  /** After an S3 expiry the server behaves as a fresh default session: only 0x10, 0x3E and 0x22 pass. */
  lemma S3Relocks(cfg: UdsConfig, s: State, now: int, sid: int)
    requires ValidConfig(cfg) && ValidState(s) && IsU64(now)
    requires s.session != SESSION_DEFAULT && WrapU64(now - s.lastActivity) > cfg.s3 * 1000
    ensures Periodic(cfg, s, now).security == SECURITY_LOCKED
    ensures SessionAllows(Periodic(cfg, s, now).session, sid) <==> sid in {SID_SESSION_CONTROL, SID_TESTER_PRESENT, SID_READ_DID}
  {
    SessionGateTable(SESSION_DEFAULT, sid);
  }
}

=== FILE: udscan.dfy ===
/**
  UDS over CAN (`lq_uds_can.c`): one ISO-TP channel feeding the UDS
  server. The server's transport is an adapter that parks the reply as a
  pending response. Once a request has been processed, the pending
  response goes back out through ISO-TP.

  The adapter is a pure function here. The pending response is the bytes
  the server handed to it when they fit. The C code clears it after every
  request, so it is not part of the persistent state.
 */
module UdsCan {
  import opened CInt
  import opened Bytes
  import opened Wrappers
  import Uds
  import IsoTp

  /** `pending_response[4095]`. */
  const PENDING_CAPACITY: int := 4095

  /** `struct lq_uds_can`, less the adapter wiring and the CAN callback. */
  datatype Node = Node(udsCfg: Uds.UdsConfig, uds: Uds.State, isotp: IsoTp.Channel)

  predicate ValidNode(n: Node)
  {
    Uds.ValidConfig(n.udsCfg) && Uds.ValidState(n.uds) && IsoTp.ValidChannel(n.isotp)
  }

  /** uds_can_transport_send: a reply that fits is accepted, a longer one is refused. */
  function Adapter(msg: seq<Byte>): (rc: int)
    ensures rc == 0 <==> |msg| <= PENDING_CAPACITY
    ensures rc != 0 ==> rc == -EMSGSIZE
  {
    if |msg| > PENDING_CAPACITY then -EMSGSIZE else 0
  }

  /** The UDS configuration with its transport routed to this node's adapter. */
  function Wired(c: Uds.UdsConfig): (r: Uds.UdsConfig)
    ensures r.transport.Some? && r == c.(transport := r.transport)
  {
    c.(transport := Some(Adapter))
  }

  /** What the adapter parked for a reply: the bytes sent, when they fit and are not empty. */
  function Pending(r: Uds.Reply): (p: seq<Byte>)
    ensures |p| <= PENDING_CAPACITY
    ensures p != [] <==> r.sent.Some? && 0 < |r.sent.value| <= PENDING_CAPACITY
    ensures p != [] ==> p == r.sent.value
  {
    if r.sent.Some? && |r.sent.value| <= PENDING_CAPACITY then r.sent.value else []
  }

  /**
    lq_uds_can_init: NULL arguments give -EINVAL; the ISO-TP channel gets
    the node's own zeroed 4095-byte buffer and the UDS server starts in
    its default session.
   */
  function Init(udsCfg: Option<Uds.UdsConfig>, isoCfg: Option<IsoTp.Config>, hasCanSend: bool): (r: (int, Option<Node>))
    requires udsCfg.Some? ==> Uds.ValidConfig(udsCfg.value)
    requires isoCfg.Some? ==> IsoTp.ValidConfig(isoCfg.value) && isoCfg.value.rxBufSize <= PENDING_CAPACITY
    ensures udsCfg.None? || isoCfg.None? || !hasCanSend <==> r.0 == -EINVAL
    ensures r.0 == 0 <==> r.1.Some?
    ensures r.1.Some? ==>
      var n := r.1.value;
      && ValidNode(n) && n.uds.session == Uds.SESSION_DEFAULT && n.uds.security == Uds.SECURITY_LOCKED
      && n.isotp.txState == IsoTp.TxIdle && IsoTp.RxAvailable(n.isotp).None?
      && n.isotp.cfg.rxId == isoCfg.value.rxId && n.isotp.cfg.txId == isoCfg.value.txId
  {
    if udsCfg.None? || isoCfg.None? || !hasCanSend then (-EINVAL, None)
    else
      var (rc1, ch) := IsoTp.Init(isoCfg, Some(seq(PENDING_CAPACITY, _ => 0)));
      var (rc2, server) := Uds.Init(udsCfg);
      (0, Some(Node(server.value.0, server.value.1, ch.value)))
  }

  /**
    lq_uds_can_recv_frame, parameterised by the ISO-TP receiver's handling
    of abandoned receptions. An ISO-TP error is returned as is. Otherwise,
    if a complete message is available it is processed by the UDS server
    and acknowledged, and a pending reply is sent through ISO-TP.
   */
  function RecvFrameWith(n: Node, f: IsoTp.Frame, now: int, p: IsoTp.AbandonPolicy): (r: (int, Node, seq<IsoTp.Frame>))
    requires ValidNode(n) && IsU64(now)
    ensures ValidNode(r.1)
  {
    var s := IsoTp.RecvWith(n.isotp, f, now, p);
    if s.rc < 0 then (s.rc, n.(isotp := s.ch), s.out)
    else
      match IsoTp.RxAvailable(s.ch)
      case None => (0, n.(isotp := s.ch), s.out)
      case Some(req) =>
        var reply := Uds.Process(Wired(n.udsCfg), n.uds, req, now);
        var ch := IsoTp.RxAck(s.ch);
        var pending := Pending(reply);
        if pending == [] then (0, Node(n.udsCfg, reply.state, ch), s.out)
        else
          var t := IsoTp.Send(ch, pending, now);
          (if t.rc < 0 then t.rc else 0, Node(n.udsCfg, reply.state, t.ch), s.out + t.out)
  }

  /** lq_uds_can_recv_frame as written, on the ISO-TP receiver as written. */
  function RecvFrameAsWritten(n: Node, f: IsoTp.Frame, now: int): (r: (int, Node, seq<IsoTp.Frame>))
    requires ValidNode(n) && IsU64(now)
    ensures ValidNode(r.1)
    ensures f.id != n.isotp.cfg.rxId && IsoTp.RxAvailable(n.isotp).Some? ==>
      r.1.uds == Uds.Process(Wired(n.udsCfg), n.uds, IsoTp.RxAvailable(n.isotp).value, now).state
  {
    RecvFrameWith(n, f, now, IsoTp.KeepPartial)
  }

  /**
    lq_uds_can_recv_frame on the corrected receiver. The server sees a
    request only when ISO-TP has a complete message; afterwards nothing is
    left to read, and the reply, when there is one that fits, is the
    first message ISO-TP sends.
   */
  function RecvFrame(n: Node, f: IsoTp.Frame, now: int): (r: (int, Node, seq<IsoTp.Frame>))
    requires ValidNode(n) && IsU64(now)
    ensures ValidNode(r.1) && r.1.udsCfg == n.udsCfg
    ensures var s := IsoTp.Recv(n.isotp, f, now);
      if s.rc < 0 || IsoTp.RxAvailable(s.ch).None? then
        r.1.uds == n.uds && r.1.isotp == s.ch && r.2 == s.out && r.0 == s.rc
      else
        var reply := Uds.Process(Wired(n.udsCfg), n.uds, IsoTp.RxAvailable(s.ch).value, now);
        && r.1.uds == reply.state
        && IsoTp.RxAvailable(r.1.isotp).None?
        && (Pending(reply) == [] ==> r.0 == 0 && r.2 == s.out)
        && (Pending(reply) != [] ==>
              var t := IsoTp.Send(IsoTp.RxAck(s.ch), Pending(reply), now);
              r.2 == s.out + t.out && r.0 == (if t.rc < 0 then t.rc else 0))
  {
    RecvFrameWith(n, f, now, IsoTp.DropPartial)
  }

  /**
    lq_uds_can_periodic: the ISO-TP timers run first and a timeout is not
    an error, so the UDS S3 check always runs.
   */
  function Periodic(n: Node, now: int): (r: (int, Node, seq<IsoTp.Frame>))
    requires ValidNode(n) && IsU64(now)
    ensures ValidNode(r.1) && r.0 == 0
    ensures r.1.uds == Uds.Periodic(n.udsCfg, n.uds, now)
    ensures r.1.isotp == IsoTp.Periodic(n.isotp, now).ch && r.2 == IsoTp.Periodic(n.isotp, now).out
  {
    var s := IsoTp.Periodic(n.isotp, now);
    if s.rc < 0 && s.rc != -ETIMEDOUT then (s.rc, n.(isotp := s.ch), s.out)
    else (0, Node(n.udsCfg, Uds.Periodic(n.udsCfg, n.uds, now), s.ch), s.out)
  }

  /**
    End to end: a Tester Present request in one single frame, to an idle
    node, is answered with one single frame [0x7E, 0x00] and refreshes the
    server's activity clock.
   */
  lemma TesterPresentRoundTrip(n: Node, c: IsoTp.Config, now: int)
    requires ValidNode(n) && IsU64(now) && c.txId == n.isotp.cfg.rxId
    requires n.isotp.rxState == IsoTp.RxIdle && n.isotp.txState == IsoTp.TxIdle
    requires |n.isotp.rxBuf| >= 2 && n.isotp.cfg.txBufSize >= 2
    ensures var r := RecvFrame(n, IsoTp.SingleFrame(c, [Uds.SID_TESTER_PRESENT, 0]), now);
      && r.0 == 0
      && r.2 == [IsoTp.SingleFrame(n.isotp.cfg, [Uds.SID_TESTER_PRESENT + Uds.POSITIVE_OFFSET, 0])]
      && r.1.uds == n.uds.(lastActivity := now)
  {
    var req: seq<Byte> := [Uds.SID_TESTER_PRESENT, 0];
    var f := IsoTp.SingleFrame(c, req);
    IsoTp.SingleFrameRoundTrip(c, n.isotp, req, now);
    var s := IsoTp.Recv(n.isotp, f, now);
    assert s.rc >= 0 && s.out == [] && s.ch.txState == IsoTp.TxIdle && s.ch.cfg == n.isotp.cfg;
    TesterPresentAnswer(n.udsCfg, n.uds, now);
  }

  /** The server's answer to a tester-present request: [0x7E, 0x00], and a refreshed activity clock. */
  lemma TesterPresentAnswer(cfg: Uds.UdsConfig, st: Uds.State, now: int)
    requires Uds.ValidConfig(cfg) && Uds.ValidState(st) && IsU64(now)
    ensures var reply := Uds.Process(Wired(cfg), st, [Uds.SID_TESTER_PRESENT, 0], now);
      reply.sent == Some([Uds.SID_TESTER_PRESENT + Uds.POSITIVE_OFFSET, 0]) && reply.state == st.(lastActivity := now)
  {
    Uds.SessionGateTable(st.session, Uds.SID_TESTER_PRESENT);
  }

  /**
    As written, after a consecutive frame out of sequence, the next frame
    on the bus, even one for another CAN id, hands the server the
    partially received request at its announced length.
   */
  lemma ForeignFrameDeliversPartial(n: Node, bad: IsoTp.Frame, other: IsoTp.Frame, now: int)
    requires ValidNode(n) && IsU64(now)
    requires n.isotp.rxState == IsoTp.RxReceivingCf && n.isotp.rxOffset > 0
    requires bad.id == n.isotp.cfg.rxId && IsoTp.PciType(bad) == IsoTp.PCI_CF && IsoTp.LowNibble(bad) != n.isotp.rxSn
    requires other.id != n.isotp.cfg.rxId
    ensures var r1 := RecvFrameAsWritten(n, bad, now);
      && r1.0 == -EINVAL && r1.1.uds == n.uds
      && RecvFrameAsWritten(r1.1, other, now).1.uds
         == Uds.Process(Wired(n.udsCfg), n.uds, n.isotp.rxBuf[..n.isotp.rxLen], now).state
      && n.isotp.rxOffset < n.isotp.rxLen
  {
    IsoTp.WrongSequenceLeavesPartial(n.isotp, bad, now);
  }

  /** With the corrected receiver, the same two frames reach the server with nothing. */
  lemma ForeignFrameDeliversNothing(n: Node, bad: IsoTp.Frame, other: IsoTp.Frame, now: int)
    requires ValidNode(n) && IsU64(now)
    requires n.isotp.rxState == IsoTp.RxReceivingCf && n.isotp.rxOffset > 0
    requires bad.id == n.isotp.cfg.rxId && IsoTp.PciType(bad) == IsoTp.PCI_CF && IsoTp.LowNibble(bad) != n.isotp.rxSn
    requires other.id != n.isotp.cfg.rxId
    ensures var r1 := RecvFrame(n, bad, now);
      r1.0 == -EINVAL && RecvFrame(r1.1, other, now).1.uds == n.uds
  {
  }
}

=== FILE: util.dfy ===
/**
  Range validation, exact-value validation and redundant-sensor voting
  (src/drivers/lq_util.c).

  A C array plus its uint8 count is modelled as one sequence; a NULL
  array behaves like an empty one.
 */
module Util {
  import opened CInt

  /** `enum lq_status` of include/layered_queue_core.h. */
  datatype Status = Ok | Degraded | OutOfRange | Error | Timeout | Inconsistent

  function StatusCode(s: Status): (c: nat)
    ensures c <= 5
  {
    match s
    case Ok => 0
    case Degraded => 1
    case OutOfRange => 2
    case Error => 3
    case Timeout => 4
    case Inconsistent => 5
  }

  datatype Range = Range(min: int, max: int, status: Status)
  datatype Expected = Expected(value: int, status: Status)

  predicate InRange(v: int, r: Range) { r.min <= v <= r.max }

  /** No range before index `i` contains `v`. */
  predicate NoRangeBefore(v: int, ranges: seq<Range>, i: int)
    requires 0 <= i <= |ranges|
  {
    forall j :: 0 <= j < i ==> !InRange(v, ranges[j])
  }

  /** lq_validate_range: the status of the first range (inclusive bounds) that contains the value. */
  function ValidateRange(value: int, ranges: seq<Range>, default: Status): (r: Status)
    ensures NoRangeBefore(value, ranges, |ranges|) ==> r == default
    ensures forall i :: 0 <= i < |ranges| && InRange(value, ranges[i]) && NoRangeBefore(value, ranges, i)
              ==> r == ranges[i].status
    decreases |ranges|
  {
    if |ranges| == 0 then default
    else if InRange(value, ranges[0]) then ranges[0].status
    else
      var rest := ValidateRange(value, ranges[1..], default);
      assert forall i :: 1 <= i <= |ranges| ==> (NoRangeBefore(value, ranges, i) <==> NoRangeBefore(value, ranges[1..], i - 1));
      rest
  }

  /** No expected value before index `i` equals `v`. */
  predicate NoMatchBefore(v: int, expected: seq<Expected>, i: int)
    requires 0 <= i <= |expected|
  {
    forall j :: 0 <= j < i ==> expected[j].value != v
  }

  /** lq_validate_value: the status of the first exact match. */
  function ValidateValue(value: int, expected: seq<Expected>, default: Status): (r: Status)
    ensures NoMatchBefore(value, expected, |expected|) ==> r == default
    ensures forall i :: 0 <= i < |expected| && expected[i].value == value && NoMatchBefore(value, expected, i)
              ==> r == expected[i].status
    decreases |expected|
  {
    if |expected| == 0 then default
    else if expected[0].value == value then expected[0].status
    else
      var rest := ValidateValue(value, expected[1..], default);
      assert forall i :: 1 <= i <= |expected| ==> (NoMatchBefore(value, expected, i) <==> NoMatchBefore(value, expected[1..], i - 1));
      rest
  }

  // ---------------------------------------------------------------------------
  // Voting
  // ---------------------------------------------------------------------------

  /** `enum lq_vote_method` (include/lq_common.h); any other code is `Other`. */
  datatype VoteMethod = Median | Average | MinVote | MaxVote | Other(code: int)

  datatype VoteResult = VoteError(code: int) | Voted(value: int, status: Status)

  predicate AllInt32(s: seq<int>) { forall i :: 0 <= i < |s| ==> IsInt32(s[i]) }

  predicate Sorted(s: seq<int>) { forall i, j :: 0 <= i < j < |s| ==> s[i] <= s[j] }

  /** Least element, folded left to right as the MIN loop does. */
  function SeqMin(s: seq<int>): (r: int)
    requires |s| > 0
    ensures r in s
    ensures forall i :: 0 <= i < |s| ==> r <= s[i]
  {
    if |s| == 1 then s[0]
    else
      var m := SeqMin(s[..|s| - 1]);
      assert forall i :: 0 <= i < |s| - 1 ==> s[..|s| - 1][i] == s[i];
      if s[|s| - 1] < m then s[|s| - 1] else m
  }

  /** Greatest element, folded left to right as the MAX loop does. */
  function SeqMax(s: seq<int>): (r: int)
    requires |s| > 0
    ensures r in s
    ensures forall i :: 0 <= i < |s| ==> s[i] <= r
  {
    if |s| == 1 then s[0]
    else
      var m := SeqMax(s[..|s| - 1]);
      assert forall i :: 0 <= i < |s| - 1 ==> s[..|s| - 1][i] == s[i];
      if s[|s| - 1] > m then s[|s| - 1] else m
  }

  function Sum(s: seq<int>): int
  {
    if |s| == 0 then 0 else Sum(s[..|s| - 1]) + s[|s| - 1]
  }

  /** The sum lies between n times the minimum and n times the maximum. */
  lemma {:induction false} SumBounds(s: seq<int>, lo: int, hi: int)
    requires forall i :: 0 <= i < |s| ==> lo <= s[i] <= hi
    ensures |s| * lo <= Sum(s) <= |s| * hi
  {
    if |s| > 0 {
      var t := s[..|s| - 1];
      assert forall i :: 0 <= i < |t| ==> t[i] == s[i];
      SumBounds(t, lo, hi);
      assert |s| * lo == |t| * lo + lo;
      assert |s| * hi == |t| * hi + hi;
    }
  }

  lemma SortedCons(a: int, t: seq<int>)
    requires Sorted(t)
    requires forall i :: 0 <= i < |t| ==> a <= t[i]
    ensures Sorted([a] + t)
  {
  }

  /** A lower bound of u and of x bounds every permutation of u + [x]. */
  lemma LowerBoundMultiset(a: int, t: seq<int>, u: seq<int>, x: int)
    requires multiset(t) == multiset(u) + multiset{x}
    requires a <= x
    requires forall i :: 0 <= i < |u| ==> a <= u[i]
    ensures forall i :: 0 <= i < |t| ==> a <= t[i]
  {
    forall i | 0 <= i < |t| ensures a <= t[i] {
      assert t[i] in multiset(t);
      if t[i] != x {
        assert t[i] in multiset(u);
        var k :| 0 <= k < |u| && u[k] == t[i];
      }
    }
  }

  /** Inserting into a sorted sequence keeps it sorted and adds exactly x. */
  function Insert(x: int, s: seq<int>): (r: seq<int>)
    requires Sorted(s)
    ensures Sorted(r)
    ensures multiset(r) == multiset(s) + multiset{x}
    ensures |r| == |s| + 1
  {
    if |s| == 0 then [x]
    else if x <= s[0] then
      SortedCons(x, s);
      [x] + s
    else
      var t := Insert(x, s[1..]);
      assert s == [s[0]] + s[1..];
      LowerBoundMultiset(s[0], t, s[1..], x);
      SortedCons(s[0], t);
      [s[0]] + t
  }

  /** The sorted copy that the MEDIAN branch builds with qsort. */
  function Sort(s: seq<int>): (r: seq<int>)
    ensures Sorted(r)
    ensures multiset(r) == multiset(s)
    ensures |r| == |s|
  {
    if |s| == 0 then []
    else
      assert s == s[..|s| - 1] + [s[|s| - 1]];
      Insert(s[|s| - 1], Sort(s[..|s| - 1]))
  }

  /** Every value the voter can return, before the tolerance check. */
  function VoteValue(values: seq<int>, vm: VoteMethod): (r: int)
    requires |values| > 0
    ensures SeqMin(values) <= r <= SeqMax(values)
  {
    match vm
    case Median =>
      var sorted := Sort(values);
      assert sorted[|values| / 2] in multiset(values);
      sorted[|values| / 2]
    case Average =>
      SumBounds(values, SeqMin(values), SeqMax(values));
      var q := TruncDiv(Sum(values), |values|);
      TruncDivBetween(Sum(values), |values|, SeqMin(values), SeqMax(values));
      q
    case MinVote => SeqMin(values)
    case MaxVote => SeqMax(values)
    case Other(_) => values[0]
  }

  /** `abs(value - result)` computed in int32, as the tolerance loop does. */
  function Deviation(v: int, result: int): int
    requires IsInt32(v) && IsInt32(result)
  {
    AbsC32(Wrap32(v - result))
  }

  /** The largest deviation seen by the tolerance loop, which starts from 0. */
  function MaxDeviation(values: seq<int>, result: int): (m: int)
    requires AllInt32(values) && IsInt32(result)
    ensures m >= 0
    ensures forall i :: 0 <= i < |values| ==> Deviation(values[i], result) <= m
    ensures m == 0 || exists i :: 0 <= i < |values| && Deviation(values[i], result) == m
  {
    if |values| == 0 then 0
    else
      var t := values[..|values| - 1];
      assert forall i :: 0 <= i < |t| ==> t[i] == values[i];
      var m := MaxDeviation(t, result);
      var d := Deviation(values[|values| - 1], result);
      if d > m then d else m
  }

  /** The consistency verdict of the tolerance loop for result `v`. */
  function VoteStatus(values: seq<int>, v: int, tolerance: int): Status
    requires AllInt32(values) && IsInt32(v)
  {
    if tolerance > 0 && MaxDeviation(values, v) > tolerance then Inconsistent else Ok
  }

  /** lq_vote: -EINVAL for an empty input; otherwise the voted value and its consistency status. */
  function Vote(values: seq<int>, vm: VoteMethod, tolerance: int): (r: VoteResult)
    requires AllInt32(values) && IsInt32(tolerance) && |values| < 256
    ensures |values| == 0 <==> r.VoteError?
    ensures r.VoteError? ==> r.code == -EINVAL
    ensures r.Voted? ==> r.status == Ok || r.status == Inconsistent
    ensures r.Voted? ==> SeqMin(values) <= r.value <= SeqMax(values)
    ensures r.Voted? ==> IsInt32(r.value)
  {
    if |values| == 0 then VoteError(-EINVAL)
    else
      var v := VoteValue(values, vm);
      Voted(v, VoteStatus(values, v, tolerance))
  }

  /** Median is the upper middle element of the ascending sort, so it is one of the inputs. */
  lemma MedianIsInput(values: seq<int>)
    requires |values| > 0
    ensures VoteValue(values, Median) in values
    ensures VoteValue(values, Median) == Sort(values)[|values| / 2]
  {
    var sorted := Sort(values);
    assert sorted[|values| / 2] in multiset(sorted);
  }

  /** MIN, MAX and an unrecognised method. */
  lemma MinMaxOther(values: seq<int>, code: int)
    requires |values| > 0
    ensures forall i :: 0 <= i < |values| ==> VoteValue(values, MinVote) <= values[i] <= VoteValue(values, MaxVote)
    ensures VoteValue(values, MinVote) in values && VoteValue(values, MaxVote) in values
    ensures VoteValue(values, Other(code)) == values[0]
  {
  }

  /**
    Whenever the inputs span at most INT32_MAX (so `abs` cannot overflow),
    the status is INCONSISTENT exactly when the tolerance is positive and
    some input is farther than the tolerance from the result.
   */
  lemma VoteStatusIff(values: seq<int>, vm: VoteMethod, tolerance: int)
    requires AllInt32(values) && IsInt32(tolerance) && 0 < |values| < 256
    requires SeqMax(values) - SeqMin(values) <= INT32_MAX
    ensures Vote(values, vm, tolerance).status == Inconsistent
            <==> tolerance > 0 && SomeExceeds(values, Vote(values, vm, tolerance).value, tolerance)
  {
    var v := VoteValue(values, vm);
    ExceedsIff(values, v, tolerance);
    var status := VoteStatus(values, v, tolerance);
    assert Vote(values, vm, tolerance) == Voted(v, status);
  }

  /** Some input lies farther than `tolerance` from `v`. */
  predicate SomeExceeds(values: seq<int>, v: int, tolerance: int)
  {
    exists i :: 0 <= i < |values| && Abs(values[i] - v) > tolerance
  }

  /** For a result between the extremes, the deviation loop finds an excess exactly when one exists. */
  lemma ExceedsIff(values: seq<int>, v: int, tolerance: int)
    requires AllInt32(values) && |values| > 0 && IsInt32(tolerance)
    requires SeqMin(values) <= v <= SeqMax(values)
    requires SeqMax(values) - SeqMin(values) <= INT32_MAX
    ensures MaxDeviation(values, v) > tolerance <==> SomeExceeds(values, v, tolerance)
  {
    forall i | 0 <= i < |values|
      ensures Deviation(values[i], v) == Abs(values[i] - v)
    {
      assert SeqMin(values) <= values[i] <= SeqMax(values);
      assert IsInt32(values[i] - v) && values[i] - v != INT32_MIN;
    }
    var m := MaxDeviation(values, v);
    if m > tolerance && m != 0 {
      var i :| 0 <= i < |values| && Deviation(values[i], v) == m;
      assert Abs(values[i] - v) > tolerance;
    }
  }
}

=== FILE: verified.dfy ===
/**
  Verified outputs (`lq_verified_output.c`): a commanded value is compared
  with a feedback signal after a settling timeout, and the output signal
  reports the feedback value with OK or ERROR.
 */
module Verified {
  import opened CInt
  import opened Events
  import opened Signals

  /** `struct lq_verified_output_ctx`; `outputType` is the opaque output kind. */
  datatype VerifiedCtx = VerifiedCtx(
    command: int, verification: int, output: int, outputType: nat,
    tolerance: int, verifyTimeoutUs: int, continuous: bool,
    commandTimestamp: int, lastCommand: int, waiting: bool, enabled: bool)

  predicate ValidVerified(c: VerifiedCtx)
  {
    IsU8(c.command) && IsU8(c.verification) && IsU8(c.output)
    && IsInt32(c.tolerance) && IsU64(c.verifyTimeoutUs)
    && IsU64(c.commandTimestamp) && IsInt32(c.lastCommand)
  }

  /**
    is_verified: the int32 difference, made non-negative by C negation,
    is within the tolerance. When the difference fits int32 this is
    |command - verification| <= tolerance, bounds included.
   */
  function IsVerified(command: int, verification: int, tolerance: int): (r: bool)
    requires IsInt32(command) && IsInt32(verification) && IsInt32(tolerance)
    ensures IsInt32(command - verification) && command - verification != INT32_MIN ==>
      (r <==> Abs(command - verification) <= tolerance)
  {
    var error := Wrap32(command - verification);
    var mag := if error < 0 then Wrap32(-error) else error;
    mag <= tolerance
  }

  /** The outcome of the verification decision: the context and whether to verify now. */
  datatype Decision = Decision(ctx: VerifiedCtx, verify: bool)

  /**
    Command tracking and the verify decision. A changed command restarts
    the wait (only when a timeout is configured). Continuous mode verifies
    whenever it is not waiting, and on the call that ends the wait;
    one-shot mode verifies only on the call that ends the wait.
   */
  function Decide(c: VerifiedCtx, cmd: int, now: int): (r: Decision)
    requires ValidVerified(c) && IsInt32(cmd) && IsU64(now)
    ensures ValidVerified(r.ctx)
    ensures r.ctx.lastCommand == cmd
    ensures cmd != c.lastCommand ==> r.ctx.commandTimestamp == now
    ensures cmd == c.lastCommand ==> r.ctx.commandTimestamp == c.commandTimestamp
    ensures var w := if cmd != c.lastCommand then c.verifyTimeoutUs > 0 else c.waiting;
      var due := w && WrapU64(now - r.ctx.commandTimestamp) >= c.verifyTimeoutUs;
      r.ctx.waiting == (w && !due)
      && r.verify == (due || (c.continuous && !w))
    ensures r.ctx.(lastCommand := c.lastCommand, commandTimestamp := c.commandTimestamp, waiting := c.waiting) == c
  {
    var c1 := if cmd != c.lastCommand
      then c.(lastCommand := cmd, commandTimestamp := now, waiting := c.verifyTimeoutUs > 0)
      else c;
    if c1.waiting then
      if WrapU64(now - c1.commandTimestamp) >= c1.verifyTimeoutUs then Decision(c1.(waiting := false), true)
      else Decision(c1, false)
    else Decision(c1, c1.continuous)
  }

  /** A verify step shows the feedback value, OK iff verified, otherwise ERROR. */
  function VerifyOutput(out: Signal, cmd: int, fb: int, tolerance: int, now: int): (r: Signal)
    requires IsInt32(cmd) && IsInt32(fb) && IsInt32(tolerance)
    ensures r.value == fb && r.timestamp == now && r.updated && r.staleUs == out.staleUs
    ensures r.status == EvOk <==> IsVerified(cmd, fb, tolerance)
    ensures r.status == EvOk || r.status == EvError
  {
    out.(value := fb, status := if IsVerified(cmd, fb, tolerance) then EvOk else EvError,
         timestamp := now, updated := true)
  }

  /** process_single_verified_output. */
  function VerifiedOne(c: VerifiedCtx, sigs: seq<Signal>, n: int, now: int): (r: (VerifiedCtx, seq<Signal>))
    requires ValidVerified(c) && ValidTable(sigs, n) && IsU64(now)
    ensures ValidVerified(r.0) && ValidTable(r.1, n)
    ensures OnlyWrites(sigs, r.1, {c.output})
    ensures !c.enabled || c.command >= n || c.verification >= n || c.output >= n ==> r == (c, sigs)
    ensures c.enabled && c.command < n && c.verification < n && c.output < n ==>
      var d := Decide(c, sigs[c.command].value, now);
      r.0 == d.ctx
      && (d.verify ==> r.1[c.output] == VerifyOutput(sigs[c.output], sigs[c.command].value, sigs[c.verification].value, c.tolerance, now))
      && (!d.verify ==> r.1[c.output] == sigs[c.output].(value := sigs[c.command].value, status := EvOk, timestamp := now, updated := false))
  {
    if !c.enabled || c.command >= n || c.verification >= n || c.output >= n then (c, sigs)
    else
      var cmd := sigs[c.command].value;
      var fb := sigs[c.verification].value;
      var d := Decide(c, cmd, now);
      var out := sigs[c.output];
      var newOut := if d.verify then VerifyOutput(out, cmd, fb, c.tolerance, now)
        else out.(value := cmd, status := EvOk, timestamp := now, updated := false);
      (d.ctx, sigs[c.output := newOut])
  }

  /**
    One-shot mode verifies at most once per command: after the verifying
    call, another call with the same command does not verify again.
   */
  lemma OneShotOnce(c: VerifiedCtx, cmd: int, now: int, later: int)
    requires ValidVerified(c) && IsInt32(cmd) && IsU64(now) && IsU64(later) && !c.continuous
    requires Decide(c, cmd, now).verify
    ensures !Decide(Decide(c, cmd, now).ctx, cmd, later).verify
  {
  }

  /**
    Continuous mode, once the wait is over, verifies on every call with
    the same command.
   */
  lemma ContinuousKeepsVerifying(c: VerifiedCtx, cmd: int, now: int, later: int)
    requires ValidVerified(c) && IsInt32(cmd) && IsU64(now) && IsU64(later) && c.continuous
    requires Decide(c, cmd, now).verify
    ensures Decide(Decide(c, cmd, now).ctx, cmd, later).verify
  {
  }

  /** lq_process_verified_outputs: the contexts run in array order. */
  function ProcessVerified(cs: seq<VerifiedCtx>, sigs: seq<Signal>, n: int, now: int): (r: (seq<VerifiedCtx>, seq<Signal>))
    requires ValidTable(sigs, n) && IsU64(now)
    requires forall i :: 0 <= i < |cs| ==> ValidVerified(cs[i])
    ensures ValidTable(r.1, n) && |r.0| == |cs|
    ensures forall i :: 0 <= i < |cs| ==> ValidVerified(r.0[i])
    ensures forall k :: 0 <= k < MAX_SIGNALS && (forall i :: 0 <= i < |cs| ==> cs[i].output != k) ==> r.1[k] == sigs[k]
  {
    if |cs| == 0 then ([], sigs)
    else
      var prev := ProcessVerified(cs[..|cs| - 1], sigs, n, now);
      var one := VerifiedOne(cs[|cs| - 1], prev.1, n, now);
      (prev.0 + [one.0], one.1)
  }
}

=== FILE: wrappers.dfy ===
/**
  Optional values: a C pointer that may be NULL, a table lookup that may
  miss, a parse that may fail.
 */
module Wrappers {

  datatype Option<+T> = None | Some(value: T) {
    function GetOr(default: T): T
    {
      match this
      case Some(v) => v
      case None => default
    }
  }
}
